=== FILE: README.md ===
# map_adviser in Dafny

A model of the core of map_adviser, a trip-planning backend. People share a live map in a
"room" and ask a language-model agent for routes and meeting places. The routes come from
the 2GIS routing, public-transport and places APIs. The model covers the following.

- **Room session manager** (`core/room_manager.py`). Room codes, join with colour and host
  assignment, leave with host re-election, location and heartbeat updates, fan-out with
  removal of members whose sends fail, and the 60 s / 300 s sweep. It is modelled as a
  state machine over immutable rooms. Each socket becomes an id with an outbox and a
  "broken" flag (`RoomModel`, `RoomOps`, `RoomRegistry`, `RoomMembership`, `RoomSweep`,
  `RoomLiveness`).
- **Websocket endpoint** (`back/main.py`). Connection set-up, per-frame dispatch, the
  agent's typing bracket and the room REST endpoints (`RoomSocket`). `RoomServer` is the
  whole service as one shared state: handlers, agent tasks and sweeps run as interleaved
  steps between their `await`s.
- **2GIS rate limiter** (`RateLimiter`). The clock is a parameter.
- **Reply readers for routing, public transport and places.** WKT geometry (`Wkt`);
  movement fields (`Movements`); the core public-transport client (`PtClient`); the
  routing middleware and its duration text (`RoutingMiddleware`, `Durations`); the routing
  app's public-transport service (`PtService`), demo script (`PtDemo`) and option probe
  (`PtOptions`); the core 2GIS routing client (`GisRouting`); the 2GIS service of the
  routing app (`DoubleGis`); `_safe_int` (`Coerce`).
- **Ranking kernels.** The detour-minimising stop (`OptimalPlace`) and the meeting place
  scored by total travel time, with its failure penalty (`MeetingPlace`).
- **Agent and language-model glue.** The path agent's pure steps (`PathAgent`), its prompt
  builders (`PathAgentPrompts`), the Gemini reply readers (`GeminiService`) and the
  routing app's endpoints (`RoutingApp`).
- **Validation and storage.** The back end's and the routing app's account endpoints
  (`BackAuth`, `RoutingAuth`); the repository's validators, sanitisers and places cache
  (`Repository`); the in-memory Supabase stand-in (`SupabaseMock`); the saved-locations
  store (`LocationStore`).
- **Demo scripts.** The request and display logic of the places search demo
  (`SearchDemo`) and of the regions demo (`RegionsDemo`).

Decoded JSON is the `Json` datatype. Dicts keep their key order and a repeated key reads as
its last value. Python operations that can raise return `Option` or a reply datatype, so
the error path is part of each contract. `Text` (strip, case mapping, split, join, find),
`Numerals` (decimal text and Python's rounding), `Seqs`, `Sorting` (Python's stable
`sorted`), `Json` and `Wrappers` model Python built-ins and generic helpers. They carry
contracts, but have a row only where a source line leans on them directly.

The room manager removes a member in two places. `leave_room` pops the member and, when
the host left a non-empty room, makes the first remaining member host
(`core/room_manager.py:190-201`). The stale sweep pops members directly
(`core/room_manager.py:118-127`) and never elects a host. The model follows each path as
written, and the consequence of the second is listed under Findings.

## Model

| member | source | states |
|---|---|---|
| RateLimiter.LoadConfig | core/services/gis_rate_limiter.py:11-32 | unset or unparseable settings fall back to 5 calls per 1.0 second; a non-positive count or period disables limiting; otherwise the parsed pair is used, and any pair returned is positive |
| RateLimiter.DropExpiredSuffix | core/services/gis_rate_limiter.py:47-48 | the eviction loop only removes from the front: what is left is a suffix of the window |
| RateLimiter.DropExpiredDropped | core/services/gis_rate_limiter.py:47-48 | every time the loop removed was at or before `now - period` |
| RateLimiter.DropExpiredSorted | core/services/gis_rate_limiter.py:47-48 | on a window in time order nothing expired survives the loop and the rest stays in order |
| RateLimiter.AcquireRecords | core/services/gis_rate_limiter.py:44-58 | with room in the window the first clock reading is appended to the kept times; when full, the window is evicted again at the second reading and that reading is appended |
| RateLimiter.AcquireAppendsOne | core/services/gis_rate_limiter.py:44-58 | `acquire` appends exactly the time it records and otherwise only drops a prefix of expired times |
| RateLimiter.AcquireEvicts | core/services/gis_rate_limiter.py:44-58 | a window of past times in order stays in order, in the past, and holds no time older than one period |
| RateLimiter.AcquireSleeps | core/services/gis_rate_limiter.py:50-53 | `acquire` sleeps exactly when the kept window is full, and then exactly until its oldest call leaves the window |
| RateLimiter.AcquireBound | core/services/gis_rate_limiter.py:44-58 | a window holding at most `max_calls` times still holds at most `max_calls` after `acquire` once the sleep has elapsed |
| RateLimiter.AcquireKeepsWindow | core/services/gis_rate_limiter.py:44-58 | the sliding-window invariant (at most `max_calls` times, in order, none in the future) is preserved by every `acquire` |
| RateLimiter.GetLimiter | core/services/gis_rate_limiter.py:61-75 | a disabled slot stays disabled and gives no limiter; an existing instance is reused; a limiter is returned exactly when the slot ends up enabled |
| RateLimiter.RateLimitRequest | core/services/gis_rate_limiter.py:78-81 | the request hook disables limiting for good exactly when no limiter exists and the configuration is off; it never goes out before it was issued |
| RateLimiter.RunKeepsLimit | core/services/gis_rate_limiter.py:44-81 | over any sequence of requests on a monotonic clock the limiter's window invariant holds after every request, disabling is permanent and `max_calls` never changes |
| RateLimiter.StepKeepsSlot | core/services/gis_rate_limiter.py:78-81 | one request through the hook preserves the limiter's window invariant |
| OptimalPlace.RankStep | core/agent/tools/optimal_place.py:58-71 | a place is admitted with the detour's extra distance and duration exactly when it has both coordinates and the detour has no "error"; otherwise it is passed over |
| OptimalPlace.Survivors | core/agent/tools/optimal_place.py:57-71 | every place kept for ranking is an input place with a measured detour, and there are no more of them than places |
| OptimalPlace.FindOptimalPlace | core/agent/tools/optimal_place.py:50-86 | no places gives "No {query} found along the route"; no measurable detour gives the first place and the rest unranked; otherwise best plus alternatives is a permutation of the measured places, alternatives ordered by extra duration and best minimal |
| OptimalPlace.Rank | core/agent/tools/optimal_place.py:80-86 | best plus alternatives is a permutation of the measured places, the alternatives are ordered by extra duration and the best has the least extra duration |
| OptimalPlace.SkippedChangesNothing | core/agent/tools/optimal_place.py:58-71 | inserting a place that is passed over anywhere in the list leaves the ranked places unchanged |
| OptimalPlace.ChoiceFromPlaces | core/agent/tools/optimal_place.py:57-86 | the best place and every alternative come from the search results with a measured detour |
| OptimalPlace.TiesKeepListedOrder | core/agent/tools/optimal_place.py:81 | the sort is stable: places with equal extra duration keep the order the search listed them in |
| MeetingPlace.Centroid | core/agent/tools/meeting_place.py:20-33 | no centre for an empty list; otherwise the centre times the member count equals the sums of longitudes and latitudes |
| MeetingPlace.CentroidOfOnePoint | core/agent/tools/meeting_place.py:20-33 | members all standing at one point have that point as their centre |
| MeetingPlace.Leg | core/agent/tools/meeting_place.py:105-131 | a member is reached exactly when the router answers with an object whose "total_duration" is a number; the entry keeps the member's id and nickname |
| MeetingPlace.Tally | core/agent/tools/meeting_place.py:100-131 | one travel entry per member in order; the total is the sum of the contributions (seconds, or 9999 for a failed route); the maximum bounds every reached member's time and is 0 or attained |
| MeetingPlace.FailedMemberAddsPenalty | core/agent/tools/meeting_place.py:123-131 | a member whose route fails adds exactly the 9999-second penalty to the total and leaves the maximum unchanged |
| MeetingPlace.ReachedMemberAddsSeconds | core/agent/tools/meeting_place.py:112-114 | a reached member adds their route's seconds to the total |
| MeetingPlace.Mean | core/agent/tools/meeting_place.py:137 | the average times the member count gives back the total |
| MeetingPlace.ScoreStep | core/agent/tools/meeting_place.py:94-139 | a place is scored for the members exactly when it has both coordinates; a place with a missing coordinate is skipped |
| MeetingPlace.Scores | core/agent/tools/meeting_place.py:93-139 | every score belongs to a searched place and is computed for all members; there are no more scores than places |
| MeetingPlace.FindMeetingPlace | core/agent/tools/meeting_place.py:36-177 | no members and a single member are refused with their messages; otherwise the search is centred on the centroid with the given radius and limit; no places found gives no choice; a choice is a permutation of the scored places with the best having the least total |
| MeetingPlace.Choose | core/agent/tools/meeting_place.py:147-177 | the best plus the alternatives is the scored list sorted by total, a permutation of it, with the best minimal; centre and member count are reported |
| MeetingPlace.ChosenKeepsTies | core/agent/tools/meeting_place.py:148 | the sort is stable: places with equal total keep their search order |
| MeetingPlace.ChosenFromPlaces | core/agent/tools/meeting_place.py:93-177 | the chosen place and every alternative are scores of places the search returned |
| GisRouting.VehicleOf | core/services/gis_routing.py:71 | the 2GIS vehicle is "car" exactly for driving and "pedestrian" for every other mode |
| GisRouting.RouteModeOf | core/services/gis_routing.py:74 | the route mode is "shortest" exactly when optimising for distance and "fastest" otherwise |
| GisRouting.RequestOf | core/services/gis_routing.py:67-85 | no request is sent exactly when fewer than two points are given; the request carries the points unchanged |
| GisRouting.StreetOf | core/services/gis_routing.py:133-134 | an empty or missing name list gives the empty street name; otherwise the first name |
| GisRouting.ManeuverOf | core/services/gis_routing.py:120-145 | a leg yields a maneuver exactly when its comment or type is non-empty, and the maneuver carries that comment and type |
| GisRouting.Maneuvers | core/services/gis_routing.py:120-145 | one maneuver per kept leg, and every maneuver listed has an instruction or a type |
| GisRouting.Cumulative | core/services/gis_routing.py:181-182 | the cumulative value at each waypoint is its value under the key, 0 when missing |
| GisRouting.SegmentsOf | core/services/gis_routing.py:168-182 | one segment between each pair of consecutive waypoints, numbered `from = i - 1`, `to = i` |
| GisRouting.DeltasTelescope | core/services/gis_routing.py:169-182 | the per-segment differences add up to the last waypoint's value minus the first's |
| GisRouting.SegmentsTelescope | core/services/gis_routing.py:168-182 | the segment distances sum to the last waypoint's cumulative distance minus the first's, and likewise for durations |
| GisRouting.GetRoute | core/services/gis_routing.py:50-192 | fewer than two points is refused with "At least 2 points are required"; an empty "result" is "No route found" with the reply as details; a route found echoes the requested mode and optimisation |
| GisRouting.RouteFacts | core/services/gis_routing.py:98-192 | a route read from a reply has one maneuver per kept leg and one segment fewer than its waypoints, none without waypoints |
| GisRouting.DetourPoints | core/services/gis_routing.py:214-219 | the direct route goes start to end and the detour start, via, end |
| GisRouting.DetourOf | core/services/gis_routing.py:213-230 | a failed direct route is passed through, then a failed detour; a measured detour's extra distance and duration are exactly what the detour adds to the direct route |
| GisRouting.DetourRequests | core/services/gis_routing.py:194-219 | both detour requests have enough points to be sent, and the detour passes through `via` |
| DoubleGis.CityLocation | routing/doublegis_service.py:30-38 | a city whose lower-cased name is one of the four known cities searches at that city's centre; any other city name is sent as given |
| DoubleGis.CityLookupIgnoresCase | routing/doublegis_service.py:38 | two spellings of a city that differ only in letter case search at the same location |
| DoubleGis.SearchParams | routing/doublegis_service.py:40-46 | the search sends the query, the resolved location and the limit as the page size |
| DoubleGis.PlaceOf | routing/doublegis_service.py:56-65 | an item is skipped exactly when it has no "point"; a kept place takes its id, name ("Unknown" by default) and address from the item |
| DoubleGis.CharItemSkipped | routing/doublegis_service.py:56 | a one-character string item is skipped by the `"point" in item` test rather than failing |
| DoubleGis.Collect | routing/doublegis_service.py:55-65 | the loop succeeds exactly when no item fails, and then collects one place per item that has a point |
| DoubleGis.CollectMembers | routing/doublegis_service.py:55-65 | the places collected are exactly the places of the items that are kept |
| DoubleGis.CollectConcat | routing/doublegis_service.py:55-65 | collecting a list of items is collecting its two parts one after the other |
| DoubleGis.SearchPlaces | routing/doublegis_service.py:48-67 | a reply without "result", or a result without "items", gives no places; a list of items gives exactly what the loop collects; a reply of the wrong shape fails |
| DoubleGis.MatrixBody | routing/doublegis_service.py:90-101 | the matrix request pairs source `i` with target `i + 1` for each consecutive pair of places |
| DoubleGis.FromOf | routing/doublegis_service.py:121 | a segment's "from" is the sources entry at `source_id`, with Python's negative indexing, and fails when the index is out of range |
| DoubleGis.SegmentOf | routing/doublegis_service.py:116-125 | a route adds one segment exactly when its status is "OK", carrying its distance, duration and target id |
| DoubleGis.SumRoutes | routing/doublegis_service.py:111-125 | one segment per OK route, and the totals are the sums of the segments' distances and durations |
| DoubleGis.SimpleRoute | routing/doublegis_service.py:141-176 | the fallback estimate gives whole-number distance and duration |
| DoubleGis.BuildRoute | routing/doublegis_service.py:69-139 | fewer than two places is refused; a 200 reply gives totals equal to the sums over its segments; a non-200 reply or a raised request falls back to the estimate; a reply without "routes" gives zero totals |
| DoubleGis.MatrixOfReadableReply | routing/doublegis_service.py:103-132 | a 200 reply whose routes all read gives one segment per OK route and returns the reply as route data |
| DoubleGis.FromIsSourceId | routing/doublegis_service.py:94-121 | since the sources are 0, 1, 2, ..., a segment's "from" equals its route's source id |
| DoubleGis.RouteUrl | routing/doublegis_service.py:178-197 | no places gives the empty URL; otherwise the URL starts with the directions prefix |
| DoubleGis.RouteUrlPoints | routing/doublegis_service.py:191-197 | splitting the URL's points back on "/" gives one "lat,lon" text per place, in order |
| RoutingApp.Dedupe | routing/main.py:106-108 | de-duplication by id keeps exactly one place per id and loses no id |
| RoutingApp.DedupeKeepsLast | routing/main.py:107 | each place kept is the last place listed with its id, as a dict comprehension keeps the last value written |
| RoutingApp.DedupeFirstOccurrenceOrder | routing/main.py:107-108 | the kept places are in the order in which their ids first appeared, as a dict keeps the first insertion position |
| RoutingApp.SearchAll | routing/main.py:95-98 | the search loop completes exactly when every query's search completes, and finds nothing exactly when every search found nothing |
| RoutingApp.PlanRoute | routing/main.py:60-150 | without Gemini the endpoint answers 503; a failure while parsing or searching becomes 500 "Error planning route: ..."; otherwise the plan continues with every place found |
| RoutingApp.PlanFound | routing/main.py:100-121 | no places found is 404; a failed selection is 500; fewer than two selected places is 400; a plan lists the places selected from the de-duplicated search results |
| RoutingApp.PlanSelected | routing/main.py:123-145 | the response carries the selected places, their route URL and the route's whole-number totals, and its explanation starts with the selection's explanation and a blank line; it is refused exactly when a total is not whole |
| RoutingApp.EstimateAlwaysValid | routing/main.py:123-145 | for any selected places and any matrix reply the plan succeeds exactly when the description is generated: the totals always validate |
| RoutingApp.NotUnderstoodNeverReturned | routing/main.py:88-92 | the 400 "Could not understand your request" branch is unreachable, because splitting any reply on commas gives at least one term |
| RoutingApp.NothingFoundIs404 | routing/main.py:100-104 | when every search finds nothing the endpoint answers 404 "No places found matching your description." |
| RoutingApp.PlanUsesFoundPlaces | routing/main.py:106-145 | a successful plan has at least two places and every one has the id of a place the search found |
| RoutingApp.EntryOf | routing/main.py:236-248 | a mode's entry is an error exactly when its directions failed; a timed entry carries the duration, and transit details only for public transport |
| RoutingApp.Timings | routing/main.py:251-254 | the timed modes are exactly the entries that carry a duration |
| RoutingApp.CompareModes | routing/main.py:225-262 | the comparison completes exactly when all four modes' directions complete, and then has one entry per mode in the order car, pedestrian, bicycle, public transport |
| RoutingApp.CompareRanks | routing/main.py:250-260 | "sorted_by_time" lists the timed modes as a permutation sorted by duration, and the fastest mode has the least duration of all timed entries |
| RoutingApp.NoFastestIffAllFailed | routing/main.py:258 | there is no fastest mode exactly when every mode failed |
| RoutingApp.CompareTiesKeepModeOrder | routing/main.py:251-254 | modes with equal duration keep the fixed mode order, since `sorted` is stable |
| GeminiService.CommaItems | routing/gemini_service.py:41 | every term of a comma split is stripped and contains no comma, and there is always at least one |
| GeminiService.ParseUserRequest | routing/gemini_service.py:14-42 | the search terms are never empty as a list, each is stripped and comma-free |
| GeminiService.ParseUserRequestRoundTrip | routing/gemini_service.py:41 | joining stripped, comma-free, non-empty terms with commas and parsing the reply gives the terms back |
| GeminiService.Scan | routing/gemini_service.py:88-93 | no ids are found exactly when no line starts with "SELECTED_IDS:"; without an "EXPLANATION:" line the explanation is empty |
| GeminiService.LastIdsLineWins | routing/gemini_service.py:88-91 | when several lines carry ids, the last one wins |
| GeminiService.LastExplanationLineWins | routing/gemini_service.py:92-93 | when several lines carry an explanation, the last one wins |
| GeminiService.ParseSelection | routing/gemini_service.py:82-103 | with an ids line the scan's result is used; without one the first line is read as the ids and the remaining lines, joined by spaces, as the explanation |
| GeminiService.SelectionIds | routing/gemini_service.py:88-91 | the ids parsed are those of the last "SELECTED_IDS:" line |
| GeminiService.FirstWithId | routing/gemini_service.py:107-111 | the inner loop finds a place exactly when some place has the id, and it is the first such place |
| GeminiService.Matched | routing/gemini_service.py:105-111 | every matched place is one of the places and has a requested id; nothing matches exactly when no requested id is known |
| GeminiService.MatchedConcat | routing/gemini_service.py:106-111 | matching a list of ids is matching its two parts one after the other |
| GeminiService.MatchedFollowsIds | routing/gemini_service.py:105-111 | when every id is known, the i-th place matched is the first place with the i-th id |
| GeminiService.SelectBestPlaces | routing/gemini_service.py:44-118 | the selection is always drawn from the places; matched places are returned with the parsed explanation; with no match the first `max_places` places are returned with "Selected N places based on your request." |
| GeminiService.SelectionFollowsIds | routing/gemini_service.py:105-118 | when every selected id is known, the selection follows the model's ids one for one |
| GeminiService.SelectMatched | routing/gemini_service.py:105-118 | whenever some id matches, the selection is exactly the matched places |
| Places.IdIndexFrom | routing/gemini_service.py:108-111 | the search returns the first index at or after `from` holding the id, or -1 when there is none |
| RoutingMiddleware.ModeOf | routing/routing_middleware.py:13-17 | a mode string that names a transport mode selects that mode; any other string falls back to car (also line 492) |
| RoutingMiddleware.WalkingMeansCar | routing/routing_middleware.py:13-17 | "walking" is not a mode value (walking is "pedestrian"), so `get_directions` routes it by car (also line 492) |
| RoutingMiddleware.FormatDurationCases | routing/routing_middleware.py:452-464 | under a minute prints seconds; under an hour prints the nearest whole minute (up to "60 min"); otherwise whole hours and the leftover whole minutes, omitted when zero |
| RoutingMiddleware.MinutesCase | routing/routing_middleware.py:456-458 | below an hour the minutes printed are within 30 seconds of the duration |
| RoutingMiddleware.SixtyMinutes | routing/routing_middleware.py:456-458 | durations from 3570 to 3599 seconds print as "60 min" |
| RoutingMiddleware.LaxInt | routing/routing_middleware.py:58-59 | an integer field takes an integer as it is and a float exactly when it is whole, with the same value; null, lists and dicts are refused |
| RoutingMiddleware.Add | routing/routing_middleware.py:204-205 | each `+=` on the totals adds the numeric values, and the sum is a float exactly when one summand is |
| RoutingMiddleware.DurationText | routing/routing_middleware.py:452-464 | an integer duration prints as the integer formatter prints it; any other number under a minute prints its Python text and " sec"; a whole float from a minute to an hour prints as its integer |
| RoutingMiddleware.HoursCase | routing/routing_middleware.py:459-464 | from an hour on, the hours and minutes printed bracket the duration to the minute |
| RoutingMiddleware.PedestrianResponse | routing/routing_middleware.py:115-170 | a 200 reply succeeds exactly when its first route has a numeric duration and totals the response model accepts as integers; it then carries those integers, the formatted duration and the raw data. Any other reply gives zero totals, "0 min" and "API error: " with the status, and a raised error gives its message; the mode is always kept |
| RoutingMiddleware.WholeFloatTotals | routing/routing_middleware.py:141-151 | a distance of 1500.0 is accepted as 1500, with "5 min" for 300 seconds; a distance of 1500.5 fails validation, so the reply is the failure |
| RoutingMiddleware.MatrixTotals | routing/routing_middleware.py:196-215 | the car totals are the sums over the routes whose status is "OK", with one segment per OK route that has a next point |
| RoutingMiddleware.MatrixSegments | routing/routing_middleware.py:202-212 | every car segment runs from a requested point to the one after it |
| RoutingMiddleware.Estimate | routing/routing_middleware.py:249-280 | the car estimate succeeds exactly when the walking route does, and its duration is the walking duration divided by five, truncated |
| RoutingMiddleware.CarRoute | routing/routing_middleware.py:172-248 | the car route always calls the matrix first and calls the pedestrian route only as the fallback; its response keeps the mode and the failure shape |
| RoutingMiddleware.CarTotals | routing/routing_middleware.py:193-228 | a 200 matrix reply whose summed distance or duration is positive makes no second call, and it succeeds exactly when the response model accepts both sums as integers, which are then the OK-route sums; any other reply asks for the walking estimate |
| RoutingMiddleware.MoveOf | routing/routing_middleware.py:378-428 | a walkway adds its moving time to the walking total; a walkway, passage or crossing adds one step unless it is the finish marker, and that step passes the step model's validation; only a passage records a transport type, on a public-transport step; a walkway, passage or crossing whose moving time is not a number fails |
| RoutingMiddleware.MoveOfRaises | routing/routing_middleware.py:411-428 | a crossing whose moving duration is null fails in the division, and a passage whose subtype is a number fails the step's transport type field |
| RoutingMiddleware.MoveWalk | routing/routing_middleware.py:385-391 | a movement's walking time is its step's walking time, plus the finish marker's own time when it is skipped |
| RoutingMiddleware.MovesFacts | routing/routing_middleware.py:378-428 | over all movements the walking total is the steps' walking time plus the skipped finish markers', and the types used are those of the public-transport steps |
| RoutingMiddleware.TransitFacts | routing/routing_middleware.py:367-437 | a parsed route's duration is the safe integer of "total_duration", one step per shown movement, and its types are exactly the steps' transport types without repeats |
| RoutingMiddleware.ParseAll | routing/routing_middleware.py:316-319 | every alternative is parsed, in order, or the parse fails at some route |
| RoutingMiddleware.TransportTypes | routing/routing_middleware.py:299 | an empty or missing list of transport types means metro, bus, tram and trolleybus |
| RoutingMiddleware.TransitResponse | routing/routing_middleware.py:295-365 | the public-transport response keeps its mode; every failure has zero totals, "0 min" and an error; a reported best route has a walking time the response model accepts as an integer and text transport types |
| RoutingMiddleware.TransitReply | routing/routing_middleware.py:311-346 | an empty 200 reply succeeds with "No public transport routes found"; otherwise the reply succeeds exactly when the first route passes the response model's validation, every route is an alternative, and the first is the best, whose totals are the response's |
| RoutingMiddleware.GetRoute | routing/routing_middleware.py:86-113 | fewer than two points, or public transport with other than two points, is refused before any call; each mode calls its own endpoint first and only car makes a second, pedestrian call (also lines 285-293) |
| RoutingMiddleware.GetDirections | routing/routing_middleware.py:471-501 | the response's mode is the requested mode when it names one and car otherwise |
| PtOptions.LegOf | routing/test_public_transport_v2.py:70-88 | a leg's type defaults to "unknown", and it carries ride details exactly when it is a public-transport leg, with the route's type |
| PtOptions.Legs | routing/test_public_transport_v2.py:70-88 | one leg entry per leg, in order |
| PtOptions.TypesDistinct | routing/test_public_transport_v2.py:84-86 | the transport types collected are the non-empty ride types without repeats, in first-seen order |
| PtOptions.OptionOf | routing/test_public_transport_v2.py:55-90 | an option has its number, one entry per leg and one transfer fewer than its public-transport legs, never below zero |
| PtOptions.OptionTypes | routing/test_public_transport_v2.py:84-86 | an option's transport types are distinct and are exactly the types of its rides |
| PtOptions.Options | routing/test_public_transport_v2.py:55-90 | one option per route, numbered from 1 in route order |
| PtOptions.RoutesOf | routing/test_public_transport_v2.py:53 | a list result is the routes; a single truthy result is one route; a falsy result is none |
| PtOptions.ParseRouteOptionsFacts | routing/test_public_transport_v2.py:45-92 | a reply without "result" has no options; a single object result has exactly one; options are numbered 1, 2, ... |
| Durations.FormattersAgree | routing/routing_middleware.py:452-464 | below a minute and from an hour on, the middleware's formatter and the demo's formatter print the same text |
| Durations.FormattersBelowAnHour | public_transport_experiments/public_transport_api_demo.py:169-190 | below an hour the two formatters agree exactly when rounding to the nearest minute equals flooring: less than 30 leftover seconds, or exactly 30 on an even minute |
| Durations.SixtyMinutes | public_transport_experiments/public_transport_api_demo.py:182-184 | 3590 seconds prints "60 min" in the middleware and "59 min" in the demo |
| Movements.Distinct | routing/test_public_transport_v2.py:84-86 | each value once, at its first occurrence: nothing lost, nothing added, no repeats |
| Numerals.RoundHalfEven | routing/routing_middleware.py:457 | `round(n / d)` is within half of `d` of `n`, and a tie goes to the even neighbour |
| Numerals.Truncate | routing/routing_middleware.py:261-262 | `int(x)` truncates toward zero |
| Numerals.NatToStringRoundTrip | routing/routing_middleware.py:455 | the decimal text of a number reads back as that number |
| PtClient.TransportName | core/services/public_transport.py:533-544 | a transport type always has a readable name unless it is empty |
| PtClient.LabelsCount | core/services/public_transport.py:503-554 | the chain has one label per movement that is not a skipped finish marker and is a walkway, passage or transfer |
| PtClient.ChainCases | core/services/public_transport.py:489-556 | no movements gives "No movements"; movements that add no label give "Walking only"; otherwise the labels joined by " → " |
| PtClient.NormalizePair | core/services/public_transport.py:452-455 | a pair is swapped exactly when the first value could be a latitude and the second could not |
| PtClient.NormalizeStable | core/services/public_transport.py:452-455 | normalising keeps the two values and normalising again changes nothing |
| PtClient.CollectFieldLookup | core/services/public_transport.py:424-436 | a field of an object is collected exactly when it is present, and then its coordinates are collected |
| PtClient.CollectPairs | core/services/public_transport.py:439-445 | a two-number list is one normalised point; any other list collects its items in order |
| PtClient.CollapseFacts | core/services/public_transport.py:394-403 | the route geometry skips a point equal to the last one kept: the result has no two equal neighbours, holds exactly the points given, and leaves a list without such repeats unchanged |
| PtClient.CollapseIdempotent | core/services/public_transport.py:394-403 | collapsing repeats twice is collapsing them once |
| PtClient.RouteGeometryFacts | core/services/public_transport.py:394-419 | the route geometry holds exactly the movements' points, with no two equal neighbours |
| PtClient.FallbackGeometry | core/services/public_transport.py:477-487 | the fallback line runs from the source through the intermediate points, in order, to the target |
| PtClient.StopsLoop | core/services/public_transport.py:317-324 | the platform loop names the first platform as "from_stop" and the last, when there is more than one, as "to_stop" |
| PtClient.StepDetails | core/services/public_transport.py:273-369 | each movement that is not a skipped finish marker appends exactly one detail, keeping the earlier ones, and the route geometry is the details' geometries joined |
| PtClient.StepIndex | core/services/public_transport.py:337-349 | each passage advances the route-info index by one, up to the number of route infos; without route infos there is no passage to advance it |
| PtClient.ScanDetails | core/services/public_transport.py:273-369 | over all movements one detail per kept movement, and the route geometry is the concatenation of the details' geometries |
| PtClient.ScanIndex | core/services/public_transport.py:337-349 | after all movements the route-info index is the number of passages, capped at the number of route infos |
| PtClient.PeriodMinutes | core/services/public_transport.py:378 | a schedule period is floored to whole minutes; a missing or non-numeric period gives none |
| PtClient.ParseRouteShape | core/services/public_transport.py:235-392 | a parsed route has one movement detail per kept movement and its geometry joins theirs; it does not depend on the source, target or intermediate points, since the fallback geometry is overwritten at line 270 |
| PtClient.SkipAgreement | core/services/public_transport.py:283 | the movement loop and the chain skip exactly the same finish markers (also line 513) |
| PtClient.RouteInfoIndex | core/services/public_transport.py:271 | from a fresh start the route-info index ends at the number of passages, capped at the number of route infos (also lines 337-349) |
| PtClient.PayloadParts | core/services/public_transport.py:152-183 | the payload is its fixed head (source, target, transport defaulting to metro, bus, trolleybus and tram, locale, schedules) followed by its optional tail |
| PtClient.PayloadEndpoints | core/services/public_transport.py:157-166 | the payload's source and target carry the point as latitude and longitude and the given names, and "transport" is the requested or default list |
| PtClient.PayloadOptional | core/services/public_transport.py:171-183 | "intermediate_points" is sent exactly when there are intermediate points, and "options" exactly when pedestrian instructions are requested |
| PtClient.GetRoute | core/services/public_transport.py:149-233 | without an API key the answer is "GIS_API_KEY not configured"; an empty list is "No public transport routes found for this route"; a route answer has one parsed route per alternative and echoes the names |
| PtClient.ReadBody | core/services/public_transport.py:196-222 | a list reply gives one parsed route per alternative with the count and names; an empty list is the "no routes" error |
| PtDemo.FormatDurationCases | public_transport_experiments/public_transport_api_demo.py:169-190 | under a minute prints seconds; under an hour prints the whole minutes, floored; otherwise whole hours and leftover minutes, omitted when zero |
| PtDemo.ChainLabel | public_transport_experiments/public_transport_api_demo.py:227-278 | a movement adds a label to the chain exactly when it is a walkway that is not a finish marker, a passage or a transfer |
| PtDemo.LabelsCount | public_transport_experiments/public_transport_api_demo.py:225-278 | the chain has one label per labelled movement |
| PtDemo.ChainCases | public_transport_experiments/public_transport_api_demo.py:210-280 | falsy movements give "No movements"; movements that add no label give "Walking only"; otherwise the labels joined by the arrow |
| PtDemo.StopsCount | public_transport_experiments/public_transport_api_demo.py:339-345 | a passage without alternatives has 0 stops; otherwise the number of platforms of its first alternative |
| PtDemo.DetailOf | public_transport_experiments/public_transport_api_demo.py:306-351 | a movement gives a detail exactly when it is not a finish marker; the detail has its order and type, and a stop count exactly for a passage |
| PtDemo.DetailsFromFacts | public_transport_experiments/public_transport_api_demo.py:305-351 | the details are numbered 1, 2, ... with one per movement that is not a finish marker, after those already listed |
| PtDemo.RouteDetailsFacts | public_transport_experiments/public_transport_api_demo.py:283-361 | "movement_count" is the number of movements that are not finish markers, and the details are numbered 1 to that count |
| PtDemo.ScenarioToRun | public_transport_experiments/public_transport_api_demo.py:834-850 | the scenario run is the upper-cased code when it is one of A to F, and none otherwise |
| PtDemo.ScenarioCaseInsensitive | public_transport_experiments/public_transport_api_demo.py:843 | a scenario code selects the same scenario in either letter case |
| PtService.MoveOf | routing/public_transport_service.py:128-194 | a walkway adds its moving time to the walking total; a walkway, passage or crossing adds one segment unless it is the finish marker; only a passage records its type, on a public-transport segment that exits at the last platform |
| PtService.MovesFacts | routing/public_transport_service.py:128-194 | over all movements the walking total counts the shown walkways and the skipped finish markers, there is one segment per shown movement, and the types are the passages' types |
| PtService.BuildFacts | routing/public_transport_service.py:196-208 | the record is built exactly when every subtype is hashable, as `set()` raises on a list or dict; then the walking minutes are the walking seconds over 60 rounded to one place, the segments are kept, every subtype is `==` to one listed type, every listed type is a subtype, no two listed types are `==` (so 1, 1.0 and True count once), text subtypes are listed exactly once each, and "crossing_count" defaults to 0 |
| PtService.ParseRouteBuild | routing/public_transport_service.py:115-208 | a route whose movements parse gives the record built from them, and parses exactly when no passage's subtype is a list or dict |
| PtService.UnhashableSubtypeRaises | routing/public_transport_service.py:156-197 | a passage whose subtype is a list passes the loop, and `set(transport_types)` then makes the parse fail |
| Movements.SetOf | routing/public_transport_service.py:197 | `list(set(xs))` fails exactly when an element is a list or dict; otherwise every value given is `==` to one kept, every value kept was given, and no two kept values are `==` |
| Movements.SetOfText | routing/public_transport_service.py:197 | on text values `set` keeps exactly the distinct values |
| Movements.NumbersCollapse | routing/public_transport_service.py:197 | `set([1, 1.0, True])` holds the one value 1 |
| Movements.ListElementRaises | routing/public_transport_service.py:197 | a set of a text and a list raises |
| PtService.ParseAll | routing/public_transport_service.py:87-90 | every route is parsed, in order |
| PtService.ResponseFacts | routing/public_transport_service.py:82-99 | an empty reply gives no routes and "No routes found"; otherwise every route, as a permutation sorted by total minutes with ties in reply order, and the count of routes |
| PtService.FastestFirst | routing/public_transport_service.py:93 | the first route listed is a fastest one |
| PtService.RequestBody | routing/public_transport_service.py:56-68 | the request asks for the given transport modes, or metro, bus, tram and trolleybus when none are given |
| PtService.GetRoutes | routing/public_transport_service.py:70-80 | a status other than 200 returns the reply text and status as a failure; a 200 reply is parsed |
| PtService.SegmentLines | routing/public_transport_service.py:224-237 | a walking, public-transport or transfer segment prints lines starting with its number, other types print nothing; a ride prints a second "Exit at" line exactly when it has a stop to exit at |
| PtService.StepLinesNumbered | routing/public_transport_service.py:223-237 | the journey steps are numbered consecutively from the given start |
| PtService.DisplayNumbered | routing/public_transport_service.py:210-239 | the displayed route numbers its journey steps from 1 |
| PathAgent.ChooseOptimization | back/agent/path_agent.py:44-64 | a query asks for "time" exactly when its lower-cased text contains a time keyword; every other query, with or without a distance keyword, gets "distance" |
| PathAgent.ChooseOptimizationIgnoresCase | back/agent/path_agent.py:59-60 | upper- or lower-casing the query does not change the optimisation chosen |
| PathAgent.Ordered | back/agent/path_agent.py:72 | sorting succeeds exactly when every waypoint is a dict and the "order" keys can be compared (all numbers or all texts, or at most one waypoint); the result is a permutation of the waypoints in which no key is less than an earlier one |
| PathAgent.TextOrderSorts | back/agent/path_agent.py:72 | a waypoint whose "order" is the text "1" is sorted like any other, so its location gives the one point |
| PathAgent.PointsOf | back/agent/path_agent.py:74-79 | reading points completes exactly when every waypoint reads, and keeps at most one point per waypoint |
| PathAgent.ExtractRoutePoints | back/agent/path_agent.py:67-80 | missing or non-list waypoints give no points; waypoints whose "order" keys cannot be compared fail; otherwise at most one point per waypoint |
| PathAgent.ExtractInListedOrder | back/agent/path_agent.py:72-80 | waypoints already in "order" give their points in the order listed |
| PathAgent.PointsOfConcat | back/agent/path_agent.py:73-79 | reading the points of two runs of waypoints is reading each run in turn |
| PathAgent.MinutesOf | back/agent/path_agent.py:88 | a falsy total duration gives None minutes; otherwise a rounded number of minutes |
| PathAgent.PutIfAny | back/agent/path_agent.py:98-111 | a list is written under its key only when it is non-empty, and no other key changes |
| PathAgent.ApplyRouteMetrics | back/agent/path_agent.py:83-111 | the route takes the result's geometry and distance, None minutes exactly for a falsy duration, and new segments or directions only when the result has any, otherwise keeping its own |
| PathAgent.CallSteps | back/agent/path_agent.py:380-393 | one step per tool call, numbered on from the running index, with input cut to 300 characters and no output |
| PathAgent.StepsFrom | back/agent/path_agent.py:356-394 | one step per tool result and tool call, numbered consecutively, with input at most 300 and output at most 400 characters |
| PathAgent.ReasoningSteps | back/agent/path_agent.py:350-394 | the trace numbers its steps 1, 2, ... with one per tool result and tool call |
| PathAgent.FenceBody | back/agent/path_agent.py:436-443 | text without a fence is used as is; a ```` ```json ```` fence gives the stripped text between it and the next fence |
| PathAgent.FenceBodyRoundTrip | back/agent/path_agent.py:436-439 | a body without back-ticks wrapped in a ```` ```json ```` fence is read back, stripped |
| PathAgent.FenceBodyUnclosed | back/agent/path_agent.py:437-439 | without a closing fence `find` gives -1 and the slice drops the body's last character |
| PathAgent.EnrichRoute | back/agent/path_agent.py:457-465 | a route with fewer than two points, or whose routing reply is an error, is left as it was |
| PathAgent.EnrichRoutes | back/agent/path_agent.py:456-465 | every route is enriched in place, in order |
| PathAgent.MidStep | back/agent/path_agent.py:488-494 | an intermediate waypoint is kept only with both coordinates |
| PathAgent.Intermediates | back/agent/path_agent.py:487-494 | at most one intermediate point per waypoint, each with both coordinates |
| PathAgent.IntermediatesConcat | back/agent/path_agent.py:487-494 | the intermediate points of two runs of waypoints are those of each run in turn |
| PathAgent.TransitQueryOf | back/agent/path_agent.py:473-501 | a transit query is made only for at least two waypoints whose "order" keys can be compared, between the first and last in that order, with the located waypoints between them as intermediates, none when there are none |
| PathAgent.PutIfSet | back/agent/path_agent.py:514-523 | a value is written only when it is set |
| PathAgent.ApplyTransit | back/agent/path_agent.py:507-510 | a transit reply without alternatives leaves the route as it was |
| PathAgent.EnrichTransitRoute | back/agent/path_agent.py:474-485 | a route that gives no transit query is left as it was |
| PathAgent.EnrichTransitRoutes | back/agent/path_agent.py:472-523 | every route is enriched in place, in order |
| PathAgent.WithRoutes | back/agent/path_agent.py:456-473 | enriching the routes changes no other key of the result |
| PathAgent.Summarised | back/agent/path_agent.py:448-470 | the result gains a "request_summary" and no other key changes |
| PathAgent.WithTrace | back/agent/path_agent.py:524-525 | "reasoning" is set exactly when the trace is non-empty or was already present, and no other key changes |
| PathAgent.PlanResult | back/agent/path_agent.py:446-526 | a planned result always has a "request_summary", and has "reasoning" exactly when the agent's JSON had one or the trace is non-empty |
| PathAgent.PlanRoute | back/agent/path_agent.py:397-534 | a reply that does not parse as JSON gives the failure with the raw text and the trace; a parsed reply gives a result with a "request_summary" and "reasoning" as above |
| PathAgentPrompts.ModeName | back/agent/prompts/path_agent_prompts.py:5-9 | a known mode has its Russian name; any other mode is named as driving (also line 212) |
| PathAgentPrompts.ModeInstructions | back/agent/prompts/path_agent_prompts.py:191-213 | public transport gets its fixed instructions; every other mode gets the mode line with its name followed by the optimisation sentence |
| PathAgentPrompts.AnnouncedModeOfInstructions | back/agent/prompts/path_agent_prompts.py:191-213 | the first line of the instructions announces the mode's name, or public transport |
| PathAgentPrompts.UnknownModeDrives | back/agent/prompts/path_agent_prompts.py:212 | an unknown mode gets exactly the driving instructions |
| PathAgentPrompts.UserPrompt | back/agent/prompts/path_agent_prompts.py:216-222 | the user prompt holds the query right after its prefix and the instructions after a blank line |
| PathAgentPrompts.UserPromptQueryRoundTrip | back/agent/prompts/path_agent_prompts.py:216-222 | the query is read back from the prompt's first line when it has no line break |
| Wkt.PairsOf | core/services/public_transport.py:44-52 | at most one point per piece; pieces that do not read are dropped |
| Wkt.SkipSpace | core/services/public_transport.py:29 | stops at the first non-space character and passes only spaces |
| Wkt.GroupAt | core/services/public_transport.py:29-41 | a match's group is non-empty and holds no closing parenthesis |
| Wkt.Search | core/services/public_transport.py:29-41 | finding nothing means no position from the start on matches |
| Wkt.NextParen | core/services/public_transport.py:56 | the next parenthesis, with none skipped over |
| Wkt.ParseWkt | core/services/public_transport.py:12-69 | empty text reads as no coordinates |
| Wkt.PairsOfTexts | core/services/public_transport.py:44-52 | written pairs read back as the points they were written from |
| Wkt.CoordListFacts | core/services/public_transport.py:41-44 | a written coordinate list is non-empty, has no parenthesis, and splits back into its pairs |
| Wkt.ParsePointRoundTrip | core/services/public_transport.py:28-36 | a written `POINT(lon lat)` reads back as exactly that point |
| Wkt.NoPointInLine | core/services/public_transport.py:29-30 | a written line has nothing for the POINT expression to find |
| Wkt.ParseLineRoundTrip | core/services/public_transport.py:40-53 | a written `LINESTRING(...)` reads back as its points, in order |
| Wkt.LineBodyFound | core/services/public_transport.py:41-43 | the LINESTRING expression finds exactly the written coordinate list |
| Wkt.PairsOfConcat | core/services/public_transport.py:44-52 | reading a list is reading its parts in turn |
| Wkt.PairsOfSkips | core/services/public_transport.py:51-52 | a pair that fails to read is skipped and the pairs after it still count |
| Wkt.Polyline | core/services/public_transport.py:457-475 | text that does not mention LINESTRING gives no points |
| Wkt.PolylineInner | core/services/public_transport.py:462-466 | the text between the first `(` and the last `)` of a written line is its coordinate list |
| Wkt.PolylineRoundTrip | core/services/public_transport.py:457-475 | the public transport client reads a written line back as its points |
| Wkt.RoutePairs | core/services/gis_routing.py:111-115 | at most one point per piece |
| Wkt.RouteLine | core/services/gis_routing.py:104-118 | text not starting with `LINESTRING(` gives no points |
| Wkt.RoutePairsStop | core/services/gis_routing.py:107-117 | the first unreadable number ends the loop: only the pairs read before it are kept |
| Wkt.RoutePairsOfTexts | core/services/gis_routing.py:111-115 | written pairs separated by `", "` read back as their points |
| Wkt.RouteLineRoundTrip | core/services/gis_routing.py:104-118 | the routing client reads its own line format back as the points |
| SearchDemo.KeepTruthy | search_experiments/gis_api_demo.py:218-232 | an optional parameter is kept exactly when its value is truthy, and never more of them than were given |
| SearchDemo.KeepTruthyConcat | search_experiments/gis_api_demo.py:218-232 | the truthy parameters of two runs are those of each run, in order |
| SearchDemo.SearchParams | search_experiments/gis_api_demo.py:182-234 | the query and the page size always come first; after them, each optional parameter appears exactly when its value is truthy |
| SearchDemo.Params | search_experiments/gis_api_demo.py:213-232 | the query and the page size first, then exactly the truthy entries |
| SearchDemo.KeepTruthyDrops | search_experiments/gis_api_demo.py:218-232 | a parameter whose every value is falsy is not kept |
| SearchDemo.ZeroRadiusOmitted | search_experiments/gis_api_demo.py:223-224 | a zero radius is never sent |
| SearchDemo.FalsyKeyOmitted | search_experiments/gis_api_demo.py:218-232 | a parameter that is falsy wherever it appears is not sent |
| SearchDemo.OnlyRequiredParams | search_experiments/gis_api_demo.py:213-216 | with every optional parameter falsy, only the query and the page size are sent |
| SearchDemo.LookupParams | search_experiments/gis_api_demo.py:236-253 | the id comes first, and the fields come second exactly when they are truthy |
| SearchDemo.BasicAddress | search_experiments/gis_api_demo.py:307-309 | the full address wins over the short one, and "Address not available" appears only when both are falsy; the result is never falsy |
| SearchDemo.KeyedAddress | search_experiments/gis_api_demo.py:342-372 | a present short address wins even when it is empty; otherwise the full address; otherwise "N/A" |
| SearchDemo.AddressPrecedenceDiffers | search_experiments/gis_api_demo.py:309-342 | an empty short address hides the full one from the distance and detailed formatters, but not from the basic one |
| SearchDemo.PointCoords | search_experiments/gis_api_demo.py:312-318 | a falsy point shows no coordinates; a point object shows its "lat" and "lon"; any other truthy point fails, as `.get` would |
| SearchDemo.FormatBasic | search_experiments/gis_api_demo.py:293-320 | the number is one past the index; the address is the basic address, never falsy; it fails exactly when the point does |
| SearchDemo.FormatWithDistance | search_experiments/gis_api_demo.py:323-357 | coordinates are shown exactly when the point and both of its coordinates are truthy; a distance is shown exactly when they are and the user's position is known, and it is computed from them |
| SearchDemo.AllContacts | search_experiments/gis_api_demo.py:377-380 | every group and every contact read is a dict; a group whose contacts cannot be iterated fails, and an empty dict or text of contacts has none |
| SearchDemo.FirstOfKind | search_experiments/gis_api_demo.py:378-385 | the value is "N/A" or the value of a contact of that kind |
| SearchDemo.PickIsFirstOfKind | search_experiments/gis_api_demo.py:378-385 | the loop keeps the first value of each kind that is not "N/A", and a value once kept is never replaced |
| SearchDemo.ScheduledDays | search_experiments/gis_api_demo.py:400-404 | exactly the days with truthy working hours, each once, Monday to Sunday |
| SearchDemo.RangeTexts | search_experiments/gis_api_demo.py:406-410 | one "from - to" text per range, in order |
| SearchDemo.DayLines | search_experiments/gis_api_demo.py:400-411 | one line per scheduled day, each starting with that day's full name |
| SearchDemo.ScheduleLines | search_experiments/gis_api_demo.py:388-411 | a falsy schedule gives no lines; a truthy list or text gives none when no day name is in it and fails otherwise; a dict gives one line per scheduled day, in week order, each starting with the day's name |
| SearchDemo.FormatDetailed | search_experiments/gis_api_demo.py:360-438 | the status is "See schedule below" exactly when there are schedule lines and "Unknown" otherwise; at most the first five lines are shown; the website and the phone are the first of their kind among the contacts of whatever the groups iterate to; it succeeds whenever the contacts, the schedule and the point can be read |
| SearchDemo.NonListContainers | search_experiments/gis_api_demo.py:377-393 | an empty dict of contact groups leaves the website and the phone "N/A", and a list schedule without day names gives the status "Unknown" |
| SearchDemo.Head | search_experiments/gis_api_demo.py:474 | Python's `items[:n]`, where a negative `n` counts from the end |
| SearchDemo.SummaryOf | search_experiments/gis_api_demo.py:441-476 | falsy data gives the no-data summary; otherwise data and result must be dicts and items must have a length; it reports the total and min(len(items), max_results), shows nothing for falsy items and otherwise a prefix of what the items iterate to, of that many when max_results is not negative; list items always succeed |
| RegionsDemo.WithFields | regions_experiments/regions_api_demo.py:240-241 | the fields are appended exactly when they are given and non-empty; otherwise the parameters are unchanged (also lines 274-275, 308-309) |
| RegionsDemo.NameParams | regions_experiments/regions_api_demo.py:207-244 | the query, then the region type, then the fields exactly when they are non-empty |
| RegionsDemo.IdParams | regions_experiments/regions_api_demo.py:280-312 | the id, then the fields exactly when they are non-empty |
| RegionsDemo.CoordinateParams | regions_experiments/regions_api_demo.py:246-278 | the point query, then the region type, then the fields exactly when they are non-empty |
| RegionsDemo.CoordinateQueryLongitudeFirst | regions_experiments/regions_api_demo.py:268-271 | the point query splits back at its comma into the longitude and then the latitude |
| RegionsDemo.ItemIds | regions_experiments/regions_api_demo.py:332-334 | the ids are read exactly when every item is a dict or a list or text that does not hold "id", and there are never more ids than items |
| RegionsDemo.ItemIdsMembers | regions_experiments/regions_api_demo.py:332-334 | every item with an id contributes its id, and every id comes from such an item |
| RegionsDemo.ItemIdsConcat | regions_experiments/regions_api_demo.py:332-334 | the ids of two runs of items are those of the first run followed by those of the second |
| RegionsDemo.ItemIdsInOrder | regions_experiments/regions_api_demo.py:332-334 | when every item has an id, the k-th id is the k-th item's |
| RegionsDemo.ExtractRegionIds | regions_experiments/regions_api_demo.py:319-335 | a falsy response, or one without "result", gives no ids; a response `in` cannot search, or a non-dict holding "result", fails; otherwise the ids of whatever the result's items iterate to, and a failure where the result or its items have the wrong shape |
| RegionsDemo.NonDictItems | regions_experiments/regions_api_demo.py:330-334 | a text or list item without "id" is skipped, and items given as an empty dict yield no id |
| RegionsDemo.OffsetText | regions_experiments/regions_api_demo.py:502-510 | the sign is "+" exactly for a non-negative offset, followed by decimal hours, a colon and two decimal minutes |
| RegionsDemo.OffsetRoundTrip | regions_experiments/regions_api_demo.py:504-510 | reading the offset text back gives the offset in minutes, negative offsets included |
| RegionsDemo.OffsetTextInjective | regions_experiments/regions_api_demo.py:504-510 | distinct offsets are shown as distinct texts |
| RegionsDemo.ZoneOffsetText | regions_experiments/regions_api_demo.py:502-510 | a zone without an offset shows "+0:00"; an offset is shown exactly when it is an integer or a bool, and the text reads back as the offset, a bool counting as 0 or 1 |
| RegionsDemo.BoolOffsetShown | regions_experiments/regions_api_demo.py:502-510 | `{"offset": true}` shows "+0:01", and a float offset, which `:02d` refuses, shows nothing |
| RegionsDemo.LowerAll | regions_experiments/regions_api_demo.py:591 | each placeholder is lowered in place |
| RegionsDemo.LoweredPlaceholders | regions_experiments/regions_api_demo.py:34-44 | the lowered placeholders are exactly five distinct texts and the empty one (also line 591) |
| RegionsDemo.UnconfiguredMeans | regions_experiments/regions_api_demo.py:591 | a key is refused exactly when it is empty or its lowered, stripped form is a lowered placeholder; a key of only spaces is refused |
| RegionsDemo.UnconfiguredIgnoresCase | regions_experiments/regions_api_demo.py:591 | upper- or lower-casing the key does not change whether it is refused |
| Coerce.DigitStart | routing/routing_middleware.py:447 | the first digit at or after the start, with no digit skipped over |
| Coerce.DigitEnd | routing/routing_middleware.py:447 | the end of the run of digits: all digits up to it, and a non-digit (or the end) at it |
| Coerce.DigitRun | routing/routing_middleware.py:447-449 | a run found is non-empty and all digits |
| Coerce.SafeIntText | routing/routing_middleware.py:439-450 | a text whose first number is `n` reads as `n` whatever surrounds it; a text without digits reads as the default |
| Coerce.SafeIntDropsSign | routing/routing_middleware.py:447-449 | the minus sign is not part of the run, so "-5" reads as 5 |
| RoomModel.MemberColor | core/room_manager.py:34-36 | every colour handed out is one of the eight palette entries |
| RoomModel.MemberColorCycle | core/room_manager.py:16-36 | colours repeat every eight members, and the first eight members get eight distinct colours |
| RoomModel.Send | core/room_manager.py:242 | a send succeeds exactly when the socket is not broken; it then appends the message to that socket's outbox only, and a failed send changes nothing |
| RoomModel.Close | back/main.py:238 | a closed socket fails every later send, a live one records the close code, and no outbox changes |
| RoomModel.SendExtends | core/room_manager.py:242 | a send never takes back anything already delivered |
| RoomModel.IndexOf | core/room_manager.py:192-230 | the first member with the id, or -1 exactly when no member has it |
| RoomModel.RemoveAt | core/room_manager.py:192 | popping a member removes exactly that member's id, keeps the others in order, and lowers the host count only when the member was the host |
| RoomModel.MakeFirstHost | core/room_manager.py:199-200 | the first member in iteration order becomes host, nobody else changes, and the host count rises by one unless it was already host |
| RoomModel.UpdateAt | core/room_manager.py:217-223 | one member is replaced, keeping the ids, and the host count moves only by the change of that member's flag |
| RoomModel.HostCountBound | core/room_manager.py:74-78 | there are never more hosts than members, and no host means no member carries the flag |
| RoomModel.GetHost | core/room_manager.py:74-78 | None exactly when no member is host; otherwise a member of the room that is host |
| RoomModel.GetHostUnique | core/room_manager.py:74-78 | with a single host, `get_host` finds exactly that member |
| RoomModel.StateOf | core/room_manager.py:301-327 | the state lists every member in order with its id, host flag and location, and its count is the number of members |
| RoomOps.SendAll | core/room_manager.py:238-244 | every targeted member is tried in order; the failed ids are exactly the targeted members on broken sockets; each socket receives one copy per targeted member using it |
| RoomOps.Broadcast | core/room_manager.py:234-248 | a broadcast never adds members |
| RoomOps.Leave | core/room_manager.py:190-201 | a leave never adds members, and leaving with an id that is not in the room changes nothing |
| RoomOps.BroadcastShrinks | core/room_manager.py:234-248 | a broadcast only removes members and never takes back a delivered message |
| RoomOps.LeaveAllShrinks | core/room_manager.py:247-248 | the clean-up leaves every disconnected member out of the room |
| RoomOps.LeaveShrinks | core/room_manager.py:190-201 | after a leave the member is gone, the room only lost members, and nothing delivered is taken back |
| RoomOps.LeaveHostShrinks | core/room_manager.py:198-201 | the re-election branch also only removes members and leaves the departed one out |
| RoomOps.BroadcastDelivers | core/room_manager.py:238-242 | every targeted member on a working socket gets the message next |
| RoomOps.BroadcastRemovesFailed | core/room_manager.py:243-248 | every targeted member whose send failed has left the room afterwards |
| RoomRegistry.CodeOf | core/room_manager.py:28-31 | a code is six characters from A-Z and 0-9, the k-th picked by the k-th draw |
| RoomRegistry.CodeOfOnto | core/room_manager.py:28-31 | every six-character code of A-Z and 0-9 can be drawn |
| RoomRegistry.CodeIsUpper | core/room_manager.py:30 | codes hold no lower-case letters, so upper-casing leaves them alone (also line 150) |
| RoomRegistry.EmptyValid | core/room_manager.py:87-90 | a new manager has no rooms and keeps the table's invariant |
| RoomRegistry.CreateRoom | core/room_manager.py:137-146 | fails only if every draw hits a taken code; otherwise the first free code drawn names a new empty room, added without touching the others, and the invariant is kept |
| RoomRegistry.AddRoom | core/room_manager.py:144-145 | the new room is filed under its code at the end of the order, keeping the invariant |
| RoomRegistry.GetRoom | core/room_manager.py:148-150 | a room is found exactly when the upper-cased code is filed, and it is that room |
| RoomRegistry.GetRoomIgnoresCase | core/room_manager.py:150 | a code typed in any case finds the same room |
| RoomRegistry.CreatedRoomFound | core/room_manager.py:137-150 | a freshly created room is found by its code, whatever the case it is typed in |
| RoomRegistry.DeleteRoom | core/room_manager.py:152-157 | deletes exactly when the code is filed as given, removing that room only and keeping the invariant; otherwise nothing changes |
| RoomRegistry.Without | core/room_manager.py:155 | the order loses exactly the deleted code and stays free of repeats |
| RoomRegistry.DeleteRoomCaseSensitive | core/room_manager.py:152-157 | a code typed in lower case deletes nothing; the endpoint upper-cases it first (back/main.py:211) |
| RoomMembership.BroadcastHealthy | core/room_manager.py:234-248 | when no member's socket is broken, a broadcast removes nobody and only sends |
| RoomMembership.BroadcastReachesAll | core/room_manager.py:234-248 | when every targeted member can be reached, a broadcast removes nobody |
| RoomMembership.BroadcastHealthyAt | core/room_manager.py:238-242 | in a healthy room each targeted member gets exactly one copy and the excluded member none |
| RoomMembership.BroadcastHealthyElsewhere | core/room_manager.py:238-242 | a socket that belongs to no member hears nothing of a broadcast |
| RoomMembership.LeaveAbsent | core/room_manager.py:192-193 | leaving with an absent id changes nothing and sends nothing |
| RoomMembership.LeaveInvariants | core/room_manager.py:190-201 | after a leave the id is gone, the ids stay unique, nobody new arrives, and "at most one host" and "exactly one host in a non-empty room" are kept |
| RoomMembership.LeaveHostHealthy | core/room_manager.py:197-201 | when the host leaves a healthy room of two or more, the first remaining member becomes the one and only host |
| RoomMembership.LeaveHostMessages | core/room_manager.py:195-201 | every remaining member hears `member_left` with the new count and then `host_changed` naming the new host |
| RoomMembership.LeaveHostSilent | core/room_manager.py:192-201 | the departing host's own socket hears nothing of its leaving |
| RoomMembership.MemberIdCounter | core/room_manager.py:170 | the generated id carries the member counter between its underscores |
| RoomMembership.MemberIdInjective | core/room_manager.py:167-170 | ids generated under different counters never collide, whatever the clock |
| RoomMembership.JoinRoom | core/room_manager.py:159-188 | the counter goes up by one; the newcomer is host exactly when the room was empty, gets the colour of its position, starts without a location, and takes the given id or the generated one; nothing delivered is taken back |
| RoomMembership.Inserted | core/room_manager.py:183 | a fresh id is appended at the end of the member order |
| RoomMembership.JoinInvariants | core/room_manager.py:159-188 | a join keeps the ids unique and "at most one host"; from a fresh id it keeps "exactly one host in a non-empty room" |
| RoomMembership.JoinHealthy | core/room_manager.py:183-186 | a fresh member joining a healthy room is appended and nobody is removed |
| RoomMembership.JoinAppends | core/room_manager.py:183-186 | the broadcast goes to the room with the newcomer already in it, excluding the newcomer |
| RoomMembership.JoinMessages | core/room_manager.py:250-262 | every earlier member hears one `member_joined` with the new count; the newcomer hears nothing of it |
| RoomMembership.JoinElsewhere | core/room_manager.py:250-262 | sockets outside the room hear nothing of a join |
| RoomMembership.UpdateLocation | core/room_manager.py:213-215 | an update for an absent member changes nothing and sends nothing |
| RoomMembership.UpdateLocationHealthy | core/room_manager.py:217-223 | only the sender's location and heartbeat change |
| RoomMembership.UpdateLocationMessages | core/room_manager.py:283-299 | every other member hears one `location_update` with the new location; the sender hears nothing |
| RoomMembership.UpdateLocationInvariants | core/room_manager.py:203-226 | an update keeps the room's invariants, brings nobody in, and takes back nothing delivered |
| RoomMembership.Heartbeat | core/room_manager.py:228-232 | only the named member's heartbeat moves to now; every other field and member stays, and an absent id changes nothing |
| RoomSweep.StaleIds | core/room_manager.py:114-116 | exactly the ids of the members silent for more than 60 seconds |
| RoomSweep.Evict | core/room_manager.py:118-127 | eviction keeps the room's code, name and creation time |
| RoomSweep.EvictStep | core/room_manager.py:119-127 | one step pops the member, closes its socket normally, and tells the rest, removing only members |
| RoomSweep.EvictMembers | core/room_manager.py:118-127 | eviction only removes members and only closes sockets with the normal code |
| RoomSweep.EvictGone | core/room_manager.py:118-127 | every listed id is gone afterwards |
| RoomSweep.EvictShape | core/room_manager.py:118-127 | no new members, no new hosts, ids stay unique, and every listed id is gone |
| RoomSweep.EvictGrows | core/room_manager.py:118-127 | nothing already delivered is taken back |
| RoomSweep.EvictRemovesOnlyBroken | core/room_manager.py:118-127 | whoever is gone was either listed or lost through its own broken socket |
| RoomSweep.EvictKeepsLive | core/room_manager.py:118-127 | an unlisted member whose socket still works is kept unchanged |
| RoomSweep.SweepRoomNoStale | core/room_manager.py:111-127 | no stale member survives the sweep of its room |
| RoomSweep.Keep | core/room_manager.py:118-120 | exactly the members whose ids are not dropped, in order |
| RoomSweep.Current | core/room_manager.py:114-116 | exactly the members that are not stale, in order |
| RoomSweep.EvictHealthy | core/room_manager.py:118-127 | in a healthy room eviction removes exactly the listed members and keeps the room healthy |
| RoomSweep.KeepStale | core/room_manager.py:111-120 | dropping the stale ids keeps exactly the members that are not stale |
| RoomSweep.SweepRoomHealthy | core/room_manager.py:111-127 | in a healthy room the sweep keeps exactly the members that are not stale, in order |
| RoomSweep.SweepLeavesRoomHostless | core/room_manager.py:118-127 | a well-hosted room whose host goes stale keeps a member but no host |
| RoomSweep.SweepElectsHost | core/room_manager.py:118-127 | with the re-election of `leave_room`, a swept room with members has exactly one host, and nobody new (also lines 197-201) |
| RoomSweep.SweepElectingAgrees | core/room_manager.py:118-127 | the re-electing sweep differs from the sweep as written only where that one leaves a room hostless |
| RoomSweep.SweepElectingRescues | core/room_manager.py:118-127 | on the room that the sweep leaves hostless, the re-electing sweep makes the remaining member host (also lines 197-201) |
| RoomSweep.SweepRooms | core/room_manager.py:111-130 | every room is kept under its key with its identity; only swept codes are marked for removal |
| RoomSweep.SweepRoomsFacts | core/room_manager.py:111-130 | rooms not swept are unchanged; swept rooms lose only members and keep no stale one; a room is marked exactly when it is empty and older than 300 s |
| RoomSweep.SweepRoomsGrows | core/room_manager.py:111-127 | the sweep over the table takes back nothing already delivered |
| RoomSweep.Retain | core/room_manager.py:133-135 | the order loses exactly the dropped codes and stays free of repeats |
| RoomSweep.Sweep | core/room_manager.py:103-135 | the table's invariant is kept and the member counter is untouched |
| RoomSweep.SweepSpec | core/room_manager.py:103-135 | a room survives exactly when it is not empty-and-older-than-300-s after its members were swept; survivors keep their identity and hold no stale member |
| RoomSweep.YoungRoomSurvives | core/room_manager.py:129 | a room younger than 300 s survives however empty it is |
| RoomSweep.OldEmptyRoomDropped | core/room_manager.py:129-135 | an old room that has emptied is dropped at the next sweep |
| RoomLiveness.LiveSurvives | core/room_manager.py:234-248 | under unique ids, a live member that keeps its id stays live |
| RoomLiveness.FailedNotLive | core/room_manager.py:241-244 | every id the broadcast collects belongs to a member whose socket is broken |
| RoomLiveness.FailedIds | core/room_manager.py:238-244 | every collected id is a member's id |
| RoomLiveness.BroadcastKeepsLive | core/room_manager.py:234-248 | a broadcast never removes a member whose socket works |
| RoomLiveness.LeaveAllKeepsLive | core/room_manager.py:247-248 | the clean-up removes no live member outside the collected ids |
| RoomLiveness.LeaveKeepsLive | core/room_manager.py:190-201 | a leave removes no live member other than the one leaving |
| RoomLiveness.LeaveHostKeepsLive | core/room_manager.py:197-201 | the re-election branch removes no live member other than the one leaving |
| RoomSocket.Connect | back/main.py:236-251 | an unknown code is refused with close code 4004; otherwise the member joins, and `room_state` with its id and colour is sent unless the socket is already dead, in which case the connection is stranded with the member still in the room |
| RoomSocket.ConnectUnknown | back/main.py:236-239 | an unknown code joins nobody and sends nothing, only the 4004 close |
| RoomSocket.ConnectSendsStateFirst | back/main.py:241-251 | a new socket joining a healthy room first receives `room_state` with its own id and colour, listing itself as the last member |
| RoomSocket.ConnectDelivers | back/main.py:244-251 | a live socket joining a known room is admitted, and `room_state` follows whatever the join left in its outbox |
| RoomSocket.ConnectStrandsMember | back/main.py:244-253 | when the socket is already dead, the member joins a healthy room and stays in it: `room_state` never arrives and the handler ends without `leave_room` |
| RoomSocket.ConnectGuarded | back/main.py:244-253 | with the initial send inside the guarded block, a failed `room_state` ends in `leave_room` |
| RoomSocket.ConnectGuardedLeavesNoGhost | back/main.py:244-253 | with the guarded send, a dead socket leaves nobody behind: the room ends with no member beyond those it had (also lines 290-294) |
| RoomSocket.ConnectKeepsRoom | back/main.py:236-251 | connecting adds at most the new member, whose id comes from the next counter value; the room keeps its invariants, and exactly one host when that id is fresh |
| RoomSocket.JoinSilentToNewcomer | core/room_manager.py:250-262 | the newcomer's own socket hears nothing of its own `member_joined` |
| RoomSocket.Quit | back/main.py:290-294 | the loop's exit is `leave_room` for this member |
| RoomSocket.Reply | back/main.py:270-288 | a reply that cannot be sent ends the loop through `leave_room`; otherwise it is appended to the member's own outbox |
| RoomSocket.OnLocation | back/main.py:258-266 | a location frame updates and fans out the member's location and the loop goes on |
| RoomSocket.OnHeartbeat | back/main.py:268-270 | a heartbeat refreshes the member's heartbeat, then sends `heartbeat_ack` |
| RoomSocket.OnChat | back/main.py:272-282 | a content that is missing or blank after trimming posts nothing; a non-blank one is posted trimmed and starts the agent once; a `null` or non-string content ends the loop |
| RoomSocket.OnUnknown | back/main.py:284-288 | any other type is answered by an `error` naming it |
| RoomSocket.StepOutcome | back/main.py:253-294 | exactly the frames that raise end the loop, and then the member has left; otherwise the loop goes on as the same member and the agent starts at most once, exactly for a non-blank chat |
| RoomSocket.StepKeepsRoom | back/main.py:253-294 | whatever the frame, the room keeps its code and invariants, gains nobody, and no socket loses a delivered message |
| RoomSocket.StepEndsInLeave | back/main.py:290-294 | a disconnect, an unreadable payload, or a chat whose content is `null` or not a string ends in `leave_room` |
| RoomSocket.HeartbeatAcked | back/main.py:268-270 | a heartbeat is answered by exactly one `heartbeat_ack` on the member's socket, only its heartbeat changes, and no other socket hears anything |
| RoomSocket.UnknownTypeAnswered | back/main.py:284-288 | an unknown type is answered by exactly one `error` naming it, and nothing else changes |
| RoomSocket.BlankChatIgnored | back/main.py:274-275 | a chat whose content is missing or blank posts nothing and starts no agent |
| RoomSocket.ChatPostedOnce | back/main.py:274-282 | a non-blank chat is posted trimmed and handed to the agent exactly once |
| RoomSocket.AgentPost | back/main.py:148-160 | the agent's reply, or the default text when it has none, or the failure prefix followed by the error when the call raised, always posted as the agent |
| RoomSocket.GetRoomEndpoint | back/main.py:195-205 | 404 "Room not found" exactly when the upper-cased code is not filed; otherwise that room's code, name and member count |
| RoomSocket.DeleteRoomEndpoint | back/main.py:208-213 | 404 exactly when the upper-cased code is not filed, with the table unchanged; otherwise "deleted" and only that room removed |
| RoomSocket.EndpointsIgnoreCase | back/main.py:198-211 | both endpoints ignore the case of the code, and a deleted room is then reported missing |
| RoomServer.NextInv | back/main.py:188-294 | every event of the room service keeps every room's invariant: unique ids, at most one host |
| RoomServer.RunInv | back/main.py:188-294 | every interleaving of room creation, connections, frames, agent tasks, deletes and sweeps keeps the invariant |
| RoomServer.NextHosted | core/room_manager.py:159-201 | every event but the sweep keeps exactly one host in every non-empty room |
| RoomServer.RunHosted | core/room_manager.py:159-201 | without a sweep, every interleaving keeps exactly one host in every non-empty room |
| RoomServer.NextGrows | back/main.py:188-294 | no event takes back a message already delivered to any socket |
| RoomServer.RunGrows | back/main.py:188-294 | no interleaving takes back a message already delivered |
| RoomServer.ResumeAdvances | back/main.py:142-166 | a task's turn moves it one phase on, and its `finally` turn ends it, whatever the agent returned; no other task or handler changes |
| RoomServer.ResumeDelivers | back/main.py:142-166 | a task's turn delivers its notice to every member of its room with a working socket |
| RoomServer.TaskTurn | back/main.py:142-166 | whatever happened in between, a member in the task's room receives the turn's notice after everything it had before, and the task moves on one phase |
| RoomServer.AgentBracket | back/main.py:142-166 | a member present with a working socket at each of a task's three turns receives `agent_typing` true, then the reply, then `agent_typing` false, in that order, whatever the agent returned or raised |
| RoomServer.ConnectJoinable | back/main.py:236-251 | joining a room whose members all have working sockets: the newcomer is appended and gets `room_state` listing everyone, each earlier member gets one `member_joined`, and nobody else hears anything |
| RoomServer.NextJoin | back/main.py:236-251 | at the server, the filed room gains the newcomer, a handler starts for it, and the counter advances by one |
| RoomServer.FirstJoinSent | back/main.py:244-251 | the first socket on an empty room is sent `room_state` listing only itself, and no other socket hears anything |
| RoomServer.CreateFirst | back/main.py:188-192 | in a fresh process, creating a room files an empty room and nothing else |
| RoomServer.TwoJoinersRoom | back/main.py:188-251 | after two joins the room lists the first as host with the first colour, then the second as a guest with the second colour, and the GET endpoint reports two members |
| RoomServer.TwoJoinersHandlers | back/main.py:236-251 | after two joins both sockets have handlers holding the filed room, each with its own member |
| RoomServer.TwoJoinersAliceHears | back/main.py:244-251 | the first joiner hears `room_state` with itself, then one `member_joined` for the second |
| RoomServer.TwoJoinersBobHears | back/main.py:244-251 | the second joiner hears `room_state` listing the first as host and itself |
| LocationStore.EmbeddingText | back/services/location_store.py:190-193 | a non-empty description is appended after " - "; a missing or empty one leaves the key alone |
| LocationStore.RowFor | back/services/location_store.py:108 | the row holding the normalised key, with none after it, or -1 |
| LocationStore.Upsert | back/services/location_store.py:103-126 | a row with a conflicting normalised key takes the new values in place, keeping its creation time; otherwise the row is added at the end |
| LocationStore.SaveLocation | back/services/location_store.py:85-134 | a blank key and a failed embedding are refused with the table unchanged; otherwise the stripped key is saved under its lower-cased form with the given values, adding a row only for a new key and changing no other key's row |
| LocationStore.UpsertFinds | back/services/location_store.py:103-126 | after an upsert the row is found under its normalised key |
| LocationStore.SaveKeepsKeysUnique | back/services/location_store.py:64-76 | saving keeps normalised keys unique, as the table's UNIQUE constraint demands (also lines 103-126) |
| LocationStore.SaveTwiceIsSaveOnce | back/services/location_store.py:85-134 | saving the same location twice at the same time leaves the table as one save does |
| LocationStore.Cosine | back/services/location_store.py:200-208 | empty or mismatched vectors, and zero norms, score 0; otherwise the score times the product of the norms is the dot product |
| LocationStore.CosineSymmetric | back/services/location_store.py:200-208 | the similarity does not depend on the order of its arguments |
| LocationStore.ZeroVectorScoresZero | back/services/location_store.py:200-208 | a zero vector is similar to nothing |
| LocationStore.Cap | back/services/location_store.py:169-187 | at least one, and the limit itself when that is positive |
| LocationStore.KeywordHits | back/services/location_store.py:175-186 | each hit is a matching row scored 1.0, never more hits than rows |
| LocationStore.KeywordHitsConcat | back/services/location_store.py:175-186 | the keyword loop keeps row order: the hits of two runs of rows are those of each in turn |
| LocationStore.KeywordHitsComplete | back/services/location_store.py:176-178 | every row whose key or description contains the query, ignoring case, is among the hits |
| LocationStore.Fallback | back/services/location_store.py:172-187 | the first max(1, limit) hits, in row order |
| LocationStore.FallbackFindsEveryHit | back/services/location_store.py:172-187 | when few enough rows match, every matching row is returned |
| LocationStore.Scored | back/services/location_store.py:152-166 | each scored entry is a row whose embedding parses, with its rounded similarity; rows that do not parse are skipped |
| LocationStore.Top | back/services/location_store.py:168-169 | the first n by descending score: sorted, drawn from the scored entries, and no entry left out scores above the last one kept |
| LocationStore.Search | back/services/location_store.py:136-169 | a blank query or an empty table gives no matches; a failed query embedding gives the keyword fallback; otherwise the top max(1, limit) by similarity; never more than max(1, limit) |
| BackAuth.NormalizeEmail | back/auth_endpoints.py:20-21 | the stripped email with every letter lower-cased, no character added or dropped |
| BackAuth.NormalizeIdempotent | back/auth_endpoints.py:20-21 | normalising a normalised email changes nothing |
| BackAuth.StrippedOrEmpty | back/auth_endpoints.py:25-26 | a falsy value reads as "", a string as its stripped text; a truthy non-string fails, as it has no `strip` |
| BackAuth.FullName | back/auth_endpoints.py:27 | the stripped "first last" is both parts joined by one space, or whichever part is not empty |
| BackAuth.BuildUserName | back/auth_endpoints.py:24-28 | the full name when it is not empty, else the login, else the email, else "User"; it fails only where a name part has no `strip` |
| BackAuth.AnonymousIsUser | back/auth_endpoints.py:28 | a user with no name, login or email is called "User" |
| BackAuth.CoerceUserId | back/auth_endpoints.py:31-35 | an integer id is kept; `None`, lists and dicts, and every other failure give 500 "Invalid user id format" |
| BackAuth.CoerceUserIdText | back/auth_endpoints.py:31-33 | an id written out in decimal, negative ones included, reads back as itself |
| BackAuth.CoerceParsed | back/auth_endpoints.py:31-33 | text that `int` parses is coerced to its number |
| BackAuth.ParseBearerToken | back/auth_endpoints.py:38-45 | no credentials give 401 "Missing authorization header"; a token is returned exactly when the scheme is "bearer" in any case, and every failure is a 401 |
| BackAuth.CheckEmail | back/auth_endpoints.py:57-62 | accepted exactly when the text holds "@" and "."; the accepted email is normalised |
| BackAuth.CheckLogin | back/auth_endpoints.py:64-71 | accepted exactly when the stripped login is made of letters, digits, "_", "-" and "." and holds at least one letter or digit; the stripped login is kept |
| BackAuth.SanitizedChars | back/auth_endpoints.py:68-69 | removing "_", "-" and "." keeps exactly the other characters, and the rest is alphanumeric exactly when the login has only login characters and at least one letter or digit |
| BackAuth.ParseRegister | back/auth_endpoints.py:48-71 | a request is built exactly when every length bound holds and both validators accept; the email is normalised, the login stripped, and the last name defaults to "" |
| BackAuth.Respond | back/auth_endpoints.py:169-183 | a stored user without an id gives a 500 with the endpoint's message and an id `int` refuses gives 500 "Invalid user id format"; otherwise the reply exists exactly when the email, login and name are text, as `TokenResponse` demands, and carries them with the coerced id, the "bearer" type and the token signed for the id and email (also lines 86-94, 201-215) |
| BackAuth.NewUserRow | back/auth_endpoints.py:153-161 | the inserted row holds exactly the email, the password's hash, the login and both names |
| BackAuth.Register | back/auth_endpoints.py:133-183 | a taken email gives 400 "Email already registered", checked before the login; then a taken login gives 400 "Login already registered"; otherwise the new row is inserted, an insert that raises gives 500 "Registration failed: " and its text, no rows give 500 "Failed to create user", and the first row returned is answered as a stored user |
| BackAuth.RegisterEchoesRow | back/auth_endpoints.py:153-183 | when the table returns the inserted row with a new id, the reply carries that id, the submitted email and login, the full name or else the login, and a token signed for the id and email |
| BackAuth.ParseLogin | back/auth_endpoints.py:74-83 | the login email is normalised and the password kept |
| BackAuth.Login | back/auth_endpoints.py:186-215 | 401 "Invalid credentials" exactly when there is no such user or its stored password is missing or does not verify; success means the password verified |
| BackAuth.CurrentUser | back/auth_endpoints.py:218-265 | a bearer failure is passed on as its 401; an undecodable token gives 401 "Invalid or expired token"; a falsy user gives 401 "User not found"; an id `int` refuses gives 500; otherwise the reply exists exactly when email and name are text and login, first name, last name and avatar are None or text, as `UserInfo` demands (lines 97-106), and carries the coerced id and exactly those fields |
| BackAuth.CurrentUserOfRegistered | back/auth_endpoints.py:229-241 | a token whose subject finds a row registration stored reports its id, email, name, login and both names, and no avatar |
| RoutingAuth.CheckEmail | routing/auth_models.py:28-33 | accepted exactly when the text holds "@" and "."; the accepted email is lower-cased |
| RoutingAuth.CheckUsername | routing/auth_models.py:35-40 | accepted exactly when removing "_" leaves a non-empty alphanumeric text; the accepted username is lower-cased |
| RoutingAuth.ParseUserCreate | routing/auth_models.py:22-40 | built exactly when the username (3-50), email (5-255) and password (8-100) lengths hold and both validators accept; username and email are lower-cased |
| RoutingAuth.ParseUserCreateStable | routing/auth_models.py:22-40 | a request that was accepted is accepted again unchanged |
| RoutingAuth.ParseMessage | routing/auth_models.py:64-84 | built exactly when the message is 1-10000 characters and not blank; it is kept stripped, and `user_id` passes through for either role |
| RoutingAuth.ParseMessageStable | routing/auth_models.py:70-75 | an accepted message is accepted again as it was stored |
| RoutingAuth.BearerToken | routing/auth_endpoints.py:147-156 | a missing or empty header gives 401 "Missing authorization header", a header that is not two words gives 401 "Invalid authorization header format"; the token is the second word exactly when the first is "bearer" in any case |
| RoutingAuth.BearerRoundTrip | routing/auth_endpoints.py:151-156 | "scheme token" gives back the token exactly when the scheme is "bearer" in any case, and "Invalid authentication scheme" otherwise |
| RoutingAuth.LookUpUser | routing/auth_endpoints.py:165-182 | a lookup fails only with 401 "User not found" or with a 500 |
| RoutingAuth.VerifyToken | routing/auth_endpoints.py:140-182 | a header failure is passed on, an undecodable token gives 401 "Invalid or expired token", and a 500 reads "Verification failed: " and the exception text |
| RoutingAuth.GetCurrentUser | routing/auth_endpoints.py:185-222 | a header failure is passed on, and a 500 carries the bare exception text |
| RoutingAuth.SameChecksSameOrder | routing/auth_endpoints.py:147-161 | the two endpoints give the same answer, except for the wording of a 500 (also lines 190-202) |
| RoutingAuth.CreateAccount | routing/auth_endpoints.py:72-97 | one row is added at the end under 1 + the largest id, holding the email, the hashed password and the name, and the response carries that id with the "bearer" type |
| RoutingAuth.RegisterAsWritten | routing/auth_endpoints.py:54-99 | as written, every refusal of the duplicate check is 500 "Database error", with the store unchanged |
| RoutingAuth.No404In400 | routing/auth_endpoints.py:67-70 | the text of a 400 whose detail has no "4" contains no "404", so the handler turns it into a 500 |
| RoutingAuth.TakenMessageNo404 | routing/auth_endpoints.py:67-70 | the duplicate-email exception's text contains no "404" |
| RoutingAuth.DuplicateEmailGives500 | routing/auth_endpoints.py:64-70 | registering an email already taken answers 500 "Database error", not the 400 the code raises |
| RoutingAuth.Register | routing/auth_endpoints.py:54-99 | corrected: a taken email gives 400 "Email already registered"; a free one adds exactly one row under the next id; a lookup failure without "404" gives 500 "Database error" |
| RoutingAuth.RegisterTwiceRefused | routing/auth_endpoints.py:54-99 | after a successful registration, registering the same email again is refused with 400 |
| RoutingAuth.RegisteredEmailTaken | routing/auth_endpoints.py:76-81 | a registration leaves its email taken |
| Repository.CheckPatternCorrect | routing/database/repository.py:23-24 | the hand-written scanner accepts a text exactly when it matches the email regular expression, written as an independent predicate |
| Repository.ValidateEmail | routing/database/repository.py:21-24 | an email is accepted exactly when it matches the pattern (local part, one `@`, domain, a dot and at least two letters), also with one trailing newline as `$` allows |
| Repository.ValidateCoordinates | routing/database/repository.py:27-29 | accepted exactly when latitude lies in [-90, 90] and longitude in [-180, 180], bounds included |
| Repository.Sanitize | routing/database/repository.py:32-36 | a missing or empty value gives ""; otherwise the result is the stripped text's prefix of length min(max, length) |
| Repository.SanitizeKeepsCleanText | routing/database/repository.py:32-36 | text without surrounding whitespace and within the limit comes back unchanged |
| Repository.SanitizeNotIdempotent | routing/database/repository.py:36 | truncating after stripping can leave trailing whitespace, so sanitising a sanitised value can still change it |
| Repository.SanitizeOptional | routing/database/repository.py:129-138 | the optional fields are None exactly for a missing or empty value and otherwise hold the sanitised text (also line 68) |
| Repository.ClampLimit | routing/database/repository.py:104 | the limit lands in [1, cap]: unchanged inside, 1 below, cap above (also lines 166, 248) |
| Repository.ClampIdempotent | routing/database/repository.py:248 | clamping a clamped limit changes nothing |
| Repository.RouteMode | routing/database/repository.py:196-197 | the stored mode is always one of the four valid modes, the requested one exactly when it is valid, else "car" |
| Repository.CreateUser | routing/database/repository.py:60-73 | rejected with "Invalid email format" exactly when the email fails validation; otherwise the stored email is lower-cased and stripped, the hash kept and the name at most 100 characters |
| Repository.EmailLookup | routing/database/repository.py:52-57 | no lookup happens for an invalid email; a valid one is looked up lower-cased |
| Repository.CreatePlace | routing/database/repository.py:114-138 | rejected with "Invalid coordinates" exactly when the coordinates are out of range; otherwise the coordinates and owner are kept, the name is at most 255 and the city at most 50 characters |
| Repository.CreateRoute | routing/database/repository.py:176-210 | the origin is checked before the destination, each with its own message; a route is stored exactly when both are valid, with a valid mode that equals the requested one exactly when that is valid, and the waypoints untouched |
| Repository.LogSearch | routing/database/repository.py:225-240 | the query is at most 500 and the city at most 50 characters; the city is None exactly when none or an empty one was given |
| Repository.PopularQuery | routing/database/repository.py:246-256 | the row limit lies in [1, 100] and the city filter is applied exactly when a non-empty city is given |
| Repository.LogRequest | routing/database/repository.py:282-288 | each coordinate is kept when its own range holds and becomes None otherwise, independently of the others; the mode is at most 20 characters |
| Repository.ApplyUpdates | routing/database/repository.py:82-86 | only the whitelisted keys given a non-None value change, each to a string of at most 100 characters; every other field keeps its value |
| Repository.LastSet | routing/database/repository.py:84-86 | a key has a value to store exactly when the keywords give it a non-None value, and that value is one of the keywords' |
| Repository.UpdatesStoreGivenValue | routing/database/repository.py:84-86 | every whitelisted key given a non-None value holds `sanitize_string(str(value), 100)` of that value |
| Repository.UpdateUser | routing/database/repository.py:76-90 | None exactly when there is no such user; each whitelisted key given a non-None value holds the sanitised text of that value, cut to 100 characters; every other field keeps its value |
| Repository.NormalisedTextSameKeyPart | routing/database/repository.py:309 | lower-casing then stripping gives the same key part for a text and its stripped, lower-cased or upper-cased form |
| Repository.CacheKeyNormalisesQuery | routing/database/repository.py:307-310 | queries differing only in case or surrounding whitespace share one cache key |
| Repository.CacheKeyNormalisesCity | routing/database/repository.py:307-310 | cities differing only in case or surrounding whitespace share one cache key |
| Repository.CacheKeyNoCity | routing/database/repository.py:309 | a missing city and an empty city give the same cache key |
| Repository.FirstLive | routing/database/repository.py:313-326 | a hit is the results of some unexpired row with the hash; a miss means every row with the hash has expired |
| Repository.SetCache | routing/database/repository.py:329-357 | the first row with the hash gets the new results and expiry in place and no other row changes; without one, a single row is appended and the old rows are kept |
| Repository.SetCacheUpserts | routing/database/repository.py:339-357 | after caching, the number of rows with the hash is 1 if there were none and unchanged otherwise |
| Repository.CacheRoundTrip | routing/database/repository.py:313-357 | reading a query back before its expiry returns exactly the results just cached for it |
| Repository.CleanupExpired | routing/database/repository.py:360-368 | a row is kept exactly when it has not expired, and kept plus removed rows equal the total; nothing is removed exactly when no row has expired; one row is kept or removed by its own expiry |
| Repository.CleanupConcat | routing/database/repository.py:360-368 | cleaning two runs of rows keeps the first run's survivors then the second's and removes the sum, so the kept rows stay in table order |
| Repository.CleanupInvisible | routing/database/repository.py:313-326 | removing the rows expired at some time never changes what a later read returns (also lines 360-368) |
| SupabaseMock.OpenTable | routing/supabase_client.py:24-41 | a table handle starts with no data, no filter and not marked as an insert, sharing the client's user store |
| SupabaseMock.MaxId | routing/supabase_client.py:46 | the largest stored id, or 0 for an empty store: no id exceeds it and it is one of the ids unless 0 |
| SupabaseMock.Insert | routing/supabase_client.py:43-51 | on "users" one row is added with id one more than the largest id and the handle holds that row as an insert; on any other table nothing changes |
| SupabaseMock.InsertAssignsNextId | routing/supabase_client.py:45-48 | inserting keeps ids unique and ascending: the new id exceeds every earlier one, so no stored user is overwritten |
| SupabaseMock.InsertElsewhereStoresNothing | routing/supabase_client.py:45-78 | an insert into another table stores nothing and executes to an empty list |
| SupabaseMock.InsertThenExecute | routing/supabase_client.py:75-76 | executing an insert returns exactly the stored row, with its id |
| SupabaseMock.InsertThenSelectNests | routing/supabase_client.py:53-76 | a select after an insert on the same handle keeps the insert mark, so execution wraps the whole row list in one more list |
| SupabaseMock.Matching | routing/supabase_client.py:71 | a row is in the result exactly when it is stored and its field equals the value |
| SupabaseMock.LastFilterWins | routing/supabase_client.py:58-72 | chaining two filters acts as the last one alone, and a filtered read ignores the loaded data |
| SupabaseMock.InsertedRowFoundById | routing/supabase_client.py:43-72 | a user just inserted is found by its id, and it is the only user with that id |
| SupabaseMock.GetSupabase | routing/supabase_client.py:86-99 | the real client exactly when the library is present and both URL and key are non-empty; otherwise the mock, created once and then reused |
| SupabaseMock.MockIsShared | routing/supabase_client.py:96-99 | every fallback returns the same mock store, so users created through one call are seen by the next |

## Left out

- I/O, clocks, randomness and the network are parameters. This covers the HTTP replies of 2GIS, Gemini and the language model, the `time.time()` readings, `random.choices` for room codes (a chosen index sequence) and the embedding service.
- Real concurrency is not modelled. `asyncio` tasks, sleeps and locks become explicit steps: `RoomServer` interleaves them, and the rate limiter's sleep is a clock reading at least the requested wake time.
- HTTP clients and their retry and backoff loops are not modelled, because they only move bytes. Their decoded replies are inputs. This covers the demo scripts' request helpers, the places and regions request code, the agent tool wrappers such as `calculate_route`, and the Supabase REST client.
- Language-model and embedding calls are not modelled: the agents' tool loops are outside the pure logic. The model's messages and replies are inputs.
- Password hashing, JWT signing and decoding, SQLAlchemy sessions and the SQL itself are parameters or not modelled. The repository's MD5 digest is an uninterpreted function.
- The login endpoint of the routing app (`routing/auth_endpoints.py:100-137`) is not modelled. It is a lookup followed by a password check in the crypto layer, and the back end's login decisions are modelled in `BackAuth.Login`.
- `get_path_agent_system_prompt` (`back/agent/prompts/path_agent_prompts.py:202-204`) is not modelled. It returns a constant, so the only property it has, that repeated calls agree, holds of any function.
- Floating point is modelled as exact reals. This affects haversine, `round(x, n)` and km formatting, which are parameters or reals. `Json` keeps `Int` and `Float` apart, but sums and averages are reals without float rounding.
- Number parsing in WKT text (`float(token)`) is a `FloatParser` parameter: a partial function from a token to a real.
- Pydantic's own validation messages are not modelled. A request that fails validation parses to `None`, which stands for the 422 reply, and the request models' accept and reject decisions are modelled as the lax mode of pydantic 2 makes them.
- The middleware's response models are validated field by field where a parsed value reaches them: the route totals, the walking time, the transport types and every field of a `PublicTransportStep`. The fields the code fills with its own constants or `_safe_int` results always pass and are not re-checked.
- RoutingMiddleware.IntText: integer text is accepted after stripping the white space of `Text.IsSpace`, with an optional sign and decimal digits, and an optional trailing "." followed by zeros. Digit separators (`_`) and non-ASCII digits, which pydantic also accepts, are refused.
- RoutingMiddleware.DurationText: the text of a float or boolean duration, such as "5.0 min" or "True sec", comes from the `show` parameter that stands for Python's `str`. The contract fixes which branch prints it, but not the digits.
- PathAgent.Ordered: "order" values that are lists or tuples compare element by element in Python. The model treats them as incomparable, so a route whose waypoints are ordered by lists is reported as raising.
- PtClient.NormalizeJson: when the first value is a number beyond 90 in magnitude, Python never looks at the second and returns the pair as it stands, even if the second is not a number. The model's points hold numbers only, so it reports such a pair as unreadable.
- Movements.SetOf: `list(set(...))` orders the transport types by their hashes, which Python leaves unspecified for text. The model fixes first-occurrence order. A contract that names the list itself holds for that order only; its membership and no-repeat parts hold for any order.
- PtOptions.Types: `transport_type not in option["transport_types"]` compares with Python's `==`, under which 1, 1.0 and True are one value. The model compares JSON values structurally, so a route listing such mixed number types would keep each of them.
- The back end's response models `TokenResponse` and `UserInfo` are validated as pydantic 2 does for text fields: the reply is refused, which stands for the 500, unless each `str` field holds text and each `Optional[str]` field holds text or `None`. The middleware's `transport_types` in `routing/routing_middleware.py:435` always hold text or `None` once the steps have validated, so its set is modelled as a set of JSON values.
- RoomServer.Enabled: a frame may be received on a socket that is already broken. This stands for frames buffered before the close. A handler whose own socket is broken quits and leaves the room, as the Python handler does when its send raises.
- RoomServer.TickEvent: `_cleanup_stale` runs as one step. The Python sweep awaits `websocket.close()` and the broadcasts between pops, so other handlers can run in the middle of a sweep. Those interleavings are not explored.
- Places: `Place` leaves out pydantic's lax coercion of numeric strings into `lat` and `lon` (`routing/models.py:16-17`). Coordinates arrive as reals.
- Text.Lower and Text.Upper map only ASCII and Cyrillic letters. The texts in this code base (emails, logins, city names, keywords) are in those alphabets; other scripts are left unchanged.
- Text.IsSpace and Text.IsDigit: white space is the ASCII and Latin-1 set that `str.strip` removes, and a digit is `0`-`9`. Other Unicode spaces and digits, which Python's `str.strip` and `\d` also accept, are not recognised.
- BackAuth.CoerceUserId rejects texts with `_` digit separators such as "1_000", which Python's `int` accepts.
- SupabaseMock.Eq compares JSON values structurally, whereas Python has `1 == 1.0 == True`, so a filter on `1` also matches `1.0` and `True` in the original.
- RoomSocket.Step takes the frame's `lat`, `lon`, `heading` and `accuracy` as `Option<real>`, while `MemberLocation` stores whatever JSON value arrives (`core/room_manager.py:39-46`). Non-numeric coordinates are not modelled.
- The chat helpers `add_user_chat_message`, `add_agent_chat_message` and `broadcast_agent_typing` are modelled as broadcasts to the room. Their module, `back/room_manager.py`, is not part of this model.
- A dict's keys are visited once, in insertion order, and the model keeps that order as the sequence order. Python's `dict` guarantees this order.
- `RoomServer` runs the code as written: the unguarded `Connect` and the sweep without re-election. The corrected definitions stand beside them in `RoomSocket` and `RoomSweep`, with lemmas saying where the two agree.
- Logging, configuration loading, app wiring and the exploratory test scripts are not modelled, because they carry no decisions. The identical copies of the detour ranking and the older copy of the routing client are covered by one model each.

## Findings

| source | as written | input that shows it | evidently intended | confidence | as-written member | corrected member |
|---|---|---|---|---|---|---|
| routing/auth_endpoints.py:64-70 | The 400 "Email already registered" is raised inside the `try` whose `except Exception` turns anything without "404" in its text into 500 "Database error". | Register an email that is already stored. The 400's text, "400: Email already registered", has no "404", so the reply is 500. | A taken email answers 400 "Email already registered". | high, not executed | RoutingAuth.DuplicateEmailGives500 | RoutingAuth.Register |
| core/room_manager.py:118-127 | The sweep pops stale members directly, with no host re-election. | A room with host H (last heartbeat 0) and member B (last heartbeat 100), swept at time 100. H is removed and B stays, but nobody is host. | The `leave_room` path, so the first remaining member becomes host and `host_changed` is sent. | medium, not executed | RoomSweep.SweepLeavesRoomHostless | RoomSweep.SweepElectsHost |
| back/main.py:244-253 | `room_state` is sent after `join_room` and outside the `try` whose handlers call `leave_room`. | A client whose socket fails on that first send. It has already joined, and the exception leaves the handler without `leave_room`. The member stays in the room, counted in `room_state` and the member counts, until the next broadcast that targets it fails and `_broadcast_to_room` calls `leave_room` (`RoomOps.BroadcastRemovesFailed`), or until the sweep, whichever comes first. | A failed first send also ends in `leave_room`. | medium, not executed | RoomSocket.ConnectStrandsMember | RoomSocket.ConnectGuardedLeavesNoGhost |

=== FILE: back_auth.dfy ===
/** The back end's account endpoints: email and login normalisation, the request validators,
    the register and login decisions, and the bearer-token endpoints. The user table, password
    hashing and checking, and token signing and decoding are parameters; `None` is an
    exception the endpoint does not handle. */
module BackAuth {
  import opened Wrappers
  import opened Text
  import opened Json
  import opened Numerals

  // ---------------------------------------------------------------------------------------
  // Helpers
  // ---------------------------------------------------------------------------------------

  /** `_normalize_email(email)`: stripped, then lower-cased. */
  function NormalizeEmail(email: string): (r: string)
    ensures |r| == |Strip(email)|
    ensures forall i :: 0 <= i < |r| ==> r[i] == LowerChar(Strip(email)[i]) && !IsUpperChar(r[i])
  {
    Lower(Strip(email))
  }

  /** Normalising a normalised email changes nothing. */
  lemma NormalizeIdempotent(email: string)
    ensures NormalizeEmail(NormalizeEmail(email)) == NormalizeEmail(email)
  {
    StripLowerCommute(Strip(email));
    StripIdempotent(email);
    CaseIdempotent(Strip(email));
  }

  /** `(value or "")` followed by `.strip()`; `None` where a truthy non-string has no `strip`. */
  function StrippedOrEmpty(v: Json): (r: Option<string>)
    ensures !Truthy(v) ==> r == Some("")
    ensures v.Str? ==> r == Some(Strip(v.s))
    ensures r.None? <==> Truthy(v) && !v.Str?
    ensures r.Some? ==> Strip(r.value) == r.value
  {
    if !Truthy(v) then Some("")
    else if v.Str? then StripIdempotent(v.s); Some(Strip(v.s))
    else None
  }

  lemma LStripSpaceFirst(b: string)
    requires |b| == 0 || !IsSpace(b[0])
    ensures LStrip(" " + b) == b
  {
    assert (" " + b)[1..] == b;
  }

  lemma RStripSpaceLast(a: string)
    requires |a| == 0 || !IsSpace(a[|a| - 1])
    ensures RStrip(a + " ") == a
  {
    assert (a + " ")[..|a|] == a;
  }

  /** `f"{first} {last}".strip()` for stripped parts: both joined by one space, or whichever is
      not empty. */
  lemma {:induction false} FullName(first: string, last: string)
    requires first == Strip(first) && last == Strip(last)
    ensures Strip(first + " " + last) ==
      (if first == "" then last else if last == "" then first else first + " " + last)
  {
    if first == "" {
      FullNameLastOnly(last);
    } else if last == "" {
      FullNameFirstOnly(first);
    } else {
      FullNameBoth(first, last);
    }
  }

  lemma FullNameLastOnly(last: string)
    requires last == Strip(last)
    ensures Strip("" + " " + last) == last
  {
    assert "" + " " + last == " " + last;
    assert |last| == 0 || !IsSpace(last[0]) by {
      if |last| > 0 {
        StrippedEnds(last);
      }
    }
    LStripSpaceFirst(last);
    if |last| > 0 {
      StrippedEnds(last);
    }
  }

  lemma FullNameFirstOnly(first: string)
    requires first == Strip(first) && first != ""
    ensures Strip(first + " " + "") == first
  {
    var s := first + " ";
    assert first + " " + "" == s;
    StrippedEnds(first);
    assert s[0] == first[0];
    assert LStrip(s) == s;
    RStripSpaceLast(first);
  }

  lemma FullNameBoth(first: string, last: string)
    requires first == Strip(first) && last == Strip(last) && first != "" && last != ""
    ensures Strip(first + " " + last) == first + " " + last
  {
    var s := first + " " + last;
    StrippedEnds(first);
    StrippedEnds(last);
    assert s[0] == first[0] && s[|s| - 1] == last[|last| - 1];
    StripUnchanged(s);
  }

  /** `_build_user_name(user)`. */
  function BuildUserName(user: Json): (r: Option<Json>)
    requires user.Obj?
    ensures var f := StrippedOrEmpty(Get(user, "first_name", Null));
      var l := StrippedOrEmpty(Get(user, "last_name", Null));
      (r.None? <==> f.None? || l.None?)
      && (r.Some? ==>
        var full := if f.value == "" then l.value else if l.value == "" then f.value else f.value + " " + l.value;
        if full != "" then r.value == Str(full)
        else r.value == Or(Get(user, "login", Null), Or(Get(user, "email", Null), Str("User"))))
  {
    var f := StrippedOrEmpty(Get(user, "first_name", Null));
    var l := StrippedOrEmpty(Get(user, "last_name", Null));
    if f.None? || l.None? then None
    else
      FullName(f.value, l.value);
      var full := Strip(f.value + " " + l.value);
      if full != "" then Some(Str(full))
      else Some(Or(Get(user, "login", Null), Or(Get(user, "email", Null), Str("User"))))
  }

  /** A user with neither first nor last name, login nor email is called "User". */
  lemma AnonymousIsUser(user: Json)
    requires user.Obj?
    requires !Truthy(Get(user, "first_name", Null)) && !Truthy(Get(user, "last_name", Null))
    requires !Truthy(Get(user, "login", Null)) && !Truthy(Get(user, "email", Null))
    ensures BuildUserName(user) == Some(Str("User"))
  {
    assert StrippedOrEmpty(Get(user, "first_name", Null)) == Some("");
    assert StrippedOrEmpty(Get(user, "last_name", Null)) == Some("");
    FullName("", "");
    assert Strip("" + " " + "") == "";
    assert Or(Get(user, "email", Null), Str("User")) == Str("User");
    assert Or(Get(user, "login", Null), Str("User")) == Str("User");
  }

  /** Python's `int(text)` for decimal text: optional surrounding white space and sign, then
      digits. */
  function ParseDecimal(text: string): (r: Option<int>)
  {
    ParseStripped(Strip(text))
  }

  /** `_coerce_user_id(value)`: `int(value)`, or 500 "Invalid user id format". */
  function CoerceUserId(value: Json): (r: Result<int>)
    ensures value.Int? ==> r == Ok(value.i)
    ensures value.Null? || value.Arr? || value.Obj? ==> r == Err(500, "Invalid user id format")
    ensures r.Err? ==> r == Err(500, "Invalid user id format")
  {
    match value
      case Int(i) => Ok(i)
      case Bool(b) => Ok(if b then 1 else 0)
      case Float(x) => Ok(Truncate(x))
      case Str(s) =>
        var n := ParseDecimal(s);
        if n.Some? then Ok(n.value) else Err(500, "Invalid user id format")
      case _ => Err(500, "Invalid user id format")
  }

  /** A rendered natural number has no white space at either end. */
  lemma DigitsUnstripped(m: nat)
    ensures var d := NatToString(m); Strip(d) == d && !IsSpace(d[0]) && d[0] != '-' && d[0] != '+'
  {
    var d := NatToString(m);
    assert IsDigit(d[0]) && IsDigit(d[|d| - 1]);
    StripUnchanged(d);
  }

  /** An id written out in decimal reads back as itself. */
  lemma CoerceUserIdText(n: int)
    ensures CoerceUserId(Str(IntToString(n))) == Ok(n)
  {
    var text := IntToString(n);
    if n >= 0 {
      NonNegativeIdText(n);
      CoerceParsed(text, n);
    } else {
      NegativeIdText(-n);
      CoerceParsed(text, n);
    }
  }

  /** Text that parses is coerced to its number. */
  lemma CoerceParsed(text: string, v: int)
    requires ParseDecimal(text) == Some(v)
    ensures CoerceUserId(Str(text)) == Ok(v)
  {
  }

  lemma NonNegativeIdText(m: nat)
    ensures ParseDecimal(NatToString(m)) == Some(m)
  {
    DigitsUnstripped(m);
    var d := NatToString(m);
    assert ParseStripped(d) == Some(DigitsToNat(d));
    NatToStringRoundTrip(m);
  }

  lemma NegativeIdText(m: nat)
    requires m > 0
    ensures ParseDecimal("-" + NatToString(m)) == Some(0 - m)
  {
    var d := NatToString(m);
    MinusDigitsUnstripped(m);
    ParseNegative("-" + d);
    NatToStringRoundTrip(m);
  }

  /** A minus sign before a rendered number: nothing to strip, and the digits follow it. */
  lemma MinusDigitsUnstripped(m: nat)
    ensures var d := NatToString(m); var s := "-" + d;
      Strip(s) == s && s[1..] == d && |s| > 1 && s[0] == '-' && AllDigits(s[1..])
  {
    var d := NatToString(m);
    var s := "-" + d;
    assert s[1..] == d;
    assert s[|s| - 1] == d[|d| - 1];
    assert IsDigit(d[|d| - 1]);
    StripUnchanged(s);
  }

  /** A minus sign followed by digits reads as the negated number. */
  lemma ParseNegative(t: string)
    requires |t| > 1 && t[0] == '-' && AllDigits(t[1..])
    ensures ParseStripped(t) == Some(0 - DigitsToNat(t[1..]))
  {
  }

  /** `_parse_bearer_token(credentials)`, with what the bearer scheme parsed as
      `(scheme, credentials)`. */
  function ParseBearerToken(credentials: Option<(string, string)>): (r: Result<string>)
    ensures credentials.None? ==> r == Err(401, "Missing authorization header")
    ensures r.Ok? <==> credentials.Some? && Lower(credentials.value.0) == "bearer"
    ensures r.Ok? ==> r.value == credentials.value.1
    ensures r.Err? ==> r.status == 401
  {
    if credentials.None? then Err(401, "Missing authorization header")
    else if Lower(credentials.value.0) != "bearer" then Err(401, "Invalid authentication scheme")
    else Ok(credentials.value.1)
  }

  // ---------------------------------------------------------------------------------------
  // `UserRegister`
  // ---------------------------------------------------------------------------------------

  /** `UserRegister.validate_email`: `None` where it raises. */
  function CheckEmail(v: string): (r: Option<string>)
    ensures r.Some? <==> '@' in v && '.' in v
    ensures r.Some? ==> r.value == NormalizeEmail(v)
  {
    if '@' in v && '.' in v then Some(NormalizeEmail(v)) else None
  }

  /** A login character: a letter, a digit, `_`, `-` or `.`. */
  predicate LoginChar(c: char)
  {
    IsAlnumChar(c) || c == '_' || c == '-' || c == '.'
  }

  /** `login.replace("_", "").replace("-", "").replace(".", "")`. */
  function Sanitized(login: string): string
  {
    RemoveChar(RemoveChar(RemoveChar(login, '_'), '-'), '.')
  }

  /** `UserRegister.validate_login`: the stripped login, or `None` where it raises. */
  function CheckLogin(v: string): (r: Option<string>)
    ensures r.Some? ==> r.value == Strip(v)
    ensures r.Some? <==>
      (forall i :: 0 <= i < |Strip(v)| ==> LoginChar(Strip(v)[i]))
      && exists i :: 0 <= i < |Strip(v)| && IsAlnumChar(Strip(v)[i])
  {
    var login := Strip(v);
    SanitizedChars(login);
    if IsAlnum(Sanitized(login)) then Some(login) else None
  }

  /** The sanitised login keeps exactly the characters other than `_`, `-` and `.`. */
  lemma SanitizedChars(login: string)
    ensures forall c :: c in Sanitized(login) <==> c in login && c != '_' && c != '-' && c != '.'
    ensures IsAlnum(Sanitized(login)) <==>
      (forall i :: 0 <= i < |login| ==> LoginChar(login[i])) && exists i :: 0 <= i < |login| && IsAlnumChar(login[i])
  {
    var a := RemoveChar(login, '_');
    var b := RemoveChar(a, '-');
    var s := RemoveChar(b, '.');
    forall c
      ensures c in s <==> c in login && c != '_' && c != '-' && c != '.'
    {
      if c in s {
        var i :| 0 <= i < |s| && s[i] == c;
        assert c in b;
        var j :| 0 <= j < |b| && b[j] == c;
        assert c in a;
        var k :| 0 <= k < |a| && a[k] == c;
        assert c in login;
      }
      if c in login && c != '_' && c != '-' && c != '.' {
        var i :| 0 <= i < |login| && login[i] == c;
        assert c in a;
        var j :| 0 <= j < |a| && a[j] == c;
        assert c in b;
        var k :| 0 <= k < |b| && b[k] == c;
        assert c in s;
      }
    }
    if IsAlnum(s) {
      forall i | 0 <= i < |login|
        ensures LoginChar(login[i])
      {
        var c := login[i];
        if c != '_' && c != '-' && c != '.' {
          assert c in s;
          var j :| 0 <= j < |s| && s[j] == c;
        }
      }
      assert s[0] in login;
      var i :| 0 <= i < |login| && login[i] == s[0];
    }
    if (forall i :: 0 <= i < |login| ==> LoginChar(login[i])) && exists i :: 0 <= i < |login| && IsAlnumChar(login[i]) {
      var i :| 0 <= i < |login| && IsAlnumChar(login[i]);
      assert login[i] != '_' && login[i] != '-' && login[i] != '.' by {
        assert IsDigit(login[i]) || IsAsciiLetter(login[i]) || '\U{0400}' <= login[i];
      }
      assert login[i] in s;
      forall j | 0 <= j < |s|
        ensures IsAlnumChar(s[j])
      {
        assert s[j] in s;
        var k :| 0 <= k < |login| && login[k] == s[j];
      }
    }
  }

  datatype UserRegister = UserRegister(email: string, password: string, login: string, firstName: string, lastName: string)

  /** Building a `UserRegister`: the length bounds hold for the submitted text and the
      validators accept it; `last_name` defaults to "". */
  function ParseRegister(email: string, password: string, login: string, firstName: string,
                         lastName: Option<string>): (r: Option<UserRegister>)
    ensures r.Some? <==>
      5 <= |email| <= 255 && 8 <= |password| <= 100 && 3 <= |login| <= 50 && 1 <= |firstName| <= 50
      && (lastName.Some? ==> |lastName.value| <= 50)
      && CheckEmail(email).Some? && CheckLogin(login).Some?
    ensures r.Some? ==>
      r.value.email == NormalizeEmail(email) && r.value.login == Strip(login)
      && r.value.password == password && r.value.firstName == firstName
      && r.value.lastName == (if lastName.Some? then lastName.value else "")
  {
    var last := if lastName.Some? then lastName.value else "";
    if !(5 <= |email| <= 255 && 8 <= |password| <= 100 && 3 <= |login| <= 50 && 1 <= |firstName| <= 50 && |last| <= 50)
    then None
    else
      var e := CheckEmail(email);
      var l := CheckLogin(login);
      if e.None? || l.None? then None else Some(UserRegister(e.value, password, l.value, firstName, last))
  }

  // ---------------------------------------------------------------------------------------
  // Endpoints
  // ---------------------------------------------------------------------------------------

  /** The body of a token response; pydantic accepts only text for its text fields. */
  datatype TokenResponse = TokenResponse(accessToken: string, tokenType: string, userId: int, email: string,
                                         login: string, name: string)

  /** The user table's answers: the first row found (`None` for none). */
  type Finder = string -> Json

  /** What `insert(...).execute()` did: raised with a text, or returned rows. */
  datatype Inserted = Raised(text: string) | Rows(rows: seq<Json>)

  /** The shared tail of register and login: the token response for a stored user. The name
      is built before `TokenResponse(...)` is called, the id is coerced while its arguments are
      evaluated, and the model then refuses an email, login or name that is not text. */
  function Respond(user: Json, email: string, login: Json, missing: string, sign: (string, Json) -> string,
                   show: Json -> string): (r: Option<Result<TokenResponse>>)
    requires user.Obj?
    ensures Get(user, "id", Null) == Null ==> r == Some(Err(500, missing))
    ensures Get(user, "id", Null) != Null && BuildUserName(user).Some? && CoerceUserId(Get(user, "id", Null)).Err? ==>
      r == Some(Err(500, "Invalid user id format"))
    ensures Get(user, "id", Null) != Null && BuildUserName(user).Some? && CoerceUserId(Get(user, "id", Null)).Ok? ==>
      (r.Some? <==> Get(user, "email", Str(email)).Str? && Get(user, "login", login).Str? && BuildUserName(user).value.Str?)
    ensures r.Some? && r.value.Ok? ==>
      var t := r.value.value;
      Ok(t.userId) == CoerceUserId(Get(user, "id", Null)) && t.tokenType == "bearer"
      && t.accessToken == sign(show(Get(user, "id", Null)), Get(user, "email", Str(email)))
      && Get(user, "email", Str(email)) == Str(t.email) && Get(user, "login", login) == Str(t.login)
      && BuildUserName(user) == Some(Str(t.name))
  {
    var id := Get(user, "id", Null);
    if id == Null then Some(Err(500, missing))
    else
      var mail := Get(user, "email", Str(email));
      var token := sign(show(id), mail);
      var name := BuildUserName(user);
      if name.None? then None
      else
        var uid := CoerceUserId(id);
        var stored := Get(user, "login", login);
        if uid.Err? then Some(Err(uid.status, uid.detail))
        else if !mail.Str? || !stored.Str? || !name.value.Str? then None
        else Some(Ok(TokenResponse(token, "bearer", uid.value, mail.s, stored.s, name.value.s)))
  }

  /** The row `register` inserts: five entries holding the normalised email, the password's
      hash, the login and both names; no id, which the table assigns, and no avatar. */
  function NewUserRow(req: UserRegister, hash: string -> string): (row: Json)
    ensures row.Obj? && |row.fields| == 5
    ensures Get(row, "email", Null) == Str(req.email) && Get(row, "password", Null) == Str(hash(req.password))
    ensures Get(row, "login", Null) == Str(req.login)
    ensures Get(row, "first_name", Null) == Str(req.firstName) && Get(row, "last_name", Null) == Str(req.lastName)
  {
    var fields := [("email", Str(req.email)), ("password", Str(hash(req.password))), ("login", Str(req.login)),
                   ("first_name", Str(req.firstName)), ("last_name", Str(req.lastName))];
    LookupAt(fields, 0, "email");
    LookupAt(fields, 1, "password");
    LookupAt(fields, 2, "login");
    LookupAt(fields, 3, "first_name");
    LookupAt(fields, 4, "last_name");
    Obj(fields)
  }

  /** `register(user_data)`. */
  function Register(req: UserRegister, byEmail: Finder, byLogin: Finder, hash: string -> string,
                    insert: Json -> Inserted, sign: (string, Json) -> string, show: Json -> string): (r: Option<Result<TokenResponse>>)
    ensures Truthy(byEmail(req.email)) ==> r == Some(Err(400, "Email already registered"))
    ensures !Truthy(byEmail(req.email)) && Truthy(byLogin(req.login)) ==> r == Some(Err(400, "Login already registered"))
    ensures r.Some? && r.value.Ok? ==> !Truthy(byEmail(req.email)) && !Truthy(byLogin(req.login))
    ensures !Truthy(byEmail(req.email)) && !Truthy(byLogin(req.login)) ==>
      match insert(NewUserRow(req, hash))
        case Raised(t) => r == Some(Err(500, "Registration failed: " + t))
        case Rows(rows) =>
          (rows == [] ==> r == Some(Err(500, "Failed to create user")))
          && (rows != [] && rows[0].Obj? ==>
                r == Respond(rows[0], req.email, Str(req.login), "User ID missing from registration response", sign, show))
  {
    if Truthy(byEmail(req.email)) then Some(Err(400, "Email already registered"))
    else if Truthy(byLogin(req.login)) then Some(Err(400, "Login already registered"))
    else
      match insert(NewUserRow(req, hash))
        case Raised(text) => Some(Err(500, "Registration failed: " + text))
        case Rows(rows) =>
          if rows == [] then Some(Err(500, "Failed to create user"))
          else if !rows[0].Obj? then None
          else Respond(rows[0], req.email, Str(req.login), "User ID missing from registration response", sign, show)
  }

  /** When the table echoes the inserted row with a new integer id, as Supabase does, the reply
      describes the registered user: that id, the email and login submitted, and the full name,
      or the login when both names are blank; the token is signed for the id and the email. */
  lemma RegisterEchoesRow(req: UserRegister, byEmail: Finder, byLogin: Finder, hash: string -> string,
                          insert: Json -> Inserted, sign: (string, Json) -> string, show: Json -> string, id: int)
    requires !Truthy(byEmail(req.email)) && !Truthy(byLogin(req.login)) && req.login != ""
    requires insert(NewUserRow(req, hash)) == Rows([Put(NewUserRow(req, hash), "id", Int(id))])
    ensures var full := Strip(Strip(req.firstName) + " " + Strip(req.lastName));
      Register(req, byEmail, byLogin, hash, insert, sign, show)
      == Some(Ok(TokenResponse(sign(show(Int(id)), Str(req.email)), "bearer", id, req.email, req.login,
                               if full != "" then full else req.login)))
  {
    var row := Put(NewUserRow(req, hash), "id", Int(id));
    EchoedRow(req, hash, id);
    assert Register(req, byEmail, byLogin, hash, insert, sign, show)
        == Respond(row, req.email, Str(req.login), "User ID missing from registration response", sign, show);
  }

  /** The echoed row reads back as the row inserted, with its id. */
  lemma EchoedRow(req: UserRegister, hash: string -> string, id: int)
    requires req.login != ""
    ensures var row := Put(NewUserRow(req, hash), "id", Int(id));
      var full := Strip(Strip(req.firstName) + " " + Strip(req.lastName));
      row.Obj? && Get(row, "id", Null) == Int(id) && Get(row, "email", Str(req.email)) == Str(req.email)
      && Get(row, "login", Str(req.login)) == Str(req.login)
      && BuildUserName(row) == Some(Str(if full != "" then full else req.login))
  {
    EchoedNames(req, hash, id);
  }

  /** The names the echoed row gives `_build_user_name`. */
  lemma EchoedNames(req: UserRegister, hash: string -> string, id: int)
    requires req.login != ""
    ensures var row := Put(NewUserRow(req, hash), "id", Int(id));
      var full := Strip(Strip(req.firstName) + " " + Strip(req.lastName));
      BuildUserName(row) == Some(Str(if full != "" then full else req.login))
  {
    var row := Put(NewUserRow(req, hash), "id", Int(id));
    assert Get(row, "first_name", Null) == Str(req.firstName);
    assert Get(row, "last_name", Null) == Str(req.lastName);
    assert Get(row, "login", Null) == Str(req.login);
    StrippedText(req.firstName);
    StrippedText(req.lastName);
  }

  /** A text field read through `(v or "").strip()` is the stripped text, empty included. */
  lemma StrippedText(s: string)
    ensures StrippedOrEmpty(Str(s)) == Some(Strip(s))
  {
    if s == "" {
      StripShape(s);
    }
  }

  /** `UserLogin`: the email is normalised, the password kept. */
  function ParseLogin(email: string, password: string): (r: (string, string))
    ensures r.0 == NormalizeEmail(email) && r.1 == password
  {
    (NormalizeEmail(email), password)
  }

  /** `login(credentials)`; `verify` is `AuthService.verify_password`. */
  function Login(email: string, password: string, byEmail: Finder, verify: (string, Json) -> bool,
                 sign: (string, Json) -> string, show: Json -> string): (r: Option<Result<TokenResponse>>)
    ensures var user := byEmail(email);
      var stored := if user.Obj? then Get(user, "password", Null) else Null;
      (r == Some(Err(401, "Invalid credentials")) <==>
        !Truthy(user) || (user.Obj? && (!Truthy(stored) || !verify(password, stored))))
    ensures r.Some? && r.value.Ok? ==>
      byEmail(email).Obj? && Truthy(Get(byEmail(email), "password", Null))
      && verify(password, Get(byEmail(email), "password", Null))
  {
    var user := byEmail(email);
    if !Truthy(user) then Some(Err(401, "Invalid credentials"))
    else if !user.Obj? then None
    else
      var stored := Get(user, "password", Null);
      if !Truthy(stored) || !verify(password, stored) then Some(Err(401, "Invalid credentials"))
      else Respond(user, email, Str(""), "User ID missing from login response", sign, show)
  }

  /** The body of a user-information response: `email` and `name` must be text, the other
      fields `None` or text. */
  datatype UserInfo = UserInfo(id: int, email: string, name: string, login: Json, firstName: Json, lastName: Json,
                               avatarUrl: Json)

  /** `verify_token` and `get_current_user`, whose bodies are the same: the token from the
      bearer credentials, its payload from `decode`, and the user under its "sub" from `byId`.
      The id is coerced first among `UserInfo`'s arguments, then the name is built, and the
      model then refuses fields of the wrong type. */
  function CurrentUser(credentials: Option<(string, string)>, decode: string -> Json, byId: Json -> Json): (r: Option<Result<UserInfo>>)
    ensures ParseBearerToken(credentials).Err? ==>
      r == Some(Err(401, ParseBearerToken(credentials).detail))
    ensures ParseBearerToken(credentials).Ok? && !Truthy(decode(ParseBearerToken(credentials).value)) ==>
      r == Some(Err(401, "Invalid or expired token"))
    ensures r.Some? && r.value.Ok? ==> ParseBearerToken(credentials).Ok?
    ensures ParseBearerToken(credentials).Ok? && decode(ParseBearerToken(credentials).value).Obj?
            && Truthy(decode(ParseBearerToken(credentials).value)) ==>
      var user := byId(Get(decode(ParseBearerToken(credentials).value), "sub", Str("")));
      (!Truthy(user) ==> r == Some(Err(401, "User not found")))
      && (user.Obj? && Truthy(user) && CoerceUserId(Get(user, "id", Null)).Err? ==> r == Some(Err(500, "Invalid user id format")))
      && (user.Obj? && Truthy(user) && CoerceUserId(Get(user, "id", Null)).Ok? && BuildUserName(user).Some? ==>
            (r.Some? <==> Get(user, "email", Str("")).Str? && BuildUserName(user).value.Str?
                          && OptStr(Get(user, "login", Null)) && OptStr(Get(user, "first_name", Null))
                          && OptStr(Get(user, "last_name", Null)) && OptStr(Get(user, "avatar_url", Null)))
            && (r.Some? ==> r.value.Ok?))
      && (r.Some? && r.value.Ok? ==>
            var u := r.value.value;
            user.Obj? && Ok(u.id) == CoerceUserId(Get(user, "id", Null)) && Get(user, "email", Str("")) == Str(u.email)
            && BuildUserName(user) == Some(Str(u.name)) && u.login == Get(user, "login", Null)
            && u.firstName == Get(user, "first_name", Null) && u.lastName == Get(user, "last_name", Null)
            && u.avatarUrl == Get(user, "avatar_url", Null))
  {
    var token := ParseBearerToken(credentials);
    if token.Err? then Some(Err(401, token.detail))
    else
      var payload := decode(token.value);
      if !Truthy(payload) then Some(Err(401, "Invalid or expired token"))
      else if !payload.Obj? then None
      else
        var user := byId(Get(payload, "sub", Str("")));
        if !Truthy(user) then Some(Err(401, "User not found"))
        else if !user.Obj? then None
        else
          var id := CoerceUserId(Get(user, "id", Null));
          var mail := Get(user, "email", Str(""));
          var name := BuildUserName(user);
          var login := Get(user, "login", Null);
          var first := Get(user, "first_name", Null);
          var last := Get(user, "last_name", Null);
          var avatar := Get(user, "avatar_url", Null);
          if id.Err? then Some(Err(id.status, id.detail))
          else if name.None? then None
          else if !mail.Str? || !name.value.Str? || !OptStr(login) || !OptStr(first) || !OptStr(last) || !OptStr(avatar)
          then None
          else Some(Ok(UserInfo(id.value, mail.s, name.value.s, login, first, last, avatar)))
  }

  /** A token whose subject names a row that registration stored reports that user: its id,
      email, name, login and both names, and no avatar. */
  lemma CurrentUserOfRegistered(credentials: Option<(string, string)>, decode: string -> Json, byId: Json -> Json,
                                req: UserRegister, hash: string -> string, id: int)
    requires req.login != ""
    requires ParseBearerToken(credentials).Ok? && decode(ParseBearerToken(credentials).value).Obj?
    requires Truthy(decode(ParseBearerToken(credentials).value))
    requires byId(Get(decode(ParseBearerToken(credentials).value), "sub", Str(""))) == Put(NewUserRow(req, hash), "id", Int(id))
    ensures var full := Strip(Strip(req.firstName) + " " + Strip(req.lastName));
      CurrentUser(credentials, decode, byId)
      == Some(Ok(UserInfo(id, req.email, if full != "" then full else req.login, Str(req.login), Str(req.firstName),
                          Str(req.lastName), Null)))
  {
    var row := Put(NewUserRow(req, hash), "id", Int(id));
    EchoedRow(req, hash, id);
    StoredUserFields(req, hash, id);
    var user := byId(Get(decode(ParseBearerToken(credentials).value), "sub", Str("")));
    assert user == row && user.Obj? && Truthy(user);
    assert CoerceUserId(Get(user, "id", Null)).Ok? && BuildUserName(user).Some?;
    assert Get(user, "email", Str("")).Str? && BuildUserName(user).value.Str?;
    assert OptStr(Get(user, "login", Null)) && OptStr(Get(user, "first_name", Null));
    assert OptStr(Get(user, "last_name", Null)) && OptStr(Get(user, "avatar_url", Null));
    var r := CurrentUser(credentials, decode, byId);
    assert r.Some? && r.value.Ok?;
    var u := r.value.value;
    assert Ok(u.id) == CoerceUserId(Get(row, "id", Null));
  }

  /** The fields `UserInfo` reads from a stored registration row. */
  lemma StoredUserFields(req: UserRegister, hash: string -> string, id: int)
    ensures var row := Put(NewUserRow(req, hash), "id", Int(id));
      Truthy(row) && CoerceUserId(Get(row, "id", Null)) == Ok(id) && Get(row, "email", Str("")) == Str(req.email)
      && Get(row, "first_name", Null) == Str(req.firstName) && Get(row, "last_name", Null) == Str(req.lastName)
      && Get(row, "login", Null) == Str(req.login) && Get(row, "avatar_url", Null) == Null
  {
    var row := Put(NewUserRow(req, hash), "id", Int(id));
    assert Has(row, "id");
    NoAvatarStored(req, hash);
  }

  /** Registration stores no avatar. */
  lemma NoAvatarStored(req: UserRegister, hash: string -> string)
    ensures !Has(NewUserRow(req, hash), "avatar_url")
  {
    var row := NewUserRow(req, hash);
    assert forall i :: 0 <= i < |row.fields| ==> row.fields[i].0 != "avatar_url";
  }
}

=== FILE: coerce.dfy ===
/** `_safe_int`, the lenient integer reader of both routing services: numbers are truncated,
    and a string yields its first run of decimal digits. */
module Coerce {
  import opened Wrappers
  import opened Text
  import opened Json
  import opened Numerals

  predicate NoDigits(s: string) {
    forall i :: 0 <= i < |s| ==> !IsDigit(s[i])
  }

  /** The first position at or after `i` holding a digit, or `|s|`. */
  function DigitStart(s: string, i: nat): (r: nat)
    requires i <= |s|
    ensures i <= r <= |s|
    ensures NoDigits(s[i..r])
    ensures r < |s| ==> IsDigit(s[r])
    decreases |s| - i
  {
    if i == |s| || IsDigit(s[i]) then i
    else
      var r := DigitStart(s, i + 1);
      assert s[i..r] == [s[i]] + s[i + 1..r];
      r
  }

  /** The first position at or after `j` that does not hold a digit, or `|s|`. */
  function DigitEnd(s: string, j: nat): (r: nat)
    requires j <= |s|
    ensures j <= r <= |s|
    ensures AllDigits(s[j..r])
    ensures r < |s| ==> !IsDigit(s[r])
    decreases |s| - j
  {
    if j == |s| || !IsDigit(s[j]) then j
    else
      var r := DigitEnd(s, j + 1);
      assert s[j..r] == [s[j]] + s[j + 1..r];
      r
  }

  /** The first maximal run of digits in `s`, as `re.search(r'(\d+)', s)` finds it. */
  function DigitRun(s: string): (r: Option<string>)
    ensures r.Some? ==> |r.value| > 0 && AllDigits(r.value)
  {
    var a := DigitStart(s, 0);
    if a == |s| then None else Some(s[a..DigitEnd(s, a)])
  }

  /** `_safe_int(value, default)`. */
  function SafeInt(value: Json, default: int): int
  {
    match value
      case Null => default
      case Bool(b) => if b then 1 else 0
      case Int(i) => i
      case Float(r) => Truncate(r)
      case Str(s) =>
        (match DigitRun(s)
           case Some(run) => DigitsToNat(run)
           case None => default)
      case _ => default
  }

  /** A string with no digit before a number, and no digit right after it, reads as that number;
      a string without digits reads as the default. */
  lemma SafeIntText(pre: string, n: nat, post: string, default: int)
    requires NoDigits(pre)
    requires post == [] || !IsDigit(post[0])
    ensures SafeInt(Str(pre + NatToString(n) + post), default) == n
    ensures SafeInt(Str(pre), default) == default
  {
    var digits := NatToString(n);
    var s := pre + digits + post;
    DigitStartSkips(s, pre);
    assert s[|pre|] == digits[0];
    DigitEndRuns(s, |pre|, digits);
    assert s[|pre|..|pre| + |digits|] == digits;
    NatToStringRoundTrip(n);
    DigitStartSkips(pre, pre);
  }

  lemma {:induction false} DigitStartSkips(s: string, pre: string)
    requires pre <= s && NoDigits(pre)
    ensures forall i :: 0 <= i <= |pre| ==> DigitStart(s, i) == DigitStart(s, |pre|)
    decreases |pre|
  {
    if |pre| > 0 {
      var p := pre[..|pre| - 1];
      DigitStartSkips(s, p);
      assert !IsDigit(s[|pre| - 1]);
    }
  }

  lemma {:induction false} DigitEndRuns(s: string, j: nat, digits: string)
    requires j + |digits| <= |s| && s[j..j + |digits|] == digits && AllDigits(digits)
    requires j + |digits| == |s| || !IsDigit(s[j + |digits|])
    ensures DigitEnd(s, j) == j + |digits|
    decreases |digits|
  {
    if |digits| > 0 {
      assert s[j] == digits[0];
      assert s[j + 1..j + 1 + |digits[1..]|] == digits[1..];
      DigitEndRuns(s, j + 1, digits[1..]);
    }
  }

  /** The minus sign is not part of the run: "-5" reads as 5. */
  lemma SafeIntDropsSign(n: nat)
    ensures SafeInt(Str("-" + NatToString(n)), 0) == n
  {
    SafeIntText("-", n, "", 0);
    assert "-" + NatToString(n) + "" == "-" + NatToString(n);
  }
}

=== FILE: doublegis_service.dfy ===
/** The 2GIS service of the trip planner: the city lookup and item filtering of the place
    search, the distance-matrix request through consecutive places and the sums read from its
    reply, the straight-line fallback, and the map link. The HTTP replies are inputs. */
module DoubleGis {
  import opened Wrappers
  import opened Text
  import opened Json
  import opened Numerals
  import opened Places
  import opened Seqs

  // ---------------------------------------------------------------------------------------
  // Place search
  // ---------------------------------------------------------------------------------------

  /** The cities whose centre is sent instead of their name, as "lon,lat". */
  const CityCoords: seq<(string, string)> := [
    ("astana", "71.430420,51.128207"),
    ("almaty", "76.945465,43.238949"),
    ("moscow", "37.617635,55.755814"),
    ("dubai", "55.296249,25.276987")
  ]

  predicate KnownCity(name: string)
  {
    exists k :: 0 <= k < |CityCoords| && CityCoords[k].0 == name
  }

  /** `city_coords.get(city.lower(), city)`. */
  function CityLocation(city: string): (r: string)
    ensures forall k :: 0 <= k < |CityCoords| && CityCoords[k].0 == Lower(city) ==> r == CityCoords[k].1
    ensures !KnownCity(Lower(city)) ==> r == city
  {
    var key := Lower(city);
    if key == "astana" then CityCoords[0].1
    else if key == "almaty" then CityCoords[1].1
    else if key == "moscow" then CityCoords[2].1
    else if key == "dubai" then CityCoords[3].1
    else city
  }

  /** Two spellings of a known city that differ only in case send the same centre. */
  lemma CityLookupIgnoresCase(a: string, b: string)
    requires Lower(a) == Lower(b) && KnownCity(Lower(a))
    ensures CityLocation(a) == CityLocation(b)
  {
  }

  /** The query parameters of `search_places`. */
  function SearchParams(query: string, city: string, key: string, limit: int): (r: Json)
    ensures r.Obj? && Get(r, "q", Null) == Str(query) && Get(r, "location", Null) == Str(CityLocation(city))
    ensures Get(r, "page_size", Null) == Int(limit)
  {
    var fields := [("q", Str(query)), ("location", Str(CityLocation(city))), ("key", Str(key)),
                   ("page_size", Int(limit)), ("fields", Str("items.point,items.address"))];
    LookupAt(fields, 0, "q");
    LookupAt(fields, 1, "location");
    LookupAt(fields, 3, "page_size");
    Obj(fields)
  }

  /** What the loop does with one item: skip it, keep a place, or raise. */
  datatype ItemOutcome = Skip | Keep(place: Place) | Fails

  /** A JSON string read into a `str` field. */
  function StrField(j: Json): Option<string>
  {
    if j.Str? then Some(j.s) else None
  }

  /** One item of the reply: an item for which `"point" in item` is false is skipped; one
      with a point becomes a place, or raises when the place cannot be built from it; and
      `in` itself raises on items that are not containers. */
  function PlaceOf(item: Json): (r: ItemOutcome)
    ensures r.Skip? <==> PyIn("point", item) == Some(false)
    ensures r.Keep? ==> item.Obj? && Has(item, "point")
                        && Get(item, "id", Str("")) == Str(r.place.id)
                        && Get(item, "name", Str("Unknown")) == Str(r.place.name)
                        && Get(item, "address_name", Str("")) == Str(r.place.address)
  {
    match PyIn("point", item)
      case None => Fails
      case Some(false) => Skip
      case Some(true) =>
        if !item.Obj? then Fails
        else
          var point := Get(item, "point", Null);
          if !point.Obj? || !Has(point, "lat") || !Has(point, "lon") then Fails
          else
            var lat, lon := Get(point, "lat", Null), Get(point, "lon", Null);
            var id := StrField(Get(item, "id", Str("")));
            var name := StrField(Get(item, "name", Str("Unknown")));
            var address := StrField(Get(item, "address_name", Str("")));
            var kind := Get(item, "type", Str(""));
            if id.None? || name.None? || address.None? || !IsNumber(lat) || !IsNumber(lon)
               || !(kind.Null? || kind.Str?) then Fails
            else
              Keep(Place(id.value, name.value, address.value, NumValue(lat), NumValue(lon),
                         if kind.Null? then None else Some(kind.s)))
  }

  /** A one-character string, which is what iterating over a string yields, never holds
      "point": such items are skipped. */
  lemma CharItemSkipped(c: char)
    ensures PlaceOf(Str([c])) == Skip
  {
    assert FindFrom([c], "point", 0) == -1;
  }

  /** What the loop does with each item, in item order. */
  function Outcomes(items: seq<Json>): (r: seq<ItemOutcome>)
    ensures |r| == |items| && forall i :: 0 <= i < |items| ==> r[i] == PlaceOf(items[i])
  {
    Map(PlaceOf, items)
  }

  /** The number of items that become places. */
  function KeptCount(outs: seq<ItemOutcome>): nat
    decreases |outs|
  {
    if |outs| == 0 then 0
    else KeptCount(outs[..|outs| - 1]) + (if outs[|outs| - 1].Keep? then 1 else 0)
  }

  /** The item loop on the items' outcomes: the places kept, in order; absent when some item
      raises. */
  function Gather(outs: seq<ItemOutcome>): (r: Option<seq<Place>>)
    ensures r.Some? <==> forall i :: 0 <= i < |outs| ==> !outs[i].Fails?
    ensures r.Some? ==> |r.value| == KeptCount(outs)
    decreases |outs|
  {
    if |outs| == 0 then Some([])
    else
      var init := outs[..|outs| - 1];
      assert forall i :: 0 <= i < |init| ==> init[i] == outs[i];
      match Gather(init)
        case None => None
        case Some(before) =>
          match outs[|outs| - 1]
            case Fails => None
            case Skip => Some(before)
            case Keep(p) => Some(before + [p])
  }

  /** The item loop: the places of the items with a point, in item order; absent when some
      item raises. */
  function Collect(items: seq<Json>): (r: Option<seq<Place>>)
    ensures r.Some? <==> forall i :: 0 <= i < |items| ==> !PlaceOf(items[i]).Fails?
    ensures r.Some? ==> |r.value| == KeptCount(Outcomes(items))
  {
    Gather(Outcomes(items))
  }

  /** The places gathered are exactly the places of the outcomes that keep one. */
  lemma {:induction false} GatherMembers(outs: seq<ItemOutcome>)
    requires Gather(outs).Some?
    ensures forall i :: 0 <= i < |outs| && outs[i].Keep? ==> outs[i].place in Gather(outs).value
    ensures forall p :: p in Gather(outs).value ==> exists i :: 0 <= i < |outs| && outs[i] == Keep(p)
    decreases |outs|
  {
    if |outs| > 0 {
      var init := outs[..|outs| - 1];
      assert forall i :: 0 <= i < |init| ==> init[i] == outs[i];
      GatherMembers(init);
      var before := Gather(init).value;
      var last := outs[|outs| - 1];
      assert Gather(outs).value == before + (if last.Keep? then [last.place] else []);
      forall i | 0 <= i < |outs| && outs[i].Keep?
        ensures outs[i].place in Gather(outs).value
      {
        if i < |init| {
          assert init[i].place in before;
        }
      }
      forall p | p in Gather(outs).value
        ensures exists i :: 0 <= i < |outs| && outs[i] == Keep(p)
      {
        if p in before {
          var i :| 0 <= i < |init| && init[i] == Keep(p);
          assert outs[i] == Keep(p);
        } else {
          assert outs[|outs| - 1] == Keep(p);
        }
      }
    }
  }

  /** The places collected are exactly the places of the items that are kept. */
  lemma CollectMembers(items: seq<Json>)
    requires Collect(items).Some?
    ensures forall i :: 0 <= i < |items| && PlaceOf(items[i]).Keep? ==> PlaceOf(items[i]).place in Collect(items).value
    ensures forall p :: p in Collect(items).value ==> exists i :: 0 <= i < |items| && PlaceOf(items[i]) == Keep(p)
  {
    var outs := Outcomes(items);
    GatherMembers(outs);
    forall p | p in Collect(items).value
      ensures exists i :: 0 <= i < |items| && PlaceOf(items[i]) == Keep(p)
    {
      var i :| 0 <= i < |outs| && outs[i] == Keep(p);
      assert PlaceOf(items[i]) == Keep(p);
    }
  }

  /** Gathering a run of outcomes is gathering its parts, in order. */
  lemma {:induction false} GatherConcat(a: seq<ItemOutcome>, b: seq<ItemOutcome>)
    requires Gather(a).Some? && Gather(b).Some?
    ensures Gather(a + b) == Some(Gather(a).value + Gather(b).value)
    decreases |b|
  {
    if |b| == 0 {
      assert a + b == a;
      assert Gather(a).value + Gather(b).value == Gather(a).value;
    } else {
      var b0 := b[..|b| - 1];
      assert (a + b)[..|a + b| - 1] == a + b0;
      assert (a + b)[|a + b| - 1] == b[|b| - 1];
      assert Gather(b0).Some? by {
        assert forall i :: 0 <= i < |b0| ==> b0[i] == b[i];
      }
      GatherConcat(a, b0);
      var x := b[|b| - 1];
      assert !x.Fails?;
      var piece := if x.Keep? then [x.place] else [];
      assert Gather(b).value == Gather(b0).value + piece;
      assert Gather(a + b).value == Gather(a + b0).value + piece;
      ConcatAssoc(Gather(a).value, Gather(b0).value, piece);
    }
  }

  /** Collecting a run of items is collecting its parts, in order. */
  lemma CollectConcat(a: seq<Json>, b: seq<Json>)
    requires Collect(a).Some? && Collect(b).Some?
    ensures Collect(a + b) == Some(Collect(a).value + Collect(b).value)
  {
    OutcomesConcat(a, b);
    GatherConcat(Outcomes(a), Outcomes(b));
  }

  lemma OutcomesConcat(a: seq<Json>, b: seq<Json>)
    ensures Outcomes(a + b) == Outcomes(a) + Outcomes(b)
  {
    MapConcat(PlaceOf, a, b);
  }

  /** The places of a search reply, following `"result" in data and "items" in
      data["result"]` and the loop over `data["result"]["items"]`: no places when a test is
      false; absent where Python raises (a `null` body, a test or subscript on something
      that is not a dict, items that cannot be iterated, an item that raises). */
  function SearchPlaces(data: Json): (r: Option<seq<Place>>)
    ensures !(data.Obj? || data.Arr? || data.Str?) ==> r.None?
    ensures PyIn("result", data) == Some(false) ==> r == Some([])
    ensures data.Obj? && Has(data, "result") && PyIn("items", Get(data, "result", Null)) == Some(false) ==>
      r == Some([])
    ensures data.Obj? && Get(data, "result", Null).Obj? && Get(Get(data, "result", Null), "items", Null).Arr? ==>
      r == Collect(Get(Get(data, "result", Null), "items", Null).items)
    ensures r.Some? && r.value != [] ==> data.Obj? && Has(data, "result")
  {
    match PyIn("result", data)
      case None => None
      case Some(false) => Some([])
      case Some(true) =>
        if !data.Obj? then None
        else
          var result := Get(data, "result", Null);
          match PyIn("items", result)
            case None => None
            case Some(false) => Some([])
            case Some(true) =>
              if !result.Obj? then None
              else match Iterate(Get(result, "items", Null))
                case None => None
                case Some(items) => Collect(items)
  }

  // ---------------------------------------------------------------------------------------
  // Route through the places
  // ---------------------------------------------------------------------------------------

  /** `list(range(n - 1))` and `list(range(1, n))` as JSON. */
  function Indices(count: nat, offset: int): (r: seq<Json>)
    ensures |r| == count && forall i :: 0 <= i < count ==> r[i] == Int(i + offset)
  {
    seq(count, i requires 0 <= i < count => Int(i + offset))
  }

  /** The body of the distance-matrix request: every place's point, the sources 0..n-2 and
      the targets 1..n-1, so source i is paired with the next place. */
  function MatrixBody(places: seq<Place>): (r: Json)
    requires |places| >= 2
    ensures r.Obj?
    ensures var sources := Get(r, "sources", Null); var targets := Get(r, "targets", Null);
      sources.Arr? && targets.Arr? && |sources.items| == |targets.items| == |places| - 1
      && forall i :: 0 <= i < |places| - 1 ==> sources.items[i] == Int(i) && targets.items[i] == Int(i + 1)
  {
    var points := seq(|places|, i requires 0 <= i < |places| =>
                      Obj([("lat", Float(places[i].lat)), ("lon", Float(places[i].lon))]));
    var one := Obj([("points", Arr(points))]);
    var two := Put(one, "sources", Arr(Indices(|places| - 1, 0)));
    assert Get(two, "sources", Null) == Arr(Indices(|places| - 1, 0));
    var three := Put(two, "targets", Arr(Indices(|places| - 1, 1)));
    three
  }

  /** A route segment read from the reply: its "from" and "to" values, and its distance and
      duration as numbers. */
  datatype Segment = Segment(from: Json, to: Json, distance: real, duration: real)

  /** What `build_route` returns: the matrix sums with their segments, or the straight-line
      estimate (whose totals are whole numbers). */
  datatype RouteInfo =
    | Matrix(totalDistance: real, totalDuration: real, data: Json, segments: seq<Segment>)
    | Estimated(totalDistance: real, totalDuration: real)

  /** How the matrix call ended: a reply with its status and decoded body, or an exception. */
  datatype Reply = Reply(status: int, data: Json) | Raised

  /** `sources[source_id] if source_id < len(sources) else source_id`, where `sources` is
      0, 1, ..., count - 1: Python's negative indexing counts from the end, a boolean indexes
      as 0 or 1, and a float or a non-number below the bound raises (absent). */
  function FromOf(sourceId: Json, count: nat): (r: Option<Json>)
    ensures sourceId.Int? && sourceId.i >= 0 ==> r == Some(sourceId)
    ensures sourceId.Int? && sourceId.i < 0 && sourceId.i + count >= 0 ==> r == Some(Int(sourceId.i + count))
    ensures sourceId.Int? && sourceId.i + count < 0 ==> r.None?
    ensures !IsNumber(sourceId) ==> r.None?
  {
    match sourceId
      case Int(i) =>
        if i < count then
          (if i >= 0 then Some(Int(i))
           else if i + count >= 0 then Some(Int(i + count))
           else None)
        else Some(sourceId)
      case Bool(b) =>
        var i := if b then 1 else 0;
        if i < count then Some(Int(i)) else Some(sourceId)
      case Float(x) => if x < count as real then None else Some(sourceId)
      case _ => None
  }

  predicate IsOk(route: Json)
  {
    route.Obj? && Get(route, "status", Null) == Str("OK")
  }

  /** One route of the reply: nothing when its status is not OK, a segment otherwise; absent
      where reading it raises (`route.get` on a non-dict, a missing id, a distance or
      duration that `+=` cannot add to a number). */
  function SegmentOf(route: Json, count: nat): (r: Option<seq<Segment>>)
    ensures r.Some? ==> |r.value| == (if IsOk(route) then 1 else 0)
    ensures r.Some? && IsOk(route) ==>
      var distance := Get(route, "distance", Int(0)); var duration := Get(route, "duration", Int(0));
      IsNumber(distance) && IsNumber(duration)
      && r.value[0].distance == NumValue(distance) && r.value[0].duration == NumValue(duration)
      && r.value[0].to == Get(route, "target_id", Null)
  {
    if !route.Obj? then None
    else if !IsOk(route) then Some([])
    else
      var distance := Get(route, "distance", Int(0));
      var duration := Get(route, "duration", Int(0));
      if !IsNumber(distance) || !IsNumber(duration) || !Has(route, "source_id") || !Has(route, "target_id") then None
      else match FromOf(Get(route, "source_id", Null), count)
        case None => None
        case Some(from) =>
          Some([Segment(from, Get(route, "target_id", Null), NumValue(distance), NumValue(duration))])
  }

  function SumDistance(segments: seq<Segment>): real
    decreases |segments|
  {
    if |segments| == 0 then 0.0 else SumDistance(segments[..|segments| - 1]) + segments[|segments| - 1].distance
  }

  function SumDuration(segments: seq<Segment>): real
    decreases |segments|
  {
    if |segments| == 0 then 0.0 else SumDuration(segments[..|segments| - 1]) + segments[|segments| - 1].duration
  }

  /** The number of routes with status OK. */
  function OkCount(routes: seq<Json>): nat
    decreases |routes|
  {
    if |routes| == 0 then 0 else OkCount(routes[..|routes| - 1]) + (if IsOk(routes[|routes| - 1]) then 1 else 0)
  }

  /** The summation loop: the totals and the segments, one segment per OK route in reply
      order, the totals being the sums over those segments; absent where the loop raises. */
  function SumRoutes(routes: seq<Json>, count: nat): (r: Option<(real, real, seq<Segment>)>)
    ensures r.Some? ==> |r.value.2| == OkCount(routes)
    ensures r.Some? ==> r.value.0 == SumDistance(r.value.2) && r.value.1 == SumDuration(r.value.2)
    decreases |routes|
  {
    if |routes| == 0 then Some((0.0, 0.0, []))
    else
      var init := routes[..|routes| - 1];
      match (SumRoutes(init, count), SegmentOf(routes[|routes| - 1], count))
        case (Some(before), Some(seg)) =>
          var segments := before.2 + seg;
          if seg == [] then
            assert segments == before.2;
            Some(before)
          else
            assert segments[..|segments| - 1] == before.2;
            Some((before.0 + seg[0].distance, before.1 + seg[0].duration, segments))
        case _ => None
  }

  /** `_calculate_simple_route`: the straight-line distances between consecutive places,
      summed, at 30 km/h, both truncated to whole numbers; `distance` stands for the
      haversine formula. */
  function SimpleRoute(places: seq<Place>, distance: (Place, Place) -> real): (r: RouteInfo)
    ensures r.Estimated?
    ensures IsWhole(r.totalDistance) && IsWhole(r.totalDuration)
  {
    var total := PathLength(places, distance);
    Estimated(Truncate(total) as real, Truncate(total / (30000.0 / 3600.0)) as real)
  }

  /** A real that is a whole number. */
  predicate IsWhole(x: real)
  {
    x == x.Floor as real
  }

  /** The sum of the distances between consecutive places. */
  function PathLength(places: seq<Place>, distance: (Place, Place) -> real): real
    decreases |places|
  {
    if |places| < 2 then 0.0
    else PathLength(places[..|places| - 1], distance) + distance(places[|places| - 2], places[|places| - 1])
  }

  /** `build_route`: absent (the `ValueError`) for fewer than two places; the straight-line
      estimate when the call raises or does not answer 200, and whenever reading the reply
      raises; all zeros with no segments when the body has no "routes"; otherwise the matrix
      sums. */
  function BuildRoute(places: seq<Place>, reply: Reply, distance: (Place, Place) -> real): (r: Option<RouteInfo>)
    ensures r.None? <==> |places| < 2
    ensures r.Some? && r.value.Matrix? ==>
      reply.Reply? && reply.status == 200
      && r.value.totalDistance == SumDistance(r.value.segments)
      && r.value.totalDuration == SumDuration(r.value.segments)
    ensures r.Some? && (reply.Raised? || reply.status != 200) ==> r.value == SimpleRoute(places, distance)
    ensures r.Some? && reply.Reply? && reply.status == 200 && PyIn("routes", reply.data).None? ==>
      r.value == SimpleRoute(places, distance)
    ensures r.Some? && reply.Reply? && reply.status == 200 && PyIn("routes", reply.data) == Some(false) ==>
      r.value == Matrix(0.0, 0.0, reply.data, [])
  {
    if |places| < 2 then None
    else if reply.Raised? || reply.status != 200 then Some(SimpleRoute(places, distance))
    else
      var data := reply.data;
      match PyIn("routes", data)
        case None => Some(SimpleRoute(places, distance))
        case Some(false) => Some(Matrix(0.0, 0.0, data, []))
        case Some(true) =>
          if !data.Obj? then Some(SimpleRoute(places, distance))
          else match Iterate(Get(data, "routes", Null))
            case None => Some(SimpleRoute(places, distance))
            case Some(routes) =>
              match SumRoutes(routes, |places| - 1)
                case None => Some(SimpleRoute(places, distance))
                case Some(sums) => Some(Matrix(sums.0, sums.1, data, sums.2))
  }

  /** A 200 reply whose routes all read: the matrix sums, one segment per OK route. */
  lemma MatrixOfReadableReply(places: seq<Place>, data: Json, distance: (Place, Place) -> real)
    requires |places| >= 2 && data.Obj? && Get(data, "routes", Null).Arr?
    requires SumRoutes(Get(data, "routes", Null).items, |places| - 1).Some?
    ensures var r := BuildRoute(places, Reply(200, data), distance).value;
      r.Matrix? && |r.segments| == OkCount(Get(data, "routes", Null).items) && r.data == data
  {
    assert Has(data, "routes");
  }

  /** A segment's "from" is its route's source id: the sources list is 0, 1, 2, ... */
  lemma FromIsSourceId(sourceId: int, places: seq<Place>)
    requires |places| >= 2 && sourceId >= 0
    ensures var sources := Get(MatrixBody(places), "sources", Null).items;
      sourceId < |sources| ==> sources[sourceId] == FromOf(Int(sourceId), |sources|).value
  {
  }

  // ---------------------------------------------------------------------------------------
  // Map link
  // ---------------------------------------------------------------------------------------

  const DirectionsPrefix := "https://2gis.com/directions?points="

  /** `f"{place.lat},{place.lon}"`; `show` renders a float. */
  function PointText(p: Place, show: real -> string): string
  {
    show(p.lat) + "," + show(p.lon)
  }

  function PointTexts(places: seq<Place>, show: real -> string): (r: seq<string>)
    ensures |r| == |places| && forall i :: 0 <= i < |places| ==> r[i] == PointText(places[i], show)
  {
    seq(|places|, i requires 0 <= i < |places| => PointText(places[i], show))
  }

  /** `generate_route_url`: empty for no places, otherwise the directions link with the
      points joined by "/". */
  function RouteUrl(places: seq<Place>, show: real -> string): (r: string)
    ensures places == [] <==> r == ""
    ensures places != [] ==> StartsWith(r, DirectionsPrefix)
  {
    if places == [] then ""
    else DirectionsPrefix + Join(PointTexts(places, show), "/")
  }

  /** When rendered numbers hold no "/", the link's points split back into the places'
      "lat,lon" texts, one per place, in order. */
  lemma RouteUrlPoints(places: seq<Place>, show: real -> string)
    requires places != []
    requires forall x :: Lacks(show(x), '/')
    ensures var r := RouteUrl(places, show);
      SplitOn(r[|DirectionsPrefix|..], "/") == PointTexts(places, show)
  {
    var texts := PointTexts(places, show);
    forall k | 0 <= k < |texts| ensures Lacks(texts[k], '/') {
      var p := places[k];
      assert Lacks(show(p.lat), '/') && Lacks(show(p.lon), '/');
      assert texts[k] == show(p.lat) + "," + show(p.lon);
    }
    var r := RouteUrl(places, show);
    assert r[|DirectionsPrefix|..] == Join(texts, "/");
    SplitJoin(texts, "/");
  }
}

=== FILE: durations.dfy ===
/** The duration text of the routing middleware and of the public transport demo, compared. */
module Durations {
  import opened Numerals
  import RoutingMiddleware
  import PtDemo

  /** Hours and minutes past the hour read the same from seconds as from whole minutes. */
  lemma HoursFromMinutes(s: nat)
    ensures s / 3600 == (s / 60) / 60
    ensures (s % 3600) / 60 == (s / 60) % 60
  {
    var h, m, r := (s / 60) / 60, (s / 60) % 60, s % 60;
    assert s == 3600 * h + 60 * m + r;
    assert 0 <= 60 * m + r < 3600;
  }

  /** A string followed by the same suffix determines the string. */
  lemma SuffixCancels(a: string, b: string, suffix: string)
    requires a + suffix == b + suffix
    ensures a == b
  {
    assert |a| == |b|;
    assert a == (a + suffix)[..|a|];
    assert b == (b + suffix)[..|b|];
  }

  /** Below a minute and from an hour on the two texts are the same. */
  lemma FormattersAgree(seconds: int)
    requires seconds < 60 || seconds >= 3600
    ensures RoutingMiddleware.FormatDuration(seconds) == PtDemo.FormatDuration(seconds)
  {
    if seconds >= 3600 {
      HoursFromMinutes(seconds);
    }
  }

  /** Between a minute and an hour the texts differ exactly when the middleware rounds the
      minutes up: past half a minute, or at exactly half a minute past an odd minute. */
  lemma FormattersBelowAnHour(seconds: int)
    requires 60 <= seconds < 3600
    ensures RoutingMiddleware.FormatDuration(seconds) == PtDemo.FormatDuration(seconds) <==>
      seconds % 60 < 30 || (seconds % 60 == 30 && (seconds / 60) % 2 == 0)
  {
    var rounded := RoundHalfEven(seconds, 60);
    var floored := seconds / 60;
    assert rounded == floored <==> seconds % 60 < 30 || (seconds % 60 == 30 && floored % 2 == 0);
    if RoutingMiddleware.FormatDuration(seconds) == PtDemo.FormatDuration(seconds) {
      SuffixCancels(NatToString(rounded), NatToString(floored), " min");
      if rounded != floored {
        NatToStringInjective(rounded, floored);
      }
    }
  }

  /** At 59 minutes 50 seconds the middleware already shows a full hour in minutes. */
  lemma SixtyMinutes()
    ensures RoutingMiddleware.FormatDuration(3590) == "60 min"
    ensures PtDemo.FormatDuration(3590) == "59 min"
  {
  }
}

=== FILE: gemini_service.dfy ===
/** The parts of the Gemini service that read the model's replies: the comma-separated search
    terms, and the `SELECTED_IDS:` / `EXPLANATION:` answer matched back to the places. The
    replies themselves are inputs. */
module GeminiService {
  import opened Wrappers
  import opened Text
  import opened Numerals
  import opened Places

  // ---------------------------------------------------------------------------------------
  // Comma-separated items
  // ---------------------------------------------------------------------------------------

  /** Every piece stripped. */
  function StripAll(xs: seq<string>): (r: seq<string>)
    ensures |r| == |xs| && forall i :: 0 <= i < |xs| ==> r[i] == Strip(xs[i])
  {
    seq(|xs|, i requires 0 <= i < |xs| => Strip(xs[i]))
  }

  /** `[q.strip() for q in s.split(',')]`. */
  function CommaItems(s: string): (r: seq<string>)
    ensures |r| >= 1
    ensures forall i :: 0 <= i < |r| ==> Strip(r[i]) == r[i] && Lacks(r[i], ',')
  {
    var parts := SplitOn(s, ",");
    SplitOnLacks(s, ",");
    StrippedPieces(parts);
    StripAll(parts)
  }

  /** Stripped pieces are stripped and keep out what the pieces kept out. */
  lemma StrippedPieces(parts: seq<string>)
    requires forall k :: 0 <= k < |parts| ==> Lacks(parts[k], ',')
    ensures forall i :: 0 <= i < |parts| ==> Strip(StripAll(parts)[i]) == StripAll(parts)[i] && Lacks(StripAll(parts)[i], ',')
  {
    forall i | 0 <= i < |parts|
      ensures Strip(Strip(parts[i])) == Strip(parts[i]) && Lacks(Strip(parts[i]), ',')
    {
      StripIdempotent(parts[i]);
      StripLacks(parts[i], ',');
    }
  }

  /** `parse_user_request`: one stripped search term per comma-separated piece of the reply,
      so never an empty list, not even for an empty reply. */
  function ParseUserRequest(reply: string): (r: seq<string>)
    ensures |r| >= 1
    ensures forall i :: 0 <= i < |r| ==> Strip(r[i]) == r[i] && Lacks(r[i], ',')
  {
    CommaItems(Strip(reply))
  }

  /** Terms that are already stripped, non-empty and free of commas come back unchanged from
      the reply that lists them separated by commas. */
  lemma ParseUserRequestRoundTrip(terms: seq<string>)
    requires |terms| >= 1
    requires forall k :: 0 <= k < |terms| ==> terms[k] != [] && Strip(terms[k]) == terms[k] && Lacks(terms[k], ',')
    ensures ParseUserRequest(Join(terms, ",")) == terms
  {
    JoinStripped(terms);
    SplitJoin(terms, ",");
    assert StripAll(terms) == terms;
  }

  /** Joining stripped pieces whose ends are non-empty gives a stripped text. */
  lemma JoinStripped(terms: seq<string>)
    requires |terms| >= 1
    requires terms[0] != [] && Strip(terms[0]) == terms[0]
    requires terms[|terms| - 1] != [] && Strip(terms[|terms| - 1]) == terms[|terms| - 1]
    ensures Strip(Join(terms, ",")) == Join(terms, ",")
  {
    var j := Join(terms, ",");
    var first := terms[0];
    var last := terms[|terms| - 1];
    JoinEndChars(terms, ",");
    StrippedEnds(first);
    StrippedEnds(last);
    assert |j| > 0 && j[0] == first[0] && j[|j| - 1] == last[|last| - 1];
    StripUnchanged(j);
  }

  /** A join of non-empty pieces starts with the first piece's first character and ends with
      the last piece's last one. */
  lemma JoinEndChars(parts: seq<string>, sep: string)
    requires |parts| > 0 && parts[0] != [] && parts[|parts| - 1] != []
    ensures var j := Join(parts, sep); var last := parts[|parts| - 1];
      |j| > 0 && j[0] == parts[0][0] && j[|j| - 1] == last[|last| - 1]
  {
    JoinEnds(parts, sep);
    var j := Join(parts, sep);
    var last := parts[|parts| - 1];
    assert j[..|parts[0]|][0] == j[0];
    assert j[|j| - |last|..][|last| - 1] == j[|j| - 1];
  }

  // ---------------------------------------------------------------------------------------
  // The selection reply
  // ---------------------------------------------------------------------------------------

  const IdsTag := "SELECTED_IDS:"
  const ExplanationTag := "EXPLANATION:"

  /** The ids of a `SELECTED_IDS:` line. */
  function IdsOf(line: string): (r: seq<string>)
    ensures |r| >= 1
  {
    CommaItems(Strip(ReplaceAll(line, IdsTag, "")))
  }

  /** The explanation of an `EXPLANATION:` line. */
  function ExplanationOf(line: string): string
  {
    Strip(ReplaceAll(line, ExplanationTag, ""))
  }

  predicate IdsLine(line: string)
  {
    StartsWith(line, IdsTag)
  }

  predicate ExplanationLine(line: string)
  {
    StartsWith(line, ExplanationTag)
  }

  /** The line loop: the ids and the explanation after every line has been read. The ids stay
      empty exactly when no line starts with `SELECTED_IDS:`, and the explanation stays empty
      when no line starts with `EXPLANATION:`. */
  function Scan(lines: seq<string>): (r: (seq<string>, string))
    ensures r.0 == [] <==> forall j :: 0 <= j < |lines| ==> !IdsLine(lines[j])
    ensures (forall j :: 0 <= j < |lines| ==> !ExplanationLine(lines[j])) ==> r.1 == ""
    decreases |lines|
  {
    if |lines| == 0 then ([], "")
    else
      var init := lines[..|lines| - 1];
      var before := Scan(init);
      var line := lines[|lines| - 1];
      assert forall j :: 0 <= j < |init| ==> init[j] == lines[j];
      if IdsLine(line) then (IdsOf(line), before.1)
      else if ExplanationLine(line) then (before.0, ExplanationOf(line))
      else before
  }

  /** The last `SELECTED_IDS:` line decides the ids. */
  lemma {:induction false} LastIdsLineWins(lines: seq<string>, k: nat)
    requires k < |lines| && IdsLine(lines[k])
    requires forall j :: k < j < |lines| ==> !IdsLine(lines[j])
    ensures Scan(lines).0 == IdsOf(lines[k])
    decreases |lines|
  {
    if k < |lines| - 1 {
      var init := lines[..|lines| - 1];
      assert init[k] == lines[k];
      assert forall j :: k < j < |init| ==> init[j] == lines[j];
      LastIdsLineWins(init, k);
    }
  }

  /** The last `EXPLANATION:` line decides the explanation. */
  lemma {:induction false} LastExplanationLineWins(lines: seq<string>, k: nat)
    requires k < |lines| && ExplanationLine(lines[k])
    requires forall j :: k < j < |lines| ==> !ExplanationLine(lines[j])
    ensures Scan(lines).1 == ExplanationOf(lines[k])
    decreases |lines|
  {
    var last := lines[|lines| - 1];
    if k == |lines| - 1 {
      assert !IdsLine(last) by {
        assert last[..|ExplanationTag|] == ExplanationTag;
        assert last[0] == 'E';
      }
    } else {
      var init := lines[..|lines| - 1];
      assert init[k] == lines[k];
      assert forall j :: k < j < |init| ==> init[j] == lines[j];
      LastExplanationLineWins(init, k);
    }
  }

  /** The ids and explanation read from a selection reply: the line loop, or, when no line
      starts with `SELECTED_IDS:`, the ids of the first line and the other lines joined by
      spaces. Never an empty id list. */
  function ParseSelection(reply: string): (r: (seq<string>, string))
    ensures |r.0| >= 1
    ensures var lines := SplitOn(Strip(reply), "\n");
      (exists j :: 0 <= j < |lines| && IdsLine(lines[j])) ==> r == Scan(lines)
    ensures var lines := SplitOn(Strip(reply), "\n");
      (forall j :: 0 <= j < |lines| ==> !IdsLine(lines[j])) ==>
        r.0 == CommaItems(ReplaceAll(lines[0], IdsTag, "")) && r.1 == Join(lines[1..], " ")
  {
    var lines := SplitOn(Strip(reply), "\n");
    var scanned := Scan(lines);
    if scanned.0 != [] then scanned
    else (CommaItems(ReplaceAll(lines[0], IdsTag, "")), Join(lines[1..], " "))
  }

  // ---------------------------------------------------------------------------------------
  // Matching ids to places
  // ---------------------------------------------------------------------------------------

  /** The first place with this id (the inner loop's `break`). */
  function FirstWithId(all: seq<Place>, id: string): (r: Option<Place>)
    ensures r.None? <==> !HasId(all, id)
    ensures r.Some? ==> r.value.id == id
    ensures r.Some? ==> exists j :: 0 <= j < |all| && all[j] == r.value && (forall i :: 0 <= i < j ==> all[i].id != id)
  {
    var k := IdIndexFrom(all, id, 0);
    if k < 0 then None else Some(all[k])
  }

  /** The matching loop: for each id, in order, the first place with that id; ids no place
      has are skipped. Nothing matches exactly when no id is the id of a place. */
  function Matched(ids: seq<string>, all: seq<Place>): (r: seq<Place>)
    ensures |r| <= |ids|
    ensures forall i :: 0 <= i < |r| ==> r[i] in all && r[i].id in ids
    ensures r == [] <==> forall i :: 0 <= i < |ids| ==> !HasId(all, ids[i])
    decreases |ids|
  {
    if |ids| == 0 then []
    else
      var init := ids[..|ids| - 1];
      var before := Matched(init, all);
      var id := ids[|ids| - 1];
      assert forall i :: 0 <= i < |init| ==> init[i] == ids[i];
      assert forall x :: x in init ==> x in ids;
      match FirstWithId(all, id)
        case None => before
        case Some(p) => before + [p]
  }

  /** Matching a run of ids is matching its parts, in order. */
  lemma {:induction false} MatchedConcat(a: seq<string>, b: seq<string>, all: seq<Place>)
    ensures Matched(a + b, all) == Matched(a, all) + Matched(b, all)
    decreases |b|
  {
    if |b| == 0 {
      assert a + b == a;
    } else {
      var b0 := b[..|b| - 1];
      assert (a + b)[..|a + b| - 1] == a + b0;
      assert b[..|b| - 1] == b0;
      MatchedConcat(a, b0, all);
    }
  }

  /** When every id names a place, the result follows the ids one for one, in their order. */
  lemma {:induction false} MatchedFollowsIds(ids: seq<string>, all: seq<Place>)
    requires forall i :: 0 <= i < |ids| ==> HasId(all, ids[i])
    ensures |Matched(ids, all)| == |ids|
    ensures forall i :: 0 <= i < |ids| ==> Matched(ids, all)[i] == FirstWithId(all, ids[i]).value
    decreases |ids|
  {
    if |ids| > 0 {
      var init := ids[..|ids| - 1];
      assert forall i :: 0 <= i < |init| ==> init[i] == ids[i];
      MatchedFollowsIds(init, all);
      var id := ids[|ids| - 1];
      assert HasId(all, id);
      var m := Matched(ids, all);
      var before := Matched(init, all);
      assert m == before + [FirstWithId(all, id).value];
      forall i | 0 <= i < |ids| ensures m[i] == FirstWithId(all, ids[i]).value {
        if i < |init| {
          assert m[i] == before[i] == FirstWithId(all, init[i]).value;
        }
      }
    }
  }

  /** `select_best_places` after the reply: the matched places with the parsed explanation,
      or, when nothing matched and there are places, the first `max_places` of them with a
      default explanation. */
  function SelectBestPlaces(reply: string, all: seq<Place>, maxPlaces: int): (r: (seq<Place>, string))
    ensures forall i :: 0 <= i < |r.0| ==> r.0[i] in all
    ensures var (ids, explanation) := ParseSelection(reply);
      Matched(ids, all) != [] ==> r == (Matched(ids, all), explanation)
    ensures var (ids, explanation) := ParseSelection(reply);
      Matched(ids, all) == [] && all == [] ==> r == ([], explanation)
    ensures var ids := ParseSelection(reply).0;
      Matched(ids, all) == [] && all != [] ==>
        r.0 == all[..SliceBound(|all|, maxPlaces)]
        && r.1 == "Selected " + NatToString(|r.0|) + " places based on your request."
  {
    var (ids, explanation) := ParseSelection(reply);
    var selected := Matched(ids, all);
    if selected == [] && all != [] then
      var first := all[..SliceBound(|all|, maxPlaces)];
      assert forall i :: 0 <= i < |first| ==> first[i] == all[i];
      (first, "Selected " + NatToString(|first|) + " places based on your request.")
    else (selected, explanation)
  }

  /** When every parsed id names a place, the selection is those places, one per id, in the
      order of the ids. */
  lemma {:induction false} SelectionFollowsIds(reply: string, all: seq<Place>, maxPlaces: int)
    requires forall i :: 0 <= i < |ParseSelection(reply).0| ==> HasId(all, ParseSelection(reply).0[i])
    ensures var ids := ParseSelection(reply).0;
      var r := SelectBestPlaces(reply, all, maxPlaces).0;
      |r| == |ids| && forall i :: 0 <= i < |ids| ==> r[i].id == ids[i] && r[i] in all
  {
    var ids := ParseSelection(reply).0;
    var m := Matched(ids, all);
    MatchedFollowsIds(ids, all);
    assert HasId(all, ids[0]);
    assert m != [];
    SelectMatched(reply, all, maxPlaces);
    var r := SelectBestPlaces(reply, all, maxPlaces).0;
    assert r == m;
    forall i | 0 <= i < |ids| ensures r[i].id == ids[i] && r[i] in all {
      assert m[i] == FirstWithId(all, ids[i]).value;
    }
  }

  /** The ids of the last `SELECTED_IDS:` line are the parsed ids. */
  lemma SelectionIds(reply: string, k: nat)
    requires var lines := SplitOn(Strip(reply), "\n");
      k < |lines| && IdsLine(lines[k]) && (forall j :: k < j < |lines| ==> !IdsLine(lines[j]))
    ensures ParseSelection(reply).0 == IdsOf(SplitOn(Strip(reply), "\n")[k])
  {
    LastIdsLineWins(SplitOn(Strip(reply), "\n"), k);
  }

  /** When something matched, the matched places are the selection. */
  lemma SelectMatched(reply: string, all: seq<Place>, maxPlaces: int)
    requires Matched(ParseSelection(reply).0, all) != []
    ensures SelectBestPlaces(reply, all, maxPlaces).0 == Matched(ParseSelection(reply).0, all)
  {
  }
}

=== FILE: gis_routing.dfy ===
/** The 2GIS routing client of the core services: the request it builds for a list of points,
    how it reads the reply (manoeuvres, geometry, per-waypoint segments), and the detour
    comparison built on two routes. The HTTP exchange itself is a parameter: the reply body. */
module GisRouting {
  import opened Wrappers
  import opened Json
  import opened Movements
  import opened Wkt

  // ---------------------------------------------------------------------------------------
  // Request
  // ---------------------------------------------------------------------------------------

  /** The body posted for a route: the points as `{"lon", "lat"}` objects, the 2GIS vehicle
      type and the route mode. */
  datatype Payload = Payload(points: seq<Point>, kind: string, routeMode: string)

  /** `"car"` for `"driving"`, `"pedestrian"` for anything else. */
  function VehicleOf(mode: string): (r: string)
    ensures r == "car" <==> mode == "driving"
    ensures r != "car" ==> r == "pedestrian"
  {
    if mode == "driving" then "car" else "pedestrian"
  }

  /** `"shortest"` for `"distance"`, `"fastest"` for anything else. */
  function RouteModeOf(optimize: string): (r: string)
    ensures r == "shortest" <==> optimize == "distance"
    ensures r != "shortest" ==> r == "fastest"
  {
    if optimize == "distance" then "shortest" else "fastest"
  }

  /** The request `get_route` sends, or `None` when it answers without one. */
  function RequestOf(points: seq<Point>, mode: string, optimize: string): (r: Option<Payload>)
    ensures r.None? <==> |points| < 2
    ensures r.Some? ==> r.value.points == points
  {
    if |points| < 2 then None else Some(Payload(points, VehicleOf(mode), RouteModeOf(optimize)))
  }

  // ---------------------------------------------------------------------------------------
  // Reply
  // ---------------------------------------------------------------------------------------

  /** A kept manoeuvre. `street` is present when the manoeuvre has an outgoing path. */
  datatype Maneuver = Maneuver(instruction: Json, kind: Json, distance: Json, duration: Json, street: Option<Json>)

  /** The stretch between waypoints `from` and `to`, as differences of their cumulative values. */
  datatype Segment = Segment(from: nat, to: nat, distance: real, duration: real)

  /** A geometry point: parsed from WKT text, or copied from a `{"lon", "lat"}` item. */
  type Coord = (Json, Json)

  datatype Route = Route(
    geometry: seq<Coord>, totalDistance: Json, totalDuration: Json,
    segments: seq<Segment>, maneuvers: seq<Maneuver>, mode: string, optimize: string)

  /** What `get_route` returns: an error dict or a route. */
  datatype Outcome = Failure(error: string, details: Option<Json>) | Found(route: Route)

  const TooFewPoints := "At least 2 points are required"
  const NoRoute := "No route found"

  function CoordOf(p: Point): Coord
  {
    (Float(p.lon), Float(p.lat))
  }

  function Coords(ps: seq<Point>): (r: seq<Coord>)
    ensures |r| == |ps|
  {
    seq(|ps|, i requires 0 <= i < |ps| => CoordOf(ps[i]))
  }

  /** `parse_linestring(text)` on a JSON value: only a string has `startswith`. */
  function LineOf(text: Json, parse: FloatParser): Option<seq<Coord>>
  {
    if text.Str? then Some(Coords(RouteLine(text.s, parse))) else None
  }

  /** `names[0] if names else ""`; `None` where indexing raises. */
  function StreetOf(names: Json): (r: Option<Json>)
    ensures !Truthy(names) ==> r == Some(Str(""))
    ensures names.Arr? && Truthy(names) ==> r == Some(names.items[0])
  {
    if !Truthy(names) then Some(Str(""))
    else match names
      case Arr(items) => Some(items[0])
      case Str(s) => Some(Str([s[0]]))
      case _ => None
  }

  /** The points of the `selection` texts of an outgoing path's geometry segments, in order;
      an empty selection adds nothing. */
  function SelectionPoints(segs: seq<Json>, parse: FloatParser): Option<seq<Coord>>
    decreases |segs|
  {
    if |segs| == 0 then Some([])
    else if !segs[0].Obj? then None
    else
      var selection := Get(segs[0], "selection", Str(""));
      var here := if Truthy(selection) then LineOf(selection, parse) else Some([]);
      match (here, SelectionPoints(segs[1..], parse))
        case (Some(a), Some(b)) => Some(a + b)
        case _ => None
  }

  /** A manoeuvre is kept when its comment or its type is not empty. */
  predicate Kept(leg: Json)
    requires leg.Obj?
  {
    Truthy(Get(leg, "comment", Str(""))) || Truthy(Get(leg, "type", Str("")))
  }

  /** One manoeuvre: the entry it adds (when kept) and the geometry points its path adds;
      `None` where Python raises. */
  function ManeuverOf(leg: Json, parse: FloatParser): (r: Option<(Option<Maneuver>, seq<Coord>)>)
    ensures r.Some? ==> leg.Obj? && (r.value.0.Some? <==> Kept(leg))
    ensures r.Some? && r.value.0.Some? ==>
      r.value.0.value.instruction == Get(leg, "comment", Str("")) && r.value.0.value.kind == Get(leg, "type", Str(""))
  {
    if !leg.Obj? then None
    else
      var out := Get(leg, "outcoming_path", Obj([]));
      if !out.Obj? then None
      else
        var base := Maneuver(Get(leg, "comment", Str("")), Get(leg, "type", Str("")),
                             Get(out, "distance", Int(0)), Get(out, "duration", Int(0)), None);
        var pathed: Option<(Maneuver, seq<Coord>)> :=
          if !Has(leg, "outcoming_path") then Some((base, []))
          else match StreetOf(Get(out, "names", Arr([])))
            case None => None
            case Some(street) =>
              if !Has(out, "geometry") then Some((base.(street := Some(street)), []))
              else match Iterate(Get(out, "geometry", Null))
                case None => None
                case Some(segs) =>
                  match SelectionPoints(segs, parse)
                    case None => None
                    case Some(pts) => Some((base.(street := Some(street)), pts));
        match pathed
          case None => None
          case Some((m, pts)) => Some((if Kept(leg) then Some(m) else None, pts))
  }

  /** The number of kept manoeuvres among dict entries. */
  function KeptCount(legs: seq<Json>): nat
    requires forall i :: 0 <= i < |legs| ==> legs[i].Obj?
    decreases |legs|
  {
    if |legs| == 0 then 0 else (if Kept(legs[0]) then 1 else 0) + KeptCount(legs[1..])
  }

  /** The manoeuvre loop: the kept manoeuvres in order, and the geometry gathered from their
      paths. Every entry is a dict and exactly the kept ones appear. */
  function Maneuvers(legs: seq<Json>, parse: FloatParser): (r: Option<(seq<Maneuver>, seq<Coord>)>)
    ensures r.Some? ==> (forall i :: 0 <= i < |legs| ==> legs[i].Obj?) && |r.value.0| == KeptCount(legs)
    ensures r.Some? ==> forall i :: 0 <= i < |r.value.0| ==>
      Truthy(r.value.0[i].instruction) || Truthy(r.value.0[i].kind)
    decreases |legs|
  {
    if |legs| == 0 then Some(([], []))
    else match (ManeuverOf(legs[0], parse), Maneuvers(legs[1..], parse))
      case (Some((m, pts)), Some((ms, geo))) =>
        assert forall i :: 1 <= i < |legs| ==> legs[i] == legs[1..][i - 1];
        Some((if m.Some? then [m.value] + ms else ms, pts + geo))
      case _ => None
  }

  /** One item of the route-level geometry: the points of its `selection` text, or its
      `lon`/`lat` (else `longitude`/`latitude`) when neither is missing; other items add
      nothing. */
  function ItemPoints(item: Json, parse: FloatParser): Option<seq<Coord>>
  {
    if !item.Obj? then Some([])
    else if Has(item, "selection") then LineOf(Get(item, "selection", Null), parse)
    else
      var lon := Or(Get(item, "lon", Null), Get(item, "longitude", Null));
      var lat := Or(Get(item, "lat", Null), Get(item, "latitude", Null));
      if lon != Null && lat != Null then Some([(lon, lat)]) else Some([])
  }

  function ItemsPoints(items: seq<Json>, parse: FloatParser): Option<seq<Coord>>
    decreases |items|
  {
    if |items| == 0 then Some([])
    else match (ItemPoints(items[0], parse), ItemsPoints(items[1..], parse))
      case (Some(a), Some(b)) => Some(a + b)
      case _ => None
  }

  /** The differences between consecutive cumulative values; `None` where a subtraction
      raises. */
  function Deltas(vals: seq<Json>): (r: Option<seq<real>>)
    ensures r.Some? ==> |r.value| == (if |vals| == 0 then 0 else |vals| - 1)
    decreases |vals|
  {
    if |vals| <= 1 then Some([])
    else
      var n := |vals|;
      match Deltas(vals[..n - 1])
        case None => None
        case Some(ds) =>
          if IsNumber(vals[n - 1]) && IsNumber(vals[n - 2]) then
            Some(ds + [NumValue(vals[n - 1]) - NumValue(vals[n - 2])])
          else None
  }

  function Sum(xs: seq<real>): real
    decreases |xs|
  {
    if |xs| == 0 then 0.0 else Sum(xs[..|xs| - 1]) + xs[|xs| - 1]
  }

  /** The segment values telescope: together they cover the last cumulative value less the
      first. */
  /** How `Deltas` grows by one value. */
  lemma DeltasSnoc(vals: seq<Json>)
    requires |vals| >= 2 && Deltas(vals).Some?
    ensures var n := |vals|;
      Deltas(vals[..n - 1]).Some? && IsNumber(vals[n - 1]) && IsNumber(vals[n - 2])
      && Deltas(vals).value == Deltas(vals[..n - 1]).value + [NumValue(vals[n - 1]) - NumValue(vals[n - 2])]
  {
  }

  lemma SumSnoc(xs: seq<real>, x: real)
    ensures Sum(xs + [x]) == Sum(xs) + x
  {
    assert (xs + [x])[..|xs|] == xs;
  }

  lemma {:induction false} DeltasTelescope(vals: seq<Json>, ds: seq<real>)
    requires |vals| >= 2 && Deltas(vals) == Some(ds)
    ensures IsNumber(vals[0]) && IsNumber(vals[|vals| - 1])
    ensures Sum(ds) == NumValue(vals[|vals| - 1]) - NumValue(vals[0])
    decreases |vals|
  {
    var n := |vals|;
    var front := vals[..n - 1];
    DeltasSnoc(vals);
    var fds := Deltas(front).value;
    SumSnoc(fds, NumValue(vals[n - 1]) - NumValue(vals[n - 2]));
    if n > 2 {
      DeltasTelescope(front, fds);
      assert front[0] == vals[0] && front[n - 2] == vals[n - 2];
    } else {
      assert fds == [];
    }
  }

  /** The cumulative value of `key` at each waypoint. */
  function Cumulative(wps: seq<Json>, key: string): (r: seq<Json>)
    requires forall i :: 0 <= i < |wps| ==> wps[i].Obj?
    ensures |r| == |wps|
    ensures forall i :: 0 <= i < |wps| ==> r[i] == Get(wps[i], key, Int(0))
  {
    seq(|wps|, i requires 0 <= i < |wps| => Get(wps[i], key, Int(0)))
  }

  /** The segments between consecutive waypoints; `None` where Python raises. */
  function SegmentsOf(wps: seq<Json>): (r: Option<seq<Segment>>)
    ensures r.Some? ==> (forall i :: 0 <= i < |wps| ==> wps[i].Obj?)
    ensures r.Some? ==> |r.value| == (if |wps| == 0 then 0 else |wps| - 1)
    ensures r.Some? ==> forall i :: 0 <= i < |r.value| ==> r.value[i].from == i && r.value[i].to == i + 1
  {
    if !(forall i :: 0 <= i < |wps| ==> wps[i].Obj?) then None
    else match (Deltas(Cumulative(wps, "distance")), Deltas(Cumulative(wps, "duration")))
      case (Some(ds), Some(ts)) =>
        Some(seq(|ds|, i requires 0 <= i < |ds| => Segment(i, i + 1, ds[i], ts[i])))
      case _ => None
  }

  /** The segment distances add up to the last waypoint's cumulative distance less the
      first's, and likewise the durations. */
  lemma SegmentsTelescope(wps: seq<Json>)
    requires |wps| >= 2 && SegmentsOf(wps).Some?
    ensures var segs := SegmentsOf(wps).value;
      var first := Get(wps[0], "distance", Int(0));
      var last := Get(wps[|wps| - 1], "distance", Int(0));
      IsNumber(first) && IsNumber(last)
      && Sum(seq(|segs|, i requires 0 <= i < |segs| => segs[i].distance)) == NumValue(last) - NumValue(first)
    ensures var segs := SegmentsOf(wps).value;
      var first := Get(wps[0], "duration", Int(0));
      var last := Get(wps[|wps| - 1], "duration", Int(0));
      IsNumber(first) && IsNumber(last)
      && Sum(seq(|segs|, i requires 0 <= i < |segs| => segs[i].duration)) == NumValue(last) - NumValue(first)
  {
    var segs := SegmentsOf(wps).value;
    var ds := Deltas(Cumulative(wps, "distance")).value;
    var ts := Deltas(Cumulative(wps, "duration")).value;
    assert seq(|segs|, i requires 0 <= i < |segs| => segs[i].distance) == ds;
    assert seq(|segs|, i requires 0 <= i < |segs| => segs[i].duration) == ts;
    DeltasTelescope(Cumulative(wps, "distance"), ds);
    DeltasTelescope(Cumulative(wps, "duration"), ts);
  }

  /** `get_route(points, mode, optimize)` given the reply body `data`; `None` where Python
      raises. */
  function GetRoute(points: seq<Point>, mode: string, optimize: string, data: Json, parse: FloatParser): (r: Option<Outcome>)
    ensures |points| < 2 ==> r == Some(Failure(TooFewPoints, None))
    ensures |points| >= 2 && data.Obj? && !Truthy(Get(data, "result", Null)) ==> r == Some(Failure(NoRoute, Some(data)))
    ensures r.Some? && r.value.Found? ==> r.value.route.mode == mode && r.value.route.optimize == optimize
  {
    if |points| < 2 then Some(Failure(TooFewPoints, None))
    else if !data.Obj? then None
    else
      var results := Get(data, "result", Null);
      if !Truthy(results) then Some(Failure(NoRoute, Some(data)))
      else if !results.Arr? || !results.items[0].Obj? then None
      else
        var result := results.items[0];
        match Iterate(Get(result, "maneuvers", Arr([])))
          case None => None
          case Some(legs) =>
            match Maneuvers(legs, parse)
              case None => None
              case Some((maneuvers, pathGeometry)) =>
                var geometry :=
                  if |pathGeometry| == 0 && Has(result, "geometry") then
                    match Iterate(Get(result, "geometry", Null))
                      case None => None
                      case Some(items) => ItemsPoints(items, parse)
                  else Some(pathGeometry);
                var segments :=
                  if Has(result, "waypoints") then
                    match Iterate(Get(result, "waypoints", Null))
                      case None => None
                      case Some(wps) => SegmentsOf(wps)
                  else Some([]);
                match (geometry, segments)
                  case (Some(g), Some(s)) =>
                    Some(Found(Route(g, Get(result, "total_distance", Int(0)), Get(result, "total_duration", Int(0)),
                                     s, maneuvers, mode, optimize)))
                  case _ => None
  }

  /** A route keeps exactly the manoeuvres with a comment or a type, and has one segment fewer
      than the route has waypoints. */
  lemma RouteFacts(points: seq<Point>, mode: string, optimize: string, data: Json, parse: FloatParser)
    requires GetRoute(points, mode, optimize, data, parse).Some?
    requires GetRoute(points, mode, optimize, data, parse).value.Found?
    ensures data.Obj? && Get(data, "result", Null).Arr?
    ensures var result := Get(data, "result", Null).items[0];
      var route := GetRoute(points, mode, optimize, data, parse).value.route;
      result.Obj? && Iterate(Get(result, "maneuvers", Arr([]))).Some?
      && var legs := Iterate(Get(result, "maneuvers", Arr([]))).value;
      (forall i :: 0 <= i < |legs| ==> legs[i].Obj?) && |route.maneuvers| == KeptCount(legs)
      && (Has(result, "waypoints") ==>
            var wps := Iterate(Get(result, "waypoints", Null));
            wps.Some? && |wps.value| > 0 ==> |route.segments| == |wps.value| - 1)
      && (!Has(result, "waypoints") ==> route.segments == [])
  {
  }

  // ---------------------------------------------------------------------------------------
  // Detour
  // ---------------------------------------------------------------------------------------

  datatype Detour =
    | Passed(failure: Outcome)
    | Measured(directDistance: Json, directDuration: Json, detourDistance: Json, detourDuration: Json,
               extraDistance: real, extraDuration: real)

  /** The two point lists `calculate_detour` routes: straight, and through `via`. */
  function DetourPoints(start: Point, end: Point, via: Point): (r: (seq<Point>, seq<Point>))
    ensures r.0 == [start, end] && r.1 == [start, via, end]
  {
    ([start, end], [start, via, end])
  }

  /** `calculate_detour` given the two routing outcomes; the first error wins, and otherwise
      the extras are what the detour adds to the direct route. `None` where a subtraction
      raises. */
  function DetourOf(direct: Outcome, detour: Outcome): (r: Option<Detour>)
    ensures direct.Failure? ==> r == Some(Passed(direct))
    ensures direct.Found? && detour.Failure? ==> r == Some(Passed(detour))
    ensures r.Some? && r.value.Measured? ==>
      direct.Found? && detour.Found?
      && IsNumber(direct.route.totalDistance) && IsNumber(detour.route.totalDistance)
      && NumValue(direct.route.totalDistance) + r.value.extraDistance == NumValue(detour.route.totalDistance)
      && IsNumber(direct.route.totalDuration) && IsNumber(detour.route.totalDuration)
      && NumValue(direct.route.totalDuration) + r.value.extraDuration == NumValue(detour.route.totalDuration)
  {
    if direct.Failure? then Some(Passed(direct))
    else if detour.Failure? then Some(Passed(detour))
    else
      var a, b := direct.route, detour.route;
      if IsNumber(a.totalDistance) && IsNumber(b.totalDistance) && IsNumber(a.totalDuration) && IsNumber(b.totalDuration) then
        Some(Measured(a.totalDistance, a.totalDuration, b.totalDistance, b.totalDuration,
                      NumValue(b.totalDistance) - NumValue(a.totalDistance),
                      NumValue(b.totalDuration) - NumValue(a.totalDuration)))
      else None
  }

  /** Both detour requests have enough points, so neither fails for want of them. */
  lemma DetourRequests(start: Point, end: Point, via: Point, mode: string)
    ensures var (direct, detour) := DetourPoints(start, end, via);
      RequestOf(direct, mode, "time").Some? && RequestOf(detour, mode, "time").Some?
      && RequestOf(detour, mode, "time").value.points[1] == via
  {
  }
}

=== FILE: json.dfy ===
/** Decoded JSON as the Python code sees it after `response.json()`: dicts keep their key
    order, and a key that appears twice reads as its last value, as `json.loads` does. */
module Json {
  import opened Wrappers
  import opened Text

  datatype Json =
    | Null
    | Bool(b: bool)
    | Int(i: int)
    | Float(r: real)
    | Str(s: string)
    | Arr(items: seq<Json>)
    | Obj(fields: seq<(string, Json)>)

  /** The value of the last entry named `key`. */
  function Lookup(fields: seq<(string, Json)>, key: string): (r: Option<Json>)
    ensures r.Some? ==> exists i :: 0 <= i < |fields| && fields[i] == (key, r.value)
    ensures r.None? ==> forall i :: 0 <= i < |fields| ==> fields[i].0 != key
    decreases |fields|
  {
    if |fields| == 0 then None
    else if fields[|fields| - 1].0 == key then Some(fields[|fields| - 1].1)
    else
      var r := Lookup(fields[..|fields| - 1], key);
      if r.Some? then
        var i :| 0 <= i < |fields| - 1 && fields[..|fields| - 1][i] == (key, r.value);
        assert fields[i] == (key, r.value);
        r
      else r
  }

  /** The entry at `i` is the one read for `key` when no later entry has that key. */
  lemma {:induction false} LookupAt(fields: seq<(string, Json)>, i: nat, key: string)
    requires i < |fields| && fields[i].0 == key
    requires forall j :: i < j < |fields| ==> fields[j].0 != key
    ensures Lookup(fields, key) == Some(fields[i].1)
    decreases |fields|
  {
    if i < |fields| - 1 {
      var init := fields[..|fields| - 1];
      assert forall j :: i < j < |init| ==> init[j] == fields[j];
      LookupAt(init, i, key);
    }
  }

  /** `key in d` for a dict `d`. */
  predicate Has(j: Json, key: string)
  {
    j.Obj? && Lookup(j.fields, key).Some?
  }

  /** `d.get(key, default)`; on something that is not a dict Python raises, so callers only
      ask dicts. */
  function Get(j: Json, key: string, default: Json): Json
    requires j.Obj?
  {
    match Lookup(j.fields, key)
      case Some(v) => v
      case None => default
  }

  /** `d[key] = v`: an existing key keeps its place and takes the new value, a new key goes at
      the end; every other key reads as before. */
  function Put(j: Json, key: string, v: Json): (r: Json)
    requires j.Obj?
    ensures r.Obj? && Lookup(r.fields, key) == Some(v)
    ensures forall k :: k != key ==> Lookup(r.fields, k) == Lookup(j.fields, k)
    ensures Has(j, key) ==> |r.fields| == |j.fields|
    ensures !Has(j, key) ==> r.fields == j.fields + [(key, v)]
  {
    if Has(j, key) then
      ReplaceLookup(j.fields, key, v);
      Obj(Replace(j.fields, key, v))
    else
      assert (j.fields + [(key, v)])[..|j.fields|] == j.fields;
      Obj(j.fields + [(key, v)])
  }

  /** Every entry named `key` takes the value `v`. */
  function Replace(fields: seq<(string, Json)>, key: string, v: Json): (r: seq<(string, Json)>)
    ensures |r| == |fields|
    ensures forall i :: 0 <= i < |fields| ==> r[i] == (if fields[i].0 == key then (key, v) else fields[i])
  {
    seq(|fields|, i requires 0 <= i < |fields| => if fields[i].0 == key then (key, v) else fields[i])
  }

  lemma {:induction false} ReplaceLookup(fields: seq<(string, Json)>, key: string, v: Json)
    ensures Lookup(fields, key).Some? ==> Lookup(Replace(fields, key, v), key) == Some(v)
    ensures forall k :: k != key ==> Lookup(Replace(fields, key, v), k) == Lookup(fields, k)
    decreases |fields|
  {
    if |fields| > 0 {
      var n := |fields|;
      assert Replace(fields, key, v)[..n - 1] == Replace(fields[..n - 1], key, v);
      ReplaceLookup(fields[..n - 1], key, v);
    }
  }

  /** Python truthiness: `None`, `False`, zero, and empty strings, lists and dicts are false. */
  predicate Truthy(j: Json)
  {
    match j
      case Null => false
      case Bool(b) => b
      case Int(i) => i != 0
      case Float(r) => r != 0.0
      case Str(s) => s != []
      case Arr(items) => items != []
      case Obj(fields) => fields != []
  }

  /** `x or y`. */
  function Or(x: Json, y: Json): (r: Json)
    ensures Truthy(x) ==> r == x
    ensures !Truthy(x) ==> r == y
  {
    if Truthy(x) then x else y
  }

  /** `isinstance(v, (int, float))`; `bool` is a subclass of `int` in Python. */
  predicate IsNumber(j: Json)
  {
    j.Bool? || j.Int? || j.Float?
  }

  /** An `Optional[str]` field: `None` or a string; pydantic does not turn numbers into text. */
  predicate OptStr(j: Json)
  {
    j.Null? || j.Str?
  }

  /** Python's `round(x, n)` on floats; its decimal behaviour is not modelled. */
  type Rounder = (real, int) -> real

  /** The numeric value of a number (`True` is 1). */
  function NumValue(j: Json): real
    requires IsNumber(j)
  {
    match j
      case Bool(b) => if b then 1.0 else 0.0
      case Int(i) => i as real
      case Float(r) => r
  }

  /** `v == 0` in Python: only numbers (booleans included) can equal 0. */
  predicate IsZero(j: Json)
  {
    IsNumber(j) && NumValue(j) == 0.0
  }

  /** `str(v)` as an f-string renders it: strings as themselves, other values through `show`
      (Python's rendering of numbers and containers is not modelled). */
  function Display(j: Json, show: Json -> string): string
  {
    if j.Str? then j.s else show(j)
  }

  /** `len(v)` for a list, string or dict. */
  function Len(j: Json): nat
    requires j.Arr? || j.Str? || j.Obj?
  {
    match j
      case Arr(items) => |items|
      case Str(s) => |s|
      case Obj(fields) => |fields|
  }

  /** The keys of a dict in the order `for k in d` visits them: each once, where it first
      appears. */
  function Keys(fields: seq<(string, Json)>): (r: seq<string>)
    ensures forall i :: 0 <= i < |fields| ==> fields[i].0 in r
    ensures forall k :: k in r ==> exists i :: 0 <= i < |fields| && fields[i].0 == k
    decreases |fields|
  {
    if |fields| == 0 then []
    else
      var init := fields[..|fields| - 1];
      var before := Keys(init);
      var k := fields[|fields| - 1].0;
      assert forall i :: 0 <= i < |init| ==> init[i] == fields[i];
      if k in before then before else before + [k]
  }

  /** `key in v` for a string `key`: a dict's keys, a list's elements, a string's
      substrings; `None` where Python raises `TypeError` (`None`, booleans and numbers). */
  function PyIn(key: string, v: Json): (r: Option<bool>)
    ensures r.None? <==> !(v.Obj? || v.Arr? || v.Str?)
    ensures v.Obj? ==> r == Some(Has(v, key))
  {
    match v
      case Obj(_) => Some(Has(v, key))
      case Arr(items) => Some(Str(key) in items)
      case Str(s) => Some(Contains(s, key))
      case _ => None
  }

  /** The values `for x in v` visits: a list's elements, a dict's keys, a string's
      one-character strings; `None` where `v` is not iterable. */
  function Iterate(v: Json): (r: Option<seq<Json>>)
    ensures r.None? <==> !(v.Obj? || v.Arr? || v.Str?)
    ensures v.Arr? ==> r == Some(v.items)
    ensures v.Str? ==> r.Some? && |r.value| == |v.s|
  {
    match v
      case Arr(items) => Some(items)
      case Obj(fields) =>
        var ks := Keys(fields);
        Some(seq(|ks|, i requires 0 <= i < |ks| => Str(ks[i])))
      case Str(s) => Some(seq(|s|, i requires 0 <= i < |s| => Str([s[i]])))
      case _ => None
  }
}

=== FILE: location_store.dfy ===
/** The saved-locations store: upserts keyed on the normalised key, and search by embedding
    similarity with a keyword fallback. The SQLite table is a sequence of rows in id order;
    the embedding service, the square root and `round(x, 4)` are parameters. */
module LocationStore {
  import opened Wrappers
  import opened Text
  import opened Sorting

  /** A row of `locations`; `embedding` is `None` when its stored text does not parse. */
  datatype Row = Row(key: string, normalized: string, description: Option<string>, lon: real, lat: real,
                     embedding: Option<seq<real>>, createdAt: string, updatedAt: string)

  /** An entry of `matches`. */
  datatype Match = Match(key: string, description: Option<string>, lon: real, lat: real, score: real)

  datatype SaveReply = SaveFailed(error: string) | Saved(key: string, description: Option<string>, lon: real, lat: real)

  /** `_get_embedding(text)`: `None` when the call raises or returns no data. */
  type Embedder = string -> Option<seq<real>>

  /** An embedding Python treats as false: missing or empty. */
  predicate Falsy(e: Option<seq<real>>)
  {
    e.None? || e.value == []
  }

  /** `_build_embedding_text(key, description)`. */
  function EmbeddingText(key: string, description: Option<string>): (r: string)
    ensures description.Some? && description.value != "" ==> r == key + " - " + description.value
    ensures description.None? || description.value == "" ==> r == key
  {
    if description.Some? && description.value != "" then key + " - " + description.value else key
  }

  /** Normalised keys are unique, as the table's `UNIQUE` constraint demands. */
  predicate UniqueKeys(rows: seq<Row>)
  {
    forall i, j :: 0 <= i < j < |rows| ==> rows[i].normalized != rows[j].normalized
  }

  /** The index of the row with normalised key `n`, or -1. */
  function RowFor(rows: seq<Row>, n: string): (r: int)
    ensures -1 <= r < |rows|
    ensures r >= 0 ==> rows[r].normalized == n
    ensures forall i :: 0 <= i < |rows| && r < i ==> rows[i].normalized != n
    decreases |rows|
  {
    if |rows| == 0 then -1
    else if rows[|rows| - 1].normalized == n then |rows| - 1
    else RowFor(rows[..|rows| - 1], n)
  }

  /** `INSERT … ON CONFLICT(key_normalized) DO UPDATE`: the conflicting row takes the new
      values but keeps its `created_at` and its place. */
  function Upsert(rows: seq<Row>, row: Row): (r: seq<Row>)
    ensures var i := RowFor(rows, row.normalized);
      (i >= 0 ==> r == rows[i := row.(createdAt := rows[i].createdAt)])
      && (i == -1 ==> r == rows + [row])
  {
    var i := RowFor(rows, row.normalized);
    if i >= 0 then rows[i := row.(createdAt := rows[i].createdAt)] else rows + [row]
  }

  /** `save_location(key, longitude, latitude, description)` at time `now`: the table after
      the call and the reply. */
  function SaveLocation(rows: seq<Row>, key: string, lon: real, lat: real, description: Option<string>,
                        embed: Embedder, now: string): (r: (seq<Row>, SaveReply))
    ensures Strip(key) == "" ==> r == (rows, SaveFailed("Key cannot be empty"))
    ensures Strip(key) != "" && Falsy(embed(EmbeddingText(Strip(key), description))) ==>
      r == (rows, SaveFailed("Failed to compute embedding"))
    ensures r.1.Saved? ==> r.1 == Saved(Strip(key), description, lon, lat)
    ensures r.1.Saved? <==> Strip(key) != "" && !Falsy(embed(EmbeddingText(Strip(key), description)))
    ensures r.1.Saved? ==>
      var n := Lower(Strip(key));
      var i := RowFor(r.0, n);
      i >= 0 && r.0[i].key == Strip(key) && r.0[i].description == description
      && r.0[i].lon == lon && r.0[i].lat == lat && r.0[i].updatedAt == now
      && |r.0| == |rows| + (if RowFor(rows, n) == -1 then 1 else 0)
      && (forall j :: 0 <= j < |rows| && rows[j].normalized != n ==> r.0[j] == rows[j])
  {
    var clean := Strip(key);
    if clean == "" then (rows, SaveFailed("Key cannot be empty"))
    else
      var e := embed(EmbeddingText(clean, description));
      if Falsy(e) then (rows, SaveFailed("Failed to compute embedding"))
      else
        var n := Lower(clean);
        var r := Upsert(rows, Row(clean, n, description, lon, lat, e, now, now));
        UpsertFinds(rows, Row(clean, n, description, lon, lat, e, now, now));
        (r, Saved(clean, description, lon, lat))
  }

  /** After an upsert the row is found under its normalised key. */
  lemma UpsertFinds(rows: seq<Row>, row: Row)
    ensures var r := Upsert(rows, row);
      var i := RowFor(r, row.normalized);
      i >= 0 && r[i] == row.(createdAt := r[i].createdAt)
  {
    var r := Upsert(rows, row);
    var i := RowFor(rows, row.normalized);
    if i >= 0 {
      RowForUnique(r, i, row.normalized);
    } else {
      assert r[|r| - 1] == row;
    }
  }

  /** The last row under `n` is the one `RowFor` finds. */
  lemma {:induction false} RowForUnique(rows: seq<Row>, i: int, n: string)
    requires 0 <= i < |rows| && rows[i].normalized == n
    requires forall j :: i < j < |rows| ==> rows[j].normalized != n
    ensures RowFor(rows, n) == i
    decreases |rows|
  {
    if i < |rows| - 1 {
      RowForUnique(rows[..|rows| - 1], i, n);
    }
  }

  /** Saving keeps normalised keys unique. */
  lemma SaveKeepsKeysUnique(rows: seq<Row>, key: string, lon: real, lat: real, description: Option<string>,
                            embed: Embedder, now: string)
    requires UniqueKeys(rows)
    ensures UniqueKeys(SaveLocation(rows, key, lon, lat, description, embed, now).0)
  {
  }

  /** Saving the same location twice at the same time leaves the table as one save does. */
  lemma SaveTwiceIsSaveOnce(rows: seq<Row>, key: string, lon: real, lat: real, description: Option<string>,
                            embed: Embedder, now: string)
    requires UniqueKeys(rows)
    ensures var once := SaveLocation(rows, key, lon, lat, description, embed, now);
      SaveLocation(once.0, key, lon, lat, description, embed, now) == once
  {
    var once := SaveLocation(rows, key, lon, lat, description, embed, now);
    if once.1.Saved? {
      var clean := Strip(key);
      var n := Lower(clean);
      var row := Row(clean, n, description, lon, lat, embed(EmbeddingText(clean, description)), now, now);
      assert once.0 == Upsert(rows, row);
      UpsertFinds(rows, row);
      var i := RowFor(once.0, n);
      assert once.0[i := row.(createdAt := once.0[i].createdAt)] == once.0;
    }
  }

  // ---------------------------------------------------------------------------------------
  // Similarity
  // ---------------------------------------------------------------------------------------

  /** `sum(x * y for x, y in zip(a, b))`. */
  function Dot(a: seq<real>, b: seq<real>): real
    requires |a| == |b|
    decreases |a|
  {
    if |a| == 0 then 0.0 else a[0] * b[0] + Dot(a[1..], b[1..])
  }

  /** `_cosine_similarity(a, b)` with `sqrt` for `math.sqrt`. */
  function Cosine(a: seq<real>, b: seq<real>, sqrt: real -> real): (r: real)
    ensures |a| == 0 || |b| == 0 || |a| != |b| ==> r == 0.0
    ensures |a| == |b| && (sqrt(Dot(a, a)) == 0.0 || sqrt(Dot(b, b)) == 0.0) ==> r == 0.0
    ensures |a| == |b| > 0 && sqrt(Dot(a, a)) != 0.0 && sqrt(Dot(b, b)) != 0.0 ==>
      r * (sqrt(Dot(a, a)) * sqrt(Dot(b, b))) == Dot(a, b)
  {
    if |a| == 0 || |b| == 0 || |a| != |b| then 0.0
    else
      var na := sqrt(Dot(a, a));
      var nb := sqrt(Dot(b, b));
      if na == 0.0 || nb == 0.0 then 0.0 else Dot(a, b) / (na * nb)
  }

  lemma {:induction false} DotCommutes(a: seq<real>, b: seq<real>)
    requires |a| == |b|
    ensures Dot(a, b) == Dot(b, a)
    decreases |a|
  {
    if |a| > 0 {
      DotCommutes(a[1..], b[1..]);
    }
  }

  /** The similarity does not depend on the order of its arguments. */
  lemma CosineSymmetric(a: seq<real>, b: seq<real>, sqrt: real -> real)
    ensures Cosine(a, b, sqrt) == Cosine(b, a, sqrt)
  {
    if |a| == |b| {
      DotCommutes(a, b);
    }
  }

  lemma {:induction false} DotZero(a: seq<real>, b: seq<real>)
    requires |a| == |b| && forall i :: 0 <= i < |a| ==> a[i] == 0.0
    ensures Dot(a, b) == 0.0
    decreases |a|
  {
    if |a| > 0 {
      DotZero(a[1..], b[1..]);
    }
  }

  /** A zero vector is similar to nothing. */
  lemma ZeroVectorScoresZero(a: seq<real>, b: seq<real>, sqrt: real -> real)
    requires sqrt(0.0) == 0.0
    requires forall i :: 0 <= i < |a| ==> a[i] == 0.0
    ensures Cosine(a, b, sqrt) == 0.0
  {
    if |a| == |b| {
      DotZero(a, a);
    }
  }

  // ---------------------------------------------------------------------------------------
  // Search
  // ---------------------------------------------------------------------------------------

  /** `max(1, limit)`. */
  function Cap(limit: int): (r: nat)
    ensures r >= 1 && (limit >= 1 ==> r == limit)
  {
    if limit >= 1 then limit else 1
  }

  /** The row's key or description contains the query, ignoring case. */
  predicate Hits(row: Row, query: string)
  {
    Contains(Lower(row.key), Lower(query))
    || Contains(Lower(if row.description.Some? then row.description.value else ""), Lower(query))
  }

  /** A fallback match, scored 1.0. */
  function Keyword(row: Row): Match
  {
    Match(row.key, row.description, row.lon, row.lat, 1.0)
  }

  /** The rows the keyword loop keeps, in row order. */
  function KeywordHits(rows: seq<Row>, query: string): (r: seq<Match>)
    ensures |r| <= |rows|
    ensures forall i :: 0 <= i < |r| ==> (r[i].score == 1.0
      && exists j :: 0 <= j < |rows| && Hits(rows[j], query) && r[i] == Keyword(rows[j]))
    decreases |rows|
  {
    if |rows| == 0 then []
    else
      var before := KeywordHits(rows[..|rows| - 1], query);
      var last := rows[|rows| - 1];
      assert forall i :: 0 <= i < |rows| - 1 ==> rows[..|rows| - 1][i] == rows[i];
      if Hits(last, query) then before + [Keyword(last)] else before
  }

  /** The keyword loop keeps row order: the hits of two runs of rows are those of each, in turn. */
  lemma {:induction false} KeywordHitsConcat(a: seq<Row>, b: seq<Row>, query: string)
    ensures KeywordHits(a + b, query) == KeywordHits(a, query) + KeywordHits(b, query)
    decreases |b|
  {
    if |b| == 0 {
      assert a + b == a;
    } else {
      var b' := b[..|b| - 1];
      assert (a + b)[..|a + b| - 1] == a + b';
      assert (a + b)[|a + b| - 1] == b[|b| - 1];
      KeywordHitsConcat(a, b', query);
    }
  }

  /** Every row that matches the query is among the hits. */
  lemma {:induction false} KeywordHitsComplete(rows: seq<Row>, query: string, j: int)
    requires 0 <= j < |rows| && Hits(rows[j], query)
    ensures Keyword(rows[j]) in KeywordHits(rows, query)
    decreases |rows|
  {
    if j < |rows| - 1 {
      KeywordHitsComplete(rows[..|rows| - 1], query, j);
    }
  }

  /** `_fallback_keyword_search(rows, query, limit)`. */
  function Fallback(rows: seq<Row>, query: string, limit: int): (r: seq<Match>)
    ensures |r| <= Cap(limit)
    ensures var hits := KeywordHits(rows, query);
      |r| == (if Cap(limit) < |hits| then Cap(limit) else |hits|) && r == hits[..|r|]
  {
    Take(KeywordHits(rows, query), Cap(limit))
  }

  /** The embedding loop: rows whose stored embedding parses, with their rounded similarity. */
  function Scored(rows: seq<Row>, q: seq<real>, sqrt: real -> real, round4: real -> real): (r: seq<Match>)
    ensures |r| <= |rows|
    ensures forall i :: 0 <= i < |r| ==>
      exists j :: 0 <= j < |rows| && rows[j].embedding.Some? && r[i] == Match(rows[j].key, rows[j].description,
        rows[j].lon, rows[j].lat, round4(Cosine(q, rows[j].embedding.value, sqrt)))
    decreases |rows|
  {
    if |rows| == 0 then []
    else
      var before := Scored(rows[..|rows| - 1], q, sqrt, round4);
      var last := rows[|rows| - 1];
      assert forall i :: 0 <= i < |rows| - 1 ==> rows[..|rows| - 1][i] == rows[i];
      if last.embedding.None? then before
      else before + [Match(last.key, last.description, last.lon, last.lat, round4(Cosine(q, last.embedding.value, sqrt)))]
  }

  /** The sort key of `sort(key=score, reverse=True)`, which keeps ties in order. */
  function Descending(m: Match): real
  {
    -m.score
  }

  /** The first `n` matches by descending score. */
  function Top(scored: seq<Match>, n: nat): (r: seq<Match>)
    ensures |r| == (if n < |scored| then n else |scored|)
    ensures forall i, j :: 0 <= i < j < |r| ==> r[i].score >= r[j].score
    ensures multiset(r) <= multiset(scored)
    ensures forall i :: 0 <= i < |scored| && |r| > 0 && scored[i] !in multiset(r) ==>
      scored[i].score <= r[|r| - 1].score
  {
    var sorted := SortBy(scored, Descending);
    TakeSorted(sorted, n);
    TakeRest(scored, sorted, n);
    Take(sorted, n)
  }

  lemma TakeSorted(sorted: seq<Match>, n: nat)
    requires SortedBy(sorted, Descending)
    ensures forall i, j :: 0 <= i < j < |Take(sorted, n)| ==> Take(sorted, n)[i].score >= Take(sorted, n)[j].score
  {
    var r := Take(sorted, n);
    forall i, j | 0 <= i < j < |r|
      ensures r[i].score >= r[j].score
    {
      assert r[i] == sorted[i] && r[j] == sorted[j];
      assert Descending(sorted[i]) <= Descending(sorted[j]);
    }
  }

  lemma TakeRest(scored: seq<Match>, sorted: seq<Match>, n: nat)
    requires SortedBy(sorted, Descending) && multiset(sorted) == multiset(scored)
    ensures multiset(Take(sorted, n)) <= multiset(scored)
    ensures forall i :: 0 <= i < |scored| && |Take(sorted, n)| > 0 && scored[i] !in multiset(Take(sorted, n)) ==>
      scored[i].score <= Take(sorted, n)[|Take(sorted, n)| - 1].score
  {
    var r := Take(sorted, n);
    assert sorted == r + sorted[|r|..];
    assert multiset(sorted) == multiset(r) + multiset(sorted[|r|..]);
    assert forall k :: 0 <= k < |r| ==> sorted[k] == r[k] && r[k] in multiset(r);
    forall i | 0 <= i < |scored| && |r| > 0 && scored[i] !in multiset(r)
      ensures scored[i].score <= r[|r| - 1].score
    {
      assert scored[i] in multiset(sorted);
      var k :| 0 <= k < |sorted| && sorted[k] == scored[i];
      assert k >= |r|;
      assert Descending(sorted[|r| - 1]) <= Descending(sorted[k]);
    }
  }

  /** `search(query, limit)`: the list under "matches". */
  function Search(rows: seq<Row>, query: string, limit: int, embed: Embedder, sqrt: real -> real,
                  round4: real -> real): (r: seq<Match>)
    ensures Strip(query) == "" || |rows| == 0 ==> r == []
    ensures Strip(query) != "" && |rows| > 0 && Falsy(embed(Strip(query))) ==>
      r == Fallback(rows, Strip(query), limit)
    ensures Strip(query) != "" && |rows| > 0 && !Falsy(embed(Strip(query))) ==>
      var scored := Scored(rows, embed(Strip(query)).value, sqrt, round4);
      r == Top(scored, Cap(limit))
    ensures |r| <= Cap(limit)
  {
    var clean := Strip(query);
    if clean == "" || |rows| == 0 then []
    else
      var q := embed(clean);
      if Falsy(q) then Fallback(rows, clean, limit)
      else Top(Scored(rows, q.value, sqrt, round4), Cap(limit))
  }

  /** Without embeddings the search returns the first matching rows, in row order, each
      scored 1.0; when few enough rows match, all of them. */
  lemma FallbackFindsEveryHit(rows: seq<Row>, query: string, limit: int, j: int)
    requires 0 <= j < |rows| && Hits(rows[j], query)
    requires |KeywordHits(rows, query)| <= Cap(limit)
    ensures Keyword(rows[j]) in Fallback(rows, query, limit)
  {
    KeywordHitsComplete(rows, query, j);
  }
}

=== FILE: meeting_place.dfy ===
/** `calculate_centroid` and `find_meeting_place_impl`: score the places found around the
    members' centre by the members' total travel time. The place search and the routing calls
    are inputs; coordinates and durations are exact reals. */
module MeetingPlace {
  import opened Wrappers
  import opened Json
  import opened Sorting
  import opened Seqs
  import Numerals

  /** The seconds added for a member whose route could not be computed. */
  const Penalty: real := 9999.0

  datatype MemberLocation = MemberLocation(memberId: string, nickname: string, lon: real, lat: real)

  /** `sum(f(x) for x in xs)`. */
  function Total<T>(xs: seq<T>, f: T -> real): real
    decreases |xs|
  {
    if |xs| == 0 then 0.0 else f(xs[0]) + Total(xs[1..], f)
  }

  /** Adding one more term at the end adds its value. */
  lemma {:induction false} TotalSnoc<T>(xs: seq<T>, x: T, f: T -> real)
    ensures Total(xs + [x], f) == Total(xs, f) + f(x)
    decreases |xs|
  {
    if |xs| == 0 {
      assert xs + [x] == [x];
      assert [x][1..] == [];
    } else {
      assert (xs + [x])[0] == xs[0];
      assert (xs + [x])[1..] == xs[1..] + [x];
      TotalSnoc(xs[1..], x, f);
    }
  }

  /** A sum of equal terms is the count times the term. */
  lemma {:induction false} TotalConstant<T>(xs: seq<T>, f: T -> real, c: real)
    requires forall i :: 0 <= i < |xs| ==> f(xs[i]) == c
    ensures Total(xs, f) == |xs| as real * c
    decreases |xs|
  {
    if |xs| > 0 {
      TotalConstant(xs[1..], f, c);
    }
  }

  function Lon(m: MemberLocation): real { m.lon }

  function Lat(m: MemberLocation): real { m.lat }

  /** `calculate_centroid(locations)`: the coordinate-wise mean; `None` where Python raises
      (no locations). */
  function Centroid(ms: seq<MemberLocation>): (r: Option<(real, real)>)
    ensures r.None? <==> |ms| == 0
    ensures r.Some? ==> r.value.0 * |ms| as real == Total(ms, Lon) && r.value.1 * |ms| as real == Total(ms, Lat)
  {
    if |ms| == 0 then None
    else Some((Mean(Total(ms, Lon), |ms|), Mean(Total(ms, Lat), |ms|)))
  }

  /** Members all standing at one point have that point as their centre. */
  lemma CentroidOfOnePoint(ms: seq<MemberLocation>, lon: real, lat: real)
    requires |ms| > 0
    requires forall i :: 0 <= i < |ms| ==> ms[i].lon == lon && ms[i].lat == lat
    ensures Centroid(ms) == Some((lon, lat))
  {
    TotalConstant(ms, Lon, lon);
    TotalConstant(ms, Lat, lat);
    var n := |ms| as real;
    var c := Centroid(ms).value;
    assert c.0 * n == n * lon && c.1 * n == n * lat;
    assert (c.0 - lon) * n == 0.0 && (c.1 - lat) * n == 0.0;
    assert c.0 - lon == 0.0 && c.1 - lat == 0.0;
  }

  /** One member's entry in `member_travel_times`. */
  datatype TravelTime =
    | Reached(memberId: string, nickname: string, seconds: real, distance: Json)
    | Unreached(memberId: string, nickname: string)

  /** `routing_client.get_route(points=[(member.longitude, member.latitude), (place_lon,
      place_lat)], mode=mode, optimize="time")` with the call's mode fixed; `None` where it
      raises. */
  type MemberRouter = (MemberLocation, Json, Json) -> Option<Json>

  /** One turn of the inner loop: the member's travel time, or the failure entry when routing
      raises, the reply is not a dict, or its duration is not a number (`total_duration +=
      duration` raises inside the `try`). */
  function Leg(m: MemberLocation, router: MemberRouter, lon: Json, lat: Json): (r: TravelTime)
    ensures r.memberId == m.memberId && r.nickname == m.nickname
    ensures r.Reached? <==>
      router(m, lon, lat).Some? && router(m, lon, lat).value.Obj?
      && IsNumber(Get(router(m, lon, lat).value, "total_duration", Int(0)))
  {
    var route := router(m, lon, lat);
    if route.None? || !route.value.Obj? then Unreached(m.memberId, m.nickname)
    else
      var d := Get(route.value, "total_duration", Int(0));
      if !IsNumber(d) then Unreached(m.memberId, m.nickname)
      else Reached(m.memberId, m.nickname, NumValue(d), Get(route.value, "total_distance", Int(0)))
  }

  /** What an entry adds to the total: its seconds, or the penalty. */
  function Contribution(t: TravelTime): real
  {
    if t.Reached? then t.seconds else Penalty
  }

  /** What the running totals satisfy: the longest trip is one of the reached members'
      seconds (or the initial `0`) and no reached member took longer. */
  predicate Longest(most: real, times: seq<TravelTime>)
  {
    most >= 0.0
    && (forall i :: 0 <= i < |times| && times[i].Reached? ==> times[i].seconds <= most)
    && (most == 0.0 || exists i :: 0 <= i < |times| && times[i].Reached? && times[i].seconds == most)
  }

  /** One turn of the inner loop applied to the running totals. */
  function AddLeg(total: real, most: real, times: seq<TravelTime>, t: TravelTime): (r: (real, real, seq<TravelTime>))
    requires Longest(most, times)
    ensures r.0 == total + Contribution(t) && r.2 == times + [t]
    ensures Longest(r.1, r.2)
  {
    var longest := if t.Reached? && most < t.seconds then t.seconds else most;
    LongestAfter(most, times, t, longest);
    (total + Contribution(t), longest, times + [t])
  }

  /** The new longest trip keeps `Longest` once the entry `t` is appended. */
  lemma LongestAfter(most: real, times: seq<TravelTime>, t: TravelTime, longest: real)
    requires Longest(most, times)
    requires longest == if t.Reached? && most < t.seconds then t.seconds else most
    ensures Longest(longest, times + [t])
  {
    var all := times + [t];
    assert forall i :: 0 <= i < |times| ==> all[i] == times[i];
    assert all[|times|] == t;
    if t.Reached? && most < t.seconds {
      assert all[|times|].Reached? && all[|times|].seconds == longest;
    } else if longest != 0.0 {
      var i :| 0 <= i < |times| && times[i].Reached? && times[i].seconds == most;
      assert all[i].Reached? && all[i].seconds == longest;
    }
  }

  /** The running `(total_duration, max_duration, member_travel_times)` after the members
      `ms`, in order. */
  function Tally(ms: seq<MemberLocation>, router: MemberRouter, lon: Json, lat: Json): (r: (real, real, seq<TravelTime>))
    ensures |r.2| == |ms|
    ensures forall i :: 0 <= i < |ms| ==> r.2[i] == Leg(ms[i], router, lon, lat)
    ensures r.0 == Total(r.2, Contribution)
    ensures r.1 >= 0.0
    ensures forall i :: 0 <= i < |r.2| && r.2[i].Reached? ==> r.2[i].seconds <= r.1
    ensures r.1 == 0.0 || exists i :: 0 <= i < |r.2| && r.2[i].Reached? && r.2[i].seconds == r.1
    decreases |ms|
  {
    if |ms| == 0 then (0.0, 0.0, [])
    else
      var prev := Tally(ms[..|ms| - 1], router, lon, lat);
      var t := Leg(ms[|ms| - 1], router, lon, lat);
      TotalSnoc(prev.2, t, Contribution);
      var r := AddLeg(prev.0, prev.1, prev.2, t);
      assert forall i :: 0 <= i < |ms| - 1 ==> r.2[i] == prev.2[i];
      r
  }

  /** A place's scores. */
  datatype Score = Score(place: Json, total: real, most: real, average: real, times: seq<TravelTime>)

  /** `place.get("coordinates", [None, None])` read as `(coords[0], coords[1])`; `None` where
      Python raises. */
  function PlaceCoords(p: Json): (r: Option<(Json, Json)>)
    ensures r.Some? ==> p.Obj?
    ensures p.Obj? && !Has(p, "coordinates") ==> r == Some((Null, Null))
  {
    if !p.Obj? then None
    else
      var c := Get(p, "coordinates", Arr([Null, Null]));
      if !c.Arr? || |c.items| < 2 then None else Some((c.items[0], c.items[1]))
  }

  /** `s` is the score of place `p` for the members `ms`: one entry per member, the total with
      penalties, the mean over all members. */
  predicate ScoredFor(ms: seq<MemberLocation>, router: MemberRouter, p: Json, s: Score)
  {
    var c := PlaceCoords(p);
    |ms| > 0 && c.Some? && c.value.0 != Null && c.value.1 != Null
    && s.place == p
    && s.times == Tally(ms, router, c.value.0, c.value.1).2
    && s.total == Total(s.times, Contribution)
    && s.average == Mean(s.total, |ms|)
    && s.most == Tally(ms, router, c.value.0, c.value.1).1
  }

  /** `total / count`. */
  function Mean(total: real, count: nat): (r: real)
    requires count > 0
    ensures r * count as real == total
  {
    total / count as real
  }

  /** One turn of the loop over places: skipped (`[]`) without both coordinates. */
  function ScoreStep(ms: seq<MemberLocation>, router: MemberRouter, p: Json): (r: Option<seq<Score>>)
    requires |ms| > 0
    ensures r.Some? ==> |r.value| <= 1
    ensures r.Some? && |r.value| == 1 ==> ScoredFor(ms, router, p, r.value[0])
    ensures r.Some? && |r.value| == 0 <==>
      PlaceCoords(p).Some? && (PlaceCoords(p).value.0 == Null || PlaceCoords(p).value.1 == Null)
  {
    var c := PlaceCoords(p);
    if c.None? then None
    else if c.value.0 == Null || c.value.1 == Null then Some([])
    else
      var t := Tally(ms, router, c.value.0, c.value.1);
      var average := Mean(t.0, |ms|);
      Some([Score(p, t.0, t.1, average, t.2)])
  }

  /** Whether a score belongs to one of `places`. */
  predicate FromPlaces(ms: seq<MemberLocation>, router: MemberRouter, places: seq<Json>, s: Score)
  {
    s.place in places && ScoredFor(ms, router, s.place, s)
  }

  /** `places_with_scores`, in the order of `places`. */
  function Scores(places: seq<Json>, ms: seq<MemberLocation>, router: MemberRouter): (r: Option<seq<Score>>)
    requires |ms| > 0
    ensures r.Some? ==> |r.value| <= |places|
    ensures r.Some? ==> forall i :: 0 <= i < |r.value| ==> FromPlaces(ms, router, places, r.value[i])
  {
    var step := p => ScoreStep(ms, router, p);
    FlatMapAllShort(places, step);
    FlatMapAllEvery(places, step, s => FromPlaces(ms, router, places, s));
    FlatMapAll(places, step)
  }

  /** The sort key, `p["total_duration_seconds"]`. */
  function TotalOf(s: Score): real
  {
    s.total
  }

  /** `places_client.search_places(query=…, location=…, radius=…, limit=…)`. */
  datatype SearchRequest = SearchRequest(query: string, lon: real, lat: real, radius: int, limit: int)

  type PlaceSearch = SearchRequest -> seq<Json>

  datatype Meeting =
    | Refused(error: string)
    | NoPlace(error: string, centre: (real, real))
    | Chosen(centre: (real, real), memberCount: nat, best: Score, alternatives: seq<Score>)

  /** The search the call made, if any, and its outcome. */
  datatype Run = Run(searched: Option<SearchRequest>, outcome: Meeting)

  /** `find_meeting_place_impl`, up to the rounding of seconds to minutes in the reply; `None`
      where Python raises. */
  function FindMeetingPlace(query: string, ms: seq<MemberLocation>, limit: int, radius: int,
                            search: PlaceSearch, router: MemberRouter): (r: Option<Run>)
    ensures |ms| == 0 ==> r == Some(Run(None, Refused("No member locations provided")))
    ensures |ms| == 1 ==> r == Some(Run(None, Refused("At least 2 members with locations are required")))
    ensures |ms| >= 2 && r.Some? ==>
      Centroid(ms).Some?
      && var c := Centroid(ms).value;
      r.value.searched == Some(SearchRequest(query, c.0, c.1, radius, limit))
      && (r.value.outcome.NoPlace? || r.value.outcome.Chosen?)
      && r.value.outcome.centre == c
      && (|search(SearchRequest(query, c.0, c.1, radius, limit))| == 0 ==> r.value.outcome.NoPlace?)
    ensures r.Some? && r.value.outcome.Chosen? ==>
      var out := r.value.outcome;
      var c := Centroid(ms).value;
      var places := search(SearchRequest(query, c.0, c.1, radius, limit));
      out.memberCount == |ms|
      && Scores(places, ms, router).Some?
      && var s := Scores(places, ms, router).value;
      multiset([out.best] + out.alternatives) == multiset(s)
      && SortedBy(out.alternatives, TotalOf)
      && (forall i :: 0 <= i < |s| ==> out.best.total <= s[i].total)
  {
    if |ms| == 0 then Some(Run(None, Refused("No member locations provided")))
    else if |ms| < 2 then Some(Run(None, Refused("At least 2 members with locations are required")))
    else
      var c := Centroid(ms).value;
      var request := SearchRequest(query, c.0, c.1, radius, limit);
      var places := search(request);
      if |places| == 0 then
        Some(Run(Some(request), NoPlace(NotFoundMessage(query, radius), c)))
      else
        var scores := Scores(places, ms, router);
        if scores.None? then None
        else if |scores.value| == 0 then
          Some(Run(Some(request), NoPlace("Could not calculate routes to any places", c)))
        else
          Some(Run(Some(request), Choose(c, |ms|, scores.value)))
  }

  /** `places_with_scores.sort(key=lambda p: p["total_duration_seconds"])`, then the head as
      the best place and the rest as the alternatives. */
  function Choose(c: (real, real), n: nat, s: seq<Score>): (r: Meeting)
    requires |s| > 0
    ensures r.Chosen? && r.centre == c && r.memberCount == n
    ensures [r.best] + r.alternatives == SortBy(s, TotalOf)
    ensures multiset([r.best] + r.alternatives) == multiset(s)
    ensures SortedBy(r.alternatives, TotalOf)
    ensures forall i :: 0 <= i < |s| ==> r.best.total <= s[i].total
  {
    var sorted := SortBy(s, TotalOf);
    SortByHeadIsMin(s, TotalOf);
    HeadTail(sorted);
    TailSorted(sorted, TotalOf);
    Chosen(c, n, sorted[0], sorted[1..])
  }

  /** The error when the search finds nothing: "'query' not found within radius m of the
      central point". */
  function NotFoundMessage(query: string, radius: int): (r: string)
    ensures |r| > |query|
  {
    "Не найдено '" + query + "' в радиусе " + Numerals.IntToString(radius) + "м от центральной точки"
  }

  /** A member whose route fails adds exactly the penalty to the total and leaves the longest
      trip as it was. */
  lemma FailedMemberAddsPenalty(ms: seq<MemberLocation>, m: MemberLocation, router: MemberRouter, lon: Json, lat: Json)
    requires Leg(m, router, lon, lat).Unreached?
    ensures Tally(ms + [m], router, lon, lat).0 == Tally(ms, router, lon, lat).0 + Penalty
    ensures Tally(ms + [m], router, lon, lat).1 == Tally(ms, router, lon, lat).1
  {
    var all := ms + [m];
    assert all[..|all| - 1] == ms && all[|all| - 1] == m;
  }

  /** A member who is reached adds their seconds to the total. */
  lemma ReachedMemberAddsSeconds(ms: seq<MemberLocation>, m: MemberLocation, router: MemberRouter, lon: Json, lat: Json)
    requires Leg(m, router, lon, lat).Reached?
    ensures Tally(ms + [m], router, lon, lat).0 == Tally(ms, router, lon, lat).0 + Leg(m, router, lon, lat).seconds
  {
    var all := ms + [m];
    assert all[..|all| - 1] == ms && all[|all| - 1] == m;
  }

  /** `list.sort` is stable: among places with the same total travel time, the chosen place
      and the alternatives keep the order in which the search returned them. */
  lemma ChosenKeepsTies(query: string, ms: seq<MemberLocation>, limit: int, radius: int,
                        search: PlaceSearch, router: MemberRouter, run: Run, k: real)
    requires FindMeetingPlace(query, ms, limit, radius, search, router) == Some(run)
    requires run.outcome.Chosen?
    ensures |ms| >= 2 && Centroid(ms).Some?
    ensures var c := Centroid(ms).value;
      var places := search(SearchRequest(query, c.0, c.1, radius, limit));
      Scores(places, ms, router).Some?
      && WithKey([run.outcome.best] + run.outcome.alternatives, TotalOf, k)
         == WithKey(Scores(places, ms, router).value, TotalOf, k)
  {
    var c := Centroid(ms).value;
    var places := search(SearchRequest(query, c.0, c.1, radius, limit));
    SortByStable(Scores(places, ms, router).value, TotalOf, k);
  }

  /** The chosen place and the alternatives are scored places from the search. */
  lemma ChosenFromPlaces(query: string, ms: seq<MemberLocation>, limit: int, radius: int,
                         search: PlaceSearch, router: MemberRouter, run: Run)
    requires FindMeetingPlace(query, ms, limit, radius, search, router) == Some(run)
    requires run.outcome.Chosen?
    ensures |ms| >= 2 && Centroid(ms).Some?
    ensures var c := Centroid(ms).value;
      var places := search(SearchRequest(query, c.0, c.1, radius, limit));
      FromPlaces(ms, router, places, run.outcome.best)
      && forall i :: 0 <= i < |run.outcome.alternatives| ==> FromPlaces(ms, router, places, run.outcome.alternatives[i])
  {
    var c := Centroid(ms).value;
    var places := search(SearchRequest(query, c.0, c.1, radius, limit));
    var s := Scores(places, ms, router).value;
    var from := x => FromPlaces(ms, router, places, x);
    SortByKeeps(s, TotalOf, from);
    AllOfCons(SortBy(s, TotalOf), run.outcome.best, run.outcome.alternatives, from);
  }
}

=== FILE: movements.dfy ===
/** Reading the movements of a 2GIS public transport route: the fields every parser of the
    repository looks at, which `Json.Iterate` and `Json.PyIn` visit and search as Python does. */
module Movements {
  import opened Wrappers
  import opened Text
  import opened Json

  function Kind(m: Json): Json
    requires m.Obj?
  {
    Get(m, "type", Str(""))
  }

  function Moving(m: Json): Json
    requires m.Obj?
  {
    Get(m, "moving_duration", Int(0))
  }

  function Distance(m: Json): Json
    requires m.Obj?
  {
    Get(m, "distance", Int(0))
  }

  function WaypointOf(m: Json): Json
    requires m.Obj?
  {
    Get(m, "waypoint", Obj([]))
  }

  /** A walkway to the finish with zero distance: its time is walked but it shows no step. */
  predicate IsFinish(m: Json)
  {
    m.Obj? && Kind(m) == Str("walkway") && WaypointOf(m).Obj?
    && Get(WaypointOf(m), "subtype", Str("")) == Str("finish") && IsZero(Distance(m))
  }

  /** `platform_names[-1] if platform_names else ""`; `None` where indexing raises. */
  function LastStop(names: Json): Option<Json>
  {
    if !Truthy(names) then Some(Str(""))
    else match names
      case Arr(items) => Some(items[|items| - 1])
      case Str(s) => Some(Str([s[|s| - 1]]))
      case _ => None
  }

  /** `list(dict.fromkeys(xs))`-style de-duplication: each value once, at its first occurrence. */
  function Distinct<T(==)>(xs: seq<T>): (r: seq<T>)
    ensures forall i :: 0 <= i < |xs| ==> xs[i] in r
    ensures forall i :: 0 <= i < |r| ==> r[i] in xs
    ensures forall i, j :: 0 <= i < j < |r| ==> r[i] != r[j]
    decreases |xs|
  {
    if |xs| == 0 then []
    else
      var d := Distinct(xs[..|xs| - 1]);
      assert forall i :: 0 <= i < |xs| - 1 ==> xs[i] == xs[..|xs| - 1][i];
      if xs[|xs| - 1] in d then d else d + [xs[|xs| - 1]]
  }

  /** Whether `hash(v)` succeeds: lists and dicts are unhashable. */
  predicate Hashable(v: Json)
  {
    !v.Arr? && !v.Obj?
  }

  /** Python's `==` between hashable values: numbers compare by value, so `1`, `1.0` and
      `True` are one value, and anything else only equals itself. */
  predicate PyEq(a: Json, b: Json)
  {
    if IsNumber(a) && IsNumber(b) then NumValue(a) == NumValue(b) else a == b
  }

  /** `x in r` on a list: some element of `r` is `==` to `x` in Python's sense. */
  predicate PyMember(x: Json, r: seq<Json>)
    decreases |r|
  {
    |r| > 0 && (PyMember(x, r[..|r| - 1]) || PyEq(x, r[|r| - 1]))
  }

  /** `PyMember` holds exactly when some position holds a value equal to `x`. */
  lemma {:induction false} PyMemberAt(x: Json, r: seq<Json>)
    ensures PyMember(x, r) <==> exists j :: 0 <= j < |r| && PyEq(x, r[j])
    decreases |r|
  {
    if |r| > 0 {
      var front := r[..|r| - 1];
      PyMemberAt(x, front);
      assert forall j :: 0 <= j < |front| ==> front[j] == r[j];
    }
  }

  /** `list(set(xs))`: each value once, the first of the values Python deems equal being the
      one kept; `None` where `set` raises `TypeError` on an unhashable element. */
  function SetOf(xs: seq<Json>): (r: Option<seq<Json>>)
    ensures r.Some? <==> forall i :: 0 <= i < |xs| ==> Hashable(xs[i])
    ensures r.Some? ==> forall i :: 0 <= i < |xs| ==> PyMember(xs[i], r.value)
    ensures r.Some? ==> forall j :: 0 <= j < |r.value| ==> r.value[j] in xs
    ensures r.Some? ==> forall i, j :: 0 <= i < j < |r.value| ==> !PyEq(r.value[i], r.value[j])
    decreases |xs|
  {
    if |xs| == 0 then Some([])
    else
      var front := xs[..|xs| - 1];
      var last := xs[|xs| - 1];
      assert forall i :: 0 <= i < |xs| - 1 ==> front[i] == xs[i];
      match SetOf(front)
        case None => None
        case Some(d) =>
          if !Hashable(last) then None
          else if PyMember(last, d) then
            SetOfKeep(front, last, d);
            assert front + [last] == xs;
            Some(d)
          else
            SetOfAdd(front, last, d);
            assert front + [last] == xs;
            Some(d + [last])
  }

  lemma SetOfKeep(front: seq<Json>, last: Json, d: seq<Json>)
    requires forall i :: 0 <= i < |front| ==> PyMember(front[i], d)
    requires forall j :: 0 <= j < |d| ==> d[j] in front
    requires PyMember(last, d)
    ensures forall i :: 0 <= i < |front + [last]| ==> PyMember((front + [last])[i], d)
    ensures forall j :: 0 <= j < |d| ==> d[j] in front + [last]
  {
    var xs := front + [last];
    forall i | 0 <= i < |xs|
      ensures PyMember(xs[i], d)
    {
      if i < |front| {
        assert xs[i] == front[i];
      }
    }
  }

  lemma SetOfAdd(front: seq<Json>, last: Json, d: seq<Json>)
    requires forall i :: 0 <= i < |front| ==> PyMember(front[i], d)
    requires forall j :: 0 <= j < |d| ==> d[j] in front
    requires forall i, j :: 0 <= i < j < |d| ==> !PyEq(d[i], d[j])
    requires !PyMember(last, d)
    ensures forall i :: 0 <= i < |front + [last]| ==> PyMember((front + [last])[i], d + [last])
    ensures forall j :: 0 <= j < |d + [last]| ==> (d + [last])[j] in front + [last]
    ensures forall i, j :: 0 <= i < j < |d + [last]| ==> !PyEq((d + [last])[i], (d + [last])[j])
  {
    var xs := front + [last];
    var e := d + [last];
    assert e[..|e| - 1] == d;
    forall i | 0 <= i < |xs|
      ensures PyMember(xs[i], e)
    {
      if i < |front| {
        assert xs[i] == front[i];
      }
    }
    forall j | 0 <= j < |e|
      ensures e[j] in xs
    {
      if j < |d| {
        assert e[j] == d[j];
      }
    }
    PyMemberAt(last, d);
    forall i, j | 0 <= i < j < |e|
      ensures !PyEq(e[i], e[j])
    {
      if j == |d| {
        assert e[i] == d[i] && e[j] == last;
      } else {
        assert e[i] == d[i] && e[j] == d[j];
      }
    }
  }

  /** On text, Python's `==` is plain equality, so the set keeps exactly the distinct values. */
  lemma {:induction false} SetOfText(xs: seq<Json>)
    requires forall i :: 0 <= i < |xs| ==> xs[i].Str?
    ensures SetOf(xs) == Some(Distinct(xs))
    decreases |xs|
  {
    if |xs| > 0 {
      var front := xs[..|xs| - 1];
      assert forall i :: 0 <= i < |front| ==> front[i] == xs[i];
      SetOfText(front);
      PyMemberText(xs[|xs| - 1], Distinct(front));
    }
  }

  /** A text is `==` only to itself, so Python's `in` on a list is plain membership. */
  lemma {:induction false} PyMemberText(x: Json, d: seq<Json>)
    requires x.Str?
    ensures PyMember(x, d) <==> x in d
    decreases |d|
  {
    if |d| > 0 {
      var front := d[..|d| - 1];
      PyMemberText(x, front);
      assert d == front + [d[|d| - 1]];
    }
  }

  /** The set's list as membership statements: every value given is `==` to one kept, every
      value kept was given, none is kept twice, and on text exactly the values given are kept. */
  lemma SetOfMembers(xs: seq<Json>)
    requires SetOf(xs).Some?
    ensures forall x :: x in xs ==> PyMember(x, SetOf(xs).value)
    ensures forall x :: x in SetOf(xs).value ==> x in xs
    ensures forall i, j :: 0 <= i < j < |SetOf(xs).value| ==> SetOf(xs).value[i] != SetOf(xs).value[j]
    ensures (forall i :: 0 <= i < |xs| ==> xs[i].Str?) ==>
      SetOf(xs).value == Distinct(xs) && forall x :: x in SetOf(xs).value <==> x in xs
  {
    var r := SetOf(xs).value;
    forall x | x in xs
      ensures PyMember(x, r)
    {
      var i :| 0 <= i < |xs| && xs[i] == x;
    }
    forall x | x in r
      ensures x in xs
    {
      var j :| 0 <= j < |r| && r[j] == x;
    }
    forall i, j | 0 <= i < j < |r|
      ensures r[i] != r[j]
    {
      assert !PyEq(r[i], r[j]);
    }
    if forall i :: 0 <= i < |xs| ==> xs[i].Str? {
      SetOfText(xs);
      DistinctMembers(xs);
    }
  }

  /** `set([1, 1.0, True])` is `{1}`. */
  lemma NumbersCollapse()
    ensures SetOf([Int(1), Float(1.0), Bool(true)]) == Some([Int(1)])
  {
    var one := [Int(1)];
    SetOfStep([], Int(1));
    assert [] + one == one;
    assert SetOf(one) == Some(one);
    assert PyMember(Float(1.0), one) by {
      assert one[..0] == [] && PyEq(Float(1.0), one[0]);
    }
    SetOfStep(one, Float(1.0));
    assert SetOf([Int(1), Float(1.0)]) == Some(one) by {
      assert one + [Float(1.0)] == [Int(1), Float(1.0)];
    }
    assert PyMember(Bool(true), one) by {
      assert one[..0] == [] && PyEq(Bool(true), one[0]);
    }
    SetOfStep([Int(1), Float(1.0)], Bool(true));
    assert [Int(1), Float(1.0)] + [Bool(true)] == [Int(1), Float(1.0), Bool(true)];
  }

  /** `set` adds the elements one at a time. */
  lemma SetOfStep(front: seq<Json>, last: Json)
    ensures SetOf(front + [last]) ==
      match SetOf(front)
        case None => None
        case Some(d) => if !Hashable(last) then None else if PyMember(last, d) then Some(d) else Some(d + [last])
  {
    assert (front + [last])[..|front|] == front;
  }

  /** `set(["bus", ["bus"]])` raises. */
  lemma ListElementRaises()
    ensures SetOf([Str("bus"), Arr([Str("bus")])]).None?
  {
    assert !Hashable([Str("bus"), Arr([Str("bus")])][1]);
  }

  /** The same values, as a membership statement. */
  lemma DistinctMembers<T>(xs: seq<T>)
    ensures forall x :: x in Distinct(xs) <==> x in xs
  {
    var r := Distinct(xs);
    forall x
      ensures x in r <==> x in xs
    {
      if x in r {
        var i :| 0 <= i < |r| && r[i] == x;
      }
      if x in xs {
        var i :| 0 <= i < |xs| && xs[i] == x;
      }
    }
  }
}

=== FILE: numerals.dfy ===
/** Decimal rendering and parsing of integers, and the integer rounding rules of Python. */
module Numerals {
  import opened Wrappers
  import opened Text

  /** The decimal digit character for `d`. */
  function DigitChar(d: nat): (c: char)
    requires d < 10
    ensures IsDigit(c)
  {
    (48 + d) as char
  }

  /** The value of one decimal digit character. */
  function DigitValue(c: char): (d: nat)
    requires IsDigit(c)
    ensures d < 10 && DigitChar(d) == c
  {
    c as int - 48
  }

  predicate AllDigits(s: string) {
    forall i :: 0 <= i < |s| ==> IsDigit(s[i])
  }

  /** `str(n)` for a natural number. */
  function NatToString(n: nat): (r: string)
    ensures |r| >= 1 && AllDigits(r)
    ensures |r| > 1 ==> r[0] != '0'
    decreases n
  {
    if n < 10 then [DigitChar(n)] else NatToString(n / 10) + [DigitChar(n % 10)]
  }

  /** `int(s)` for a string of decimal digits (the empty string reads as 0). */
  function DigitsToNat(s: string): nat
    requires AllDigits(s)
    decreases |s|
  {
    if |s| == 0 then 0 else DigitsToNat(s[..|s| - 1]) * 10 + DigitValue(s[|s| - 1])
  }

  /** Reading back a rendered number gives the number. */
  lemma {:induction false} NatToStringRoundTrip(n: nat)
    ensures DigitsToNat(NatToString(n)) == n
    decreases n
  {
    var r := NatToString(n);
    if n >= 10 {
      NatToStringRoundTrip(n / 10);
      assert r[..|r| - 1] == NatToString(n / 10);
    }
  }

  /** Distinct numbers render differently. */
  lemma NatToStringInjective(a: nat, b: nat)
    requires a != b
    ensures NatToString(a) != NatToString(b)
  {
    NatToStringRoundTrip(a);
    NatToStringRoundTrip(b);
  }

  /** An optional sign followed by decimal digits, as `int(t)` reads text without surrounding
      white space. */
  function ParseStripped(t: string): (r: Option<int>)
  {
    if |t| > 0 && (t[0] == '-' || t[0] == '+') then
      if |t| > 1 && AllDigits(t[1..]) then Some(if t[0] == '-' then 0 - DigitsToNat(t[1..]) else DigitsToNat(t[1..]))
      else None
    else if |t| > 0 && AllDigits(t) then Some(DigitsToNat(t))
    else None
  }

  /** `str(i)` for any integer. */
  function IntToString(i: int): (r: string)
    ensures i >= 0 ==> r == NatToString(i)
    ensures i < 0 ==> r == "-" + NatToString(-i)
  {
    if i < 0 then "-" + NatToString(-i) else NatToString(i)
  }

  /** `f"{n:02d}"`: at least two digits, zero-padded. */
  function PadTwo(n: nat): (r: string)
    ensures |r| >= 2 && AllDigits(r)
    ensures n < 100 ==> |r| == 2
  {
    if n < 10 then "0" + NatToString(n)
    else
      assert n < 100 ==> |NatToString(n / 10)| == 1;
      NatToString(n)
  }

  /** Padding keeps the value. */
  lemma PadTwoValue(n: nat)
    ensures DigitsToNat(PadTwo(n)) == n
  {
    NatToStringRoundTrip(n);
    if n < 10 {
      assert PadTwo(n)[..1] == "0";
    }
  }

  /** Euclidean division splits `n` into whole multiples of `d` and a remainder. */
  lemma DivModSplit(n: int, d: int)
    requires d > 0
    ensures n == (n / d) * d + n % d && 0 <= n % d < d
    ensures (n / d + 1) * d == (n / d) * d + d
  {
  }

  /** Python's `round(n / d)` for integers: the nearest integer, ties to the even one. */
  function RoundHalfEven(n: int, d: int): (k: int)
    requires d > 0
    ensures 2 * (n - k * d) <= d && 2 * (k * d - n) <= d
    ensures 2 * (n - k * d) == d || 2 * (k * d - n) == d ==> k % 2 == 0
  {
    var q := n / d;
    var r := n % d;
    DivModSplit(n, d);
    if 2 * r < d then q
    else if 2 * r > d then q + 1
    else if q % 2 == 0 then q
    else q + 1
  }

  /** Python's `int(x)` on a float: truncation toward zero. */
  function Truncate(x: real): (k: int)
    ensures x >= 0.0 ==> k as real <= x < k as real + 1.0
    ensures x < 0.0 ==> k as real - 1.0 < x <= k as real
  {
    if x >= 0.0 then x.Floor else -((-x).Floor)
  }
}

=== FILE: optimal_place.dfy ===
/** `find_optimal_place`: rank the places found along a route by the time a stop there adds.
    The place search and the detour calls are inputs: `places` is what the search returned,
    and `detours` answers `calculate_detour` for the start, end and mode of this call. */
module OptimalPlace {
  import opened Wrappers
  import opened Json
  import opened Sorting
  import GisRouting

  /** `calculate_detour(start, end, via, mode)` for a via point given by the place's two
      coordinates, with start, end and mode fixed; `None` where it raises. */
  type DetourFn = (Json, Json) -> Option<GisRouting.Detour>

  /** A place with its measured detour, `{**place, "extra_distance": …, "extra_duration": …}`. */
  datatype Ranked = Ranked(place: Json, extraDistance: real, extraDuration: real)

  datatype Choice =
    | NothingFound(error: string)
    | Unranked(first: Json, rest: seq<Json>)
    | Best(best: Ranked, alternatives: seq<Ranked>)

  /** The sort key, `p["extra_duration"]`. */
  function ExtraDuration(r: Ranked): real
  {
    r.extraDuration
  }

  /** `place["coordinates"]` read as `(coords[0], coords[1])`; `None` where Python raises. */
  function PlaceCoords(p: Json): (r: Option<(Json, Json)>)
    ensures r.Some? ==> p.Obj? && Has(p, "coordinates")
  {
    if !p.Obj? then None
    else
      var c := Lookup(p.fields, "coordinates");
      if c.None? || !c.value.Arr? || |c.value.items| < 2 then None
      else Some((c.value.items[0], c.value.items[1]))
  }

  /** `p` has both coordinates and a measured detour, and `s` carries that detour's extras. */
  predicate Admitted(detours: DetourFn, p: Json, s: Ranked)
  {
    var c := PlaceCoords(p);
    c.Some? && c.value.0 != Null && c.value.1 != Null
    && var d := detours(c.value.0, c.value.1);
    d.Some? && d.value.Measured? && s == Ranked(p, d.value.extraDistance, d.value.extraDuration)
  }

  /** `p` is passed over: a coordinate is missing, or the detour reports an error. */
  predicate Skipped(detours: DetourFn, p: Json)
  {
    var c := PlaceCoords(p);
    c.Some?
    && (c.value.0 == Null || c.value.1 == Null
        || var d := detours(c.value.0, c.value.1); d.Some? && d.value.Passed?)
  }

  /** One turn of the loop over places: skipped (`[]`) for a missing coordinate or a detour
      error, else the ranked place. */
  function RankStep(detours: DetourFn, p: Json): (r: Option<seq<Ranked>>)
    ensures r.Some? ==> |r.value| <= 1
    ensures r.Some? && |r.value| == 1 ==> Admitted(detours, p, r.value[0])
    ensures r.Some? && |r.value| == 0 ==> Skipped(detours, p)
    ensures Skipped(detours, p) ==> r == Some([])
  {
    var c := PlaceCoords(p);
    if c.None? then None
    else if c.value.0 == Null || c.value.1 == Null then Some([])
    else
      var d := detours(c.value.0, c.value.1);
      if d.None? then None
      else if d.value.Passed? then Some([])
      else Some([Ranked(p, d.value.extraDistance, d.value.extraDuration)])
  }

  /** Whether a ranked entry came from one of `places`. */
  predicate FromPlaces(detours: DetourFn, places: seq<Json>, s: Ranked)
  {
    s.place in places && Admitted(detours, s.place, s)
  }

  /** `places_with_detour`, in the order of `places`. */
  function Survivors(places: seq<Json>, detours: DetourFn): (r: Option<seq<Ranked>>)
    ensures r.Some? ==> |r.value| <= |places|
    ensures r.Some? ==> forall i :: 0 <= i < |r.value| ==> FromPlaces(detours, places, r.value[i])
  {
    var step := p => RankStep(detours, p);
    FlatMapAllShort(places, step);
    FlatMapAllEvery(places, step, s => FromPlaces(detours, places, s));
    FlatMapAll(places, step)
  }

  /** `find_optimal_place`; `None` where Python raises. */
  function FindOptimalPlace(query: string, places: seq<Json>, detours: DetourFn): (r: Option<Choice>)
    ensures |places| == 0 <==> r == Some(NothingFound("No " + query + " found along the route"))
    ensures r.Some? && r.value.Unranked? ==>
      |places| > 0 && Survivors(places, detours) == Some([])
      && r.value.first == places[0] && r.value.rest == places[1..]
    ensures r.Some? && r.value.Best? ==>
      Survivors(places, detours).Some?
      && var s := Survivors(places, detours).value;
      |s| > 0
      && multiset([r.value.best] + r.value.alternatives) == multiset(s)
      && SortedBy(r.value.alternatives, ExtraDuration)
      && (forall i :: 0 <= i < |s| ==> r.value.best.extraDuration <= s[i].extraDuration)
    ensures |places| > 0 && Survivors(places, detours).Some? ==> r.Some?
    ensures r.Some? && |places| > 0 ==>
      Survivors(places, detours).Some? && (r.value.Best? <==> |Survivors(places, detours).value| > 0)
  {
    if |places| == 0 then Some(NothingFound("No " + query + " found along the route"))
    else
      var s := Survivors(places, detours);
      if s.None? then None
      else if |s.value| == 0 then Some(Unranked(places[0], places[1..]))
      else Some(Rank(s.value))
  }

  /** `places_with_detour.sort(key=lambda p: p["extra_duration"])`, then the head as the best
      place and the rest as the alternatives. */
  function Rank(s: seq<Ranked>): (r: Choice)
    requires |s| > 0
    ensures r.Best?
    ensures multiset([r.best] + r.alternatives) == multiset(s)
    ensures SortedBy(r.alternatives, ExtraDuration)
    ensures forall i :: 0 <= i < |s| ==> r.best.extraDuration <= s[i].extraDuration
  {
    var sorted := SortBy(s, ExtraDuration);
    SortByHeadIsMin(s, ExtraDuration);
    assert sorted == [sorted[0]] + sorted[1..];
    Best(sorted[0], sorted[1..])
  }

  /** A place that is passed over changes nothing, wherever it stands in the list. */
  lemma SkippedChangesNothing(a: seq<Json>, p: Json, b: seq<Json>, detours: DetourFn)
    requires Skipped(detours, p)
    requires Survivors(a, detours).Some? && Survivors(b, detours).Some?
    ensures Survivors(a + [p] + b, detours) == Survivors(a + b, detours)
  {
    var step := x => RankStep(detours, x);
    assert FlatMapAll([p], step) == Some([]) by {
      assert step(p) == RankStep(detours, p) == Some([]);
      assert [p][1..] == [];
      assert [p][0] == p;
      var none: seq<Ranked> := [];
      assert FlatMapAll([p][1..], step) == Some(none);
      assert none + none == none;
    }
    FlatMapAllConcat(a, [p], step);
    assert FlatMapAll(a + [p], step) == FlatMapAll(a, step) by {
      assert FlatMapAll(a, step).value + [] == FlatMapAll(a, step).value;
    }
    FlatMapAllConcat(a + [p], b, step);
    FlatMapAllConcat(a, b, step);
  }

  /** The best place and the alternatives are places from the input with a measured detour. */
  lemma ChoiceFromPlaces(query: string, places: seq<Json>, detours: DetourFn, c: Choice)
    requires FindOptimalPlace(query, places, detours) == Some(c) && c.Best?
    ensures FromPlaces(detours, places, c.best)
    ensures forall i :: 0 <= i < |c.alternatives| ==> FromPlaces(detours, places, c.alternatives[i])
  {
    var s := Survivors(places, detours).value;
    assert c == Rank(s);
    var all := [c.best] + c.alternatives;
    PermutedFromPlaces(all, s, detours, places);
    assert all[0] == c.best;
    forall i | 0 <= i < |c.alternatives|
      ensures FromPlaces(detours, places, c.alternatives[i])
    {
      assert c.alternatives[i] == all[i + 1];
    }
  }

  /** A rearrangement of entries that came from `places` holds only such entries. */
  lemma PermutedFromPlaces(all: seq<Ranked>, s: seq<Ranked>, detours: DetourFn, places: seq<Json>)
    requires multiset(all) == multiset(s)
    requires forall i :: 0 <= i < |s| ==> FromPlaces(detours, places, s[i])
    ensures forall i :: 0 <= i < |all| ==> FromPlaces(detours, places, all[i])
  {
    forall i | 0 <= i < |all|
      ensures FromPlaces(detours, places, all[i])
    {
      assert all[i] in multiset(all);
      var j :| 0 <= j < |s| && s[j] == all[i];
    }
  }

  /** Places with equal extra time keep the order in which the search listed them. */
  lemma TiesKeepListedOrder(query: string, places: seq<Json>, detours: DetourFn, c: Choice, k: real)
    requires FindOptimalPlace(query, places, detours) == Some(c) && c.Best?
    ensures WithKey([c.best] + c.alternatives, ExtraDuration, k)
      == WithKey(Survivors(places, detours).value, ExtraDuration, k)
  {
    var s := Survivors(places, detours).value;
    var sorted := SortBy(s, ExtraDuration);
    assert [sorted[0]] + sorted[1..] == sorted;
    SortByStable(s, ExtraDuration, k);
  }
}

=== FILE: path_agent.dfy ===
/** The route planning agent of the backend, around its language model: choosing what to
    optimise, reading the waypoints of a planned route, writing routing results back into it,
    condensing the agent's messages into a reasoning trace, cutting JSON out of the model's
    reply, and enriching every planned route with a real route. The model's messages, JSON
    decoding and the two routing services are parameters. */
module PathAgent {
  import opened Wrappers
  import opened Text
  import opened Seqs
  import opened Json
  import opened Movements
  import opened Sorting
  import opened Wkt

  // ---------------------------------------------------------------------------------------
  // `choose_optimization`
  // ---------------------------------------------------------------------------------------

  const DistanceKeywords: seq<string> :=
    ["shortest", "short", "closest", "near", "distance", "короч", "кратчай", "ближ", "экон"]
  const TimeKeywords: seq<string> :=
    ["fast", "quick", "asap", "urgent", "hurry", "быстр", "сроч", "скорее", "время"]

  predicate Mentions(text: string, keywords: seq<string>)
  {
    exists i :: 0 <= i < |keywords| && Contains(text, keywords[i])
  }

  /** Speed is chosen exactly when the lower-cased query mentions a time keyword; in every
      other case, distance keywords or not, the route is the shortest. */
  function ChooseOptimization(query: string): (r: string)
    ensures r == "time" <==> Mentions(Lower(query), TimeKeywords)
    ensures r != "time" ==> r == "distance"
  {
    var lower := Lower(query);
    if Mentions(lower, TimeKeywords) then "time"
    else if Mentions(lower, DistanceKeywords) then "distance"
    else "distance"
  }

  /** The choice does not depend on the case of the query. */
  lemma ChooseOptimizationIgnoresCase(query: string)
    ensures ChooseOptimization(Upper(query)) == ChooseOptimization(query)
    ensures ChooseOptimization(Lower(query)) == ChooseOptimization(query)
  {
    CaseIdempotent(query);
  }

  // ---------------------------------------------------------------------------------------
  // `extract_route_points`
  // ---------------------------------------------------------------------------------------

  /** The sort key `w.get("order", 0)`. */
  function OrderOf(w: Json): Json
    requires w.Obj?
  {
    Get(w, "order", Int(0))
  }

  /** The key as a real: numbers by value and text by its rank in Python's string order; the
      sort only uses it where all keys are numbers or all are text. */
  function OrderKey(w: Json): real
  {
    if !w.Obj? then 0.0
    else if IsNumber(OrderOf(w)) then NumValue(OrderOf(w))
    else if OrderOf(w).Str? then TextRank(OrderOf(w).s)
    else 0.0
  }

  /** Python's `a < b` on two sort keys; `false` for keys of different kinds. */
  predicate KeyLess(a: Json, b: Json)
  {
    (IsNumber(a) && IsNumber(b) && NumValue(a) < NumValue(b)) || (a.Str? && b.Str? && TextLess(a.s, b.s))
  }

  /** Waypoints `sorted` can order: every waypoint is a dict (the key is read from each), and
      with two or more waypoints the keys are all numbers or all text, which `<` compares.
      Any other mix makes some comparison raise `TypeError`. */
  predicate Orderable(ws: seq<Json>)
  {
    (forall i :: 0 <= i < |ws| ==> ws[i].Obj?)
    && (|ws| <= 1
        || (forall i :: 0 <= i < |ws| ==> IsNumber(OrderOf(ws[i])))
        || (forall i :: 0 <= i < |ws| ==> OrderOf(ws[i]).Str?))
  }

  /** `sorted(waypoints, key=lambda w: w.get("order", 0))`: a stable permutation in which no
      waypoint's key is less than an earlier one's; `None` where Python raises. */
  function Ordered(ws: seq<Json>): (r: Option<seq<Json>>)
    ensures r.Some? <==> Orderable(ws)
    ensures r.Some? ==> |r.value| == |ws| && multiset(r.value) == multiset(ws) && Orderable(r.value)
    ensures r.Some? ==> forall i, j :: 0 <= i < j < |r.value| ==> !KeyLess(OrderOf(r.value[j]), OrderOf(r.value[i]))
  {
    if !Orderable(ws) then None
    else
      var r := SortBy(ws, OrderKey);
      SortedKeys(ws, r);
      Some(r)
  }

  /** A sorted permutation of orderable waypoints is orderable, and `<` never puts a later key
      before an earlier one. */
  lemma SortedKeys(ws: seq<Json>, r: seq<Json>)
    requires Orderable(ws) && r == SortBy(ws, OrderKey)
    ensures Orderable(r)
    ensures forall i, j :: 0 <= i < j < |r| ==> !KeyLess(OrderOf(r[j]), OrderOf(r[i]))
  {
    SortByMembers(ws, OrderKey);
    KeepsOrderable(ws, r);
    forall i, j | 0 <= i < j < |r| ensures !KeyLess(OrderOf(r[j]), OrderOf(r[i])) {
      NotLessWhenSorted(r, i, j);
    }
  }

  /** Every element of `r` is one of `ws`, so `r` is orderable when `ws` is. */
  lemma KeepsOrderable(ws: seq<Json>, r: seq<Json>)
    requires Orderable(ws) && |r| == |ws|
    requires forall i :: 0 <= i < |r| ==> r[i] in ws
    ensures Orderable(r)
  {
    forall i | 0 <= i < |r| ensures r[i].Obj? {
      var k :| 0 <= k < |ws| && ws[k] == r[i];
    }
    if |ws| > 1 && forall k :: 0 <= k < |ws| ==> IsNumber(OrderOf(ws[k])) {
      forall i | 0 <= i < |r| ensures IsNumber(OrderOf(r[i])) {
        var k :| 0 <= k < |ws| && ws[k] == r[i];
      }
    } else if |ws| > 1 {
      forall i | 0 <= i < |r| ensures OrderOf(r[i]).Str? {
        var k :| 0 <= k < |ws| && ws[k] == r[i];
      }
    }
  }

  /** In key order a later key is never less than an earlier one. */
  lemma NotLessWhenSorted(r: seq<Json>, i: int, j: int)
    requires SortedBy(r, OrderKey) && 0 <= i < j < |r| && r[i].Obj? && r[j].Obj?
    ensures !KeyLess(OrderOf(r[j]), OrderOf(r[i]))
  {
    assert OrderKey(r[i]) <= OrderKey(r[j]);
    var a, b := OrderOf(r[i]), OrderOf(r[j]);
    if b.Str? && a.Str? && TextLess(b.s, a.s) {
      TextRankOrders(b.s, a.s);
    }
  }

  /** A single waypoint, or waypoints whose keys are all text, are sorted without raising. */
  lemma TextOrderSorts()
    ensures var w := Obj([("order", Str("1")), ("location", Obj([("lon", Int(1)), ("lat", Int(2))]))]);
      ExtractRoutePoints(Obj([("waypoints", Arr([w]))])) == Some([Point(1.0, 2.0)])
  {
    var loc := Obj([("lon", Int(1)), ("lat", Int(2))]);
    var wf := [("order", Str("1")), ("location", loc)];
    var w := Obj(wf);
    var route := Obj([("waypoints", Arr([w]))]);
    assert WaypointsOf(route) == Arr([w]);
    assert Orderable([w]);
    assert SortBy([w], OrderKey) == [w];
    LookupAt(wf, 1, "location");
    assert LocationOf(w) == loc;
    assert Get(loc, "lon", Get(w, "lon", Null)) == Int(1);
    assert Get(loc, "lat", Get(w, "lat", Null)) == Int(2);
    assert PointStep(w) == Some([Point(1.0, 2.0)]);
    assert FlatMapAll([w][1..], PointStep) == Some([]);
    assert FlatMapAll([w], PointStep) == Some([Point(1.0, 2.0)] + []);
    assert [Point(1.0, 2.0)] + [] == [Point(1.0, 2.0)];
    assert Ordered([w]) == Some([w]);
    assert PointsOf([w]) == Some([Point(1.0, 2.0)]);
    assert ExtractRoutePoints(route) == Some([Point(1.0, 2.0)]);
  }

  /** `w.get("location") or {}`. */
  function LocationOf(w: Json): Json
    requires w.Obj?
  {
    Or(Get(w, "location", Null), Obj([]))
  }

  /** The point of one waypoint: the location's coordinates, else the waypoint's own, when
      both are numbers; `None` where Python raises. */
  function WaypointPoint(w: Json): Option<Option<Point>>
    requires w.Obj?
  {
    var loc := LocationOf(w);
    if !loc.Obj? then None
    else
      var lon := Get(loc, "lon", Get(w, "lon", Null));
      var lat := Get(loc, "lat", Get(w, "lat", Null));
      Some(if IsNumber(lon) && IsNumber(lat) then Some(Point(NumValue(lon), NumValue(lat))) else None)
  }

  /** What one waypoint contributes: its point, nothing when a coordinate is missing, `None`
      where Python raises. */
  function PointStep(w: Json): (r: Option<seq<Point>>)
    ensures r.Some? ==> |r.value| <= 1
  {
    if !w.Obj? then None
    else
      var p := WaypointPoint(w);
      if p.None? then None else Some(if p.value.Some? then [p.value.value] else [])
  }

  /** The points of the waypoints that have both coordinates, in order. */
  function PointsOf(ws: seq<Json>): (r: Option<seq<Point>>)
    ensures r.Some? <==> forall i :: 0 <= i < |ws| ==> PointStep(ws[i]).Some?
    ensures r.Some? ==> |r.value| <= |ws|
  {
    FlatMapAllShort(ws, PointStep);
    FlatMapAll(ws, PointStep)
  }

  /** `route.get("waypoints") or []`. */
  function WaypointsOf(route: Json): Json
    requires route.Obj?
  {
    Or(Get(route, "waypoints", Null), Arr([]))
  }

  /** `extract_route_points(route)`; `None` where Python raises. */
  function ExtractRoutePoints(route: Json): (r: Option<seq<Point>>)
    ensures r.Some? ==> route.Obj?
    ensures route.Obj? && !WaypointsOf(route).Arr? ==> r == Some([])
    ensures r.Some? && WaypointsOf(route).Arr? ==> |r.value| <= |WaypointsOf(route).items|
    ensures route.Obj? && WaypointsOf(route).Arr? && !Orderable(WaypointsOf(route).items) ==> r.None?
  {
    if !route.Obj? then None
    else
      var ws := WaypointsOf(route);
      if !ws.Arr? then Some([])
      else match Ordered(ws.items)
        case None => None
        case Some(ordered) => PointsOf(ordered)
  }

  /** Waypoints listed in `order` already give their points in the order listed. */
  lemma ExtractInListedOrder(route: Json)
    requires route.Obj? && WaypointsOf(route).Arr?
    requires Orderable(WaypointsOf(route).items) && SortedBy(WaypointsOf(route).items, OrderKey)
    ensures ExtractRoutePoints(route) == PointsOf(WaypointsOf(route).items)
  {
    SortBySorted(WaypointsOf(route).items, OrderKey);
    SortedKeys(WaypointsOf(route).items, WaypointsOf(route).items);
  }

  /** Reading points from consecutive runs of waypoints is reading each run. */
  lemma PointsOfConcat(a: seq<Json>, b: seq<Json>)
    requires PointsOf(a).Some? && PointsOf(b).Some?
    ensures PointsOf(a + b) == Some(PointsOf(a).value + PointsOf(b).value)
  {
    FlatMapAllConcat(a, b, PointStep);
  }

  // ---------------------------------------------------------------------------------------
  // `apply_route_metrics`
  // ---------------------------------------------------------------------------------------

  /** `round(total / 60, 1) if total else None`; `None` where the division raises. */
  function MinutesOf(total: Json, round: Rounder): (r: Option<Json>)
    ensures !Truthy(total) ==> r == Some(Null)
    ensures Truthy(total) && r.Some? ==> r.value.Float?
  {
    if !Truthy(total) then Some(Null)
    else if IsNumber(total) then Some(Float(round(NumValue(total) / 60.0, 1)))
    else None
  }

  /** The dicts of `result.get(key, []) or []`; `None` where iterating or `.get` raises. */
  function DictsOf(result: Json, key: string): (r: Option<seq<Json>>)
    requires result.Obj?
    ensures r.Some? ==> forall i :: 0 <= i < |r.value| ==> r.value[i].Obj?
  {
    match Iterate(Or(Get(result, key, Arr([])), Arr([])))
      case None => None
      case Some(items) => if forall i :: 0 <= i < |items| ==> items[i].Obj? then Some(items) else None
  }

  function SegmentEntry(s: Json): Json
    requires s.Obj?
  {
    Obj([("from_waypoint", Get(s, "from", Null)), ("to_waypoint", Get(s, "to", Null)),
         ("distance_meters", Get(s, "distance", Null)), ("duration_seconds", Get(s, "duration", Null))])
  }

  function DirectionEntry(m: Json): Json
    requires m.Obj?
  {
    Obj([("instruction", Get(m, "instruction", Str(""))), ("type", Get(m, "type", Str(""))),
         ("street_name", Get(m, "street_name", Str(""))),
         ("distance_meters", Get(m, "distance", Null)), ("duration_seconds", Get(m, "duration", Null))])
  }

  function SegmentEntries(ss: seq<Json>): (r: seq<Json>)
    requires forall i :: 0 <= i < |ss| ==> ss[i].Obj?
    ensures |r| == |ss|
  {
    seq(|ss|, i requires 0 <= i < |ss| => SegmentEntry(ss[i]))
  }

  function DirectionEntries(ms: seq<Json>): (r: seq<Json>)
    requires forall i :: 0 <= i < |ms| ==> ms[i].Obj?
    ensures |r| == |ms|
  {
    seq(|ms|, i requires 0 <= i < |ms| => DirectionEntry(ms[i]))
  }

  /** `d[key] = v` only when `v` is a non-empty list. */
  function PutIfAny(d: Json, key: string, vs: seq<Json>): (r: Json)
    requires d.Obj?
    ensures r.Obj?
    ensures |vs| == 0 ==> r == d
    ensures |vs| > 0 ==> Lookup(r.fields, key) == Some(Arr(vs))
    ensures forall k :: k != key ==> Lookup(r.fields, k) == Lookup(d.fields, k)
  {
    if |vs| > 0 then Put(d, key, Arr(vs)) else d
  }

  /** `apply_route_metrics(route, route_result)`: the route after the call; `None` where Python
      raises. */
  function ApplyRouteMetrics(route: Json, result: Json, round: Rounder): (r: Option<Json>)
    ensures r.Some? ==> route.Obj? && result.Obj? && r.value.Obj?
    ensures r.Some? ==> Lookup(r.value.fields, "route_geometry") == Some(Get(result, "geometry", Arr([])))
    ensures r.Some? ==> Lookup(r.value.fields, "total_distance_meters") == Some(Get(result, "total_distance", Null))
    ensures r.Some? ==>
      (Lookup(r.value.fields, "total_duration_minutes") == Some(Null) <==> !Truthy(Get(result, "total_duration", Null)))
    ensures r.Some? ==>
      DictsOf(result, "segments").Some? &&
      var ss := DictsOf(result, "segments").value;
      (|ss| == 0 ==> Lookup(r.value.fields, "segments") == Lookup(route.fields, "segments"))
      && (|ss| > 0 ==> Lookup(r.value.fields, "segments") == Some(Arr(SegmentEntries(ss))))
    ensures r.Some? ==>
      DictsOf(result, "maneuvers").Some? &&
      var ms := DictsOf(result, "maneuvers").value;
      (|ms| == 0 ==> Lookup(r.value.fields, "directions") == Lookup(route.fields, "directions"))
      && (|ms| > 0 ==> Lookup(r.value.fields, "directions") == Some(Arr(DirectionEntries(ms))))
  {
    if !route.Obj? || !result.Obj? then None
    else
      var minutes := MinutesOf(Get(result, "total_duration", Null), round);
      var ss := DictsOf(result, "segments");
      var ms := DictsOf(result, "maneuvers");
      if minutes.None? || ss.None? || ms.None? then None
      else
        Some(WithLists(Stamped(route, result, minutes.value), SegmentEntries(ss.value), DirectionEntries(ms.value)))
  }

  /** The three figures `apply_route_metrics` always writes; the lists are untouched. */
  function Stamped(route: Json, result: Json, minutes: Json): (r: Json)
    requires route.Obj? && result.Obj?
    ensures r.Obj?
    ensures Lookup(r.fields, "route_geometry") == Some(Get(result, "geometry", Arr([])))
    ensures Lookup(r.fields, "total_distance_meters") == Some(Get(result, "total_distance", Null))
    ensures Lookup(r.fields, "total_duration_minutes") == Some(minutes)
    ensures Lookup(r.fields, "segments") == Lookup(route.fields, "segments")
    ensures Lookup(r.fields, "directions") == Lookup(route.fields, "directions")
  {
    var g, d := Get(result, "geometry", Arr([])), Get(result, "total_distance", Null);
    KeysDiffer();
    PutsWritten(route, "route_geometry", g, "total_distance_meters", d, "total_duration_minutes", minutes);
    PutsOther(route, "route_geometry", g, "total_distance_meters", d, "total_duration_minutes", minutes, "segments");
    PutsOther(route, "route_geometry", g, "total_distance_meters", d, "total_duration_minutes", minutes, "directions");
    Put(Put(Put(route, "route_geometry", g), "total_distance_meters", d), "total_duration_minutes", minutes)
  }

  /** The segment and direction lists written when non-empty; the three figures untouched. */
  function WithLists(c: Json, segs: seq<Json>, dirs: seq<Json>): (r: Json)
    requires c.Obj?
    ensures r.Obj?
    ensures Lookup(r.fields, "route_geometry") == Lookup(c.fields, "route_geometry")
    ensures Lookup(r.fields, "total_distance_meters") == Lookup(c.fields, "total_distance_meters")
    ensures Lookup(r.fields, "total_duration_minutes") == Lookup(c.fields, "total_duration_minutes")
    ensures |segs| == 0 ==> Lookup(r.fields, "segments") == Lookup(c.fields, "segments")
    ensures |segs| > 0 ==> Lookup(r.fields, "segments") == Some(Arr(segs))
    ensures |dirs| == 0 ==> Lookup(r.fields, "directions") == Lookup(c.fields, "directions")
    ensures |dirs| > 0 ==> Lookup(r.fields, "directions") == Some(Arr(dirs))
  {
    KeysDiffer();
    ListsOther(c, "segments", segs, "directions", dirs, "route_geometry");
    ListsOther(c, "segments", segs, "directions", dirs, "total_distance_meters");
    ListsOther(c, "segments", segs, "directions", dirs, "total_duration_minutes");
    ListsFirst(c, "segments", segs, "directions", dirs);
    ListsSecond(c, "segments", segs, "directions", dirs);
    PutIfAny(PutIfAny(c, "segments", segs), "directions", dirs)
  }

  /** The second optional list write reads back, or leaves the key as it was. */
  lemma ListsSecond(c: Json, k1: string, vs1: seq<Json>, k2: string, vs2: seq<Json>)
    requires c.Obj? && k1 != k2
    ensures |vs2| == 0 ==> Lookup(PutIfAny(PutIfAny(c, k1, vs1), k2, vs2).fields, k2) == Lookup(c.fields, k2)
    ensures |vs2| > 0 ==> Lookup(PutIfAny(PutIfAny(c, k1, vs1), k2, vs2).fields, k2) == Some(Arr(vs2))
  {
  }

  /** Three writes to distinct keys each read back. */
  lemma PutsWritten(j: Json, k1: string, v1: Json, k2: string, v2: Json, k3: string, v3: Json)
    requires j.Obj? && k1 != k2 && k1 != k3 && k2 != k3
    ensures Lookup(Put(Put(Put(j, k1, v1), k2, v2), k3, v3).fields, k1) == Some(v1)
    ensures Lookup(Put(Put(Put(j, k1, v1), k2, v2), k3, v3).fields, k2) == Some(v2)
    ensures Lookup(Put(Put(Put(j, k1, v1), k2, v2), k3, v3).fields, k3) == Some(v3)
  {
  }

  /** Three writes leave every other key as it was. */
  lemma PutsOther(j: Json, k1: string, v1: Json, k2: string, v2: Json, k3: string, v3: Json, k: string)
    requires j.Obj? && k != k1 && k != k2 && k != k3
    ensures Lookup(Put(Put(Put(j, k1, v1), k2, v2), k3, v3).fields, k) == Lookup(j.fields, k)
  {
  }

  /** The two optional list writes leave every other key as it was. */
  lemma ListsOther(c: Json, k1: string, vs1: seq<Json>, k2: string, vs2: seq<Json>, k: string)
    requires c.Obj? && k != k1 && k != k2
    ensures Lookup(PutIfAny(PutIfAny(c, k1, vs1), k2, vs2).fields, k) == Lookup(c.fields, k)
  {
  }

  /** The first optional list write survives the second when the keys differ. */
  lemma ListsFirst(c: Json, k1: string, vs1: seq<Json>, k2: string, vs2: seq<Json>)
    requires c.Obj? && k1 != k2
    ensures Lookup(PutIfAny(PutIfAny(c, k1, vs1), k2, vs2).fields, k1) == Lookup(PutIfAny(c, k1, vs1).fields, k1)
  {
  }

  /** The keys `apply_route_metrics` writes are distinct. */
  lemma KeysDiffer()
    ensures "route_geometry" != "total_distance_meters" && "route_geometry" != "total_duration_minutes"
    ensures "total_distance_meters" != "total_duration_minutes"
    ensures "segments" != "route_geometry" && "segments" != "total_distance_meters"
    ensures "segments" != "total_duration_minutes" && "segments" != "directions"
    ensures "directions" != "route_geometry" && "directions" != "total_distance_meters"
    ensures "directions" != "total_duration_minutes"
  {
    assert "route_geometry"[0] == 'r' && "total_distance_meters"[0] == 't' && "segments"[0] == 's';
    assert "directions"[0] == 'd' && "total_duration_minutes"[7] == 'u' && "total_distance_meters"[7] == 'i';
  }

  // ---------------------------------------------------------------------------------------
  // `_format_reasoning_steps`
  // ---------------------------------------------------------------------------------------

  /** The messages of the agent run, as far as the trace looks at them. */
  datatype Message =
    | ToolMessage(name: Json, content: Json)
    | AiMessage(content: Json, toolCalls: seq<Json>)
    | OtherMessage(content: Json)

  datatype Step = Step(id: nat, title: string, tool: Json, input: string, output: string)

  /** `json.dumps(v, ensure_ascii=False)`, or `None` where it raises. */
  type Dumps = Json -> Option<string>

  /** What a tool message's content shows: dicts and lists as JSON (or as `str` if that
      fails), everything else as `str`. */
  function ContentText(content: Json, dumps: Dumps, show: Json -> string): string
  {
    if (content.Obj? || content.Arr?) && dumps(content).Some? then dumps(content).value
    else Display(content, show)
  }

  /** The steps of the tool calls of one message, numbered after `idx`. */
  function CallSteps(calls: seq<Json>, idx: nat, dumps: Dumps, show: Json -> string): (r: Option<seq<Step>>)
    ensures r.Some? ==> |r.value| == |calls|
    ensures r.Some? ==> forall i :: 0 <= i < |r.value| ==>
      r.value[i].id == idx + i + 1 && |r.value[i].input| <= 300 && r.value[i].output == ""
    decreases |calls|
  {
    if |calls| == 0 then Some([])
    else if !calls[0].Obj? then None
    else
      var name := Get(calls[0], "name", Str("tool"));
      match (dumps(Get(calls[0], "args", Obj([]))), CallSteps(calls[1..], idx + 1, dumps, show))
        case (Some(args), Some(rest)) =>
          Some([Step(idx + 1, "Call " + Display(name, show), name, Take(args, 300), "")] + rest)
        case _ => None
  }

  /** How many steps a message contributes. */
  function StepCount(ms: seq<Message>): nat
    decreases |ms|
  {
    if |ms| == 0 then 0
    else
      (match ms[0]
         case ToolMessage(_, _) => 1
         case AiMessage(_, calls) => |calls|
         case OtherMessage(_) => 0)
      + StepCount(ms[1..])
  }

  /** The trace of the messages, numbered after `idx`; `None` where Python raises. */
  function StepsFrom(ms: seq<Message>, idx: nat, dumps: Dumps, show: Json -> string): (r: Option<seq<Step>>)
    ensures r.Some? ==> |r.value| == StepCount(ms)
    ensures r.Some? ==> forall i :: 0 <= i < |r.value| ==>
      r.value[i].id == idx + i + 1 && |r.value[i].input| <= 300 && |r.value[i].output| <= 400
    decreases |ms|
  {
    if |ms| == 0 then Some([])
    else
      var here: Option<seq<Step>> := match ms[0]
        case ToolMessage(name, content) =>
          Some([Step(idx + 1, "Tool result: " + Display(name, show), name, "", Take(ContentText(content, dumps, show), 400))])
        case AiMessage(_, calls) => CallSteps(calls, idx, dumps, show)
        case OtherMessage(_) => Some([]);
      match here
        case None => None
        case Some(steps) =>
          match StepsFrom(ms[1..], idx + |steps|, dumps, show)
            case None => None
            case Some(rest) => Some(steps + rest)
  }

  /** `_format_reasoning_steps(messages)`: ids run 1..k, one step per tool message and one per
      tool call. */
  function ReasoningSteps(ms: seq<Message>, dumps: Dumps, show: Json -> string): (r: Option<seq<Step>>)
    ensures r.Some? ==> |r.value| == StepCount(ms)
    ensures r.Some? ==> forall i :: 0 <= i < |r.value| ==>
      r.value[i].id == i + 1 && |r.value[i].input| <= 300 && |r.value[i].output| <= 400
  {
    StepsFrom(ms, 0, dumps, show)
  }

  function StepJson(s: Step): Json
  {
    Obj([("id", Int(s.id)), ("title", Str(s.title)), ("tool", s.tool), ("input", Str(s.input)), ("output", Str(s.output))])
  }

  // ---------------------------------------------------------------------------------------
  // The model's reply
  // ---------------------------------------------------------------------------------------

  /** The content of the last model message with a non-empty content, as text; "" if none. */
  function ResponseText(ms: seq<Message>, show: Json -> string): string
    decreases |ms|
  {
    if |ms| == 0 then ""
    else
      var last := ms[|ms| - 1];
      if last.AiMessage? && Truthy(last.content) then Display(last.content, show)
      else ResponseText(ms[..|ms| - 1], show)
  }

  /** The text between an opening fence (a ```` ```json ```` fence before a plain one) and the
      next fence, stripped; without a closing fence the slice ends one character short of the
      end; without any fence the text itself. */
  function FenceBody(text: string): (r: string)
    ensures !Contains(text, "```") ==> r == text
    ensures Contains(text, "```json") ==>
      r == Strip(Slice(text, Find(text, "```json") + 7, FindFrom(text, "```", Find(text, "```json") + 7)))
  {
    if Contains(text, "```json") then
      JsonFenceIsFence(text);
      var start := Find(text, "```json") + 7;
      Strip(Slice(text, start, FindFrom(text, "```", start)))
    else if Contains(text, "```") then
      var start := Find(text, "```") + 3;
      Strip(Slice(text, start, FindFrom(text, "```", start)))
    else text
  }

  /** A ```` ```json ```` fence is also a plain fence. */
  lemma JsonFenceIsFence(text: string)
    requires Contains(text, "```json")
    ensures Contains(text, "```")
  {
    var i := Find(text, "```json");
    assert text[i..i + 3] == text[i..i + 7][..3];
    ContainsAt(text, "```", i);
  }

  /** A plain fence cannot hide inside text that lacks one; used to locate fences. */
  lemma NoFenceInside(body: string, s: string, at: nat, j: nat)
    requires at + |body| <= |s| && s[at..at + |body|] == body
    requires !Contains(body, "```")
    requires at <= j && j + 3 <= at + |body|
    ensures !OccursAt(s, "```", j)
  {
    if OccursAt(s, "```", j) {
      assert s[at..at + |body|][j - at] == s[j];
      assert s[at..at + |body|][j - at + 1] == s[j + 1];
      assert s[at..at + |body|][j - at + 2] == s[j + 2];
      assert body[j - at..j - at + 3] == s[j..j + 3];
      assert OccursAt(body, "```", j - at);
      ContainsAt(body, "```", j - at);
    }
  }

  /** A reply written as a fenced JSON block, `"```json" + body + "\n```"`, gives back the
      body, stripped, when the body has no fence of its own. */
  lemma FenceBodyRoundTrip(body: string)
    requires !Contains(body, "```")
    ensures FenceBody("```json" + body + "\n```") == Strip(body + "\n")
  {
    var s := "```json" + body + "\n```";
    var close := 7 + |body| + 1;
    FenceOpensAtStart(body);
    FenceClosesAfterBody(body);
    assert SliceBound(|s|, 7) == 7 && SliceBound(|s|, close) == close;
    assert s[7..close] == body + "\n";
    assert Slice(s, 7, close) == body + "\n";
  }

  /** The fenced block opens with its ```` ```json ```` fence. */
  lemma FenceOpensAtStart(body: string)
    ensures var s := "```json" + body + "\n```";
      Contains(s, "```json") && Find(s, "```json") == 0
  {
    var s := "```json" + body + "\n```";
    assert OccursAt(s, "```json", 0);
    ContainsAt(s, "```json", 0);
    FindFromIs(s, "```json", 0, 0);
  }

  /** The first fence after the opening one is the closing fence after the newline. */
  lemma FenceClosesAfterBody(body: string)
    requires !Contains(body, "```")
    ensures FindFrom("```json" + body + "\n```", "```", 7) == 7 + |body| + 1
  {
    ClosingFenceAt(body);
    NoFenceInBody(body);
    FindFromIs("```json" + body + "\n```", "```", 7, 7 + |body| + 1);
  }

  /** The closing fence follows the body and its newline. */
  lemma ClosingFenceAt(body: string)
    ensures OccursAt("```json" + body + "\n```", "```", 7 + |body| + 1)
  {
    assert "\n```" == "\n" + "```";
    ConcatAssoc("```json" + body, "\n", "```");
    OccursAtEnd("```json" + body + "\n", "```");
  }

  /** No fence starts between the opening fence and the closing one. */
  lemma NoFenceInBody(body: string)
    requires !Contains(body, "```")
    ensures forall j :: 7 <= j < 7 + |body| + 1 ==> !OccursAt("```json" + body + "\n```", "```", j)
  {
    var s := "```json" + body + "\n```";
    assert s[7..7 + |body|] == body;
    assert s[7 + |body|] == '\n';
    forall j | 7 <= j < 7 + |body| + 1
      ensures !OccursAt(s, "```", j)
    {
      if j + 3 <= 7 + |body| {
        NoFenceInside(body, s, 7, j);
      } else {
        CharBlocksFence(s, 7 + |body|, j);
      }
    }
  }

  /** No fence spans a character other than a backtick. */
  lemma CharBlocksFence(s: string, p: nat, j: nat)
    requires j <= p < j + 3 && p < |s| && s[p] != '`'
    ensures !OccursAt(s, "```", j)
  {
    if j + 3 <= |s| {
      assert s[j..j + 3][p - j] == s[p];
    }
  }

  /** Without a closing fence the slice end is -1, which drops the last character. */
  lemma FenceBodyUnclosed(body: string)
    requires |body| > 0 && !Contains(body, "`")
    ensures FenceBody("```json" + body) == Strip(body[..|body| - 1])
  {
    var s := "```json" + body;
    assert OccursAt(s, "```json", 0);
    ContainsAt(s, "```json", 0);
    assert Find(s, "```json") == 0;
    forall j | 7 <= j
      ensures !OccursAt(s, "```", j)
    {
      if j + 3 <= |s| {
        assert s[j] == body[j - 7];
        if s[j] == '`' {
          assert OccursAt(body, "`", j - 7);
          ContainsAt(body, "`", j - 7);
        }
      }
    }
    assert FindFrom(s, "```", 7) == -1;
    assert Slice(s, 7, -1) == body[..|body| - 1];
  }

  // ---------------------------------------------------------------------------------------
  // Enrichment
  // ---------------------------------------------------------------------------------------

  /** The routing client: the reply dict for the points, mode and optimisation. */
  type Router = (seq<Point>, string, string) -> Json

  /** One planned route after the routing step of a driving or walking plan: routes with
      fewer than two points, or whose routing reply is an error, stay as they were. */
  function EnrichRoute(route: Json, mode: string, optimize: string, router: Router, round: Rounder): (r: Option<Json>)
    ensures ExtractRoutePoints(route).Some? && |ExtractRoutePoints(route).value| < 2 ==> r == Some(route)
    ensures (ExtractRoutePoints(route).Some? && |ExtractRoutePoints(route).value| >= 2
             && PyIn("error", router(ExtractRoutePoints(route).value, mode, optimize)) == Some(true)) ==>
      r == Some(route)
  {
    match ExtractRoutePoints(route)
      case None => None
      case Some(points) =>
        if |points| < 2 then Some(route)
        else
          var reply := router(points, mode, optimize);
          match PyIn("error", reply)
            case None => None
            case Some(true) => Some(route)
            case Some(false) => ApplyRouteMetrics(route, reply, round)
  }

  function EnrichRoutes(routes: seq<Json>, mode: string, optimize: string, router: Router, round: Rounder): (r: Option<seq<Json>>)
    ensures r.Some? ==> |r.value| == |routes|
    ensures r.Some? ==> forall i :: 0 <= i < |routes| ==> EnrichRoute(routes[i], mode, optimize, router, round) == Some(r.value[i])
    decreases |routes|
  {
    if |routes| == 0 then Some([])
    else match (EnrichRoute(routes[0], mode, optimize, router, round), EnrichRoutes(routes[1..], mode, optimize, router, round))
      case (Some(x), Some(xs)) =>
        assert forall i :: 1 <= i < |routes| ==> routes[i] == routes[1..][i - 1];
        Some([x] + xs)
      case _ => None
  }

  /** The public transport query built from a route's first and last waypoints. */
  datatype TransitQuery = TransitQuery(
    source: (Json, Json), target: (Json, Json), sourceName: Json, targetName: Json,
    intermediates: Option<seq<(Json, Json, Json)>>)

  /** The public transport client: the reply for a query. */
  type TransitClient = TransitQuery -> Json

  /** `(loc.get("lon"), loc.get("lat"))` of `w.get("location") or {}`; `None` where Python
      raises. */
  function CoordsOf(w: Json): Option<(Json, Json)>
    requires w.Obj?
  {
    var loc := LocationOf(w);
    if loc.Obj? then Some((Get(loc, "lon", Null), Get(loc, "lat", Null))) else None
  }

  /** What one waypoint contributes to the intermediates: its coordinates and name, nothing
      when a coordinate is null, `None` where Python raises. */
  function MidStep(w: Json): (r: Option<seq<(Json, Json, Json)>>)
    ensures r.Some? ==> |r.value| <= 1
    ensures r.Some? ==> forall i :: 0 <= i < |r.value| ==> r.value[i].0 != Null && r.value[i].1 != Null
  {
    if !w.Obj? then None
    else
      var c := CoordsOf(w);
      if c.None? then None
      else
        var (lon, lat) := c.value;
        Some(if lon == Null || lat == Null then [] else [(lon, lat, Get(w, "name", Str("Waypoint")))])
  }

  /** Neither coordinate of a kept intermediate point is null. */
  predicate Located(m: (Json, Json, Json))
  {
    m.0 != Null && m.1 != Null
  }

  /** The intermediate points: each waypoint with both coordinates, with its name. */
  function Intermediates(ws: seq<Json>): (r: Option<seq<(Json, Json, Json)>>)
    ensures r.Some? <==> forall i :: 0 <= i < |ws| ==> MidStep(ws[i]).Some?
    ensures r.Some? ==> |r.value| <= |ws|
    ensures r.Some? ==> forall i :: 0 <= i < |r.value| ==> Located(r.value[i])
  {
    FlatMapAllShort(ws, MidStep);
    FlatMapAllEvery(ws, MidStep, Located);
    FlatMapAll(ws, MidStep)
  }

  /** Intermediates of consecutive runs of waypoints are those of each run, in order. */
  lemma IntermediatesConcat(a: seq<Json>, b: seq<Json>)
    requires Intermediates(a).Some? && Intermediates(b).Some?
    ensures Intermediates(a + b) == Some(Intermediates(a).value + Intermediates(b).value)
  {
    FlatMapAllConcat(a, b, MidStep);
  }

  /** The query for a route, `Some(None)` when the route is skipped (fewer than two
      waypoints, or an end without coordinates), `None` where Python raises. */
  function TransitQueryOf(route: Json): (r: Option<Option<TransitQuery>>)
    ensures r.Some? && r.value.Some? ==>
      route.Obj? && WaypointsOf(route).Arr? && |WaypointsOf(route).items| >= 2
      && Ordered(WaypointsOf(route).items).Some?
      && var ordered := Ordered(WaypointsOf(route).items).value;
      Intermediates(ordered[1..|ordered| - 1]).Some?
      && r.value.value.intermediates ==
           (var mids := Intermediates(ordered[1..|ordered| - 1]).value; if |mids| == 0 then None else Some(mids))
  {
    if !route.Obj? then None
    else
      var ws := WaypointsOf(route);
      if !(ws.Arr? || ws.Str? || ws.Obj?) then None
      else if Len(ws) < 2 then Some(None)
      else if !ws.Arr? || Ordered(ws.items).None? then None
      else
        var ordered := Ordered(ws.items).value;
        var first, last := ordered[0], ordered[|ordered| - 1];
        match (CoordsOf(first), CoordsOf(last))
          case (Some(source), Some(target)) =>
            if source.0 == Null || source.1 == Null || target.0 == Null || target.1 == Null then Some(None)
            else
              var mids := Intermediates(ordered[1..|ordered| - 1]);
              if mids.None? then None
              else
                Some(Some(TransitQuery(source, target, Get(first, "name", Str("Start Point")),
                                       Get(last, "name", Str("End Point")),
                                       if |mids.value| == 0 then None else Some(mids.value))))
          case _ => None
  }

  /** `d[key] = v` when `v` is not `None`. */
  function PutIfSet(d: Json, key: string, v: Json): (r: Json)
    requires d.Obj?
    ensures r.Obj?
    ensures v == Null ==> r == d
    ensures v != Null ==> Lookup(r.fields, key) == Some(v)
  {
    if v != Null then Put(d, key, v) else d
  }

  /** `round(v / 60, 1)` when `v` is not `None`; `None` where the division raises. */
  function MinutesIfSet(v: Json, round: Rounder): Option<Json>
  {
    if v == Null then Some(Null)
    else if IsNumber(v) then Some(Float(round(NumValue(v) / 60.0, 1)))
    else None
  }

  /** The route after taking the figures of the best public transport alternative; routes
      without alternatives stay as they were. */
  function ApplyTransit(route: Json, reply: Json, round: Rounder): (r: Option<Json>)
    requires route.Obj?
    ensures !(reply.Obj? && Truthy(Get(reply, "routes", Null))) ==> r == Some(route)
  {
    var alternatives := if reply.Obj? then Get(reply, "routes", Null) else Null;
    if !Truthy(alternatives) then Some(route)
    else if !alternatives.Arr? || !alternatives.items[0].Obj? then None
    else
      var best := alternatives.items[0];
      match (MinutesIfSet(Get(best, "total_duration_seconds", Null), round),
             MinutesIfSet(Get(best, "walking_duration_seconds", Null), round))
        case (Some(total), Some(walking)) =>
          var a := Put(route, "route_geometry", Get(best, "route_geometry", Arr([])));
          var b := PutIfSet(a, "total_distance_meters", Get(best, "total_distance_meters", Null));
          var c := PutIfSet(b, "total_duration_minutes", total);
          var d := PutIfSet(c, "walking_duration_minutes", walking);
          var e := PutIfSet(d, "transfer_count", Get(best, "transfer_count", Null));
          var chain := Get(best, "transport_chain", Null);
          Some(if Truthy(chain) then Put(e, "transport_chain", chain) else e)
        case _ => None
  }

  /** One planned route after the public transport step; skipped routes stay as they were. */
  function EnrichTransitRoute(route: Json, client: TransitClient, round: Rounder): (r: Option<Json>)
    ensures TransitQueryOf(route) == Some(None) ==> r == Some(route)
  {
    match TransitQueryOf(route)
      case None => None
      case Some(None) => Some(route)
      case Some(Some(q)) => ApplyTransit(route, client(q), round)
  }

  function EnrichTransitRoutes(routes: seq<Json>, client: TransitClient, round: Rounder): (r: Option<seq<Json>>)
    ensures r.Some? ==> |r.value| == |routes|
    decreases |routes|
  {
    if |routes| == 0 then Some([])
    else match (EnrichTransitRoute(routes[0], client, round), EnrichTransitRoutes(routes[1..], client, round))
      case (Some(x), Some(xs)) => Some([x] + xs)
      case _ => None
  }

  // ---------------------------------------------------------------------------------------
  // `plan_route`
  // ---------------------------------------------------------------------------------------

  /** `json.loads(text)`, or `None` where it raises `JSONDecodeError`. */
  type Loads = string -> Option<Json>

  datatype Plan =
    | Planned(result: Json)
    | Unparsed(raw: string, reasoning: seq<Step>)

  /** The request summary with the given entries added; `None` where item assignment raises. */
  function Summary(result: Json, entries: seq<(string, string)>): Option<Json>
    requires result.Obj?
  {
    var summary := Or(Get(result, "request_summary", Null), Obj([]));
    if summary.Obj? then Some(PutAll(summary, entries)) else None
  }

  function PutAll(d: Json, entries: seq<(string, string)>): (r: Json)
    requires d.Obj?
    ensures r.Obj?
    decreases |entries|
  {
    if |entries| == 0 then d else PutAll(Put(d, entries[0].0, Str(entries[0].1)), entries[1..])
  }

  /** The planned routes after enrichment, written back when the result had a list of them. */
  function WithRoutes(result: Json, enriched: seq<Json> -> Option<seq<Json>>): (r: Option<Json>)
    requires result.Obj?
    ensures r.Some? ==> r.value.Obj? && forall k :: k != "routes" ==> Lookup(r.value.fields, k) == Lookup(result.fields, k)
  {
    var routes := Or(Get(result, "routes", Null), Arr([]));
    match Iterate(routes)
      case None => None
      case Some(items) =>
        match enriched(items)
          case None => None
          case Some(done) => Some(if Truthy(Get(result, "routes", Null)) then Put(result, "routes", Arr(done)) else result)
  }

  /** The route enrichment for the mode: the street router's for driving and walking, the
      transit client's for public transport. */
  function RoutedResult(query: string, mode: string, summarised: Json,
                        router: Router, client: TransitClient, round: Rounder): (r: Option<Json>)
    requires summarised.Obj?
    ensures r.Some? ==> r.value.Obj? && forall k :: k != "routes" ==> Lookup(r.value.fields, k) == Lookup(summarised.fields, k)
  {
    if mode != "public_transport" then
      WithRoutes(summarised, (items: seq<Json>) => EnrichRoutes(items, mode, ChooseOptimization(query), router, round))
    else WithRoutes(summarised, (items: seq<Json>) => EnrichTransitRoutes(items, client, round))
  }

  /** The parsed reply after the request summary, the route enrichment and the trace are
      written into it; `None` where Python raises. */
  function PlanResult(query: string, mode: string, result: Json, steps: seq<Step>,
                      router: Router, client: TransitClient, round: Rounder): (r: Option<Json>)
    requires result.Obj?
    ensures r.Some? ==> r.value.Obj? && Has(r.value, "request_summary")
    ensures r.Some? ==> (Has(r.value, "reasoning") <==> Has(result, "reasoning") || |steps| > 0)
  {
    var summarised := Summarised(query, mode, result);
    if summarised.None? then None
    else
      var routed := RoutedResult(query, mode, summarised.value, router, client, round);
      if routed.None? then None
      else Some(WithTrace(routed.value, steps))
  }

  /** The result with its "request_summary" filled in: the optimisation chosen for the query
      (not for public transport) and the mode; every other key is kept. */
  function Summarised(query: string, mode: string, result: Json): (r: Option<Json>)
    requires result.Obj?
    ensures r.Some? ==> r.value.Obj? && Has(r.value, "request_summary")
    ensures r.Some? ==> forall k :: k != "request_summary" ==> Lookup(r.value.fields, k) == Lookup(result.fields, k)
  {
    var entries := if mode != "public_transport" then
        [("optimization_choice", ChooseOptimization(query)), ("transport_mode", mode)]
      else [("transport_mode", mode)];
    var summary := Summary(result, entries);
    if summary.None? then None
    else Some(Put(result, "request_summary", summary.value))
  }

  /** The reply with the agent's trace under "reasoning" when there was any step. */
  function WithTrace(routed: Json, steps: seq<Step>): (r: Json)
    requires routed.Obj?
    ensures r.Obj? && forall k :: k != "reasoning" ==> Lookup(r.fields, k) == Lookup(routed.fields, k)
    ensures Has(r, "reasoning") <==> Has(routed, "reasoning") || |steps| > 0
  {
    if |steps| > 0 then Put(routed, "reasoning", Arr(seq(|steps|, i requires 0 <= i < |steps| => StepJson(steps[i]))))
    else routed
  }

  /** `plan_route(query, mode)` given the agent's messages and the services: a reply that does
      not decode gives the error with the raw text and the trace; `None` where Python raises. */
  function PlanRoute(query: string, mode: string, messages: seq<Message>, loads: Loads,
                     router: Router, client: TransitClient, round: Rounder, dumps: Dumps, show: Json -> string): (r: Option<Plan>)
    ensures (ReasoningSteps(messages, dumps, show).Some?
             && loads(FenceBody(ResponseText(messages, show))).None?) ==>
      r == Some(Unparsed(FenceBody(ResponseText(messages, show)), ReasoningSteps(messages, dumps, show).value))
    ensures r.Some? && r.value.Planned? ==>
      var parsed := loads(FenceBody(ResponseText(messages, show)));
      parsed.Some? && parsed.value.Obj? && r.value.result.Obj?
      && Has(r.value.result, "request_summary")
      && (Has(r.value.result, "reasoning") <==> Has(parsed.value, "reasoning") || StepCount(messages) > 0)
  {
    match ReasoningSteps(messages, dumps, show)
      case None => None
      case Some(steps) =>
        var text := FenceBody(ResponseText(messages, show));
        match loads(text)
          case None => Some(Unparsed(text, steps))
          case Some(result) =>
            if !result.Obj? then None
            else
              match PlanResult(query, mode, result, steps, router, client, round)
                case None => None
                case Some(done) => Some(Planned(done))
  }
}

=== FILE: places.dfy ===
/** The place record the trip planner passes between its services. */
module Places {
  import opened Wrappers

  /** `Place`: a 2GIS item with its coordinates; `kind` is the optional `type`. */
  datatype Place = Place(id: string, name: string, address: string, lat: real, lon: real, kind: Option<string>)

  /** Some place in `ps` has this id. */
  predicate HasId(ps: seq<Place>, id: string)
  {
    exists j :: 0 <= j < |ps| && ps[j].id == id
  }

  /** The index of the first place at or after `from` with this id, or -1. */
  function IdIndexFrom(all: seq<Place>, id: string, from: nat): (k: int)
    ensures k == -1 || (from <= k < |all| && all[k].id == id)
    ensures k == -1 ==> forall j :: from <= j < |all| ==> all[j].id != id
    ensures k >= 0 ==> forall j :: from <= j < k ==> all[j].id != id
    decreases |all| - from
  {
    if from >= |all| then -1
    else if all[from].id == id then from
    else IdIndexFrom(all, id, from + 1)
  }
}

=== FILE: prompts.dfy ===
/** The prompt texts the path-planning agent sends with a user's query: the per-mode
    instructions and the user prompt that carries the query and those instructions. */
module PathAgentPrompts {
  import opened Wrappers
  import opened Text

  /** How each travel mode is named in the instructions. */
  const ModeNames: map<string, string> := map[
    "driving" := "на машине",
    "walking" := "пешком",
    "public_transport" := TransitModeName + TransitKinds]

  const TransitKinds := " (автобус, метро, трамвай)"

  /** The name used for a mode the table does not know. */
  const DefaultModeName := "на машине"

  const ModeLinePrefix := "Способ передвижения: "

  /** The fixed instructions for public transport: the mode line, then the request to use the
      public-transport tool and what to report. */
  const TransitInstructions := ModeLinePrefix + TransitModeName + ("\n" + TransitBody)
  const TransitModeName := "на общественном транспорте"
  const TransitBody :=
    "\n        ВАЖНО: Используй инструмент calculate_public_transport_route для построения маршрута.\n"
    + "        Включи в ответ: transport_chain (цепочку транспорта), transfer_count (пересадки), walking_duration_minutes (время ходьбы)."

  /** What follows the mode name in the driving and walking instructions: the end of the
      mode line, then the rest of the template. */
  const ChooseOptimization := "\n" + AfterModeLine
  const AfterModeLine := "\n        Проанализируй запрос и сам выбери оптимизацию (time или distance) на основе контекста."

  /** `_MODE_MAP.get(mode, "на машине")`. */
  function ModeName(mode: string): (r: string)
    ensures mode in ModeNames ==> r == ModeNames[mode]
    ensures mode !in ModeNames ==> r == DefaultModeName
  {
    if mode in ModeNames then ModeNames[mode] else DefaultModeName
  }

  /** `build_mode_instructions`: the fixed text for public transport; for any other mode the
      driving/walking template with the mode's name, "на машине" when unknown. */
  function ModeInstructions(mode: string): (r: string)
    ensures mode == "public_transport" ==> r == TransitInstructions
    ensures mode != "public_transport" ==>
      StartsWith(r, ModeLinePrefix + ModeName(mode)) && |r| == |ModeLinePrefix + ModeName(mode)| + |ChooseOptimization|
      && r[|ModeLinePrefix + ModeName(mode)|..] == ChooseOptimization
  {
    if mode == "public_transport" then TransitInstructions
    else
      var head := ModeLinePrefix + ModeName(mode);
      var r := head + ChooseOptimization;
      assert r[..|head|] == head && r[|head|..] == ChooseOptimization;
      r
  }

  /** The first line of `s` after `prefix`, if `s` starts with it. */
  function FirstLineAfter(s: string, prefix: string): (r: Option<string>)
    ensures r.Some? <==> StartsWith(s, prefix)
    ensures r.Some? ==> Lacks(r.value, '\n')
  {
    if !StartsWith(s, prefix) then None
    else
      var rest := s[|prefix|..];
      var i := Find(rest, "\n");
      if i < 0 then
        NoNewline(rest);
        Some(rest)
      else
        NoNewlineBefore(rest, i);
        Some(rest[..i])
  }

  /** A text with no "\n" occurrence holds no newline. */
  lemma NoNewline(s: string)
    requires Find(s, "\n") < 0
    ensures Lacks(s, '\n')
  {
    forall j | 0 <= j < |s| ensures s[j] != '\n' {
      assert !OccursAt(s, "\n", j);
      assert s[j..j + 1] == [s[j]];
    }
  }

  lemma NoNewlineBefore(s: string, i: int)
    requires 0 <= i && Find(s, "\n") == i
    ensures i <= |s| && Lacks(s[..i], '\n')
  {
    forall j | 0 <= j < i ensures s[j] != '\n' {
      assert !OccursAt(s, "\n", j);
      assert s[j..j + 1] == [s[j]];
    }
  }

  /** In a line followed by a newline, the first newline is the one after the line. */
  lemma FirstNewline(line: string, rest: string)
    requires Lacks(line, '\n')
    ensures Find(line + "\n" + rest, "\n") == |line|
  {
    var s := line + "\n" + rest;
    assert OccursAt(s, "\n", |line|) by {
      assert s[|line|..|line| + 1] == "\n";
    }
    forall j | 0 <= j < |line| ensures !OccursAt(s, "\n", j) {
      assert s[j..j + 1] == [line[j]];
    }
  }

  /** The mode name an instruction text announces on its first line. */
  function AnnouncedMode(instructions: string): Option<string>
  {
    FirstLineAfter(instructions, ModeLinePrefix)
  }

  /** A text made of the mode prefix, one line and a newline announces that line. */
  lemma AnnouncesLine(line: string, tail: string)
    requires Lacks(line, '\n')
    ensures AnnouncedMode(ModeLinePrefix + line + ("\n" + tail)) == Some(line)
  {
    var rest := line + "\n" + tail;
    var s := ModeLinePrefix + line + ("\n" + tail);
    assert s == ModeLinePrefix + rest;
    assert s[|ModeLinePrefix|..] == rest;
    FirstNewline(line, tail);
    assert rest[..|line|] == line;
  }

  /** Every mode name is a single line. */
  lemma ModeNameOneLine(mode: string)
    ensures Lacks(ModeName(mode), '\n')
  {
    assert '\n' !in TransitModeName && '\n' !in TransitKinds;
    var names := ["на машине", "пешком", TransitModeName + TransitKinds];
    assert '\n' !in names[0] && '\n' !in names[1] && '\n' !in names[2];
    assert ModeName(mode) in names;
  }

  /** Every instruction text announces its mode on the first line: the public-transport text
      announces plain "на общественном транспорте", the others the mode's table name, or
      "на машине" for a mode the table does not know. */
  lemma AnnouncedModeOfInstructions(mode: string)
    ensures mode == "public_transport" ==> AnnouncedMode(ModeInstructions(mode)) == Some(TransitModeName)
    ensures mode != "public_transport" ==> AnnouncedMode(ModeInstructions(mode)) == Some(ModeName(mode))
  {
    if mode == "public_transport" {
      TransitAnnounces();
    } else {
      TemplateAnnounces(mode);
    }
  }

  lemma TemplateAnnounces(mode: string)
    requires mode != "public_transport"
    ensures AnnouncedMode(ModeInstructions(mode)) == Some(ModeName(mode))
  {
    ModeNameOneLine(mode);
    AnnouncesLine(ModeName(mode), AfterModeLine);
  }

  lemma TransitAnnounces()
    ensures AnnouncedMode(TransitInstructions) == Some(TransitModeName)
  {
    assert '\n' !in TransitModeName;
    AnnouncesLine(TransitModeName, TransitBody);
  }

  /** An unknown mode is instructed as driving. */
  lemma UnknownModeDrives(mode: string)
    requires mode !in ModeNames
    ensures ModeInstructions(mode) == ModeInstructions("driving")
  {
  }

  const QueryPrefix := "Запрос пользователя: "
  const PromptTail := "Используй инструменты для поиска мест и построения маршрутов. Верни результат в формате JSON."

  /** `build_path_agent_user_prompt`: the query after its label, a blank line, the mode
      instructions, a blank line, and the closing request for JSON. */
  function UserPrompt(query: string, instructions: string): (r: string)
    ensures OccursAt(r, query, |QueryPrefix|)
    ensures OccursAt(r, instructions, |QueryPrefix| + |query| + 2)
    ensures StartsWith(r, QueryPrefix) && |r| == |QueryPrefix| + |query| + |instructions| + 4 + |PromptTail|
  {
    var r := QueryPrefix + query + "\n\n" + instructions + "\n\n" + PromptTail;
    var q := |QueryPrefix|;
    assert r[q..q + |query|] == query;
    assert r[q + |query| + 2..q + |query| + 2 + |instructions|] == instructions;
    assert r[..q] == QueryPrefix;
    r
  }

  /** The query of a one-line request is read back from the prompt's first line. */
  lemma UserPromptQueryRoundTrip(query: string, instructions: string)
    requires Lacks(query, '\n')
    ensures FirstLineAfter(UserPrompt(query, instructions), QueryPrefix) == Some(query)
  {
    var r := UserPrompt(query, instructions);
    var after := "\n" + instructions + "\n\n" + PromptTail;
    assert r == QueryPrefix + (query + "\n" + after);
    assert r[|QueryPrefix|..] == query + "\n" + after;
    FirstNewline(query, after);
    assert (query + "\n" + after)[..|query|] == query;
  }
}

=== FILE: pt_client.dfy ===
/** The 2GIS public transport client of the core service: the journey chain text, the parsed
    route with its per-movement details and geometry, and the request payload. The HTTP call
    is not modelled: its decoded reply is an input. A Python exception inside the parsing
    (a value of the wrong type where a dict is used) is `None`; the caller turns it into an
    error reply. */
module PtClient {
  import opened Wrappers
  import opened Text
  import opened Json
  import opened Wkt
  import Numerals

  // ---------------------------------------------------------------------------------------
  // Finish markers
  // ---------------------------------------------------------------------------------------

  /** The empty walkway 2GIS appends at the end of a journey. */
  predicate FinishMarker(subtype: Json, distance: Json)
  {
    subtype == Str("finish") && IsZero(distance)
  }

  // ---------------------------------------------------------------------------------------
  // `_extract_transport_chain`
  // ---------------------------------------------------------------------------------------

  /** The readable name of a transport type, `transport_map.get(t, t.title())`. */
  function TransportName(t: string): (r: string)
    ensures |r| > 0 || t == []
  {
    match t
      case "bus" => "Bus"
      case "trolleybus" => "Trolleybus"
      case "tram" => "Tram"
      case "shuttle_bus" => "Shuttle Bus"
      case "metro" => "Metro"
      case "suburban_train" => "Suburban Train"
      case "funicular" => "Funicular"
      case "monorail" => "Monorail"
      case "river_transport" => "Ferry"
      case _ => Title(t)
  }

  /** `x[0]` for a truthy value: the first item of a list, the first character of a string;
      a dict or a number raises. */
  function First(j: Json): Option<Json>
    requires Truthy(j)
  {
    match j
      case Arr(items) => Some(items[0])
      case Str(s) => Some(Str([s[0]]))
      case _ => None
  }

  /** What one movement adds to the chain: `Some(None)` when it adds nothing, `None` when
      Python raises. */
  function ChainLabel(m: Json, show: Json -> string): Option<Option<string>>
  {
    if !m.Obj? then None
    else
      var kind := Get(m, "type", Str("unknown"));
      if kind == Str("walkway") then
        var wp := Get(m, "waypoint", Obj([]));
        if !wp.Obj? then None
        else if FinishMarker(Get(wp, "subtype", Str("")), Get(m, "distance", Int(0))) then Some(None)
        else Some(Some("Walk"))
      else if kind == Str("passage") then
        var metro := Get(m, "metro", Obj([]));
        if Truthy(metro) then
          if metro.Obj? then Some(Some("Metro (" + Display(Get(metro, "line_name", Str("Metro")), show) + ")"))
          else None
        else
          var routes := Get(m, "routes", Arr([]));
          if !Truthy(routes) then Some(Some("Transit"))
          else match First(routes)
            case None => None
            case Some(info) =>
              if !info.Obj? then None
              else
                var t := Get(info, "type", Str("transit"));
                var name := Get(info, "name", Str(""));
                if !t.Str? then None
                else if Truthy(name) then Some(Some(TransportName(t.s) + " (" + Display(name, show) + ")"))
                else Some(Some(TransportName(t.s)))
      else if kind == Str("transfer") then Some(Some("Transfer"))
      else Some(None)
  }

  /** The labels of the movements, in order, or `None` when one of them raises. */
  function Labels(ms: seq<Json>, show: Json -> string): (r: Option<seq<string>>)
    ensures r.Some? ==> |r.value| <= |ms|
    decreases |ms|
  {
    if |ms| == 0 then Some([])
    else match ChainLabel(ms[0], show)
      case None => None
      case Some(l) =>
        match Labels(ms[1..], show)
          case None => None
          case Some(rest) => Some((if l.Some? then [l.value] else []) + rest)
  }

  const Arrow: string := " → "

  /** `_extract_transport_chain(movements)`. */
  function TransportChain(movements: Json, show: Json -> string): Option<string>
  {
    if !Truthy(movements) then Some("No movements")
    else if !movements.Arr? then None
    else match Labels(movements.items, show)
      case None => None
      case Some(ls) => Some(if ls == [] then "Walking only" else Join(ls, Arrow))
  }

  /** A movement that counts in the chain: a walkway that is not a finish marker, a passage,
      or a transfer. */
  predicate Counted(m: Json, show: Json -> string)
  {
    ChainLabel(m, show).Some? && ChainLabel(m, show).value.Some?
  }

  function CountedIn(ms: seq<Json>, show: Json -> string): nat
    decreases |ms|
  {
    if |ms| == 0 then 0 else (if Counted(ms[0], show) then 1 else 0) + CountedIn(ms[1..], show)
  }

  /** There is one label per counted movement. */
  lemma {:induction false} LabelsCount(ms: seq<Json>, show: Json -> string)
    requires Labels(ms, show).Some?
    ensures |Labels(ms, show).value| == CountedIn(ms, show)
    decreases |ms|
  {
    if |ms| > 0 {
      LabelsCount(ms[1..], show);
    }
  }

  /** "No movements" for no movements, "Walking only" when every movement was skipped, and
      otherwise one arrow-separated label per counted movement. */
  lemma ChainCases(ms: seq<Json>, show: Json -> string)
    requires Labels(ms, show).Some?
    ensures ms == [] ==> TransportChain(Arr(ms), show) == Some("No movements")
    ensures ms != [] && CountedIn(ms, show) == 0 ==> TransportChain(Arr(ms), show) == Some("Walking only")
    ensures ms != [] && CountedIn(ms, show) > 0 ==>
      TransportChain(Arr(ms), show) == Some(Join(Labels(ms, show).value, Arrow))
      && |Labels(ms, show).value| == CountedIn(ms, show)
  {
    LabelsCount(ms, show);
  }

  // ---------------------------------------------------------------------------------------
  // `_normalize_pair`, `_collect_coordinates`, `_extract_route_geometry`, `_fallback_geometry`
  // ---------------------------------------------------------------------------------------

  function Abs(x: real): real { if x < 0.0 then -x else x }

  /** `_normalize_pair(first, second)`: a pair that looks like `(lat, lon)` is turned round. */
  function NormalizePair(first: real, second: real): (r: Point)
    ensures (Abs(first) <= 90.0 && Abs(second) > 90.0) ==> r == Point(second, first)
    ensures !(Abs(first) <= 90.0 && Abs(second) > 90.0) ==> r == Point(first, second)
  {
    if Abs(first) <= 90.0 && Abs(second) > 90.0 then Point(second, first) else Point(first, second)
  }

  /** Normalising never loses a coordinate, and normalising the result again keeps it. */
  lemma NormalizeStable(first: real, second: real)
    ensures var p := NormalizePair(first, second);
      multiset{p.lon, p.lat} == multiset{first, second}
      && NormalizePair(p.lon, p.lat) == p
  {
  }

  /** `_normalize_pair` on two JSON values: `abs` of a non-number raises. */
  function NormalizeJson(a: Json, b: Json): Option<Point>
  {
    if IsNumber(a) && IsNumber(b) then Some(NormalizePair(NumValue(a), NumValue(b))) else None
  }

  function Cat(a: Option<seq<Point>>, b: Option<seq<Point>>): Option<seq<Point>>
  {
    if a.Some? && b.Some? then Some(a.value + b.value) else None
  }

  /** `_collect_coordinates(obj)`. */
  function Collect(obj: Json, parse: FloatParser): Option<seq<Point>>
    decreases obj, 2
  {
    match obj
      case Obj(fields) =>
        var a := if Has(obj, "lon") && Has(obj, "lat") then
          PairList(Get(obj, "lon", Null), Get(obj, "lat", Null)) else Some([]);
        var b := if Has(obj, "longitude") && Has(obj, "latitude") then
          PairList(Get(obj, "longitude", Null), Get(obj, "latitude", Null)) else Some([]);
        var c := CollectField(obj, fields, "point", parse);
        var d := CollectField(obj, fields, "points", parse);
        var e := CollectField(obj, fields, "geometry", parse);
        var poly := Get(obj, "polyline", Null);
        var f := if poly.Str? then Some(Polyline(poly.s, parse)) else Some([]);
        Cat(Cat(Cat(Cat(Cat(a, b), c), d), e), f)
      case Arr(items) =>
        if |items| >= 2 && IsNumber(items[0]) && IsNumber(items[1]) then PairList(items[0], items[1])
        else CollectAll(obj, items, parse)
      case Str(s) => Some(Polyline(s, parse))
      case _ => Some([])
  }

  /** A one-point list from two JSON values. */
  function PairList(a: Json, b: Json): Option<seq<Point>>
  {
    match NormalizeJson(a, b)
      case Some(p) => Some([p])
      case None => None
  }

  /** The coordinates under `key` of the dict `obj`, read from the last entry of that name
      among `fields`, a prefix of its entries (the entry `Lookup` picks). */
  function CollectField(obj: Json, fields: seq<(string, Json)>, key: string, parse: FloatParser): Option<seq<Point>>
    requires obj.Obj? && fields <= obj.fields
    decreases obj, 1, |fields|
  {
    if |fields| == 0 then Some([])
    else if fields[|fields| - 1].0 == key then
      assert fields[|fields| - 1] == obj.fields[|fields| - 1];
      Collect(fields[|fields| - 1].1, parse)
    else CollectField(obj, fields[..|fields| - 1], key, parse)
  }

  /** The coordinates of each item of `obj`'s list `items`, in order. */
  function CollectAll(obj: Json, items: seq<Json>, parse: FloatParser): Option<seq<Point>>
    requires obj.Arr? && items <= obj.items
    decreases obj, 1, |items|
  {
    if |items| == 0 then Some([])
    else
      assert items[|items| - 1] == obj.items[|items| - 1];
      Cat(CollectAll(obj, items[..|items| - 1], parse), Collect(items[|items| - 1], parse))
  }

  /** The field scan reads the value `Lookup` finds: nothing when the key is absent. */
  lemma {:induction false} CollectFieldLookup(obj: Json, fields: seq<(string, Json)>, key: string, parse: FloatParser)
    requires obj.Obj? && fields <= obj.fields
    ensures Lookup(fields, key).None? ==> CollectField(obj, fields, key, parse) == Some([])
    ensures Lookup(fields, key).Some? ==>
      CollectField(obj, fields, key, parse) == Collect(Lookup(fields, key).value, parse)
    decreases |fields|
  {
    if |fields| > 0 && fields[|fields| - 1].0 != key {
      CollectFieldLookup(obj, fields[..|fields| - 1], key, parse);
    }
  }

  /** A number pair is one point; a list of dicts is the concatenation of their points. */
  lemma CollectPairs(a: real, b: real, d1: Json, d2: Json, parse: FloatParser)
    requires d1.Obj? && d2.Obj?
    ensures Collect(Arr([Float(a), Float(b)]), parse) == Some([NormalizePair(a, b)])
    ensures Collect(Arr([d1, d2]), parse) == Cat(Collect(d1, parse), Collect(d2, parse))
  {
    var l := Arr([d1, d2]);
    assert l.items[..1] == [d1];
    assert CollectAll(l, l.items[..1], parse) == Collect(d1, parse) by {
      assert [d1][..0] == [];
      if Collect(d1, parse).Some? {
        assert [] + Collect(d1, parse).value == Collect(d1, parse).value;
      }
    }
  }

  const GeometryKeys: seq<string> :=
    ["geometry", "path", "paths", "track", "tracks", "line", "lines", "route", "routes", "polyline"]

  /** `_extract_geometry_from_movement(movement)`: the coordinates under each geometry key, in
      key order; the pedestrian instructions only when those give none. */
  function MovementGeometry(m: Json, parse: FloatParser): Option<seq<Point>>
    requires m.Obj?
  {
    var coords := KeysGeometry(m, GeometryKeys, parse);
    if coords.Some? && coords.value == [] && Has(m, "pedestrian_instructions") then
      CollectField(m, m.fields, "pedestrian_instructions", parse)
    else coords
  }

  function KeysGeometry(m: Json, keys: seq<string>, parse: FloatParser): Option<seq<Point>>
    requires m.Obj?
    decreases |keys|
  {
    if |keys| == 0 then Some([])
    else Cat(CollectField(m, m.fields, keys[0], parse), KeysGeometry(m, keys[1..], parse))
  }

  /** Appends `p` unless it repeats the last point. */
  function AppendNew(acc: seq<Point>, p: Point): seq<Point>
  {
    if acc == [] || acc[|acc| - 1] != p then acc + [p] else acc
  }

  /** The dedup loop of `_extract_route_geometry` over a list of points. */
  function Collapse(acc: seq<Point>, ps: seq<Point>): seq<Point>
    decreases |ps|
  {
    if |ps| == 0 then acc else Collapse(AppendNew(acc, ps[0]), ps[1..])
  }

  predicate NoRepeats(ps: seq<Point>)
  {
    forall i :: 0 < i < |ps| ==> ps[i - 1] != ps[i]
  }

  /** `_extract_route_geometry(movements)`. */
  function RouteGeometry(movements: seq<Json>, parse: FloatParser): Option<seq<Point>>
  {
    match AllGeometry(movements, parse)
      case None => None
      case Some(ps) => Some(Collapse([], ps))
  }

  function AllGeometry(movements: seq<Json>, parse: FloatParser): Option<seq<Point>>
    decreases |movements|
  {
    if |movements| == 0 then Some([])
    else if !movements[0].Obj? then None
    else Cat(MovementGeometry(movements[0], parse), AllGeometry(movements[1..], parse))
  }

  /** The dedup loop never leaves two equal neighbours, keeps exactly the points it was given
      (as a set), and changes nothing on a list without repeats. */
  lemma CollapseFacts(acc: seq<Point>, ps: seq<Point>)
    requires NoRepeats(acc)
    ensures var r := Collapse(acc, ps);
      NoRepeats(r) && (forall x :: x in r <==> x in acc || x in ps)
      && (NoRepeats(acc + ps) ==> r == acc + ps)
  {
    CollapseNoRepeats(acc, ps);
    CollapseMembers(acc, ps);
    if NoRepeats(acc + ps) {
      CollapseUnchanged(acc, ps);
    }
  }

  /** Appending a point keeps neighbours distinct and adds exactly that point. */
  lemma AppendNewFacts(acc: seq<Point>, p: Point)
    requires NoRepeats(acc)
    ensures NoRepeats(AppendNew(acc, p))
    ensures forall x :: x in AppendNew(acc, p) <==> x in acc || x == p
  {
    var next := AppendNew(acc, p);
    if acc == [] || acc[|acc| - 1] != p {
      assert next == acc + [p];
      assert forall i :: 0 <= i < |acc| ==> next[i] == acc[i];
    } else {
      assert p in acc;
    }
  }

  lemma {:induction false} CollapseNoRepeats(acc: seq<Point>, ps: seq<Point>)
    requires NoRepeats(acc)
    ensures NoRepeats(Collapse(acc, ps))
    decreases |ps|
  {
    if |ps| > 0 {
      AppendNewFacts(acc, ps[0]);
      CollapseNoRepeats(AppendNew(acc, ps[0]), ps[1..]);
    }
  }

  lemma {:induction false} CollapseMembers(acc: seq<Point>, ps: seq<Point>)
    requires NoRepeats(acc)
    ensures forall x :: x in Collapse(acc, ps) <==> x in acc || x in ps
    decreases |ps|
  {
    if |ps| > 0 {
      var next := AppendNew(acc, ps[0]);
      AppendNewFacts(acc, ps[0]);
      CollapseMembers(next, ps[1..]);
      assert forall x :: x in ps <==> x == ps[0] || x in ps[1..] by {
        assert ps == [ps[0]] + ps[1..];
      }
    }
  }

  lemma {:induction false} CollapseUnchanged(acc: seq<Point>, ps: seq<Point>)
    requires NoRepeats(acc + ps)
    ensures Collapse(acc, ps) == acc + ps
    decreases |ps|
  {
    if |ps| == 0 {
      assert acc + ps == acc;
    } else {
      var next := AppendNew(acc, ps[0]);
      assert acc == [] || acc[|acc| - 1] != ps[0] by {
        if acc != [] {
          assert (acc + ps)[|acc| - 1] == acc[|acc| - 1] && (acc + ps)[|acc|] == ps[0];
        }
      }
      assert next == acc + [ps[0]];
      assert next + ps[1..] == acc + ps;
      CollapseUnchanged(next, ps[1..]);
    }
  }

  /** The route geometry has no two equal consecutive points and holds every collected point. */
  lemma RouteGeometryFacts(movements: seq<Json>, parse: FloatParser)
    requires RouteGeometry(movements, parse).Some?
    ensures var r := RouteGeometry(movements, parse).value;
      NoRepeats(r) && forall x :: x in r <==> x in AllGeometry(movements, parse).value
  {
    CollapseFacts([], AllGeometry(movements, parse).value);
  }

  /** Collapsing twice is collapsing once. */
  lemma CollapseIdempotent(ps: seq<Point>)
    ensures Collapse([], Collapse([], ps)) == Collapse([], ps)
  {
    CollapseFacts([], ps);
    var r := Collapse([], ps);
    CollapseFacts([], r);
    assert [] + r == r;
  }

  /** `_fallback_geometry(source, target, intermediate)`: the straight chain of the given
      points. */
  function FallbackGeometry(source: Point, target: Point, intermediate: seq<Point>): (r: seq<Point>)
    ensures |r| == 2 + |intermediate|
    ensures r[0] == source && r[|r| - 1] == target && r[1..|r| - 1] == intermediate
  {
    [source] + intermediate + [target]
  }

  // ---------------------------------------------------------------------------------------
  // `_parse_route`
  // ---------------------------------------------------------------------------------------

  /** One parsed movement: its dict fields and its segment geometry (the `geometry` key is
      present exactly when that geometry is not empty). */
  datatype Detail = Detail(fields: map<string, Json>, geometry: seq<Point>)

  /** The state of the movement loop: the details so far, the route geometry so far and the
      index of the next route-level info. */
  datatype Scan = Scan(details: seq<Detail>, geometry: seq<Point>, index: nat)

  function MovementType(m: Json): Json
    requires m.Obj?
  {
    Get(m, "type", Str("unknown"))
  }

  /** The waypoint of a movement; anything but a dict reads as `{}`. */
  function Waypoint(m: Json): (r: Json)
    requires m.Obj?
    ensures r.Obj?
  {
    var wp := Get(m, "waypoint", Obj([]));
    if wp.Obj? then wp else Obj([])
  }

  /** The finish-marker test of the movement loop. */
  predicate RouteSkips(m: Json)
  {
    m.Obj? && MovementType(m) == Str("walkway")
    && FinishMarker(Get(Waypoint(m), "subtype", Str("")), Get(m, "distance", Int(0)))
  }

  predicate IsPassage(m: Json)
  {
    m.Obj? && MovementType(m) == Str("passage")
  }

  /** The points of the WKT `selection` of each geometry object; a truthy selection that is
      not a string makes the regex search raise. */
  function Selections(items: seq<Json>, parse: FloatParser): Option<seq<Point>>
    decreases |items|
  {
    if |items| == 0 then Some([])
    else
      var here :=
        if items[0].Obj? then
          var w := Get(items[0], "selection", Str(""));
          if !Truthy(w) then Some([]) else if w.Str? then Some(ParseWkt(w.s, parse)) else None
        else Some([]);
      Cat(here, Selections(items[1..], parse))
  }

  /** The points of the platforms' WKT geometries. */
  function PlatformPoints(ps: seq<Json>, parse: FloatParser): seq<Point>
    decreases |ps|
  {
    if |ps| == 0 then []
    else
      var g := if ps[0].Obj? then Get(ps[0], "geometry", Str("")) else Null;
      (if g.Str? && g.s != [] then ParseWkt(g.s, parse) else []) + PlatformPoints(ps[1..], parse)
  }

  /** The name of a platform when it is a dict with a truthy name. */
  function StopName(p: Json): Option<Json>
  {
    if p.Obj? && Truthy(Get(p, "name", Str(""))) then Some(Get(p, "name", Str(""))) else None
  }

  /** The platform loop from position `i` on, recording `from_stop` and `to_stop`. */
  function StopsFrom(ps: seq<Json>, i: nat, d: map<string, Json>): map<string, Json>
    requires i <= |ps|
    decreases |ps| - i
  {
    if i == |ps| then d
    else
      var d' :=
        match StopName(ps[i])
          case None => d
          case Some(name) =>
            if i == 0 then d["from_stop" := name]
            else if i == |ps| - 1 then d["to_stop" := name]
            else d;
      StopsFrom(ps, i + 1, d')
  }

  /** What the platform loop records, stated without the loop: `from_stop` is the first
      platform's name and `to_stop` the last one's, the latter only when there are two or more
      platforms. */
  function StopsClosed(ps: seq<Json>, d: map<string, Json>): map<string, Json>
  {
    var d1 := if |ps| > 0 && StopName(ps[0]).Some? then d["from_stop" := StopName(ps[0]).value] else d;
    if |ps| > 1 && StopName(ps[|ps| - 1]).Some? then d1["to_stop" := StopName(ps[|ps| - 1]).value] else d1
  }

  lemma {:induction false} StopsMiddle(ps: seq<Json>, i: nat, d: map<string, Json>)
    requires 1 <= i <= |ps|
    ensures StopsFrom(ps, i, d) ==
      if i < |ps| && StopName(ps[|ps| - 1]).Some? && |ps| > 1 then d["to_stop" := StopName(ps[|ps| - 1]).value] else d
    decreases |ps| - i
  {
    if i < |ps| {
      StopsMiddle(ps, i + 1, if i == |ps| - 1 && StopName(ps[i]).Some? then d["to_stop" := StopName(ps[i]).value] else d);
    }
  }

  /** The platform loop agrees with its closed form. */
  lemma StopsLoop(ps: seq<Json>, d: map<string, Json>)
    ensures StopsFrom(ps, 0, d) == StopsClosed(ps, d)
  {
    if |ps| > 0 {
      var d1 := if StopName(ps[0]).Some? then d["from_stop" := StopName(ps[0]).value] else d;
      StopsMiddle(ps, 1, d1);
    }
  }

  /** The first alternative's contribution to a detail: its segment geometry (or the platform
      points when it has none) and the platform fields. */
  function AlternativePart(m: Json, d: map<string, Json>, parse: FloatParser): Option<(map<string, Json>, seq<Point>)>
    requires m.Obj?
  {
    var alts := Get(m, "alternatives", Arr([]));
    if !(Truthy(alts) && alts.Arr?) || !alts.items[0].Obj? then Some((d, []))
    else
      var alt := alts.items[0];
      var lines := Get(alt, "geometry", Arr([]));
      match (if lines.Arr? then Selections(lines.items, parse) else Some([]))
        case None => None
        case Some(seg) =>
          var ps := Get(alt, "platforms", Arr([]));
          if Truthy(ps) && ps.Arr? then
            var points := PlatformPoints(ps.items, parse);
            Some((StopsFrom(ps.items, 0, d["stops_count" := Int(|ps.items|)]),
                  if seg == [] && points != [] then points else seg))
          else Some((d, seg))
  }

  /** The route-level infos as the loop indexes them: a list as itself, a string as its
      characters, nothing for a falsy value (the loop then never looks); anything else raises
      at the first passage. */
  function LevelRoutes(j: Json): Option<seq<Json>>
  {
    if !Truthy(j) then Some([])
    else match j
      case Arr(items) => Some(items)
      case Str(s) => Some(seq(|s|, i requires 0 <= i < |s| => Str([s[i]])))
      case _ => None
  }

  /** The fields a route-level info dict gives a passage. */
  function InfoFields(info: Json, d: map<string, Json>, show: Json -> string): map<string, Json>
    requires info.Obj?
  {
    var names := Get(info, "names", Arr([]));
    var d1 := if Truthy(names) && names.Arr? then d["route_name" := Str(Join(Shown(names.items, show), ", "))] else d;
    d1["transport_type" := Get(info, "subtype", Str("transit"))]
      ["transport_type_name" := Get(info, "subtype_name", Str(""))]
      ["route_color" := Get(info, "color", Str(""))]
  }

  function Shown(items: seq<Json>, show: Json -> string): (r: seq<string>)
    ensures |r| == |items|
  {
    seq(|items|, i requires 0 <= i < |items| => Display(items[i], show))
  }

  /** The route-level info step: a passage consumes the next info while there is one. */
  function InfoPart(m: Json, infos: Option<seq<Json>>, index: nat, d: map<string, Json>, show: Json -> string): Option<(map<string, Json>, nat)>
    requires m.Obj?
  {
    if !IsPassage(m) then Some((d, index))
    else match infos
      case None => None
      case Some(xs) =>
        if index < |xs| then
          Some((if xs[index].Obj? then InfoFields(xs[index], d, show) else d, index + 1))
        else Some((d, index))
  }

  /** The metro fields of a passage and the walk type of a walkway. */
  function MetroPart(m: Json, d: map<string, Json>): map<string, Json>
    requires m.Obj?
  {
    if IsPassage(m) then
      var metro := Get(m, "metro", Obj([]));
      if Truthy(metro) && metro.Obj? then
        var color := Get(metro, "color", Str(""));
        var fallback := if "route_color" in d then d["route_color"] else Str("");
        d["transport_type" := Str("metro")]
          ["line_name" := Get(metro, "line_name", Str(""))]
          ["line_color" := if Truthy(color) then color else fallback]
          ["direction" := Get(metro, "ui_direction_suggest", Str(""))]
          ["station_count" := Get(metro, "ui_station_count", Str(""))]
      else d
    else if MovementType(m) == Str("walkway") then d["transport_type" := Str("walk")]
    else d
  }

  /** One pass of the movement loop. */
  function Step(m: Json, infos: Option<seq<Json>>, st: Scan, parse: FloatParser, show: Json -> string): Option<Scan>
  {
    if !m.Obj? then None
    else if RouteSkips(m) then Some(st)
    else
      var wp := Waypoint(m);
      var d0 := map[
        "type" := MovementType(m),
        "subtype" := Get(wp, "subtype", Str("")),
        "duration_seconds" := Get(m, "moving_duration", Int(0)),
        "distance_meters" := Get(m, "distance", Int(0)),
        "from_name" := Get(wp, "name", Str(""))];
      match AlternativePart(m, d0, parse)
        case None => None
        case Some(alt) =>
          match InfoPart(m, infos, st.index, alt.0, show)
            case None => None
            case Some(info) =>
              Some(Scan(st.details + [Detail(MetroPart(m, info.0), alt.1)], st.geometry + alt.1, info.1))
  }

  /** The movement loop over `ms`, one `step` per movement, stopping at the first that
      raises. */
  function ScanAll(ms: seq<Json>, st: Scan, step: (Json, Scan) -> Option<Scan>): Option<Scan>
    decreases |ms|
  {
    if |ms| == 0 then Some(st)
    else match step(ms[0], st)
      case None => None
      case Some(st') => ScanAll(ms[1..], st', step)
  }

  /** The pass `_parse_route` makes per movement. */
  function RouteStep(infos: Option<seq<Json>>, parse: FloatParser, show: Json -> string): (Json, Scan) -> Option<Scan>
  {
    (m, st) => Step(m, infos, st, parse, show)
  }

  /** The concatenated geometry of a list of details. */
  function Geometries(ds: seq<Detail>): seq<Point>
    decreases |ds|
  {
    if |ds| == 0 then [] else Geometries(ds[..|ds| - 1]) + ds[|ds| - 1].geometry
  }

  function Kept(ms: seq<Json>): nat
    decreases |ms|
  {
    if |ms| == 0 then 0 else (if RouteSkips(ms[0]) then 0 else 1) + Kept(ms[1..])
  }

  function Passages(ms: seq<Json>): nat
    decreases |ms|
  {
    if |ms| == 0 then 0 else (if IsPassage(ms[0]) then 1 else 0) + Passages(ms[1..])
  }

  function Min(a: int, b: int): int { if a <= b then a else b }

  /** One pass adds a detail unless the movement is a finish marker, and its segment to the
      route geometry. */
  lemma StepDetails(m: Json, infos: Option<seq<Json>>, st: Scan, parse: FloatParser, show: Json -> string)
    requires st.geometry == Geometries(st.details)
    requires Step(m, infos, st, parse, show).Some?
    ensures var s := Step(m, infos, st, parse, show).value;
      |s.details| == |st.details| + (if RouteSkips(m) then 0 else 1)
      && s.details[..|st.details|] == st.details
      && s.geometry == Geometries(s.details)
  {
    var s := Step(m, infos, st, parse, show).value;
    if !RouteSkips(m) {
      assert s.details[..|s.details| - 1] == st.details;
    }
  }

  /** One pass moves the info index by one exactly for a passage with an info left. */
  lemma StepIndex(m: Json, infos: Option<seq<Json>>, st: Scan, parse: FloatParser, show: Json -> string)
    requires infos.Some? ==> st.index <= |infos.value|
    requires Step(m, infos, st, parse, show).Some?
    ensures var s := Step(m, infos, st, parse, show).value;
      (infos.Some? ==> s.index == Min(st.index + (if IsPassage(m) then 1 else 0), |infos.value|))
      && (infos.None? ==> !IsPassage(m) && s.index == st.index)
  {
  }

  /** A pass that adds a detail exactly for a movement that is not a finish marker, and that
      keeps the route geometry the concatenation of the details' geometries. */
  ghost predicate AddsDetails(step: (Json, Scan) -> Option<Scan>)
  {
    forall m: Json, st: Scan :: st.geometry == Geometries(st.details) && step(m, st).Some? ==>
      |step(m, st).value.details| == |st.details| + (if RouteSkips(m) then 0 else 1)
      && step(m, st).value.details[..|st.details|] == st.details
      && step(m, st).value.geometry == Geometries(step(m, st).value.details)
  }

  /** A pass that moves the info index by one for a passage while it is below `n`. */
  ghost predicate CountsPassages(step: (Json, Scan) -> Option<Scan>, n: nat)
  {
    forall m: Json, st: Scan :: st.index <= n && step(m, st).Some? ==>
      step(m, st).value.index == Min(st.index + (if IsPassage(m) then 1 else 0), n)
  }

  /** A pass that raises on every passage and otherwise keeps the info index. */
  ghost predicate RejectsPassages(step: (Json, Scan) -> Option<Scan>)
  {
    forall m, st :: step(m, st).Some? ==> !IsPassage(m) && step(m, st).value.index == st.index
  }

  /** The pass of `_parse_route` has all three properties (the last one for infos that cannot
      be indexed). */
  lemma RouteStepFacts(infos: Option<seq<Json>>, parse: FloatParser, show: Json -> string)
    ensures AddsDetails(RouteStep(infos, parse, show))
    ensures infos.Some? ==> CountsPassages(RouteStep(infos, parse, show), |infos.value|)
    ensures infos.None? ==> RejectsPassages(RouteStep(infos, parse, show))
  {
    var step := RouteStep(infos, parse, show);
    forall m: Json, st: Scan | st.geometry == Geometries(st.details) && step(m, st).Some?
      ensures |step(m, st).value.details| == |st.details| + (if RouteSkips(m) then 0 else 1)
        && step(m, st).value.details[..|st.details|] == st.details
        && step(m, st).value.geometry == Geometries(step(m, st).value.details)
    {
      StepDetails(m, infos, st, parse, show);
    }
    forall m: Json, st: Scan | (infos.Some? ==> st.index <= |infos.value|) && step(m, st).Some?
      ensures infos.Some? ==> step(m, st).value.index == Min(st.index + (if IsPassage(m) then 1 else 0), |infos.value|)
      ensures infos.None? ==> !IsPassage(m) && step(m, st).value.index == st.index
    {
      StepIndex(m, infos, st, parse, show);
    }
  }

  /** The loop adds one detail per movement that is not a finish marker, keeps the details it
      had, and keeps the route geometry the concatenation of the details' geometries. */
  lemma {:induction false} ScanDetails(ms: seq<Json>, st: Scan, step: (Json, Scan) -> Option<Scan>)
    requires AddsDetails(step) && st.geometry == Geometries(st.details)
    ensures var r := ScanAll(ms, st, step);
      r.Some? ==>
        |r.value.details| == |st.details| + Kept(ms)
        && r.value.details[..|st.details|] == st.details
        && r.value.geometry == Geometries(r.value.details)
    decreases |ms|
  {
    if |ms| > 0 && step(ms[0], st).Some? {
      var s := step(ms[0], st).value;
      ScanDetails(ms[1..], s, step);
      var r := ScanAll(ms[1..], s, step);
      if r.Some? {
        assert r.value.details[..|st.details|] == r.value.details[..|s.details|][..|st.details|];
      }
    }
  }

  /** The route-info index moves by exactly one per passage while infos remain, so it ends at
      the smaller of the passage count and the number of infos, and never runs past them. */
  lemma {:induction false} ScanIndex(ms: seq<Json>, st: Scan, step: (Json, Scan) -> Option<Scan>, n: nat)
    requires CountsPassages(step, n) && st.index <= n
    ensures ScanAll(ms, st, step).Some? ==> ScanAll(ms, st, step).value.index == Min(st.index + Passages(ms), n)
    decreases |ms|
  {
    if |ms| > 0 && step(ms[0], st).Some? {
      var s := step(ms[0], st).value;
      ScanIndex(ms[1..], s, step, n);
      var r := ScanAll(ms[1..], s, step);
      if r.Some? {
        MinShift(st.index, if IsPassage(ms[0]) then 1 else 0, Passages(ms[1..]), n, s.index, r.value.index);
      }
    }
  }

  /** With route-level infos that cannot be indexed, the loop gets through only without
      passages. */
  lemma {:induction false} ScanNoInfos(ms: seq<Json>, st: Scan, step: (Json, Scan) -> Option<Scan>)
    requires RejectsPassages(step)
    ensures ScanAll(ms, st, step).Some? ==> Passages(ms) == 0 && ScanAll(ms, st, step).value.index == st.index
    decreases |ms|
  {
    if |ms| > 0 && step(ms[0], st).Some? {
      ScanNoInfos(ms[1..], step(ms[0], st).value, step);
    }
  }

  lemma MinShift(a: int, k: nat, p: nat, n: int, mid: int, last: int)
    requires mid == Min(a + k, n) && last == Min(mid + p, n)
    ensures last == Min(a + k + p, n)
  {
  }

  /** A parsed route. */
  datatype Route = Route(
    totalDuration: Json, totalDistance: Json, walkingDuration: Json, transferCount: Json,
    chain: string, movements: seq<Detail>, geometry: seq<Point>, schedule: Json)

  /** The list the movement loop walks: a falsy string or dict iterates as nothing, a falsy
      value of any other kind cannot be iterated (a truthy non-list has already made the chain
      raise). */
  function MovementList(j: Json): Option<seq<Json>>
  {
    match j
      case Arr(items) => Some(items)
      case Str(s) => if s == [] then Some([]) else None
      case Obj(fields) => if fields == [] then Some([]) else None
      case _ => None
  }

  /** `period // 60` for a truthy period (floor division; a string or container raises). */
  function PeriodMinutes(p: Json): (r: Option<Json>)
    ensures p.Int? ==> r.Some? && r.value.Int? && r.value.i * 60 <= p.i < r.value.i * 60 + 60
    ensures p.Float? ==> r.Some? && r.value.Float? && r.value.r * 60.0 <= p.r < r.value.r * 60.0 + 60.0
    ensures r.None? <==> !IsNumber(p)
  {
    match p
      case Bool(b) => Some(Int(0))
      case Int(i) => Some(Int(i / 60))
      case Float(r) => Some(Float(((r / 60.0).Floor) as real))
      case _ => None
  }

  /** The schedule block: `Null` unless the schedules are a non-empty list whose first item is
      a dict. */
  function Schedule(schedules: Json): Option<Json>
  {
    if !(Truthy(schedules) && schedules.Arr?) || !schedules.items[0].Obj? then Some(Null)
    else
      var first := schedules.items[0];
      var period := Get(first, "period", Null);
      var minutes := if Truthy(period) then PeriodMinutes(period) else Some(Null);
      match minutes
        case None => None
        case Some(mins) =>
          Some(Obj([("type", Get(first, "type", Str(""))), ("period_minutes", mins),
                    ("departure_time", Get(first, "precise_time", Str(""))),
                    ("start_time_utc", Get(first, "start_time_utc", Int(0)))]))
  }

  /** The part of `_parse_route` before its movement loop: the transport chain, the route
      geometry that is computed and then dropped, and the list the loop walks. */
  function Prelude(route: Json, parse: FloatParser, show: Json -> string): Option<(string, seq<Point>, seq<Json>)>
    requires route.Obj?
  {
    var movements := Get(route, "movements", Arr([]));
    match TransportChain(movements, show)
      case None => None
      case Some(chain) =>
        var early := if movements.Arr? then RouteGeometry(movements.items, parse) else Some([]);
        match (early, MovementList(movements))
          case (Some(g), Some(ms)) => Some((chain, g, ms))
          case _ => None
  }

  /** The movement loop and the result dict of `_parse_route`. */
  function Finish(route: Json, chain: string, ms: seq<Json>, parse: FloatParser, show: Json -> string): Option<Route>
    requires route.Obj?
  {
    var step := RouteStep(LevelRoutes(Get(route, "routes", Arr([]))), parse, show);
    match (ScanAll(ms, Scan([], [], 0), step), Schedule(Get(route, "schedules", Arr([]))))
      case (Some(st), Some(schedule)) =>
        Some(Route(Get(route, "total_duration", Int(0)), Get(route, "total_distance", Int(0)),
                   Get(route, "walking_duration", Int(0)), Get(route, "transfer_count", Int(0)),
                   chain, st.details, st.geometry, schedule))
      case _ => None
  }

  /** `_parse_route(route, source_point, target_point, intermediate_points)`. The early route
      geometry, with the straight-line fallback when it is empty, is computed and then replaced
      by the list the movement loop fills. */
  function ParseRoute(route: Json, source: Point, target: Point, intermediate: seq<Point>,
                      parse: FloatParser, show: Json -> string): Option<Route>
  {
    if !route.Obj? then None
    else match Prelude(route, parse, show)
      case None => None
      case Some(pre) =>
        var discarded := if pre.1 == [] then FallbackGeometry(source, target, intermediate) else pre.1;
        Finish(route, pre.0, pre.2, parse, show)
  }

  /** The loop's result has one movement per input movement that is not a finish marker, and
      its geometry is exactly the concatenation of those movements' segment geometries. */
  lemma FinishShape(route: Json, chain: string, ms: seq<Json>, parse: FloatParser, show: Json -> string)
    requires route.Obj? && Finish(route, chain, ms, parse, show).Some?
    ensures var r := Finish(route, chain, ms, parse, show).value;
      |r.movements| == Kept(ms) && r.geometry == Geometries(r.movements) && r.chain == chain
  {
    var infos := LevelRoutes(Get(route, "routes", Arr([])));
    RouteStepFacts(infos, parse, show);
    ScanDetails(ms, Scan([], [], 0), RouteStep(infos, parse, show));
  }

  /** A parsed route has one movement per input movement that is not a finish marker, its
      geometry is exactly the concatenation of those movements' segment geometries, and the
      endpoints (and so the fallback line) play no part in the result. */
  lemma ParseRouteShape(route: Json, source: Point, target: Point, intermediate: seq<Point>,
                        source': Point, target': Point, intermediate': seq<Point>,
                        parse: FloatParser, show: Json -> string)
    requires route.Obj? && Get(route, "movements", Arr([])).Arr?
    requires ParseRoute(route, source, target, intermediate, parse, show).Some?
    ensures var r := ParseRoute(route, source, target, intermediate, parse, show).value;
      |r.movements| == Kept(Get(route, "movements", Arr([])).items)
      && r.geometry == Geometries(r.movements)
      && ParseRoute(route, source', target', intermediate', parse, show) == Some(r)
  {
    var pre := Prelude(route, parse, show).value;
    assert ParseRoute(route, source, target, intermediate, parse, show) == Finish(route, pre.0, pre.2, parse, show);
    assert ParseRoute(route, source', target', intermediate', parse, show) == Finish(route, pre.0, pre.2, parse, show);
    PreludeMovements(route, parse, show);
    FinishShape(route, pre.0, pre.2, parse, show);
  }

  /** The prelude hands on the movement list as it is. */
  lemma PreludeMovements(route: Json, parse: FloatParser, show: Json -> string)
    requires route.Obj? && Get(route, "movements", Arr([])).Arr? && Prelude(route, parse, show).Some?
    ensures Prelude(route, parse, show).value.2 == Get(route, "movements", Arr([])).items
  {
  }

  /** The movement loop and the chain skip the same walkways: for a movement the chain can read,
      the loop drops it exactly when it is a walkway the chain leaves out. */
  lemma SkipAgreement(m: Json, show: Json -> string)
    requires m.Obj? && ChainLabel(m, show).Some?
    ensures RouteSkips(m) <==> (MovementType(m) == Str("walkway") && ChainLabel(m, show) == Some(None))
  {
  }

  /** The info index the movement loop ends with: one step per passage, capped at the number of
      route-level infos; infos that cannot be indexed let the loop through only when there is
      no passage. */
  lemma RouteInfoIndex(route: Json, ms: seq<Json>, parse: FloatParser, show: Json -> string)
    requires route.Obj?
    ensures var infos := LevelRoutes(Get(route, "routes", Arr([])));
      var r := ScanAll(ms, Scan([], [], 0), RouteStep(infos, parse, show));
      r.Some? ==>
        (infos.Some? ==> r.value.index == Min(Passages(ms), |infos.value|))
        && (infos.None? ==> Passages(ms) == 0)
  {
    var infos := LevelRoutes(Get(route, "routes", Arr([])));
    RouteStepFacts(infos, parse, show);
    if infos.Some? {
      ScanIndex(ms, Scan([], [], 0), RouteStep(infos, parse, show), |infos.value|);
    } else {
      ScanNoInfos(ms, Scan([], [], 0), RouteStep(infos, parse, show));
    }
  }

  // ---------------------------------------------------------------------------------------
  // `get_public_transport_route`
  // ---------------------------------------------------------------------------------------

  const DefaultTransport: seq<string> := ["metro", "bus", "trolleybus", "tram"]

  /** `{"lat": point[1], "lon": point[0]}` for a `(lon, lat)` point. */
  function PointJson(p: Point): Json
  {
    Obj([("lat", Float(p.lat)), ("lon", Float(p.lon))])
  }

  function Place(p: Point, name: string): Json
  {
    Obj([("point", PointJson(p)), ("name", Str(name))])
  }

  function Strs(xs: seq<string>): (r: seq<Json>)
    ensures |r| == |xs| && forall i :: 0 <= i < |xs| ==> r[i] == Str(xs[i])
  {
    seq(|xs|, i requires 0 <= i < |xs| => Str(xs[i]))
  }

  function Places(stops: seq<(Point, string)>): (r: seq<Json>)
    ensures |r| == |stops|
  {
    seq(|stops|, i requires 0 <= i < |stops| => Place(stops[i].0, stops[i].1))
  }

  /** The request body. */
  function Payload(source: Point, target: Point, sourceName: string, targetName: string,
                   transport: Option<seq<string>>, locale: string,
                   intermediate: seq<(Point, string)>, pedestrian: bool): Json
  {
    var types := if transport.None? then DefaultTransport else transport.value;
    Obj(PayloadHead(source, target, sourceName, targetName, types, locale) + PayloadTail(intermediate, pedestrian))
  }

  lemma {:induction false} LookupMiss(fields: seq<(string, Json)>, extra: seq<(string, Json)>, key: string)
    requires forall i :: 0 <= i < |extra| ==> extra[i].0 != key
    ensures Lookup(fields + extra, key) == Lookup(fields, key)
    decreases |extra|
  {
    if |extra| > 0 {
      var n := |extra| - 1;
      var all := fields + extra;
      assert all[|all| - 1] == extra[n];
      assert all[..|all| - 1] == fields + extra[..n];
      assert all[|all| - 1].0 != key;
      assert Lookup(all, key) == Lookup(all[..|all| - 1], key);
      LookupMiss(fields, extra[..n], key);
    } else {
      assert fields + extra == fields;
    }
  }

  lemma {:induction false} LookupHit(fields: seq<(string, Json)>, key: string, v: Json, extra: seq<(string, Json)>)
    requires forall i :: 0 <= i < |extra| ==> extra[i].0 != key
    ensures Lookup(fields + [(key, v)] + extra, key) == Some(v)
  {
    LookupMiss(fields + [(key, v)], extra, key);
  }

  /** The fixed head of the request body. */
  function PayloadHead(source: Point, target: Point, sourceName: string, targetName: string,
                       types: seq<string>, locale: string): seq<(string, Json)>
  {
    [("source", Place(source, sourceName)), ("target", Place(target, targetName)),
     ("transport", Arr(Strs(types))), ("locale", Str(locale)), ("enable_schedule", Bool(true))]
  }

  /** The optional tail of the request body. */
  function PayloadTail(intermediate: seq<(Point, string)>, pedestrian: bool): seq<(string, Json)>
  {
    (if |intermediate| > 0 then [("intermediate_points", Arr(Places(intermediate)))] else [])
    + (if pedestrian then [("options", Arr([Str("pedestrian_instructions")]))] else [])
  }

  lemma PayloadParts(source: Point, target: Point, sourceName: string, targetName: string,
                     transport: Option<seq<string>>, locale: string,
                     intermediate: seq<(Point, string)>, pedestrian: bool)
    ensures Payload(source, target, sourceName, targetName, transport, locale, intermediate, pedestrian).fields
      == PayloadHead(source, target, sourceName, targetName, if transport.None? then DefaultTransport else transport.value, locale)
         + PayloadTail(intermediate, pedestrian)
  {
  }

  /** The head keys are not in the optional tail. */
  lemma TailKeys(intermediate: seq<(Point, string)>, pedestrian: bool)
    ensures var t := PayloadTail(intermediate, pedestrian);
      forall i :: 0 <= i < |t| ==> t[i].0 in {"intermediate_points", "options"}
  {
  }

  lemma HeadLookup(source: Point, target: Point, sourceName: string, targetName: string,
                    types: seq<string>, locale: string)
    ensures var head := PayloadHead(source, target, sourceName, targetName, types, locale);
      Lookup(head, "source") == Some(Place(source, sourceName))
      && Lookup(head, "target") == Some(Place(target, targetName))
      && Lookup(head, "transport") == Some(Arr(Strs(types)))
  {
    var head := PayloadHead(source, target, sourceName, targetName, types, locale);
    LookupHit([], "source", head[0].1, head[1..]);
    assert [] + [head[0]] + head[1..] == head;
    LookupHit(head[..1], "target", head[1].1, head[2..]);
    assert head[..1] + [head[1]] + head[2..] == head;
    LookupHit(head[..2], "transport", head[2].1, head[3..]);
    assert head[..2] + [head[2]] + head[3..] == head;
  }

  /** Each endpoint reads back as `lat`/`lon` of its `(lon, lat)` point, and the transports as
      given, or the default list exactly when none are given. */
  lemma PayloadEndpoints(source: Point, target: Point, sourceName: string, targetName: string,
                         transport: Option<seq<string>>, locale: string,
                         intermediate: seq<(Point, string)>, pedestrian: bool)
    ensures var p := Payload(source, target, sourceName, targetName, transport, locale, intermediate, pedestrian);
      Get(p, "source", Null) == Obj([("point", Obj([("lat", Float(source.lat)), ("lon", Float(source.lon))])), ("name", Str(sourceName))])
      && Get(p, "target", Null) == Obj([("point", Obj([("lat", Float(target.lat)), ("lon", Float(target.lon))])), ("name", Str(targetName))])
      && Get(p, "transport", Null) == Arr(Strs(if transport.None? then DefaultTransport else transport.value))
  {
    var types := if transport.None? then DefaultTransport else transport.value;
    var head := PayloadHead(source, target, sourceName, targetName, types, locale);
    var tail := PayloadTail(intermediate, pedestrian);
    PayloadParts(source, target, sourceName, targetName, transport, locale, intermediate, pedestrian);
    TailKeys(intermediate, pedestrian);
    LookupMiss(head, tail, "source");
    LookupMiss(head, tail, "target");
    LookupMiss(head, tail, "transport");
    HeadLookup(source, target, sourceName, targetName, types, locale);
  }

  /** Keys outside the head are looked up in the tail alone. */
  lemma {:induction false} LookupTail(head: seq<(string, Json)>, tail: seq<(string, Json)>, key: string)
    requires forall i :: 0 <= i < |head| ==> head[i].0 != key
    ensures Lookup(head + tail, key) == Lookup(tail, key)
    decreases |tail|
  {
    var all := head + tail;
    if |tail| == 0 {
      assert all == head;
      assert Lookup(head, key).None?;
    } else {
      var n := |tail| - 1;
      assert all[|all| - 1] == tail[n];
      assert all[..|all| - 1] == head + tail[..n];
      LookupTail(head, tail[..n], key);
    }
  }

  /** The intermediate points and the options appear only when asked for. */
  lemma PayloadOptional(source: Point, target: Point, sourceName: string, targetName: string,
                        transport: Option<seq<string>>, locale: string,
                        intermediate: seq<(Point, string)>, pedestrian: bool)
    ensures var p := Payload(source, target, sourceName, targetName, transport, locale, intermediate, pedestrian);
      (Has(p, "intermediate_points") <==> |intermediate| > 0) && (Has(p, "options") <==> pedestrian)
  {
    var types := if transport.None? then DefaultTransport else transport.value;
    var head := PayloadHead(source, target, sourceName, targetName, types, locale);
    var tail := PayloadTail(intermediate, pedestrian);
    assert forall i :: 0 <= i < |head| ==> |head[i].0| != 19 && |head[i].0| != 7;
    LookupTail(head, tail, "intermediate_points");
    LookupTail(head, tail, "options");
    TailOptional(intermediate, pedestrian);
  }

  lemma TailOptional(intermediate: seq<(Point, string)>, pedestrian: bool)
    ensures var t := PayloadTail(intermediate, pedestrian);
      (Lookup(t, "intermediate_points").Some? <==> |intermediate| > 0)
      && (Lookup(t, "options").Some? <==> pedestrian)
  {
  }

  /** How the request ended. */
  datatype Http =
    | Status(code: int, message: string)   // a non-2xx status
    | Failed(message: string)              // any other exception before a decoded body
    | Body(data: Json)                     // the decoded reply

  /** The dict `get_public_transport_route` returns. */
  datatype Reply =
    | Failure(error: string, details: Option<Json>)
    | Found(source: string, target: string, routes: seq<Route>, alternatives: nat)

  /** `str(type(v))`. */
  function TypeName(j: Json): string
  {
    match j
      case Null => "<class 'NoneType'>"
      case Bool(_) => "<class 'bool'>"
      case Int(_) => "<class 'int'>"
      case Float(_) => "<class 'float'>"
      case Str(_) => "<class 'str'>"
      case Arr(_) => "<class 'list'>"
      case Obj(_) => "<class 'dict'>"
  }

  /** The text of an error reply: the first truthy of `error_message` and `message`, else the
      whole dict. */
  function ErrorText(data: Json, show: Json -> string): string
    requires data.Obj?
  {
    var a := Get(data, "error_message", Null);
    var b := Get(data, "message", Null);
    Display(if Truthy(a) then a else if Truthy(b) then b else data, show)
  }

  /** `_parse_route` for each alternative, in order. */
  function ParseAll(routes: seq<Json>, source: Point, target: Point, intermediate: seq<Point>,
                    parse: FloatParser, show: Json -> string): (r: Option<seq<Route>>)
    ensures r.Some? ==> |r.value| == |routes|
    decreases |routes|
  {
    if |routes| == 0 then Some([])
    else match (ParseRoute(routes[0], source, target, intermediate, parse, show),
                ParseAll(routes[1..], source, target, intermediate, parse, show))
      case (Some(x), Some(xs)) => Some([x] + xs)
      case _ => None
  }

  /** `get_public_transport_route(...)` once the request has ended as `http`; `raised` is the
      text of an exception the parsing raises. */
  function GetRoute(apiKey: string, http: Http, source: Point, target: Point,
                    sourceName: string, targetName: string, intermediate: seq<(Point, string)>,
                    parse: FloatParser, show: Json -> string, raised: string): (r: Reply)
    ensures apiKey == [] ==> r == Failure("GIS_API_KEY not configured", None)
    ensures r.Found? ==>
      http.Body? && http.data.Arr? && r.alternatives == |http.data.items| == |r.routes| > 0
      && r.source == sourceName && r.target == targetName
    ensures apiKey != [] && http == Body(Arr([])) ==>
      r == Failure("No public transport routes found for this route", None)
  {
    if apiKey == [] then Failure("GIS_API_KEY not configured", None)
    else match http
      case Status(code, message) => Failure("HTTP error " + Numerals.IntToString(code), Some(Str(message)))
      case Failed(message) => Failure("Public transport API error: " + message, Some(Str(message)))
      case Body(data) => ReadBody(data, source, target, sourceName, targetName, intermediate, parse, show, raised)
  }

  /** What `get_public_transport_route` makes of a decoded reply body. */
  function ReadBody(data: Json, source: Point, target: Point, sourceName: string, targetName: string,
                    intermediate: seq<(Point, string)>, parse: FloatParser, show: Json -> string, raised: string): (r: Reply)
    ensures r.Found? ==>
      data.Arr? && r.alternatives == |data.items| == |r.routes| > 0
      && r.source == sourceName && r.target == targetName
    ensures data == Arr([]) ==> r == Failure("No public transport routes found for this route", None)
  {
    if data.Obj? && (Has(data, "error") || Has(data, "error_code")) then
      Failure("API error: " + ErrorText(data, show), Some(data))
    else if !data.Arr? then Failure("Unexpected response format: " + TypeName(data), Some(data))
    else if data.items == [] then Failure("No public transport routes found for this route", None)
    else
      var stops := seq(|intermediate|, i requires 0 <= i < |intermediate| => intermediate[i].0);
      match ParseAll(data.items, source, target, stops, parse, show)
        case None => Failure("Public transport API error: " + raised, Some(Str(raised)))
        case Some(routes) => Found(sourceName, targetName, routes, |data.items|)
  }
}

=== FILE: pt_demo.dfy ===
/** The helpers of the public transport demo script
    (`public_transport_experiments/public_transport_api_demo.py`): its duration formatter, its
    journey chain, the per-route details it prints, and the choice of a scenario to run.

    The chain labels are written in the script with emoji that the file stores mis-encoded
    (UTF-8 read as Mac Roman); the model keeps the characters exactly as the file has them. */
module PtDemo {
  import opened Wrappers
  import opened Text
  import opened Json
  import opened Numerals
  import opened Movements

  // ---------------------------------------------------------------------------------------
  // `format_duration`: whole minutes, rounded down
  // ---------------------------------------------------------------------------------------

  function FormatDuration(seconds: int): (r: string)
  {
    if seconds < 60 then IntToString(seconds) + " sec"
    else
      var minutes := seconds / 60;
      if minutes < 60 then NatToString(minutes) + " min"
      else
        var hours := minutes / 60;
        var rest := minutes % 60;
        if rest == 0 then NatToString(hours) + "h"
        else NatToString(hours) + "h " + NatToString(rest) + "min"
  }

  /** Below a minute the seconds are shown; below an hour the whole minutes, rounded down; from
      an hour on the hours and, when not zero, the minutes past the hour. */
  lemma FormatDurationCases(seconds: int)
    ensures seconds < 60 ==> FormatDuration(seconds) == IntToString(seconds) + " sec"
    ensures 60 <= seconds < 3600 ==>
      exists m: nat :: m * 60 <= seconds < m * 60 + 60 && 1 <= m < 60 && FormatDuration(seconds) == NatToString(m) + " min"
    ensures seconds >= 3600 ==>
      var h := seconds / 3600;
      var m := (seconds % 3600) / 60;
      h >= 1 && m < 60 && h * 3600 + m * 60 <= seconds < h * 3600 + m * 60 + 60
      && FormatDuration(seconds) == NatToString(h) + "h" + (if m == 0 then "" else " " + NatToString(m) + "min")
  {
    if 60 <= seconds < 3600 {
      var m := seconds / 60;
      assert m * 60 <= seconds < m * 60 + 60 && 1 <= m < 60;
      assert FormatDuration(seconds) == NatToString(m) + " min";
    } else if seconds >= 3600 {
      var minutes := seconds / 60;
      assert minutes / 60 == seconds / 3600;
      assert minutes % 60 == (seconds % 3600) / 60;
    }
  }

  // ---------------------------------------------------------------------------------------
  // `extract_transport_chain`
  // ---------------------------------------------------------------------------------------

  const Arrow := " \U{201A}\U{00DC}\U{00ED} "
  const WalkLabel := "\U{F8FF}\U{00FC}\U{00F6}\U{2202} Walk"
  const TransferLabel := "\U{F8FF}\U{00FC}\U{00EE}\U{00D1} Transfer"
  const TransitLabel := "\U{F8FF}\U{00FC}\U{00F6}\U{00E7} Transit"
  const MetroEmoji := "\U{F8FF}\U{00FC}\U{00F6}\U{00E1}"
  const OtherEmoji := "\U{F8FF}\U{00FC}\U{00F6}\U{00E7}"

  /** The script's `transport_map`. */
  const TransportEmoji: seq<(string, string)> := [
    ("bus", "\U{F8FF}\U{00FC}\U{00F6}\U{00E5}"),
    ("trolleybus", "\U{F8FF}\U{00FC}\U{00F6}\U{00E9}"),
    ("tram", "\U{F8FF}\U{00FC}\U{00F6}\U{00C9}"),
    ("shuttle_bus", "\U{F8FF}\U{00FC}\U{00F6}\U{00EA}"),
    ("metro", MetroEmoji),
    ("suburban_train", "\U{F8FF}\U{00FC}\U{00F6}\U{00DC}"),
    ("funicular", "\U{F8FF}\U{00FC}\U{00F6}\U{00B0}"),
    ("monorail", "\U{F8FF}\U{00FC}\U{00F6}\U{00F9}"),
    ("river_transport", "\U{201A}\U{00F5}\U{00A5}\U{00D4}\U{220F}\U{00E8}")]

  /** `transport_map.get(transport_type, ...)`; a list or dict is unhashable and raises. */
  function Emoji(transportType: Json): Option<string>
  {
    if transportType.Arr? || transportType.Obj? then None
    else if transportType.Str? then
      match Lookup(seq(|TransportEmoji|, i requires 0 <= i < |TransportEmoji| =>
                       (TransportEmoji[i].0, Str(TransportEmoji[i].1))), transportType.s)
        case Some(Str(e)) => Some(e)
        case _ => Some(OtherEmoji)
    else Some(OtherEmoji)
  }

  /** `movement.get("type", "unknown")`. */
  function TypeOf(m: Json): Json
    requires m.Obj?
  {
    Get(m, "type", Str("unknown"))
  }

  /** The first entry of a truthy list, which must be a dict; `None` where Python raises. */
  function FirstDict(j: Json): Option<Json>
    requires Truthy(j)
  {
    if j.Arr? && j.items[0].Obj? then Some(j.items[0]) else None
  }

  /** The label of a passage: the metro line, else the first route, else plain transit. */
  function PassageLabel(m: Json, show: Json -> string): Option<string>
    requires m.Obj?
  {
    var metro := Get(m, "metro", Obj([]));
    if Truthy(metro) then
      if metro.Obj? then Some(MetroEmoji + " " + Display(Get(metro, "line_name", Str("Metro")), show)) else None
    else
      var routes := Get(m, "routes", Arr([]));
      if !Truthy(routes) then Some(TransitLabel)
      else match FirstDict(routes)
        case None => None
        case Some(info) =>
          var kind := Get(info, "type", Str("transit"));
          var name := Get(info, "name", Str(""));
          match Emoji(kind)
            case None => None
            case Some(emoji) =>
              if Truthy(name) then Some(emoji + " " + Display(name, show))
              else if kind.Str? then Some(emoji + " " + Title(kind.s))
              else None
  }

  /** Whether a movement gets a label: a walkway other than a finish marker, a passage, or a
      transfer. */
  predicate Labelled(m: Json)
  {
    m.Obj? && ((TypeOf(m) == Str("walkway") && !IsFinish(m)) || TypeOf(m) == Str("passage") || TypeOf(m) == Str("transfer"))
  }

  /** The label of one movement: `Some(None)` when it is skipped, `None` where Python raises. */
  function ChainLabel(m: Json, show: Json -> string): (r: Option<Option<string>>)
    ensures r.Some? ==> (r.value.Some? <==> Labelled(m))
  {
    if !m.Obj? then None
    else
      var kind := TypeOf(m);
      if kind == Str("walkway") then
        if !WaypointOf(m).Obj? then None
        else if IsFinish(m) then Some(None)
        else Some(Some(WalkLabel))
      else if kind == Str("passage") then
        match PassageLabel(m, show)
          case None => None
          case Some(shown) => Some(Some(shown))
      else if kind == Str("transfer") then Some(Some(TransferLabel))
      else Some(None)
  }

  function Labels(ms: seq<Json>, show: Json -> string): Option<seq<string>>
    decreases |ms|
  {
    if |ms| == 0 then Some([])
    else match ChainLabel(ms[0], show)
      case None => None
      case Some(here) =>
        match Labels(ms[1..], show)
          case None => None
          case Some(rest) => Some((if here.Some? then [here.value] else []) + rest)
  }

  function LabelledCount(ms: seq<Json>): nat
    decreases |ms|
  {
    if |ms| == 0 then 0 else (if Labelled(ms[0]) then 1 else 0) + LabelledCount(ms[1..])
  }

  lemma {:induction false} LabelsCount(ms: seq<Json>, show: Json -> string)
    requires Labels(ms, show).Some?
    ensures |Labels(ms, show).value| == LabelledCount(ms)
    decreases |ms|
  {
    if |ms| > 0 {
      LabelsCount(ms[1..], show);
    }
  }

  /** `extract_transport_chain(movements)`; `None` where Python raises. */
  function TransportChain(movements: Json, show: Json -> string): Option<string>
  {
    if !Truthy(movements) then Some("No movements")
    else match Iterate(movements)
      case None => None
      case Some(ms) =>
        match Labels(ms, show)
          case None => None
          case Some(labels) => Some(if labels == [] then "Walking only" else Join(labels, Arrow))
  }

  /** Nothing to show is "No movements"; only skipped movements is "Walking only"; otherwise
      one label per labelled movement, joined with arrows. */
  lemma ChainCases(movements: Json, show: Json -> string)
    requires TransportChain(movements, show).Some?
    ensures !Truthy(movements) ==> TransportChain(movements, show) == Some("No movements")
    ensures Truthy(movements) ==> Iterate(movements).Some? && Labels(Iterate(movements).value, show).Some?
    ensures Truthy(movements) && LabelledCount(Iterate(movements).value) == 0 ==>
      TransportChain(movements, show) == Some("Walking only")
    ensures Truthy(movements) && LabelledCount(Iterate(movements).value) > 0 ==>
      var labels := Labels(Iterate(movements).value, show).value;
      |labels| == LabelledCount(Iterate(movements).value) && TransportChain(movements, show) == Some(Join(labels, Arrow))
  {
    if Truthy(movements) {
      LabelsCount(Iterate(movements).value, show);
    }
  }

  // ---------------------------------------------------------------------------------------
  // `parse_route_details`
  // ---------------------------------------------------------------------------------------

  /** One entry of `movement_details`. */
  datatype Detail = Detail(
    order: nat, kind: Json, duration: Json, distance: Json,
    routeName: Option<Json>, transportType: Option<Json>, direction: Option<Json>,
    stopsCount: Option<nat>, from: Option<Json>)

  datatype Details = Details(
    totalDuration: Json, totalDistance: Json, walkingDuration: Json, transferCount: Json,
    chain: string, movementCount: nat, movements: seq<Detail>)

  /** `len(platforms) if platforms else 0` for the first alternative, or 0 without
      alternatives; `None` where Python raises. */
  function StopsCount(m: Json): (r: Option<nat>)
    requires m.Obj?
    ensures !Truthy(Get(m, "alternatives", Arr([]))) ==> r == Some(0)
    ensures r.Some? && r.value > 0 ==>
      var alternatives := Get(m, "alternatives", Arr([]));
      alternatives.Arr? && |alternatives.items| > 0 && alternatives.items[0].Obj?
      && var platforms := Get(alternatives.items[0], "platforms", Arr([]));
      (platforms.Arr? || platforms.Str? || platforms.Obj?) && r.value == Len(platforms)
  {
    var alternatives := Get(m, "alternatives", Arr([]));
    if !Truthy(alternatives) then Some(0)
    else match FirstDict(alternatives)
      case None => None
      case Some(first) =>
        var platforms := Get(first, "platforms", Arr([]));
        if !Truthy(platforms) then Some(0)
        else if platforms.Arr? || platforms.Str? || platforms.Obj? then Some(Len(platforms))
        else None
  }

  /** The route fields of a passage: from the metro line, else from the first route, else none;
      `None` where Python raises. */
  function PassageInfo(m: Json): Option<(Option<Json>, Option<Json>, Option<Json>)>
    requires m.Obj?
  {
    var metro := Get(m, "metro", Obj([]));
    if Truthy(metro) then
      if metro.Obj? then
        Some((Some(Get(metro, "line_name", Str("Metro"))), Some(Str("metro")),
              Some(Get(metro, "ui_direction_suggest", Str("")))))
      else None
    else
      var routes := Get(m, "routes", Arr([]));
      if !Truthy(routes) then Some((None, None, None))
      else match FirstDict(routes)
        case None => None
        case Some(info) => Some((Some(Get(info, "name", Str("N/A"))), Some(Get(info, "type", Str("N/A"))), None))
  }

  /** The detail of one movement numbered `order`: `Some(None)` for a skipped finish marker,
      `None` where Python raises. */
  function DetailOf(m: Json, order: nat): (r: Option<Option<Detail>>)
    ensures r.Some? ==> m.Obj? && (r.value.None? <==> IsFinish(m))
    ensures r.Some? && r.value.Some? ==> r.value.value.order == order && r.value.value.kind == TypeOf(m)
    ensures r.Some? && r.value.Some? ==> (r.value.value.stopsCount.Some? <==> TypeOf(m) == Str("passage"))
    ensures r.Some? && r.value.Some? && r.value.value.stopsCount.Some? ==> StopsCount(m) == r.value.value.stopsCount
  {
    if !m.Obj? then None
    else
      var kind := TypeOf(m);
      var waypoint := WaypointOf(m);
      if !waypoint.Obj? then None
      else if IsFinish(m) then Some(None)
      else
        var from := if Truthy(waypoint) then Some(Get(waypoint, "name", Str("Unknown"))) else None;
        if kind == Str("passage") then
          match (PassageInfo(m), StopsCount(m))
            case (Some(info), Some(stops)) =>
              Some(Some(Detail(order, kind, Moving(m), Distance(m), info.0, info.1, info.2, Some(stops), from)))
            case _ => None
        else Some(Some(Detail(order, kind, Moving(m), Distance(m), None, None, None, None, from)))
  }

  /** Finish markers among the movements. */
  function FinishCount(ms: seq<Json>): (r: nat)
    ensures r <= |ms|
    decreases |ms|
  {
    if |ms| == 0 then 0 else (if IsFinish(ms[0]) then 1 else 0) + FinishCount(ms[1..])
  }

  /** The loop of `parse_route_details`, with the details found so far in `acc`. */
  function DetailsFrom(ms: seq<Json>, acc: seq<Detail>): Option<seq<Detail>>
    decreases |ms|
  {
    if |ms| == 0 then Some(acc)
    else match DetailOf(ms[0], |acc| + 1)
      case None => None
      case Some(None) => DetailsFrom(ms[1..], acc)
      case Some(Some(d)) => DetailsFrom(ms[1..], acc + [d])
  }

  predicate Numbered(ds: seq<Detail>)
  {
    forall i :: 0 <= i < |ds| ==> ds[i].order == i + 1
  }

  /** The details are numbered 1, 2, ... in order, one per movement that is not a finish
      marker. */
  lemma {:induction false} DetailsFromFacts(ms: seq<Json>, acc: seq<Detail>)
    requires Numbered(acc) && DetailsFrom(ms, acc).Some?
    ensures Numbered(DetailsFrom(ms, acc).value)
    ensures |DetailsFrom(ms, acc).value| == |acc| + |ms| - FinishCount(ms)
    ensures DetailsFrom(ms, acc).value[..|acc|] == acc
    decreases |ms|
  {
    if |ms| > 0 {
      match DetailOf(ms[0], |acc| + 1)
        case Some(None) =>
          DetailsFromFacts(ms[1..], acc);
        case Some(Some(d)) =>
          assert Numbered(acc + [d]);
          DetailsFromFacts(ms[1..], acc + [d]);
          var r := DetailsFrom(ms, acc).value;
          assert r[..|acc| + 1] == acc + [d];
          assert r[..|acc|] == (acc + [d])[..|acc|];
    }
  }

  /** `parse_route_details(route)`; `None` where Python raises. */
  function ParseRouteDetails(route: Json, show: Json -> string): Option<Details>
  {
    if !route.Obj? then None
    else
      var movements := Get(route, "movements", Arr([]));
      match TransportChain(movements, show)
        case None => None
        case Some(chain) =>
          match Iterate(movements)
            case None => None
            case Some(ms) =>
              match DetailsFrom(ms, [])
                case None => None
                case Some(ds) =>
                  Some(Details(Get(route, "total_duration", Int(0)), Get(route, "total_distance", Int(0)),
                               Get(route, "walking_duration", Int(0)), Get(route, "transfer_count", Int(0)),
                               chain, |ds|, ds))
  }

  /** The details are numbered exactly 1..k, and k, the movement count, is the number of
      movements less the finish markers. */
  lemma RouteDetailsFacts(route: Json, show: Json -> string)
    requires ParseRouteDetails(route, show).Some?
    ensures route.Obj? && Iterate(Get(route, "movements", Arr([]))).Some?
    ensures var r := ParseRouteDetails(route, show).value;
      var ms := Iterate(Get(route, "movements", Arr([]))).value;
      r.movementCount == |r.movements| == |ms| - FinishCount(ms)
      && forall i :: 0 <= i < |r.movements| ==> r.movements[i].order == i + 1
  {
    var ms := Iterate(Get(route, "movements", Arr([]))).value;
    DetailsFromFacts(ms, []);
  }

  // ---------------------------------------------------------------------------------------
  // `run_single_scenario`
  // ---------------------------------------------------------------------------------------

  const Scenarios := ["A", "B", "C", "D", "E", "F"]

  /** The scenario `run_single_scenario(code)` runs, or `None` when it only reports the code as
      unknown. */
  function ScenarioToRun(code: string): (r: Option<string>)
    ensures r.Some? ==> r.value in Scenarios && r.value == Upper(code)
    ensures r.None? ==> Upper(code) !in Scenarios
  {
    var key := Upper(code);
    if key in Scenarios then Some(key) else None
  }

  /** The code is read without regard to case. */
  lemma ScenarioCaseInsensitive(code: string)
    ensures ScenarioToRun(Lower(code)) == ScenarioToRun(code)
    ensures ScenarioToRun(Upper(code)) == ScenarioToRun(code)
  {
    CaseIdempotent(code);
  }
}

=== FILE: pt_options.dfy ===
/** `parse_route_options` of the refined public transport probe: the route options of a 2GIS
    public transport reply, numbered, with their legs, transfers and distinct transport types. */
module PtOptions {
  import opened Wrappers
  import opened Json
  import opened Movements

  /** The public transport part of a leg. */
  datatype Ride = Ride(routeName: Json, routeType: Json, fromStop: Json, toStop: Json)

  /** One entry of `legs`; `ride` is present exactly for public transport legs. */
  datatype Leg = Leg(kind: Json, minutes: real, km: real, ride: Option<Ride>)

  datatype RouteOption = RouteOption(
    number: nat, totalMinutes: real, totalKm: real, walkingMinutes: real,
    transfers: nat, types: seq<Json>, legs: seq<Leg>)

  const PublicTransport := Str("public_transport")

  /** `v / d` rounded to `n` places, for a number `v`; `None` where the division raises. */
  function Scaled(v: Json, d: real, n: int, round: Rounder): Option<real>
    requires d != 0.0
  {
    if IsNumber(v) then Some(round(NumValue(v) / d, n)) else None
  }

  /** `leg.get("type") == "public_transport"`. */
  predicate IsRide(leg: Json)
    requires leg.Obj?
  {
    Get(leg, "type", Null) == PublicTransport
  }

  /** One leg; `None` where Python raises (a non-number duration or distance, a route,
      departure or arrival that is not a dict). */
  function LegOf(leg: Json, round: Rounder): (r: Option<Leg>)
    requires leg.Obj?
    ensures r.Some? ==> r.value.kind == Get(leg, "type", Str("unknown"))
    ensures r.Some? ==> (r.value.ride.Some? <==> IsRide(leg))
    ensures r.Some? && r.value.ride.Some? ==>
      var info := Get(leg, "route", Obj([]));
      info.Obj? && r.value.ride.value.routeType == Get(info, "type", Str(""))
  {
    match (Scaled(Get(leg, "duration", Int(0)), 60.0, 1, round), Scaled(Get(leg, "distance", Int(0)), 1000.0, 2, round))
      case (Some(minutes), Some(km)) =>
        var kind := Get(leg, "type", Str("unknown"));
        if !IsRide(leg) then Some(Leg(kind, minutes, km, None))
        else
          var info := Get(leg, "route", Obj([]));
          var departure := Get(leg, "departure", Obj([]));
          var arrival := Get(leg, "arrival", Obj([]));
          if info.Obj? && departure.Obj? && arrival.Obj? then
            Some(Leg(kind, minutes, km, Some(Ride(Get(info, "name", Str("")), Get(info, "type", Str("")),
                                                 Get(departure, "stop_name", Str("")), Get(arrival, "stop_name", Str(""))))))
          else None
      case _ => None
  }

  /** Every leg, in order; `None` if any raises. */
  function Legs(ls: seq<Json>, round: Rounder): (r: Option<seq<Leg>>)
    requires forall i :: 0 <= i < |ls| ==> ls[i].Obj?
    ensures r.Some? ==> |r.value| == |ls|
    ensures r.Some? ==> forall i :: 0 <= i < |ls| ==> LegOf(ls[i], round) == Some(r.value[i])
    decreases |ls|
  {
    if |ls| == 0 then Some([])
    else
      match (Legs(ls[..|ls| - 1], round), LegOf(ls[|ls| - 1], round))
        case (Some(front), Some(last)) =>
          assert forall i :: 0 <= i < |ls| - 1 ==> ls[..|ls| - 1][i] == ls[i];
          Some(front + [last])
        case _ => None
  }

  /** The number of legs whose type is "public_transport". */
  function RideCount(ls: seq<Json>): nat
    requires forall i :: 0 <= i < |ls| ==> ls[i].Obj?
    decreases |ls|
  {
    if |ls| == 0 then 0 else RideCount(ls[..|ls| - 1]) + (if IsRide(ls[|ls| - 1]) then 1 else 0)
  }

  /** The route types of the public transport legs that are not empty, in leg order. */
  function RideTypes(legs: seq<Leg>): seq<Json>
    decreases |legs|
  {
    if |legs| == 0 then []
    else
      var last := legs[|legs| - 1];
      RideTypes(legs[..|legs| - 1])
      + (if last.ride.Some? && Truthy(last.ride.value.routeType) then [last.ride.value.routeType] else [])
  }

  /** `transport_types` as the loop builds it: a truthy route type is appended unless already
      present. */
  function Types(legs: seq<Leg>): seq<Json>
    decreases |legs|
  {
    if |legs| == 0 then []
    else
      var front := Types(legs[..|legs| - 1]);
      var last := legs[|legs| - 1];
      if last.ride.Some? && Truthy(last.ride.value.routeType) && last.ride.value.routeType !in front
      then front + [last.ride.value.routeType]
      else front
  }

  /** The list the loop builds is the route types of the rides with the repeats removed, each
      kept at its first occurrence. */
  lemma {:induction false} TypesDistinct(legs: seq<Leg>)
    ensures Types(legs) == Distinct(RideTypes(legs))
    decreases |legs|
  {
    if |legs| > 0 {
      var front := legs[..|legs| - 1];
      var last := legs[|legs| - 1];
      TypesDistinct(front);
      DistinctMembers(RideTypes(front));
      if last.ride.Some? && Truthy(last.ride.value.routeType) {
        var xs := RideTypes(legs);
        assert xs == RideTypes(front) + [last.ride.value.routeType];
        assert xs[..|xs| - 1] == RideTypes(front);
      } else {
        assert RideTypes(legs) == RideTypes(front);
      }
    }
  }

  /** One route as option number `number`; `None` where Python raises. */
  function OptionOf(route: Json, number: nat, round: Rounder): (r: Option<RouteOption>)
    ensures r.Some? ==> route.Obj? && r.value.number == number
    ensures r.Some? ==>
      var legs := Iterate(Get(route, "legs", Arr([])));
      legs.Some? && (forall i :: 0 <= i < |legs.value| ==> legs.value[i].Obj?)
      && |r.value.legs| == |legs.value|
      && r.value.transfers == (if RideCount(legs.value) == 0 then 0 else RideCount(legs.value) - 1)
  {
    if !route.Obj? then None
    else
      var total := Scaled(Get(route, "total_duration", Int(0)), 60.0, 1, round);
      var km := Scaled(Get(route, "total_distance", Int(0)), 1000.0, 2, round);
      var walking := Scaled(Get(route, "walking_duration", Int(0)), 60.0, 1, round);
      var ls := Iterate(Get(route, "legs", Arr([])));
      if total.None? || km.None? || walking.None? || ls.None? then None
      else if exists i :: 0 <= i < |ls.value| && !ls.value[i].Obj? then None
      else
        var rides := RideCount(ls.value);
        var legs := Legs(ls.value, round);
        if legs.None? then None
        else Some(RouteOption(number, total.value, km.value, walking.value, if rides == 0 then 0 else rides - 1,
                              Types(legs.value), legs.value))
  }

  /** Every route, numbered from 1 in input order; `None` if any raises. */
  function Options(routes: seq<Json>, round: Rounder): (r: Option<seq<RouteOption>>)
    ensures r.Some? <==> forall i :: 0 <= i < |routes| ==> OptionOf(routes[i], i + 1, round).Some?
    ensures r.Some? ==> |r.value| == |routes|
    ensures r.Some? ==> forall i :: 0 <= i < |routes| ==> OptionOf(routes[i], i + 1, round) == Some(r.value[i])
  {
    MapNumbered(routes, (route, number) => OptionOf(route, number, round))
  }

  /** The routes of `result`: a list as it is, any other truthy value as a list of one. */
  function RoutesOf(result: Json): (r: seq<Json>)
    ensures result.Arr? ==> r == result.items
    ensures !result.Arr? && Truthy(result) ==> r == [result]
    ensures !Truthy(result) ==> r == []
  {
    if result.Arr? then result.items else if Truthy(result) then [result] else []
  }

  /** `parse_route_options(data)`; `None` where Python raises. */
  function ParseRouteOptions(data: Json, round: Rounder): Option<seq<RouteOption>>
  {
    match PyIn("result", data)
      case None => None
      case Some(false) => Some([])
      case Some(true) =>
        if data.Obj? then Options(RoutesOf(Get(data, "result", Null)), round) else None
  }

  /** Without a "result" key there are no options; a single non-empty dict result is a list of
      one; options are numbered 1..n in the order of the routes. */
  lemma ParseRouteOptionsFacts(data: Json, round: Rounder)
    ensures data.Obj? && !Has(data, "result") ==> ParseRouteOptions(data, round) == Some([])
    ensures (ParseRouteOptions(data, round).Some? && data.Obj? && Has(data, "result")
             && Get(data, "result", Null).Obj? && Truthy(Get(data, "result", Null))) ==>
      |ParseRouteOptions(data, round).value| == 1
    ensures ParseRouteOptions(data, round).Some? ==>
      var opts := ParseRouteOptions(data, round).value;
      forall i :: 0 <= i < |opts| ==> opts[i].number == i + 1
  {
    match ParseRouteOptions(data, round)
      case None =>
      case Some(opts) =>
        if data.Obj? && Has(data, "result") {
          var routes := RoutesOf(Get(data, "result", Null));
          forall i | 0 <= i < |opts|
            ensures opts[i].number == i + 1
          {
            assert OptionOf(routes[i], i + 1, round) == Some(opts[i]);
          }
        }
  }

  /** The transport types of an option are the non-empty route types of its public transport
      legs, each once, in order of first appearance. */
  lemma OptionTypes(route: Json, number: nat, round: Rounder)
    requires OptionOf(route, number, round).Some?
    ensures var o := OptionOf(route, number, round).value;
      o.types == Distinct(RideTypes(o.legs))
      && (forall i, j :: 0 <= i < j < |o.types| ==> o.types[i] != o.types[j])
      && (forall t :: t in o.types <==> t in RideTypes(o.legs))
  {
    var o := OptionOf(route, number, round).value;
    TypesDistinct(o.legs);
    DistinctMembers(RideTypes(o.legs));
  }
}

=== FILE: pt_service.dfy ===
/** The public transport service of the routing app (`routing/public_transport_service.py`):
    one request per journey, every alternative parsed into minutes, kilometres and segments,
    and the alternatives listed fastest first. */
module PtService {
  import opened Wrappers
  import opened Text
  import opened Json
  import opened Numerals
  import opened Coerce
  import opened Sorting
  import opened Movements
  import opened Seqs

  /** A step of a journey; minutes are the rounded moving (and waiting) durations. */
  datatype Segment = Segment(
    kind: string, minutes: real, waiting: Option<real>, distance: Json,
    transportType: Option<Json>, fromStop: Option<Json>, toStop: Option<Json>,
    stops: Option<Json>, color: Option<Json>, instruction: Json)

  /** `_parse_route(route_data)`. The transport types are listed once each; Python builds the
      list from a set, whose order is arbitrary, and the model takes first occurrence. */
  datatype Route = Route(
    totalMinutes: real, walkingMinutes: real, walkingDistance: int, totalKm: real,
    transfers: int, types: seq<Json>, segments: seq<Segment>, crossings: Json)

  /** What one movement contributes: walked seconds, segments, and transport subtypes. */
  datatype Move = Move(walk: real, segments: seq<Segment>, types: seq<Json>)

  /** `platforms.get("names", [])` when the platforms are a dict, else `[]`. */
  function PlatformNames(m: Json): Json
    requires m.Obj?
  {
    var platforms := Get(m, "platforms", Obj([]));
    if platforms.Obj? then Get(platforms, "names", Arr([])) else Arr([])
  }

  /** `metro.get("color", "") if metro else ""`; `None` where a truthy non-dict raises. */
  function RouteColor(m: Json): Option<Json>
    requires m.Obj?
  {
    var metro := Get(m, "metro", Obj([]));
    if !Truthy(metro) then Some(Str(""))
    else if metro.Obj? then Some(Get(metro, "color", Str("")))
    else None
  }

  /** One pass of the loop body of `_parse_route`; `None` where Python raises. */
  function MoveOf(m: Json, round: Rounder, show: Json -> string): (r: Option<Move>)
    ensures r.Some? ==> m.Obj? && |r.value.segments| <= 1 && |r.value.types| <= 1
    ensures r.Some? ==>
      m.Obj? && (Kind(m) == Str("walkway") ==> IsNumber(Moving(m)) && r.value.walk == NumValue(Moving(m)))
    ensures r.Some? ==> m.Obj? && (Kind(m) != Str("walkway") ==> r.value.walk == 0.0)
    ensures r.Some? ==>
      m.Obj? && (|r.value.segments| == 1 <==> Kind(m) in [Str("walkway"), Str("passage"), Str("crossing")] && !IsFinish(m))
    ensures r.Some? ==>
      m.Obj? && (r.value.types != [] <==> Kind(m) == Str("passage"))
    ensures r.Some? && r.value.types != [] ==>
      r.value.segments[0].kind == "public_transport" && r.value.segments[0].transportType == Some(r.value.types[0])
      && r.value.segments[0].toStop == LastStop(PlatformNames(m))
    ensures r.Some? && |r.value.segments| == 1 ==>
      (r.value.segments[0].kind == "walking" <==> Kind(m) == Str("walkway"))
      && (r.value.segments[0].kind == "public_transport" <==> r.value.types != [])
  {
    if !m.Obj? then None
    else
      var kind := Kind(m);
      var moving := Moving(m);
      var distance := Distance(m);
      var waypoint := WaypointOf(m);
      if kind == Str("walkway") then
        if !IsNumber(moving) || !waypoint.Obj? then None
        else if IsFinish(m) then Some(Move(NumValue(moving), [], []))
        else
          var minutes := round(NumValue(moving) / 60.0, 1);
          Some(Move(NumValue(moving), [Segment("walking", minutes, None, distance, None, None, None, None, None,
                                               Get(waypoint, "comment", Str("Walk")))], []))
      else if kind == Str("passage") then
        var waiting := Get(m, "waiting_duration", Int(0));
        if !waypoint.Obj? || !IsNumber(moving) || !IsNumber(waiting) then None
        else
          var subtype := Get(waypoint, "subtype", Str("transit"));
          var station := Get(waypoint, "name", Str(""));
          var names := PlatformNames(m);
          match (LastStop(names), RouteColor(m))
            case (Some(last), Some(color)) =>
              var minutes := round(NumValue(moving) / 60.0, 1);
              var wait := round(NumValue(waiting) / 60.0, 1);
              Some(Move(0.0, [Segment("public_transport", minutes, Some(wait), distance, Some(subtype), Some(station),
                                      Some(last), Some(names), Some(color),
                                      Str("Take " + Display(subtype, show) + " from " + Display(station, show)))],
                        [subtype]))
            case _ => None
      else if kind == Str("crossing") then
        if !waypoint.Obj? || !IsNumber(moving) then None
        else Some(Move(0.0, [Segment("transfer", round(NumValue(moving) / 60.0, 1), None, distance, None, None, None,
                                     None, None, Get(waypoint, "comment", Str("Transfer")))], []))
      else Some(Move(0.0, [], []))
  }

  /** The loop over the movements; `None` once a movement raises. */
  function Moves(ms: seq<Json>, round: Rounder, show: Json -> string): Option<Move>
    decreases |ms|
  {
    if |ms| == 0 then Some(Move(0.0, [], []))
    else match MoveOf(ms[0], round, show)
      case None => None
      case Some(a) =>
        match Moves(ms[1..], round, show)
          case None => None
          case Some(b) => Some(Move(a.walk + b.walk, a.segments + b.segments, a.types + b.types))
  }

  /** The seconds walked in walkways that show a segment. */
  function ShownWalk(ms: seq<Json>): real
    decreases |ms|
  {
    if |ms| == 0 then 0.0
    else
      var here := if ms[0].Obj? && Kind(ms[0]) == Str("walkway") && !IsFinish(ms[0]) && IsNumber(Moving(ms[0]))
                  then NumValue(Moving(ms[0])) else 0.0;
      here + ShownWalk(ms[1..])
  }

  /** The seconds walked in finish markers, which show no segment. */
  function FinishWalk(ms: seq<Json>): real
    decreases |ms|
  {
    if |ms| == 0 then 0.0
    else
      var here := if IsFinish(ms[0]) && IsNumber(Moving(ms[0])) then NumValue(Moving(ms[0])) else 0.0;
      here + FinishWalk(ms[1..])
  }

  /** The movements that show a segment. */
  function Shown(ms: seq<Json>): nat
    decreases |ms|
  {
    if |ms| == 0 then 0
    else
      (if ms[0].Obj? && Kind(ms[0]) in [Str("walkway"), Str("passage"), Str("crossing")] && !IsFinish(ms[0]) then 1 else 0)
      + Shown(ms[1..])
  }

  /** The transport types of the public transport segments, in order. */
  function SegmentTypes(segments: seq<Segment>): seq<Json>
    decreases |segments|
  {
    if |segments| == 0 then []
    else
      (if segments[0].kind == "public_transport" && segments[0].transportType.Some?
       then [segments[0].transportType.value] else [])
      + SegmentTypes(segments[1..])
  }

  lemma SegmentTypesSplit(a: seq<Segment>, b: seq<Segment>)
    requires |a| <= 1
    ensures SegmentTypes(a + b) == SegmentTypes(a) + SegmentTypes(b)
  {
    if |a| == 1 {
      assert (a + b)[0] == a[0] && (a + b)[1..] == b;
      assert a[1..] == [];
    } else {
      assert a + b == b;
    }
  }

  /** The walked seconds split into the walkways that show a segment and the finish markers;
      one segment per shown movement; the types are those of the public transport segments. */
  lemma {:induction false} MovesFacts(ms: seq<Json>, round: Rounder, show: Json -> string)
    requires Moves(ms, round, show).Some?
    ensures var r := Moves(ms, round, show).value;
      r.walk == ShownWalk(ms) + FinishWalk(ms) && |r.segments| == Shown(ms) && r.types == SegmentTypes(r.segments)
    decreases |ms|
  {
    if |ms| > 0 {
      var a := MoveOf(ms[0], round, show).value;
      var b := Moves(ms[1..], round, show).value;
      MovesFacts(ms[1..], round, show);
      SegmentTypesSplit(a.segments, b.segments);
      if |a.segments| == 1 {
        assert a.segments[1..] == [];
        if a.types != [] {
          assert a.types == [a.types[0]];
        }
      }
    }
  }

  /** The route record `_parse_route` returns once its loop has run; `None` where
      `set(transport_types)` raises on a list or dict subtype. */
  function Build(route: Json, mv: Move, round: Rounder): Option<Route>
    requires route.Obj?
  {
    var duration := SafeInt(Get(route, "total_duration", Null), 0);
    var distance := SafeInt(Get(route, "total_distance", Null), 0);
    var walkingDistance := SafeInt(Get(route, "total_walkway_distance", Null), 0);
    var transfers := SafeInt(Get(route, "transfer_count", Null), 0);
    match SetOf(mv.types)
      case None => None
      case Some(types) =>
        Some(Route(round(duration as real / 60.0, 1), round(mv.walk / 60.0, 1), walkingDistance,
                   round(distance as real / 1000.0, 2), transfers, types, mv.segments,
                   Get(route, "crossing_count", Int(0))))
  }

  /** `_parse_route(route_data)`; `None` where Python raises. */
  function ParseRoute(route: Json, round: Rounder, show: Json -> string): Option<Route>
  {
    if !route.Obj? then None
    else match Iterate(Get(route, "movements", Arr([])))
      case None => None
      case Some(ms) =>
        match Moves(ms, round, show)
          case None => None
          case Some(mv) => Build(route, mv, round)
  }

  /** A parsed route reports what its loop over the movements found: the walked minutes, the
      segments, the transport types once each, and a crossing count of 0 when it is missing.
      What the loop finds is stated by `MovesFacts`. */
  lemma RouteFacts(route: Json, ms: seq<Json>, mv: Move, r: Route, round: Rounder, show: Json -> string)
    requires route.Obj? && Iterate(Get(route, "movements", Arr([]))) == Some(ms)
    requires Moves(ms, round, show) == Some(mv)
    requires ParseRoute(route, round, show) == Some(r)
    ensures r.walkingMinutes == round(mv.walk / 60.0, 1)
    ensures r.segments == mv.segments
    ensures forall i :: 0 <= i < |mv.types| ==> Hashable(mv.types[i])
    ensures forall x :: x in mv.types ==> PyMember(x, r.types)
    ensures forall x :: x in r.types ==> x in mv.types
    ensures (forall i :: 0 <= i < |mv.types| ==> mv.types[i].Str?) ==>
      forall x :: x in r.types <==> x in mv.types
    ensures forall i, j :: 0 <= i < j < |r.types| ==> r.types[i] != r.types[j]
    ensures !Has(route, "crossing_count") ==> r.crossings == Int(0)
  {
    ParseRouteBuild(route, ms, mv, round, show);
    BuildFacts(route, mv, round);
  }

  lemma ParseRouteBuild(route: Json, ms: seq<Json>, mv: Move, round: Rounder, show: Json -> string)
    requires route.Obj? && Iterate(Get(route, "movements", Arr([]))) == Some(ms)
    requires Moves(ms, round, show) == Some(mv)
    ensures ParseRoute(route, round, show) == Build(route, mv, round)
    ensures ParseRoute(route, round, show).Some? <==> forall i :: 0 <= i < |mv.types| ==> Hashable(mv.types[i])
  {
  }

  /** The record built: `None` exactly when a subtype is unhashable; otherwise the walked
      minutes and segments of the loop, each subtype once up to Python's `==` (the values kept
      are subtypes given, pairwise unequal), exactly the distinct subtypes when they are all
      text, and a crossing count of 0 when it is missing. */
  lemma BuildFacts(route: Json, mv: Move, round: Rounder)
    requires route.Obj?
    ensures Build(route, mv, round).Some? <==> forall i :: 0 <= i < |mv.types| ==> Hashable(mv.types[i])
    ensures Build(route, mv, round).Some? ==>
      var r := Build(route, mv, round).value;
      r.walkingMinutes == round(mv.walk / 60.0, 1) && r.segments == mv.segments
      && (forall x :: x in mv.types ==> PyMember(x, r.types))
      && (forall x :: x in r.types ==> x in mv.types)
      && (forall i, j :: 0 <= i < j < |r.types| ==> !PyEq(r.types[i], r.types[j]))
      && (forall i, j :: 0 <= i < j < |r.types| ==> r.types[i] != r.types[j])
      && ((forall i :: 0 <= i < |mv.types| ==> mv.types[i].Str?) ==>
            r.types == Distinct(mv.types) && forall x :: x in r.types <==> x in mv.types)
      && (!Has(route, "crossing_count") ==> r.crossings == Int(0))
  {
    if SetOf(mv.types).Some? {
      SetOfMembers(mv.types);
    }
  }

  /** A passage whose subtype is a list gets through the loop, and `set` then raises. */
  lemma UnhashableSubtypeRaises(round: Rounder, show: Json -> string)
    ensures ParseRoute(Obj([("movements", Arr([Obj([("type", Str("passage")),
              ("waypoint", Obj([("subtype", Arr([Str("bus")]))]))])]))]), round, show).None?
  {
    var m := Obj([("type", Str("passage")), ("waypoint", Obj([("subtype", Arr([Str("bus")]))]))]);
    var route := Obj([("movements", Arr([m]))]);
    assert Iterate(Get(route, "movements", Arr([]))) == Some([m]);
    match Moves([m], round, show)
      case None =>
      case Some(mv) =>
        MovesFacts([m], round, show);
        assert !Hashable(mv.types[0]);
  }

  // ---------------------------------------------------------------------------------------
  // `_parse_response` and `get_public_transport_routes`
  // ---------------------------------------------------------------------------------------

  /** The successful reply: routes, the "No routes found" message, or the number of options. */
  datatype Listing = Listing(routes: seq<Route>, message: Option<string>, total: Option<nat>)

  function ParseAll(items: seq<Json>, round: Rounder, show: Json -> string): (r: Option<seq<Route>>)
    ensures r.Some? ==> |r.value| == |items|
    ensures r.Some? ==> forall k :: 0 <= k < |items| ==> ParseRoute(items[k], round, show) == Some(r.value[k])
    decreases |items|
  {
    if |items| == 0 then Some([])
    else match ParseRoute(items[0], round, show)
      case None => None
      case Some(t) =>
        match ParseAll(items[1..], round, show)
          case None => None
          case Some(rest) => Some([t] + rest)
  }

  /** The sort key: `total_duration_minutes`. */
  function Minutes(r: Route): real
  {
    r.totalMinutes
  }

  /** `_parse_response(data)`; `None` where Python raises. */
  function ParseResponse(data: Json, round: Rounder, show: Json -> string): Option<Listing>
  {
    if !Truthy(data) then Some(Listing([], Some("No routes found"), None))
    else match Iterate(data)
      case None => None
      case Some(items) =>
        match ParseAll(items, round, show)
          case None => None
          case Some(routes) => Some(Listing(SortBy(routes, Minutes), None, Some(|routes|)))
  }

  /** Empty data is a success with no routes; otherwise every route of the reply is parsed,
      the routes are listed fastest first as a permutation of the parsed ones, routes of equal
      duration keep their order, and the option count is the number of routes in the reply. */
  lemma ResponseFacts(data: Json, round: Rounder, show: Json -> string)
    requires ParseResponse(data, round, show).Some?
    ensures var r := ParseResponse(data, round, show).value;
      (!Truthy(data) ==> r == Listing([], Some("No routes found"), None))
      && (Truthy(data) ==>
            var parsed := ParseAll(Iterate(data).value, round, show).value;
            r.total == Some(Len(data)) && r.message.None?
            && SortedBy(r.routes, Minutes) && multiset(r.routes) == multiset(parsed)
            && (forall k :: WithKey(r.routes, Minutes, k) == WithKey(parsed, Minutes, k)))
  {
    if Truthy(data) {
      var parsed := ParseAll(Iterate(data).value, round, show).value;
      forall k
        ensures WithKey(SortBy(parsed, Minutes), Minutes, k) == WithKey(parsed, Minutes, k)
      {
        SortByStable(parsed, Minutes, k);
      }
    }
  }

  /** The first route listed is the fastest. */
  lemma FastestFirst(data: Json, round: Rounder, show: Json -> string)
    requires ParseResponse(data, round, show).Some? && Truthy(data)
    requires ParseResponse(data, round, show).value.routes != []
    ensures var r := ParseResponse(data, round, show).value.routes;
      forall k :: 0 <= k < |r| ==> r[0].totalMinutes <= r[k].totalMinutes
  {
  }

  /** The service's answer to one request. */
  datatype Answer = Parsed(listing: Listing) | Failed(error: string, status: int)

  /** How the HTTP call ended: the status, the decoded body and the raw text. */
  datatype Http = Http(status: int, data: Json, text: string)

  const DefaultModes := ["metro", "bus", "tram", "trolleybus"]

  /** The body posted for a journey; only a missing list of modes means the default. */
  function RequestBody(startLat: real, startLon: real, endLat: real, endLon: real,
                       modes: Option<seq<string>>): (r: Json)
    ensures var sent := if modes.None? then DefaultModes else modes.value;
      r.Obj? && Get(r, "transport", Null) == Arr(seq(|sent|, i requires 0 <= i < |sent| => Str(sent[i])))
  {
    var sent := if modes.None? then DefaultModes else modes.value;
    Obj([("source", Obj([("point", Obj([("lon", Float(startLon)), ("lat", Float(startLat))]))])),
         ("target", Obj([("point", Obj([("lon", Float(endLon)), ("lat", Float(endLat))]))])),
         ("transport", Arr(seq(|sent|, i requires 0 <= i < |sent| => Str(sent[i]))))])
  }

  /** `get_public_transport_routes`: a 200 reply is parsed, any other is reported with its
      text and status; `None` where parsing raises. */
  function GetRoutes(http: Http, round: Rounder, show: Json -> string): (r: Option<Answer>)
    ensures http.status != 200 ==> r == Some(Failed(http.text, http.status))
    ensures http.status == 200 && r.Some? ==> r.value.Parsed?
  {
    if http.status == 200 then
      match ParseResponse(http.data, round, show)
        case None => None
        case Some(listing) => Some(Parsed(listing))
    else Some(Failed(http.text, http.status))
  }

  // ---------------------------------------------------------------------------------------
  // `format_route_for_display`
  // ---------------------------------------------------------------------------------------

  /** The number a step line starts with. */
  function StepPrefix(i: nat): string
  {
    "    " + NatToString(i) + ". "
  }

  /** `", wait N min"` when the wait is above zero. */
  function WaitText(wait: real, showReal: real -> string): string
  {
    if wait > 0.0 then ", wait " + showReal(wait) + " min" else ""
  }

  /** The lines for segment number `i`; `None` where Python raises. */
  function SegmentLines(i: nat, s: Segment, showReal: real -> string, show: Json -> string): (r: Option<seq<string>>)
    ensures r.Some? ==> (|r.value| == 0 <==> s.kind !in ["walking", "public_transport", "transfer"])
    ensures r.Some? && |r.value| > 0 ==> StartsWith(r.value[0], StepPrefix(i))
    ensures r.Some? && s.kind == "public_transport" ==>
      |r.value| == (if Truthy(s.toStop.GetOr(Null)) then 2 else 1)
    ensures r.Some? && s.kind == "public_transport" ==>
      var line := r.value[0];
      var tail := WaitText(s.waiting.GetOr(0.0), showReal) + ")";
      |tail| <= |line| && line[|line| - |tail|..] == tail
  {
    var prefix := StepPrefix(i);
    var minutes := showReal(s.minutes);
    if s.kind == "walking" then
      Some([prefix + "WALK: " + Display(s.instruction, show) + " (" + minutes + " min)"])
    else if s.kind == "public_transport" then
      var mode := s.transportType.GetOr(Str("transit"));
      var stops := s.stops.GetOr(Arr([]));
      if !mode.Str? || !(stops.Arr? || stops.Str? || stops.Obj?) then None
      else
        var wait := WaitText(s.waiting.GetOr(0.0), showReal);
        var head := prefix + Upper(mode.s) + ": " + Display(s.instruction, show) + " (" + minutes + " min";
        var first := head + (wait + ")");
        assert first[|first| - |wait + ")"|..] == wait + ")";
        assert first[..|prefix|] == prefix;
        var toStop := s.toStop.GetOr(Null);
        if Truthy(toStop) then
          Some([first, "       -> Exit at: " + Display(toStop, show) + " (" + NatToString(Len(stops)) + " stops)"])
        else Some([first])
    else if s.kind == "transfer" then
      Some([prefix + "TRANSFER: " + Display(s.instruction, show) + " (" + minutes + " min)"])
    else Some([])
  }

  /** The step lines of `segments`, numbered from `n`. */
  function StepLines(segments: seq<Segment>, n: nat, showReal: real -> string, show: Json -> string): Option<seq<string>>
    decreases |segments|
  {
    if |segments| == 0 then Some([])
    else match SegmentLines(n, segments[0], showReal, show)
      case None => None
      case Some(here) =>
        match StepLines(segments[1..], n + 1, showReal, show)
          case None => None
          case Some(rest) => Some(here + rest)
  }

  /** One step of `StepLines`: the first segment's lines, then the rest numbered on. */
  lemma StepLinesCons(segments: seq<Segment>, n: nat, showReal: real -> string, show: Json -> string)
    requires StepLines(segments, n, showReal, show).Some? && |segments| > 0
    ensures SegmentLines(n, segments[0], showReal, show).Some?
    ensures StepLines(segments[1..], n + 1, showReal, show).Some?
    ensures StepLines(segments, n, showReal, show).value
            == SegmentLines(n, segments[0], showReal, show).value + StepLines(segments[1..], n + 1, showReal, show).value
  {
  }

  /** Segment `k` of the list gets number `n + k`: a line with that number is in the output. */
  lemma {:induction false} StepLinesNumbered(segments: seq<Segment>, n: nat, showReal: real -> string, show: Json -> string, k: nat)
    requires StepLines(segments, n, showReal, show).Some? && k < |segments|
    requires segments[k].kind in ["walking", "public_transport", "transfer"]
    ensures exists line :: line in StepLines(segments, n, showReal, show).value && StartsWith(line, StepPrefix(n + k))
    decreases k
  {
    StepLinesCons(segments, n, showReal, show);
    var all := StepLines(segments, n, showReal, show).value;
    if k > 0 {
      var rest := StepLines(segments[1..], n + 1, showReal, show).value;
      assert segments[1..][k - 1] == segments[k];
      StepLinesNumbered(segments[1..], n + 1, showReal, show, k - 1);
      assert n + 1 + (k - 1) == n + k;
      var line :| line in rest && StartsWith(line, StepPrefix(n + k));
      InRight(SegmentLines(n, segments[0], showReal, show).value, rest, line);
      assert line in all && StartsWith(line, StepPrefix(n + k));
    } else {
      var here := SegmentLines(n, segments[0], showReal, show).value;
      assert |here| > 0 && StartsWith(here[0], StepPrefix(n));
      InLeft(here, StepLines(segments[1..], n + 1, showReal, show).value, here[0]);
      assert here[0] in all && StartsWith(here[0], StepPrefix(n + k));
    }
  }



  /** `format_route_for_display(route)` as its list of lines, which Python joins with
      newlines; `None` where Python raises. */
  function DisplayLines(r: Route, round: Rounder, showReal: real -> string, show: Json -> string): Option<seq<string>>
  {
    var walkKm := round(r.walkingDistance as real / 1000.0, 1);
    var head := ["  Total time: " + showReal(r.totalMinutes) + " minutes",
                 "  Distance: " + showReal(r.totalKm) + " km",
                 "  Walking: " + showReal(r.walkingMinutes) + " min (" + showReal(walkKm) + " km)",
                 "  Transfers: " + IntToString(r.transfers)];
    var types := if r.types == [] then Some([])
                 else if forall k :: 0 <= k < |r.types| ==> r.types[k].Str?
                 then Some(["  Transport: " + Join(seq(|r.types|, k requires 0 <= k < |r.types| => r.types[k].s), ", ")])
                 else None;
    match (types, StepLines(r.segments, 1, showReal, show))
      case (Some(t), Some(steps)) => Some(head + t + ["\n  Journey steps:"] + steps)
      case _ => None
  }

  function FormatRoute(r: Route, round: Rounder, showReal: real -> string, show: Json -> string): Option<string>
  {
    match DisplayLines(r, round, showReal, show)
      case None => None
      case Some(lines) => Some(Join(lines, "\n"))
  }

  /** The display numbers the shown segments from 1 in order: segment `k` has a line starting
      with number `k + 1`. */
  lemma DisplayNumbered(r: Route, round: Rounder, showReal: real -> string, show: Json -> string, k: nat)
    requires DisplayLines(r, round, showReal, show).Some? && k < |r.segments|
    requires r.segments[k].kind in ["walking", "public_transport", "transfer"]
    ensures exists line :: line in DisplayLines(r, round, showReal, show).value && StartsWith(line, StepPrefix(k + 1))
  {
    StepLinesNumbered(r.segments, 1, showReal, show, k);
    var lines := DisplayLines(r, round, showReal, show).value;
    var steps := StepLines(r.segments, 1, showReal, show).value;
    var line :| line in steps && StartsWith(line, StepPrefix(1 + k));
    assert lines[|lines| - |steps|..] == steps;
    assert line in lines;
  }
}

=== FILE: rate_limiter.dfy ===
/** The sliding-window limiter in front of the 2GIS HTTP client. The clock is a parameter:
    `t1` is the reading at the start of `acquire`, `t2` the reading taken after the optional
    sleep. */
module RateLimiter {
  import opened Seqs
  import opened Wrappers

  const DefaultRateLimit: int := 5
  const DefaultRatePeriod: real := 1.0

  /** An environment setting as `int(...)` / `float(...)` sees it: unset (the default's text
      is parsed instead), parsed, or rejected with `ValueError`. */
  datatype Setting<T> = Unset | Parsed(value: T) | Unparseable

  /** `_load_rate_limit_config()`: `None` disables limiting. */
  function LoadConfig(calls: Setting<int>, period: Setting<real>): (r: Option<(int, real)>)
    ensures r.Some? ==> r.value.0 > 0 && r.value.1 > 0.0
    ensures (calls.Unset? || calls.Unparseable?) && (period.Unset? || period.Unparseable?)
      ==> r == Some((DefaultRateLimit, DefaultRatePeriod))
    ensures calls.Parsed? && calls.value <= 0 ==> r.None?
    ensures period.Parsed? && period.value <= 0.0 ==> r.None?
    ensures calls.Parsed? && calls.value > 0 && period.Parsed? && period.value > 0.0
      ==> r == Some((calls.value, period.value))
  {
    var maxCalls := if calls.Parsed? then calls.value else DefaultRateLimit;
    var seconds := if period.Parsed? then period.value else DefaultRatePeriod;
    if maxCalls <= 0 || seconds <= 0.0 then None else Some((maxCalls, seconds))
  }

  /** `AsyncRateLimiter`: the configuration and the deque of call times. */
  datatype Limiter = Limiter(maxCalls: int, period: real, calls: seq<real>)

  /** The `popleft` loop: drops call times from the front while they are at or before
      `cutoff`. */
  function DropExpired(calls: seq<real>, cutoff: real): (r: seq<real>)
    ensures |r| <= |calls|
    ensures |r| > 0 ==> r[0] > cutoff
    decreases |calls|
  {
    if |calls| > 0 && calls[0] <= cutoff then DropExpired(calls[1..], cutoff) else calls
  }

  /** The loop only ever drops from the front: what is left is a suffix. */
  lemma {:induction false} DropExpiredSuffix(calls: seq<real>, cutoff: real)
    ensures DropExpired(calls, cutoff) == calls[|calls| - |DropExpired(calls, cutoff)|..]
    decreases |calls|
  {
    if |calls| > 0 && calls[0] <= cutoff {
      DropExpiredSuffix(calls[1..], cutoff);
    }
  }

  /** Every time the `popleft` loop dropped was at or before the cutoff. */
  lemma {:induction false} DropExpiredDropped(calls: seq<real>, cutoff: real)
    ensures var r := DropExpired(calls, cutoff);
      forall k :: 0 <= k < |calls| - |r| ==> calls[k] <= cutoff
    decreases |calls|
  {
    if |calls| > 0 && calls[0] <= cutoff {
      DropExpiredDropped(calls[1..], cutoff);
      var r := DropExpired(calls, cutoff);
      forall k | 0 <= k < |calls| - |r| ensures calls[k] <= cutoff {
        if k > 0 {
          assert calls[k] == calls[1..][k - 1];
        }
      }
    }
  }

  /** The outcome of one `acquire`: the limiter afterwards and how long it slept (0 when it
      did not). */
  datatype Acquired = Acquired(limiter: Limiter, slept: real)

  /** How long `acquire` sleeps when it is called at `t1`: until the oldest time still in a
      full window expires, and not at all when the window has room. */
  function SleepFor(l: Limiter, t1: real): real
    requires l.maxCalls > 0
  {
    var w := DropExpired(l.calls, t1 - l.period);
    if |w| >= l.maxCalls && l.period - (t1 - w[0]) > 0.0 then l.period - (t1 - w[0]) else 0.0
  }

  /** `acquire()`. */
  function Acquire(l: Limiter, t1: real, t2: real): (r: Acquired)
    requires l.maxCalls > 0
    ensures r.limiter.maxCalls == l.maxCalls && r.limiter.period == l.period
    ensures r.slept >= 0.0
  {
    var w := DropExpired(l.calls, t1 - l.period);
    if |w| >= l.maxCalls then
      var w2 := DropExpired(w, t2 - l.period);
      Acquired(l.(calls := w2 + [t2]), SleepFor(l, t1))
    else
      Acquired(l.(calls := w + [t1]), SleepFor(l, t1))
  }

  /** The clock reading at which the call is recorded. */
  function Stamp(l: Limiter, t1: real, t2: real): real
    requires l.maxCalls > 0
  {
    if |DropExpired(l.calls, t1 - l.period)| >= l.maxCalls then t2 else t1
  }

  /** Call times in the order they were recorded. */
  predicate Sorted(calls: seq<real>)
  {
    forall i, j :: 0 <= i < j < |calls| ==> calls[i] <= calls[j]
  }

  /** On a sorted window, dropping from the front removes every expired time. */
  lemma DropExpiredSorted(calls: seq<real>, cutoff: real)
    requires Sorted(calls)
    ensures var r := DropExpired(calls, cutoff);
      Sorted(r) && forall k :: 0 <= k < |r| ==> r[k] > cutoff
  {
    var r := DropExpired(calls, cutoff);
    DropExpiredSuffix(calls, cutoff);
    forall k | 0 <= k < |r| ensures r[k] > cutoff {
      assert r[k] == calls[k + (|calls| - |r|)] && r[0] == calls[|calls| - |r|];
    }
  }

  /** The time `acquire` records: the second reading when the window was full. */
  lemma AcquireRecords(l: Limiter, t1: real, t2: real)
    requires l.maxCalls > 0
    ensures var w := DropExpired(l.calls, t1 - l.period);
      var r := Acquire(l, t1, t2).limiter.calls;
      if |w| >= l.maxCalls then r == DropExpired(w, t2 - l.period) + [t2] else r == w + [t1]
  {
  }

  /** Each `acquire` keeps a suffix of the old window and appends exactly one time, the
      reading it was recorded at; with a monotonic clock, every time it dropped was expired. */
  lemma AcquireAppendsOne(l: Limiter, t1: real, t2: real)
    requires l.maxCalls > 0 && t1 <= t2
    ensures var r := Acquire(l, t1, t2).limiter.calls; var now := Stamp(l, t1, t2);
      |r| >= 1 && r[|r| - 1] == now
      && r[..|r| - 1] == l.calls[|l.calls| - (|r| - 1)..]
      && forall k :: 0 <= k < |l.calls| - (|r| - 1) ==> l.calls[k] <= now - l.period
  {
    if |DropExpired(l.calls, t1 - l.period)| >= l.maxCalls {
      AppendsOneWhenFull(l, t1, t2);
    } else {
      AppendsOneWithRoom(l, t1, t2);
    }
  }

  /** `AcquireAppendsOne` when the window is full at `t1`: the second pass runs at `t2`. */
  lemma AppendsOneWhenFull(l: Limiter, t1: real, t2: real)
    requires l.maxCalls > 0 && t1 <= t2 && |DropExpired(l.calls, t1 - l.period)| >= l.maxCalls
    ensures var r := Acquire(l, t1, t2).limiter.calls; var now := Stamp(l, t1, t2);
      |r| >= 1 && r[|r| - 1] == now
      && r[..|r| - 1] == l.calls[|l.calls| - (|r| - 1)..]
      && forall k :: 0 <= k < |l.calls| - (|r| - 1) ==> l.calls[k] <= now - l.period
  {
    var r := Acquire(l, t1, t2).limiter.calls;
    var now := Stamp(l, t1, t2);
    var w2 := DropExpired(DropExpired(l.calls, t1 - l.period), t2 - l.period);
    assert now == t2 && r == w2 + [t2];
    DropTwice(l.calls, t1 - l.period, t2 - l.period);
    WindowAppend(l.calls, w2, now, now - l.period, r);
  }

  /** `AcquireAppendsOne` when the window has room at `t1`. */
  lemma AppendsOneWithRoom(l: Limiter, t1: real, t2: real)
    requires l.maxCalls > 0 && |DropExpired(l.calls, t1 - l.period)| < l.maxCalls
    ensures var r := Acquire(l, t1, t2).limiter.calls; var now := Stamp(l, t1, t2);
      |r| >= 1 && r[|r| - 1] == now
      && r[..|r| - 1] == l.calls[|l.calls| - (|r| - 1)..]
      && forall k :: 0 <= k < |l.calls| - (|r| - 1) ==> l.calls[k] <= now - l.period
  {
    var r := Acquire(l, t1, t2).limiter.calls;
    var now := Stamp(l, t1, t2);
    var w := DropExpired(l.calls, t1 - l.period);
    assert now == t1 && r == w + [t1];
    DropExpiredDropped(l.calls, t1 - l.period);
    DropExpiredSuffix(l.calls, t1 - l.period);
    WindowAppend(l.calls, w, now, now - l.period, r);
  }

  /** A kept suffix of a window with one time appended. */
  lemma WindowAppend(calls: seq<real>, kept: seq<real>, now: real, cutoff: real, r: seq<real>)
    requires |kept| <= |calls| && kept == calls[|calls| - |kept|..] && r == kept + [now]
    requires forall k :: 0 <= k < |calls| - |kept| ==> calls[k] <= cutoff
    ensures |r| >= 1 && r[|r| - 1] == now
    ensures r[..|r| - 1] == calls[|calls| - (|r| - 1)..]
    ensures forall k :: 0 <= k < |calls| - (|r| - 1) ==> calls[k] <= cutoff
  {
    AppendInit(kept, now);
  }

  /** Two passes of the `popleft` loop, the second with the later cutoff, leave a suffix and
      drop only times at or before the later cutoff. */
  lemma DropTwice(calls: seq<real>, c1: real, c2: real)
    requires c1 <= c2
    ensures var w2 := DropExpired(DropExpired(calls, c1), c2);
      w2 == calls[|calls| - |w2|..] && forall k :: 0 <= k < |calls| - |w2| ==> calls[k] <= c2
  {
    var w := DropExpired(calls, c1);
    var w2 := DropExpired(w, c2);
    DropExpiredDropped(calls, c1);
    DropExpiredSuffix(calls, c1);
    DropExpiredDropped(w, c2);
    DropExpiredSuffix(w, c2);
    SuffixOfSuffix(calls, w, w2, c1, c2);
  }

  /** A suffix of a suffix is a suffix, and what the two cuts removed was at or before the
      later cutoff. */
  lemma SuffixOfSuffix(calls: seq<real>, w: seq<real>, w2: seq<real>, c1: real, c2: real)
    requires c1 <= c2 && |w| <= |calls| && |w2| <= |w|
    requires w == calls[|calls| - |w|..] && w2 == w[|w| - |w2|..]
    requires forall k :: 0 <= k < |calls| - |w| ==> calls[k] <= c1
    requires forall k :: 0 <= k < |w| - |w2| ==> w[k] <= c2
    ensures w2 == calls[|calls| - |w2|..]
    ensures forall k :: 0 <= k < |calls| - |w2| ==> calls[k] <= c2
  {
    forall k | 0 <= k < |calls| - |w2| ensures calls[k] <= c2 {
      if k >= |calls| - |w| {
        assert calls[k] == w[k - (|calls| - |w|)];
      }
    }
  }

  /** Times never come from the future: every recorded time is at most `t`. */
  predicate NotAfter(calls: seq<real>, t: real)
  {
    forall k :: 0 <= k < |calls| ==> calls[k] <= t
  }

  lemma SuffixNotAfter(calls: seq<real>, n: nat, t: real)
    requires n <= |calls| && NotAfter(calls, t)
    ensures NotAfter(calls[n..], t)
  {
    assert forall k :: 0 <= k < |calls| - n ==> calls[n..][k] == calls[n + k];
  }

  /** Dropping expired times from a sorted window of past times and then recording `t`. */
  lemma DropThenRecord(calls: seq<real>, cutoff: real, t0: real, t: real)
    requires Sorted(calls) && NotAfter(calls, t0) && t0 <= t && cutoff < t
    ensures var r := DropExpired(calls, cutoff) + [t];
      Sorted(r) && NotAfter(r, t) && forall k :: 0 <= k < |r| ==> r[k] > cutoff
  {
    var w := DropExpired(calls, cutoff);
    DropExpiredSorted(calls, cutoff);
    DropExpiredSuffix(calls, cutoff);
    SuffixNotAfter(calls, |calls| - |w|, t0);
    AppendFresh(w, t, cutoff);
  }

  /** After `acquire` on a sorted window with a monotonic clock, the window is still sorted
      and nothing at or before one period ahead of the recorded time is left in it. */
  lemma AcquireEvicts(l: Limiter, t1: real, t2: real)
    requires l.maxCalls > 0 && l.period > 0.0 && Sorted(l.calls) && t1 <= t2
    requires NotAfter(l.calls, t1)
    ensures var r := Acquire(l, t1, t2).limiter.calls; var now := Stamp(l, t1, t2);
      Sorted(r) && NotAfter(r, now) && forall k :: 0 <= k < |r| ==> r[k] > now - l.period
  {
    if |DropExpired(l.calls, t1 - l.period)| >= l.maxCalls {
      EvictsWhenFull(l, t1, t2);
    } else {
      EvictsWithRoom(l, t1, t2);
    }
  }

  /** `AcquireEvicts` when the window is full at `t1`. */
  lemma EvictsWhenFull(l: Limiter, t1: real, t2: real)
    requires l.maxCalls > 0 && l.period > 0.0 && Sorted(l.calls) && t1 <= t2
    requires NotAfter(l.calls, t1)
    requires |DropExpired(l.calls, t1 - l.period)| >= l.maxCalls
    ensures var r := Acquire(l, t1, t2).limiter.calls; var now := Stamp(l, t1, t2);
      Sorted(r) && NotAfter(r, now) && forall k :: 0 <= k < |r| ==> r[k] > now - l.period
  {
    var w := DropExpired(l.calls, t1 - l.period);
    KeptWindow(l.calls, t1 - l.period, t1);
    DropThenRecord(w, t2 - l.period, t1, t2);
    assert Stamp(l, t1, t2) == t2;
    assert Acquire(l, t1, t2).limiter.calls == DropExpired(w, t2 - l.period) + [t2];
  }

  /** What the first pass keeps of a sorted window of past times is sorted and in the past. */
  lemma KeptWindow(calls: seq<real>, cutoff: real, t: real)
    requires Sorted(calls) && NotAfter(calls, t)
    ensures Sorted(DropExpired(calls, cutoff)) && NotAfter(DropExpired(calls, cutoff), t)
  {
    var w := DropExpired(calls, cutoff);
    DropExpiredSorted(calls, cutoff);
    DropExpiredSuffix(calls, cutoff);
    SuffixNotAfter(calls, |calls| - |w|, t);
  }

  /** `AcquireEvicts` when the window has room at `t1`. */
  lemma EvictsWithRoom(l: Limiter, t1: real, t2: real)
    requires l.maxCalls > 0 && l.period > 0.0 && Sorted(l.calls) && t1 <= t2
    requires NotAfter(l.calls, t1)
    requires |DropExpired(l.calls, t1 - l.period)| < l.maxCalls
    ensures var r := Acquire(l, t1, t2).limiter.calls; var now := Stamp(l, t1, t2);
      Sorted(r) && NotAfter(r, now) && forall k :: 0 <= k < |r| ==> r[k] > now - l.period
  {
    AcquireRecords(l, t1, t2);
    DropThenRecord(l.calls, t1 - l.period, t1, t1);
  }

  /** Appending the current time to a sorted window of past, unexpired times. */
  lemma AppendFresh(w: seq<real>, t: real, cutoff: real)
    requires Sorted(w) && NotAfter(w, t) && cutoff < t
    requires forall k :: 0 <= k < |w| ==> w[k] > cutoff
    ensures var r := w + [t];
      Sorted(r) && NotAfter(r, t) && forall k :: 0 <= k < |r| ==> r[k] > cutoff
  {
  }

  /** `acquire` sleeps exactly when the window is full, and then until the oldest time left in
      it is one period old. */
  lemma AcquireSleeps(l: Limiter, t1: real, t2: real)
    requires l.maxCalls > 0 && l.period > 0.0
    ensures var w := DropExpired(l.calls, t1 - l.period); var slept := Acquire(l, t1, t2).slept;
      (slept > 0.0 <==> |w| >= l.maxCalls)
      && (|w| >= l.maxCalls ==> t1 + slept == w[0] + l.period)
  {
  }

  /** The limit: when the clock has really advanced by the time slept, a window that held at
      most `maxCalls` times still does after `acquire`. */
  lemma AcquireBound(l: Limiter, t1: real, t2: real)
    requires l.maxCalls > 0 && l.period > 0.0 && |l.calls| <= l.maxCalls
    requires t2 >= t1 + Acquire(l, t1, t2).slept
    ensures |Acquire(l, t1, t2).limiter.calls| <= l.maxCalls
  {
    AcquireRecords(l, t1, t2);
    var w := DropExpired(l.calls, t1 - l.period);
    if |w| >= l.maxCalls {
      AcquireSleeps(l, t1, t2);
      assert w[0] <= t2 - l.period;
      assert |DropExpired(w, t2 - l.period)| < |w|;
    }
  }

  /** What `acquire` keeps true of its window between calls. */
  predicate Window(l: Limiter, now: real)
  {
    l.maxCalls > 0 && l.period > 0.0 && |l.calls| <= l.maxCalls && Sorted(l.calls)
    && NotAfter(l.calls, now)
  }

  /** The time after the second reading of `acquire` called at `t1`, with `lag` the clock's
      overshoot past the wake-up time. */
  function SecondReading(l: Limiter, t1: real, lag: real): real
    requires l.maxCalls > 0
  {
    t1 + SleepFor(l, t1) + lag
  }

  lemma AcquireKeepsWindow(l: Limiter, t1: real, lag: real)
    requires Window(l, t1) && lag >= 0.0
    ensures var t2 := SecondReading(l, t1, lag);
      Window(Acquire(l, t1, t2).limiter, t2)
  {
    var t2 := SecondReading(l, t1, lag);
    AcquireBound(l, t1, t2);
    AcquireEvicts(l, t1, t2);
  }

  /** The module-level slot behind `get_2gis_rate_limiter()`. */
  datatype Slot = Slot(instance: Option<Limiter>, disabled: bool)

  const Unconfigured: Slot := Slot(None, false)

  /** `get_2gis_rate_limiter()`: the configuration is read only while there is neither an
      instance nor a recorded "disabled". */
  function GetLimiter(slot: Slot, config: Option<(int, real)>): (r: (Slot, Option<Limiter>))
    ensures slot.disabled ==> r == (slot, None)
    ensures !slot.disabled && slot.instance.Some? ==> r == (slot, slot.instance)
    ensures r.1.Some? ==> r.0.instance == r.1 && !r.0.disabled
    ensures r.1.None? <==> r.0.disabled
  {
    if slot.disabled then (slot, None)
    else if slot.instance.Some? then (slot, slot.instance)
    else match config
      case None => (slot.(disabled := true), None)
      case Some(c) => var l := Limiter(c.0, c.1, []); (slot.(instance := Some(l)), Some(l))
  }

  /** One call of the `rate_limit_request()` context at time `t1`: it waits on the limiter when
      there is one and returns the slot and the time the request goes out. */
  function RateLimitRequest(slot: Slot, config: Option<(int, real)>, t1: real, lag: real)
    : (r: (Slot, real))
    requires config.Some? ==> config.value.0 > 0
    requires slot.instance.Some? ==> slot.instance.value.maxCalls > 0
    ensures r.0.disabled == (slot.disabled || (slot.instance.None? && config.None?))
    ensures r.0.instance.Some? ==> r.0.instance.value.maxCalls > 0
    ensures r.1 >= t1 || lag < 0.0
  {
    var (s, limiter) := GetLimiter(slot, config);
    match limiter
      case None => (s, t1)
      case Some(l) =>
        var t2 := SecondReading(l, t1, lag);
        (s.(instance := Some(Acquire(l, t1, t2).limiter)), t2)
  }

  /** A step of a run: the settings seen at that step, the gap since the previous request went
      out and the clock's overshoot after a sleep. */
  datatype Tick = Tick(config: Option<(int, real)>, gap: real, lag: real)

  predicate ValidTicks(ticks: seq<Tick>)
  {
    forall i :: 0 <= i < |ticks| ==> ValidTick(ticks[i])
  }

  predicate ValidTick(t: Tick)
  {
    t.gap >= 0.0 && t.lag >= 0.0
      && (t.config.Some? ==> t.config.value.0 > 0 && t.config.value.1 > 0.0)
  }

  /** A run of requests from one process, each starting `gap` after the previous went out. */
  function Run(slot: Slot, now: real, ticks: seq<Tick>): (r: (Slot, real))
    requires ValidTicks(ticks)
    requires slot.instance.Some? ==> slot.instance.value.maxCalls > 0
    ensures r.0.instance.Some? ==> r.0.instance.value.maxCalls > 0
    decreases |ticks|
  {
    if ticks == [] then (slot, now)
    else
      assert ValidTick(ticks[0]);
      var (s, t) := RateLimitRequest(slot, ticks[0].config, now + ticks[0].gap, ticks[0].lag);
      Run(s, t, ticks[1..])
  }

  /** What holds of the slot between requests. */
  predicate SlotOk(slot: Slot, now: real)
  {
    (slot.instance.Some? ==> Window(slot.instance.value, now)) && !(slot.disabled && slot.instance.Some?)
  }

  /** Over any run with a monotonic clock, the limiter never holds more than `maxCalls` times in
      its window, they stay in order, and a limiter once disabled stays disabled. */
  lemma {:induction false} RunKeepsLimit(slot: Slot, now: real, ticks: seq<Tick>)
    requires ValidTicks(ticks) && SlotOk(slot, now)
    ensures slot.instance.Some? ==> slot.instance.value.maxCalls > 0
    ensures var r := Run(slot, now, ticks);
      SlotOk(r.0, r.1) && (slot.disabled ==> r.0.disabled && r.0.instance.None?)
      && (slot.instance.Some? ==> r.0.instance.Some? && r.0.instance.value.maxCalls == slot.instance.value.maxCalls)
    decreases |ticks|
  {
    if ticks != [] {
      var tk := ticks[0];
      TicksTail(ticks);
      StepKeepsSlot(slot, now, tk);
      var r1 := RateLimitRequest(slot, tk.config, now + tk.gap, tk.lag);
      assert Run(slot, now, ticks) == Run(r1.0, r1.1, ticks[1..]);
      RunKeepsLimit(r1.0, r1.1, ticks[1..]);
    }
  }

  lemma TicksTail(ticks: seq<Tick>)
    requires ValidTicks(ticks) && |ticks| > 0
    ensures ValidTick(ticks[0]) && ValidTicks(ticks[1..])
  {
    forall i | 0 <= i < |ticks[1..]| ensures ValidTick(ticks[1..][i]) {
      assert ticks[1..][i] == ticks[i + 1];
    }
  }

  /** One request keeps what `RunKeepsLimit` states of the slot. */
  lemma StepKeepsSlot(slot: Slot, now: real, tk: Tick)
    requires ValidTick(tk) && SlotOk(slot, now)
    ensures slot.instance.Some? ==> slot.instance.value.maxCalls > 0
    ensures var r := RateLimitRequest(slot, tk.config, now + tk.gap, tk.lag);
      SlotOk(r.0, r.1) && (slot.disabled ==> r.0.disabled && r.0.instance.None?)
      && (slot.instance.Some? ==> r.0.instance.Some? && r.0.instance.value.maxCalls == slot.instance.value.maxCalls)
  {
    var t1 := now + tk.gap;
    var g := GetLimiter(slot, tk.config);
    var r := RateLimitRequest(slot, tk.config, t1, tk.lag);
    match g.1
    case None =>
      assert r == (g.0, t1);
    case Some(l) =>
      assert Window(l, t1) by {
        if slot.instance.Some? {
          NotAfterLater(l.calls, now, t1);
        }
      }
      var t2 := SecondReading(l, t1, tk.lag);
      AcquireKeepsWindow(l, t1, tk.lag);
      assert r == (g.0.(instance := Some(Acquire(l, t1, t2).limiter)), t2);
  }

  lemma NotAfterLater(calls: seq<real>, t: real, u: real)
    requires NotAfter(calls, t) && t <= u
    ensures NotAfter(calls, u)
  {
  }
}

=== FILE: regions_demo.dfy ===
/** The pure parts of the 2GIS Regions API demonstration: the request parameters of the
    region searches, the ids read from a search response, the UTC offset shown for a time
    zone, and the check that refuses to run with a placeholder API key. */
module RegionsDemo {
  import opened Wrappers
  import opened Text
  import opened Json
  import opened Numerals

  // ---------------------------------------------------------------------------------------
  // Request parameters
  // ---------------------------------------------------------------------------------------

  /** `if fields: params['fields'] = fields`: only a non-empty text is sent. */
  function WithFields(params: seq<(string, string)>, fields: Option<string>): (r: seq<(string, string)>)
    ensures fields.Some? && fields.value != [] ==> r == params + [("fields", fields.value)]
    ensures !(fields.Some? && fields.value != []) ==> r == params
  {
    if fields.Some? && fields.value != [] then params + [("fields", fields.value)] else params
  }

  /** `search_by_name`: the query and the region type, then the optional fields. */
  function NameParams(query: string, fields: Option<string>, regionType: string): (r: seq<(string, string)>)
    ensures |r| >= 2 && r[0] == ("q", query) && r[1] == ("type", regionType)
    ensures |r| == 3 <==> fields.Some? && fields.value != []
  {
    WithFields([("q", query), ("type", regionType)], fields)
  }

  /** `get_by_id`: the id, then the optional fields. */
  function IdParams(regionId: string, fields: Option<string>): (r: seq<(string, string)>)
    ensures |r| >= 1 && r[0] == ("id", regionId)
    ensures |r| == 2 <==> fields.Some? && fields.value != []
  {
    WithFields([("id", regionId)], fields)
  }

  /** `search_by_coordinates`: the point as "longitude,latitude", then the region type and the
      optional fields; `show` stands for Python's rendering of a float. */
  function CoordinateParams(longitude: real, latitude: real, fields: Option<string>, regionType: string,
                            show: real -> string): (r: seq<(string, string)>)
    ensures |r| >= 2 && r[0].0 == "q" && r[1] == ("type", regionType)
    ensures |r| == 3 <==> fields.Some? && fields.value != []
  {
    WithFields([("q", show(longitude) + "," + show(latitude)), ("type", regionType)], fields)
  }

  /** The point text splits back into the longitude and the latitude, longitude first, as
      long as the rendered numbers hold no comma. */
  lemma CoordinateQueryLongitudeFirst(longitude: real, latitude: real, fields: Option<string>,
                                      regionType: string, show: real -> string)
    requires Lacks(show(longitude), ',') && Lacks(show(latitude), ',')
    ensures var q := CoordinateParams(longitude, latitude, fields, regionType, show)[0].1;
      SplitOn(q, ",") == [show(longitude), show(latitude)]
  {
    var pieces := [show(longitude), show(latitude)];
    assert Join(pieces, ",") == show(longitude) + "," + show(latitude) by {
      assert Join(pieces[1..], ",") == show(latitude);
    }
    SplitJoin(pieces, ",");
  }

  // ---------------------------------------------------------------------------------------
  // extract_region_ids
  // ---------------------------------------------------------------------------------------

  /** `'id' in item` answers without raising, and `item['id']` can be read when it answers
      yes: a dict, or a list or a text that does not hold "id". */
  predicate IdReadable(item: Json)
  {
    item.Obj? || PyIn("id", item) == Some(false)
  }

  /** The ids of the items that have one, rendered with `str`, in item order; `None` when an
      item makes the membership test or the lookup raise. */
  function ItemIds(items: seq<Json>, show: Json -> string): (r: Option<seq<string>>)
    ensures r.Some? <==> forall i :: 0 <= i < |items| ==> IdReadable(items[i])
    ensures r.Some? ==> |r.value| <= |items|
    decreases |items|
  {
    if |items| == 0 then Some([])
    else
      var rest := ItemIds(items[1..], show);
      assert forall i :: 1 <= i < |items| ==> items[1..][i - 1] == items[i];
      if !IdReadable(items[0]) || rest.None? then None
      else if Has(items[0], "id") then Some([Display(Get(items[0], "id", Null), show)] + rest.value)
      else rest
  }

  /** Every item with an id contributes its id, and nothing else is returned. */
  lemma {:induction false} ItemIdsMembers(items: seq<Json>, show: Json -> string)
    requires ItemIds(items, show).Some?
    ensures var r := ItemIds(items, show).value;
      forall i :: 0 <= i < |items| && Has(items[i], "id") ==> Display(Get(items[i], "id", Null), show) in r
    ensures var r := ItemIds(items, show).value;
      forall x :: x in r ==> exists i :: 0 <= i < |items| && Has(items[i], "id") && x == Display(Get(items[i], "id", Null), show)
    decreases |items|
  {
    if |items| > 0 {
      var r := ItemIds(items, show).value;
      var rest := ItemIds(items[1..], show).value;
      ItemIdsMembers(items[1..], show);
      assert forall i :: 1 <= i < |items| ==> items[1..][i - 1] == items[i];
      forall x | x in r
        ensures exists i :: 0 <= i < |items| && Has(items[i], "id") && x == Display(Get(items[i], "id", Null), show)
      {
        if x in rest {
          var j :| 0 <= j < |items[1..]| && Has(items[1..][j], "id") && x == Display(Get(items[1..][j], "id", Null), show);
          assert items[1..][j] == items[j + 1];
        }
      }
    }
  }

  /** The ids of two runs of items are the ids of the first followed by those of the second. */
  lemma {:induction false} ItemIdsConcat(a: seq<Json>, b: seq<Json>, show: Json -> string)
    requires ItemIds(a, show).Some? && ItemIds(b, show).Some?
    ensures ItemIds(a + b, show) == Some(ItemIds(a, show).value + ItemIds(b, show).value)
    decreases |a|
  {
    if |a| > 0 {
      assert (a + b)[1..] == a[1..] + b;
      assert (a + b)[0] == a[0];
      ItemIdsConcat(a[1..], b, show);
      var tail := ItemIds(a[1..], show).value;
      if Has(a[0], "id") {
        assert ItemIds(a, show).value == [Display(Get(a[0], "id", Null), show)] + tail;
        assert ([Display(Get(a[0], "id", Null), show)] + tail) + ItemIds(b, show).value
            == [Display(Get(a[0], "id", Null), show)] + (tail + ItemIds(b, show).value);
      }
    } else {
      assert a + b == b;
      assert ItemIds(a, show) == Some([]);
      assert [] + ItemIds(b, show).value == ItemIds(b, show).value;
    }
  }

  /** When every item has an id, the k-th id is the k-th item's. */
  lemma {:induction false} ItemIdsInOrder(items: seq<Json>, show: Json -> string)
    requires forall i :: 0 <= i < |items| ==> items[i].Obj? && Has(items[i], "id")
    ensures ItemIds(items, show).Some?
    ensures |ItemIds(items, show).value| == |items|
    ensures forall k :: 0 <= k < |items| ==> ItemIds(items, show).value[k] == Display(Get(items[k], "id", Null), show)
    decreases |items|
  {
    if |items| > 0 {
      ItemIdsInOrder(items[1..], show);
    }
  }

  /** `extract_region_ids`: nothing without a response or without "result"; otherwise the
      ids of the values `for item in items` visits (an empty list when "items" is missing).
      `None` where Python raises: a response `in` cannot search, a "result" found in a
      response that is not a dict, a `result` that is not a dict, or `items` that cannot be
      iterated. */
  function ExtractRegionIds(response: Json, show: Json -> string): (r: Option<seq<string>>)
    ensures !Truthy(response) || PyIn("result", response) == Some(false) ==> r == Some([])
    ensures Truthy(response) && PyIn("result", response).None? ==> r.None?
    ensures Truthy(response) && !response.Obj? && PyIn("result", response) == Some(true) ==> r.None?
    ensures Has(response, "result") && Get(response, "result", Null).Obj? ==>
      var items := Iterate(Get(Get(response, "result", Null), "items", Arr([])));
      (items.Some? ==> r == ItemIds(items.value, show)) && (items.None? ==> r.None?)
    ensures Has(response, "result") && !Get(response, "result", Null).Obj? ==> r.None?
  {
    if !Truthy(response) then Some([])
    else
      match PyIn("result", response)
        case None => None
        case Some(found) =>
          if !found then Some([])
          else if !response.Obj? then None
          else
            var result := Get(response, "result", Null);
            if !result.Obj? then None
            else
              match Iterate(Get(result, "items", Arr([])))
                case None => None
                case Some(items) => ItemIds(items, show)
  }

  /** Items that are not dicts are skipped when they cannot hold "id", and "items" given as
      an empty dict yields no id. */
  lemma NonDictItems(show: Json -> string)
    ensures ItemIds([Str("x"), Arr([Int(1)])], show) == Some([])
    ensures ExtractRegionIds(Obj([("result", Obj([("items", Obj([]))]))]), show) == Some([])
  {
    assert !Contains("x", "id");
    assert Str("id") !in [Int(1)];
    var items := [Str("x"), Arr([Int(1)])];
    assert items[1..][1..] == [];
    var response := Obj([("result", Obj([("items", Obj([]))]))]);
    LookupAt(response.fields, 0, "result");
    LookupAt(Obj([("items", Obj([]))]).fields, 0, "items");
    assert Keys([]) == [];
    assert |Iterate(Obj([])).value| == 0;
  }

  // ---------------------------------------------------------------------------------------
  // Time-zone offset
  // ---------------------------------------------------------------------------------------

  /** The UTC offset text of a time zone whose offset is `offset` minutes: the sign ("+" for
      zero), the whole hours of the absolute offset, ":", and its remaining minutes with two
      digits; -570 shows as "-9:30". */
  function OffsetText(offset: int): (r: string)
    ensures |r| >= 5 && (r[0] == '+' <==> offset >= 0) && (r[0] == '-' <==> offset < 0)
    ensures r[|r| - 3] == ':' && AllDigits(r[|r| - 2..]) && AllDigits(r[1..|r| - 3])
  {
    var a := if offset < 0 then -offset else offset;
    var sign := if offset >= 0 then "+" else "-";
    assert a % 60 < 100;
    sign + NatToString(a / 60) + ":" + PadTwo(a % 60)
  }

  /** The inverse of `OffsetText`: a sign, decimal hours, ":", two decimal minutes below 60;
      "-0:00" is not an offset text, since zero shows as "+0:00". */
  function ParseOffset(s: string): (r: Option<int>)
    ensures r.Some? ==> |s| >= 1 && (s[0] == '+' <==> r.value >= 0)
  {
    if |s| < 5 || (s[0] != '+' && s[0] != '-') || s[|s| - 3] != ':' then None
    else SignedOffset(s[0], s[1..|s| - 3], s[|s| - 2..])
  }

  /** The offset of the parts of an offset text: the sign, the hours and the minutes. */
  function SignedOffset(sign: char, hours: string, minutes: string): (r: Option<int>)
    ensures r.Some? ==> (sign == '+' <==> r.value >= 0)
  {
    if hours == [] || !AllDigits(hours) || !AllDigits(minutes) then None
    else
      var m := DigitsToNat(minutes);
      var total := DigitsToNat(hours) * 60 + m;
      if m >= 60 then None
      else if sign == '+' then Some(total)
      else if total == 0 then None
      else Some(-total)
  }

  /** Reading an offset text gives back the offset. */
  lemma OffsetRoundTrip(offset: int)
    ensures ParseOffset(OffsetText(offset)) == Some(offset)
  {
    var a := if offset < 0 then -offset else offset;
    var c := if offset >= 0 then '+' else '-';
    var h := NatToString(a / 60);
    var p := PadTwo(a % 60);
    assert OffsetText(offset) == [c] + h + ":" + p;
    assert DigitsToNat(h) * 60 + DigitsToNat(p) == a && DigitsToNat(p) < 60 by {
      NatToStringRoundTrip(a / 60);
      PadTwoValue(a % 60);
      DivModSplit(a, 60);
    }
    ParseSigned(c, h, p);
  }

  /** A signed "h:mm" text reads as its parts. */
  lemma ParseSigned(c: char, h: string, p: string)
    requires (c == '+' || c == '-') && |p| == 2
    ensures ParseOffset([c] + h + ":" + p) == SignedOffset(c, h, p)
  {
    SignedParts(c, h, p);
  }

  /** Where the sign, the hours, the colon and the minutes sit in a signed "h:mm" text. */
  lemma SignedParts(c: char, h: string, p: string)
    requires |p| == 2
    ensures var s := [c] + h + ":" + p;
      |s| == |h| + 4 && s[0] == c && s[|s| - 3] == ':' && s[1..|s| - 3] == h && s[|s| - 2..] == p
  {
    var s := [c] + h + ":" + p;
    assert s[1..|s| - 3] == h;
    assert s[|s| - 2..] == p;
  }

  /** Distinct offsets show differently. */
  lemma OffsetTextInjective(a: int, b: int)
    requires a != b
    ensures OffsetText(a) != OffsetText(b)
  {
    OffsetRoundTrip(a);
    OffsetRoundTrip(b);
  }

  /** The offset shown for a time-zone dict: its "offset", 0 when missing; a bool counts as
      0 or 1, as `abs(True)` is 1. `None` for any other offset: `abs` or the minus sign fails on
      text, lists, dicts and `None`, and the `:02d` format refuses a float's minutes. */
  function ZoneOffsetText(tz: Json): (r: Option<string>)
    requires tz.Obj?
    ensures !Has(tz, "offset") ==> r == Some("+0:00")
    ensures r.Some? <==> Get(tz, "offset", Int(0)).Int? || Get(tz, "offset", Int(0)).Bool?
    ensures r.Some? && Get(tz, "offset", Int(0)).Int? ==> ParseOffset(r.value) == Some(Get(tz, "offset", Int(0)).i)
    ensures r.Some? && Get(tz, "offset", Int(0)).Bool? ==>
      ParseOffset(r.value) == Some(if Get(tz, "offset", Int(0)).b then 1 else 0)
  {
    var o := Get(tz, "offset", Int(0));
    ZeroOffsetText();
    match o
      case Int(i) =>
        OffsetRoundTrip(i);
        Some(OffsetText(i))
      case Bool(b) =>
        var minutes := if b then 1 else 0;
        OffsetRoundTrip(minutes);
        Some(OffsetText(minutes))
      case _ => None
  }

  /** `{"offset": true}` shows as "+0:01", and a float offset is refused. */
  lemma BoolOffsetShown()
    ensures ZoneOffsetText(Obj([("offset", Bool(true))])) == Some("+0:01")
    ensures ZoneOffsetText(Obj([("offset", Float(60.0))])).None?
  {
    assert ZoneOffsetText(Obj([("offset", Bool(true))])) == Some(OffsetText(1));
    assert OffsetText(1) == "+0:01" by {
      assert NatToString(0) == "0";
      assert PadTwo(1) == "01";
    }
  }

  /** A zero offset, the default for a zone without one, shows as "+0:00". */
  lemma ZeroOffsetText()
    ensures OffsetText(0) == "+0:00"
  {
    assert NatToString(0) == "0";
    assert PadTwo(0) == "00";
  }

  // ---------------------------------------------------------------------------------------
  // Placeholder API keys
  // ---------------------------------------------------------------------------------------

  /** The texts that mark an API key as not configured. */
  const Placeholders: seq<string> :=
    ["YOUR_API_KEY_HERE", "your_api_key_here", "YOUR_API_KEY", "your_api_key", "API_KEY", "api_key",
     "REPLACE_ME", "xxx", ""]

  function LowerAll(ps: seq<string>): (r: seq<string>)
    ensures |r| == |ps| && forall i :: 0 <= i < |ps| ==> r[i] == Lower(ps[i])
  {
    seq(|ps|, i requires 0 <= i < |ps| => Lower(ps[i]))
  }

  /** The start-up check: the key is empty, or lowered then stripped it is one of the
      lowered placeholders. */
  predicate Unconfigured(key: string)
  {
    key == [] || Strip(Lower(key)) in LowerAll(Placeholders)
  }

  /** The lowered placeholders, written out: five distinct texts and the empty one. */
  const PlaceholderForms: set<string> := {"your_api_key_here", "your_api_key", "api_key", "replace_me", "xxx", ""}

  lemma LoweredPlaceholders()
    ensures forall x :: x in LowerAll(Placeholders) <==> x in PlaceholderForms
  {
    var l := LowerAll(Placeholders);
    LowerKeyHere();
    LowerKey();
    LowerApiKey();
    LowerReplaceMe();
    assert l[0] == "your_api_key_here" && l[1] == "your_api_key_here";
    assert l[2] == "your_api_key" && l[3] == "your_api_key";
    assert l[4] == "api_key" && l[5] == "api_key";
    assert l[6] == "replace_me" && l[7] == "xxx" && l[8] == "";
  }

  lemma LowerKeyHere()
    ensures Lower("YOUR_API_KEY_HERE") == Lower("your_api_key_here") == "your_api_key_here"
  {
  }

  lemma LowerKey()
    ensures Lower("YOUR_API_KEY") == Lower("your_api_key") == "your_api_key"
  {
  }

  lemma LowerApiKey()
    ensures Lower("API_KEY") == Lower("api_key") == "api_key"
  {
  }

  lemma LowerReplaceMe()
    ensures Lower("REPLACE_ME") == "replace_me" && Lower("xxx") == "xxx" && Lower("") == ""
  {
  }

  /** A key is refused exactly when it is empty or, stripped and lowered in either order, it
      is one of the placeholder forms; so blank keys are refused too. */
  lemma UnconfiguredMeans(key: string)
    ensures Unconfigured(key) <==> key == [] || Lower(Strip(key)) in PlaceholderForms
    ensures AllSpace(key) ==> Unconfigured(key)
  {
    LoweredPlaceholders();
    StripLowerCommute(key);
    if AllSpace(key) {
      StripShape(key);
      assert Strip(key) == [];
    }
  }

  /** The check ignores letter case. */
  lemma UnconfiguredIgnoresCase(key: string)
    ensures Unconfigured(Upper(key)) <==> Unconfigured(key)
    ensures Unconfigured(Lower(key)) <==> Unconfigured(key)
  {
    CaseIdempotent(key);
  }
}

=== FILE: repository.dfy ===
/** The validation and normalisation the repository layer applies before it touches the
    database, and the places cache as a list of rows. The SQL itself, sessions and commits
    are not modelled; the clock is a parameter (seconds) and the MD5 digest an uninterpreted
    function. */
module Repository {
  import opened Wrappers
  import opened Text
  import Json

  /** What a constructor either builds or refuses with `ValueError(reason)`. */
  datatype Checked<T> = Valid(value: T) | Rejected(reason: string)

  // ---------------------------------------------------------------------------------------
  // `validate_email`: `^[a-zA-Z0-9._%+-]+@[a-zA-Z0-9.-]+\.[a-zA-Z]{2,}$` under `re.match`
  // ---------------------------------------------------------------------------------------

  predicate LocalChar(c: char)
  {
    IsAsciiLetter(c) || IsDigit(c) || c == '.' || c == '_' || c == '%' || c == '+' || c == '-'
  }

  predicate DomainChar(c: char)
  {
    IsAsciiLetter(c) || IsDigit(c) || c == '.' || c == '-'
  }

  /** The pattern matches all of `t` with its `@` at `a` and the dot before the final letters
      at `d`. */
  predicate PatternAt(t: string, a: int, d: int)
  {
    0 < a && a + 1 < d && d + 3 <= |t| && t[a] == '@' && t[d] == '.'
    && (forall i :: 0 <= i < a ==> LocalChar(t[i]))
    && (forall i :: a < i < d ==> DomainChar(t[i]))
    && (forall i :: d < i < |t| ==> IsAsciiLetter(t[i]))
  }

  /** The pattern matches all of `t`, by some split. */
  ghost predicate Pattern(t: string)
  {
    exists a, d :: PatternAt(t, a, d)
  }

  /** `re.match` anchored by `$`, which also matches before a final newline. */
  ghost predicate EmailMatches(e: string)
  {
    Pattern(e) || (|e| > 0 && e[|e| - 1] == '\n' && Pattern(e[..|e| - 1]))
  }

  /** The first index of `c` in `s`, or -1. */
  function FirstAt(s: string, c: char): (r: int)
    ensures -1 <= r < |s|
    ensures r >= 0 ==> s[r] == c
    ensures forall i :: 0 <= i < |s| && (r == -1 || i < r) ==> s[i] != c
    decreases |s|
  {
    if |s| == 0 then -1
    else if s[0] == c then 0
    else
      var r := FirstAt(s[1..], c);
      if r == -1 then -1 else r + 1
  }

  /** The last index of `c` in `s`, or -1. */
  function LastAt(s: string, c: char): (r: int)
    ensures -1 <= r < |s|
    ensures r >= 0 ==> s[r] == c
    ensures forall i :: 0 <= i < |s| && r < i ==> s[i] != c
    decreases |s|
  {
    if |s| == 0 then -1
    else if s[|s| - 1] == c then |s| - 1
    else LastAt(s[..|s| - 1], c)
  }

  /** A direct check of the pattern: the first `@` and the last dot are the only possible
      split. */
  function CheckPattern(t: string): bool
  {
    var a := FirstAt(t, '@');
    var d := LastAt(t, '.');
    PatternAt(t, a, d)
  }

  /** The direct check decides the pattern. */
  lemma CheckPatternCorrect(t: string)
    ensures CheckPattern(t) <==> Pattern(t)
  {
    if Pattern(t) {
      var a, d :| PatternAt(t, a, d);
      assert FirstAt(t, '@') == a by {
        var f := FirstAt(t, '@');
        assert f != -1 && f <= a;
        assert !LocalChar('@');
      }
      assert LastAt(t, '.') == d by {
        var l := LastAt(t, '.');
        assert l >= d;
        assert !IsAsciiLetter('.');
      }
    }
  }

  /** `validate_email(email)`. */
  function ValidateEmail(e: string): (r: bool)
    ensures r <==> EmailMatches(e)
  {
    CheckPatternCorrect(e);
    CheckPatternCorrect(if |e| > 0 then e[..|e| - 1] else e);
    CheckPattern(e) || (|e| > 0 && e[|e| - 1] == '\n' && CheckPattern(e[..|e| - 1]))
  }

  // ---------------------------------------------------------------------------------------
  // Coordinates, strings, limits, modes
  // ---------------------------------------------------------------------------------------

  /** `validate_coordinates(lat, lon)`. */
  function ValidateCoordinates(lat: real, lon: real): (r: bool)
    ensures r <==> -90.0 <= lat <= 90.0 && -180.0 <= lon <= 180.0
  {
    -90.0 <= lat <= 90.0 && -180.0 <= lon <= 180.0
  }

  /** `sanitize_string(value, max_length)`; a falsy value (`None` or "") gives "". */
  function Sanitize(value: Option<string>, maxLength: int): (r: string)
    ensures value.None? || value == Some("") ==> r == ""
    ensures value.Some? && maxLength >= 0 ==>
      var s := Strip(value.value);
      |r| == (if maxLength < |s| then maxLength else |s|) && r == s[..|r|]
  {
    if value.None? || value.value == "" then ""
    else
      var s := Strip(value.value);
      var lo, hi := SliceBound(|s|, 0), SliceBound(|s|, maxLength);
      if lo < hi then s[lo..hi] else []
  }

  /** Short text with nothing to strip comes back as it was. */
  lemma SanitizeKeepsCleanText(v: string, maxLength: int)
    requires |v| <= maxLength
    requires |v| == 0 || (!IsSpace(v[0]) && !IsSpace(v[|v| - 1]))
    ensures Sanitize(Some(v), maxLength) == v
  {
    StripShape(v);
  }

  /** Truncation after stripping can leave white space at the end, so sanitising the result
      again can change it: a clean text longer than the limit whose cut falls after a space. */
  lemma SanitizeNotIdempotent(v: string, n: int)
    requires 1 <= n < |v| && !IsSpace(v[0]) && !IsSpace(v[|v| - 1]) && IsSpace(v[n - 1])
    ensures Sanitize(Some(v), n) == v[..n]
    ensures Sanitize(Some(Sanitize(Some(v), n)), n) != Sanitize(Some(v), n)
  {
    StripShape(v);
    var w := v[..n];
    assert w != "" && w[n - 1] == v[n - 1];
    StripShape(w);
  }

  /** `sanitize_string(x, n) if x else None`. */
  function SanitizeOptional(x: Option<string>, maxLength: int): (r: Option<string>)
    ensures r.None? <==> x.None? || x == Some("")
    ensures r.Some? ==> r.value == Sanitize(x, maxLength)
  {
    if x.None? || x.value == "" then None else Some(Sanitize(x, maxLength))
  }

  /** `min(max(1, limit), cap)`. */
  function ClampLimit(limit: int, cap: int): (r: int)
    requires cap >= 1
    ensures 1 <= r <= cap
    ensures 1 <= limit <= cap ==> r == limit
    ensures limit < 1 ==> r == 1
    ensures limit > cap ==> r == cap
  {
    var low := if 1 >= limit then 1 else limit;
    if low <= cap then low else cap
  }

  /** Clamping a clamped limit changes nothing. */
  lemma ClampIdempotent(limit: int, cap: int)
    requires cap >= 1
    ensures ClampLimit(ClampLimit(limit, cap), cap) == ClampLimit(limit, cap)
  {
  }

  /** The cap on listed places and routes. */
  const ListCap := 1000

  /** The cap on popular searches. */
  const PopularCap := 100

  const ValidModes: set<string> := {"car", "pedestrian", "bicycle", "public_transport"}

  /** `preferred_mode if preferred_mode in valid_modes else "car"`. */
  function RouteMode(preferred: string): (r: string)
    ensures r in ValidModes
    ensures preferred in ValidModes ==> r == preferred
    ensures preferred !in ValidModes ==> r == "car"
  {
    if preferred in ValidModes then preferred else "car"
  }

  // ---------------------------------------------------------------------------------------
  // Rows as the constructors build them
  // ---------------------------------------------------------------------------------------

  datatype NewUser = NewUser(email: string, passwordHash: string, name: Option<string>)

  /** `UserRepository.create`: the row it adds. */
  function CreateUser(email: string, passwordHash: string, name: Option<string>): (r: Checked<NewUser>)
    ensures r.Rejected? <==> !EmailMatches(email)
    ensures r.Rejected? ==> r.reason == "Invalid email format"
    ensures r.Valid? ==> r.value.email == Strip(Lower(email)) && r.value.passwordHash == passwordHash
    ensures r.Valid? && r.value.name.Some? ==> |r.value.name.value| <= 100
  {
    if !ValidateEmail(email) then Rejected("Invalid email format")
    else Valid(NewUser(Strip(Lower(email)), passwordHash, SanitizeOptional(name, 100)))
  }

  /** `UserRepository.get_by_email`: the email it looks up, or `None` when it does not query. */
  function EmailLookup(email: string): (r: Option<string>)
    ensures r.None? <==> !EmailMatches(email)
    ensures r.Some? ==> r.value == Lower(email)
  {
    if ValidateEmail(email) then Some(Lower(email)) else None
  }

  datatype SavedPlace = SavedPlace(userId: int, placeId: Option<string>, name: string, address: Option<string>,
                                   lat: real, lon: real, category: Option<string>, city: Option<string>)

  /** `SavedPlaceRepository.create`: the row it adds. */
  function CreatePlace(userId: int, name: Option<string>, lat: real, lon: real, placeId: Option<string>,
                       address: Option<string>, category: Option<string>, city: Option<string>): (r: Checked<SavedPlace>)
    ensures r.Rejected? <==> !(-90.0 <= lat <= 90.0 && -180.0 <= lon <= 180.0)
    ensures r.Rejected? ==> r.reason == "Invalid coordinates"
    ensures r.Valid? ==>
      r.value.lat == lat && r.value.lon == lon && r.value.userId == userId
      && |r.value.name| <= 255
      && (r.value.city.Some? ==> |r.value.city.value| <= 50)
  {
    if !ValidateCoordinates(lat, lon) then Rejected("Invalid coordinates")
    else
      Valid(SavedPlace(userId, SanitizeOptional(placeId, 100), Sanitize(name, 255), SanitizeOptional(address, 500),
                       lat, lon, SanitizeOptional(category, 100), SanitizeOptional(city, 50)))
  }

  datatype SavedRoute = SavedRoute(userId: int, name: Option<string>, originName: Option<string>,
                                   originLat: real, originLon: real, destinationName: Option<string>,
                                   destinationLat: real, destinationLon: real, mode: string, waypoints: Json.Json)

  /** `SavedRouteRepository.create`: the row it adds; the origin is checked first. */
  function CreateRoute(userId: int, originLat: real, originLon: real, destinationLat: real, destinationLon: real,
                       name: Option<string>, originName: Option<string>, destinationName: Option<string>,
                       preferredMode: string, waypoints: Json.Json): (r: Checked<SavedRoute>)
    ensures !ValidateCoordinates(originLat, originLon) ==> r == Rejected("Invalid origin coordinates")
    ensures ValidateCoordinates(originLat, originLon) && !ValidateCoordinates(destinationLat, destinationLon) ==>
      r == Rejected("Invalid destination coordinates")
    ensures r.Valid? <==> ValidateCoordinates(originLat, originLon) && ValidateCoordinates(destinationLat, destinationLon)
    ensures r.Valid? ==>
      r.value.mode in ValidModes && (preferredMode in ValidModes <==> r.value.mode == preferredMode)
      && r.value.waypoints == waypoints
  {
    if !ValidateCoordinates(originLat, originLon) then Rejected("Invalid origin coordinates")
    else if !ValidateCoordinates(destinationLat, destinationLon) then Rejected("Invalid destination coordinates")
    else
      Valid(SavedRoute(userId, SanitizeOptional(name, 255), SanitizeOptional(originName, 255), originLat, originLon,
                       SanitizeOptional(destinationName, 255), destinationLat, destinationLon,
                       RouteMode(preferredMode), waypoints))
  }

  datatype SearchLog = SearchLog(userId: Option<int>, query: string, city: Option<string>, resultCount: Option<int>,
                                 selectedPlaceId: Option<string>)

  /** `SearchHistoryRepository.log_search`: the row it adds. */
  function LogSearch(query: string, city: Option<string>, userId: Option<int>, resultCount: Option<int>,
                     selectedPlaceId: Option<string>): (r: SearchLog)
    ensures |r.query| <= 500 && (r.city.Some? ==> |r.city.value| <= 50)
    ensures r.city.None? <==> city.None? || city == Some("")
  {
    SearchLog(userId, Sanitize(Some(query), 500), SanitizeOptional(city, 50), resultCount,
              SanitizeOptional(selectedPlaceId, 100))
  }

  /** What `get_popular_searches` asks for: the clamped limit and the optional city filter. */
  function PopularQuery(city: Option<string>, limit: int): (r: (int, Option<string>))
    ensures 1 <= r.0 <= PopularCap
    ensures r.1.None? <==> city.None? || city == Some("")
  {
    (ClampLimit(limit, PopularCap), SanitizeOptional(city, 50))
  }

  datatype RouteLog = RouteLog(originLat: Option<real>, originLon: Option<real>, destinationLat: Option<real>,
                               destinationLon: Option<real>, mode: string, success: bool, errorMessage: Option<string>)

  /** `RouteRequestRepository.log_request`: each coordinate is kept or dropped on its own. */
  function LogRequest(originLat: real, originLon: real, destinationLat: real, destinationLon: real,
                      mode: string, success: bool, errorMessage: Option<string>): (r: RouteLog)
    ensures r.originLat == (if -90.0 <= originLat <= 90.0 then Some(originLat) else None)
    ensures r.originLon == (if -180.0 <= originLon <= 180.0 then Some(originLon) else None)
    ensures r.destinationLat == (if -90.0 <= destinationLat <= 90.0 then Some(destinationLat) else None)
    ensures r.destinationLon == (if -180.0 <= destinationLon <= 180.0 then Some(destinationLon) else None)
    ensures |r.mode| <= 20
  {
    RouteLog(if ValidateCoordinates(originLat, 0.0) then Some(originLat) else None,
             if ValidateCoordinates(0.0, originLon) then Some(originLon) else None,
             if ValidateCoordinates(destinationLat, 0.0) then Some(destinationLat) else None,
             if ValidateCoordinates(0.0, destinationLon) then Some(destinationLon) else None,
             Sanitize(Some(mode), 20), success, SanitizeOptional(errorMessage, 1000))
  }

  // ---------------------------------------------------------------------------------------
  // `UserRepository.update`
  // ---------------------------------------------------------------------------------------

  const UpdatableFields: set<string> := {"name", "preferred_city", "is_active"}

  /** `kwargs` sets `key` to a non-`None` value. */
  predicate Sets(kwargs: seq<(string, Json.Json)>, key: string)
  {
    exists i :: 0 <= i < |kwargs| && kwargs[i].0 == key && kwargs[i].1 != Json.Null
  }

  /** The value `kwargs` gives `key` last among its non-`None` values; a keyword dict holds
      each key once, so this is the value given for it. */
  function LastSet(kwargs: seq<(string, Json.Json)>, key: string): (r: Option<Json.Json>)
    ensures r.Some? <==> Sets(kwargs, key)
    ensures r.Some? ==> r.value != Json.Null && (key, r.value) in kwargs
    decreases |kwargs|
  {
    if |kwargs| == 0 then None
    else
      SetsLast(kwargs);
      if kwargs[|kwargs| - 1].0 == key && kwargs[|kwargs| - 1].1 != Json.Null then Some(kwargs[|kwargs| - 1].1)
      else
        var r := LastSet(kwargs[..|kwargs| - 1], key);
        assert r.Some? ==> (key, r.value) in kwargs by {
          if r.Some? {
            var i :| 0 <= i < |kwargs| - 1 && kwargs[..|kwargs| - 1][i] == (key, r.value);
            assert kwargs[i] == (key, r.value);
          }
        }
        r
  }

  /** A key is set by `kwargs` when it is set by all entries but the last, or by the last. */
  lemma SetsLast(kwargs: seq<(string, Json.Json)>)
    requires |kwargs| > 0
    ensures var (key, value) := kwargs[|kwargs| - 1];
      forall k :: Sets(kwargs, k) <==> Sets(kwargs[..|kwargs| - 1], k) || (k == key && value != Json.Null)
  {
    var (key, value) := kwargs[|kwargs| - 1];
    forall k | Sets(kwargs, k)
      ensures Sets(kwargs[..|kwargs| - 1], k) || (k == key && value != Json.Null)
    {
      var i :| 0 <= i < |kwargs| && kwargs[i].0 == k && kwargs[i].1 != Json.Null;
      if i < |kwargs| - 1 {
        assert kwargs[..|kwargs| - 1][i] == kwargs[i];
      }
    }
    forall k | Sets(kwargs[..|kwargs| - 1], k)
      ensures Sets(kwargs, k)
    {
      var i :| 0 <= i < |kwargs| - 1 && kwargs[..|kwargs| - 1][i].0 == k && kwargs[..|kwargs| - 1][i].1 != Json.Null;
      assert kwargs[i] == kwargs[..|kwargs| - 1][i];
    }
    if value != Json.Null {
      assert kwargs[|kwargs| - 1].0 == key;
    }
  }

  /** The last entry decides the value of its own key when it is not `None`; every other key
      keeps the value the entries before it give. */
  lemma LastSetStep(kwargs: seq<(string, Json.Json)>)
    requires |kwargs| > 0
    ensures var (key, value) := kwargs[|kwargs| - 1];
      forall k :: LastSet(kwargs, k) == (if k == key && value != Json.Null then Some(value) else LastSet(kwargs[..|kwargs| - 1], k))
  {
  }

  /** What the update stores for an allowed key: `sanitize_string(str(value), 100)`. */
  function Stored(value: Json.Json, show: Json.Json -> string): Json.Json
  {
    Json.Str(Sanitize(Some(show(value)), 100))
  }

  /** The loop over `kwargs`: an allowed key with a non-`None` value is set to
      `sanitize_string(str(value), 100)`; `show` stands for `str`. */
  function ApplyUpdates(user: Json.Json, kwargs: seq<(string, Json.Json)>, show: Json.Json -> string): (r: Json.Json)
    requires user.Obj?
    ensures r.Obj?
    ensures forall k :: k !in UpdatableFields || !Sets(kwargs, k) ==>
      Json.Lookup(r.fields, k) == Json.Lookup(user.fields, k)
    ensures forall k :: k in UpdatableFields && Sets(kwargs, k) ==>
      Json.Lookup(r.fields, k).Some? && Json.Lookup(r.fields, k).value.Str?
      && |Json.Lookup(r.fields, k).value.s| <= 100
    decreases |kwargs|
  {
    if |kwargs| == 0 then user
    else
      var (key, value) := kwargs[|kwargs| - 1];
      var before := ApplyUpdates(user, kwargs[..|kwargs| - 1], show);
      SetsLast(kwargs);
      if key in UpdatableFields && value != Json.Null then
        Json.Put(before, key, Stored(value, show))
      else before
  }

  /** Every allowed key the keywords set holds the sanitised text of the value given last. */
  lemma {:induction false} UpdatesStoreGivenValue(user: Json.Json, kwargs: seq<(string, Json.Json)>, show: Json.Json -> string)
    requires user.Obj?
    ensures forall k :: k in UpdatableFields && Sets(kwargs, k) ==>
      Json.Lookup(ApplyUpdates(user, kwargs, show).fields, k) == Some(Stored(LastSet(kwargs, k).value, show))
    decreases |kwargs|
  {
    if |kwargs| > 0 {
      UpdatesStoreGivenValue(user, kwargs[..|kwargs| - 1], show);
      SetsLast(kwargs);
      LastSetStep(kwargs);
    }
  }

  /** `UserRepository.update`: `None` when there is no such user; otherwise every allowed key
      given a non-`None` value holds that value's sanitised text, and every other field is
      as it was. */
  function UpdateUser(user: Option<Json.Json>, kwargs: seq<(string, Json.Json)>, show: Json.Json -> string): (r: Option<Json.Json>)
    requires user.Some? ==> user.value.Obj?
    ensures r.None? <==> user.None?
    ensures r.Some? ==> r.value.Obj?
    ensures r.Some? ==> forall k :: k !in UpdatableFields ==> Json.Lookup(r.value.fields, k) == Json.Lookup(user.value.fields, k)
    ensures r.Some? ==> forall k :: k in UpdatableFields && !Sets(kwargs, k) ==>
      Json.Lookup(r.value.fields, k) == Json.Lookup(user.value.fields, k)
    ensures r.Some? ==> forall k :: k in UpdatableFields && Sets(kwargs, k) ==>
      Json.Lookup(r.value.fields, k) == Some(Stored(LastSet(kwargs, k).value, show))
  {
    if user.None? then None
    else
      UpdatesStoreGivenValue(user.value, kwargs, show);
      Some(ApplyUpdates(user.value, kwargs, show))
  }

  // ---------------------------------------------------------------------------------------
  // Places cache
  // ---------------------------------------------------------------------------------------

  /** The text `_generate_hash` digests. */
  function CacheKey(query: string, city: Option<string>): (r: string)
    ensures r == Strip(Lower(query)) + ":" + (if city.Some? && city.value != "" then Strip(Lower(city.value)) else "")
  {
    Strip(Lower(query)) + ":" + (if city.Some? && city.value != "" then Strip(Lower(city.value)) else "")
  }

  /** Normalising a text the way the key does is absorbed by the key. */
  lemma NormalisedTextSameKeyPart(s: string)
    ensures Strip(Lower(Strip(s))) == Strip(Lower(s))
    ensures Strip(Lower(Lower(s))) == Strip(Lower(s))
    ensures Strip(Lower(Upper(s))) == Strip(Lower(s))
  {
    StripLowerCommute(s);
    StripLowerCommute(Strip(s));
    StripIdempotent(s);
    CaseIdempotent(s);
  }

  /** The key ignores case and surrounding white space of the query. */
  lemma CacheKeyNormalisesQuery(query: string, city: Option<string>)
    ensures CacheKey(Strip(query), city) == CacheKey(query, city)
    ensures CacheKey(Upper(query), city) == CacheKey(query, city)
  {
    NormalisedTextSameKeyPart(query);
  }

  /** The key ignores case and surrounding white space of a given city. */
  lemma CacheKeyNormalisesCity(query: string, city: string)
    requires Strip(city) != ""
    ensures CacheKey(query, Some(Upper(city))) == CacheKey(query, Some(city))
    ensures CacheKey(query, Some(Strip(city))) == CacheKey(query, Some(city))
  {
    NormalisedTextSameKeyPart(city);
    assert city != "";
    assert Upper(city) != "" by {
      assert |Upper(city)| == |city|;
    }
    var tail := Strip(Lower(city));
    assert CacheKey(query, Some(city)) == Strip(Lower(query)) + ":" + tail;
    assert CacheKey(query, Some(Upper(city))) == Strip(Lower(query)) + ":" + tail;
    assert CacheKey(query, Some(Strip(city))) == Strip(Lower(query)) + ":" + tail;
  }

  /** A missing city and the empty city give the same key. */
  lemma CacheKeyNoCity(query: string)
    ensures CacheKey(query, None) == CacheKey(query, Some(""))
  {
  }

  /** `hashlib.md5(key.encode()).hexdigest()`. */
  type Digest = string -> string

  datatype CacheRow = CacheRow(hash: string, query: string, city: Option<string>, results: Json.Json, expiresAt: int)

  /** The number of rows under `hash`. */
  function HashCount(rows: seq<CacheRow>, hash: string): (r: nat)
    ensures r <= |rows|
    decreases |rows|
  {
    if |rows| == 0 then 0 else (if rows[0].hash == hash then 1 else 0) + HashCount(rows[1..], hash)
  }

  /** The first row under `hash`, or -1 (`.filter(query_hash == h).first()`). */
  function FirstRow(rows: seq<CacheRow>, hash: string): (r: int)
    ensures -1 <= r < |rows|
    ensures r >= 0 ==> rows[r].hash == hash
    ensures forall i :: 0 <= i < |rows| && (r == -1 || i < r) ==> rows[i].hash != hash
    decreases |rows|
  {
    if |rows| == 0 then -1
    else if rows[0].hash == hash then 0
    else
      var r := FirstRow(rows[1..], hash);
      if r == -1 then -1 else r + 1
  }

  /** `set_cache` at time `now`: the first row under the key's digest takes the new results
      and expiry; without one a row is added at the end. */
  function SetCache(rows: seq<CacheRow>, query: string, city: Option<string>, results: Json.Json,
                    ttlHours: int, now: int, md5: Digest): (r: seq<CacheRow>)
    ensures var h := md5(CacheKey(query, city));
      var i := FirstRow(rows, h);
      (i >= 0 ==> |r| == |rows| && r[i].hash == h && r[i].results == results
                  && r[i].expiresAt == now + ttlHours * 3600
                  && forall j :: 0 <= j < |rows| && j != i ==> r[j] == rows[j])
      && (i == -1 ==> |r| == |rows| + 1 && r[..|rows|] == rows && r[|rows|].hash == h
                      && r[|rows|].results == results && r[|rows|].expiresAt == now + ttlHours * 3600)
  {
    var h := md5(CacheKey(query, city));
    var i := FirstRow(rows, h);
    var expires := now + ttlHours * 3600;
    if i >= 0 then rows[i := rows[i].(results := results, expiresAt := expires)]
    else rows + [CacheRow(h, Sanitize(Some(query), 500), SanitizeOptional(city, 50), results, expires)]
  }

  /** An upsert never adds a second row under a digest: the count becomes one, or stays. */
  lemma {:induction false} SetCacheUpserts(rows: seq<CacheRow>, query: string, city: Option<string>, results: Json.Json,
                                           ttlHours: int, now: int, md5: Digest)
    ensures var h := md5(CacheKey(query, city));
      HashCount(SetCache(rows, query, city, results, ttlHours, now, md5), h)
        == (if HashCount(rows, h) == 0 then 1 else HashCount(rows, h))
  {
    var h := md5(CacheKey(query, city));
    var r := SetCache(rows, query, city, results, ttlHours, now, md5);
    var i := FirstRow(rows, h);
    if i >= 0 {
      HashCountSameHashes(rows, r, h);
      HashCountPositive(rows, h, i);
    } else {
      HashCountNone(rows, h);
      HashCountSnoc(rows, r[|rows|], h);
      assert r == rows + [r[|rows|]];
    }
  }

  lemma {:induction false} HashCountSameHashes(a: seq<CacheRow>, b: seq<CacheRow>, h: string)
    requires |a| == |b| && forall j :: 0 <= j < |a| ==> (a[j].hash == h <==> b[j].hash == h)
    ensures HashCount(a, h) == HashCount(b, h)
    decreases |a|
  {
    if |a| > 0 {
      HashCountSameHashes(a[1..], b[1..], h);
    }
  }

  lemma {:induction false} HashCountPositive(rows: seq<CacheRow>, h: string, i: int)
    requires 0 <= i < |rows| && rows[i].hash == h
    ensures HashCount(rows, h) > 0
    decreases |rows|
  {
    if i > 0 {
      HashCountPositive(rows[1..], h, i - 1);
    }
  }

  lemma {:induction false} HashCountNone(rows: seq<CacheRow>, h: string)
    requires forall j :: 0 <= j < |rows| ==> rows[j].hash != h
    ensures HashCount(rows, h) == 0
    decreases |rows|
  {
    if |rows| > 0 {
      HashCountNone(rows[1..], h);
    }
  }

  lemma {:induction false} HashCountSnoc(rows: seq<CacheRow>, x: CacheRow, h: string)
    ensures HashCount(rows + [x], h) == HashCount(rows, h) + (if x.hash == h then 1 else 0)
    decreases |rows|
  {
    if |rows| == 0 {
      assert rows + [x] == [x];
      assert [x][1..] == [];
    } else {
      assert (rows + [x])[0] == rows[0];
      assert (rows + [x])[1..] == rows[1..] + [x];
      HashCountSnoc(rows[1..], x, h);
    }
  }

  /** `get_cached` at time `now`: the results of the first unexpired row under the digest. */
  function GetCached(rows: seq<CacheRow>, query: string, city: Option<string>, now: int, md5: Digest): (r: Option<Json.Json>)
  {
    FirstLive(rows, md5(CacheKey(query, city)), now)
  }

  /** The results of the first row under `hash` expiring after `now`. */
  function FirstLive(rows: seq<CacheRow>, hash: string, now: int): (r: Option<Json.Json>)
    ensures r.Some? ==> exists i :: 0 <= i < |rows| && rows[i].hash == hash && rows[i].expiresAt > now
                                   && rows[i].results == r.value
    ensures r.None? ==> forall i :: 0 <= i < |rows| && rows[i].hash == hash ==> rows[i].expiresAt <= now
    decreases |rows|
  {
    if |rows| == 0 then None
    else if rows[0].hash == hash && rows[0].expiresAt > now then Some(rows[0].results)
    else
      var r := FirstLive(rows[1..], hash, now);
      if r.Some? then
        var i :| 0 <= i < |rows| - 1 && rows[1..][i].hash == hash && rows[1..][i].expiresAt > now
                 && rows[1..][i].results == r.value;
        assert rows[i + 1] == rows[1..][i];
        r
      else r
  }

  /** The first row under `hash`, when live, is the one found. */
  lemma {:induction false} FirstLiveAt(rows: seq<CacheRow>, hash: string, now: int, i: int)
    requires 0 <= i < |rows| && rows[i].hash == hash && rows[i].expiresAt > now
    requires forall j :: 0 <= j < i ==> rows[j].hash != hash
    ensures FirstLive(rows, hash, now) == Some(rows[i].results)
    decreases i
  {
    if i > 0 {
      FirstLiveAt(rows[1..], hash, now, i - 1);
    }
  }

  /** What `set_cache` stores, `get_cached` returns until it expires. */
  lemma CacheRoundTrip(rows: seq<CacheRow>, query: string, city: Option<string>, results: Json.Json,
                       ttlHours: int, now: int, later: int, md5: Digest)
    requires later < now + ttlHours * 3600
    ensures GetCached(SetCache(rows, query, city, results, ttlHours, now, md5), query, city, later, md5) == Some(results)
  {
    var h := md5(CacheKey(query, city));
    var r := SetCache(rows, query, city, results, ttlHours, now, md5);
    var i := FirstRow(rows, h);
    if i >= 0 {
      FirstLiveAt(r, h, later, i);
    } else {
      forall j | 0 <= j < |rows|
        ensures r[j].hash != h
      {
        assert r[j] == r[..|rows|][j];
      }
      FirstLiveAt(r, h, later, |rows|);
    }
  }

  /** `cleanup_expired` at time `now`: the rows kept and the number removed. A row is kept
      exactly when it has not expired (`expires_at < now` is deleted); nothing is removed
      exactly when no row has expired. `CleanupConcat` fixes the order. */
  function CleanupExpired(rows: seq<CacheRow>, now: int): (r: (seq<CacheRow>, nat))
    ensures |r.0| + r.1 == |rows|
    ensures forall i :: 0 <= i < |r.0| ==> r.0[i].expiresAt >= now && r.0[i] in rows
    ensures forall i :: 0 <= i < |rows| && rows[i].expiresAt >= now ==> rows[i] in r.0
    ensures r.1 == 0 <==> forall i :: 0 <= i < |rows| ==> rows[i].expiresAt >= now
    ensures r.1 == 0 ==> r.0 == rows
    ensures |rows| == 1 ==> r == (if rows[0].expiresAt < now then ([], 1) else (rows, 0))
    decreases |rows|
  {
    if |rows| == 0 then ([], 0)
    else
      var (kept, removed) := CleanupExpired(rows[1..], now);
      assert forall i :: 1 <= i < |rows| ==> rows[1..][i - 1] == rows[i];
      if rows[0].expiresAt < now then (kept, removed + 1)
      else
        assert [rows[0]] + rows[1..] == rows;
        ([rows[0]] + kept, removed)
  }

  /** Cleaning two runs of rows keeps the first run's survivors followed by the second's and
      removes the sum; with the one-row case this fixes the kept rows, in order, and the
      count. */
  lemma {:induction false} CleanupConcat(a: seq<CacheRow>, b: seq<CacheRow>, now: int)
    ensures CleanupExpired(a + b, now).0 == CleanupExpired(a, now).0 + CleanupExpired(b, now).0
    ensures CleanupExpired(a + b, now).1 == CleanupExpired(a, now).1 + CleanupExpired(b, now).1
    decreases |a|
  {
    if |a| == 0 {
      assert a + b == b;
    } else {
      assert (a + b)[1..] == a[1..] + b;
      assert (a + b)[0] == a[0];
      CleanupConcat(a[1..], b, now);
      if a[0].expiresAt >= now {
        var ka := CleanupExpired(a[1..], now).0;
        var kb := CleanupExpired(b, now).0;
        assert [a[0]] + (ka + kb) == ([a[0]] + ka) + kb;
      }
    }
  }

  /** Removing the expired rows at time `t` changes no later lookup. */
  lemma {:induction false} CleanupInvisible(rows: seq<CacheRow>, t: int, hash: string, now: int)
    requires t <= now
    ensures FirstLive(CleanupExpired(rows, t).0, hash, now) == FirstLive(rows, hash, now)
    decreases |rows|
  {
    if |rows| > 0 {
      CleanupInvisible(rows[1..], t, hash, now);
      var kept := CleanupExpired(rows[1..], t).0;
      if rows[0].expiresAt >= t {
        assert ([rows[0]] + kept)[0] == rows[0];
        assert ([rows[0]] + kept)[1..] == kept;
      }
    }
  }
}

=== FILE: room_liveness.dfy ===
/** Fan-out removes only the members whose sockets failed: every other member survives a
    broadcast, and `leave_room` removes nobody but the member asked for and members whose
    sockets failed on the way. */
module RoomLiveness {
  import opened Wrappers
  import opened RoomModel
  import opened RoomOps

  /** Ids of the members whose sends succeed. */
  function LiveIds(ms: seq<Member>, broken: set<SocketId>): set<string> {
    set m | m in ms && m.socket !in broken :: m.id
  }

  /** Under unique ids, a live member that keeps its id keeps its socket. */
  lemma LiveSurvives(a: seq<Member>, b: seq<Member>, broken: set<SocketId>)
    requires UniqueIds(a) && Profiles(b) <= Profiles(a)
    ensures LiveIds(a, broken) * Ids(b) <= LiveIds(b, broken)
  {
    forall d | d in LiveIds(a, broken) * Ids(b) ensures d in LiveIds(b, broken) {
      var x :| x in a && x.socket !in broken && x.id == d;
      var y :| y in b && y.id == d;
      assert Profile(y) in Profiles(a);
      var z :| z in a && Profile(z) == Profile(y);
      var ix :| 0 <= ix < |a| && a[ix] == x;
      var iz :| 0 <= iz < |a| && a[iz] == z;
      assert ix == iz;
    }
  }

  /** Under unique ids, every id that `_broadcast_to_room` collects belongs to a member whose
      socket failed. */
  lemma {:induction false} FailedNotLive(ms: seq<Member>, broken: set<SocketId>, exclude: Option<string>)
    requires UniqueIds(ms)
    ensures forall d :: d in Failed(ms, broken, exclude) ==> d !in LiveIds(ms, broken)
    decreases |ms|
  {
    if |ms| > 0 {
      var tail := ms[1..];
      FailedNotLive(tail, broken, exclude);
      FailedIds(tail, broken, exclude);
      forall d | d in Failed(ms, broken, exclude) ensures d !in LiveIds(ms, broken) {
        forall x | x in ms && x.id == d ensures x.socket in broken {
          var ix :| 0 <= ix < |ms| && ms[ix] == x;
          if d in Failed(tail, broken, exclude) {
            var y :| y in tail && y.id == d;
            var iy :| 0 <= iy < |tail| && tail[iy] == y;
            assert ms[iy + 1].id == d;
            assert ix != 0;
            assert tail[ix - 1] == x;
          } else {
            assert d == ms[0].id && ms[0].socket in broken;
            assert ix == 0;
          }
        }
      }
    }
  }

  lemma {:induction false} FailedIds(ms: seq<Member>, broken: set<SocketId>, exclude: Option<string>)
    ensures forall d :: d in Failed(ms, broken, exclude) ==> d in Ids(ms)
    decreases |ms|
  {
    if |ms| > 0 {
      FailedIds(ms[1..], broken, exclude);
      forall d | d in Ids(ms[1..]) ensures d in Ids(ms) {
        var y :| y in ms[1..] && y.id == d;
        assert y in ms;
      }
      assert ms[0] in ms;
    }
  }

  lemma RemoveAtLive(ms: seq<Member>, i: nat, broken: set<SocketId>)
    requires UniqueIds(ms) && i < |ms|
    ensures LiveIds(ms, broken) - {ms[i].id} <= LiveIds(RemoveAt(ms, i), broken)
  {
    var r := RemoveAt(ms, i);
    forall d | d in LiveIds(ms, broken) - {ms[i].id} ensures d in LiveIds(r, broken) {
      var x :| x in ms && x.socket !in broken && x.id == d;
      var ix :| 0 <= ix < |ms| && ms[ix] == x;
      if ix < i { assert r[ix] == x; } else { assert ix != i; assert r[ix - 1] == x; }
    }
  }

  lemma MakeFirstHostLive(ms: seq<Member>, broken: set<SocketId>)
    requires |ms| > 0
    ensures LiveIds(MakeFirstHost(ms), broken) == LiveIds(ms, broken)
  {
    var r := MakeFirstHost(ms);
    forall d | d in LiveIds(ms, broken) ensures d in LiveIds(r, broken) {
      var x :| x in ms && x.socket !in broken && x.id == d;
      var ix :| 0 <= ix < |ms| && ms[ix] == x;
      assert r[ix] in r && r[ix].socket == x.socket && r[ix].id == d;
    }
    forall d | d in LiveIds(r, broken) ensures d in LiveIds(ms, broken) {
      var x :| x in r && x.socket !in broken && x.id == d;
      var ix :| 0 <= ix < |r| && r[ix] == x;
      assert ms[ix] in ms && ms[ix].socket == x.socket && ms[ix].id == d;
    }
  }

  /** A broadcast never removes a member whose socket works. */
  lemma {:induction false} BroadcastKeepsLive(room: Room, net: Net, msg: Msg, exclude: Option<string>)
    requires UniqueIds(room.members)
    ensures LiveIds(room.members, net.broken) <= LiveIds(Broadcast(room, net, msg, exclude).0.members, net.broken)
    decreases |room.members|, 2, 0
  {
    var sent := SendAll(room.members, net, msg, exclude);
    FailedNotLive(room.members, net.broken, exclude);
    LeaveAllKeepsLive(room, sent.0, sent.1);
  }

  /** `leave_room` for each id in turn removes no live member outside `ids`. */
  lemma {:induction false} LeaveAllKeepsLive(room: Room, net: Net, ids: seq<string>)
    requires UniqueIds(room.members)
    ensures forall d :: d in LiveIds(room.members, net.broken) && d !in ids ==>
      d in LiveIds(LeaveAll(room, net, ids).0.members, net.broken)
    decreases |room.members|, 1, |ids|
  {
    if |ids| > 0 {
      var first := Leave(room, net, ids[0]);
      LeaveKeepsLive(room, net, ids[0]);
      LeaveShrinks(room, net, ids[0]);
      LeaveAllKeepsLive(first.0, first.1, ids[1..]);
      assert ids == [ids[0]] + ids[1..];
    }
  }

  /** `leave_room(id)` removes no live member other than `id`. */
  lemma {:induction false} LeaveKeepsLive(room: Room, net: Net, id: string)
    requires UniqueIds(room.members)
    ensures LiveIds(room.members, net.broken) - {id} <= LiveIds(Leave(room, net, id).0.members, net.broken)
    decreases |room.members|, 0, 1
  {
    var i := IndexOf(room.members, id);
    if i >= 0 {
      var m := room.members[i];
      var room1 := room.(members := RemoveAt(room.members, i));
      RemoveAtLive(room.members, i, net.broken);
      var msg := MemberLeft(id, m.nickname, |room1.members|);
      BroadcastKeepsLive(room1, net, msg, None);
      BroadcastShrinks(room1, net, msg, None);
      var left := Broadcast(room1, net, msg, None);
      if m.isHost && |left.0.members| > 0 {
        LeaveHostKeepsLive(room, net, id, i, room1, left.0, left.1);
      }
    }
  }

  /** The re-election branch of `leave_room`. */
  lemma {:induction false} LeaveHostKeepsLive(room: Room, net: Net, id: string, i: nat,
                                              room1: Room, room2: Room, net2: Net)
    requires UniqueIds(room.members)
    requires i < |room.members| && i == IndexOf(room.members, id) && room.members[i].isHost
    requires room1 == room.(members := RemoveAt(room.members, i))
    requires (room2, net2) == Broadcast(room1, net, MemberLeft(id, room.members[i].nickname, |room1.members|), None)
    requires UniqueIds(room2.members) && net2.broken == net.broken && |room2.members| > 0
    requires LiveIds(room.members, net.broken) - {id} <= LiveIds(room2.members, net.broken)
    ensures LiveIds(room.members, net.broken) - {id} <= LiveIds(Leave(room, net, id).0.members, net.broken)
    decreases |room.members|, 0, 0
  {
    var room3 := room2.(members := MakeFirstHost(room2.members));
    var h := room3.members[0];
    assert Broadcast(room3, net2, HostChanged(h.id, h.nickname), None) == Leave(room, net, id);
    MakeFirstHostLive(room2.members, net.broken);
    BroadcastKeepsLive(room3, net2, HostChanged(h.id, h.nickname), None);
  }
}

=== FILE: room_membership.dfy ===
module RoomMembership {
  import opened Wrappers
  import opened Text
  import opened Numerals
  import opened RoomModel
  import opened RoomOps

  /** No member's socket is broken: every send in the room succeeds. */
  predicate Healthy(room: Room, net: Net) {
    forall i :: 0 <= i < |room.members| ==> room.members[i].socket !in net.broken
  }

  predicate UniqueSockets(ms: seq<Member>) {
    forall i, j :: 0 <= i < j < |ms| ==> ms[i].socket != ms[j].socket
  }

  function Sockets(ms: seq<Member>): set<SocketId> {
    set m | m in ms :: m.socket
  }

  /** Nobody fails when every targeted member's socket works. */
  lemma {:induction false} FailedNone(ms: seq<Member>, broken: set<SocketId>, exclude: Option<string>)
    requires forall i :: 0 <= i < |ms| && Targeted(ms[i], exclude) ==> ms[i].socket !in broken
    ensures Failed(ms, broken, exclude) == []
    decreases |ms|
  {
    if |ms| > 0 {
      assert forall i :: 0 <= i < |ms[1..]| ==> ms[1..][i] == ms[i + 1];
      FailedNone(ms[1..], broken, exclude);
    }
  }

  /** In a healthy room a broadcast removes nobody: it only appends to outboxes. */
  lemma BroadcastHealthy(room: Room, net: Net, msg: Msg, exclude: Option<string>)
    requires Healthy(room, net)
    ensures Broadcast(room, net, msg, exclude) == (room, SendAll(room.members, net, msg, exclude).0)
  {
    FailedNone(room.members, net.broken, exclude);
  }

  /** A broadcast whose every targeted member can be reached removes nobody. */
  lemma BroadcastReachesAll(room: Room, net: Net, msg: Msg, exclude: Option<string>)
    requires forall i :: 0 <= i < |room.members| && Targeted(room.members[i], exclude) ==> room.members[i].socket !in net.broken
    ensures Broadcast(room, net, msg, exclude) == (room, SendAll(room.members, net, msg, exclude).0)
  {
    FailedNone(room.members, net.broken, exclude);
  }

  /** With one socket per member, a targeted member's socket gets exactly one copy. */
  lemma {:induction false} DeliveriesOne(ms: seq<Member>, exclude: Option<string>, i: nat)
    requires UniqueSockets(ms) && i < |ms|
    ensures Deliveries(ms, ms[i].socket, exclude) == (if Targeted(ms[i], exclude) then 1 else 0)
    decreases |ms|
  {
    if i == 0 {
      DeliveriesNone(ms[1..], ms[0].socket, exclude);
    } else {
      assert ms[1..][i - 1] == ms[i];
      DeliveriesOne(ms[1..], exclude, i - 1);
    }
  }

  /** A socket no member uses gets nothing. */
  lemma {:induction false} DeliveriesNone(ms: seq<Member>, s: SocketId, exclude: Option<string>)
    requires s !in Sockets(ms)
    ensures Deliveries(ms, s, exclude) == 0
    decreases |ms|
  {
    if |ms| > 0 {
      assert Sockets(ms[1..]) <= Sockets(ms) by {
        forall t | t in Sockets(ms[1..]) ensures t in Sockets(ms) {
          var x :| x in ms[1..] && x.socket == t;
          assert x in ms;
        }
      }
      DeliveriesNone(ms[1..], s, exclude);
    }
  }

  /** The healthy-room fan-out seen from one member: a targeted member gets exactly the one
      message, the excluded member gets nothing. */
  lemma BroadcastHealthyAt(room: Room, net: Net, msg: Msg, exclude: Option<string>, i: nat)
    requires Healthy(room, net) && UniqueSockets(room.members) && i < |room.members|
    ensures var r := Broadcast(room, net, msg, exclude);
      r.0 == room
      && Sent(r.1, room.members[i].socket) == Sent(net, room.members[i].socket)
           + (if Targeted(room.members[i], exclude) then [msg] else [])
  {
    BroadcastHealthy(room, net, msg, exclude);
    DeliveriesOne(room.members, exclude, i);
    assert Copies(msg, 1) == [msg];
    assert Copies(msg, 0) == [];
  }

  /** A socket that belongs to no member of the room sees nothing of a healthy broadcast. */
  lemma BroadcastHealthyElsewhere(room: Room, net: Net, msg: Msg, exclude: Option<string>, s: SocketId)
    requires Healthy(room, net) && s !in Sockets(room.members)
    ensures var r := Broadcast(room, net, msg, exclude);
      r.0 == room && Sent(r.1, s) == Sent(net, s)
  {
    BroadcastHealthy(room, net, msg, exclude);
    DeliveriesNone(room.members, s, exclude);
    assert Copies(msg, 0) == [];
  }

  // ---------------------------------------------------------------------------------------
  // Leave
  // ---------------------------------------------------------------------------------------

  /** `leave_room` of an absent id changes nothing and sends nothing. */
  lemma LeaveAbsent(room: Room, net: Net, id: string)
    requires id !in Ids(room.members)
    ensures Leave(room, net, id) == (room, net)
  {
  }

  /** Every member that `leave_room` can return is still well formed, and the invariants of
      the room survive it, whatever sends fail along the way. */
  lemma LeaveInvariants(room: Room, net: Net, id: string)
    requires UniqueIds(room.members)
    ensures var r := Leave(room, net, id);
      UniqueIds(r.0.members) && id !in Ids(r.0.members)
      && Ids(r.0.members) <= Ids(room.members) - {id}
      && (AtMostOneHost(room) ==> AtMostOneHost(r.0))
      && (WellHosted(room) ==> WellHosted(r.0))
  {
    LeaveShrinks(room, net, id);
    ProfilesIds(Leave(room, net, id).0.members, room.members);
  }

  /** Removing a member from a room with one socket per member keeps the sockets distinct
      and leaves the departed member's socket unused. */
  lemma RemoveAtSockets(ms: seq<Member>, i: nat)
    requires UniqueSockets(ms) && i < |ms|
    ensures UniqueSockets(RemoveAt(ms, i))
    ensures ms[i].socket !in Sockets(RemoveAt(ms, i))
  {
    var rest := RemoveAt(ms, i);
    forall x | x in rest ensures x.socket != ms[i].socket {
      var j :| 0 <= j < |rest| && rest[j] == x;
      if j < i { assert x == ms[j]; } else { assert x == ms[j + 1]; }
    }
  }

  lemma MakeFirstHostSockets(ms: seq<Member>)
    requires |ms| > 0
    ensures Sockets(MakeFirstHost(ms)) == Sockets(ms)
    ensures UniqueSockets(ms) ==> UniqueSockets(MakeFirstHost(ms))
  {
    var r := MakeFirstHost(ms);
    assert forall j :: 0 <= j < |ms| ==> r[j].socket == ms[j].socket;
    forall t | t in Sockets(r) ensures t in Sockets(ms) {
      var x :| x in r && x.socket == t;
      var j :| 0 <= j < |r| && r[j] == x;
      assert ms[j] in ms;
    }
    forall t | t in Sockets(ms) ensures t in Sockets(r) {
      var x :| x in ms && x.socket == t;
      var j :| 0 <= j < |ms| && ms[j] == x;
      assert r[j] in r;
    }
  }

  /** The host leaving a healthy room of two or more takes both broadcasts of `leave_room`,
      and the first one removes nobody. */
  lemma LeaveHostUnfold(room: Room, net: Net, i: nat)
    requires UniqueIds(room.members) && Healthy(room, net)
    requires i < |room.members| && room.members[i].isHost && |room.members| > 1
    ensures var gone := room.members[i];
      var rest := RemoveAt(room.members, i);
      var net2 := Broadcast(room.(members := rest), net, MemberLeft(gone.id, gone.nickname, |rest|), None).1;
      Leave(room, net, gone.id)
        == Broadcast(room.(members := MakeFirstHost(rest)), net2, HostChanged(rest[0].id, rest[0].nickname), None)
      && net2.broken == net.broken
  {
    var gone := room.members[i];
    var rest := RemoveAt(room.members, i);
    assert IndexOf(room.members, gone.id) == i;
    var room1 := room.(members := rest);
    assert Healthy(room1, net);
    BroadcastHealthy(room1, net, MemberLeft(gone.id, gone.nickname, |rest|), None);
  }

  /** The host leaves a healthy room of two or more: the first remaining member, and no one
      else, becomes host, and nobody else is removed. */
  lemma LeaveHostHealthy(room: Room, net: Net, i: nat)
    requires UniqueIds(room.members) && Healthy(room, net)
    requires WellHosted(room) && i < |room.members| && room.members[i].isHost && |room.members| > 1
    ensures var rest := RemoveAt(room.members, i);
      var r := Leave(room, net, room.members[i].id);
      r.0.members == MakeFirstHost(rest)
      && GetHost(r.0.members) == Some(rest[0].(isHost := true))
      && HostCount(r.0.members) == 1
  {
    var gone := room.members[i];
    var rest := RemoveAt(room.members, i);
    LeaveHostUnfold(room, net, i);
    var net2 := Broadcast(room.(members := rest), net, MemberLeft(gone.id, gone.nickname, |rest|), None).1;
    var room3 := room.(members := MakeFirstHost(rest));
    assert Healthy(room3, net2);
    BroadcastHealthy(room3, net2, HostChanged(rest[0].id, rest[0].nickname), None);
    HostCountBound(rest);
    GetHostUnique(room3.members, 0);
  }

  /** Two healthy broadcasts to everyone, the second after the first member is made host:
      each member hears both, in order. */
  lemma TwoNotices(room: Room, ms: seq<Member>, net: Net, m1: Msg, m2: Msg, j: nat)
    requires j < |ms| && UniqueSockets(ms) && Healthy(room.(members := ms), net)
    ensures var net2 := Broadcast(room.(members := ms), net, m1, None).1;
      Sent(Broadcast(room.(members := MakeFirstHost(ms)), net2, m2, None).1, ms[j].socket)
        == Sent(net, ms[j].socket) + [m1, m2]
  {
    var room1 := room.(members := ms);
    BroadcastHealthy(room1, net, m1, None);
    BroadcastHealthyAt(room1, net, m1, None, j);
    var net2 := Broadcast(room1, net, m1, None).1;
    assert net2.broken == net.broken;
    HealthyFirstHost(room, ms, net, net2);
    var room3 := room.(members := MakeFirstHost(ms));
    BroadcastHealthyAt(room3, net2, m2, None, j);
    assert room3.members[j].socket == ms[j].socket;
  }

  /** Making the first member host keeps a room healthy on a network with the same broken
      sockets, and keeps sockets unique. */
  lemma HealthyFirstHost(room: Room, ms: seq<Member>, net: Net, net2: Net)
    requires |ms| > 0 && UniqueSockets(ms) && Healthy(room.(members := ms), net) && net2.broken == net.broken
    ensures Healthy(room.(members := MakeFirstHost(ms)), net2) && UniqueSockets(MakeFirstHost(ms))
  {
    MakeFirstHostSockets(ms);
    var r := MakeFirstHost(ms);
    assert forall k :: 0 <= k < |r| ==> r[k].socket == ms[k].socket;
  }

  /** What everyone hears when the host leaves a healthy room: each remaining member gets
      `member_left` and then `host_changed`, in that order. */
  lemma LeaveHostMessages(room: Room, net: Net, i: nat, j: nat)
    requires UniqueIds(room.members) && UniqueSockets(room.members) && Healthy(room, net)
    requires i < |room.members| && room.members[i].isHost && j < |room.members| - 1
    ensures var gone := room.members[i];
      var rest := RemoveAt(room.members, i);
      Sent(Leave(room, net, gone.id).1, rest[j].socket) == Sent(net, rest[j].socket)
        + [MemberLeft(gone.id, gone.nickname, |rest|), HostChanged(rest[0].id, rest[0].nickname)]
  {
    var gone := room.members[i];
    var rest := RemoveAt(room.members, i);
    LeaveHostUnfold(room, net, i);
    RemoveAtSockets(room.members, i);
    assert Healthy(room.(members := rest), net);
    TwoNotices(room, rest, net, MemberLeft(gone.id, gone.nickname, |rest|),
               HostChanged(rest[0].id, rest[0].nickname), j);
  }

  /** The host's own socket hears nothing of its leaving. */
  lemma LeaveHostSilent(room: Room, net: Net, i: nat)
    requires UniqueIds(room.members) && UniqueSockets(room.members) && Healthy(room, net)
    requires i < |room.members| && room.members[i].isHost && |room.members| > 1
    ensures var gone := room.members[i];
      Sent(Leave(room, net, gone.id).1, gone.socket) == Sent(net, gone.socket)
  {
    var gone := room.members[i];
    var rest := RemoveAt(room.members, i);
    LeaveHostUnfold(room, net, i);
    RemoveAtSockets(room.members, i);
    MakeFirstHostSockets(rest);
    var room1 := room.(members := rest);
    assert Healthy(room1, net);
    var m1 := MemberLeft(gone.id, gone.nickname, |rest|);
    BroadcastHealthyElsewhere(room1, net, m1, None, gone.socket);
    var net2 := Broadcast(room1, net, m1, None).1;
    HealthyFirstHost(room, rest, net, net2);
    var room3 := room.(members := MakeFirstHost(rest));
    BroadcastHealthyElsewhere(room3, net2, HostChanged(rest[0].id, rest[0].nickname), None, gone.socket);
  }

  // ---------------------------------------------------------------------------------------
  // Join
  // ---------------------------------------------------------------------------------------

  /** `f"member_{counter}_{millis}"`. */
  function MemberId(counter: nat, millis: int): string {
    "member_" + NatToString(counter) + "_" + IntToString(millis)
  }

  /** The counter part of a generated member id: the digits between the two underscores. */
  function CounterPart(id: string): string {
    if StartsWith(id, "member_") then Word2(id[7..]) else []
  }

  /** The prefix of `s` up to its first `_`. */
  function Word2(s: string): (w: string)
    ensures |w| <= |s| && w == s[..|w|]
    ensures '_' !in w
    ensures |w| < |s| ==> s[|w|] == '_'
    decreases |s|
  {
    if |s| == 0 || s[0] == '_' then [] else [s[0]] + Word2(s[1..])
  }

  lemma {:induction false} Word2Digits(d: string, rest: string)
    requires AllDigits(d)
    ensures Word2(d + "_" + rest) == d
    decreases |d|
  {
    if |d| > 0 {
      assert (d + "_" + rest)[1..] == d[1..] + "_" + rest;
      Word2Digits(d[1..], rest);
      assert d == [d[0]] + d[1..];
    } else {
      assert (d + "_" + rest)[0] == '_';
    }
  }

  /** Member ids carry their counter, so ids drawn with different counters never collide,
      whatever the clock reads. */
  lemma MemberIdCounter(counter: nat, millis: int)
    ensures CounterPart(MemberId(counter, millis)) == NatToString(counter)
  {
    var id := MemberId(counter, millis);
    assert id[..7] == "member_";
    assert id[7..] == NatToString(counter) + "_" + IntToString(millis);
    Word2Digits(NatToString(counter), IntToString(millis));
  }

  lemma MemberIdInjective(c1: nat, t1: int, c2: nat, t2: int)
    requires c1 != c2
    ensures MemberId(c1, t1) != MemberId(c2, t2)
  {
    MemberIdCounter(c1, t1);
    MemberIdCounter(c2, t2);
    NatToStringInjective(c1, c2);
  }

  datatype Joined = Joined(room: Room, net: Net, member: Member, counter: nat)

  /** `join_room(room, socket, nickname, member_id)` at clock `now`, with member counter
      `counter` before the call. */
  function JoinRoom(room: Room, net: Net, counter: nat, socket: SocketId, nickname: string,
                givenId: Option<string>, now: real): (r: Joined)
    ensures r.counter == counter + 1
    ensures r.member.isHost <==> |room.members| == 0
    ensures r.member.color == MemberColor(|room.members|)
    ensures r.member.nickname == nickname && r.member.socket == socket && r.member.location == None
    ensures r.member.lastHeartbeat == now && r.member.joinedAt == now
    ensures givenId.None? ==> r.member.id == MemberId(counter + 1, Truncate(now * 1000.0))
    ensures givenId.Some? ==> r.member.id == givenId.value
    ensures r.room.code == room.code && r.room.name == room.name && r.room.createdAt == room.createdAt
    ensures Extends(net, r.net)
  {
    var id := if givenId.Some? then givenId.value else MemberId(counter + 1, Truncate(now * 1000.0));
    var m := Member(id, nickname, MemberColor(|room.members|), socket, None, now, now, |room.members| == 0);
    var i := IndexOf(room.members, id);
    var ms := if i >= 0 then UpdateAt(room.members, i, m) else room.members + [m];
    var b := Broadcast(room.(members := ms), net, MemberJoined(View(m), |ms|), Some(id));
    BroadcastShrinks(room.(members := ms), net, MemberJoined(View(m), |ms|), Some(id));
    Joined(b.0, b.1, m, counter + 1)
  }

  /** The member list right after the insertion, before any failed send removes someone. */
  function Inserted(ms: seq<Member>, m: Member): (r: seq<Member>)
    ensures m.id !in Ids(ms) ==> r == ms + [m]
  {
    var i := IndexOf(ms, m.id);
    if i >= 0 then UpdateAt(ms, i, m) else ms + [m]
  }

  lemma AppendFacts(ms: seq<Member>, m: Member)
    ensures HostCount(ms + [m]) == HostCount(ms) + (if m.isHost then 1 else 0)
    ensures Ids(ms + [m]) == Ids(ms) + {m.id}
    ensures UniqueIds(ms) && m.id !in Ids(ms) ==> UniqueIds(ms + [m])
  {
    HostCountConcat(ms, [m]);
    assert HostCount([m]) == (if m.isHost then 1 else 0) by { assert [m][1..] == []; }
    if UniqueIds(ms) && m.id !in Ids(ms) {
      forall i, j | 0 <= i < j < |ms + [m]| ensures (ms + [m])[i].id != (ms + [m])[j].id {
        if j == |ms| { assert ms[i] in ms; }
      }
    }
  }

  /** Join keeps the member ids unique and "at most one host"; from a fresh id it also keeps
      "exactly one host in a non-empty room". */
  lemma JoinInvariants(room: Room, net: Net, counter: nat, socket: SocketId, nickname: string,
                       givenId: Option<string>, now: real)
    requires UniqueIds(room.members)
    ensures var r := JoinRoom(room, net, counter, socket, nickname, givenId, now);
      UniqueIds(r.room.members)
      && Ids(r.room.members) <= Ids(room.members) + {r.member.id}
      && (AtMostOneHost(room) ==> AtMostOneHost(r.room))
      && (WellHosted(room) && r.member.id !in Ids(room.members) ==> WellHosted(r.room))
  {
    var r := JoinRoom(room, net, counter, socket, nickname, givenId, now);
    var m := r.member;
    var ms := Inserted(room.members, m);
    AppendFacts(room.members, m);
    var room1 := room.(members := ms);
    assert UniqueIds(ms);
    assert AtMostOneHost(room) ==> AtMostOneHost(room1) by {
      if |room.members| == 0 { assert HostCount(room.members) == 0; }
    }
    assert WellHosted(room) && m.id !in Ids(room.members) ==> WellHosted(room1) by {
      if |room.members| == 0 { assert HostCount(room.members) == 0; }
    }
    BroadcastShrinks(room1, net, MemberJoined(View(m), |ms|), Some(m.id));
    ProfilesIds(r.room.members, ms);
  }

  /** A fresh member joining a healthy room is appended and nobody is removed. */
  lemma JoinHealthy(room: Room, net: Net, counter: nat, socket: SocketId, nickname: string,
                    givenId: Option<string>, now: real)
    requires Healthy(room, net) && socket !in net.broken
    requires JoinRoom(room, net, counter, socket, nickname, givenId, now).member.id !in Ids(room.members)
    ensures var r := JoinRoom(room, net, counter, socket, nickname, givenId, now);
      r.room.members == room.members + [r.member]
  {
    var r := JoinRoom(room, net, counter, socket, nickname, givenId, now);
    var ms := room.members + [r.member];
    assert Healthy(room.(members := ms), net);
    BroadcastHealthy(room.(members := ms), net, MemberJoined(View(r.member), |ms|), Some(r.member.id));
  }

  /** A fresh id is appended, and the room with the newcomer is what the broadcast goes to. */
  lemma JoinAppends(room: Room, net: Net, counter: nat, socket: SocketId, nickname: string,
                    givenId: Option<string>, now: real)
    requires JoinRoom(room, net, counter, socket, nickname, givenId, now).member.id !in Ids(room.members)
    ensures var r := JoinRoom(room, net, counter, socket, nickname, givenId, now);
      var room1 := room.(members := room.members + [r.member]);
      (r.room, r.net) == Broadcast(room1, net, MemberJoined(View(r.member), |room.members| + 1), Some(r.member.id))
  {
    var m := JoinRoom(room, net, counter, socket, nickname, givenId, now).member;
    assert IndexOf(room.members, m.id) == -1;
  }

  /** Appending a member whose socket works, and is not yet used, keeps a room healthy and its
      sockets distinct. */
  lemma AppendSound(room: Room, net: Net, m: Member)
    requires Healthy(room, net) && UniqueSockets(room.members)
    requires m.socket !in net.broken && m.socket !in Sockets(room.members)
    ensures Healthy(room.(members := room.members + [m]), net)
    ensures UniqueSockets(room.members + [m])
  {
    var ms := room.members + [m];
    forall a, b | 0 <= a < b < |ms| ensures ms[a].socket != ms[b].socket {
      if b == |room.members| { assert room.members[a] in room.members; }
    }
  }

  /** Who hears of a fresh member joining a healthy room: every earlier member gets one
      `member_joined` announcing it with the new count; the newcomer's socket gets nothing. */
  lemma JoinMessages(room: Room, net: Net, counter: nat, socket: SocketId, nickname: string,
                     givenId: Option<string>, now: real, j: nat)
    requires UniqueSockets(room.members) && socket !in Sockets(room.members)
    requires Healthy(room, net) && socket !in net.broken && j < |room.members|
    requires var id := JoinRoom(room, net, counter, socket, nickname, givenId, now).member.id;
      id != "" && id !in Ids(room.members)
    ensures var r := JoinRoom(room, net, counter, socket, nickname, givenId, now);
      Sent(r.net, room.members[j].socket) == Sent(net, room.members[j].socket)
        + [MemberJoined(View(r.member), |room.members| + 1)]
      && Sent(r.net, socket) == Sent(net, socket)
  {
    var m := JoinRoom(room, net, counter, socket, nickname, givenId, now).member;
    var room1 := room.(members := room.members + [m]);
    var msg := MemberJoined(View(m), |room.members| + 1);
    JoinAppends(room, net, counter, socket, nickname, givenId, now);
    AppendSound(room, net, m);
    BroadcastHealthyAt(room1, net, msg, Some(m.id), j);
    BroadcastHealthyAt(room1, net, msg, Some(m.id), |room.members|);
    assert room1.members[j] == room.members[j];
    assert room1.members[|room.members|] == m;
  }

  /** A socket that is neither the newcomer's nor any member's hears nothing of a join into a
      healthy room. */
  lemma JoinElsewhere(room: Room, net: Net, counter: nat, socket: SocketId, nickname: string,
                      givenId: Option<string>, now: real, x: SocketId)
    requires Healthy(room, net) && socket !in net.broken
    requires JoinRoom(room, net, counter, socket, nickname, givenId, now).member.id !in Ids(room.members)
    requires x != socket && x !in Sockets(room.members)
    ensures Sent(JoinRoom(room, net, counter, socket, nickname, givenId, now).net, x) == Sent(net, x)
  {
    var r := JoinRoom(room, net, counter, socket, nickname, givenId, now);
    var m := r.member;
    assert IndexOf(room.members, m.id) == -1;
    var ms := room.members + [m];
    var room1 := room.(members := ms);
    assert Healthy(room1, net);
    assert x !in Sockets(ms);
    BroadcastHealthyElsewhere(room1, net, MemberJoined(View(m), |ms|), Some(m.id), x);
  }

  // ---------------------------------------------------------------------------------------
  // Location and heartbeat
  // ---------------------------------------------------------------------------------------

  /** `update_location(room, id, lat, lon, heading, accuracy)` at clock `now`. */
  function UpdateLocation(room: Room, net: Net, id: string, lat: Option<real>, lon: Option<real>,
                          heading: Option<real>, accuracy: Option<real>, now: real): (r: (Room, Net))
    ensures id !in Ids(room.members) ==> r == (room, net)
  {
    var i := IndexOf(room.members, id);
    if i < 0 then (room, net)
    else
      var loc := Location(lat, lon, heading, accuracy, now);
      var m := room.members[i].(location := Some(loc), lastHeartbeat := now);
      var room1 := room.(members := UpdateAt(room.members, i, m));
      Broadcast(room1, net, LocationUpdate(id, loc), Some(id))
  }

  /** In a healthy room only the sender's location and heartbeat change. */
  lemma UpdateLocationHealthy(room: Room, net: Net, i: nat, lat: Option<real>, lon: Option<real>,
                              heading: Option<real>, accuracy: Option<real>, now: real)
    requires UniqueIds(room.members) && Healthy(room, net) && i < |room.members|
    ensures var m := room.members[i];
      var r := UpdateLocation(room, net, m.id, lat, lon, heading, accuracy, now);
      |r.0.members| == |room.members|
      && r.0.members[i] == m.(location := Some(Location(lat, lon, heading, accuracy, now)), lastHeartbeat := now)
      && (forall j :: 0 <= j < |room.members| && j != i ==> r.0.members[j] == room.members[j])
  {
    var m := room.members[i];
    assert IndexOf(room.members, m.id) == i;
    var loc := Location(lat, lon, heading, accuracy, now);
    var room1 := room.(members := UpdateAt(room.members, i, m.(location := Some(loc), lastHeartbeat := now)));
    assert Healthy(room1, net);
    BroadcastHealthy(room1, net, LocationUpdate(m.id, loc), Some(m.id));
  }

  /** Who hears a location update in a healthy room: every other member gets one
      `location_update`; the sender gets nothing. */
  lemma UpdateLocationMessages(room: Room, net: Net, i: nat, lat: Option<real>, lon: Option<real>,
                               heading: Option<real>, accuracy: Option<real>, now: real, j: nat)
    requires UniqueIds(room.members) && UniqueSockets(room.members) && Healthy(room, net)
    requires i < |room.members| && room.members[i].id != "" && j < |room.members|
    ensures var m := room.members[i];
      var loc := Location(lat, lon, heading, accuracy, now);
      var r := UpdateLocation(room, net, m.id, lat, lon, heading, accuracy, now);
      Sent(r.1, room.members[j].socket) == Sent(net, room.members[j].socket)
        + (if j == i then [] else [LocationUpdate(m.id, loc)])
  {
    var m := room.members[i];
    assert IndexOf(room.members, m.id) == i;
    var loc := Location(lat, lon, heading, accuracy, now);
    var ms := UpdateAt(room.members, i, m.(location := Some(loc), lastHeartbeat := now));
    var room1 := room.(members := ms);
    assert Healthy(room1, net);
    assert UniqueSockets(ms);
    assert ms[j].socket == room.members[j].socket && ms[j].id == room.members[j].id;
    BroadcastHealthyAt(room1, net, LocationUpdate(m.id, loc), Some(m.id), j);
  }

  /** A location update keeps the room's invariants, brings in nobody, and takes back no
      delivered message. */
  lemma UpdateLocationInvariants(room: Room, net: Net, id: string, lat: Option<real>, lon: Option<real>,
                                 heading: Option<real>, accuracy: Option<real>, now: real)
    requires UniqueIds(room.members)
    ensures var r := UpdateLocation(room, net, id, lat, lon, heading, accuracy, now);
      UniqueIds(r.0.members) && r.0.code == room.code
      && Ids(r.0.members) <= Ids(room.members)
      && (AtMostOneHost(room) ==> AtMostOneHost(r.0))
      && (WellHosted(room) ==> WellHosted(r.0))
      && Extends(net, r.1)
  {
    var i := IndexOf(room.members, id);
    if i >= 0 {
      var loc := Location(lat, lon, heading, accuracy, now);
      var m := room.members[i].(location := Some(loc), lastHeartbeat := now);
      var room1 := room.(members := UpdateAt(room.members, i, m));
      BroadcastShrinks(room1, net, LocationUpdate(id, loc), Some(id));
      ProfilesIds(UpdateLocation(room, net, id, lat, lon, heading, accuracy, now).0.members, room1.members);
    } else {
      ExtendsRefl(net);
    }
  }

  /** `heartbeat(room, id)` at clock `now`. */
  function Heartbeat(room: Room, id: string, now: real): (r: Room)
    requires UniqueIds(room.members)
    ensures id !in Ids(room.members) ==> r == room
    ensures r.code == room.code && r.name == room.name && r.createdAt == room.createdAt
    ensures |r.members| == |room.members|
    ensures forall j :: 0 <= j < |r.members| ==>
      r.members[j].(lastHeartbeat := now) == room.members[j].(lastHeartbeat := now)
      && (r.members[j].id == id ==> r.members[j].lastHeartbeat == now)
      && (r.members[j].id != id ==> r.members[j] == room.members[j])
    ensures HostCount(r.members) == HostCount(room.members)
  {
    var i := IndexOf(room.members, id);
    if i < 0 then room
    else
      var ms := UpdateAt(room.members, i, room.members[i].(lastHeartbeat := now));
      assert forall j :: 0 <= j < |ms| && j != i ==> ms[j].id != id by {
        forall j | 0 <= j < |ms| && j != i ensures ms[j].id != id {
          assert ms[j] == room.members[j];
        }
      }
      room.(members := ms)
  }
}

=== FILE: room_model.dfy ===
/** The data of the room session manager: members, rooms, the messages pushed to clients,
    and the sockets those messages go through. */
module RoomModel {
  import opened Wrappers

  /** The eight marker colours, handed out by join order. */
  const Palette: seq<string> := [
    "#ef4444", "#f97316", "#eab308", "#22c55e", "#06b6d4", "#3b82f6", "#8b5cf6", "#ec4899"
  ]

  /** `get_member_color(index)`: the palette entry at `index mod 8`. */
  function MemberColor(index: nat): (c: string)
    ensures c in Palette
  {
    Palette[index % |Palette|]
  }

  /** Colours repeat every eight members, and the first eight members get eight distinct ones. */
  lemma MemberColorCycle(i: nat, j: nat)
    ensures MemberColor(i + |Palette|) == MemberColor(i)
    ensures i < j < |Palette| ==> MemberColor(i) != MemberColor(j)
  {
    assert (i + 8) % 8 == i % 8;
  }

  /** A client connection. Sends to it either succeed or, once it is broken, fail. */
  type SocketId = nat

  /** A member's last reported position. Coordinates arrive straight from the client's JSON,
      so each may be missing. */
  datatype Location = Location(
    lat: Option<real>, lon: Option<real>, heading: Option<real>, accuracy: Option<real>,
    updatedAt: real)

  datatype Member = Member(
    id: string, nickname: string, color: string, socket: SocketId,
    location: Option<Location>, joinedAt: real, lastHeartbeat: real, isHost: bool)

  /** A room; `members` is the member dictionary in its insertion (iteration) order. */
  datatype Room = Room(code: string, name: string, createdAt: real, members: seq<Member>)

  /** The public view of a member in `member_joined` and `room_state`. */
  datatype MemberView = MemberView(id: string, nickname: string, color: string, isHost: bool)

  datatype MemberState = MemberState(view: MemberView, location: Option<Location>)

  /** `get_room_state(room)`. */
  datatype RoomState = RoomState(
    code: string, name: string, createdAt: real, members: seq<MemberState>, memberCount: nat)

  /** Who wrote a chat message. */
  datatype Author = User(memberId: string) | Agent

  /** Server-to-client messages. */
  datatype Msg =
    | RoomStateMsg(state: RoomState, yourId: string, yourColor: string)
    | MemberJoined(member: MemberView, memberCount: nat)
    | MemberLeft(memberId: string, nickname: string, memberCount: nat)
    | HostChanged(newHostId: string, newHostNickname: string)
    | LocationUpdate(memberId: string, location: Location)
    | HeartbeatAck
    | ErrorMsg(message: string)
    | AgentTyping(typing: bool)
    | ChatMessage(author: Author, content: string, routeData: Option<string>)

  /** Every socket's outbox, the sockets whose sends fail, and the close codes sent. */
  datatype Net = Net(outbox: map<SocketId, seq<Msg>>, broken: set<SocketId>, closed: map<SocketId, int>)

  /** Everything delivered to socket `s` so far. */
  function Sent(net: Net, s: SocketId): seq<Msg> {
    if s in net.outbox then net.outbox[s] else []
  }

  /** `websocket.send_json(msg)`: appends to the outbox, or fails on a broken socket. */
  function Send(net: Net, s: SocketId, msg: Msg): (r: (Net, bool))
    ensures r.1 <==> s !in net.broken
    ensures r.1 ==> Sent(r.0, s) == Sent(net, s) + [msg]
    ensures !r.1 ==> r.0 == net
    ensures forall t :: t != s ==> Sent(r.0, t) == Sent(net, t)
    ensures r.0.broken == net.broken && r.0.closed == net.closed
  {
    if s in net.broken then (net, false)
    else (net.(outbox := net.outbox[s := Sent(net, s) + [msg]]), true)
  }

  /** `websocket.close(code)`: a live socket is closed with `code` and fails every later
      send; closing a broken socket raises, which callers ignore. */
  function Close(net: Net, s: SocketId, code: int): (r: Net)
    ensures s in r.broken
    ensures s !in net.broken ==> s in r.closed && r.closed[s] == code
    ensures forall t :: Sent(r, t) == Sent(net, t)
    ensures r.broken == net.broken + {s}
  {
    if s in net.broken then net
    else net.(broken := net.broken + {s}, closed := net.closed[s := code])
  }

  predicate IsPrefix<T(==)>(a: seq<T>, b: seq<T>) {
    |a| <= |b| && b[..|a|] == a
  }

  /** Nothing already delivered is taken back, and the failure state is unchanged. */
  ghost predicate Extends(net: Net, net': Net) {
    (forall s :: IsPrefix(Sent(net, s), Sent(net', s)))
    && net'.broken == net.broken && net'.closed == net.closed
  }

  lemma ExtendsTrans(a: Net, b: Net, c: Net)
    requires Extends(a, b) && Extends(b, c)
    ensures Extends(a, c)
  {
    forall s
      ensures IsPrefix(Sent(a, s), Sent(c, s))
    {
      assert Sent(c, s)[..|Sent(b, s)|] == Sent(b, s);
      assert Sent(b, s)[..|Sent(a, s)|] == Sent(a, s);
    }
  }

  /** `send_json` only appends. */
  lemma SendExtends(net: Net, s: SocketId, msg: Msg)
    ensures Extends(net, Send(net, s, msg).0)
  {
    var r := Send(net, s, msg).0;
    forall t
      ensures IsPrefix(Sent(net, t), Sent(r, t))
    {
      assert Sent(r, t)[..|Sent(net, t)|] == Sent(net, t);
    }
  }

  /** Nothing already delivered is taken back, though sockets may have been closed. */
  ghost predicate Grows(net: Net, net': Net) {
    forall s :: IsPrefix(Sent(net, s), Sent(net', s))
  }

  lemma ExtendsGrows(net: Net, net': Net)
    requires Extends(net, net')
    ensures Grows(net, net')
  {
  }

  lemma GrowsTrans(a: Net, b: Net, c: Net)
    requires Grows(a, b) && Grows(b, c)
    ensures Grows(a, c)
  {
    forall s
      ensures IsPrefix(Sent(a, s), Sent(c, s))
    {
      assert Sent(c, s)[..|Sent(b, s)|] == Sent(b, s);
      assert Sent(b, s)[..|Sent(a, s)|] == Sent(a, s);
    }
  }

  /** Two states with the same outboxes, such as before and after a close. */
  lemma SameSentGrows(net: Net, net': Net)
    requires forall s :: Sent(net', s) == Sent(net, s)
    ensures Grows(net, net')
  {
    forall s
      ensures IsPrefix(Sent(net, s), Sent(net', s))
    {
      assert Sent(net, s)[..|Sent(net, s)|] == Sent(net, s);
    }
  }

  // ---------------------------------------------------------------------------------------
  // Member dictionaries as sequences
  // ---------------------------------------------------------------------------------------

  predicate UniqueIds(ms: seq<Member>) {
    forall i, j :: 0 <= i < j < |ms| ==> ms[i].id != ms[j].id
  }

  function Ids(ms: seq<Member>): set<string> {
    set m | m in ms :: m.id
  }

  /** A member with its host flag cleared: everything a broadcast may not change. */
  function Profile(m: Member): Member {
    m.(isHost := false)
  }

  function Profiles(ms: seq<Member>): set<Member> {
    set m | m in ms :: Profile(m)
  }

  /** Position of the member with id `id`, or -1 (`room.members.get(id)`). */
  function IndexOf(ms: seq<Member>, id: string): (i: int)
    ensures -1 <= i < |ms|
    ensures i >= 0 ==> ms[i].id == id
    ensures i == -1 <==> id !in Ids(ms)
    ensures i >= 0 ==> forall j :: 0 <= j < i ==> ms[j].id != id
    decreases |ms|
  {
    if |ms| == 0 then -1
    else if ms[0].id == id then 0
    else
      var k := IndexOf(ms[1..], id);
      assert Ids(ms) == {ms[0].id} + Ids(ms[1..]) by {
        assert ms == [ms[0]] + ms[1..];
      }
      if k < 0 then -1 else k + 1
  }

  /** `room.members.pop(ms[i].id)`. */
  function RemoveAt(ms: seq<Member>, i: nat): (r: seq<Member>)
    requires i < |ms|
    ensures |r| == |ms| - 1
    ensures HostCount(r) == HostCount(ms) - (if ms[i].isHost then 1 else 0)
    ensures Profiles(r) <= Profiles(ms)
    ensures UniqueIds(ms) ==> UniqueIds(r) && Ids(r) == Ids(ms) - {ms[i].id}
    ensures forall j :: 0 <= j < i ==> r[j] == ms[j]
    ensures forall j :: i <= j < |r| ==> r[j] == ms[j + 1]
  {
    var r := ms[..i] + ms[i + 1..];
    assert ms == ms[..i] + [ms[i]] + ms[i + 1..];
    HostCountConcat(ms[..i], [ms[i]]);
    HostCountConcat(ms[..i] + [ms[i]], ms[i + 1..]);
    HostCountConcat(ms[..i], ms[i + 1..]);
    assert HostCount([ms[i]]) == (if ms[i].isHost then 1 else 0) by {
      assert [ms[i]][1..] == [];
    }
    r
  }

  /** `next(iter(members)).is_host = True`. */
  function MakeFirstHost(ms: seq<Member>): (r: seq<Member>)
    requires |ms| > 0
    ensures |r| == |ms| && r[0] == ms[0].(isHost := true)
    ensures forall j :: 0 < j < |r| ==> r[j] == ms[j]
    ensures HostCount(r) == HostCount(ms) + (if ms[0].isHost then 0 else 1)
    ensures Profiles(r) == Profiles(ms) && Ids(r) == Ids(ms)
    ensures UniqueIds(ms) ==> UniqueIds(r)
  {
    var r := ms[0 := ms[0].(isHost := true)];
    assert r == [r[0]] + ms[1..];
    assert ms == [ms[0]] + ms[1..];
    assert Profiles(r) == Profiles(ms) by {
      assert Profile(r[0]) == Profile(ms[0]);
      forall m | m in Profiles(r) ensures m in Profiles(ms) {
        var x :| x in r && m == Profile(x);
        var j :| 0 <= j < |r| && r[j] == x;
        assert Profile(ms[j]) == m;
      }
      forall m | m in Profiles(ms) ensures m in Profiles(r) {
        var x :| x in ms && m == Profile(x);
        var j :| 0 <= j < |ms| && ms[j] == x;
        assert Profile(r[j]) == m;
      }
    }
    assert Ids(r) == Ids(ms) by {
      forall d | d in Ids(r) ensures d in Ids(ms) {
        var x :| x in r && d == x.id;
        var j :| 0 <= j < |r| && r[j] == x;
        assert ms[j].id == d;
      }
      forall d | d in Ids(ms) ensures d in Ids(r) {
        var x :| x in ms && d == x.id;
        var j :| 0 <= j < |ms| && ms[j] == x;
        assert r[j].id == d;
      }
    }
    r
  }

  /** Replaces the member at `i` by one with the same id. */
  function UpdateAt(ms: seq<Member>, i: nat, m: Member): (r: seq<Member>)
    requires i < |ms| && m.id == ms[i].id
    ensures |r| == |ms| && r[i] == m
    ensures forall j :: 0 <= j < |r| && j != i ==> r[j] == ms[j]
    ensures HostCount(r) == HostCount(ms) - (if ms[i].isHost then 1 else 0) + (if m.isHost then 1 else 0)
    ensures Ids(r) == Ids(ms)
    ensures UniqueIds(ms) ==> UniqueIds(r)
  {
    var r := ms[i := m];
    assert ms == ms[..i] + [ms[i]] + ms[i + 1..];
    assert r == ms[..i] + [m] + ms[i + 1..];
    HostCountConcat(ms[..i], [ms[i]]);
    HostCountConcat(ms[..i] + [ms[i]], ms[i + 1..]);
    HostCountConcat(ms[..i], [m]);
    HostCountConcat(ms[..i] + [m], ms[i + 1..]);
    assert HostCount([ms[i]]) == (if ms[i].isHost then 1 else 0) by { assert [ms[i]][1..] == []; }
    assert HostCount([m]) == (if m.isHost then 1 else 0) by { assert [m][1..] == []; }
    assert Ids(r) == Ids(ms) by {
      forall d | d in Ids(r) ensures d in Ids(ms) {
        var x :| x in r && d == x.id;
        var j :| 0 <= j < |r| && r[j] == x;
        assert ms[j].id == d;
      }
      forall d | d in Ids(ms) ensures d in Ids(r) {
        var x :| x in ms && d == x.id;
        var j :| 0 <= j < |ms| && ms[j] == x;
        assert r[j].id == d;
      }
    }
    r
  }

  // ---------------------------------------------------------------------------------------
  // Hosts
  // ---------------------------------------------------------------------------------------

  /** How many members carry `is_host`. */
  function HostCount(ms: seq<Member>): nat
    decreases |ms|
  {
    if |ms| == 0 then 0 else (if ms[0].isHost then 1 else 0) + HostCount(ms[1..])
  }

  lemma {:induction false} HostCountConcat(a: seq<Member>, b: seq<Member>)
    ensures HostCount(a + b) == HostCount(a) + HostCount(b)
    decreases |a|
  {
    if |a| == 0 {
      assert a + b == b;
    } else {
      assert (a + b)[1..] == a[1..] + b;
      HostCountConcat(a[1..], b);
    }
  }

  lemma {:induction false} HostCountBound(ms: seq<Member>)
    ensures HostCount(ms) <= |ms|
    ensures HostCount(ms) == 0 <==> forall i :: 0 <= i < |ms| ==> !ms[i].isHost
    decreases |ms|
  {
    if |ms| > 0 {
      HostCountBound(ms[1..]);
      assert forall i :: 1 <= i < |ms| ==> ms[i] == ms[1..][i - 1];
    }
  }

  /** The invariant the manager keeps for every room: at most one host. */
  predicate AtMostOneHost(room: Room) {
    HostCount(room.members) <= 1
  }

  /** The stronger shape join and leave aim for: exactly one host in a non-empty room. */
  predicate WellHosted(room: Room) {
    HostCount(room.members) == (if |room.members| == 0 then 0 else 1)
  }

  /** `room.get_host()`: the first member flagged as host. */
  function GetHost(ms: seq<Member>): (h: Option<Member>)
    ensures h.None? <==> HostCount(ms) == 0
    ensures h.Some? ==> h.value in ms && h.value.isHost
    decreases |ms|
  {
    if |ms| == 0 then None
    else if ms[0].isHost then Some(ms[0])
    else
      var h := GetHost(ms[1..]);
      assert h.Some? ==> h.value in ms by {
        assert ms == [ms[0]] + ms[1..];
      }
      h
  }

  /** With a single host, `get_host` finds exactly that member. */
  lemma {:induction false} GetHostUnique(ms: seq<Member>, i: nat)
    requires i < |ms| && ms[i].isHost && HostCount(ms) == 1
    ensures GetHost(ms) == Some(ms[i])
    decreases |ms|
  {
    HostCountBound(ms[1..]);
    if i > 0 {
      assert ms[1..][i - 1] == ms[i];
    }
    if !ms[0].isHost {
      GetHostUnique(ms[1..], i - 1);
    }
  }

  function View(m: Member): MemberView {
    MemberView(m.id, m.nickname, m.color, m.isHost)
  }

  /** `get_room_state(room)`: every member in order, with its location when it has one. */
  function StateOf(room: Room): (st: RoomState)
    ensures st.memberCount == |room.members| == |st.members|
    ensures st.code == room.code && st.name == room.name && st.createdAt == room.createdAt
    ensures forall i :: 0 <= i < |room.members| ==>
      st.members[i].view.id == room.members[i].id
      && st.members[i].view.isHost == room.members[i].isHost
      && st.members[i].location == room.members[i].location
  {
    RoomState(room.code, room.name, room.createdAt,
      seq(|room.members|, i requires 0 <= i < |room.members| =>
        MemberState(View(room.members[i]), room.members[i].location)),
      |room.members|)
  }
}

=== FILE: room_ops.dfy ===
/** The room operations of the session manager: fan-out, leave with host re-election, join,
    location and heartbeat updates. Every operation takes the room and the sockets' state and
    returns their successors; the member dictionary's iteration order is the sequence order. */
module RoomOps {
  import opened Wrappers
  import opened Text
  import opened Numerals
  import opened RoomModel

  /** The broadcast skips the member named by a non-empty `exclude_member`. */
  predicate Targeted(m: Member, exclude: Option<string>) {
    !(exclude.Some? && exclude.value != "" && m.id == exclude.value)
  }

  /** Ids of the targeted members whose socket is broken, in iteration order. */
  function Failed(ms: seq<Member>, broken: set<SocketId>, exclude: Option<string>): seq<string>
    decreases |ms|
  {
    if |ms| == 0 then []
    else
      (if Targeted(ms[0], exclude) && ms[0].socket in broken then [ms[0].id] else [])
        + Failed(ms[1..], broken, exclude)
  }

  /** How many targeted members use socket `s`. */
  function Deliveries(ms: seq<Member>, s: SocketId, exclude: Option<string>): nat
    decreases |ms|
  {
    if |ms| == 0 then 0
    else
      (if Targeted(ms[0], exclude) && ms[0].socket == s then 1 else 0)
        + Deliveries(ms[1..], s, exclude)
  }

  function Copies(msg: Msg, k: nat): (r: seq<Msg>)
    ensures |r| == k && forall i :: 0 <= i < k ==> r[i] == msg
  {
    seq(k, _ => msg)
  }

  lemma CopiesAdd(msg: Msg, a: nat, b: nat)
    ensures Copies(msg, a) + Copies(msg, b) == Copies(msg, a + b)
  {
  }

  /** What one broadcast of `msg` adds to socket `s`: a copy per targeted member using it,
      nothing when the socket is broken. */
  function Fresh(ms: seq<Member>, broken: set<SocketId>, s: SocketId, msg: Msg, exclude: Option<string>): seq<Msg> {
    if s in broken then [] else Copies(msg, Deliveries(ms, s, exclude))
  }

  /** The send loop of `_broadcast_to_room`: every targeted member is tried in order; a
      failure is recorded and the loop goes on. */
  function SendAll(ms: seq<Member>, net: Net, msg: Msg, exclude: Option<string>): (r: (Net, seq<string>))
    ensures r.1 == Failed(ms, net.broken, exclude)
    ensures forall s :: Sent(r.0, s) == Sent(net, s) + Fresh(ms, net.broken, s, msg, exclude)
    ensures r.0.broken == net.broken && r.0.closed == net.closed
    decreases |ms|
  {
    if |ms| == 0 then (net, [])
    else
      var first := if Targeted(ms[0], exclude) then Send(net, ms[0].socket, msg) else (net, true);
      var rest := SendAll(ms[1..], first.0, msg, exclude);
      assert forall s :: Sent(rest.0, s) == Sent(net, s) + Fresh(ms, net.broken, s, msg, exclude) by {
        forall s
          ensures Sent(rest.0, s) == Sent(net, s) + Fresh(ms, net.broken, s, msg, exclude)
        {
          var d0 := if Targeted(ms[0], exclude) && ms[0].socket == s then 1 else 0;
          if s !in net.broken {
            assert Sent(first.0, s) == Sent(net, s) + Copies(msg, d0);
            CopiesAdd(msg, d0, Deliveries(ms[1..], s, exclude));
          }
        }
      }
      (rest.0, (if first.1 then [] else [ms[0].id]) + rest.1)
  }

  /** `_broadcast_to_room(room, msg, exclude)`: the send loop, then `leave_room` for each
      member whose send failed. */
  function Broadcast(room: Room, net: Net, msg: Msg, exclude: Option<string>): (r: (Room, Net))
    ensures |r.0.members| <= |room.members|
    decreases |room.members|, 2, 0
  {
    var sent := SendAll(room.members, net, msg, exclude);
    LeaveAll(room, sent.0, sent.1)
  }

  /** `leave_room` for each id in turn. */
  function LeaveAll(room: Room, net: Net, ids: seq<string>): (r: (Room, Net))
    ensures |r.0.members| <= |room.members|
    decreases |room.members|, 1, |ids|
  {
    if |ids| == 0 then (room, net)
    else
      var first := Leave(room, net, ids[0]);
      LeaveAll(first.0, first.1, ids[1..])
  }

  /** `leave_room(room, id)`: pops the member, tells the others, and when the host left a
      non-empty room makes the first remaining member host and announces it. */
  function Leave(room: Room, net: Net, id: string): (r: (Room, Net))
    ensures |r.0.members| <= |room.members|
    ensures id !in Ids(room.members) ==> r == (room, net)
    decreases |room.members|, 0, 0
  {
    var i := IndexOf(room.members, id);
    if i < 0 then (room, net)
    else
      var m := room.members[i];
      var room1 := room.(members := RemoveAt(room.members, i));
      var left := Broadcast(room1, net, MemberLeft(id, m.nickname, |room1.members|), None);
      var room2 := left.0;
      if m.isHost && |room2.members| > 0 then
        var room3 := room2.(members := MakeFirstHost(room2.members));
        var h := room3.members[0];
        Broadcast(room3, left.1, HostChanged(h.id, h.nickname), None)
      else left
  }

  // ---------------------------------------------------------------------------------------
  // What fan-out and leave preserve
  // ---------------------------------------------------------------------------------------

  /** `room'` is what `room` may become through leaves: same identity, no new members or
      profiles, no more hosts, and the id and host invariants kept. */
  ghost predicate Shrinks(room: Room, room': Room) {
    room'.code == room.code && room'.name == room.name && room'.createdAt == room.createdAt
    && |room'.members| <= |room.members|
    && Profiles(room'.members) <= Profiles(room.members)
    && HostCount(room'.members) <= HostCount(room.members)
    && (UniqueIds(room.members) ==> UniqueIds(room'.members))
    && (WellHosted(room) ==> WellHosted(room'))
  }

  lemma ProfilesIds(a: seq<Member>, b: seq<Member>)
    requires Profiles(a) <= Profiles(b)
    ensures Ids(a) <= Ids(b)
  {
    forall d | d in Ids(a) ensures d in Ids(b) {
      var x :| x in a && x.id == d;
      assert Profile(x) in Profiles(b);
      var y :| y in b && Profile(y) == Profile(x);
    }
  }

  lemma {:induction false} BroadcastShrinks(room: Room, net: Net, msg: Msg, exclude: Option<string>)
    ensures var r := Broadcast(room, net, msg, exclude); Shrinks(room, r.0) && Extends(net, r.1)
    decreases |room.members|, 2, 0
  {
    var sent := SendAll(room.members, net, msg, exclude);
    forall s
      ensures IsPrefix(Sent(net, s), Sent(sent.0, s))
    {
      assert Sent(sent.0, s)[..|Sent(net, s)|] == Sent(net, s);
    }
    LeaveAllShrinks(room, sent.0, sent.1);
    ExtendsTrans(net, sent.0, LeaveAll(room, sent.0, sent.1).1);
  }

  lemma {:induction false} LeaveAllShrinks(room: Room, net: Net, ids: seq<string>)
    ensures var r := LeaveAll(room, net, ids); Shrinks(room, r.0) && Extends(net, r.1)
    ensures UniqueIds(room.members) ==> forall k :: 0 <= k < |ids| ==> ids[k] !in Ids(LeaveAll(room, net, ids).0.members)
    decreases |room.members|, 1, |ids|
  {
    if |ids| == 0 {
      ExtendsRefl(net);
    } else {
      var first := Leave(room, net, ids[0]);
      LeaveShrinks(room, net, ids[0]);
      LeaveAllShrinks(first.0, first.1, ids[1..]);
      var r := LeaveAll(first.0, first.1, ids[1..]);
      ExtendsTrans(net, first.1, r.1);
      if UniqueIds(room.members) {
        ProfilesIds(r.0.members, first.0.members);
        forall k | 0 <= k < |ids|
          ensures ids[k] !in Ids(r.0.members)
        {
          if k > 0 {
            assert ids[k] == ids[1..][k - 1];
          }
        }
      }
    }
  }

  lemma {:induction false} LeaveShrinks(room: Room, net: Net, id: string)
    ensures var r := Leave(room, net, id); Shrinks(room, r.0) && Extends(net, r.1)
    ensures UniqueIds(room.members) ==> id !in Ids(Leave(room, net, id).0.members)
    decreases |room.members|, 0, 1
  {
    var i := IndexOf(room.members, id);
    if i < 0 {
      ExtendsRefl(net);
    } else {
      var m := room.members[i];
      var room1 := room.(members := RemoveAt(room.members, i));
      var msg := MemberLeft(id, m.nickname, |room1.members|);
      var left := Broadcast(room1, net, msg, None);
      BroadcastShrinks(room1, net, msg, None);
      var room2 := left.0;
      ProfilesIds(room2.members, room1.members);
      if m.isHost && |room2.members| > 0 {
        LeaveHostShrinks(room, net, id, i, room1, left.0, left.1);
      } else {
        assert left == Leave(room, net, id);
        if m.isHost {
          assert |room2.members| == 0;
          assert HostCount(room2.members) == 0;
        } else {
          RemoveGuestShrinks(room, i);
          ShrinksTrans(room, room1, room2);
        }
      }
    }
  }

  /** Removing a member who is not the host is a leave that keeps the host. */
  lemma RemoveGuestShrinks(room: Room, i: nat)
    requires i < |room.members| && !room.members[i].isHost
    ensures Shrinks(room, room.(members := RemoveAt(room.members, i)))
  {
    var r := RemoveAt(room.members, i);
    assert |r| == 0 ==> HostCount(room.members) == 0;
  }

  lemma ShrinksTrans(a: Room, b: Room, c: Room)
    requires Shrinks(a, b) && Shrinks(b, c)
    ensures Shrinks(a, c)
  {
  }

  /** The re-election branch of `leave_room`. */
  lemma {:induction false} LeaveHostShrinks(room: Room, net: Net, id: string, i: nat,
                                            room1: Room, room2: Room, net2: Net)
    requires i < |room.members| && i == IndexOf(room.members, id) && room.members[i].isHost
    requires room1 == room.(members := RemoveAt(room.members, i))
    requires Shrinks(room1, room2) && Extends(net, net2) && |room2.members| > 0
    requires (room2, net2) == Broadcast(room1, net, MemberLeft(id, room.members[i].nickname, |room1.members|), None)
    ensures var r := Leave(room, net, id); Shrinks(room, r.0) && Extends(net, r.1)
    ensures UniqueIds(room.members) ==> id !in Ids(Leave(room, net, id).0.members)
    decreases |room.members|, 0, 0
  {
    var room3 := room2.(members := MakeFirstHost(room2.members));
    var h := room3.members[0];
    var r := Broadcast(room3, net2, HostChanged(h.id, h.nickname), None);
    assert r == Leave(room, net, id);
    BroadcastShrinks(room3, net2, HostChanged(h.id, h.nickname), None);
    ExtendsTrans(net, net2, r.1);
    ProfilesIds(r.0.members, room3.members);
    ProfilesIds(room2.members, room1.members);
    assert WellHosted(room) ==> WellHosted(room3);
  }

  lemma ExtendsRefl(net: Net)
    ensures Extends(net, net)
  {
    forall s ensures IsPrefix(Sent(net, s), Sent(net, s)) {
      assert Sent(net, s)[..|Sent(net, s)|] == Sent(net, s);
    }
  }

  /** A member that left cannot have a failed send afterwards, so every member whose send
      failed is gone once the broadcast returns. */
  lemma {:induction false} FailedListed(ms: seq<Member>, broken: set<SocketId>, exclude: Option<string>, i: nat)
    requires i < |ms| && Targeted(ms[i], exclude) && ms[i].socket in broken
    ensures ms[i].id in Failed(ms, broken, exclude)
    decreases |ms|
  {
    if i > 0 {
      assert ms[1..][i - 1] == ms[i];
      FailedListed(ms[1..], broken, exclude, i - 1);
    }
  }

  /** Fan-out delivers: every targeted member whose socket works gets the message next,
      however many sends to other members failed. */
  lemma BroadcastDelivers(room: Room, net: Net, msg: Msg, exclude: Option<string>, i: nat)
    requires i < |room.members| && Targeted(room.members[i], exclude)
    requires room.members[i].socket !in net.broken
    ensures var r := Broadcast(room, net, msg, exclude);
      var s := room.members[i].socket;
      IsPrefix(Sent(net, s) + [msg], Sent(r.1, s))
  {
    var sent := SendAll(room.members, net, msg, exclude);
    var r := Broadcast(room, net, msg, exclude);
    LeaveAllShrinks(room, sent.0, sent.1);
    var s := room.members[i].socket;
    DeliveriesPositive(room.members, exclude, i);
    var k := Deliveries(room.members, s, exclude);
    var before := Sent(net, s);
    assert Sent(sent.0, s) == before + Copies(msg, k);
    assert (before + Copies(msg, k))[..|before| + 1] == before + [msg];
    assert Sent(r.1, s)[..|Sent(sent.0, s)|] == Sent(sent.0, s);
    assert Sent(r.1, s)[..|before| + 1] == Sent(sent.0, s)[..|before| + 1];
  }

  /** Fan-out cleans up: every targeted member whose send failed has been removed through
      `leave_room` by the time the broadcast returns. */
  lemma BroadcastRemovesFailed(room: Room, net: Net, msg: Msg, exclude: Option<string>, i: nat)
    requires UniqueIds(room.members)
    requires i < |room.members| && Targeted(room.members[i], exclude)
    requires room.members[i].socket in net.broken
    ensures room.members[i].id !in Ids(Broadcast(room, net, msg, exclude).0.members)
  {
    var sent := SendAll(room.members, net, msg, exclude);
    LeaveAllShrinks(room, sent.0, sent.1);
    FailedListed(room.members, net.broken, exclude, i);
  }

  lemma {:induction false} DeliveriesPositive(ms: seq<Member>, exclude: Option<string>, i: nat)
    requires i < |ms| && Targeted(ms[i], exclude)
    ensures Deliveries(ms, ms[i].socket, exclude) >= 1
    decreases |ms|
  {
    if i > 0 {
      assert ms[1..][i - 1] == ms[i];
      DeliveriesPositive(ms[1..], exclude, i - 1);
    }
  }
}

=== FILE: room_registry.dfy ===
/** The room table of `RoomManager`: code allocation, lookup and deletion. */
module RoomRegistry {
  import opened Wrappers
  import opened Text
  import opened RoomModel

  /** `string.ascii_uppercase + string.digits`: "A" to "Z", then "0" to "9". */
  const CodeChars: string := CharRange('A', 26) + CharRange('0', 10)

  /** The `n` characters from `first` on. */
  function CharRange(first: char, n: nat): (r: string)
    requires first as int + n <= 0xD800
    ensures |r| == n && forall i :: 0 <= i < n ==> r[i] == (first as int + i) as char
  {
    seq(n, i requires 0 <= i < n => (first as int + i) as char)
  }

  /** The letter or digit at each position of the alphabet. */
  lemma CodeCharAt(i: nat)
    requires i < |CodeChars|
    ensures CodeChars[i] == if i < 26 then ('A' as int + i) as char else ('0' as int + i - 26) as char
  {
    if i >= 26 {
      assert CodeChars[i] == CharRange('0', 10)[i - 26];
    }
  }

  /** The default `length` of `generate_room_code`. */
  const CodeLength: nat := 6

  predicate IsCodeChar(c: char) {
    'A' <= c <= 'Z' || '0' <= c <= '9'
  }

  /** A string `generate_room_code` can return. */
  predicate IsCode(s: string) {
    |s| == CodeLength && forall k :: 0 <= k < |s| ==> IsCodeChar(s[k])
  }

  /** One call of `random.choices(chars, k=6)`: six indices into the alphabet. */
  predicate IsDraw(d: seq<nat>) {
    |d| == CodeLength && forall k :: 0 <= k < |d| ==> d[k] < |CodeChars|
  }

  /** `generate_room_code()` for the random picks `d`. */
  function CodeOf(d: seq<nat>): (code: string)
    requires IsDraw(d)
    ensures IsCode(code)
    ensures forall k :: 0 <= k < |d| ==> code[k] == CodeChars[d[k]]
  {
    forall k | 0 <= k < |d| ensures IsCodeChar(CodeChars[d[k]]) {
      CodeCharAt(d[k]);
    }
    seq(CodeLength, k requires 0 <= k < CodeLength => CodeChars[d[k]])
  }

  /** Every code is the outcome of some draw: the alphabet is exactly A-Z and 0-9. */
  lemma CodeOfOnto(code: string)
    requires IsCode(code)
    ensures exists d :: IsDraw(d) && CodeOf(d) == code
  {
    var d := seq(CodeLength, k requires 0 <= k < CodeLength =>
      if '0' <= code[k] <= '9' then 26 + (code[k] as int - '0' as int) as nat
      else (code[k] as int - 'A' as int) as nat);
    assert IsDraw(d);
    forall k | 0 <= k < CodeLength ensures CodeChars[d[k]] == code[k] {
      CodeCharAt(d[k]);
    }
    assert CodeOf(d) == code;
  }

  /** Codes hold no lower-case letters, so upper-casing leaves them alone. */
  lemma CodeIsUpper(code: string)
    requires IsCode(code)
    ensures Upper(code) == code
  {
  }

  /** The room table: `order` is the iteration order of the `rooms` dictionary. */
  datatype Registry = Registry(order: seq<string>, rooms: map<string, Room>, counter: nat)

  /** `RoomManager()`. */
  const Empty: Registry := Registry([], map[], 0)

  /** The table's invariant: the order lists each key once, every key is a generated code,
      and each room is filed under its own code. */
  predicate Valid(reg: Registry) {
    (forall i, j :: 0 <= i < j < |reg.order| ==> reg.order[i] != reg.order[j])
    && (forall c :: c in reg.rooms ==> c in reg.order)
    && (forall c :: c in reg.order ==> c in reg.rooms)
    && (forall c :: c in reg.rooms ==> IsCode(c) && reg.rooms[c].code == c)
  }

  lemma EmptyValid()
    ensures Valid(Empty) && Empty.rooms == map[]
  {
  }

  /** `create_room(name)` at clock `now`, drawing codes from `draws` until one is free. `None`
      means every draw offered was taken, so the source would still be drawing. */
  method CreateRoom(reg: Registry, name: string, now: real, draws: seq<seq<nat>>)
    returns (r: Option<(Registry, Room)>)
    requires forall k :: 0 <= k < |draws| ==> IsDraw(draws[k])
    ensures r.None? <==> forall k :: 0 <= k < |draws| ==> CodeOf(draws[k]) in reg.rooms
    ensures r.Some? ==>
      exists k :: 0 <= k < |draws| && r.value.1.code == CodeOf(draws[k])
        && (forall j :: 0 <= j < k ==> CodeOf(draws[j]) in reg.rooms)
    ensures r.Some? ==> var (reg', room) := r.value;
      room.code !in reg.rooms && IsCode(room.code)
      && room == Room(room.code, name, now, [])
      && reg'.rooms == reg.rooms[room.code := room]
      && reg'.order == reg.order + [room.code]
      && reg'.counter == reg.counter
    ensures r.Some? && Valid(reg) ==> Valid(r.value.0)
  {
    var i := 0;
    while i < |draws| && CodeOf(draws[i]) in reg.rooms
      invariant 0 <= i <= |draws|
      invariant forall j :: 0 <= j < i ==> CodeOf(draws[j]) in reg.rooms
    {
      i := i + 1;
    }
    if i == |draws| {
      return None;
    }
    var code := CodeOf(draws[i]);
    return Some((AddRoom(reg, code, name, now), Room(code, name, now, [])));
  }

  /** The table once `create_room` has filed a new, empty room under the free code `code`:
      it is listed last, nothing else changes, and the table stays well formed. */
  function AddRoom(reg: Registry, code: string, name: string, now: real): (r: Registry)
    requires IsCode(code) && code !in reg.rooms
    ensures r.rooms == reg.rooms[code := Room(code, name, now, [])]
    ensures r.order == reg.order + [code] && r.counter == reg.counter
    ensures Valid(reg) ==> Valid(r)
  {
    assert Valid(reg) ==> code !in reg.order;
    Registry(reg.order + [code], reg.rooms[code := Room(code, name, now, [])], reg.counter)
  }

  /** `get_room(code)`: looks the code up upper-cased. */
  function GetRoom(reg: Registry, code: string): (r: Option<Room>)
    ensures r.Some? <==> Upper(code) in reg.rooms
    ensures r.Some? ==> r.value == reg.rooms[Upper(code)]
  {
    var key := Upper(code);
    if key in reg.rooms then Some(reg.rooms[key]) else None
  }

  /** Lookup ignores case: a code typed in any case finds the same room. */
  lemma GetRoomIgnoresCase(reg: Registry, code: string)
    ensures GetRoom(reg, Lower(code)) == GetRoom(reg, code)
    ensures GetRoom(reg, Upper(code)) == GetRoom(reg, code)
  {
    CaseIdempotent(code);
  }

  /** A freshly created room is found by its code, whatever case it is typed in. */
  lemma CreatedRoomFound(reg': Registry, room: Room, typed: string)
    requires room.code in reg'.rooms && reg'.rooms[room.code] == room && IsCode(room.code)
    requires typed == room.code || typed == Lower(room.code)
    ensures GetRoom(reg', typed) == Some(room)
  {
    CodeIsUpper(room.code);
    CaseIdempotent(room.code);
  }

  /** `delete_room(code)`: the code is used exactly as given. */
  function DeleteRoom(reg: Registry, code: string): (r: (Registry, bool))
    ensures r.1 <==> code in reg.rooms
    ensures !r.1 ==> r.0 == reg
    ensures r.1 ==>
      code !in r.0.rooms && r.0.counter == reg.counter
        && (forall c :: c in r.0.rooms <==> c in reg.rooms && c != code)
        && (forall c :: c in r.0.rooms ==> r.0.rooms[c] == reg.rooms[c])
    ensures Valid(reg) ==> Valid(r.0)
  {
    if code in reg.rooms then
      (Registry(Without(reg.order, code), reg.rooms - {code}, reg.counter), true)
    else (reg, false)
  }

  /** `order` with every occurrence of `code` dropped. */
  function Without(order: seq<string>, code: string): (r: seq<string>)
    ensures forall c :: c in r <==> c in order && c != code
    ensures (forall i, j :: 0 <= i < j < |order| ==> order[i] != order[j])
      ==> forall i, j :: 0 <= i < j < |r| ==> r[i] != r[j]
    decreases |order|
  {
    if |order| == 0 then []
    else
      var rest := Without(order[1..], code);
      assert forall c :: c in order <==> c == order[0] || c in order[1..] by {
        assert order == [order[0]] + order[1..];
      }
      if order[0] == code then rest
      else
        var r := [order[0]] + rest;
        assert (forall i, j :: 0 <= i < j < |order| ==> order[i] != order[j])
          ==> forall i, j :: 0 <= i < j < |r| ==> r[i] != r[j] by {
          if forall i, j :: 0 <= i < j < |order| ==> order[i] != order[j] {
            assert order[0] !in order[1..];
            forall i, j | 0 <= i < j < |r| ensures r[i] != r[j] {
              if i == 0 { assert r[j] in rest; }
            }
          }
        }
        r
  }

  /** `delete_room` is case-sensitive: a code typed in lower case deletes nothing, which is
      why the endpoint upper-cases it first. */
  lemma DeleteRoomCaseSensitive(reg: Registry, code: string, k: nat)
    requires Valid(reg) && code in reg.rooms && k < |code| && 'A' <= code[k] <= 'Z'
    ensures DeleteRoom(reg, Lower(code)) == (reg, false)
  {
    assert Lower(code)[k] == LowerChar(code[k]);
    assert !IsCodeChar(Lower(code)[k]);
  }
}

=== FILE: room_server.dfy ===
/** The room service as one shared state: the room table, the room objects that handlers or
    agent tasks still hold after the table dropped them, the sockets, the running
    `websocket_room` handlers and the running `_handle_room_chat_agent` tasks. An event is
    what one of them does between two `await`s; an interleaving is a sequence of events. */
module RoomServer {
  import opened Wrappers
  import opened Text
  import opened Numerals
  import opened RoomModel
  import opened RoomOps
  import opened RoomMembership
  import opened RoomRegistry
  import opened RoomSweep
  import opened RoomSocket
  import opened Seqs

  /** Where a handler's or a task's room object is: filed in the table under its code, or
      dropped from the table (deleted or swept) and kept at a position of `limbo`. */
  datatype Place = Filed(code: string) | Dropped(index: nat)

  /** A `websocket_room` handler inside its receive loop: the room it joined and its member. */
  datatype Handler = Handler(place: Place, me: Member)

  /** How far a `_handle_room_chat_agent` task has got: created, typing announced, reply
      posted. */
  datatype Phase = Queued | Typing | Replied

  datatype Task = Task(place: Place, query: string, phase: Phase)

  datatype Server = Server(reg: Registry, limbo: seq<Room>, net: Net,
                           handlers: map<SocketId, Handler>, tasks: map<nat, Task>, nextTask: nat)

  /** A fresh process: an empty table, no sockets, nothing running. */
  const Boot: Server := Server(RoomRegistry.Empty, [], Net(map[], {}, map[]), map[], map[], 0)

  /** What can happen next: a room is created under the code its draw settled on, a socket
      connects, a handler receives a frame, a task resumes (with the agent's outcome when it
      is the call that resumes), a room is deleted over REST, or the sweep runs. */
  datatype Event =
    | Create(code: string, name: string, now: real)
    | Open(socket: SocketId, code: string, nickname: string, now: real)
    | Receive(socket: SocketId, frame: Frame, now: real)
    | Resume(task: nat, outcome: AgentOutcome)
    | Delete(code: string)
    | Tick(now: real)

  // ---------------------------------------------------------------------------------------
  // Room objects
  // ---------------------------------------------------------------------------------------

  predicate Holds(s: Server, p: Place) {
    match p
    case Filed(code) => code in s.reg.rooms
    case Dropped(k) => k < |s.limbo|
  }

  function RoomAt(s: Server, p: Place): Room
    requires Holds(s, p)
  {
    match p
    case Filed(code) => s.reg.rooms[code]
    case Dropped(k) => s.limbo[k]
  }

  /** Writes the room object at `p` back; every other object is untouched. */
  function Store(s: Server, p: Place, room: Room): (r: Server)
    requires Holds(s, p)
    ensures forall q :: Holds(r, q) <==> Holds(s, q)
    ensures RoomAt(r, p) == room
    ensures forall q :: Holds(s, q) && q != p ==> RoomAt(r, q) == RoomAt(s, q)
    ensures r.net == s.net && r.handlers == s.handlers && r.tasks == s.tasks && r.nextTask == s.nextTask
    ensures r.reg.order == s.reg.order && r.reg.counter == s.reg.counter
  {
    match p
    case Filed(code) => s.(reg := s.reg.(rooms := s.reg.rooms[code := room]))
    case Dropped(k) => s.(limbo := s.limbo[k := room])
  }

  // ---------------------------------------------------------------------------------------
  // Events
  // ---------------------------------------------------------------------------------------

  /** The invariant every room object keeps. */
  predicate RoomOk(room: Room) {
    UniqueIds(room.members) && AtMostOneHost(room)
  }

  /** The table is well formed, every room object keeps its invariant, and every handler and
      task holds a room object that exists; task numbers are below the next one. */
  ghost predicate Inv(s: Server) {
    Valid(s.reg)
    && (forall p :: Holds(s, p) ==> RoomOk(RoomAt(s, p)))
    && (forall x :: x in s.handlers ==> Holds(s, s.handlers[x].place))
    && (forall k :: k in s.tasks ==> Holds(s, s.tasks[k].place) && k < s.nextTask)
  }

  /** When an event can happen: a created room's code is a free generated code, a new
      connection has no handler yet, and only running handlers and tasks take turns. */
  predicate Enabled(s: Server, e: Event) {
    match e
    case Create(code, _, _) => IsCode(code) && code !in s.reg.rooms
    case Open(socket, _, _, _) => socket !in s.handlers
    case Receive(socket, _, _) => socket in s.handlers
    case Resume(k, _) => k in s.tasks
    case Delete(_) => true
    case Tick(_) => true
  }

  function Next(s: Server, e: Event): Server
    requires Inv(s) && Enabled(s, e)
  {
    match e
    case Create(code, name, now) => s.(reg := AddRoom(s.reg, code, name, now))
    case Open(socket, code, nickname, now) => OpenSocket(s, socket, code, nickname, now)
    case Receive(socket, frame, now) => ReceiveFrame(s, socket, frame, now)
    case Resume(k, outcome) => ResumeTask(s, k, outcome)
    case Delete(code) => DeleteEvent(s, code)
    case Tick(now) => TickEvent(s, now)
  }

  /** `websocket_room` up to its receive loop: a refused socket only gets its close; otherwise
      the joined room object is written back and the counter advances, and the handler runs
      only when `room_state` went out. */
  function OpenSocket(s: Server, socket: SocketId, code: string, nickname: string, now: real): Server {
    match Connect(s.reg, s.net, code, socket, nickname, now)
    case Refused(net) => s.(net := net)
    case Stranded(sess) => Enter(s, Upper(code), sess)
    case Admitted(sess) =>
      Enter(s, Upper(code), sess).(handlers := s.handlers[socket := Handler(Filed(Upper(code)), sess.me)])
  }

  function Enter(s: Server, code: string, sess: Session): Server
    requires code in s.reg.rooms
  {
    s.(reg := s.reg.(rooms := s.reg.rooms[code := sess.room], counter := sess.counter), net := sess.net)
  }

  /** One turn of a handler's receive loop on the room object it holds. A handler whose loop
      ends is gone; a non-blank chat starts a task on the same room object. */
  function ReceiveFrame(s: Server, socket: SocketId, frame: Frame, now: real): Server
    requires Inv(s) && socket in s.handlers
  {
    var h := s.handlers[socket];
    Apply(s, socket, h.place, Step(Session(RoomAt(s, h.place), s.net, s.reg.counter, h.me), frame, now))
  }

  /** Takes in what a turn of the handler on `socket` led to. */
  function Apply(s: Server, socket: SocketId, p: Place, out: Outcome): Server
    requires Holds(s, p)
  {
    match out
    case Continue(sess, spawned) => Spawn(Store(s, p, sess.room).(net := sess.net), p, spawned)
    case Ended(room, net) => Store(s, p, room).(net := net, handlers := s.handlers - {socket})
  }

  /** `asyncio.create_task(_handle_room_chat_agent(room, query))` for each query. */
  function Spawn(s: Server, p: Place, queries: seq<string>): (r: Server)
    ensures r.reg == s.reg && r.limbo == s.limbo && r.net == s.net && r.handlers == s.handlers
    ensures r.nextTask == s.nextTask + |queries|
    ensures forall k :: k in r.tasks <==> k in s.tasks || s.nextTask <= k < r.nextTask
    ensures forall k :: k in s.tasks && k < s.nextTask ==> r.tasks[k] == s.tasks[k]
    ensures forall i :: 0 <= i < |queries| ==> r.tasks[s.nextTask + i] == Task(p, queries[i], Queued)
    decreases |queries|
  {
    if |queries| == 0 then s
    else
      var s1 := s.(tasks := s.tasks[s.nextTask := Task(p, queries[0], Queued)], nextTask := s.nextTask + 1);
      var r := Spawn(s1, p, queries[1..]);
      assert forall i :: 1 <= i < |queries| ==> queries[i] == queries[1..][i - 1];
      r
  }

  /** What a task broadcasts when it resumes in a phase. */
  function Notice(phase: Phase, outcome: AgentOutcome): Msg {
    match phase
    case Queued => AgentTyping(true)
    case Typing => AgentPost(outcome)
    case Replied => AgentTyping(false)
  }

  /** A task resumes: `broadcast_agent_typing(room, True)`; then, once the agent call returned
      or raised, the reply or the failure message; then, in `finally`, `broadcast_agent_typing
      (room, False)`, after which the task is gone. Each goes to the room object the task
      holds, whoever is in it by then. */
  function ResumeTask(s: Server, k: nat, outcome: AgentOutcome): Server
    requires Inv(s) && k in s.tasks
  {
    var t := s.tasks[k];
    var b := Broadcast(RoomAt(s, t.place), s.net, Notice(t.phase, outcome), None);
    Advance(Store(s, t.place, b.0).(net := b.1), k, t)
  }

  /** Task `k`, last seen as `t`, moves to its next phase or ends. */
  function Advance(s: Server, k: nat, t: Task): (r: Server)
    ensures r.reg == s.reg && r.limbo == s.limbo && r.net == s.net
    ensures r.handlers == s.handlers && r.nextTask == s.nextTask
    ensures forall j :: j != k ==> (j in r.tasks <==> j in s.tasks)
    ensures forall j :: j in s.tasks && j != k ==> r.tasks[j] == s.tasks[j]
  {
    match t.phase
    case Queued => s.(tasks := s.tasks[k := t.(phase := Typing)])
    case Typing => s.(tasks := s.tasks[k := t.(phase := Replied)])
    case Replied => s.(tasks := s.tasks - {k})
  }

  /** `DELETE /api/rooms/{code}`: the room leaves the table, but handlers and tasks keep
      working on the object. */
  function DeleteEvent(s: Server, code: string): Server
    requires Inv(s)
  {
    var d := DeleteRoomEndpoint(s.reg, code);
    if d.1.Ok? then Drop(s.(reg := d.0), s.reg.rooms, [Upper(code)]) else s
  }

  /** `_cleanup_stale()`: sweeps the rooms of the table (not the dropped ones), and the rooms
      it drops keep living in the handlers and tasks that hold them. */
  function TickEvent(s: Server, now: real): Server
    requires Inv(s)
  {
    var swept := SweepRooms(s.reg.order, s.reg.rooms, s.net, now);
    var r := Sweep(s.reg, s.net, now);
    Drop(s.(reg := r.0, net := r.1), swept.0, swept.2)
  }

  /** Position of `x` in `xs`. */
  function Pos(xs: seq<string>, x: string): (i: nat)
    requires x in xs
    ensures i < |xs| && xs[i] == x
  {
    if xs[0] == x then 0 else 1 + Pos(xs[1..], x)
  }

  /** The objects of the codes in `drop`, in order. */
  function Pick(rooms: map<string, Room>, drop: seq<string>): (r: seq<Room>)
    requires forall c :: c in drop ==> c in rooms
    ensures |r| == |drop| && forall i :: 0 <= i < |drop| ==> r[i] == rooms[drop[i]]
    decreases |drop|
  {
    if |drop| == 0 then []
    else
      assert forall c :: c in drop[1..] ==> c in drop;
      [rooms[drop[0]]] + Pick(rooms, drop[1..])
  }

  /** Where a room object is once the codes in `drop` have left the table and their objects
      were appended to a `limbo` of length `base`. */
  function Follow(p: Place, drop: seq<string>, base: nat): (q: Place)
    ensures p.Filed? && p.code in drop ==> q == Dropped(base + Pos(drop, p.code))
    ensures !(p.Filed? && p.code in drop) ==> q == p
  {
    if p.Filed? && p.code in drop then Dropped(base + Pos(drop, p.code)) else p
  }

  /** The rooms of `drop` leave the table: their objects go to the end of `limbo`, and every
      handler and task holding one follows it there. */
  function Drop(s: Server, rooms: map<string, Room>, drop: seq<string>): (r: Server)
    requires forall c :: c in drop ==> c in rooms
    ensures r.reg == s.reg && r.net == s.net && r.nextTask == s.nextTask
    ensures r.handlers.Keys == s.handlers.Keys && r.tasks.Keys == s.tasks.Keys
    ensures forall k :: k in s.tasks ==> r.tasks[k].phase == s.tasks[k].phase
  {
    var base := |s.limbo|;
    s.(limbo := s.limbo + Pick(rooms, drop),
       handlers := map x | x in s.handlers :: s.handlers[x].(place := Follow(s.handlers[x].place, drop, base)),
       tasks := map k | k in s.tasks :: s.tasks[k].(place := Follow(s.tasks[k].place, drop, base)))
  }

  // ---------------------------------------------------------------------------------------
  // The invariant
  // ---------------------------------------------------------------------------------------

  lemma BootInv()
    ensures Inv(Boot)
  {
    EmptyValid();
  }

  lemma EmptyRoomOk(room: Room)
    requires room.members == []
    ensures RoomOk(room) && WellHosted(room)
  {
  }

  /** Writing back a room object that kept its code and its invariant keeps the server's. */
  lemma StoreInv(s: Server, p: Place, room: Room)
    requires Inv(s) && Holds(s, p) && room.code == RoomAt(s, p).code && RoomOk(room)
    ensures Inv(Store(s, p, room))
  {
    var r := Store(s, p, room);
    assert Valid(r.reg) by {
      if p.Filed? {
        assert RoomAt(s, p).code == p.code;
      }
    }
  }

  /** A handler or task place before `Drop`: an object that exists, or a code about to be
      dropped. */
  predicate Placed(s: Server, p: Place, drop: seq<string>) {
    Holds(s, p) || (p.Filed? && p.code in drop)
  }

  lemma DropInv(s: Server, rooms: map<string, Room>, drop: seq<string>)
    requires forall c :: c in drop ==> c in rooms && RoomOk(rooms[c])
    requires Valid(s.reg) && forall p :: Holds(s, p) ==> RoomOk(RoomAt(s, p))
    requires forall x :: x in s.handlers ==> Placed(s, s.handlers[x].place, drop)
    requires forall k :: k in s.tasks ==> Placed(s, s.tasks[k].place, drop) && k < s.nextTask
    ensures Inv(Drop(s, rooms, drop))
  {
    DropRoomsOk(s, rooms, drop);
    DropFollows(s, rooms, drop);
  }

  /** Every room object after `Drop`, filed or in limbo, keeps the room invariant. */
  lemma DropRoomsOk(s: Server, rooms: map<string, Room>, drop: seq<string>)
    requires forall c :: c in drop ==> c in rooms && RoomOk(rooms[c])
    requires forall p :: Holds(s, p) ==> RoomOk(RoomAt(s, p))
    ensures var r := Drop(s, rooms, drop); forall p :: Holds(r, p) ==> RoomOk(RoomAt(r, p))
  {
    var r := Drop(s, rooms, drop);
    var base := |s.limbo|;
    forall p | Holds(r, p)
      ensures RoomOk(RoomAt(r, p))
    {
      if p.Dropped? && p.index >= base {
        assert RoomAt(r, p) == rooms[drop[p.index - base]];
      } else {
        assert Holds(s, p);
      }
    }
  }

  /** After `Drop`, every handler and task holds an object. */
  lemma DropFollows(s: Server, rooms: map<string, Room>, drop: seq<string>)
    requires forall c :: c in drop ==> c in rooms
    requires forall x :: x in s.handlers ==> Placed(s, s.handlers[x].place, drop)
    requires forall k :: k in s.tasks ==> Placed(s, s.tasks[k].place, drop) && k < s.nextTask
    ensures var r := Drop(s, rooms, drop);
      (forall x :: x in r.handlers ==> Holds(r, r.handlers[x].place))
      && (forall k :: k in r.tasks ==> Holds(r, r.tasks[k].place) && k < r.nextTask)
  {
    var r := Drop(s, rooms, drop);
    forall p | Placed(s, p, drop)
      ensures Holds(r, Follow(p, drop, |s.limbo|))
    {
    }
  }

  lemma CreateInv(s: Server, code: string, name: string, now: real)
    requires Inv(s) && IsCode(code) && code !in s.reg.rooms
    ensures Inv(Next(s, Create(code, name, now)))
  {
    var r := Next(s, Create(code, name, now));
    forall p | Holds(r, p)
      ensures RoomOk(RoomAt(r, p))
    {
      if p != Filed(code) {
        assert Holds(s, p);
      }
    }
  }

  lemma EnterInv(s: Server, code: string, sess: Session)
    requires Inv(s) && code in s.reg.rooms && sess.room.code == code && RoomOk(sess.room)
    ensures Inv(Enter(s, code, sess))
    ensures forall p :: Holds(Enter(s, code, sess), p) <==> Holds(s, p)
  {
    var r := Enter(s, code, sess);
    forall p | Holds(r, p)
      ensures RoomOk(RoomAt(r, p))
    {
      if p != Filed(code) {
        assert Holds(s, p);
      }
    }
  }

  /** Two states with the same table and limbo hold the same room objects. */
  lemma SameObjects(s: Server, r: Server)
    requires r.reg == s.reg && r.limbo == s.limbo
    requires forall p :: Holds(s, p) ==> RoomOk(RoomAt(s, p))
    ensures forall p :: Holds(r, p) <==> Holds(s, p)
    ensures forall p :: Holds(r, p) ==> RoomOk(RoomAt(r, p))
  {
    forall p | Holds(r, p)
      ensures RoomOk(RoomAt(r, p))
    {
      assert Holds(s, p) && RoomAt(r, p) == RoomAt(s, p);
    }
  }

  lemma NetInv(s: Server, net: Net)
    requires Inv(s)
    ensures Inv(s.(net := net))
  {
    SameObjects(s, s.(net := net));
  }

  lemma AdmitInv(s: Server, code: string, sess: Session, socket: SocketId)
    requires Inv(s) && code in s.reg.rooms && sess.room.code == code && RoomOk(sess.room)
    ensures Inv(Enter(s, code, sess).(handlers := s.handlers[socket := Handler(Filed(code), sess.me)]))
  {
    EnterInv(s, code, sess);
    var e := Enter(s, code, sess);
    SameObjects(e, e.(handlers := s.handlers[socket := Handler(Filed(code), sess.me)]));
    assert Holds(e, Filed(code));
  }

  lemma OpenInv(s: Server, socket: SocketId, code: string, nickname: string, now: real)
    requires Inv(s)
    ensures Inv(OpenSocket(s, socket, code, nickname, now))
  {
    match Connect(s.reg, s.net, code, socket, nickname, now)
    case Refused(net) =>
      NetInv(s, net);
    case Stranded(sess) =>
      assert Holds(s, Filed(Upper(code)));
      ConnectKeepsRoom(s.reg, s.net, code, socket, nickname, now);
      EnterInv(s, Upper(code), sess);
    case Admitted(sess) =>
      assert Holds(s, Filed(Upper(code)));
      ConnectKeepsRoom(s.reg, s.net, code, socket, nickname, now);
      AdmitInv(s, Upper(code), sess, socket);
  }

  /** A turn writes the room object back together with the sockets' new state. */
  lemma StoreNetInv(s: Server, p: Place, room: Room, net: Net)
    requires Inv(s) && Holds(s, p) && room.code == RoomAt(s, p).code && RoomOk(room)
    ensures Inv(Store(s, p, room).(net := net))
    ensures forall q :: Holds(Store(s, p, room).(net := net), q) <==> Holds(s, q)
  {
    StoreInv(s, p, room);
    NetInv(Store(s, p, room), net);
  }

  lemma SpawnInv(s: Server, p: Place, queries: seq<string>)
    requires Inv(s) && Holds(s, p)
    ensures Inv(Spawn(s, p, queries))
  {
    var r := Spawn(s, p, queries);
    SameObjects(s, r);
    forall k | k in r.tasks
      ensures Holds(r, r.tasks[k].place) && k < r.nextTask
    {
      if k >= s.nextTask {
        assert r.tasks[s.nextTask + (k - s.nextTask)] == Task(p, queries[k - s.nextTask], Queued);
      }
    }
  }

  lemma ApplyInv(s: Server, socket: SocketId, p: Place, out: Outcome)
    requires Inv(s) && Holds(s, p)
    requires out.Continue? ==> out.session.room.code == RoomAt(s, p).code && RoomOk(out.session.room)
    requires out.Ended? ==> out.room.code == RoomAt(s, p).code && RoomOk(out.room)
    ensures Inv(Apply(s, socket, p, out))
  {
    match out
    case Continue(sess, spawned) =>
      StoreNetInv(s, p, sess.room, sess.net);
      SpawnInv(Store(s, p, sess.room).(net := sess.net), p, spawned);
    case Ended(room, net) =>
      StoreNetInv(s, p, room, net);
      var s1 := Store(s, p, room).(net := net);
      SameObjects(s1, s1.(handlers := s.handlers - {socket}));
  }

  lemma ReceiveInv(s: Server, socket: SocketId, frame: Frame, now: real)
    requires Inv(s) && socket in s.handlers
    ensures Inv(ReceiveFrame(s, socket, frame, now))
  {
    var h := s.handlers[socket];
    var sess := Session(RoomAt(s, h.place), s.net, s.reg.counter, h.me);
    StepKeepsRoom(sess, frame, now);
    ApplyInv(s, socket, h.place, Step(sess, frame, now));
  }

  lemma ResumeInv(s: Server, k: nat, outcome: AgentOutcome)
    requires Inv(s) && k in s.tasks
    ensures Inv(ResumeTask(s, k, outcome))
  {
    var t := s.tasks[k];
    var room := RoomAt(s, t.place);
    var b := Broadcast(room, s.net, Notice(t.phase, outcome), None);
    BroadcastShrinks(room, s.net, Notice(t.phase, outcome), None);
    StoreNetInv(s, t.place, b.0, b.1);
    AdvanceInv(Store(s, t.place, b.0).(net := b.1), k, t);
  }

  lemma AdvanceInv(s: Server, k: nat, t: Task)
    requires Inv(s) && k in s.tasks && t.place == s.tasks[k].place
    ensures Inv(Advance(s, k, t))
  {
    var r := Advance(s, k, t);
    SameObjects(s, r);
    forall j | j in r.tasks
      ensures Holds(r, r.tasks[j].place) && j < r.nextTask
    {
      assert j in s.tasks && r.tasks[j].place == s.tasks[j].place;
    }
  }

  lemma DeleteInv(s: Server, code: string)
    requires Inv(s)
    ensures Inv(DeleteEvent(s, code))
  {
    var d := DeleteRoomEndpoint(s.reg, code);
    if d.1.Ok? {
      var s1 := s.(reg := d.0);
      forall p | Holds(s1, p)
        ensures RoomOk(RoomAt(s1, p))
      {
        assert Holds(s, p);
      }
      forall p | Holds(s, p)
        ensures Placed(s1, p, [Upper(code)])
      {
      }
      assert Holds(s, Filed(Upper(code)));
      DropInv(s1, s.reg.rooms, [Upper(code)]);
    }
  }

  lemma TickInv(s: Server, now: real)
    requires Inv(s)
    ensures Inv(TickEvent(s, now))
  {
    var swept := SweepRooms(s.reg.order, s.reg.rooms, s.net, now);
    var r := Sweep(s.reg, s.net, now);
    assert RoomsOk(s.reg.rooms) by {
      forall c | c in s.reg.rooms
        ensures UniqueIds(s.reg.rooms[c].members) && AtMostOneHost(s.reg.rooms[c])
      {
        assert Holds(s, Filed(c));
      }
    }
    SweepSpec(s.reg, s.net, now);
    SweepRoomsFacts(s.reg.order, s.reg.rooms, s.net, now);
    var s1 := s.(reg := r.0, net := r.1);
    forall p | Holds(s1, p)
      ensures RoomOk(RoomAt(s1, p))
    {
      if p.Dropped? {
        assert Holds(s, p);
      }
    }
    forall p | Holds(s, p)
      ensures Placed(s1, p, swept.2)
    {
    }
    DropInv(s1, swept.0, swept.2);
  }

  /** Every event keeps the invariant. */
  lemma NextInv(s: Server, e: Event)
    requires Inv(s) && Enabled(s, e)
    ensures Inv(Next(s, e))
  {
    match e
    case Create(code, name, now) => CreateInv(s, code, name, now);
    case Open(socket, code, nickname, now) => OpenInv(s, socket, code, nickname, now);
    case Receive(socket, frame, now) => ReceiveInv(s, socket, frame, now);
    case Resume(k, outcome) => ResumeInv(s, k, outcome);
    case Delete(code) => DeleteInv(s, code);
    case Tick(now) => TickInv(s, now);
  }

  // ---------------------------------------------------------------------------------------
  // Hosts
  // ---------------------------------------------------------------------------------------

  /** Every member id in `room` was made from a counter value between 1 and `n`. */
  ghost predicate Issued(room: Room, n: nat) {
    forall d :: d in Ids(room.members) ==> exists c: nat, t: int :: 1 <= c <= n && d == MemberId(c, t)
  }

  /** Exactly one host in every non-empty room object, and every id in the table issued by
      the counter so far. */
  ghost predicate Hosted(s: Server) {
    (forall p :: Holds(s, p) ==> WellHosted(RoomAt(s, p)))
    && (forall c :: c in s.reg.rooms ==> Issued(s.reg.rooms[c], s.reg.counter))
  }

  /** The next id the counter makes is in no room it has issued ids to. */
  lemma IssuedFresh(room: Room, n: nat, t: int)
    requires Issued(room, n)
    ensures MemberId(n + 1, t) !in Ids(room.members)
  {
    if MemberId(n + 1, t) in Ids(room.members) {
      var c: nat, t0: int :| 1 <= c <= n && MemberId(n + 1, t) == MemberId(c, t0);
      MemberIdInjective(n + 1, t, c, t0);
    }
  }

  lemma BootHosted()
    ensures Hosted(Boot)
  {
  }

  lemma SameHosted(s: Server, r: Server)
    requires r.reg == s.reg && r.limbo == s.limbo && Hosted(s)
    ensures Hosted(r)
  {
    forall p | Holds(r, p)
      ensures WellHosted(RoomAt(r, p))
    {
      assert Holds(s, p) && RoomAt(r, p) == RoomAt(s, p);
    }
  }

  /** Writing back a room object that is well hosted and gained nobody keeps `Hosted`. */
  lemma StoreHosted(s: Server, p: Place, room: Room, net: Net)
    requires Hosted(s) && Holds(s, p) && WellHosted(room) && Ids(room.members) <= Ids(RoomAt(s, p).members)
    ensures Hosted(Store(s, p, room)) && Hosted(Store(s, p, room).(net := net))
  {
    var r := Store(s, p, room);
    forall q | Holds(r, q)
      ensures WellHosted(RoomAt(r, q))
    {
      assert Holds(s, q);
    }
    forall c | c in r.reg.rooms
      ensures Issued(r.reg.rooms[c], r.reg.counter)
    {
      assert Holds(s, Filed(c)) && RoomAt(r, Filed(c)) == r.reg.rooms[c];
    }
    SameHosted(r, r.(net := net));
  }

  lemma CreateHosted(s: Server, code: string, name: string, now: real)
    requires Inv(s) && Hosted(s) && IsCode(code) && code !in s.reg.rooms
    ensures Hosted(Next(s, Create(code, name, now)))
  {
    var r := Next(s, Create(code, name, now));
    forall p | Holds(r, p)
      ensures WellHosted(RoomAt(r, p))
    {
      if p != Filed(code) {
        assert Holds(s, p);
      }
    }
  }

  /** A join writes back a well-hosted room whose only new id is the one the counter just
      made. */
  lemma EnterHosted(s: Server, code: string, sess: Session, t: int)
    requires Hosted(s) && code in s.reg.rooms && WellHosted(sess.room) && sess.counter == s.reg.counter + 1
    requires Ids(sess.room.members) <= Ids(s.reg.rooms[code].members) + {MemberId(sess.counter, t)}
    ensures Hosted(Enter(s, code, sess))
  {
    var r := Enter(s, code, sess);
    var n := s.reg.counter;
    forall p | Holds(r, p)
      ensures WellHosted(RoomAt(r, p))
    {
      if p != Filed(code) {
        assert Holds(s, p);
      }
    }
    forall c, d | c in r.reg.rooms && d in Ids(r.reg.rooms[c].members)
      ensures exists c': nat, t': int :: 1 <= c' <= n + 1 && d == MemberId(c', t')
    {
      if c == code && d == MemberId(n + 1, t) {
      } else {
        assert d in Ids(s.reg.rooms[c].members);
        var c0: nat, t0: int :| 1 <= c0 <= n && d == MemberId(c0, t0);
      }
    }
  }

  /** What `Inv` and `Hosted` say about one room of the table. */
  lemma HostedAt(s: Server, c: string)
    requires Inv(s) && Hosted(s) && c in s.reg.rooms
    ensures RoomOk(s.reg.rooms[c]) && WellHosted(s.reg.rooms[c]) && Issued(s.reg.rooms[c], s.reg.counter)
  {
    assert Holds(s, Filed(c)) && RoomAt(s, Filed(c)) == s.reg.rooms[c];
  }

  /** Joining a well-hosted room under a fresh id keeps it well hosted, and the one new id is
      the counter's next one. */
  lemma ConnectHosted(reg: Registry, net: Net, socket: SocketId, code: string, nickname: string, now: real)
    requires Upper(code) in reg.rooms
    requires var room := reg.rooms[Upper(code)];
      RoomOk(room) && WellHosted(room)
      && MemberId(reg.counter + 1, Truncate(now * 1000.0)) !in Ids(room.members)
    ensures var c := Connect(reg, net, code, socket, nickname, now);
      !c.Refused? && WellHosted(c.session.room) && c.session.counter == reg.counter + 1
      && Ids(c.session.room.members)
         <= Ids(reg.rooms[Upper(code)].members) + {MemberId(reg.counter + 1, Truncate(now * 1000.0))}
  {
    ConnectKeepsRoom(reg, net, code, socket, nickname, now);
  }

  /** A socket joining a table room keeps `Hosted`, whether or not the handler then runs. */
  lemma JoinHosted(s: Server, socket: SocketId, code: string, nickname: string, now: real)
    requires Inv(s) && Hosted(s) && Upper(code) in s.reg.rooms
    ensures var c := Connect(s.reg, s.net, code, socket, nickname, now);
      !c.Refused? && Hosted(Enter(s, Upper(code), c.session))
  {
    var c := Connect(s.reg, s.net, code, socket, nickname, now);
    HostedAt(s, Upper(code));
    IssuedFresh(s.reg.rooms[Upper(code)], s.reg.counter, Truncate(now * 1000.0));
    ConnectHosted(s.reg, s.net, socket, code, nickname, now);
    EnterHosted(s, Upper(code), c.session, Truncate(now * 1000.0));
  }

  lemma OpenHosted(s: Server, socket: SocketId, code: string, nickname: string, now: real)
    requires Inv(s) && Hosted(s)
    ensures Hosted(OpenSocket(s, socket, code, nickname, now))
  {
    match Connect(s.reg, s.net, code, socket, nickname, now)
    case Refused(net) =>
      SameHosted(s, s.(net := net));
    case Stranded(sess) =>
      JoinHosted(s, socket, code, nickname, now);
    case Admitted(sess) =>
      JoinHosted(s, socket, code, nickname, now);
      var e := Enter(s, Upper(code), sess);
      SameHosted(e, e.(handlers := s.handlers[socket := Handler(Filed(Upper(code)), sess.me)]));
  }

  lemma ApplyHosted(s: Server, socket: SocketId, p: Place, out: Outcome)
    requires Hosted(s) && Holds(s, p)
    requires out.Continue? ==>
      WellHosted(out.session.room) && Ids(out.session.room.members) <= Ids(RoomAt(s, p).members)
    requires out.Ended? ==> WellHosted(out.room) && Ids(out.room.members) <= Ids(RoomAt(s, p).members)
    ensures Hosted(Apply(s, socket, p, out))
  {
    match out
    case Continue(sess, spawned) =>
      StoreHosted(s, p, sess.room, sess.net);
      var s1 := Store(s, p, sess.room).(net := sess.net);
      SameHosted(s1, Spawn(s1, p, spawned));
    case Ended(room, net) =>
      StoreHosted(s, p, room, net);
      var s1 := Store(s, p, room).(net := net);
      SameHosted(s1, s1.(handlers := s.handlers - {socket}));
  }

  lemma ReceiveHosted(s: Server, socket: SocketId, frame: Frame, now: real)
    requires Inv(s) && Hosted(s) && socket in s.handlers
    ensures Hosted(ReceiveFrame(s, socket, frame, now))
  {
    var h := s.handlers[socket];
    var sess := Session(RoomAt(s, h.place), s.net, s.reg.counter, h.me);
    StepKeepsRoom(sess, frame, now);
    ApplyHosted(s, socket, h.place, Step(sess, frame, now));
  }

  lemma ResumeHosted(s: Server, k: nat, outcome: AgentOutcome)
    requires Inv(s) && Hosted(s) && k in s.tasks
    ensures Hosted(ResumeTask(s, k, outcome))
  {
    var t := s.tasks[k];
    var room := RoomAt(s, t.place);
    var b := Broadcast(room, s.net, Notice(t.phase, outcome), None);
    BroadcastShrinks(room, s.net, Notice(t.phase, outcome), None);
    ProfilesIds(b.0.members, room.members);
    StoreHosted(s, t.place, b.0, b.1);
    var s1 := Store(s, t.place, b.0).(net := b.1);
    SameHosted(s1, Advance(s1, k, t));
  }

  lemma DeleteHosted(s: Server, code: string)
    requires Inv(s) && Hosted(s)
    ensures Hosted(DeleteEvent(s, code))
  {
    var d := DeleteRoomEndpoint(s.reg, code);
    if d.1.Ok? {
      var s1 := s.(reg := d.0);
      var r := Drop(s1, s.reg.rooms, [Upper(code)]);
      assert Holds(s, Filed(Upper(code)));
      forall p | Holds(r, p)
        ensures WellHosted(RoomAt(r, p))
      {
        if p.Dropped? && p.index >= |s.limbo| {
          assert RoomAt(r, p) == s.reg.rooms[Upper(code)];
        } else {
          assert Holds(s, p) && RoomAt(r, p) == RoomAt(s, p);
        }
      }
    }
  }

  /** Every event but the sweep keeps exactly one host in every non-empty room. */
  lemma NextHosted(s: Server, e: Event)
    requires Inv(s) && Hosted(s) && Enabled(s, e) && !e.Tick?
    ensures Hosted(Next(s, e))
  {
    match e
    case Create(code, name, now) => CreateHosted(s, code, name, now);
    case Open(socket, code, nickname, now) => OpenHosted(s, socket, code, nickname, now);
    case Receive(socket, frame, now) => ReceiveHosted(s, socket, frame, now);
    case Resume(k, outcome) => ResumeHosted(s, k, outcome);
    case Delete(code) => DeleteHosted(s, code);
  }

  // ---------------------------------------------------------------------------------------
  // Outboxes
  // ---------------------------------------------------------------------------------------

  lemma CreateGrows(s: Server, code: string, name: string, now: real)
    requires Inv(s) && Enabled(s, Create(code, name, now))
    ensures Grows(s.net, Next(s, Create(code, name, now)).net)
  {
    SameSentGrows(s.net, s.net);
  }

  lemma OpenGrows(s: Server, socket: SocketId, code: string, nickname: string, now: real)
    ensures Grows(s.net, OpenSocket(s, socket, code, nickname, now).net)
  {
    match Connect(s.reg, s.net, code, socket, nickname, now)
    case Refused(net) =>
      SameSentGrows(s.net, net);
    case Stranded(sess) =>
      ExtendsGrows(s.net, sess.net);
    case Admitted(sess) =>
      ExtendsGrows(s.net, sess.net);
  }

  lemma ReceiveGrows(s: Server, socket: SocketId, frame: Frame, now: real)
    requires Inv(s) && socket in s.handlers
    ensures Grows(s.net, ReceiveFrame(s, socket, frame, now).net)
  {
    var h := s.handlers[socket];
    var sess := Session(RoomAt(s, h.place), s.net, s.reg.counter, h.me);
    StepKeepsRoom(sess, frame, now);
    match Step(sess, frame, now)
    case Continue(sess', spawned) =>
      ExtendsGrows(s.net, sess'.net);
    case Ended(room, net) =>
      ExtendsGrows(s.net, net);
  }

  lemma ResumeGrows(s: Server, k: nat, outcome: AgentOutcome)
    requires Inv(s) && k in s.tasks
    ensures Grows(s.net, ResumeTask(s, k, outcome).net)
  {
    var t := s.tasks[k];
    BroadcastShrinks(RoomAt(s, t.place), s.net, Notice(t.phase, outcome), None);
    ExtendsGrows(s.net, Broadcast(RoomAt(s, t.place), s.net, Notice(t.phase, outcome), None).1);
  }

  lemma TickGrows(s: Server, now: real)
    requires Inv(s)
    ensures Grows(s.net, TickEvent(s, now).net)
  {
    SweepRoomsGrows(s.reg.order, s.reg.rooms, s.net, now);
  }

  /** No event takes back a message already delivered to any socket. */
  lemma NextGrows(s: Server, e: Event)
    requires Inv(s) && Enabled(s, e)
    ensures Grows(s.net, Next(s, e).net)
  {
    match e
    case Create(code, name, now) => CreateGrows(s, code, name, now);
    case Open(socket, code, nickname, now) => OpenGrows(s, socket, code, nickname, now);
    case Receive(socket, frame, now) => ReceiveGrows(s, socket, frame, now);
    case Resume(k, outcome) => ResumeGrows(s, k, outcome);
    case Delete(code) => SameSentGrows(s.net, s.net);
    case Tick(now) => TickGrows(s, now);
  }

  // ---------------------------------------------------------------------------------------
  // Interleavings
  // ---------------------------------------------------------------------------------------

  /** Events applied in turn by a transition `step`, for as long as `ok` lets them. */
  ghost predicate RunsBy(ok: (Server, Event) -> bool, step: (Server, Event) -> Server, s: Server, es: seq<Event>)
    decreases |es|
  {
    |es| == 0 || (ok(s, es[0]) && RunsBy(ok, step, step(s, es[0]), es[1..]))
  }

  ghost function RunBy(ok: (Server, Event) -> bool, step: (Server, Event) -> Server, s: Server, es: seq<Event>)
    : Server
    decreases |es|
  {
    if |es| == 0 || !ok(s, es[0]) then s else RunBy(ok, step, step(s, es[0]), es[1..])
  }

  lemma {:induction false} RunsByConcat(ok: (Server, Event) -> bool, step: (Server, Event) -> Server,
                                        s: Server, a: seq<Event>, b: seq<Event>)
    requires RunsBy(ok, step, s, a + b)
    ensures RunsBy(ok, step, s, a) && RunsBy(ok, step, RunBy(ok, step, s, a), b)
    ensures RunBy(ok, step, s, a + b) == RunBy(ok, step, RunBy(ok, step, s, a), b)
    decreases |a|
  {
    if |a| == 0 {
      assert a + b == b;
    } else {
      assert (a + b)[0] == a[0] && (a + b)[1..] == a[1..] + b;
      RunsByConcat(ok, step, step(s, a[0]), a[1..], b);
    }
  }

  /** An event the server can take in state `s`. */
  ghost predicate CanTake(s: Server, e: Event) {
    Inv(s) && Enabled(s, e)
  }

  /** The state after `e`, or `s` itself when `e` cannot happen. */
  ghost function After(s: Server, e: Event): Server {
    if CanTake(s, e) then Next(s, e) else s
  }

  /** Every event of `es` is enabled in turn, starting from `s`. */
  ghost predicate Runs(s: Server, es: seq<Event>) {
    RunsBy(CanTake, After, s, es)
  }

  /** The state after the events of `es`, stopping at the first one that is not enabled. */
  ghost function Run(s: Server, es: seq<Event>): Server {
    RunBy(CanTake, After, s, es)
  }

  /** A run of two events that are each allowed when they come. */
  lemma RunByTwo(ok: (Server, Event) -> bool, step: (Server, Event) -> Server, s: Server, e1: Event, e2: Event)
    requires ok(s, e1) && ok(step(s, e1), e2)
    ensures RunsBy(ok, step, s, [e1, e2]) && RunBy(ok, step, s, [e1, e2]) == step(step(s, e1), e2)
  {
    var s1 := step(s, e1);
    var s2 := step(s1, e2);
    assert [e1, e2][1..] == [e2] && [e2][1..] == [];
    assert RunsBy(ok, step, s2, []) && RunBy(ok, step, s2, []) == s2;
    assert RunsBy(ok, step, s1, [e2]) && RunBy(ok, step, s1, [e2]) == s2;
  }

  /** The first event of a run. */
  lemma RunCons(s: Server, es: seq<Event>)
    requires Runs(s, es) && |es| > 0
    ensures Inv(s) && Enabled(s, es[0]) && Runs(Next(s, es[0]), es[1..])
    ensures Run(s, es) == Run(Next(s, es[0]), es[1..])
  {
  }

  /** Running `a` and then `b` is running `a + b`. */
  lemma RunConcat(s: Server, a: seq<Event>, b: seq<Event>)
    requires Runs(s, a + b)
    ensures Runs(s, a) && Runs(Run(s, a), b) && Run(s, a + b) == Run(Run(s, a), b)
  {
    RunsByConcat(CanTake, After, s, a, b);
  }

  /** Every state an interleaving from a fresh process reaches keeps the invariant. */
  lemma {:induction false} RunInv(s: Server, es: seq<Event>)
    requires Inv(s) && Runs(s, es)
    ensures Inv(Run(s, es))
    decreases |es|
  {
    if |es| > 0 {
      RunCons(s, es);
      NextInv(s, es[0]);
      RunInv(Next(s, es[0]), es[1..]);
    }
  }

  /** Without a sweep, every non-empty room object keeps exactly one host. */
  lemma {:induction false} RunHosted(s: Server, es: seq<Event>)
    requires Inv(s) && Hosted(s) && Runs(s, es)
    requires forall i :: 0 <= i < |es| ==> !es[i].Tick?
    ensures Hosted(Run(s, es))
    decreases |es|
  {
    if |es| > 0 {
      RunCons(s, es);
      NextHosted(s, es[0]);
      NextInv(s, es[0]);
      RunHosted(Next(s, es[0]), es[1..]);
    }
  }

  lemma {:induction false} RunGrows(s: Server, es: seq<Event>)
    requires Runs(s, es)
    ensures Grows(s.net, Run(s, es).net)
    decreases |es|
  {
    if |es| == 0 {
      SameSentGrows(s.net, s.net);
    } else {
      RunCons(s, es);
      NextGrows(s, es[0]);
      RunGrows(Next(s, es[0]), es[1..]);
      GrowsTrans(s.net, Next(s, es[0]).net, Run(s, es).net);
    }
  }

  // ---------------------------------------------------------------------------------------
  // Agent tasks
  // ---------------------------------------------------------------------------------------

  /** A task's turn moves it one phase on, and the `finally` turn ends it; the outcome of
      the agent call does not matter for either. No other task or handler changes. */
  lemma ResumeAdvances(s: Server, k: nat, outcome: AgentOutcome)
    requires Inv(s) && k in s.tasks
    ensures var t := s.tasks[k]; var r := ResumeTask(s, k, outcome);
      r.handlers == s.handlers && r.nextTask == s.nextTask
      && (forall j :: j != k ==> (j in r.tasks <==> j in s.tasks))
      && (forall j :: j in s.tasks && j != k ==> r.tasks[j] == s.tasks[j])
      && (t.phase == Queued ==> k in r.tasks && r.tasks[k] == t.(phase := Typing))
      && (t.phase == Typing ==> k in r.tasks && r.tasks[k] == t.(phase := Replied))
      && (t.phase == Replied ==> k !in r.tasks)
  {
  }

  /** Socket `x` belongs to a member of the room object task `k` holds, and it works. */
  predicate Hears(s: Server, k: nat, x: SocketId) {
    k in s.tasks && Holds(s, s.tasks[k].place) && x !in s.net.broken
    && x in Sockets(RoomAt(s, s.tasks[k].place).members)
  }

  /** A task's turn delivers its notice to every member of its room with a working socket. */
  lemma ResumeDelivers(s: Server, k: nat, outcome: AgentOutcome, x: SocketId)
    requires Inv(s) && Hears(s, k, x)
    ensures IsPrefix(Sent(s.net, x) + [Notice(s.tasks[k].phase, outcome)], Sent(ResumeTask(s, k, outcome).net, x))
  {
    var t := s.tasks[k];
    var room := RoomAt(s, t.place);
    var m :| m in room.members && m.socket == x;
    var i :| 0 <= i < |room.members| && room.members[i] == m;
    var b := Broadcast(room, s.net, Notice(t.phase, outcome), None);
    assert ResumeTask(s, k, outcome).net == b.1;
    BroadcastDelivers(room, s.net, Notice(t.phase, outcome), None, i);
  }

  /** Events that are not turns of task `k` leave it where it is. */
  lemma NextKeepsTask(s: Server, e: Event, k: nat)
    requires Inv(s) && Enabled(s, e) && k in s.tasks && !(e.Resume? && e.task == k)
    ensures k in Next(s, e).tasks && Next(s, e).tasks[k].phase == s.tasks[k].phase
    ensures k < Next(s, e).nextTask
  {
    match e
    case Create(_, _, _) =>
    case Open(socket, code, nickname, now) =>
    case Receive(socket, frame, now) =>
      var h := s.handlers[socket];
      ApplyKeepsTask(s, socket, h.place, Step(Session(RoomAt(s, h.place), s.net, s.reg.counter, h.me), frame, now), k);
    case Resume(j, outcome) =>
      ResumeAdvances(s, j, outcome);
    case Delete(code) =>
    case Tick(now) =>
  }

  lemma ApplyKeepsTask(s: Server, socket: SocketId, p: Place, out: Outcome, k: nat)
    requires Inv(s) && Holds(s, p) && k in s.tasks
    ensures var r := Apply(s, socket, p, out); k in r.tasks && r.tasks[k] == s.tasks[k] && k < r.nextTask
  {
    match out
    case Continue(sess, spawned) =>
      var s1 := Store(s, p, sess.room).(net := sess.net);
      assert k in s1.tasks && k < s1.nextTask;
    case Ended(room, net) =>
  }

  /** No turn of task `k` among `es`. */
  predicate Quiet(es: seq<Event>, k: nat) {
    forall i :: 0 <= i < |es| ==> !(es[i].Resume? && es[i].task == k)
  }

  lemma {:induction false} RunQuiet(s: Server, es: seq<Event>, k: nat)
    requires Runs(s, es) && k in s.tasks && Quiet(es, k)
    ensures k in Run(s, es).tasks && Run(s, es).tasks[k].phase == s.tasks[k].phase
    ensures Grows(s.net, Run(s, es).net)
    decreases |es|
  {
    RunGrows(s, es);
    if |es| > 0 {
      RunCons(s, es);
      NextKeepsTask(s, es[0], k);
      assert Quiet(es[1..], k) by {
        forall i | 0 <= i < |es[1..]| ensures !(es[1..][i].Resume? && es[1..][i].task == k) {
          assert es[1..][i] == es[i + 1];
        }
      }
      RunQuiet(Next(s, es[0]), es[1..], k);
    }
  }

  lemma PrefixAt(u: seq<Msg>, v: seq<Msg>, i: nat)
    requires IsPrefix(u, v) && i < |u|
    ensures i < |v| && v[i] == u[i]
  {
    assert v[..|u|][i] == v[i];
  }

  lemma PrefixTrans(u: seq<Msg>, v: seq<Msg>, w: seq<Msg>)
    requires IsPrefix(u, v) && IsPrefix(v, w)
    ensures IsPrefix(u, w)
  {
    assert w[..|v|][..|u|] == w[..|u|];
  }

  /** One turn of task `k` after other events: whatever happened in between, socket `x`
      (in the task's room at the turn) receives the turn's notice after everything it had
      received before, and the task moves on one phase. */
  lemma TaskTurn(s: Server, pre: seq<Event>, k: nat, o: AgentOutcome, x: SocketId)
    requires k in s.tasks && Quiet(pre, k) && Runs(s, pre + [Resume(k, o)])
    requires Hears(Run(s, pre), k, x)
    ensures var m := Run(s, pre); var r := Run(s, pre + [Resume(k, o)]);
      var n := |Sent(m.net, x)|;
      |Sent(s.net, x)| <= n < |Sent(r.net, x)|
      && IsPrefix(Sent(s.net, x), Sent(r.net, x))
      && Sent(r.net, x)[n] == Notice(s.tasks[k].phase, o)
      && (s.tasks[k].phase == Queued ==> k in r.tasks && r.tasks[k].phase == Typing)
      && (s.tasks[k].phase == Typing ==> k in r.tasks && r.tasks[k].phase == Replied)
      && (s.tasks[k].phase == Replied ==> k !in r.tasks)
  {
    RunConcat(s, pre, [Resume(k, o)]);
    var m := Run(s, pre);
    RunQuiet(s, pre, k);
    var r := Run(s, pre + [Resume(k, o)]);
    RunCons(m, [Resume(k, o)]);
    assert [Resume(k, o)][1..] == [];
    assert r == Next(m, Resume(k, o)) == ResumeTask(m, k, o);
    ResumeDelivers(m, k, o, x);
    ResumeAdvances(m, k, o);
    var u := Sent(m.net, x) + [Notice(m.tasks[k].phase, o)];
    PrefixAt(u, Sent(r.net, x), |Sent(m.net, x)|);
    assert IsPrefix(Sent(m.net, x), u);
    PrefixTrans(Sent(s.net, x), Sent(m.net, x), u);
    PrefixTrans(Sent(s.net, x), u, Sent(r.net, x));
  }

  /** `_handle_room_chat_agent` brackets its reply: a member present with a working socket at
      each of a task's three turns receives `agent_typing` true, then the reply (or the
      failure message), then `agent_typing` false, in that order, whatever the agent call
      returned or raised and whatever other handlers, tasks, deletes and sweeps ran in
      between; after the third turn the task is gone. The run is given as three pieces, each
      ending in a turn of the task; `RunConcat` joins them into one. */
  lemma AgentBracket(s: Server, k: nat, x: SocketId, pre1: seq<Event>, o1: AgentOutcome,
                     pre2: seq<Event>, o2: AgentOutcome, pre3: seq<Event>, o3: AgentOutcome)
    requires k in s.tasks && s.tasks[k].phase == Queued
    requires Quiet(pre1, k) && Quiet(pre2, k) && Quiet(pre3, k)
    requires var s1 := Run(s, pre1 + [Resume(k, o1)]); var s2 := Run(s1, pre2 + [Resume(k, o2)]);
      Runs(s, pre1 + [Resume(k, o1)]) && Runs(s1, pre2 + [Resume(k, o2)]) && Runs(s2, pre3 + [Resume(k, o3)])
      && Hears(Run(s, pre1), k, x) && Hears(Run(s1, pre2), k, x) && Hears(Run(s2, pre3), k, x)
    ensures var r := Run(Run(Run(s, pre1 + [Resume(k, o1)]), pre2 + [Resume(k, o2)]), pre3 + [Resume(k, o3)]);
      var out := Sent(r.net, x);
      k !in r.tasks
      && exists a, b, c :: 0 <= a < b < c < |out|
           && out[a] == AgentTyping(true) && out[b] == AgentPost(o2) && out[c] == AgentTyping(false)
  {
    var s1 := Run(s, pre1 + [Resume(k, o1)]);
    var s2 := Run(s1, pre2 + [Resume(k, o2)]);
    var r := Run(s2, pre3 + [Resume(k, o3)]);
    TaskTurn(s, pre1, k, o1, x);
    TaskTurn(s1, pre2, k, o2, x);
    TaskTurn(s2, pre3, k, o3, x);
    var a := |Sent(Run(s, pre1).net, x)|;
    var b := |Sent(Run(s1, pre2).net, x)|;
    var c := |Sent(Run(s2, pre3).net, x)|;
    PrefixAt(Sent(s1.net, x), Sent(s2.net, x), a);
    PrefixAt(Sent(s2.net, x), Sent(r.net, x), a);
    PrefixAt(Sent(s2.net, x), Sent(r.net, x), b);
    assert 0 <= a < b < c < |Sent(r.net, x)|;
  }

  // ---------------------------------------------------------------------------------------
  // Joining, step by step
  // ---------------------------------------------------------------------------------------

  /** The member `join_room` makes for the `n`-th arrival with counter value `c`. */
  function Arrival(c: nat, n: nat, socket: SocketId, nickname: string, now: real): Member {
    Member(MemberId(c, Truncate(now * 1000.0)), nickname, MemberColor(n), socket, None, now, now, n == 0)
  }

  /** A room whose members all have working sockets of their own and which a new socket
      can join under the counter's next id. */
  predicate Joinable(room: Room, net: Net, counter: nat, socket: SocketId, now: real) {
    Healthy(room, net) && UniqueSockets(room.members) && socket !in Sockets(room.members)
    && socket !in net.broken && MemberId(counter + 1, Truncate(now * 1000.0)) !in Ids(room.members)
  }

  /** Connecting to such a room: the newcomer is appended, gets `room_state` listing everyone
      including itself, each earlier member gets one `member_joined`, and nobody else hears
      anything. */
  lemma ConnectJoinable(reg: Registry, net: Net, code: string, socket: SocketId, nickname: string, now: real)
    requires IsCode(code) && code in reg.rooms && Joinable(reg.rooms[code], net, reg.counter, socket, now)
    ensures var room := reg.rooms[code]; var n := |room.members|;
      var m := Arrival(reg.counter + 1, n, socket, nickname, now);
      var room' := room.(members := room.members + [m]);
      var c := Connect(reg, net, code, socket, nickname, now);
      c.Admitted? && c.session.room == room' && c.session.me == m && c.session.counter == reg.counter + 1
      && c.session.net.broken == net.broken
      && Sent(c.session.net, socket) == Sent(net, socket) + [RoomStateMsg(StateOf(room'), m.id, m.color)]
      && (forall j :: 0 <= j < n ==>
            Sent(c.session.net, room.members[j].socket) == Sent(net, room.members[j].socket) + [MemberJoined(View(m), n + 1)])
      && (forall x :: x != socket && x !in Sockets(room.members) ==> Sent(c.session.net, x) == Sent(net, x))
  {
    var room := reg.rooms[code];
    var n := |room.members|;
    var m := Arrival(reg.counter + 1, n, socket, nickname, now);
    CodeIsUpper(code);
    var j := JoinRoom(room, net, reg.counter, socket, nickname, None, now);
    assert j.member == m;
    assert |m.id| > 0 by { assert m.id[..7] == "member_"; }
    JoinHealthy(room, net, reg.counter, socket, nickname, None, now);
    JoinSilentToNewcomer(room, net, reg.counter, socket, nickname, None, now);
    forall i | 0 <= i < n
      ensures Sent(j.net, room.members[i].socket) == Sent(net, room.members[i].socket) + [MemberJoined(View(m), n + 1)]
    {
      JoinMessages(room, net, reg.counter, socket, nickname, None, now, i);
    }
    forall x | x != socket && x !in Sockets(room.members)
      ensures Sent(j.net, x) == Sent(net, x)
    {
      JoinElsewhere(room, net, reg.counter, socket, nickname, None, now, x);
    }
    forall i | 0 <= i < n
      ensures room.members[i].socket != socket
    {
      assert room.members[i] in room.members;
    }
  }

  /** An allowed event is taken by `After` as `Next` takes it. */
  lemma AfterTakes(s: Server, e: Event)
    requires Inv(s) && Enabled(s, e)
    ensures CanTake(s, e) && After(s, e) == Next(s, e)
  {
  }

  /** `Open` on a joinable room at the server: the room object in the table gains the
      newcomer, a handler starts for it, and the outboxes change as `ConnectJoinable` says. */
  lemma NextJoin(s: Server, code: string, socket: SocketId, nickname: string, now: real, c: nat, n: nat)
    requires Inv(s) && socket !in s.handlers && s.reg.counter == c
    requires IsCode(code) && code in s.reg.rooms && |s.reg.rooms[code].members| == n
    requires Joinable(s.reg.rooms[code], s.net, c, socket, now)
    ensures var room := s.reg.rooms[code];
      var m := Arrival(c + 1, n, socket, nickname, now);
      var room' := room.(members := room.members + [m]);
      var r := Next(s, Open(socket, code, nickname, now));
      r.reg == s.reg.(rooms := s.reg.rooms[code := room'], counter := c + 1)
      && r.limbo == s.limbo && r.tasks == s.tasks && r.nextTask == s.nextTask
      && r.handlers == s.handlers[socket := Handler(Filed(code), m)]
      && r.net.broken == s.net.broken
      && Sent(r.net, socket) == Sent(s.net, socket) + [RoomStateMsg(StateOf(room'), m.id, m.color)]
      && (forall j :: 0 <= j < n ==>
            Sent(r.net, room.members[j].socket) == Sent(s.net, room.members[j].socket) + [MemberJoined(View(m), n + 1)])
      && (forall x :: x != socket && x !in Sockets(room.members) ==> Sent(r.net, x) == Sent(s.net, x))
  {
    var room := s.reg.rooms[code];
    assert Arrival(s.reg.counter + 1, |room.members|, socket, nickname, now) == Arrival(c + 1, n, socket, nickname, now);
    ConnectJoinable(s.reg, s.net, code, socket, nickname, now);
    CodeIsUpper(code);
  }

  /** The first socket opens on an empty room of the table. */
  lemma FirstJoin(s: Server, code: string, a: SocketId, na: string, t1: real)
    requires Inv(s) && IsCode(code) && code in s.reg.rooms && s.reg.rooms[code].members == []
    requires a !in s.handlers && a !in s.net.broken
    ensures var room := s.reg.rooms[code];
      var alice := Arrival(s.reg.counter + 1, 0, a, na, t1);
      var s2 := After(s, Open(a, code, na, t1));
      CanTake(s, Open(a, code, na, t1)) && Inv(s2)
      && code in s2.reg.rooms && s2.reg.rooms[code] == room.(members := [alice])
      && s2.reg.counter == s.reg.counter + 1
      && s2.handlers == s.handlers[a := Handler(Filed(code), alice)]
      && s2.net.broken == s.net.broken
  {
    FirstJoinState(s, code, a, na, t1);
    AfterTakes(s, Open(a, code, na, t1));
    OpenInv(s, a, code, na, t1);
  }

  /** The table, counter and handlers after the first socket opens on an empty room. */
  lemma FirstJoinState(s: Server, code: string, a: SocketId, na: string, t1: real)
    requires Inv(s) && IsCode(code) && code in s.reg.rooms && s.reg.rooms[code].members == []
    requires a !in s.handlers && a !in s.net.broken
    ensures var room := s.reg.rooms[code];
      var alice := Arrival(s.reg.counter + 1, 0, a, na, t1);
      var s2 := Next(s, Open(a, code, na, t1));
      code in s2.reg.rooms && s2.reg.rooms[code] == room.(members := [alice])
      && s2.reg.counter == s.reg.counter + 1
      && s2.handlers == s.handlers[a := Handler(Filed(code), alice)]
      && s2.net.broken == s.net.broken
  {
    var alice := Arrival(s.reg.counter + 1, 0, a, na, t1);
    assert Sockets([]) == {} && Ids([]) == {};
    EmptyAppend(s.reg.rooms[code].members, alice);
    NextJoin(s, code, a, na, t1, s.reg.counter, 0);
  }

  /** The first socket on an empty room is sent `room_state` listing only itself, and no
      other socket hears anything. */
  lemma FirstJoinSent(s: Server, code: string, a: SocketId, na: string, t1: real)
    requires Inv(s) && IsCode(code) && code in s.reg.rooms && s.reg.rooms[code].members == []
    requires a !in s.handlers && a !in s.net.broken
    ensures var room := s.reg.rooms[code];
      var alice := Arrival(s.reg.counter + 1, 0, a, na, t1);
      var s2 := After(s, Open(a, code, na, t1));
      Sent(s2.net, a) == Sent(s.net, a) + [RoomStateMsg(StateOf(room.(members := [alice])), alice.id, alice.color)]
      && (forall x :: x != a ==> Sent(s2.net, x) == Sent(s.net, x))
  {
    var alice := Arrival(s.reg.counter + 1, 0, a, na, t1);
    assert Sockets([]) == {} && Ids([]) == {};
    EmptyAppend(s.reg.rooms[code].members, alice);
    NextJoin(s, code, a, na, t1, s.reg.counter, 0);
    AfterTakes(s, Open(a, code, na, t1));
  }

  /** A second socket opens on a room whose one member, Alice, has a working socket and an id
      made under counter value `c`: the room in the table and the handlers gain Bob. */
  lemma SecondJoin(s: Server, code: string, c: nat, alice: Member, ta: int, b: SocketId, nb: string, t2: real)
    requires Inv(s) && IsCode(code) && s.reg.counter == c
    requires code in s.reg.rooms && s.reg.rooms[code].members == [alice] && alice.id == MemberId(c, ta)
    requires b !in s.handlers && alice.socket != b && alice.socket !in s.net.broken && b !in s.net.broken
    ensures var bob := Arrival(c + 1, 1, b, nb, t2);
      var s3 := After(s, Open(b, code, nb, t2));
      CanTake(s, Open(b, code, nb, t2))
      && code in s3.reg.rooms && s3.reg.rooms[code] == s.reg.rooms[code].(members := [alice, bob])
      && s3.handlers == s.handlers[b := Handler(Filed(code), bob)]
  {
    var bob := Arrival(c + 1, 1, b, nb, t2);
    SoleJoinable(s.reg.rooms[code], s.net, c, alice, ta, b, t2);
    NextJoin(s, code, b, nb, t2, c, 1);
    AfterTakes(s, Open(b, code, nb, t2));
    SingleAppend(s.reg.rooms[code].members, alice, bob);
  }

  /** The same second join as Alice hears it: one `member_joined` for Bob. */
  lemma SecondJoinTellsFirst(s: Server, code: string, c: nat, alice: Member, ta: int, b: SocketId, nb: string, t2: real)
    requires Inv(s) && IsCode(code) && s.reg.counter == c
    requires code in s.reg.rooms && s.reg.rooms[code].members == [alice] && alice.id == MemberId(c, ta)
    requires b !in s.handlers && alice.socket != b && alice.socket !in s.net.broken && b !in s.net.broken
    ensures Sent(After(s, Open(b, code, nb, t2)).net, alice.socket)
            == Sent(s.net, alice.socket) + [MemberJoined(View(Arrival(c + 1, 1, b, nb, t2)), 2)]
  {
    SoleJoinable(s.reg.rooms[code], s.net, c, alice, ta, b, t2);
    NextJoin(s, code, b, nb, t2, c, 1);
    AfterTakes(s, Open(b, code, nb, t2));
    assert s.reg.rooms[code].members[0] == alice;
  }

  /** The same second join as Bob hears it: `room_state` listing Alice and himself. */
  lemma SecondJoinGreets(s: Server, code: string, c: nat, alice: Member, ta: int, b: SocketId, nb: string, t2: real)
    requires Inv(s) && IsCode(code) && s.reg.counter == c
    requires code in s.reg.rooms && s.reg.rooms[code].members == [alice] && alice.id == MemberId(c, ta)
    requires b !in s.handlers && alice.socket != b && alice.socket !in s.net.broken && b !in s.net.broken
    ensures var bob := Arrival(c + 1, 1, b, nb, t2);
      Sent(After(s, Open(b, code, nb, t2)).net, b)
      == Sent(s.net, b) + [RoomStateMsg(StateOf(s.reg.rooms[code].(members := [alice, bob])), bob.id, bob.color)]
  {
    var bob := Arrival(c + 1, 1, b, nb, t2);
    SoleJoinable(s.reg.rooms[code], s.net, c, alice, ta, b, t2);
    NextJoin(s, code, b, nb, t2, c, 1);
    AfterTakes(s, Open(b, code, nb, t2));
    SingleAppend(s.reg.rooms[code].members, alice, bob);
  }

  /** A room whose one member has a working socket and an id made under counter value `c`
      can be joined by another working socket. */
  lemma SoleJoinable(room: Room, net: Net, c: nat, alice: Member, ta: int, b: SocketId, t2: real)
    requires room.members == [alice] && alice.id == MemberId(c, ta)
    requires alice.socket != b && alice.socket !in net.broken && b !in net.broken
    ensures Joinable(room, net, c, b, t2)
  {
    assert room.members[0] == alice;
    assert Sockets(room.members) == {alice.socket};
    MemberIdInjective(c + 1, Truncate(t2 * 1000.0), c, ta);
    assert Ids(room.members) == {alice.id};
  }

  /** In a fresh process, `POST /api/rooms` files an empty room and nothing else. */
  lemma CreateFirst(code: string, name: string, t0: real)
    requires IsCode(code)
    ensures var s1 := After(Boot, Create(code, name, t0));
      CanTake(Boot, Create(code, name, t0)) && Inv(s1)
      && code in s1.reg.rooms && s1.reg.rooms[code] == Room(code, name, t0, [])
      && s1.net == Boot.net && s1.handlers == map[]
  {
    BootInv();
    CreateInv(Boot, code, name, t0);
  }

  /** Two phones join a room that is filed and still empty: both opens are allowed, and the
      run ends where the second join leaves the server after the first. */
  lemma JoinPair(s: Server, code: string, a: SocketId, na: string, t1: real, b: SocketId, nb: string, t2: real)
    requires Inv(s) && IsCode(code) && code in s.reg.rooms && s.reg.rooms[code].members == []
    requires a != b && a !in s.handlers && b !in s.handlers && a !in s.net.broken && b !in s.net.broken
    ensures var e2 := Open(a, code, na, t1); var e3 := Open(b, code, nb, t2);
      Runs(s, [e2, e3]) && Run(s, [e2, e3]) == After(After(s, e2), e3)
  {
    var e2 := Open(a, code, na, t1);
    var e3 := Open(b, code, nb, t2);
    FirstJoin(s, code, a, na, t1);
    SecondJoin(After(s, e2), code, s.reg.counter + 1, Arrival(s.reg.counter + 1, 0, a, na, t1), Truncate(t1 * 1000.0), b, nb, t2);
    RunByTwo(CanTake, After, s, e2, e3);
  }

  /** After the two joins the room in the table lists Alice, the host with the first colour,
      then Bob, a guest with the second, and `GET /api/rooms/{code}` reports two members. */
  lemma TwoJoinersRoom(s: Server, code: string, a: SocketId, na: string, t1: real, b: SocketId, nb: string, t2: real)
    requires Inv(s) && IsCode(code) && code in s.reg.rooms && s.reg.rooms[code].members == []
    requires a != b && a !in s.handlers && b !in s.handlers && a !in s.net.broken && b !in s.net.broken
    ensures var room := s.reg.rooms[code];
      var c := s.reg.counter + 1;
      var alice := Arrival(c, 0, a, na, t1);
      var bob := Arrival(c + 1, 1, b, nb, t2);
      var r := Run(s, [Open(a, code, na, t1), Open(b, code, nb, t2)]);
      alice.isHost && alice.color == MemberColor(0) && !bob.isHost && bob.color == MemberColor(1)
      && code in r.reg.rooms && r.reg.rooms[code] == room.(members := [alice, bob])
      && GetRoomEndpoint(r.reg, code) == Ok(RoomInfo(code, room.name, 2))
  {
    var e2 := Open(a, code, na, t1);
    JoinPair(s, code, a, na, t1, b, nb, t2);
    FirstJoin(s, code, a, na, t1);
    SecondJoin(After(s, e2), code, s.reg.counter + 1, Arrival(s.reg.counter + 1, 0, a, na, t1), Truncate(t1 * 1000.0), b, nb, t2);
    CodeIsUpper(code);
  }

  /** After the two joins both sockets have handlers holding the room filed in the table, with
      their own member. */
  lemma TwoJoinersHandlers(s: Server, code: string, a: SocketId, na: string, t1: real, b: SocketId, nb: string, t2: real)
    requires Inv(s) && IsCode(code) && code in s.reg.rooms && s.reg.rooms[code].members == []
    requires a != b && a !in s.handlers && b !in s.handlers && a !in s.net.broken && b !in s.net.broken
    ensures var c := s.reg.counter + 1;
      var r := Run(s, [Open(a, code, na, t1), Open(b, code, nb, t2)]);
      r.handlers == s.handlers[a := Handler(Filed(code), Arrival(c, 0, a, na, t1))]
                              [b := Handler(Filed(code), Arrival(c + 1, 1, b, nb, t2))]
  {
    var e2 := Open(a, code, na, t1);
    JoinPair(s, code, a, na, t1, b, nb, t2);
    FirstJoin(s, code, a, na, t1);
    SecondJoin(After(s, e2), code, s.reg.counter + 1, Arrival(s.reg.counter + 1, 0, a, na, t1), Truncate(t1 * 1000.0), b, nb, t2);
  }

  /** After the two joins Alice has heard `room_state` with herself and then one
      `member_joined` for Bob. */
  lemma TwoJoinersAliceHears(s: Server, code: string, a: SocketId, na: string, t1: real, b: SocketId, nb: string, t2: real)
    requires Inv(s) && IsCode(code) && code in s.reg.rooms && s.reg.rooms[code].members == []
    requires a != b && a !in s.handlers && b !in s.handlers && a !in s.net.broken && b !in s.net.broken
    ensures var room := s.reg.rooms[code];
      var c := s.reg.counter + 1;
      var alice := Arrival(c, 0, a, na, t1);
      var bob := Arrival(c + 1, 1, b, nb, t2);
      var r := Run(s, [Open(a, code, na, t1), Open(b, code, nb, t2)]);
      Sent(r.net, a) == Sent(s.net, a) + [RoomStateMsg(StateOf(room.(members := [alice])), alice.id, MemberColor(0)),
                                          MemberJoined(View(bob), 2)]
  {
    var e2 := Open(a, code, na, t1);
    var s2 := After(s, e2);
    var c := s.reg.counter + 1;
    var first := RoomStateMsg(StateOf(s.reg.rooms[code].(members := [Arrival(c, 0, a, na, t1)])), Arrival(c, 0, a, na, t1).id, MemberColor(0));
    var joined := MemberJoined(View(Arrival(c + 1, 1, b, nb, t2)), 2);
    JoinPair(s, code, a, na, t1, b, nb, t2);
    FirstJoin(s, code, a, na, t1);
    FirstJoinSent(s, code, a, na, t1);
    assert Sent(s2.net, a) == Sent(s.net, a) + [first];
    SecondJoinTellsFirst(s2, code, c, Arrival(c, 0, a, na, t1), Truncate(t1 * 1000.0), b, nb, t2);
    AppendPair(Sent(s.net, a), first, joined);
  }




  /** After the two joins Bob has heard `room_state` listing Alice as host and himself. */
  lemma TwoJoinersBobHears(s: Server, code: string, a: SocketId, na: string, t1: real, b: SocketId, nb: string, t2: real)
    requires Inv(s) && IsCode(code) && code in s.reg.rooms && s.reg.rooms[code].members == []
    requires a != b && a !in s.handlers && b !in s.handlers && a !in s.net.broken && b !in s.net.broken
    ensures var room := s.reg.rooms[code];
      var c := s.reg.counter + 1;
      var alice := Arrival(c, 0, a, na, t1);
      var bob := Arrival(c + 1, 1, b, nb, t2);
      var r := Run(s, [Open(a, code, na, t1), Open(b, code, nb, t2)]);
      Sent(r.net, b) == Sent(s.net, b) + [RoomStateMsg(StateOf(room.(members := [alice, bob])), bob.id, MemberColor(1))]
  {
    var e2 := Open(a, code, na, t1);
    var s2 := After(s, e2);
    JoinPair(s, code, a, na, t1, b, nb, t2);
    FirstJoin(s, code, a, na, t1);
    FirstJoinSent(s, code, a, na, t1);
    assert Sent(s2.net, b) == Sent(s.net, b);
    SecondJoinGreets(s2, code, s.reg.counter + 1, Arrival(s.reg.counter + 1, 0, a, na, t1), Truncate(t1 * 1000.0), b, nb, t2);
  }
}

=== FILE: room_socket.dfy ===
/** The room websocket endpoint of the backend (connection set-up, the per-frame dispatch of
    the receive loop, the reply the agent task posts) and the room REST endpoints. */
module RoomSocket {
  import opened Wrappers
  import opened Text
  import opened Numerals
  import opened RoomModel
  import opened RoomOps
  import opened RoomMembership
  import opened RoomRegistry
  import opened Seqs

  /** The close code sent for an unknown room. */
  const RoomNotFoundClose: int := 4004

  /** The state a connected socket's handler works on: the room object it joined, the
      sockets, the member counter of the manager, and its own member. */
  datatype Session = Session(room: Room, net: Net, counter: nat, me: Member)

  /** How the set-up of `websocket_room` ends: the socket is refused with 4004 for an unknown
      code; or the member joins and sending `room_state` fails, which raises before the
      `try` so the handler ends without `leave_room`; or the member joins and the receive
      loop starts. */
  datatype Opened =
    | Refused(net: Net)
    | Stranded(session: Session)
    | Admitted(session: Session)

  /** `websocket_room(code, nickname)` up to the receive loop. */
  function Connect(reg: Registry, net: Net, code: string, socket: SocketId, nickname: string, now: real)
    : (r: Opened)
    ensures r.Refused? <==> GetRoom(reg, code).None?
    ensures r.Refused? ==> r.net == Close(net, socket, RoomNotFoundClose)
    ensures r.Stranded? <==> GetRoom(reg, code).Some? && socket in net.broken
    ensures !r.Refused? ==>
      r.session.counter == reg.counter + 1 && r.session.me.socket == socket
      && r.session.room.code == reg.rooms[Upper(code)].code
      && Extends(net, r.session.net)
    ensures !r.Refused? ==>
      var j := JoinRoom(reg.rooms[Upper(code)], net, reg.counter, socket, nickname, None, now);
      r.session.room == j.room && r.session.me == j.member
      && r.session.net == (if r.Stranded? then j.net
                           else Send(j.net, socket, RoomStateMsg(StateOf(j.room), j.member.id, j.member.color)).0)
  {
    match GetRoom(reg, code)
    case None => Refused(Close(net, socket, RoomNotFoundClose))
    case Some(room) =>
      var j := JoinRoom(room, net, reg.counter, socket, nickname, None, now);
      var state := RoomStateMsg(StateOf(j.room), j.member.id, j.member.color);
      var sent := Send(j.net, socket, state);
      if sent.1 then
        assert Extends(j.net, sent.0) by {
          forall t ensures IsPrefix(Sent(j.net, t), Sent(sent.0, t)) {
            assert Sent(sent.0, t)[..|Sent(j.net, t)|] == Sent(j.net, t);
          }
        }
        ExtendsTrans(net, j.net, sent.0);
        Admitted(Session(j.room, sent.0, j.counter, j.member))
      else Stranded(Session(j.room, j.net, j.counter, j.member))
  }

  /** An unknown code: nothing is joined and nothing is sent, only the 4004 close. */
  lemma ConnectUnknown(reg: Registry, net: Net, code: string, socket: SocketId, nickname: string, now: real)
    requires Upper(code) !in reg.rooms
    ensures var r := Connect(reg, net, code, socket, nickname, now);
      r.Refused? && (forall s :: Sent(r.net, s) == Sent(net, s))
      && (socket !in net.broken ==> r.net.closed == net.closed[socket := RoomNotFoundClose])
  {
  }

  /** A new socket joining a healthy room: the first thing it receives is `room_state`,
      carrying its own id and colour and listing it as the last member. */
  lemma ConnectSendsStateFirst(reg: Registry, net: Net, code: string, socket: SocketId, nickname: string, now: real)
    requires Upper(code) in reg.rooms
    requires var room := reg.rooms[Upper(code)];
      UniqueSockets(room.members) && socket !in Sockets(room.members) && Healthy(room, net)
      && socket !in net.broken && Sent(net, socket) == []
      && JoinRoom(room, net, reg.counter, socket, nickname, None, now).member.id !in Ids(room.members)
    ensures var r := Connect(reg, net, code, socket, nickname, now);
      r.Admitted? && |Sent(r.session.net, socket)| == 1
      && Sent(r.session.net, socket)[0].RoomStateMsg?
      && Sent(r.session.net, socket)[0].yourId == r.session.me.id
      && Sent(r.session.net, socket)[0].yourColor == r.session.me.color
      && (var st := Sent(r.session.net, socket)[0].state;
          |st.members| > 0 && st.members[|st.members| - 1].view == View(r.session.me))
  {
    var room := reg.rooms[Upper(code)];
    var j := JoinRoom(room, net, reg.counter, socket, nickname, None, now);
    assert |j.member.id| >= 7;
    JoinHealthy(room, net, reg.counter, socket, nickname, None, now);
    JoinSilentToNewcomer(room, net, reg.counter, socket, nickname, None, now);
    ConnectDelivers(reg, net, code, socket, nickname, now);
    EmptyAppend(Sent(j.net, socket), RoomStateMsg(StateOf(j.room), j.member.id, j.member.color));
    assert j.room.members[|j.room.members| - 1] == j.member;
    LastView(j.room, j.member);
  }

  /** A live socket joining a known room is admitted, and `room_state` is appended to what
      the join left in its outbox. */
  lemma ConnectDelivers(reg: Registry, net: Net, code: string, socket: SocketId, nickname: string, now: real)
    requires Upper(code) in reg.rooms && socket !in net.broken
    ensures var r := Connect(reg, net, code, socket, nickname, now);
      var j := JoinRoom(reg.rooms[Upper(code)], net, reg.counter, socket, nickname, None, now);
      r.Admitted? && r.session.room == j.room && r.session.me == j.member
      && Sent(r.session.net, socket) == Sent(j.net, socket) + [RoomStateMsg(StateOf(j.room), j.member.id, j.member.color)]
  {
    var j := JoinRoom(reg.rooms[Upper(code)], net, reg.counter, socket, nickname, None, now);
    assert j.net.broken == net.broken;
  }

  /** The last entry of the state of a room whose last member is `m` shows `m`. */
  lemma LastView(room: Room, m: Member)
    requires |room.members| > 0 && room.members[|room.members| - 1] == m
    ensures var st := StateOf(room);
      |st.members| > 0 && st.members[|st.members| - 1].view == View(m)
  {
  }

  /** When the new socket is already dead, the member still joins a healthy room and stays
      in it: `room_state` is never delivered and the handler ends without `leave_room`. */
  lemma ConnectStrandsMember(reg: Registry, net: Net, code: string, socket: SocketId, nickname: string, now: real)
    requires Upper(code) in reg.rooms && socket in net.broken
    requires var room := reg.rooms[Upper(code)];
      Healthy(room, net) && MemberId(reg.counter + 1, Truncate(now * 1000.0)) !in Ids(room.members)
    ensures var r := Connect(reg, net, code, socket, nickname, now);
      r.Stranded?
      && r.session.room.members == reg.rooms[Upper(code)].members + [r.session.me]
      && Sent(r.session.net, socket) == Sent(net, socket)
  {
    var room := reg.rooms[Upper(code)];
    var j := JoinRoom(room, net, reg.counter, socket, nickname, None, now);
    var m := j.member;
    assert |m.id| >= 7;
    var ms := room.members + [m];
    var msg := MemberJoined(View(m), |ms|);
    JoinAppends(room, net, reg.counter, socket, nickname, None, now);
    assert forall i :: 0 <= i < |ms| && Targeted(ms[i], Some(m.id)) ==> ms[i].socket !in net.broken by {
      forall i | 0 <= i < |ms| && Targeted(ms[i], Some(m.id)) ensures ms[i].socket !in net.broken {
        if i < |room.members| { assert ms[i] == room.members[i]; }
      }
    }
    BroadcastReachesAll(room.(members := ms), net, msg, Some(m.id));
  }

  /** How the set-up ends once `send_json(room_state)` sits inside the `try`: a failed send
      then ends in `leave_room` like every other error of the handler. */
  datatype Guarded =
    | GuardRefused(net: Net)
    | Withdrawn(room: Room, net: Net, counter: nat, me: Member)
    | GuardAdmitted(session: Session)

  /** `websocket_room` up to the receive loop with the initial send guarded. */
  function ConnectGuarded(reg: Registry, net: Net, code: string, socket: SocketId, nickname: string, now: real)
    : (r: Guarded)
    ensures r.GuardRefused? <==> GetRoom(reg, code).None?
    ensures r.Withdrawn? <==> GetRoom(reg, code).Some? && socket in net.broken
    ensures r.GuardAdmitted? ==> r.session == Connect(reg, net, code, socket, nickname, now).session
  {
    match Connect(reg, net, code, socket, nickname, now)
    case Refused(n) => GuardRefused(n)
    case Admitted(sess) => GuardAdmitted(sess)
    case Stranded(sess) =>
      var left := Leave(sess.room, sess.net, sess.me.id);
      Withdrawn(left.0, left.1, sess.counter, sess.me)
  }

  /** With the guarded send, a connection whose socket is already dead leaves nobody behind:
      the room ends with no member beyond those it had, and not the new one. */
  lemma ConnectGuardedLeavesNoGhost(reg: Registry, net: Net, code: string, socket: SocketId, nickname: string, now: real)
    requires Upper(code) in reg.rooms && UniqueIds(reg.rooms[Upper(code)].members) && socket in net.broken
    ensures var r := ConnectGuarded(reg, net, code, socket, nickname, now);
      var room := reg.rooms[Upper(code)];
      r.Withdrawn? && r.me.id !in Ids(r.room.members) && Ids(r.room.members) <= Ids(room.members)
      && UniqueIds(r.room.members) && (AtMostOneHost(room) ==> AtMostOneHost(r.room))
  {
    var c := Connect(reg, net, code, socket, nickname, now);
    ConnectKeepsRoom(reg, net, code, socket, nickname, now);
    LeaveInvariants(c.session.room, c.session.net, c.session.me.id);
  }

  /** Connecting to a known room adds at most the new member, whose id is made from the next
      counter value; the room keeps its invariants, and exactly one host when that id is
      fresh. */
  lemma ConnectKeepsRoom(reg: Registry, net: Net, code: string, socket: SocketId, nickname: string, now: real)
    requires Upper(code) in reg.rooms && UniqueIds(reg.rooms[Upper(code)].members)
    ensures var r := Connect(reg, net, code, socket, nickname, now);
      var room := reg.rooms[Upper(code)];
      !r.Refused? && r.session.me.id == MemberId(reg.counter + 1, Truncate(now * 1000.0))
      && UniqueIds(r.session.room.members)
      && Ids(r.session.room.members) <= Ids(room.members) + {r.session.me.id}
      && (AtMostOneHost(room) ==> AtMostOneHost(r.session.room))
      && (WellHosted(room) && r.session.me.id !in Ids(room.members) ==> WellHosted(r.session.room))
  {
    var room := reg.rooms[Upper(code)];
    var j := JoinRoom(room, net, reg.counter, socket, nickname, None, now);
    var r := Connect(reg, net, code, socket, nickname, now);
    assert r.session.room == j.room && r.session.me == j.member;
    JoinInvariants(room, net, reg.counter, socket, nickname, None, now);
  }

  /** The newcomer's own socket hears nothing from the join broadcast in a healthy room. */
  lemma JoinSilentToNewcomer(room: Room, net: Net, counter: nat, socket: SocketId, nickname: string,
                             givenId: Option<string>, now: real)
    requires UniqueSockets(room.members) && socket !in Sockets(room.members)
    requires Healthy(room, net) && socket !in net.broken
    requires var id := JoinRoom(room, net, counter, socket, nickname, givenId, now).member.id;
      id != "" && id !in Ids(room.members)
    ensures Sent(JoinRoom(room, net, counter, socket, nickname, givenId, now).net, socket) == Sent(net, socket)
  {
    var m := JoinRoom(room, net, counter, socket, nickname, givenId, now).member;
    var room1 := room.(members := room.members + [m]);
    JoinAppends(room, net, counter, socket, nickname, givenId, now);
    AppendSound(room, net, m);
    BroadcastHealthyAt(room1, net, MemberJoined(View(m), |room.members| + 1), Some(m.id), |room.members|);
    assert room1.members[|room.members|] == m;
  }

  // ---------------------------------------------------------------------------------------
  // The receive loop
  // ---------------------------------------------------------------------------------------

  /** A member of a received JSON object as the handler sees it: missing, `null`, a string,
      or any other value, carried with the text Python prints for it. */
  datatype Field = Missing | Null | Str(s: string) | Other(repr: string)

  /** One `receive_json()` outcome: a JSON object, a payload without `.get` (invalid JSON or
      a non-object), or the client going away. */
  datatype Frame =
    | Object(kind: Field, lat: Option<real>, lon: Option<real>, heading: Option<real>,
             accuracy: Option<real>, content: Field)
    | NotObject
    | Disconnected

  /** What one frame leads to: the loop goes on (with the chat queries handed to the agent),
      or it ends after `leave_room`. */
  datatype Outcome =
    | Continue(session: Session, spawned: seq<string>)
    | Ended(room: Room, net: Net)

  /** How the f-string renders the `type` member: a missing one and `null` both print as
      "None". */
  function Shown(f: Field): string {
    match f
    case Missing => "None"
    case Null => "None"
    case Str(s) => s
    case Other(repr) => repr
  }

  /** The receive loop's exit: `leave_room` for this member. */
  function Quit(sess: Session): (r: Outcome)
    ensures r.Ended? && (r.room, r.net) == Leave(sess.room, sess.net, sess.me.id)
  {
    var left := Leave(sess.room, sess.net, sess.me.id);
    Ended(left.0, left.1)
  }

  /** A reply on the member's own socket; a failed send raises inside the loop, which ends
      it through `leave_room`. */
  function Reply(sess: Session, room: Room, msg: Msg): (r: Outcome)
    ensures sess.me.socket !in sess.net.broken ==>
      r == Continue(sess.(room := room, net := Send(sess.net, sess.me.socket, msg).0), [])
    ensures sess.me.socket in sess.net.broken ==> r == Quit(sess.(room := room))
  {
    var sent := Send(sess.net, sess.me.socket, msg);
    if sent.1 then Continue(sess.(room := room, net := sent.0), [])
    else Quit(sess.(room := room))
  }

  /** One turn of the `while True` loop of `websocket_room`. */
  function Step(sess: Session, frame: Frame, now: real): (r: Outcome)
    requires UniqueIds(sess.room.members)
  {
    match frame
    case Disconnected => Quit(sess)
    case NotObject => Quit(sess)
    case Object(kind, lat, lon, heading, accuracy, content) =>
      if kind == Str("location") then OnLocation(sess, lat, lon, heading, accuracy, now)
      else if kind == Str("heartbeat") then OnHeartbeat(sess, now)
      else if kind == Str("room_chat") then OnChat(sess, content)
      else OnUnknown(sess, kind)
  }

  /** `location`: the update is stored and fanned out; the loop goes on. */
  function OnLocation(sess: Session, lat: Option<real>, lon: Option<real>, heading: Option<real>,
                      accuracy: Option<real>, now: real): (r: Outcome)
    ensures r.Continue? && r.spawned == [] && r.session.me == sess.me
  {
    var u := UpdateLocation(sess.room, sess.net, sess.me.id, lat, lon, heading, accuracy, now);
    Continue(sess.(room := u.0, net := u.1), [])
  }

  /** `heartbeat`: the member's heartbeat is refreshed, then acknowledged. */
  function OnHeartbeat(sess: Session, now: real): (r: Outcome)
    requires UniqueIds(sess.room.members)
    ensures r.Ended? <==> sess.me.socket in sess.net.broken
    ensures r.Continue? ==> r.spawned == [] && r.session.me == sess.me
  {
    Reply(sess, Heartbeat(sess.room, sess.me.id, now), HeartbeatAck)
  }

  /** `room_chat`: `data.get("content", "").strip()`; a `null` or non-string content has no
      `strip`, which raises and ends the loop. */
  function OnChat(sess: Session, content: Field): (r: Outcome)
    ensures r.Ended? <==> content.Null? || content.Other?
    ensures r.Ended? ==> r == Quit(sess)
    ensures r.Continue? ==> r.session.me == sess.me
    ensures r.Continue? ==>
      (r.spawned != [] <==> content.Str? && Strip(content.s) != "")
      && (r.spawned != [] ==> r.spawned == [Strip(content.s)])
  {
    match content
    case Missing => Continue(sess, [])
    case Null => Quit(sess)
    case Other(_) => Quit(sess)
    case Str(text) =>
      var c := Strip(text);
      if c == "" then Continue(sess, [])
      else
        var b := Broadcast(sess.room, sess.net, ChatMessage(User(sess.me.id), c, None), None);
        Continue(sess.(room := b.0, net := b.1), [c])
  }

  /** Any other `type`: an `error` naming it. */
  function OnUnknown(sess: Session, kind: Field): (r: Outcome)
    ensures r.Ended? <==> sess.me.socket in sess.net.broken
    ensures r.Continue? ==> r.spawned == [] && r.session.me == sess.me && r.session.room == sess.room
  {
    Reply(sess, sess.room, ErrorMsg("Unknown message type: " + Shown(kind)))
  }

  /** The frames after which the loop ends: the client going away, an unreadable payload, a
      `room_chat` whose content is `null` or not a string, and a `heartbeat` or an unknown
      type whose reply the member's own socket cannot take. */
  predicate EndsLoop(sess: Session, frame: Frame) {
    frame.Disconnected? || frame.NotObject?
    || (frame.Object? && frame.kind == Str("room_chat") && (frame.content.Null? || frame.content.Other?))
    || (frame.Object? && frame.kind != Str("location") && frame.kind != Str("room_chat")
        && sess.me.socket in sess.net.broken)
  }

  /** Exactly the `EndsLoop` frames end the loop, and then the member is no longer in the
      room; otherwise the loop goes on as the same member and the agent is started at most
      once, exactly for a non-blank chat. */
  lemma StepOutcome(sess: Session, frame: Frame, now: real)
    requires UniqueIds(sess.room.members)
    ensures var r := Step(sess, frame, now);
      (r.Ended? <==> EndsLoop(sess, frame))
      && (r.Ended? ==> sess.me.id !in Ids(r.room.members))
      && (r.Continue? ==> r.session.me == sess.me && |r.spawned| <= 1)
      && (r.Continue? && r.spawned != [] <==>
            frame.Object? && frame.kind == Str("room_chat") && frame.content.Str? && Strip(frame.content.s) != "")
  {
    var r := Step(sess, frame, now);
    if frame.Object? && frame.kind == Str("heartbeat") {
      var room := Heartbeat(sess.room, sess.me.id, now);
      HeartbeatKeepsIds(sess.room, sess.me.id, now);
      if r.Ended? {
        assert r == Quit(sess.(room := room));
        LeaveInvariants(room, sess.net, sess.me.id);
      }
    } else if r.Ended? {
      assert r == Quit(sess);
      LeaveInvariants(sess.room, sess.net, sess.me.id);
    }
  }

  /** A heartbeat keeps the member ids. */
  lemma HeartbeatKeepsIds(room: Room, id: string, now: real)
    requires UniqueIds(room.members)
    ensures var r := Heartbeat(room, id, now);
      UniqueIds(r.members) && Ids(r.members) == Ids(room.members)
      && HostCount(r.members) == HostCount(room.members)
  {
    var r := Heartbeat(room, id, now);
    forall j | 0 <= j < |r.members| ensures r.members[j].id == room.members[j].id {
      assert r.members[j].(lastHeartbeat := now).id == room.members[j].(lastHeartbeat := now).id;
    }
    forall x | x in Ids(r.members) ensures x in Ids(room.members) {
      var m :| m in r.members && m.id == x;
      var j :| 0 <= j < |r.members| && r.members[j] == m;
      assert room.members[j] in room.members;
    }
    forall x | x in Ids(room.members) ensures x in Ids(r.members) {
      var m :| m in room.members && m.id == x;
      var j :| 0 <= j < |room.members| && room.members[j] == m;
      assert r.members[j] in r.members;
    }
  }

  /** What a handler's turn may do to its room: the code stays, nobody new comes in, and the
      id and host invariants are kept. */
  ghost predicate Evolves(room: Room, room': Room) {
    room'.code == room.code && Ids(room'.members) <= Ids(room.members)
    && (UniqueIds(room.members) ==> UniqueIds(room'.members))
    && (AtMostOneHost(room) ==> AtMostOneHost(room'))
    && (WellHosted(room) ==> WellHosted(room'))
  }

  lemma EvolvesTrans(a: Room, b: Room, c: Room)
    requires Evolves(a, b) && Evolves(b, c)
    ensures Evolves(a, c)
  {
  }

  /** `leave_room` only ever shrinks the room. */
  lemma QuitKeepsRoom(sess: Session)
    ensures Evolves(sess.room, Quit(sess).room) && Extends(sess.net, Quit(sess).net)
  {
    LeaveShrinks(sess.room, sess.net, sess.me.id);
    ProfilesIds(Quit(sess).room.members, sess.room.members);
  }

  /** A heartbeat turn keeps the room's shape whether or not the acknowledgement goes out. */
  lemma HeartbeatKeepsRoom(sess: Session, now: real)
    requires UniqueIds(sess.room.members)
    ensures var r := OnHeartbeat(sess, now);
      (r.Continue? ==> Evolves(sess.room, r.session.room) && Extends(sess.net, r.session.net))
      && (r.Ended? ==> Evolves(sess.room, r.room) && Extends(sess.net, r.net))
  {
    var room := Heartbeat(sess.room, sess.me.id, now);
    HeartbeatKeepsIds(sess.room, sess.me.id, now);
    assert Evolves(sess.room, room);
    if sess.me.socket in sess.net.broken {
      QuitKeepsRoom(sess.(room := room));
      EvolvesTrans(sess.room, room, Quit(sess.(room := room)).room);
    } else {
      SendExtends(sess.net, sess.me.socket, HeartbeatAck);
    }
  }

  /** A chat turn keeps the room's shape: nothing, a fan-out, or `leave_room`. */
  lemma ChatKeepsRoom(sess: Session, content: Field)
    ensures var r := OnChat(sess, content);
      (r.Continue? ==> Evolves(sess.room, r.session.room) && Extends(sess.net, r.session.net))
      && (r.Ended? ==> Evolves(sess.room, r.room) && Extends(sess.net, r.net))
  {
    match content
    case Missing => ExtendsRefl(sess.net);
    case Null => QuitKeepsRoom(sess);
    case Other(_) => QuitKeepsRoom(sess);
    case Str(text) =>
      var c := Strip(text);
      if c == "" {
        ExtendsRefl(sess.net);
      } else {
        var msg := ChatMessage(User(sess.me.id), c, None);
        BroadcastShrinks(sess.room, sess.net, msg, None);
        ProfilesIds(Broadcast(sess.room, sess.net, msg, None).0.members, sess.room.members);
      }
  }

  /** Whatever the frame, the room keeps its code and invariants and gains nobody, and no
      socket loses a message already delivered. */
  lemma StepKeepsRoom(sess: Session, frame: Frame, now: real)
    requires UniqueIds(sess.room.members)
    ensures var r := Step(sess, frame, now);
      (r.Continue? ==> Evolves(sess.room, r.session.room) && Extends(sess.net, r.session.net))
      && (r.Ended? ==> Evolves(sess.room, r.room) && Extends(sess.net, r.net))
  {
    match frame
    case Disconnected => QuitKeepsRoom(sess);
    case NotObject => QuitKeepsRoom(sess);
    case Object(kind, lat, lon, heading, accuracy, content) =>
      if kind == Str("location") {
        assert Step(sess, frame, now) == OnLocation(sess, lat, lon, heading, accuracy, now);
        UpdateLocationInvariants(sess.room, sess.net, sess.me.id, lat, lon, heading, accuracy, now);
      } else if kind == Str("heartbeat") {
        assert Step(sess, frame, now) == OnHeartbeat(sess, now);
        HeartbeatKeepsRoom(sess, now);
      } else if kind == Str("room_chat") {
        assert Step(sess, frame, now) == OnChat(sess, content);
        ChatKeepsRoom(sess, content);
      } else {
        assert Step(sess, frame, now) == OnUnknown(sess, kind);
        if sess.me.socket in sess.net.broken {
          QuitKeepsRoom(sess);
        } else {
          SendExtends(sess.net, sess.me.socket, ErrorMsg("Unknown message type: " + Shown(kind)));
        }
      }
  }

  /** A disconnect, an unreadable payload, or a `room_chat` whose content is `null` or not a
      string all end the loop in `leave_room` for this member. */
  lemma StepEndsInLeave(sess: Session, frame: Frame, now: real)
    requires UniqueIds(sess.room.members)
    requires frame.Disconnected? || frame.NotObject?
      || (frame.Object? && frame.kind == Str("room_chat") && (frame.content.Null? || frame.content.Other?))
    ensures Step(sess, frame, now) == Ended(Leave(sess.room, sess.net, sess.me.id).0, Leave(sess.room, sess.net, sess.me.id).1)
  {
    match frame
    case Disconnected =>
    case NotObject =>
    case Object(kind, _, _, _, _, content) =>
      assert Step(sess, frame, now) == OnChat(sess, content);
  }

  /** `heartbeat` is answered by exactly one `heartbeat_ack` on the member's own socket and
      refreshes only its heartbeat; no other socket hears anything. */
  lemma HeartbeatAcked(sess: Session, frame: Frame, now: real)
    requires UniqueIds(sess.room.members) && sess.me.socket !in sess.net.broken
    requires frame.Object? && frame.kind == Str("heartbeat")
    ensures var r := Step(sess, frame, now);
      r.Continue? && r.spawned == []
      && Sent(r.session.net, sess.me.socket) == Sent(sess.net, sess.me.socket) + [HeartbeatAck]
      && (forall s :: s != sess.me.socket ==> Sent(r.session.net, s) == Sent(sess.net, s))
      && |r.session.room.members| == |sess.room.members|
      && (forall j :: 0 <= j < |sess.room.members| && sess.room.members[j].id != sess.me.id ==>
            r.session.room.members[j] == sess.room.members[j])
  {
    assert Step(sess, frame, now) == OnHeartbeat(sess, now);
  }

  /** An unknown `type` is answered by exactly one `error` naming it, and nothing else
      changes. */
  lemma UnknownTypeAnswered(sess: Session, frame: Frame, now: real)
    requires UniqueIds(sess.room.members) && sess.me.socket !in sess.net.broken
    requires frame.Object? && frame.kind !in {Str("location"), Str("heartbeat"), Str("room_chat")}
    ensures var r := Step(sess, frame, now);
      r.Continue? && r.spawned == [] && r.session.room == sess.room
      && Sent(r.session.net, sess.me.socket)
         == Sent(sess.net, sess.me.socket) + [ErrorMsg("Unknown message type: " + Shown(frame.kind))]
      && (forall s :: s != sess.me.socket ==> Sent(r.session.net, s) == Sent(sess.net, s))
  {
    assert Step(sess, frame, now) == OnUnknown(sess, frame.kind);
  }

  /** A `room_chat` whose content is missing or blank after trimming posts nothing and starts
      no agent. */
  lemma BlankChatIgnored(sess: Session, frame: Frame, now: real)
    requires UniqueIds(sess.room.members)
    requires frame.Object? && frame.kind == Str("room_chat")
    requires frame.content.Missing? || (frame.content.Str? && AllSpace(frame.content.s))
    ensures Step(sess, frame, now) == Continue(sess, [])
  {
    if frame.content.Str? {
      StripShape(frame.content.s);
    }
    assert Step(sess, frame, now) == OnChat(sess, frame.content);
  }

  /** A non-blank `room_chat` is posted trimmed and handed to the agent exactly once. */
  lemma ChatPostedOnce(sess: Session, frame: Frame, now: real)
    requires UniqueIds(sess.room.members)
    requires frame.Object? && frame.kind == Str("room_chat") && frame.content.Str?
    requires Strip(frame.content.s) != ""
    ensures var r := Step(sess, frame, now);
      r.Continue? && r.spawned == [Strip(frame.content.s)]
      && (r.session.room, r.session.net)
         == Broadcast(sess.room, sess.net, ChatMessage(User(sess.me.id), Strip(frame.content.s), None), None)
  {
    assert Step(sess, frame, now) == OnChat(sess, frame.content);
  }

  // ---------------------------------------------------------------------------------------
  // The agent task
  // ---------------------------------------------------------------------------------------

  /** The reply used when the agent's result has no `response`. */
  const DefaultReply: string := "Не удалось обработать запрос"

  /** The prefix of the reply posted when the agent raises. */
  const FailurePrefix: string := "Ошибка при обработке запроса: "

  /** How the agent call ended: a result (whose `response` and `route_data` may be missing),
      or an exception with its message. */
  datatype AgentOutcome = Answered(response: Option<string>, routeData: Option<string>) | Raised(error: string)

  /** The chat message `_handle_room_chat_agent` posts for an outcome. */
  function AgentPost(outcome: AgentOutcome): (m: Msg)
    ensures m.ChatMessage? && m.author == Agent
    ensures outcome.Answered? && outcome.response.Some? ==> m.content == outcome.response.value
    ensures outcome.Answered? && outcome.response.None? ==> m.content == DefaultReply
    ensures outcome.Raised? ==> m.content == FailurePrefix + outcome.error && m.routeData == None
  {
    match outcome
    case Answered(response, routeData) => ChatMessage(Agent, response.GetOr(DefaultReply), routeData)
    case Raised(error) => ChatMessage(Agent, FailurePrefix + error, None)
  }

  // ---------------------------------------------------------------------------------------
  // REST endpoints
  // ---------------------------------------------------------------------------------------

  /** The body of `GET /api/rooms/{code}`. */
  datatype RoomInfo = RoomInfo(code: string, name: string, memberCount: nat)

  /** `GET /api/rooms/{code}`. */
  function GetRoomEndpoint(reg: Registry, code: string): (r: Result<RoomInfo>)
    ensures r.Err? <==> Upper(code) !in reg.rooms
    ensures r.Err? ==> r.status == 404 && r.detail == "Room not found"
    ensures r.Ok? ==> var room := reg.rooms[Upper(code)];
      r.value == RoomInfo(room.code, room.name, |room.members|)
  {
    CaseIdempotent(code);
    match GetRoom(reg, Upper(code))
    case None => Err(404, "Room not found")
    case Some(room) => Ok(RoomInfo(room.code, room.name, |room.members|))
  }

  /** `DELETE /api/rooms/{code}`: the registry afterwards and the response. */
  function DeleteRoomEndpoint(reg: Registry, code: string): (r: (Registry, Result<string>))
    ensures r.1.Err? <==> Upper(code) !in reg.rooms
    ensures r.1.Err? ==> r.1.status == 404 && r.0 == reg
    ensures r.1.Ok? ==> r.1.value == "deleted" && Upper(code) !in r.0.rooms
    ensures r.1.Ok? ==>
      r.0.counter == reg.counter
      && (forall c :: c in r.0.rooms <==> c in reg.rooms && c != Upper(code))
      && (forall c :: c in r.0.rooms ==> r.0.rooms[c] == reg.rooms[c])
    ensures Valid(reg) ==> Valid(r.0)
  {
    var d := DeleteRoom(reg, Upper(code));
    if d.1 then (d.0, Ok("deleted")) else (d.0, Err(404, "Room not found"))
  }

  /** Both endpoints ignore the case of the code, and a deleted room is then reported
      missing. */
  lemma EndpointsIgnoreCase(reg: Registry, code: string)
    ensures GetRoomEndpoint(reg, Lower(code)) == GetRoomEndpoint(reg, code)
    ensures DeleteRoomEndpoint(reg, Lower(code)) == DeleteRoomEndpoint(reg, code)
    ensures GetRoomEndpoint(DeleteRoomEndpoint(reg, code).0, code).Err?
  {
    CaseIdempotent(code);
  }
}

=== FILE: room_sweep.dfy ===
/** `_cleanup_stale`: members silent for more than 60 s are popped, their sockets closed and
    the others told, with no new host chosen; then rooms that are empty and more than 300 s
    old are dropped. */
module RoomSweep {
  import opened Wrappers
  import opened RoomModel
  import opened RoomOps
  import opened RoomLiveness
  import opened RoomMembership
  import opened RoomRegistry

  const StaleTimeout: real := 60.0
  const EmptyRoomTimeout: real := 300.0

  /** The close code `websocket.close()` sends by default. */
  const NormalClosure: int := 1000

  predicate IsStale(m: Member, now: real) {
    now - m.lastHeartbeat > StaleTimeout
  }

  /** The ids collected by the first loop, in member order. */
  function StaleIds(ms: seq<Member>, now: real): (ids: seq<string>)
    ensures forall d :: d in ids <==> exists m :: m in ms && IsStale(m, now) && m.id == d
    decreases |ms|
  {
    if |ms| == 0 then []
    else
      var rest := StaleIds(ms[1..], now);
      assert forall m :: m in ms <==> m == ms[0] || m in ms[1..] by {
        assert ms == [ms[0]] + ms[1..];
      }
      (if IsStale(ms[0], now) then [ms[0].id] else []) + rest
  }

  /** The second loop: for each id still present, pop it, close its socket, and broadcast
      `member_left`. The broadcast may itself remove members whose sends fail. */
  function Evict(room: Room, net: Net, ids: seq<string>): (r: (Room, Net))
    ensures r.0.code == room.code && r.0.name == room.name && r.0.createdAt == room.createdAt
    decreases |ids|
  {
    if |ids| == 0 then (room, net)
    else
      var i := IndexOf(room.members, ids[0]);
      if i < 0 then Evict(room, net, ids[1..])
      else
        var m := room.members[i];
        var room1 := room.(members := RemoveAt(room.members, i));
        var net1 := Close(net, m.socket, NormalClosure);
        var msg := MemberLeft(ids[0], m.nickname, |room1.members|);
        BroadcastShrinks(room1, net1, msg, None);
        var b := Broadcast(room1, net1, msg, None);
        Evict(b.0, b.1, ids[1..])
  }

  /** No new members, no new hosts, and unique ids stay unique. */
  ghost predicate MembersShrink(a: seq<Member>, b: seq<Member>) {
    Profiles(b) <= Profiles(a) && HostCount(b) <= HostCount(a) && (UniqueIds(a) ==> UniqueIds(b))
  }

  /** Sockets only ever get closed, and every new close uses the normal code. */
  ghost predicate ClosesNormally(net: Net, net': Net) {
    net.broken <= net'.broken
    && forall s :: s in net'.closed ==> (s in net.closed && net'.closed[s] == net.closed[s]) || net'.closed[s] == NormalClosure
  }

  lemma MembersShrinkTrans(a: seq<Member>, b: seq<Member>, c: seq<Member>)
    requires MembersShrink(a, b) && MembersShrink(b, c)
    ensures MembersShrink(a, c)
  {
  }

  lemma ClosesNormallyTrans(a: Net, b: Net, c: Net)
    requires ClosesNormally(a, b) && ClosesNormally(b, c)
    ensures ClosesNormally(a, c)
  {
  }

  /** One eviction step: the member at `i` is removed, its socket closed, and the others told. */
  lemma EvictStep(room: Room, net: Net, i: nat)
    requires i < |room.members|
    ensures var m := room.members[i];
      var room1 := room.(members := RemoveAt(room.members, i));
      var net1 := Close(net, m.socket, NormalClosure);
      var b := Broadcast(room1, net1, MemberLeft(m.id, m.nickname, |room1.members|), None);
      MembersShrink(room.members, b.0.members) && ClosesNormally(net, b.1)
      && b.0.code == room.code && (UniqueIds(room.members) ==> m.id !in Ids(b.0.members))
  {
    var m := room.members[i];
    var room1 := room.(members := RemoveAt(room.members, i));
    var net1 := Close(net, m.socket, NormalClosure);
    var msg := MemberLeft(m.id, m.nickname, |room1.members|);
    BroadcastShrinks(room1, net1, msg, None);
    var b := Broadcast(room1, net1, msg, None);
    assert MembersShrink(room1.members, b.0.members);
    assert MembersShrink(room.members, room1.members);
    MembersShrinkTrans(room.members, room1.members, b.0.members);
    assert ClosesNormally(net, net1);
    assert ClosesNormally(net1, b.1);
    ClosesNormallyTrans(net, net1, b.1);
    ProfilesIds(b.0.members, room1.members);
  }

  lemma {:induction false} EvictMembers(room: Room, net: Net, ids: seq<string>)
    ensures MembersShrink(room.members, Evict(room, net, ids).0.members)
    ensures ClosesNormally(net, Evict(room, net, ids).1)
    decreases |ids|
  {
    if |ids| > 0 {
      var i := IndexOf(room.members, ids[0]);
      if i < 0 {
        EvictMembers(room, net, ids[1..]);
      } else {
        var m := room.members[i];
        var room1 := room.(members := RemoveAt(room.members, i));
        var net1 := Close(net, m.socket, NormalClosure);
        var b := Broadcast(room1, net1, MemberLeft(ids[0], m.nickname, |room1.members|), None);
        EvictStep(room, net, i);
        EvictMembers(b.0, b.1, ids[1..]);
        var r := Evict(b.0, b.1, ids[1..]);
        assert Evict(room, net, ids) == r;
        MembersShrinkTrans(room.members, b.0.members, r.0.members);
        ClosesNormallyTrans(net, b.1, r.1);
      }
    }
  }

  lemma {:induction false} EvictGone(room: Room, net: Net, ids: seq<string>)
    requires UniqueIds(room.members)
    ensures forall k :: 0 <= k < |ids| ==> ids[k] !in Ids(Evict(room, net, ids).0.members)
    decreases |ids|
  {
    if |ids| > 0 {
      var i := IndexOf(room.members, ids[0]);
      var r := Evict(room, net, ids);
      if i < 0 {
        EvictGone(room, net, ids[1..]);
        EvictMembers(room, net, ids[1..]);
        ProfilesIds(r.0.members, room.members);
      } else {
        var m := room.members[i];
        var room1 := room.(members := RemoveAt(room.members, i));
        var net1 := Close(net, m.socket, NormalClosure);
        var b := Broadcast(room1, net1, MemberLeft(ids[0], m.nickname, |room1.members|), None);
        EvictStep(room, net, i);
        EvictGone(b.0, b.1, ids[1..]);
        EvictMembers(b.0, b.1, ids[1..]);
        assert r == Evict(b.0, b.1, ids[1..]);
        ProfilesIds(r.0.members, b.0.members);
      }
      assert forall k :: 0 < k < |ids| ==> ids[k] == ids[1..][k - 1];
    }
  }

  /** What eviction keeps: the room's identity, no new members, no new hosts, unique ids;
      sockets only ever get closed, every close uses the normal code, and each evicted id is
      gone. */
  lemma EvictShape(room: Room, net: Net, ids: seq<string>)
    requires UniqueIds(room.members)
    ensures var r := Evict(room, net, ids);
      r.0.code == room.code && r.0.name == room.name && r.0.createdAt == room.createdAt
      && Profiles(r.0.members) <= Profiles(room.members)
      && HostCount(r.0.members) <= HostCount(room.members)
      && UniqueIds(r.0.members)
      && net.broken <= r.1.broken
      && (forall s :: s in r.1.closed ==> (s in net.closed && r.1.closed[s] == net.closed[s]) || r.1.closed[s] == NormalClosure)
      && (forall k :: 0 <= k < |ids| ==> ids[k] !in Ids(r.0.members))
  {
    EvictMembers(room, net, ids);
    EvictGone(room, net, ids);
  }

  /** Eviction only closes sockets and sends: nothing already delivered is taken back. */
  lemma {:induction false} EvictGrows(room: Room, net: Net, ids: seq<string>)
    ensures Grows(net, Evict(room, net, ids).1)
    decreases |ids|
  {
    if |ids| == 0 {
      SameSentGrows(net, net);
    } else {
      var i := IndexOf(room.members, ids[0]);
      if i < 0 {
        EvictGrows(room, net, ids[1..]);
      } else {
        var m := room.members[i];
        var room1 := room.(members := RemoveAt(room.members, i));
        var net1 := Close(net, m.socket, NormalClosure);
        var msg := MemberLeft(ids[0], m.nickname, |room1.members|);
        var b := Broadcast(room1, net1, msg, None);
        BroadcastShrinks(room1, net1, msg, None);
        SameSentGrows(net, net1);
        GrowsTrans(net, net1, b.1);
        EvictGrows(b.0, b.1, ids[1..]);
        GrowsTrans(net, b.1, Evict(b.0, b.1, ids[1..]).1);
      }
    }
  }

  /** Eviction removes a member only through its own socket: whoever is gone afterwards is
      either evicted (and closed) or had a send fail. */
  lemma {:induction false} EvictRemovesOnlyBroken(room: Room, net: Net, ids: seq<string>)
    requires UniqueIds(room.members)
    ensures var r := Evict(room, net, ids);
      forall x :: x in room.members && x.id !in Ids(r.0.members) ==> x.socket in r.1.broken
    decreases |ids|
  {
    if |ids| > 0 {
      var i := IndexOf(room.members, ids[0]);
      var r := Evict(room, net, ids);
      if i < 0 {
        EvictRemovesOnlyBroken(room, net, ids[1..]);
      } else {
        var m := room.members[i];
        var room1 := room.(members := RemoveAt(room.members, i));
        var net1 := Close(net, m.socket, NormalClosure);
        var msg := MemberLeft(ids[0], m.nickname, |room1.members|);
        var b := Broadcast(room1, net1, msg, None);
        BroadcastShrinks(room1, net1, msg, None);
        BroadcastKeepsLive(room1, net1, msg, None);
        EvictRemovesOnlyBroken(b.0, b.1, ids[1..]);
        EvictShape(b.0, b.1, ids[1..]);
        forall x | x in room.members && x.id !in Ids(r.0.members) ensures x.socket in r.1.broken {
          var ix :| 0 <= ix < |room.members| && room.members[ix] == x;
          if ix == i {
            assert x.socket in net1.broken;
          } else {
            assert x in room1.members by {
              if ix < i { assert room1.members[ix] == x; } else { assert room1.members[ix - 1] == x; }
            }
            if x.id in Ids(b.0.members) {
              var y :| y in b.0.members && y.id == x.id;
              SameMember(room1.members, b.0.members, x, y);
            } else {
              assert x.id !in LiveIds(room1.members, net1.broken);
            }
          }
        }
      }
    }
  }

  /** Under unique ids, a member that keeps its id after a shrink keeps everything but its
      host flag. */
  lemma SameMember(a: seq<Member>, b: seq<Member>, x: Member, y: Member)
    requires UniqueIds(a) && Profiles(b) <= Profiles(a)
    requires x in a && y in b && x.id == y.id
    ensures Profile(y) == Profile(x)
  {
    assert Profile(y) in Profiles(a);
    var z :| z in a && Profile(z) == Profile(y);
    var ix :| 0 <= ix < |a| && a[ix] == x;
    var iz :| 0 <= iz < |a| && a[iz] == z;
    assert ix == iz;
  }

  /** Eviction removes no member outside `ids` whose socket still works at the end; such a
      member keeps everything but, possibly, its host flag. */
  lemma EvictKeepsLive(room: Room, net: Net, ids: seq<string>)
    requires UniqueIds(room.members)
    ensures var r := Evict(room, net, ids);
      forall x :: x in room.members && x.id !in ids && x.socket !in r.1.broken ==> Profile(x) in Profiles(r.0.members)
  {
    var r := Evict(room, net, ids);
    EvictRemovesOnlyBroken(room, net, ids);
    EvictShape(room, net, ids);
    forall x | x in room.members && x.id !in ids && x.socket !in r.1.broken
      ensures Profile(x) in Profiles(r.0.members)
    {
      assert x.id in Ids(r.0.members);
      var y :| y in r.0.members && y.id == x.id;
      SameMember(room.members, r.0.members, x, y);
    }
  }

  /** No stale member survives the sweep of its room. */
  lemma SweepRoomNoStale(room: Room, net: Net, now: real)
    requires UniqueIds(room.members)
    ensures var r := Evict(room, net, StaleIds(room.members, now));
      forall m :: m in r.0.members ==> !IsStale(m, now)
  {
    var ids := StaleIds(room.members, now);
    var r := Evict(room, net, ids);
    EvictShape(room, net, ids);
    forall m | m in r.0.members ensures !IsStale(m, now) {
      assert Profile(m) in Profiles(room.members);
      var x :| x in room.members && Profile(x) == Profile(m);
      assert x.lastHeartbeat == m.lastHeartbeat && x.id == m.id;
      assert m.id in Ids(r.0.members);
      assert x.id !in ids;
    }
  }

  /** The members of `ms` whose ids are not in `ids`, in order. */
  function Keep(ms: seq<Member>, ids: seq<string>): (r: seq<Member>)
    ensures forall m :: m in r <==> m in ms && m.id !in ids
    decreases |ms|
  {
    if |ms| == 0 then []
    else
      assert forall m :: m in ms <==> m == ms[0] || m in ms[1..] by {
        assert ms == [ms[0]] + ms[1..];
      }
      (if ms[0].id in ids then [] else [ms[0]]) + Keep(ms[1..], ids)
  }

  /** The members that are not stale, in order. */
  function Current(ms: seq<Member>, now: real): (r: seq<Member>)
    ensures forall m :: m in r <==> m in ms && !IsStale(m, now)
    decreases |ms|
  {
    if |ms| == 0 then []
    else
      assert forall m :: m in ms <==> m == ms[0] || m in ms[1..] by {
        assert ms == [ms[0]] + ms[1..];
      }
      (if IsStale(ms[0], now) then [] else [ms[0]]) + Current(ms[1..], now)
  }

  lemma {:induction false} KeepAbsent(ms: seq<Member>, d: string, rest: seq<string>)
    requires d !in Ids(ms)
    ensures Keep(ms, [d] + rest) == Keep(ms, rest)
    decreases |ms|
  {
    if |ms| > 0 {
      assert ms[0] in ms;
      assert Ids(ms[1..]) <= Ids(ms) by {
        forall e | e in Ids(ms[1..]) ensures e in Ids(ms) {
          var y :| y in ms[1..] && y.id == e;
          assert y in ms;
        }
      }
      KeepAbsent(ms[1..], d, rest);
    }
  }

  lemma {:induction false} KeepRemoveAt(ms: seq<Member>, i: nat, rest: seq<string>)
    requires UniqueIds(ms) && i < |ms|
    ensures Keep(RemoveAt(ms, i), rest) == Keep(ms, [ms[i].id] + rest)
    decreases |ms|
  {
    var tail := ms[1..];
    assert UniqueIds(tail);
    if i == 0 {
      assert RemoveAt(ms, 0) == tail;
      assert ms[0].id !in Ids(tail) by {
        forall y | y in tail ensures y.id != ms[0].id {
          var iy :| 0 <= iy < |tail| && tail[iy] == y;
          assert ms[iy + 1] == y;
        }
      }
      KeepAbsent(tail, ms[0].id, rest);
    } else {
      var r := RemoveAt(ms, i);
      RemoveAtCons(ms, i);
      KeepCons(r, rest);
      KeepCons(ms, [ms[i].id] + rest);
      KeepRemoveAt(tail, i - 1, rest);
      assert ms[0].id != ms[i].id;
    }
  }

  lemma RemoveAtCons(ms: seq<Member>, i: nat)
    requires 0 < i < |ms|
    ensures var r := RemoveAt(ms, i); r[0] == ms[0] && r[1..] == RemoveAt(ms[1..], i - 1)
  {
    var r := RemoveAt(ms, i);
    var r1 := RemoveAt(ms[1..], i - 1);
    forall j | 0 <= j < |r1| ensures r[1..][j] == r1[j] {
      if j + 1 < i {
        assert r[j + 1] == ms[j + 1];
      } else {
        assert r[j + 1] == ms[j + 2];
      }
    }
  }

  lemma KeepCons(ms: seq<Member>, ids: seq<string>)
    requires |ms| > 0
    ensures Keep(ms, ids) == (if ms[0].id in ids then [] else [ms[0]]) + Keep(ms[1..], ids)
  {
  }

  /** One healthy eviction step: the member is popped and closed, nobody else is touched,
      and the room stays healthy for the next step. */
  lemma EvictStepHealthy(room: Room, net: Net, ids: seq<string>)
    requires UniqueIds(room.members) && UniqueSockets(room.members) && Healthy(room, net)
    requires |ids| > 0 && IndexOf(room.members, ids[0]) >= 0
    ensures var i := IndexOf(room.members, ids[0]);
      var m := room.members[i];
      var room1 := room.(members := RemoveAt(room.members, i));
      var net1 := Close(net, m.socket, NormalClosure);
      var b := Broadcast(room1, net1, MemberLeft(ids[0], m.nickname, |room1.members|), None);
      b.0 == room1 && Healthy(room1, b.1) && UniqueSockets(room1.members)
      && Evict(room, net, ids) == Evict(room1, b.1, ids[1..])
  {
    var i := IndexOf(room.members, ids[0]);
    var m := room.members[i];
    var room1 := room.(members := RemoveAt(room.members, i));
    var net1 := Close(net, m.socket, NormalClosure);
    RemoveAtSockets(room.members, i);
    assert Healthy(room1, net1) by {
      forall j | 0 <= j < |room1.members| ensures room1.members[j].socket !in net1.broken {
        assert room1.members[j] in room1.members;
        if j < i { assert room1.members[j] == room.members[j]; }
        else { assert room1.members[j] == room.members[j + 1]; }
      }
    }
    BroadcastHealthy(room1, net1, MemberLeft(ids[0], m.nickname, |room1.members|), None);
  }

  /** With every member's socket working and one socket per member, eviction removes exactly
      the listed members and nothing else happens to the room. */
  lemma {:induction false} EvictHealthy(room: Room, net: Net, ids: seq<string>)
    requires UniqueIds(room.members) && UniqueSockets(room.members) && Healthy(room, net)
    ensures Evict(room, net, ids).0 == room.(members := Keep(room.members, ids))
    ensures Healthy(Evict(room, net, ids).0, Evict(room, net, ids).1)
    decreases |ids|
  {
    if |ids| == 0 {
      KeepNone(room.members, ids);
    } else {
      var i := IndexOf(room.members, ids[0]);
      assert ids == [ids[0]] + ids[1..];
      if i < 0 {
        EvictHealthy(room, net, ids[1..]);
        KeepAbsent(room.members, ids[0], ids[1..]);
      } else {
        var m := room.members[i];
        var room1 := room.(members := RemoveAt(room.members, i));
        var net1 := Close(net, m.socket, NormalClosure);
        var b := Broadcast(room1, net1, MemberLeft(ids[0], m.nickname, |room1.members|), None);
        EvictStepHealthy(room, net, ids);
        EvictHealthy(room1, b.1, ids[1..]);
        KeepRemoveAt(room.members, i, ids[1..]);
      }
    }
  }

  lemma {:induction false} KeepNone(ms: seq<Member>, ids: seq<string>)
    requires |ids| == 0
    ensures Keep(ms, ids) == ms
    decreases |ms|
  {
    if |ms| > 0 {
      KeepNone(ms[1..], ids);
      assert ms == [ms[0]] + ms[1..];
    }
  }

  /** Dropping the stale ids keeps exactly the members that are not stale. */
  lemma {:induction false} KeepStale(ms: seq<Member>, now: real)
    requires UniqueIds(ms)
    ensures Keep(ms, StaleIds(ms, now)) == Current(ms, now)
    decreases |ms|
  {
    if |ms| > 0 {
      var tail := ms[1..];
      assert UniqueIds(tail);
      assert ms[0].id !in Ids(tail) by {
        forall y | y in tail ensures y.id != ms[0].id {
          var iy :| 0 <= iy < |tail| && tail[iy] == y;
          assert ms[iy + 1] == y;
        }
      }
      KeepStale(tail, now);
      if IsStale(ms[0], now) {
        assert StaleIds(ms, now) == [ms[0].id] + StaleIds(tail, now);
        KeepAbsent(tail, ms[0].id, StaleIds(tail, now));
      } else {
        assert StaleIds(ms, now) == StaleIds(tail, now);
        assert ms[0].id !in StaleIds(tail, now);
      }
    }
  }

  /** The member half of the sweep, for one room. */
  function SweepRoom(room: Room, net: Net, now: real): (Room, Net) {
    Evict(room, net, StaleIds(room.members, now))
  }

  /** In a healthy room the sweep removes exactly the stale members, keeping the others in
      order. */
  lemma SweepRoomHealthy(room: Room, net: Net, now: real)
    requires UniqueIds(room.members) && UniqueSockets(room.members) && Healthy(room, net)
    ensures SweepRoom(room, net, now).0 == room.(members := Current(room.members, now))
  {
    EvictHealthy(room, net, StaleIds(room.members, now));
    KeepStale(room.members, now);
  }

  /** The sweep does not re-elect: when the host goes stale and another member does not, the
      room keeps a member but no host. */
  lemma SweepLeavesRoomHostless(code: string, now: real, h: Member, b: Member)
    requires h.isHost && !b.isHost && h.id != b.id && h.socket != b.socket
    requires IsStale(h, now) && !IsStale(b, now)
    ensures var room := Room(code, "Trip Room", now, [h, b]);
      var net := Net(map[], {}, map[]);
      var r := SweepRoom(room, net, now);
      WellHosted(room) && r.0.members == [b] && HostCount(r.0.members) == 0 && !WellHosted(r.0)
  {
    var room := Room(code, "Trip Room", now, [h, b]);
    assert HostCount([b]) == 0 by { assert [b][1..] == []; }
    assert HostCount(room.members) == 1 by { assert room.members[1..] == [b]; }
    SweepRoomHealthy(room, Net(map[], {}, map[]), now);
    assert Current(room.members, now) == [b] by {
      assert [b][1..] == [];
      assert Current([b], now) == [b] + Current([], now);
      assert room.members[1..] == [b];
    }
  }

  /** The member half of the sweep as `leave_room` would do it: when the room kept members
      but lost its host, the first remaining member becomes host and `host_changed` is
      broadcast. */
  function SweepRoomElecting(room: Room, net: Net, now: real): (Room, Net) {
    var r := SweepRoom(room, net, now);
    if |r.0.members| > 0 && HostCount(r.0.members) == 0 then
      var room3 := r.0.(members := MakeFirstHost(r.0.members));
      var h := room3.members[0];
      Broadcast(room3, r.1, HostChanged(h.id, h.nickname), None)
    else r
  }

  /** With the re-election, a room with at most one host comes out of the sweep with exactly
      one host when it has members, and nobody new in it. */
  lemma SweepElectsHost(room: Room, net: Net, now: real)
    requires UniqueIds(room.members) && AtMostOneHost(room)
    ensures var r := SweepRoomElecting(room, net, now);
      WellHosted(r.0) && UniqueIds(r.0.members) && Ids(r.0.members) <= Ids(room.members)
  {
    var r := SweepRoom(room, net, now);
    EvictShape(room, net, StaleIds(room.members, now));
    ProfilesIds(r.0.members, room.members);
    HostCountBound(r.0.members);
    if |r.0.members| > 0 && HostCount(r.0.members) == 0 {
      var room3 := r.0.(members := MakeFirstHost(r.0.members));
      var h := room3.members[0];
      BroadcastShrinks(room3, r.1, HostChanged(h.id, h.nickname), None);
      var b := Broadcast(room3, r.1, HostChanged(h.id, h.nickname), None);
      ProfilesIds(b.0.members, room3.members);
    }
  }

  /** The re-election only acts where the sweep as written leaves a room hostless. */
  lemma SweepElectingAgrees(room: Room, net: Net, now: real)
    requires var r := SweepRoom(room, net, now); |r.0.members| == 0 || HostCount(r.0.members) > 0
    ensures SweepRoomElecting(room, net, now) == SweepRoom(room, net, now)
  {
  }

  /** On the room of `SweepLeavesRoomHostless` the re-electing sweep makes the remaining
      member host. */
  lemma SweepElectingRescues(code: string, now: real, h: Member, b: Member)
    requires h.isHost && !b.isHost && h.id != b.id && h.socket != b.socket
    requires IsStale(h, now) && !IsStale(b, now)
    ensures var room := Room(code, "Trip Room", now, [h, b]);
      var r := SweepRoomElecting(room, Net(map[], {}, map[]), now);
      r.0.members == [b.(isHost := true)] && WellHosted(r.0)
  {
    var room := Room(code, "Trip Room", now, [h, b]);
    var net := Net(map[], {}, map[]);
    SweepLeavesRoomHostless(code, now, h, b);
    var r := SweepRoom(room, net, now);
    assert r.0.members == [b];
    var room3 := r.0.(members := MakeFirstHost(r.0.members));
    assert room3.members == [b.(isHost := true)];
    EvictHealthy(room, net, StaleIds(room.members, now));
    var sent := SendAll(room3.members, r.1, HostChanged(b.id, b.nickname), None);
    assert sent.1 == [] by {
      assert b.socket !in r.1.broken;
      FailedNone(room3.members, r.1.broken, None);
    }
    assert SweepRoomElecting(room, net, now) == Broadcast(room3, r.1, HostChanged(b.id, b.nickname), None);
    assert Broadcast(room3, r.1, HostChanged(b.id, b.nickname), None) == LeaveAll(room3, sent.0, []);
    assert HostCount([b.(isHost := true)]) == 1 by { assert [b.(isHost := true)][1..] == []; }
  }

  // ---------------------------------------------------------------------------------------
  // The sweep over the whole table
  // ---------------------------------------------------------------------------------------

  /** Whether the second phase drops a room after its members were swept. */
  predicate Doomed(room: Room, now: real) {
    |room.members| == 0 && now - room.createdAt > EmptyRoomTimeout
  }

  /** The loop over `rooms.items()`: sweeps each room in turn (rooms are shared objects, so
      the table sees the swept room) and collects the codes to drop. */
  function SweepRooms(codes: seq<string>, rooms: map<string, Room>, net: Net, now: real)
    : (r: (map<string, Room>, Net, seq<string>))
    requires forall c :: c in codes ==> c in rooms
    ensures r.0.Keys == rooms.Keys
    ensures forall c :: c in rooms ==> r.0[c].code == rooms[c].code && r.0[c].createdAt == rooms[c].createdAt
    ensures forall c :: c in r.2 ==> c in codes
    decreases |codes|
  {
    if |codes| == 0 then (rooms, net, [])
    else
      var c := codes[0];
      var swept := SweepRoom(rooms[c], net, now);
      var rest := SweepRooms(codes[1..], rooms[c := swept.0], swept.1, now);
      assert forall d :: d in codes[1..] ==> d in codes;
      (rest.0, rest.1, (if Doomed(swept.0, now) then [c] else []) + rest.2)
  }

  /** Every room of the table has unique member ids and at most one host. */
  predicate RoomsOk(rooms: map<string, Room>) {
    forall c :: c in rooms ==> UniqueIds(rooms[c].members) && AtMostOneHost(rooms[c])
  }

  lemma {:induction false} SweepRoomsFacts(codes: seq<string>, rooms: map<string, Room>, net: Net, now: real)
    requires forall c :: c in codes ==> c in rooms
    requires forall i, j :: 0 <= i < j < |codes| ==> codes[i] != codes[j]
    requires RoomsOk(rooms)
    ensures var r := SweepRooms(codes, rooms, net, now);
      RoomsOk(r.0)
      && (forall c :: c in rooms && c !in codes ==> r.0[c] == rooms[c])
      && (forall c :: c in codes ==>
            r.0[c].code == rooms[c].code && r.0[c].createdAt == rooms[c].createdAt
            && Profiles(r.0[c].members) <= Profiles(rooms[c].members)
            && forall m :: m in r.0[c].members ==> !IsStale(m, now))
      && (forall c :: c in r.2 <==> c in codes && Doomed(r.0[c], now))
    decreases |codes|
  {
    if |codes| > 0 {
      var c := codes[0];
      var room := rooms[c];
      var swept := SweepRoom(room, net, now);
      EvictShape(room, net, StaleIds(room.members, now));
      SweepRoomNoStale(room, net, now);
      var rooms1 := rooms[c := swept.0];
      assert codes == [c] + codes[1..];
      assert c !in codes[1..];
      SweepRoomsFacts(codes[1..], rooms1, swept.1, now);
    }
  }

  /** The sweep over the table takes back nothing already delivered. */
  lemma {:induction false} SweepRoomsGrows(codes: seq<string>, rooms: map<string, Room>, net: Net, now: real)
    requires forall c :: c in codes ==> c in rooms
    ensures Grows(net, SweepRooms(codes, rooms, net, now).1)
    decreases |codes|
  {
    if |codes| == 0 {
      SameSentGrows(net, net);
    } else {
      var c := codes[0];
      var swept := SweepRoom(rooms[c], net, now);
      EvictGrows(rooms[c], net, StaleIds(rooms[c].members, now));
      SweepRoomsGrows(codes[1..], rooms[c := swept.0], swept.1, now);
      GrowsTrans(net, swept.1, SweepRooms(codes[1..], rooms[c := swept.0], swept.1, now).1);
    }
  }

  /** `order` with the codes in `drop` removed. */
  function Retain(order: seq<string>, drop: seq<string>): (r: seq<string>)
    ensures forall c :: c in r <==> c in order && c !in drop
    ensures (forall i, j :: 0 <= i < j < |order| ==> order[i] != order[j])
      ==> forall i, j :: 0 <= i < j < |r| ==> r[i] != r[j]
    decreases |order|
  {
    if |order| == 0 then []
    else
      var rest := Retain(order[1..], drop);
      assert forall c :: c in order <==> c == order[0] || c in order[1..] by {
        assert order == [order[0]] + order[1..];
      }
      if order[0] in drop then rest
      else
        var r := [order[0]] + rest;
        assert (forall i, j :: 0 <= i < j < |order| ==> order[i] != order[j])
          ==> forall i, j :: 0 <= i < j < |r| ==> r[i] != r[j] by {
          if forall i, j :: 0 <= i < j < |order| ==> order[i] != order[j] {
            assert order[0] !in order[1..];
            forall i, j | 0 <= i < j < |r| ensures r[i] != r[j] {
              if i == 0 { assert r[j] in rest; }
            }
          }
        }
        r
  }

  /** `_cleanup_stale()` at clock `now`. */
  function Sweep(reg: Registry, net: Net, now: real): (r: (Registry, Net))
    requires Valid(reg)
    ensures Valid(r.0) && r.0.counter == reg.counter
  {
    var s := SweepRooms(reg.order, reg.rooms, net, now);
    var rooms := map c | c in s.0 && c !in s.2 :: s.0[c];
    var order := Retain(reg.order, s.2);
    assert forall c :: c in rooms ==> c in order;
    assert forall c :: c in order ==> c in rooms;
    assert forall c :: c in rooms ==> IsCode(c) && rooms[c].code == c;
    (Registry(order, rooms, reg.counter), s.1)
  }

  /** The sweep's outcome for the table: a room survives iff it is not empty-and-older-than
      300 s after its stale members were removed, whatever the time since it emptied; every
      surviving room keeps its code and creation time, has no stale member, gained nobody,
      and still has unique ids and at most one host. */
  lemma SweepSpec(reg: Registry, net: Net, now: real)
    requires Valid(reg) && RoomsOk(reg.rooms)
    ensures var s := SweepRooms(reg.order, reg.rooms, net, now);
      var reg' := Sweep(reg, net, now).0;
      RoomsOk(reg'.rooms)
      && (forall c :: c in reg'.rooms <==> c in reg.rooms && !Doomed(s.0[c], now))
      && (forall c :: c in reg'.rooms ==>
            reg'.rooms[c].code == c && reg'.rooms[c].createdAt == reg.rooms[c].createdAt
            && Profiles(reg'.rooms[c].members) <= Profiles(reg.rooms[c].members)
            && forall m :: m in reg'.rooms[c].members ==> !IsStale(m, now))
  {
    SweepRoomsFacts(reg.order, reg.rooms, net, now);
  }

  /** The grace period runs from creation: a room younger than 300 s survives the sweep
      even if it has no members at all. */
  lemma YoungRoomSurvives(reg: Registry, net: Net, now: real, c: string)
    requires Valid(reg) && RoomsOk(reg.rooms)
    requires c in reg.rooms && now - reg.rooms[c].createdAt <= EmptyRoomTimeout
    ensures c in Sweep(reg, net, now).0.rooms
  {
    var s := SweepRooms(reg.order, reg.rooms, net, now);
    SweepRoomsFacts(reg.order, reg.rooms, net, now);
    assert s.0[c].createdAt == reg.rooms[c].createdAt;
    assert c !in s.2;
  }

  lemma ProfilesEmpty(ms: seq<Member>)
    ensures Profiles(ms) == {} ==> |ms| == 0
  {
    if |ms| > 0 {
      assert Profile(ms[0]) in Profiles(ms);
    }
  }

  /** An old room that has emptied is dropped at the next sweep, however recently it emptied. */
  lemma OldEmptyRoomDropped(reg: Registry, net: Net, now: real, c: string)
    requires Valid(reg) && RoomsOk(reg.rooms)
    requires c in reg.rooms && |reg.rooms[c].members| == 0 && now - reg.rooms[c].createdAt > EmptyRoomTimeout
    ensures c !in Sweep(reg, net, now).0.rooms
  {
    var s := SweepRooms(reg.order, reg.rooms, net, now);
    SweepRoomsFacts(reg.order, reg.rooms, net, now);
    assert Profiles(reg.rooms[c].members) == {};
    ProfilesEmpty(s.0[c].members);
    assert c in s.2;
  }
}

=== FILE: routing_app.dfy ===
/** The trip planner's endpoints: `plan_route`, which chains the Gemini and 2GIS services
    behind four guards, its de-duplication of places by id, and `compare_route_modes`, which
    ranks the four transport modes by duration. Every service answer is an input. */
module RoutingApp {
  import opened Wrappers
  import opened Text
  import opened Json
  import opened Sorting
  import opened Places
  import GeminiService
  import DoubleGis

  /** How a service call ended: its value, or an exception with its text. */
  datatype Outcome<+T> = Done(value: T) | Raised(message: string)

  // ---------------------------------------------------------------------------------------
  // De-duplication by id
  // ---------------------------------------------------------------------------------------

  /** No two places share an id. */
  predicate UniqueIds(ps: seq<Place>)
  {
    forall i, j :: 0 <= i < j < |ps| ==> ps[i].id != ps[j].id
  }

  /** The ids of the places. */
  function Ids(ps: seq<Place>): set<string>
  {
    set i | 0 <= i < |ps| :: ps[i].id
  }

  lemma IdsSnoc(ps: seq<Place>, p: Place)
    ensures Ids(ps + [p]) == Ids(ps) + {p.id}
  {
    var q := ps + [p];
    assert forall i :: 0 <= i < |ps| ==> q[i] == ps[i];
    assert q[|ps|] == p;
  }

  lemma HasIdIds(ps: seq<Place>, id: string)
    ensures HasId(ps, id) <==> id in Ids(ps)
  {
    if id in Ids(ps) {
      var i :| 0 <= i < |ps| && ps[i].id == id;
    }
  }

  /** The index of the first place with this id, or -1. */
  function FirstIndex(ps: seq<Place>, id: string): int
  {
    IdIndexFrom(ps, id, 0)
  }

  /** One step of `{place.id: place for place in all_places}`: a new id is appended, a known
      one has its value replaced where it stands. */
  function Add(acc: seq<Place>, p: Place): (r: seq<Place>)
  {
    var k := IdIndexFrom(acc, p.id, 0);
    if k < 0 then acc + [p] else acc[k := p]
  }

  /** A step keeps the ids unique and adds the new id: every old entry stays where it was,
      except the one with the new place's id, which the new place replaces. */
  lemma AddFacts(acc: seq<Place>, p: Place)
    requires UniqueIds(acc)
    ensures var r := Add(acc, p);
      UniqueIds(r) && Ids(r) == Ids(acc) + {p.id}
      && |r| == |acc| + (if p.id in Ids(acc) then 0 else 1)
      && (forall k :: 0 <= k < |acc| ==> (r[k] == acc[k] && acc[k].id != p.id) || (r[k] == p && acc[k].id == p.id))
      && (p.id !in Ids(acc) ==> r[|acc|] == p)
  {
    var k := IdIndexFrom(acc, p.id, 0);
    var r := Add(acc, p);
    HasIdIds(acc, p.id);
    if k < 0 {
      IdsSnoc(acc, p);
    } else {
      assert forall j :: 0 <= j < |acc| && j != k ==> r[j] == acc[j] && acc[j].id != p.id;
      assert Ids(r) == Ids(acc) by {
        forall x | x in Ids(r) ensures x in Ids(acc) {
          var j :| 0 <= j < |r| && r[j].id == x;
        }
        forall x | x in Ids(acc) ensures x in Ids(r) {
          var j :| 0 <= j < |acc| && acc[j].id == x;
          assert r[j].id == x;
        }
      }
    }
  }

  /** `list({place.id: place for place in all_places}.values())`: one place per id, and the
      ids are those of the input. */
  function Dedupe(ps: seq<Place>): (r: seq<Place>)
    ensures UniqueIds(r) && Ids(r) == Ids(ps)
    decreases |ps|
  {
    if |ps| == 0 then []
    else
      var init := ps[..|ps| - 1];
      var p := ps[|ps| - 1];
      AddFacts(Dedupe(init), p);
      IdsSnoc(init, p);
      assert init + [p] == ps;
      Add(Dedupe(init), p)
  }

  /** Each kept place is the last place of the input with its id. */
  lemma {:induction false} DedupeKeepsLast(ps: seq<Place>)
    ensures forall k :: 0 <= k < |Dedupe(ps)| ==>
      exists i :: 0 <= i < |ps| && ps[i] == Dedupe(ps)[k] && forall j :: i < j < |ps| ==> ps[j].id != ps[i].id
    decreases |ps|
  {
    if |ps| > 0 {
      var init := ps[..|ps| - 1];
      var p := ps[|ps| - 1];
      DedupeKeepsLast(init);
      var before := Dedupe(init);
      var r := Dedupe(ps);
      assert r == Add(before, p);
      AddFacts(before, p);
      forall k | 0 <= k < |r|
        ensures exists i :: 0 <= i < |ps| && ps[i] == r[k] && forall j :: i < j < |ps| ==> ps[j].id != ps[i].id
      {
        if r[k] == p {
          assert ps[|ps| - 1] == r[k];
        } else {
          assert k < |before| && r[k] == before[k] && before[k].id != p.id;
          var i :| 0 <= i < |init| && init[i] == before[k] && forall j :: i < j < |init| ==> init[j].id != init[i].id;
          assert ps[i] == r[k];
          forall j | i < j < |ps| ensures ps[j].id != ps[i].id {
            if j < |init| {
              assert ps[j] == init[j];
            }
          }
        }
      }
    } else {
      assert Dedupe(ps) == [];
    }
  }

  /** The first index of an id already present is not moved by appending. */
  lemma FirstIndexSnoc(ps: seq<Place>, p: Place, id: string)
    ensures id in Ids(ps) ==> FirstIndex(ps + [p], id) == FirstIndex(ps, id)
    ensures id !in Ids(ps) && p.id == id ==> FirstIndex(ps + [p], id) == |ps|
  {
    var q := ps + [p];
    var a := IdIndexFrom(q, id, 0);
    var b := IdIndexFrom(ps, id, 0);
    assert forall j :: 0 <= j < |ps| ==> q[j] == ps[j];
    HasIdIds(ps, id);
    if id in Ids(ps) {
      assert b >= 0;
      assert q[b].id == id;
      assert a >= 0 && a <= b;
    } else if p.id == id {
      assert q[|ps|].id == id;
      assert a >= 0;
    }
  }

  /** An id of the places has a first index. */
  lemma FirstIndexFound(ps: seq<Place>, id: string)
    requires id in Ids(ps)
    ensures 0 <= FirstIndex(ps, id) < |ps|
  {
    HasIdIds(ps, id);
  }

  /** The places come out in the order of the first occurrence of their ids. */
  lemma {:induction false} DedupeFirstOccurrenceOrder(ps: seq<Place>)
    ensures forall a, b :: 0 <= a < b < |Dedupe(ps)| ==>
      FirstIndex(ps, Dedupe(ps)[a].id) < FirstIndex(ps, Dedupe(ps)[b].id)
    decreases |ps|
  {
    if |ps| > 0 {
      var init := ps[..|ps| - 1];
      var p := ps[|ps| - 1];
      assert ps == init + [p];
      DedupeFirstOccurrenceOrder(init);
      var before := Dedupe(init);
      var r := Dedupe(ps);
      assert r == Add(before, p);
      AddFacts(before, p);
      forall a, b | 0 <= a < b < |r| ensures FirstIndex(ps, r[a].id) < FirstIndex(ps, r[b].id) {
        assert r[a].id == before[a].id;
        assert r[a].id in Ids(init) by {
          assert before[a].id in Ids(before);
        }
        FirstIndexSnoc(init, p, r[a].id);
        FirstIndexFound(init, r[a].id);
        FirstIndexSnoc(init, p, r[b].id);
        if b < |before| {
          assert r[b].id == before[b].id;
          assert r[b].id in Ids(init) by {
            assert before[b].id in Ids(before);
          }
        } else {
          assert r[b] == p && p.id !in Ids(init);
        }
      }
    }
  }

  // ---------------------------------------------------------------------------------------
  // plan_route
  // ---------------------------------------------------------------------------------------

  /** `RouteResponse`. */
  datatype RouteResponse = RouteResponse(places: seq<Place>, routeUrl: string, totalDistance: Option<int>,
                                         totalDuration: Option<int>, explanation: string)

  /** The services' answers, in the order `plan_route` asks for them: the reply to the
      search-terms prompt, each search (by query), the reply to the selection prompt, the
      distance-matrix reply, and the reply to the description prompt. */
  datatype Answers = Answers(
    terms: Outcome<string>,
    search: string -> Outcome<seq<Place>>,
    selection: Outcome<string>,
    matrix: DoubleGis.Reply,
    description: Outcome<string>)

  const Unavailable := "Gemini AI service not available. Install google-generativeai package."
  const NotUnderstood := "Could not understand your request. Please be more specific."
  const NothingFound := "No places found matching your description."
  const TooFewSelected := "Not enough suitable places found. Try a different description."

  /** The search loop: every query's places, in query order; the first exception ends it. */
  function SearchAll(queries: seq<string>, search: string -> Outcome<seq<Place>>): (r: Outcome<seq<Place>>)
    ensures r.Done? <==> forall i :: 0 <= i < |queries| ==> search(queries[i]).Done?
    ensures r.Done? ==> (r.value == [] <==> forall i :: 0 <= i < |queries| ==> search(queries[i]).value == [])
    decreases |queries|
  {
    if |queries| == 0 then Done([])
    else
      var here := search(queries[0]);
      var rest := SearchAll(queries[1..], search);
      assert forall i :: 1 <= i < |queries| ==> queries[1..][i - 1] == queries[i];
      if here.Raised? then here
      else if rest.Raised? then rest
      else Done(here.value + rest.value)
  }

  /** `plan_route` from its guards to the response: 503 without Gemini, 400 without search
      terms, then the search and the plan over the places found; 500 with the text of any
      exception a service raises. `distance` and `show` stand for the haversine formula and
      the float rendering. */
  function PlanRoute(available: bool, answers: Answers, distance: (Place, Place) -> real,
                     show: real -> string, invalid: string): (r: Result<RouteResponse>)
    ensures !available ==> r == Err(503, Unavailable)
    ensures available && answers.terms.Raised? ==> r == Err(500, "Error planning route: " + answers.terms.message)
    ensures available && answers.terms.Done? ==>
      var found := SearchAll(GeminiService.ParseUserRequest(answers.terms.value), answers.search);
      (found.Raised? ==> r == Err(500, "Error planning route: " + found.message))
      && (found.Done? ==> r == PlanFound(found.value, answers, distance, show, invalid))
  {
    if !available then Err(503, Unavailable)
    else match answers.terms
      case Raised(m) => Err(500, "Error planning route: " + m)
      case Done(reply) =>
        var queries := GeminiService.ParseUserRequest(reply);
        if queries == [] then Err(400, NotUnderstood)
        else match SearchAll(queries, answers.search)
          case Raised(m) => Err(500, "Error planning route: " + m)
          case Done(found) => PlanFound(found, answers, distance, show, invalid)
  }

  /** The plan once the places are found: 404 when there are none, 500 when the selection
      prompt raises, 400 when fewer than two of the places (de-duplicated by id) are selected,
      and otherwise the route through the selected places. */
  function PlanFound(found: seq<Place>, answers: Answers, distance: (Place, Place) -> real,
                     show: real -> string, invalid: string): (r: Result<RouteResponse>)
    ensures found == [] <==> r == Err(404, NothingFound)
    ensures found != [] && answers.selection.Raised? ==> r == Err(500, "Error planning route: " + answers.selection.message)
    ensures found != [] && answers.selection.Done? ==>
      var selected := GeminiService.SelectBestPlaces(answers.selection.value, Dedupe(found), 5).0;
      (|selected| < 2 <==> r == Err(400, TooFewSelected))
    ensures found != [] && answers.selection.Done? && r.Ok? ==>
      r.value.places == GeminiService.SelectBestPlaces(answers.selection.value, Dedupe(found), 5).0
  {
    if found == [] then Err(404, NothingFound)
    else
      match answers.selection
        case Raised(m) => Err(500, "Error planning route: " + m)
        case Done(selectionReply) =>
          var (selected, why) := GeminiService.SelectBestPlaces(selectionReply, Dedupe(found), 5);
          if |selected| < 2 then Err(400, TooFewSelected)
          else PlanSelected(selected, why, answers, distance, show, invalid)
  }

  /** The route through the selected places, its 2GIS link and the explanation: the
      selection's reasons, a blank line, then the route description. `RouteResponse` takes
      the totals as `Optional[int]`, so a total that is not a whole number fails validation
      and the handler answers 500 with `invalid`, the text of that error. */
  function PlanSelected(selected: seq<Place>, why: string, answers: Answers, distance: (Place, Place) -> real,
                        show: real -> string, invalid: string): (r: Result<RouteResponse>)
    requires |selected| >= 2
    ensures var info := DoubleGis.BuildRoute(selected, answers.matrix, distance).value;
      r.Ok? <==> answers.description.Done? && DoubleGis.IsWhole(info.totalDistance) && DoubleGis.IsWhole(info.totalDuration)
    ensures answers.description.Raised? ==> r == Err(500, "Error planning route: " + answers.description.message)
    ensures r.Err? && answers.description.Done? ==> r == Err(500, "Error planning route: " + invalid)
    ensures r.Ok? ==> r.value.places == selected && r.value.routeUrl == DoubleGis.RouteUrl(selected, show)
    ensures r.Ok? ==>
      var info := DoubleGis.BuildRoute(selected, answers.matrix, distance).value;
      r.value.totalDistance == Some(info.totalDistance.Floor) && r.value.totalDuration == Some(info.totalDuration.Floor)
    ensures r.Ok? ==> StartsWith(r.value.explanation, why + "\n\n")
  {
    var info := DoubleGis.BuildRoute(selected, answers.matrix, distance).value;
    var url := DoubleGis.RouteUrl(selected, show);
    match answers.description
      case Raised(m) => Err(500, "Error planning route: " + m)
      case Done(text) =>
        var explanation := why + "\n\n" + Strip(text);
        assert explanation[..|why + "\n\n"|] == why + "\n\n";
        if !DoubleGis.IsWhole(info.totalDistance) || !DoubleGis.IsWhole(info.totalDuration) then
          Err(500, "Error planning route: " + invalid)
        else
          Ok(RouteResponse(selected, url, Some(info.totalDistance.Floor), Some(info.totalDuration.Floor), explanation))
  }

  /** When the matrix call fails, the totals are the straight-line estimate's whole numbers,
      so the plan succeeds exactly when the description does. */
  lemma EstimateAlwaysValid(selected: seq<Place>, why: string, answers: Answers, distance: (Place, Place) -> real,
                            show: real -> string, invalid: string)
    requires |selected| >= 2 && (answers.matrix.Raised? || answers.matrix.status != 200)
    ensures PlanSelected(selected, why, answers, distance, show, invalid).Ok? <==> answers.description.Done?
  {
  }

  /** The search-terms parser never returns an empty list, so the 400 "could not understand"
      guard never fires. */
  lemma NotUnderstoodNeverReturned(available: bool, answers: Answers, distance: (Place, Place) -> real,
                                   show: real -> string, invalid: string)
    ensures PlanRoute(available, answers, distance, show, invalid) != Err(400, NotUnderstood)
  {
    if available && answers.terms.Done? {
      var queries := GeminiService.ParseUserRequest(answers.terms.value);
      assert |queries| >= 1;
      var found := SearchAll(queries, answers.search);
      if found.Done? {
        PlanFoundUnderstood(found.value, answers, distance, show, invalid);
      }
    }
  }

  /** Once places are searched for, the 400 "could not understand" answer cannot come up. */
  lemma PlanFoundUnderstood(found: seq<Place>, answers: Answers, distance: (Place, Place) -> real,
                            show: real -> string, invalid: string)
    ensures PlanFound(found, answers, distance, show, invalid) != Err(400, NotUnderstood)
  {
    if found != [] && answers.selection.Done? {
      var selected := GeminiService.SelectBestPlaces(answers.selection.value, Dedupe(found), 5).0;
      if |selected| < 2 {
        assert TooFewSelected != NotUnderstood;
      } else {
        var r := PlanSelected(selected, GeminiService.SelectBestPlaces(answers.selection.value, Dedupe(found), 5).1,
                              answers, distance, show, invalid);
        assert r.Err? ==> r.status == 500;
      }
    }
  }

  /** With Gemini available and the search-terms reply read, searches that all find nothing
      give 404. */
  lemma NothingFoundIs404(answers: Answers, distance: (Place, Place) -> real, show: real -> string,
                          invalid: string)
    requires answers.terms.Done?
    requires var queries := GeminiService.ParseUserRequest(answers.terms.value);
      forall i :: 0 <= i < |queries| ==> answers.search(queries[i]) == Done([])
    ensures PlanRoute(true, answers, distance, show, invalid) == Err(404, NothingFound)
  {
    var queries := GeminiService.ParseUserRequest(answers.terms.value);
    assert SearchAll(queries, answers.search).Done?;
  }

  /** Every place of a successful plan carries the id of one of the places found, and there
      are at least two of them. */
  lemma PlanUsesFoundPlaces(found: seq<Place>, answers: Answers, distance: (Place, Place) -> real,
                            show: real -> string, invalid: string)
    requires PlanFound(found, answers, distance, show, invalid).Ok?
    ensures var r := PlanFound(found, answers, distance, show, invalid).value;
      2 <= |r.places| && forall i :: 0 <= i < |r.places| ==> HasId(found, r.places[i].id)
  {
    var unique := Dedupe(found);
    var selected := GeminiService.SelectBestPlaces(answers.selection.value, unique, 5).0;
    var r := PlanFound(found, answers, distance, show, invalid).value;
    assert r.places == selected;
    forall i | 0 <= i < |selected| ensures HasId(found, selected[i].id) {
      var k :| 0 <= k < |unique| && unique[k] == selected[i];
      assert unique[k].id in Ids(unique);
      HasIdIds(found, selected[i].id);
    }
  }

  // ---------------------------------------------------------------------------------------
  // compare_route_modes
  // ---------------------------------------------------------------------------------------

  /** The fields of `get_directions(points, mode)` that the comparison reads; the dict always
      holds every field, `None` included. */
  datatype ModeResult = ModeResult(success: bool, duration: int, durationText: string, distance: int,
                                   transfers: Option<int>, transportTypes: Option<seq<string>>,
                                   error: Option<string>)

  /** One mode's entry: its time, text and distance (with the transfers and transport types
      for public transport), or its error. */
  datatype Entry =
    | Timed(duration: int, text: string, distance: int, transit: Option<(Json, Json)>)
    | Failed(error: Json)

  datatype Comparison = Comparison(entries: seq<(string, Entry)>, fastest: Option<string>, sortedByTime: seq<string>)

  const Modes: seq<string> := ["car", "pedestrian", "bicycle", "public_transport"]

  function OptionJson(o: Option<int>): Json
  {
    if o.Some? then Int(o.value) else Null
  }

  function TypesJson(o: Option<seq<string>>): Json
  {
    if o.Some? then Arr(seq(|o.value|, i requires 0 <= i < |o.value| => Str(o.value[i]))) else Null
  }

  /** One mode's entry in `results`. */
  function EntryOf(mode: string, result: ModeResult): (e: Entry)
    ensures e.Failed? <==> !result.success
    ensures e.Timed? ==> e.duration == result.duration && (e.transit.Some? <==> mode == "public_transport")
  {
    if !result.success then Failed(if result.error.Some? then Str(result.error.value) else Null)
    else
      Timed(result.duration, result.durationText, result.distance,
            if mode == "public_transport" then Some((OptionJson(result.transfers), TypesJson(result.transportTypes)))
            else None)
  }

  /** The modes that succeeded, with their durations, in mode order. */
  function Timings(entries: seq<(string, Entry)>): (r: seq<(string, int)>)
    ensures |r| <= |entries|
    ensures forall x :: x in r <==> exists i :: 0 <= i < |entries| && entries[i].1.Timed? && x == (entries[i].0, entries[i].1.duration)
    ensures forall i :: 0 <= i < |entries| && entries[i].1.Timed? ==> (entries[i].0, entries[i].1.duration) in r
    decreases |entries|
  {
    if |entries| == 0 then []
    else
      var rest := Timings(entries[1..]);
      assert forall i :: 1 <= i < |entries| ==> entries[1..][i - 1] == entries[i];
      if entries[0].1.Timed? then [(entries[0].0, entries[0].1.duration)] + rest else rest
  }

  function DurationKey(x: (string, int)): real
  {
    x.1 as real
  }

  function Names(xs: seq<(string, int)>): (r: seq<string>)
    ensures |r| == |xs| && forall i :: 0 <= i < |xs| ==> r[i] == xs[i].0
  {
    seq(|xs|, i requires 0 <= i < |xs| => xs[i].0)
  }

  /** `compare_route_modes`: the four entries in mode order; the successful modes by
      ascending duration, ties in mode order; the fastest is the first of them. The first
      mode whose directions raise gives 500. */
  function CompareModes(results: string -> Outcome<ModeResult>): (r: Result<Comparison>)
    ensures r.Ok? <==> forall i :: 0 <= i < |Modes| ==> results(Modes[i]).Done?
    ensures r.Ok? ==> |r.value.entries| == 4
    ensures r.Ok? ==> forall i :: 0 <= i < 4 ==> r.value.entries[i] == (Modes[i], EntryOf(Modes[i], results(Modes[i]).value))
  {
    if forall i :: 0 <= i < |Modes| ==> results(Modes[i]).Done? then
      var entries := seq(4, i requires 0 <= i < 4 => (Modes[i], EntryOf(Modes[i], results(Modes[i]).value)));
      var sorted := SortBy(Timings(entries), DurationKey);
      Ok(Comparison(entries, if sorted == [] then None else Some(sorted[0].0), Names(sorted)))
    else
      var i := FirstRaised(results, 0);
      Err(500, "Comparison error: " + results(Modes[i]).message)
  }

  /** The first mode whose directions raise. */
  function FirstRaised(results: string -> Outcome<ModeResult>, from: nat): (i: nat)
    requires from <= |Modes|
    requires exists i :: from <= i < |Modes| && results(Modes[i]).Raised?
    ensures from <= i < |Modes| && results(Modes[i]).Raised?
    ensures forall j :: from <= j < i ==> results(Modes[j]).Done?
    decreases |Modes| - from
  {
    if results(Modes[from]).Raised? then from else FirstRaised(results, from + 1)
  }

  /** The ranking: `sorted_by_time` holds exactly the successful modes, by ascending
      duration, and `fastest_mode` is its head, whose duration no successful mode beats. */
  lemma CompareRanks(results: string -> Outcome<ModeResult>)
    requires CompareModes(results).Ok?
    ensures var c := CompareModes(results).value;
      var timed := Timings(c.entries);
      var sorted := SortBy(timed, DurationKey);
      c.sortedByTime == Names(sorted) && SortedBy(sorted, DurationKey)
      && multiset(sorted) == multiset(timed)
      && (c.fastest.Some? ==> forall i :: 0 <= i < 4 && c.entries[i].1.Timed? ==>
            sorted[0].1 <= c.entries[i].1.duration && c.fastest.value == sorted[0].0)
  {
    var c := CompareModes(results).value;
    var timed := Timings(c.entries);
    var sorted := SortBy(timed, DurationKey);
    if sorted != [] {
      SortByHeadIsMin(timed, DurationKey);
      forall i | 0 <= i < 4 && c.entries[i].1.Timed? ensures sorted[0].1 <= c.entries[i].1.duration {
        var x := (c.entries[i].0, c.entries[i].1.duration);
        assert x in timed;
        var k :| 0 <= k < |timed| && timed[k] == x;
        assert DurationKey(sorted[0]) <= DurationKey(timed[k]);
      }
    }
  }

  /** There is no fastest mode exactly when every mode failed. */
  lemma NoFastestIffAllFailed(results: string -> Outcome<ModeResult>)
    requires CompareModes(results).Ok?
    ensures var c := CompareModes(results).value;
      c.fastest.None? <==> forall i :: 0 <= i < 4 ==> c.entries[i].1.Failed?
  {
    var c := CompareModes(results).value;
    var timed := Timings(c.entries);
    var sorted := SortBy(timed, DurationKey);
    assert c.fastest.None? <==> sorted == [];
    assert |sorted| == |timed|;
    if timed == [] {
      assert forall i :: 0 <= i < 4 ==> !c.entries[i].1.Timed?;
    } else {
      assert timed[0] in timed;
      var i :| 0 <= i < |c.entries| && c.entries[i].1.Timed? && timed[0] == (c.entries[i].0, c.entries[i].1.duration);
      assert !c.entries[i].1.Failed?;
    }
  }

  /** Two successful modes with the same duration keep their mode order. */
  lemma CompareTiesKeepModeOrder(results: string -> Outcome<ModeResult>, d: int)
    requires CompareModes(results).Ok?
    ensures var timed := Timings(CompareModes(results).value.entries);
      WithKey(SortBy(timed, DurationKey), DurationKey, d as real) == WithKey(timed, DurationKey, d as real)
  {
    SortByStable(Timings(CompareModes(results).value.entries), DurationKey, d as real);
  }
}

=== FILE: routing_auth.dfy ===
/** The routing service's account layer: the request validators of its auth models, the
    `Authorization` header checks of `/auth/verify` and `/auth/me`, and `/auth/register`
    run against the in-memory client. Password hashing, token signing and decoding are
    parameters. */
module RoutingAuth {
  import opened Wrappers
  import opened Text
  import opened Json
  import opened Numerals
  import opened SupabaseMock

  // ---------------------------------------------------------------------------------------
  // `UserCreate` and `MessageCreate`
  // ---------------------------------------------------------------------------------------

  const UsernameMin := 3
  const UsernameMax := 50
  const EmailMin := 5
  const EmailMax := 255
  const PasswordMin := 8
  const PasswordMax := 100
  const MessageMin := 1
  const MessageMax := 10000

  predicate Within(s: string, lo: int, hi: int)
  {
    lo <= |s| <= hi
  }

  /** `UserCreate.validate_email`: `None` where it raises. */
  function CheckEmail(v: string): (r: Option<string>)
    ensures r.Some? <==> '@' in v && '.' in v
    ensures r.Some? ==> r.value == Lower(v)
  {
    if '@' in v && '.' in v then Some(Lower(v)) else None
  }

  /** `UserCreate.validate_username`: `None` where it raises. */
  function CheckUsername(v: string): (r: Option<string>)
    ensures r.Some? <==> IsAlnum(RemoveChar(v, '_'))
    ensures r.Some? ==> r.value == Lower(v)
  {
    if IsAlnum(RemoveChar(v, '_')) then Some(Lower(v)) else None
  }

  datatype UserCreate = UserCreate(username: string, email: string, password: string)

  /** Building a `UserCreate`: the length bounds hold for the submitted text and the
      validators accept it. */
  function ParseUserCreate(username: string, email: string, password: string): (r: Option<UserCreate>)
    ensures r.Some? <==>
      Within(username, UsernameMin, UsernameMax) && Within(email, EmailMin, EmailMax)
      && Within(password, PasswordMin, PasswordMax)
      && '@' in email && '.' in email && IsAlnum(RemoveChar(username, '_'))
    ensures r.Some? ==> r.value == UserCreate(Lower(username), Lower(email), password)
  {
    if !Within(username, UsernameMin, UsernameMax) || !Within(email, EmailMin, EmailMax)
       || !Within(password, PasswordMin, PasswordMax) then None
    else
      var u := CheckUsername(username);
      var e := CheckEmail(email);
      if u.None? || e.None? then None else Some(UserCreate(u.value, e.value, password))
  }

  lemma LowerKeepsChar(s: string, c: char)
    requires c in s && !IsUpperChar(c)
    ensures c in Lower(s)
  {
    var i :| 0 <= i < |s| && s[i] == c;
    assert Lower(s)[i] == c;
  }

  lemma {:induction false} RemoveUnderscoreLower(s: string)
    ensures RemoveChar(Lower(s), '_') == Lower(RemoveChar(s, '_'))
    decreases |s|
  {
    if |s| > 0 {
      var c := s[0];
      var t := s[1..];
      assert s == [c] + t;
      LowerCons(c, t);
      RemoveUnderscoreLower(t);
      RemoveCharCons(c, t, '_');
      RemoveCharCons(LowerChar(c), Lower(t), '_');
      if c != '_' {
        LowerCons(c, RemoveChar(t, '_'));
      }
    }
  }

  lemma AlnumLower(s: string)
    requires IsAlnum(s)
    ensures IsAlnum(Lower(s))
  {
    forall i | 0 <= i < |s|
      ensures IsAlnumChar(Lower(s)[i])
    {
      assert IsAlnumChar(s[i]);
    }
  }

  /** What the model accepted, it accepts again unchanged. */
  lemma ParseUserCreateStable(username: string, email: string, password: string)
    requires ParseUserCreate(username, email, password).Some?
    ensures var p := ParseUserCreate(username, email, password).value;
      ParseUserCreate(p.username, p.email, p.password) == Some(p)
  {
    LowerKeepsChar(email, '@');
    LowerKeepsChar(email, '.');
    RemoveUnderscoreLower(username);
    AlnumLower(RemoveChar(username, '_'));
    CaseIdempotent(username);
    CaseIdempotent(email);
  }

  datatype Role = UserRole | BotRole

  datatype MessageCreate = MessageCreate(message: string, role: Role, userId: Option<string>)

  /** Building a `MessageCreate`: the message's length bound holds for the submitted text, it
      is not blank, and it is kept stripped; `user_id` is passed through for either role. */
  function ParseMessage(message: string, role: Role, userId: Option<string>): (r: Option<MessageCreate>)
    ensures r.Some? <==> Within(message, MessageMin, MessageMax) && Strip(message) != ""
    ensures r.Some? ==> r.value.message == Strip(message) && r.value.role == role && r.value.userId == userId
  {
    if !Within(message, MessageMin, MessageMax) || Strip(message) == "" then None
    else Some(MessageCreate(Strip(message), role, userId))
  }

  /** An accepted message is accepted again as it was stored. */
  lemma ParseMessageStable(message: string, role: Role, userId: Option<string>)
    requires ParseMessage(message, role, userId).Some?
    ensures var m := ParseMessage(message, role, userId).value;
      ParseMessage(m.message, role, userId) == Some(m)
  {
    StripShape(message);
    StripIdempotent(message);
  }

  // ---------------------------------------------------------------------------------------
  // `Authorization` header
  // ---------------------------------------------------------------------------------------

  /** The header checks shared by `verify_token` and `get_current_user`: the token, or the 401
      they raise. */
  function BearerToken(authorization: Option<string>): (r: Result<string>)
    ensures authorization.None? || authorization == Some("") ==> r == Err(401, "Missing authorization header")
    ensures authorization.Some? && authorization.value != "" && |SplitWs(authorization.value)| != 2 ==>
      r == Err(401, "Invalid authorization header format")
    ensures r.Ok? <==>
      authorization.Some? && |SplitWs(authorization.value)| == 2 && Lower(SplitWs(authorization.value)[0]) == "bearer"
    ensures r.Ok? ==> r.value == SplitWs(authorization.value)[1] && r.value != ""
    ensures r.Err? ==> r.status == 401
  {
    if authorization.None? || authorization.value == "" then Err(401, "Missing authorization header")
    else
      var words := SplitWs(authorization.value);
      if |words| != 2 then Err(401, "Invalid authorization header format")
      else if Lower(words[0]) != "bearer" then Err(401, "Invalid authentication scheme")
      else Ok(words[1])
  }

  /** A header written as scheme, one space, token gives back the token exactly when the
      scheme is "bearer" in any case. */
  lemma BearerRoundTrip(scheme: string, token: string)
    requires |scheme| > 0 && |token| > 0 && NoSpace(scheme) && NoSpace(token)
    ensures BearerToken(Some(scheme + " " + token)) ==
      (if Lower(scheme) == "bearer" then Ok(token) else Err(401, "Invalid authentication scheme"))
  {
    SplitWsPair(scheme, token);
  }

  datatype UserInfo = UserInfo(id: Json, email: Json, name: Json, avatarUrl: Json)

  /** What `decode_token` returns: the payload dict, or `None`. */
  type Decoder = string -> Json

  /** The part inside the `try`: the user under `int(payload["sub"])`, read with `user[…]`.
      `toInt` is Python's `int`, and `Err(500, "")` stands for an exception whose text the
      caller formats. */
  function LookUpUser(store: Store, payload: Json, toInt: Json -> Option<int>): (r: Result<UserInfo>)
    ensures r.Err? ==> r.status == 401 || r.status == 500
    ensures r.Err? && r.status == 401 ==> r.detail == "User not found"
  {
    if !payload.Obj? || !Has(payload, "sub") then Err(500, "")
    else
      var id := toInt(Get(payload, "sub", Null));
      if id.None? then Err(500, "")
      else
        var rows := Execute(store, Eq(Select(store, OpenTable("users")), "id", Int(id.value)));
        if rows == [] then Err(401, "User not found")
        else
          var user := rows[0];
          if !Has(user, "id") || !Has(user, "email") || !Has(user, "name") then Err(500, "")
          else Ok(UserInfo(Get(user, "id", Null), Get(user, "email", Null), Get(user, "name", Null),
                           Get(user, "avatar_url", Null)))
  }

  /** `verify_token(authorization)`; `why` is the text of the exception behind a 500. */
  function VerifyToken(authorization: Option<string>, decode: Decoder, store: Store,
                       toInt: Json -> Option<int>, why: string): (r: Result<UserInfo>)
    ensures BearerToken(authorization).Err? ==>
      r == Err(BearerToken(authorization).status, BearerToken(authorization).detail)
    ensures BearerToken(authorization).Ok? && !Truthy(decode(BearerToken(authorization).value)) ==>
      r == Err(401, "Invalid or expired token")
    ensures r.Err? && r.status == 500 ==> r.detail == "Verification failed: " + why
  {
    var token := BearerToken(authorization);
    if token.Err? then Err(token.status, token.detail)
    else
      var payload := decode(token.value);
      if !Truthy(payload) then Err(401, "Invalid or expired token")
      else
        var u := LookUpUser(store, payload, toInt);
        if u.Err? && u.status == 500 then Err(500, "Verification failed: " + why) else u
  }

  /** `get_current_user(authorization)`; `why` is the text of the exception behind a 500. */
  function GetCurrentUser(authorization: Option<string>, decode: Decoder, store: Store,
                          toInt: Json -> Option<int>, why: string): (r: Result<UserInfo>)
    ensures BearerToken(authorization).Err? ==>
      r == Err(BearerToken(authorization).status, BearerToken(authorization).detail)
    ensures r.Err? && r.status == 500 ==> r.detail == why
  {
    var token := BearerToken(authorization);
    if token.Err? then Err(token.status, token.detail)
    else
      var payload := decode(token.value);
      if !Truthy(payload) then Err(401, "Invalid or expired token")
      else
        var u := LookUpUser(store, payload, toInt);
        if u.Err? && u.status == 500 then Err(500, why) else u
  }

  /** The two endpoints give the same answer except for the wording of a 500. */
  lemma SameChecksSameOrder(authorization: Option<string>, decode: Decoder, store: Store,
                            toInt: Json -> Option<int>, why: string)
    ensures var v := VerifyToken(authorization, decode, store, toInt, why);
      var g := GetCurrentUser(authorization, decode, store, toInt, why);
      (v.Ok? <==> g.Ok?) && (v.Ok? ==> v == g)
      && (v.Err? && v.status == 401 ==> v == g)
      && (v.Err? && v.status == 500 <==> g.Err? && g.status == 500)
  {
    var v := VerifyToken(authorization, decode, store, toInt, why);
    var g := GetCurrentUser(authorization, decode, store, toInt, why);
    var token := BearerToken(authorization);
    if token.Err? {
      assert v == g;
    } else {
      var payload := decode(token.value);
      if !Truthy(payload) {
        assert v == g == Err(401, "Invalid or expired token");
      } else {
        var u := LookUpUser(store, payload, toInt);
        if u.Err? && u.status == 500 {
          assert v == Err(500, "Verification failed: " + why) && g == Err(500, why);
        } else {
          assert v == u && g == u;
        }
      }
    }
  }

  // ---------------------------------------------------------------------------------------
  // `/auth/register`
  // ---------------------------------------------------------------------------------------

  datatype TokenResponse = TokenResponse(accessToken: string, tokenType: string, userId: Json, email: Json, name: Json)

  /** `str(e)` of an `HTTPException`: "status: detail". */
  function HttpExceptionText(status: nat, detail: string): string
  {
    NatToString(status) + ": " + detail
  }

  /** Some row already has this email. */
  predicate EmailTaken(store: Store, email: string)
  {
    Execute(store, Eq(Select(store, OpenTable("users")), "email", Str(email))) != []
  }

  /** The insert and the response after the duplicate check. */
  function CreateAccount(store: Store, email: string, password: string, name: string,
                         hash: string -> string, sign: (Json, Json) -> string): (r: (Store, Result<TokenResponse>))
    ensures |r.0| == |store| + 1 && r.0[..|store|] == store
    ensures r.0[|store|].id == MaxId(store) + 1
    ensures r.0[|store|].row == Put(Obj([("email", Str(email)), ("password_hash", Str(hash(password))), ("name", Str(name))]),
                                    "id", Int(MaxId(store) + 1))
    ensures r.1.Ok? && r.1.value.tokenType == "bearer" && r.1.value.userId == Int(MaxId(store) + 1)
  {
    var data := Obj([("email", Str(email)), ("password_hash", Str(hash(password))), ("name", Str(name))]);
    var (after, t) := Insert(store, OpenTable("users"), data);
    InsertThenExecute(store, data);
    var user := Execute(after, t)[0];
    assert Has(user, "id");
    (after, Ok(TokenResponse(sign(Get(user, "id", Null), Get(user, "email", Null)), "bearer",
                             Get(user, "id", Null), Get(user, "email", Null), Get(user, "name", Null))))
  }

  /** `register` as written: the 400 for a taken email is raised inside the `try` whose
      `except Exception` turns every exception without "404" in its text into a 500.
      `lookupRaises` is the text of an exception the lookup itself raises (the in-memory
      client never raises). */
  function RegisterAsWritten(store: Store, email: string, password: string, name: string, hash: string -> string,
                             sign: (Json, Json) -> string, lookupRaises: Option<string>): (r: (Store, Result<TokenResponse>))
    ensures r.1.Err? ==> r.0 == store && r.1 == Err(500, "Database error")
  {
    var raised :=
      if lookupRaises.Some? then lookupRaises
      else if EmailTaken(store, email) then Some(HttpExceptionText(400, "Email already registered"))
      else None;
    if raised.Some? && !Contains(raised.value, "404") then (store, Err(500, "Database error"))
    else CreateAccount(store, email, password, name, hash, sign)
  }

  /** "400: " followed by a detail without a '4' has no "404" in it. */
  lemma No404In400(detail: string)
    requires '4' !in detail
    ensures !Contains(HttpExceptionText(400, detail), "404")
  {
    var s := HttpExceptionText(400, detail);
    assert NatToString(400) == "400" by {
      assert NatToString(4) == "4";
      assert NatToString(40) == NatToString(4) + [DigitChar(0)];
    }
    var head := "400: ";
    assert s == head + detail;
    forall j
      ensures !OccursAt(s, "404", j)
    {
      if 0 <= j && j + 3 <= |s| {
        if j + 2 >= |head| {
          assert s[j + 2] == detail[j + 2 - |head|];
        } else {
          assert s[j + 2] == head[j + 2];
        }
        assert s[j..j + 3][2] == s[j + 2];
      }
    }
  }

  /** The discrepancy: registering an email that is already taken answers 500 "Database error"
      and not the 400 the code raises for it. */
  lemma DuplicateEmailGives500(store: Store, email: string, password: string, name: string,
                               hash: string -> string, sign: (Json, Json) -> string)
    requires EmailTaken(store, email)
    ensures RegisterAsWritten(store, email, password, name, hash, sign, None) == (store, Err(500, "Database error"))
  {
    TakenMessageNo404();
  }

  /** The duplicate-email exception's text has no "404" in it. */
  lemma TakenMessageNo404()
    ensures !Contains(HttpExceptionText(400, "Email already registered"), "404")
  {
    var detail := "Email already registered";
    assert '4' !in detail;
    No404In400(detail);
  }

  /** `register` as evidently intended: the 400 passes through the handler. */
  function Register(store: Store, email: string, password: string, name: string, hash: string -> string,
                    sign: (Json, Json) -> string, lookupRaises: Option<string>): (r: (Store, Result<TokenResponse>))
    ensures lookupRaises.None? && EmailTaken(store, email) ==> r == (store, Err(400, "Email already registered"))
    ensures lookupRaises.None? && !EmailTaken(store, email) ==>
      r.1.Ok? && |r.0| == |store| + 1 && r.0[..|store|] == store && r.1.value.userId == Int(MaxId(store) + 1)
    ensures lookupRaises.Some? && !Contains(lookupRaises.value, "404") ==> r == (store, Err(500, "Database error"))
  {
    if lookupRaises.Some? then
      if !Contains(lookupRaises.value, "404") then (store, Err(500, "Database error"))
      else CreateAccount(store, email, password, name, hash, sign)
    else if EmailTaken(store, email) then (store, Err(400, "Email already registered"))
    else CreateAccount(store, email, password, name, hash, sign)
  }

  /** The corrected handler and the original agree everywhere except on a taken email. */
  lemma RegisterDiffersOnlyOnDuplicates(store: Store, email: string, password: string, name: string,
                                        hash: string -> string, sign: (Json, Json) -> string, lookupRaises: Option<string>)
    requires lookupRaises.Some? || !EmailTaken(store, email)
    ensures Register(store, email, password, name, hash, sign, lookupRaises)
         == RegisterAsWritten(store, email, password, name, hash, sign, lookupRaises)
  {
  }

  /** After a successful registration the email is taken, so registering it again is refused. */
  lemma RegisterTwiceRefused(store: Store, email: string, password: string, name: string,
                             hash: string -> string, sign: (Json, Json) -> string)
    requires !EmailTaken(store, email)
    ensures var once := Register(store, email, password, name, hash, sign, None);
      Register(once.0, email, password, name, hash, sign, None) == (once.0, Err(400, "Email already registered"))
  {
    RegisteredEmailTaken(store, email, password, name, hash, sign);
  }

  /** A successful registration leaves its email taken. */
  lemma RegisteredEmailTaken(store: Store, email: string, password: string, name: string,
                             hash: string -> string, sign: (Json, Json) -> string)
    requires !EmailTaken(store, email)
    ensures EmailTaken(Register(store, email, password, name, hash, sign, None).0, email)
  {
    var after := CreateAccount(store, email, password, name, hash, sign).0;
    var row := after[|store|].row;
    NewUserEmail(email, hash(password), name);
    assert FieldIs(row, "email", Str(email));
    assert row in Values(after);
  }

  /** The inserted user record carries the email it was registered with. */
  lemma NewUserEmail(email: string, passwordHash: string, name: string)
    ensures var data := Obj([("email", Str(email)), ("password_hash", Str(passwordHash)), ("name", Str(name))]);
      Lookup(data.fields, "email") == Some(Str(email))
  {
    var one := [("email", Str(email))];
    var two := one + [("password_hash", Str(passwordHash))];
    var fields := two + [("name", Str(name))];
    assert Lookup(one, "email") == Some(Str(email));
    assert two[..1] == one && two[1].0 != "email";
    assert Lookup(two, "email") == Some(Str(email));
    assert fields[..2] == two && fields[2].0 != "email";
    assert [("email", Str(email)), ("password_hash", Str(passwordHash)), ("name", Str(name))] == fields;
  }
}

=== FILE: routing_middleware.dfy ===
/** The routing middleware: mode dispatch, the car distance matrix with its walking-based
    estimate, the pedestrian and bicycle route, the public transport route and its parser, and
    the duration text. Each HTTP call is an input: the model returns the calls it makes and
    the response it builds from their replies. */
module RoutingMiddleware {
  import opened Wrappers
  import opened Text
  import opened Json
  import opened Numerals
  import opened Coerce
  import opened Movements

  // ---------------------------------------------------------------------------------------
  // Modes
  // ---------------------------------------------------------------------------------------

  datatype Mode = Car | Walking | Bicycle | PublicTransport

  /** The enum value of a mode. */
  function ModeValue(m: Mode): string
  {
    match m
      case Car => "car"
      case Walking => "pedestrian"
      case Bicycle => "bicycle"
      case PublicTransport => "public_transport"
  }

  /** The mode `get_directions` picks for a mode string: the enum member with that value, and
      CAR for any other string. */
  function ModeOf(s: string): (r: Mode)
    ensures (exists m :: ModeValue(m) == s) ==> ModeValue(r) == s
    ensures (forall m :: ModeValue(m) != s) ==> r == Car
  {
    if s == "pedestrian" then Walking
    else if s == "bicycle" then Bicycle
    else if s == "public_transport" then PublicTransport
    else Car
  }

  /** "walking" is not an enum value, so it asks for a car route. */
  lemma WalkingMeansCar()
    ensures ModeOf("walking") == Car && ModeOf("pedestrian") == Walking
  {
    assert forall m :: ModeValue(m) != "walking";
  }

  // ---------------------------------------------------------------------------------------
  // `_format_duration`
  // ---------------------------------------------------------------------------------------

  /** `_format_duration(seconds)`. Minutes below an hour are `round(seconds / 60)`, which rounds
      half to even. */
  function FormatDuration(seconds: int): string
  {
    if seconds < 60 then IntToString(seconds) + " sec"
    else if seconds < 3600 then IntToString(RoundHalfEven(seconds, 60)) + " min"
    else
      var hours := seconds / 3600;
      var minutes := (seconds % 3600) / 60;
      if minutes > 0 then IntToString(hours) + "h " + IntToString(minutes) + "min"
      else IntToString(hours) + "h"
  }

  /** Below a minute the seconds are shown; below an hour the nearest whole minute, so 59.5 to
      59.99 minutes show as "60 min"; from an hour on, whole hours and the remaining whole
      minutes, with the minutes left out when they are 0. */
  lemma FormatDurationCases(seconds: int)
    ensures seconds < 60 ==> FormatDuration(seconds) == IntToString(seconds) + " sec"
    ensures 60 <= seconds < 3600 ==> exists m: nat ::
      FormatDuration(seconds) == NatToString(m) + " min" && 1 <= m <= 60
      && 60 * m - 30 <= seconds <= 60 * m + 30
    ensures 3570 <= seconds < 3600 ==> FormatDuration(seconds) == "60 min"
    ensures seconds >= 3600 ==> exists h: nat, m: nat ::
      h >= 1 && m < 60 && 3600 * h + 60 * m <= seconds < 3600 * h + 60 * m + 60
      && FormatDuration(seconds) == NatToString(h) + "h" + (if m > 0 then " " + NatToString(m) + "min" else "")
  {
    if 60 <= seconds < 3600 {
      var m := MinutesCase(seconds);
      assert FormatDuration(seconds) == NatToString(m) + " min" && 1 <= m <= 60
        && 60 * m - 30 <= seconds <= 60 * m + 30;
    }
    if 3570 <= seconds < 3600 {
      SixtyMinutes(seconds);
    }
    if seconds >= 3600 {
      var h, m := HoursCase(seconds);
      assert h >= 1 && m < 60 && 3600 * h + 60 * m <= seconds < 3600 * h + 60 * m + 60
        && FormatDuration(seconds) == NatToString(h) + "h" + (if m > 0 then " " + NatToString(m) + "min" else "");
    }
  }

  lemma MinutesCase(seconds: int) returns (m: nat)
    requires 60 <= seconds < 3600
    ensures FormatDuration(seconds) == NatToString(m) + " min" && 1 <= m <= 60
    ensures 60 * m - 30 <= seconds <= 60 * m + 30
  {
    m := RoundHalfEven(seconds, 60);
    assert 1 <= m <= 60;
    assert 60 * m - 30 <= seconds <= 60 * m + 30;
    assert FormatDuration(seconds) == IntToString(m) + " min";
    assert IntToString(m) == NatToString(m);
  }

  lemma SixtyMinutes(seconds: int)
    requires 3570 <= seconds < 3600
    ensures FormatDuration(seconds) == "60 min"
  {
    var k := RoundHalfEven(seconds, 60);
    assert 60 * k - 30 <= seconds <= 60 * k + 30;
    assert k == 60;
    assert IntToString(60) == "60" by {
      assert NatToString(60) == NatToString(6) + [DigitChar(0)];
    }
  }

  lemma HoursCase(seconds: int) returns (h: nat, m: nat)
    requires seconds >= 3600
    ensures h >= 1 && m < 60 && 3600 * h + 60 * m <= seconds < 3600 * h + 60 * m + 60
    ensures FormatDuration(seconds) == NatToString(h) + "h" + (if m > 0 then " " + NatToString(m) + "min" else "")
  {
    h := seconds / 3600;
    m := (seconds % 3600) / 60;
    assert h >= 1 && m < 60;
    assert 3600 * h + 60 * m <= seconds < 3600 * h + 60 * m + 60;
    assert IntToString(h) == NatToString(h) && IntToString(m) == NatToString(m);
    if m > 0 {
      assert FormatDuration(seconds) == NatToString(h) + "h" + (" " + NatToString(m) + "min");
    } else {
      assert FormatDuration(seconds) == NatToString(h) + "h" + "";
    }
  }

  // ---------------------------------------------------------------------------------------
  // Requests, calls and responses
  // ---------------------------------------------------------------------------------------

  datatype RoutePoint = RoutePoint(lat: real, lon: real, name: Option<string>)

  datatype Request = Request(points: seq<RoutePoint>, mode: Mode, transportTypes: Option<seq<string>>)

  /** How one HTTP call ended: a reply (its body decoded when the status is 200) or an
      exception with its text. */
  datatype Http = Reply(status: int, data: Json, text: string) | Raised(message: string)

  /** A call the middleware makes: the endpoint and the JSON body. */
  datatype Call = Call(endpoint: string, body: Json)

  datatype Segment = Segment(from: RoutePoint, to: RoutePoint, distance: int, duration: int)

  /** One step of a public transport journey; the minutes are `round(moving / 60, 1)` of the
      moving duration kept here. */
  datatype Step = Step(kind: string, moving: Json, distance: Json, transportType: Option<Json>,
                       fromStop: Option<Json>, toStop: Option<Json>, stops: Option<Json>, instruction: Json)

  /** `_parse_public_transport_route(route_data)`. */
  datatype Transit = Transit(distance: int, duration: int, transfers: int, walking: Json,
                             types: set<Json>, steps: seq<Step>)

  datatype Response = Response(
    success: bool, mode: Mode, distance: int, duration: int, durationText: string,
    segments: Option<seq<Segment>>, best: Option<Transit>, alternatives: seq<Transit>,
    raw: Option<Json>, error: Option<string>)

  /** What every response of `mode` keeps: its mode, and on failure zero totals, "0 min" and
      an error text. */
  predicate Reported(r: Response, mode: Mode)
  {
    r.mode == mode && (!r.success ==> r.distance == 0 && r.duration == 0 && r.durationText == "0 min" && r.error.Some?)
  }

  /** The failure response every branch uses. */
  function Failure(mode: Mode, error: string): Response
  {
    Response(false, mode, 0, 0, "0 min", None, None, [], None, Some(error))
  }

  // ---------------------------------------------------------------------------------------
  // Pydantic's lax validation of the response models' fields, and Python's sums
  // ---------------------------------------------------------------------------------------

  /** A float with no fractional part. */
  predicate Whole(x: real)
  {
    x == x.Floor as real
  }

  /** Text an `int` field accepts: surrounding white space is stripped, a trailing "." followed
      only by zeros is dropped, and what is left is an optional sign and digits. */
  function IntText(s: string): Option<int>
  {
    var t := Strip(s);
    var dot := Find(t, ".");
    if dot < 0 then ParseStripped(t)
    else if t[dot + 1..] == Zeros(|t| - dot - 1) then ParseStripped(t[..dot])
    else None
  }

  function Zeros(n: nat): (r: string)
    ensures |r| == n && forall k :: 0 <= k < n ==> r[k] == '0'
  {
    seq(n, _ => '0')
  }

  /** What an `int` field of a pydantic model makes of a value in lax mode: an int, a boolean as
      0 or 1, a float with no fractional part, or integer text; anything else fails validation. */
  function LaxInt(j: Json): (r: Option<int>)
    ensures j.Int? ==> r == Some(j.i)
    ensures j.Float? ==> (r.Some? <==> Whole(j.r)) && (r.Some? ==> r.value as real == j.r)
    ensures j.Null? || j.Arr? || j.Obj? ==> r.None?
  {
    match j
      case Int(i) => Some(i)
      case Bool(b) => Some(if b then 1 else 0)
      case Float(x) => if Whole(x) then Some(x.Floor) else None
      case Str(s) => IntText(s)
      case _ => None
  }

  /** An `Optional[int]` field: `None`, or what an `int` field accepts. */
  predicate OptInt(j: Json)
  {
    j.Null? || LaxInt(j).Some?
  }

  /** An `Optional[List[str]]` field: `None` or a list of strings. */
  predicate OptStrList(j: Json)
  {
    j.Null? || (j.Arr? && forall k :: 0 <= k < |j.items| ==> j.items[k].Str?)
  }

  /** The integer value of an int or a boolean. */
  function IntValue(j: Json): int
    requires j.Int? || j.Bool?
  {
    if j.Int? then j.i else if j.b then 1 else 0
  }

  /** `a + b` on two numbers: an int (booleans add as 0 and 1) unless either is a float. */
  function Add(a: Json, b: Json): (r: Json)
    requires IsNumber(a) && IsNumber(b)
    ensures IsNumber(r) && NumValue(r) == NumValue(a) + NumValue(b)
    ensures r.Float? <==> a.Float? || b.Float?
  {
    if a.Float? || b.Float? then Float(NumValue(a) + NumValue(b))
    else Int(IntValue(a) + IntValue(b))
  }

  /** `_format_duration(seconds)` for any number: an int is rendered by `FormatDuration`; a
      boolean or a float keeps its own type through `<`, `//` and `%`, so its seconds, hours and
      minutes are rendered as Python renders those values (through `show`). A float with a
      fractional part never reaches a response, because the `int` fields reject it. */
  function DurationText(seconds: Json, show: Json -> string): (r: string)
    requires IsNumber(seconds)
    ensures seconds.Int? ==> r == FormatDuration(seconds.i)
    ensures NumValue(seconds) < 60.0 && !seconds.Int? ==> r == show(seconds) + " sec"
    ensures seconds.Float? && Whole(seconds.r) && 60.0 <= seconds.r < 3600.0 ==>
      r == FormatDuration(seconds.r.Floor)
  {
    match seconds
      case Int(i) => FormatDuration(i)
      case Bool(_) => show(seconds) + " sec"
      case Float(x) =>
        var n := x.Floor;
        if x < 60.0 then show(seconds) + " sec"
        else if x < 3600.0 then IntToString(RoundHalfEven(n, 60)) + " min"
        else
          var hours := Float((n / 3600) as real);
          var minutes := (n % 3600) / 60;
          if minutes > 0 then show(hours) + "h " + show(Float(minutes as real)) + "min"
          else show(hours) + "h"
  }

  function PointsJson(points: seq<RoutePoint>): (r: Json)
    ensures r.Arr? && |r.items| == |points|
  {
    Arr(seq(|points|, i requires 0 <= i < |points| =>
      Obj([("lat", Float(points[i].lat)), ("lon", Float(points[i].lon))])))
  }

  function Ints(n: nat, offset: int): (r: seq<Json>)
    ensures |r| == n && forall i :: 0 <= i < n ==> r[i] == Int(i + offset)
  {
    seq(n, i requires 0 <= i < n => Int(i + offset))
  }

  // ---------------------------------------------------------------------------------------
  // `_get_pedestrian_bicycle_route`
  // ---------------------------------------------------------------------------------------

  const CarRoutingPath := "/carrouting/6.0.0/global"

  function PedestrianCall(points: seq<RoutePoint>, mode: Mode): Call
  {
    Call(CarRoutingPath, Obj([("points", PointsJson(points)),
                          ("type", Str(if mode == Bicycle then "bicycle" else "pedestrian"))]))
  }

  /** The first route of a pedestrian reply, `data["result"][0]`, when the reply is a dict whose
      "result" is a non-empty list and that route is a dict. */
  function FirstRoute(data: Json): Option<Json>
  {
    if data.Obj? && Get(data, "result", Null).Arr? && |Get(data, "result", Null).items| > 0
       && Get(data, "result", Null).items[0].Obj?
    then Some(Get(data, "result", Null).items[0])
    else None
  }

  /** The route's totals make a response: the duration is a number (`_format_duration` compares
      it with 60) and both totals pass the `int` fields. */
  predicate Admissible(route: Json)
    requires route.Obj?
  {
    IsNumber(Get(route, "total_duration", Int(0)))
    && LaxInt(Get(route, "total_distance", Int(0))).Some? && LaxInt(Get(route, "total_duration", Int(0))).Some?
  }

  /** The reply of the pedestrian or bicycle route; `failure` is the text of an exception the
      handling raises. */
  function PedestrianResponse(mode: Mode, http: Http, failure: string, show: Json -> string): (r: Response)
    ensures Reported(r, mode)
    ensures r.success <==>
      http.Reply? && http.status == 200 && FirstRoute(http.data).Some? && Admissible(FirstRoute(http.data).value)
    ensures r.success ==>
      var route := FirstRoute(http.data).value;
      LaxInt(Get(route, "total_distance", Int(0))) == Some(r.distance)
      && LaxInt(Get(route, "total_duration", Int(0))) == Some(r.duration)
      && r.durationText == DurationText(Get(route, "total_duration", Int(0)), show) && r.raw == Some(http.data)
    ensures http.Raised? ==> r.error == Some(http.message)
    ensures http.Reply? && http.status != 200 ==> r.error == Some("API error: " + IntToString(http.status))
  {
    match http
      case Raised(message) => Failure(mode, message)
      case Reply(status, data, _) =>
        if status != 200 then Failure(mode, "API error: " + IntToString(status))
        else match PyIn("result", data)
          case None => Failure(mode, failure)
          case Some(false) => Failure(mode, "API error: " + IntToString(status))
          case Some(true) =>
            if !data.Obj? then Failure(mode, failure)
            else
              var result := Get(data, "result", Null);
              if !Truthy(result) then Failure(mode, "API error: " + IntToString(status))
              else if !result.Arr? || !result.items[0].Obj? then Failure(mode, failure)
              else
                var route := result.items[0];
                var distance := Get(route, "total_distance", Int(0));
                var duration := Get(route, "total_duration", Int(0));
                if !IsNumber(duration) then Failure(mode, failure)
                else
                  var text := DurationText(duration, show);
                  match (LaxInt(distance), LaxInt(duration))
                    case (Some(d), Some(t)) => Response(true, mode, d, t, text, None, None, [], Some(data), None)
                    case _ => Failure(mode, failure)
  }

  /** A whole-float total is read as its integer, and a total with a fraction fails the `int`
      field. */
  lemma WholeFloatTotals(mode: Mode, text: string, failure: string, show: Json -> string)
    ensures var route := Obj([("total_distance", Float(1500.0)), ("total_duration", Int(300))]);
      var r := PedestrianResponse(mode, Reply(200, Obj([("result", Arr([route]))]), text), failure, show);
      r.success && r.distance == 1500 && r.duration == 300 && r.durationText == "5 min"
    ensures var route := Obj([("total_distance", Float(1500.5)), ("total_duration", Int(300))]);
      var r := PedestrianResponse(mode, Reply(200, Obj([("result", Arr([route]))]), text), failure, show);
      !r.success && r.error == Some(failure)
  {
    var whole := Obj([("total_distance", Float(1500.0)), ("total_duration", Int(300))]);
    var data := Obj([("result", Arr([whole]))]);
    assert Get(data, "result", Null) == Arr([whole]);
    assert PyIn("result", data) == Some(true);
    assert Get(whole, "total_distance", Int(0)) == Float(1500.0);
    assert Get(whole, "total_duration", Int(0)) == Int(300);
    assert RoundHalfEven(300, 60) == 5;
    assert IntToString(5) == "5";
    var part := Obj([("total_distance", Float(1500.5)), ("total_duration", Int(300))]);
    var data2 := Obj([("result", Arr([part]))]);
    assert Get(data2, "result", Null) == Arr([part]);
    assert PyIn("result", data2) == Some(true);
    assert Get(part, "total_distance", Int(0)) == Float(1500.5);
    assert Get(part, "total_duration", Int(0)) == Int(300);
    assert !Whole(1500.5);
  }

  // ---------------------------------------------------------------------------------------
  // `_get_car_distance_matrix` and `_estimate_car_from_walking`
  // ---------------------------------------------------------------------------------------

  const MatrixPath := "/get_dist_matrix"

  /** Sources 0..n-2 and targets 1..n-1: each leg from one point to the next. */
  function MatrixCall(points: seq<RoutePoint>): Call
    requires |points| >= 2
  {
    Call(MatrixPath, Obj([("points", PointsJson(points)),
                          ("sources", Arr(Ints(|points| - 1, 0))),
                          ("targets", Arr(Ints(|points| - 1, 1)))]))
  }

  /** The totals and segments of the matrix loop over `routes`, the first of them at index
      `i`; `None` where the loop raises. The totals are Python numbers: `+=` keeps an int until a
      float is added, and a value that is not a number raises. A segment's `int` fields reject
      a distance or duration with a fraction. */
  function MatrixLoop(routes: seq<Json>, i: nat, points: seq<RoutePoint>): (r: Option<(Json, Json, seq<Segment>)>)
    ensures r.Some? ==> IsNumber(r.value.0) && IsNumber(r.value.1)
    decreases |routes|
  {
    if |routes| == 0 then Some((Int(0), Int(0), []))
    else
      var route := routes[0];
      if !route.Obj? then None
      else
        match MatrixLoop(routes[1..], i + 1, points)
          case None => None
          case Some(rest) =>
            if Get(route, "status", Null) != Str("OK") then Some(rest)
            else
              var d := Get(route, "distance", Int(0));
              var t := Get(route, "duration", Int(0));
              if !IsNumber(d) || !IsNumber(t) then None
              else if i + 1 < |points| && (LaxInt(d).None? || LaxInt(t).None?) then None
              else
                var seg := if i + 1 < |points| then [Segment(points[i], points[i + 1], LaxInt(d).value, LaxInt(t).value)] else [];
                Some((Add(d, rest.0), Add(t, rest.1), seg + rest.2))
  }

  predicate IsOk(route: Json)
  {
    route.Obj? && Get(route, "status", Null) == Str("OK")
  }

  /** The sum of a numeric field over the routes whose status is OK. */
  function OkSum(routes: seq<Json>, key: string): real
    decreases |routes|
  {
    if |routes| == 0 then 0.0
    else
      var here := if IsOk(routes[0]) && IsNumber(Get(routes[0], key, Int(0)))
                  then NumValue(Get(routes[0], key, Int(0))) else 0.0;
      here + OkSum(routes[1..], key)
  }

  /** The number of OK routes that still have a leg of the request to describe. */
  function OkLegs(routes: seq<Json>, i: nat, n: nat): nat
    decreases |routes|
  {
    if |routes| == 0 then 0
    else (if IsOk(routes[0]) && i + 1 < n then 1 else 0) + OkLegs(routes[1..], i + 1, n)
  }

  /** The matrix totals are the sums over the routes with status OK, and there is one segment
      per OK route that has a leg. */
  lemma {:induction false} MatrixTotals(routes: seq<Json>, i: nat, points: seq<RoutePoint>)
    requires MatrixLoop(routes, i, points).Some?
    ensures var r := MatrixLoop(routes, i, points).value;
      NumValue(r.0) == OkSum(routes, "distance") && NumValue(r.1) == OkSum(routes, "duration")
      && |r.2| == OkLegs(routes, i, |points|)
    decreases |routes|
  {
    if |routes| > 0 {
      MatrixTotals(routes[1..], i + 1, points);
    }
  }

  /** The segment runs from a point of the request, at `i` or later, to the next one. */
  ghost predicate Joins(seg: Segment, points: seq<RoutePoint>, i: nat)
  {
    exists j :: i <= j && j + 1 < |points| && seg.from == points[j] && seg.to == points[j + 1]
  }

  /** Every segment of the matrix loop runs from one point of the request to the next. */
  lemma {:induction false} MatrixSegments(routes: seq<Json>, i: nat, points: seq<RoutePoint>)
    requires MatrixLoop(routes, i, points).Some?
    ensures var r := MatrixLoop(routes, i, points).value;
      forall k :: 0 <= k < |r.2| ==> Joins(r.2[k], points, i)
    decreases |routes|
  {
    if |routes| > 0 {
      MatrixSegments(routes[1..], i + 1, points);
      var r := MatrixLoop(routes, i, points).value;
      var rest := MatrixLoop(routes[1..], i + 1, points).value;
      var seg := if IsOk(routes[0]) && i + 1 < |points| then
        [Segment(points[i], points[i + 1], LaxInt(Get(routes[0], "distance", Int(0))).value,
                 LaxInt(Get(routes[0], "duration", Int(0))).value)]
      else [];
      assert r.2 == seg + rest.2;
      forall k | 0 <= k < |r.2| ensures Joins(r.2[k], points, i) {
        if k < |seg| {
          assert r.2[k].from == points[i] && r.2[k].to == points[i + 1];
        } else {
          assert r.2[k] == rest.2[k - |seg|];
          JoinsLater(rest.2[k - |seg|], points, i);
        }
      }
    }
  }

  lemma JoinsLater(seg: Segment, points: seq<RoutePoint>, i: nat)
    requires Joins(seg, points, i + 1)
    ensures Joins(seg, points, i)
  {
    var j :| i + 1 <= j && j + 1 < |points| && seg.from == points[j] && seg.to == points[j + 1];
  }

  /** The walking-based estimate: 1.2 times the walking distance and a fifth of the walking
      time, both truncated. */
  function Estimate(mode: Mode, walk: Response): (r: Response)
    ensures r.success == walk.success
    ensures Reported(r, mode)
    ensures r.success ==> 5 * r.duration <= walk.duration < 5 * r.duration + 5 || walk.duration < 0
  {
    if walk.success then
      var d := Truncate(walk.distance as real * 1.2);
      var t := Truncate(walk.duration as real / 5.0);
      Response(true, mode, d, t, FormatDuration(t), None, None, [], None,
               Some("Estimated (car routing unavailable for this route)"))
    else Failure(mode, "Car routing unavailable")
  }

  /** The car route: the matrix call, and the pedestrian call of the estimate when the matrix
      gives nothing. */
  function CarRoute(req: Request, matrix: Http, walk: Http, failure: string, show: Json -> string): (r: (Response, seq<Call>))
    requires |req.points| >= 2
    ensures Reported(r.0, req.mode)
    ensures 1 <= |r.1| <= 2 && r.1[0] == MatrixCall(req.points)
    ensures |r.1| == 2 ==> r.1[1] == PedestrianCall(req.points, Walking)
  {
    var calls := [MatrixCall(req.points)];
    var estimate := (Estimate(req.mode, PedestrianResponse(Walking, walk, failure, show)),
                     calls + [PedestrianCall(req.points, Walking)]);
    match matrix
      case Raised(message) => (Failure(req.mode, message), calls)
      case Reply(status, data, _) =>
        if status != 200 then (Failure(req.mode, "API error: " + IntToString(status)), calls)
        else match PyIn("routes", data)
          case None => (Failure(req.mode, failure), calls)
          case Some(false) => estimate
          case Some(true) =>
            if !data.Obj? then (Failure(req.mode, failure), calls)
            else match Iterate(Get(data, "routes", Null))
              case None => (Failure(req.mode, failure), calls)
              case Some(routes) =>
                match MatrixLoop(routes, 0, req.points)
                  case None => (Failure(req.mode, failure), calls)
                  case Some(totals) =>
                    if NumValue(totals.0) > 0.0 || NumValue(totals.1) > 0.0 then
                      var text := DurationText(totals.1, show);
                      match (LaxInt(totals.0), LaxInt(totals.1))
                        case (Some(d), Some(t)) =>
                          (Response(true, req.mode, d, t, text, if totals.2 == [] then None else Some(totals.2),
                                    None, [], Some(data), None), calls)
                        case _ => (Failure(req.mode, failure), calls)
                    else estimate
  }

  // ---------------------------------------------------------------------------------------
  // `_parse_public_transport_route`
  // ---------------------------------------------------------------------------------------

  /** What one movement contributes: walking seconds (a Python number), steps, and transport
      subtypes. */
  datatype Move = Move(walk: Json, steps: seq<Step>, types: seq<Json>)

  /** What pydantic's `PublicTransportStep` accepts: minutes computed from a number (`round(moving
      / 60, 1)` raises on anything else), an optional integer distance, optional text for the
      transport type, the stop names and the instruction, and an optional list of texts for the
      stops. */
  predicate ValidStep(s: Step)
  {
    IsNumber(s.moving) && OptInt(s.distance)
    && (s.transportType.None? || OptStr(s.transportType.value))
    && (s.fromStop.None? || OptStr(s.fromStop.value))
    && (s.toStop.None? || OptStr(s.toStop.value))
    && (s.stops.None? || OptStrList(s.stops.value))
    && OptStr(s.instruction)
  }

  /** One pass of the loop body; `None` where Python raises, including where a step fails
      validation. */
  function MoveOf(m: Json, show: Json -> string): (r: Option<Move>)
    ensures r.Some? ==> m.Obj? && |r.value.steps| <= 1 && |r.value.types| <= 1 && IsNumber(r.value.walk)
    ensures r.Some? ==> m.Obj? && (Kind(m) == Str("walkway") ==> r.value.walk == Moving(m))
    ensures r.Some? ==> m.Obj? && (Kind(m) != Str("walkway") ==> r.value.walk == Int(0))
    ensures r.Some? ==>
      m.Obj? && (|r.value.steps| == 1 <==> Kind(m) in [Str("walkway"), Str("passage"), Str("crossing")] && !IsFinish(m))
    ensures r.Some? ==>
      m.Obj? && (r.value.types != [] <==> Kind(m) == Str("passage"))
    ensures r.Some? && r.value.types != [] ==>
      r.value.steps[0].kind == "public_transport" && r.value.steps[0].transportType == Some(r.value.types[0])
    ensures r.Some? && |r.value.steps| == 1 ==>
      (r.value.steps[0].kind == "walking" <==> Kind(m) == Str("walkway"))
    ensures r.Some? && |r.value.steps| == 1 ==>
      m.Obj? && r.value.steps[0].moving == Moving(m) && r.value.steps[0].distance == Distance(m)
      && ValidStep(r.value.steps[0])
    ensures r.Some? && |r.value.steps| == 1 ==>
      (r.value.steps[0].kind == "public_transport" <==> r.value.types != [])
    ensures m.Obj? && Kind(m) in [Str("walkway"), Str("passage"), Str("crossing")] && !IsNumber(Moving(m)) ==> r.None?
  {
    if !m.Obj? then None
    else
      var kind := Kind(m);
      var moving := Moving(m);
      var distance := Distance(m);
      var waypoint := WaypointOf(m);
      if kind == Str("walkway") then
        if !IsNumber(moving) || !waypoint.Obj? then None
        else if IsFinish(m) then Some(Move(moving, [], []))
        else
          var step := Step("walking", moving, distance, None, None, None, None, Get(waypoint, "comment", Str("Walk")));
          if ValidStep(step) then Some(Move(moving, [step], [])) else None
      else if kind == Str("passage") then
        if !waypoint.Obj? then None
        else
          var platforms := Get(m, "platforms", Obj([]));
          var subtype := Get(waypoint, "subtype", Str("transit"));
          var station := Get(waypoint, "name", Str(""));
          var names := if platforms.Obj? then Get(platforms, "names", Arr([])) else Arr([]);
          match LastStop(names)
            case None => None
            case Some(last) =>
              var step := Step("public_transport", moving, distance, Some(subtype), Some(station), Some(last),
                               Some(names), Str("Take " + Display(subtype, show) + " from " + Display(station, show)));
              if ValidStep(step) then Some(Move(Int(0), [step], [subtype])) else None
      else if kind == Str("crossing") then
        if !waypoint.Obj? then None
        else
          var step := Step("transfer", moving, distance, None, None, None, None, Get(waypoint, "comment", Str("Transfer")));
          if ValidStep(step) then Some(Move(Int(0), [step], [])) else None
      else Some(Move(Int(0), [], []))
  }

  /** A crossing whose moving duration is `null` raises in `round`, and a passage whose subtype
      is a number fails the step's `transport_type` field. */
  lemma MoveOfRaises(show: Json -> string)
    ensures MoveOf(Obj([("type", Str("crossing")), ("moving_duration", Null), ("waypoint", Obj([]))]), show).None?
    ensures MoveOf(Obj([("type", Str("passage")), ("moving_duration", Int(60)),
                        ("waypoint", Obj([("subtype", Int(3))]))]), show).None?
  {
    var cf := [("type", Str("crossing")), ("moving_duration", Null), ("waypoint", Obj([]))];
    LookupAt(cf, 0, "type");
    LookupAt(cf, 1, "moving_duration");
    var waypoint := Obj([("subtype", Int(3))]);
    var pf := [("type", Str("passage")), ("moving_duration", Int(60)), ("waypoint", waypoint)];
    LookupAt(pf, 0, "type");
    LookupAt(pf, 2, "waypoint");
    assert Get(waypoint, "subtype", Str("transit")) == Int(3);
  }

  /** The loop over the movements: contributions in order; `None` once a movement raises. */
  function Moves(ms: seq<Json>, show: Json -> string): (r: Option<Move>)
    ensures r.Some? ==> IsNumber(r.value.walk)
    decreases |ms|
  {
    if |ms| == 0 then Some(Move(Int(0), [], []))
    else match MoveOf(ms[0], show)
      case None => None
      case Some(a) =>
        match Moves(ms[1..], show)
          case None => None
          case Some(b) => Some(Move(Add(a.walk, b.walk), a.steps + b.steps, a.types + b.types))
  }

  /** The moving seconds of the walking steps. */
  function StepWalk(steps: seq<Step>): real
    decreases |steps|
  {
    if |steps| == 0 then 0.0
    else
      var here := if steps[0].kind == "walking" && IsNumber(steps[0].moving)
                  then NumValue(steps[0].moving) else 0.0;
      here + StepWalk(steps[1..])
  }

  /** The moving seconds of the finish markers, which show no step. */
  function FinishWalk(ms: seq<Json>): real
    decreases |ms|
  {
    if |ms| == 0 then 0.0
    else
      var here := if IsFinish(ms[0]) && IsNumber(Moving(ms[0])) then NumValue(Moving(ms[0])) else 0.0;
      here + FinishWalk(ms[1..])
  }

  /** The transport types of the public transport steps, in order. */
  function StepTypes(steps: seq<Step>): seq<Json>
    decreases |steps|
  {
    if |steps| == 0 then []
    else
      (if steps[0].kind == "public_transport" && steps[0].transportType.Some? then [steps[0].transportType.value] else [])
      + StepTypes(steps[1..])
  }

  /** The movements that show a step: walkways other than finish markers, passages and crossings. */
  function Shown(ms: seq<Json>): nat
    decreases |ms|
  {
    if |ms| == 0 then 0
    else
      (if ms[0].Obj? && Kind(ms[0]) in [Str("walkway"), Str("passage"), Str("crossing")] && !IsFinish(ms[0]) then 1 else 0)
      + Shown(ms[1..])
  }

  /** Sums and type lists over a sequence of steps whose first part has at most one step. */
  lemma StepsSplit(a: seq<Step>, b: seq<Step>)
    requires |a| <= 1
    ensures StepWalk(a + b) == StepWalk(a) + StepWalk(b)
    ensures StepTypes(a + b) == StepTypes(a) + StepTypes(b)
  {
    if |a| == 1 {
      assert (a + b)[0] == a[0] && (a + b)[1..] == b;
      assert a[1..] == [];
    } else {
      assert a + b == b;
    }
  }

  /** What one movement adds, in terms of the steps it shows: the walked seconds are those of
      its walking step or of a finish marker, its types those of its public transport step. */
  lemma MoveWalk(m: Json, show: Json -> string)
    requires MoveOf(m, show).Some?
    ensures var a := MoveOf(m, show).value;
      NumValue(a.walk) == StepWalk(a.steps) + (if IsFinish(m) && IsNumber(Moving(m)) then NumValue(Moving(m)) else 0.0)
      && a.types == StepTypes(a.steps)
      && |a.steps| == (if Kind(m) in [Str("walkway"), Str("passage"), Str("crossing")] && !IsFinish(m) then 1 else 0)
  {
    var a := MoveOf(m, show).value;
    if |a.steps| == 1 {
      assert a.steps[1..] == [];
      if a.types != [] {
        assert a.types == [a.types[0]];
      }
    }
  }

  /** The walking time is the walking steps' time plus the finish markers' time; the transport
      types are those of the public transport steps; and every shown movement gives one step. */
  lemma {:induction false} MovesFacts(ms: seq<Json>, show: Json -> string)
    requires Moves(ms, show).Some?
    ensures var r := Moves(ms, show).value;
      NumValue(r.walk) == StepWalk(r.steps) + FinishWalk(ms) && r.types == StepTypes(r.steps) && |r.steps| == Shown(ms)
    decreases |ms|
  {
    if |ms| > 0 {
      var a := MoveOf(ms[0], show).value;
      var b := Moves(ms[1..], show).value;
      MovesFacts(ms[1..], show);
      MoveWalk(ms[0], show);
      StepsSplit(a.steps, b.steps);
    }
  }

  /** `_parse_public_transport_route(route_data)`; `None` where Python raises. */
  function ParseTransit(route: Json, show: Json -> string): Option<Transit>
  {
    if !route.Obj? then None
    else
      var duration := SafeInt(Get(route, "total_duration", Int(0)), 0);
      var distance := SafeInt(Get(route, "total_distance", Int(0)), 0);
      var transfers := SafeInt(Get(route, "transfer_count", Int(0)), 0);
      match Iterate(Get(route, "movements", Arr([])))
        case None => None
        case Some(ms) =>
          match Moves(ms, show)
            case None => None
            case Some(mv) => Some(Transit(distance, duration, transfers, mv.walk, (set x | x in mv.types), mv.steps))
  }

  /** A parsed route: totals read leniently, walking time equal to the walking steps' time plus
      that of the finish markers, one step per shown movement, and the transport types exactly
      those of the public transport steps. */
  lemma TransitFacts(route: Json, show: Json -> string)
    requires ParseTransit(route, show).Some?
    ensures route.Obj?
    ensures var r := ParseTransit(route, show).value;
      var ms := Iterate(Get(route, "movements", Arr([]))).value;
      r.duration == SafeInt(Get(route, "total_duration", Int(0)), 0)
      && NumValue(r.walking) == StepWalk(r.steps) + FinishWalk(ms)
      && |r.steps| == Shown(ms)
      && forall x :: x in r.types <==> x in StepTypes(r.steps)
  {
    var ms := Iterate(Get(route, "movements", Arr([]))).value;
    MovesFacts(ms, show);
  }

  function ParseAll(items: seq<Json>, show: Json -> string): (r: Option<seq<Transit>>)
    ensures r.Some? ==> |r.value| == |items|
    ensures r.Some? ==> forall k :: 0 <= k < |items| ==> ParseTransit(items[k], show) == Some(r.value[k])
    ensures r.None? ==> exists k :: 0 <= k < |items| && ParseTransit(items[k], show).None?
    decreases |items|
  {
    if |items| == 0 then Some([])
    else match ParseTransit(items[0], show)
      case None => None
      case Some(t) =>
        match ParseAll(items[1..], show)
          case None => None
          case Some(rest) => Some([t] + rest)
  }

  // ---------------------------------------------------------------------------------------
  // `_get_public_transport_route`
  // ---------------------------------------------------------------------------------------

  const TransitPath := "/public_transport/2.0"

  const DefaultTypes := ["metro", "bus", "tram", "trolleybus"]

  /** `request.transport_types or [...]`: a missing or empty list means the default. */
  function TransportTypes(types: Option<seq<string>>): (r: seq<string>)
    ensures types.Some? && types.value != [] ==> r == types.value
    ensures types.None? || types.value == [] ==> r == DefaultTypes
  {
    if types.Some? && types.value != [] then types.value else DefaultTypes
  }

  function PointOf(p: RoutePoint): Json
  {
    Obj([("point", Obj([("lon", Float(p.lon)), ("lat", Float(p.lat))]))])
  }

  function TransitCall(req: Request): Call
    requires |req.points| == 2
  {
    var types := TransportTypes(req.transportTypes);
    Call(TransitPath, Obj([("source", PointOf(req.points[0])), ("target", PointOf(req.points[1])),
                               ("transport", Arr(seq(|types|, i requires 0 <= i < |types| => Str(types[i]))))]))
  }

  /** The best route passes the response's fields: its walking time is a whole number, and every
      transport type used is text (`transport_types` is a list of strings). */
  predicate Admitted(best: Transit)
  {
    LaxInt(best.walking).Some? && forall t :: t in best.types ==> t.Str?
  }

  function TransitResponse(mode: Mode, http: Http, failure: string, show: Json -> string): (r: Response)
    ensures Reported(r, mode)
    ensures r.best.Some? ==> Admitted(r.best.value)
  {
    match http
      case Raised(message) => Failure(mode, message)
      case Reply(status, data, text) =>
        if status != 200 then Failure(mode, "API error: " + text)
        else if !Truthy(data) then
          Response(true, mode, 0, 0, "0 min", None, None, [], Some(data), Some("No public transport routes found"))
        else match Iterate(data)
          case None => Failure(mode, failure)
          case Some(items) =>
            match ParseAll(items, show)
              case None => Failure(mode, failure)
              case Some(alternatives) =>
                if |alternatives| == 0 then Failure(mode, failure)
                else
                  var best := alternatives[0];
                  if !Admitted(best) then Failure(mode, failure)
                  else
                    Response(true, mode, best.distance, best.duration, FormatDuration(best.duration),
                             None, Some(best), alternatives, Some(data), None)
  }

  // ---------------------------------------------------------------------------------------
  // `get_route` and `get_directions`
  // ---------------------------------------------------------------------------------------

  const TooFewPoints := "Need at least 2 points to build a route"
  const OnlyTwoPoints := "Public transport routing only supports 2 points (start and end)"

  /** `get_route(request)`: the response and the calls made. `first` answers the first call and
      `second` the walking call of the car estimate; `failure` is the text of an exception the
      handling of a reply raises. */
  function GetRoute(req: Request, first: Http, second: Http, failure: string, show: Json -> string): (r: (Response, seq<Call>))
    ensures r.0.mode == req.mode
    ensures |req.points| < 2 ==> r == (Failure(req.mode, TooFewPoints), [])
    ensures |req.points| >= 2 && req.mode == PublicTransport && |req.points| != 2 ==>
      r == (Failure(req.mode, OnlyTwoPoints), [])
    ensures !r.0.success ==> r.0.distance == 0 && r.0.duration == 0 && r.0.durationText == "0 min" && r.0.error.Some?
    ensures |r.1| <= 2
    ensures |r.1| > 0 ==>
      r.1[0].endpoint == (if req.mode == PublicTransport then TransitPath
                          else if req.mode == Car then MatrixPath else CarRoutingPath)
    ensures |r.1| == 2 ==> req.mode == Car && r.1[1] == PedestrianCall(req.points, Walking)
  {
    if |req.points| < 2 then (Failure(req.mode, TooFewPoints), [])
    else match req.mode
      case PublicTransport =>
        if |req.points| != 2 then (Failure(req.mode, OnlyTwoPoints), [])
        else (TransitResponse(req.mode, first, failure, show), [TransitCall(req)])
      case Car => CarRoute(req, first, second, failure, show)
      case _ => (PedestrianResponse(req.mode, first, failure, show), [PedestrianCall(req.points, req.mode)])
  }

  /** `get_directions(points, mode, transport_types)`: the mode is read leniently. */
  function GetDirections(points: seq<RoutePoint>, mode: string, types: Option<seq<string>>,
                         first: Http, second: Http, failure: string, show: Json -> string): (r: (Response, seq<Call>))
    ensures r.0.mode == ModeOf(mode)
    ensures (forall m: Mode :: ModeValue(m) != mode) ==> r.0.mode == Car
  {
    GetRoute(Request(points, ModeOf(mode), types), first, second, failure, show)
  }

  /** A 200 matrix reply: a loop that raises fails the route; a positive total distance or
      duration over the OK routes answers from the matrix alone, succeeding exactly when both
      totals pass the `int` fields, with the totals equal to the sums; otherwise the walking
      estimate is asked for. A reply without "routes" goes straight to the estimate. */
  lemma CarTotals(req: Request, data: Json, text: string, walk: Http, failure: string, show: Json -> string)
    requires |req.points| >= 2 && data.Obj?
    ensures var r := CarRoute(req, Reply(200, data, text), walk, failure, show);
      !Has(data, "routes") ==> r.1 == [MatrixCall(req.points), PedestrianCall(req.points, Walking)]
    ensures var r := CarRoute(req, Reply(200, data, text), walk, failure, show);
      Has(data, "routes") && Iterate(Get(data, "routes", Null)).None? ==>
        r == (Failure(req.mode, failure), [MatrixCall(req.points)])
    ensures var r := CarRoute(req, Reply(200, data, text), walk, failure, show);
      Has(data, "routes") && Iterate(Get(data, "routes", Null)).Some? ==>
      var routes := Iterate(Get(data, "routes", Null)).value;
      var loop := MatrixLoop(routes, 0, req.points);
      (loop.None? ==> r == (Failure(req.mode, failure), [MatrixCall(req.points)]))
      && (loop.Some? && (OkSum(routes, "distance") > 0.0 || OkSum(routes, "duration") > 0.0) ==>
            r.1 == [MatrixCall(req.points)]
            && (r.0.success <==> LaxInt(loop.value.0).Some? && LaxInt(loop.value.1).Some?)
            && (r.0.success ==> r.0.distance as real == OkSum(routes, "distance")
                                && r.0.duration as real == OkSum(routes, "duration")))
      && (loop.Some? && OkSum(routes, "distance") <= 0.0 && OkSum(routes, "duration") <= 0.0 ==>
            r.1 == [MatrixCall(req.points), PedestrianCall(req.points, Walking)])
  {
    assert PyIn("routes", data) == Some(Has(data, "routes"));
    if Has(data, "routes") && Iterate(Get(data, "routes", Null)).Some? {
      var routes := Iterate(Get(data, "routes", Null)).value;
      if MatrixLoop(routes, 0, req.points).Some? {
        MatrixTotals(routes, 0, req.points);
      }
    }
  }

  /** An empty reply is a success with no route; otherwise the best route is the first of the
      alternatives, one per route of the reply, and the reply succeeds exactly when that route
      passes the response's fields. */
  lemma TransitReply(mode: Mode, data: Json, text: string, failure: string, show: Json -> string)
    ensures var r := TransitResponse(mode, Reply(200, data, text), failure, show);
      (!Truthy(data) ==> r.success && r.distance == 0 && r.error == Some("No public transport routes found"))
      && (r.best.Some? ==>
            r.success && data.Arr? && |r.alternatives| == |data.items| > 0 && r.best.value == r.alternatives[0]
            && ParseTransit(data.items[0], show) == r.best
            && r.distance == r.best.value.distance && r.duration == r.best.value.duration)
      && (Truthy(data) && data.Arr? && ParseAll(data.items, show).Some? ==>
            (r.success <==> Admitted(ParseAll(data.items, show).value[0])))
  {
  }
}

=== FILE: search_demo.dfy ===
/** The pure parts of the 2GIS Places API demonstration: the search parameters, what each
    result formatter shows for an item, and which items the summary shows. The formatters
    are modelled by the values each printed line carries, not by the layout of the text. */
module SearchDemo {
  import opened Wrappers
  import opened Text
  import opened Json

  // ---------------------------------------------------------------------------------------
  // Request parameters
  // ---------------------------------------------------------------------------------------

  /** The optional parameters whose values are truthy, in order. */
  function KeepTruthy(opts: seq<(string, Json)>): (r: seq<(string, Json)>)
    ensures |r| <= |opts|
    ensures forall x :: x in r <==> x in opts && Truthy(x.1)
    decreases |opts|
  {
    if |opts| == 0 then []
    else
      var rest := KeepTruthy(opts[1..]);
      assert forall x :: x in opts <==> x == opts[0] || x in opts[1..];
      if Truthy(opts[0].1) then [opts[0]] + rest else rest
  }

  /** Keeping the truthy parameters of two runs keeps those of each, in order. */
  lemma {:induction false} KeepTruthyConcat(a: seq<(string, Json)>, b: seq<(string, Json)>)
    ensures KeepTruthy(a + b) == KeepTruthy(a) + KeepTruthy(b)
    decreases |a|
  {
    if |a| > 0 {
      assert (a + b)[1..] == a[1..] + b;
      KeepTruthyConcat(a[1..], b);
    } else {
      assert a + b == b;
    }
  }

  /** The optional search parameters in the order `search` adds them. */
  function Optionals(regionId: Json, point: Json, radius: Json, location: Json, sort: Json, fields: Json,
                     objType: Json): seq<(string, Json)>
  {
    [("region_id", regionId), ("point", point), ("radius", radius), ("location", location), ("sort", sort),
     ("fields", fields), ("type", objType)]
  }

  /** `search`: the query and the page size always, then each optional parameter that is
      truthy; a radius of 0 or an empty text is not sent. */
  function SearchParams(query: string, pageSize: int, regionId: Json, point: Json, radius: Json, location: Json,
                        sort: Json, fields: Json, objType: Json): (r: seq<(string, Json)>)
    ensures |r| >= 2 && r[0] == ("q", Str(query)) && r[1] == ("page_size", Int(pageSize))
    ensures forall x :: x in r[2..] <==>
      x in Optionals(regionId, point, radius, location, sort, fields, objType) && Truthy(x.1)
  {
    Params(query, pageSize, Optionals(regionId, point, radius, location, sort, fields, objType))
  }

  /** The query and the page size, then the truthy entries of `opts`. */
  function Params(query: string, pageSize: int, opts: seq<(string, Json)>): (r: seq<(string, Json)>)
    ensures |r| >= 2 && r[0] == ("q", Str(query)) && r[1] == ("page_size", Int(pageSize))
    ensures forall x :: x in r[2..] <==> x in opts && Truthy(x.1)
  {
    var kept := KeepTruthy(opts);
    var r := [("q", Str(query)), ("page_size", Int(pageSize))] + kept;
    assert r[2..] == kept;
    r
  }

  /** Nothing is kept from parameters that are all falsy. */
  lemma {:induction false} KeepTruthyNone(opts: seq<(string, Json)>)
    requires forall i :: 0 <= i < |opts| ==> !Truthy(opts[i].1)
    ensures KeepTruthy(opts) == []
    decreases |opts|
  {
    if |opts| > 0 {
      KeepTruthyNone(opts[1..]);
    }
  }

  /** A parameter whose every entry is falsy is not kept. */
  lemma {:induction false} KeepTruthyDrops(opts: seq<(string, Json)>, key: string)
    requires forall i :: 0 <= i < |opts| && opts[i].0 == key ==> !Truthy(opts[i].1)
    ensures forall k :: 0 <= k < |KeepTruthy(opts)| ==> KeepTruthy(opts)[k].0 != key
    decreases |opts|
  {
    if |opts| > 0 {
      KeepTruthyDrops(opts[1..], key);
    }
  }

  /** A zero radius is never sent. */
  lemma ZeroRadiusOmitted(query: string, pageSize: int, regionId: Json, point: Json, location: Json,
                          sort: Json, fields: Json, objType: Json)
    ensures var r := SearchParams(query, pageSize, regionId, point, Int(0), location, sort, fields, objType);
      forall k :: 0 <= k < |r| ==> r[k].0 != "radius"
  {
    var opts := Optionals(regionId, point, Int(0), location, sort, fields, objType);
    forall i | 0 <= i < |opts| && opts[i].0 == "radius"
      ensures !Truthy(opts[i].1)
    {
      assert i == 2;
    }
    FalsyKeyOmitted(query, pageSize, opts, "radius");
  }

  /** An optional parameter that is falsy wherever it appears is not sent. */
  lemma FalsyKeyOmitted(query: string, pageSize: int, opts: seq<(string, Json)>, key: string)
    requires key != "q" && key != "page_size"
    requires forall i :: 0 <= i < |opts| && opts[i].0 == key ==> !Truthy(opts[i].1)
    ensures forall k :: 0 <= k < |Params(query, pageSize, opts)| ==> Params(query, pageSize, opts)[k].0 != key
  {
    KeepTruthyDrops(opts, key);
    KeyAbsent([("q", Str(query)), ("page_size", Int(pageSize))], KeepTruthy(opts), key);
  }

  /** A key found in neither of two parameter lists is not in their concatenation. */
  lemma KeyAbsent(a: seq<(string, Json)>, b: seq<(string, Json)>, key: string)
    requires forall k :: 0 <= k < |a| ==> a[k].0 != key
    requires forall k :: 0 <= k < |b| ==> b[k].0 != key
    ensures forall k :: 0 <= k < |a + b| ==> (a + b)[k].0 != key
  {
    forall k | 0 <= k < |a + b|
      ensures (a + b)[k].0 != key
    {
      if k >= |a| {
        assert (a + b)[k] == b[k - |a|];
      }
    }
  }

  /** With every optional parameter falsy only the query and the page size are sent. */
  lemma OnlyRequiredParams(query: string, pageSize: int, regionId: Json, point: Json, radius: Json,
                           location: Json, sort: Json, fields: Json, objType: Json)
    requires !Truthy(regionId) && !Truthy(point) && !Truthy(radius) && !Truthy(location)
    requires !Truthy(sort) && !Truthy(fields) && !Truthy(objType)
    ensures SearchParams(query, pageSize, regionId, point, radius, location, sort, fields, objType)
      == [("q", Str(query)), ("page_size", Int(pageSize))]
  {
    KeepTruthyNone(Optionals(regionId, point, radius, location, sort, fields, objType));
  }

  /** `lookup_by_id`: the id, then the fields when they are truthy. */
  function LookupParams(itemId: string, fields: Json): (r: seq<(string, Json)>)
    ensures |r| >= 1 && r[0] == ("id", Str(itemId))
    ensures |r| == 2 <==> Truthy(fields)
    ensures |r| == 2 ==> r[1] == ("fields", fields)
  {
    [("id", Str(itemId))] + KeepTruthy([("fields", fields)])
  }

  // ---------------------------------------------------------------------------------------
  // Formatters
  // ---------------------------------------------------------------------------------------

  /** The "Coordinates" line: the point's latitude and longitude, or none. */
  datatype Coords = NoCoords | Coords(lat: Json, lon: Json)

  /** What `format_item_basic` shows: the 1-based number, the name, the address, the point. */
  datatype BasicView = BasicView(number: int, name: Json, address: Json, coords: Coords)

  /** What `format_item_with_distance` shows; the distance in metres is `None` when it is
      not computed ("N/A"). */
  datatype DistanceView = DistanceView(number: int, name: Json, address: Json, coords: Coords, distance: Option<real>)

  /** What `format_item_detailed` shows: the shown schedule holds at most five day lines. */
  datatype DetailedView = DetailedView(number: int, name: Json, address: Json, coords: Coords, phone: Json,
                                       website: Json, status: string, schedule: seq<string>)

  const NotAvailable := Str("N/A")

  /** The basic formatter's address: the full address, else the short one, else a
      placeholder, each taken only when truthy. */
  function BasicAddress(item: Json): (r: Json)
    requires item.Obj?
    ensures Truthy(r)
    ensures Truthy(Get(item, "full_address_name", Str(""))) ==> r == Get(item, "full_address_name", Str(""))
    ensures !Truthy(Get(item, "full_address_name", Str(""))) && Truthy(Get(item, "address_name", Str("")))
      ==> r == Get(item, "address_name", Str(""))
    ensures !Truthy(Get(item, "full_address_name", Str(""))) && !Truthy(Get(item, "address_name", Str("")))
      ==> r == Str("Address not available")
  {
    Or(Get(item, "full_address_name", Str("")), Or(Get(item, "address_name", Str("")), Str("Address not available")))
  }

  /** The other formatters' address: the short address whenever the key is present, even
      when empty, else the full address whenever present, else "N/A". */
  function KeyedAddress(item: Json): (r: Json)
    requires item.Obj?
    ensures Has(item, "address_name") ==> r == Get(item, "address_name", Null)
    ensures !Has(item, "address_name") && Has(item, "full_address_name") ==> r == Get(item, "full_address_name", Null)
    ensures !Has(item, "address_name") && !Has(item, "full_address_name") ==> r == NotAvailable
  {
    Get(item, "address_name", Get(item, "full_address_name", NotAvailable))
  }

  /** An empty short address hides the full one in the keyed lookup but not in the basic one. */
  lemma AddressPrecedenceDiffers(item: Json)
    requires item.Obj? && Get(item, "address_name", Null) == Str("") && Has(item, "address_name")
    requires Truthy(Get(item, "full_address_name", Str("")))
    ensures KeyedAddress(item) == Str("")
    ensures BasicAddress(item) == Get(item, "full_address_name", Str("")) != Str("")
  {
  }

  /** The point line of the basic and detailed formatters: a truthy point shows its "lat"
      and "lon" ("N/A" when missing); `None` when the point is truthy but not a dict. */
  function PointCoords(item: Json): (r: Option<Coords>)
    requires item.Obj?
    ensures !Truthy(Get(item, "point", Obj([]))) <==> r == Some(NoCoords)
    ensures Truthy(Get(item, "point", Obj([]))) && Get(item, "point", Obj([])).Obj? ==>
      r == Some(Coords(Get(Get(item, "point", Obj([])), "lat", NotAvailable), Get(Get(item, "point", Obj([])), "lon", NotAvailable)))
    ensures r.None? <==> Truthy(Get(item, "point", Obj([]))) && !Get(item, "point", Obj([])).Obj?
  {
    var point := Get(item, "point", Obj([]));
    if !Truthy(point) then Some(NoCoords)
    else if !point.Obj? then None
    else Some(Coords(Get(point, "lat", NotAvailable), Get(point, "lon", NotAvailable)))
  }

  /** `format_item_basic`. */
  function FormatBasic(item: Json, index: int): (r: Option<BasicView>)
    requires item.Obj?
    ensures r.Some? <==> PointCoords(item).Some?
    ensures r.Some? ==> r.value.number == index + 1 && r.value.name == Get(item, "name", NotAvailable)
    ensures r.Some? ==> r.value.address == BasicAddress(item) && Truthy(r.value.address)
  {
    match PointCoords(item)
      case None => None
      case Some(coords) => Some(BasicView(index + 1, Get(item, "name", NotAvailable), BasicAddress(item), coords))
  }

  /** `format_item_with_distance`: the coordinates are shown when the point and both of its
      coordinates are truthy, and the distance when, in addition, both user coordinates are
      given; `distance` stands for the haversine formula (user latitude and longitude, then the
      item's). `None` where Python raises: a truthy point that is not a dict, or truthy item
      coordinates that are not numbers when the distance is computed. */
  function FormatWithDistance(item: Json, index: int, userLat: Option<real>, userLon: Option<real>,
                              distance: (real, real, real, real) -> real): (r: Option<DistanceView>)
    requires item.Obj?
    ensures r.Some? ==> r.value.number == index + 1 && r.value.address == KeyedAddress(item)
    ensures r.Some? ==> var point := Get(item, "point", Obj([]));
      (r.value.coords.Coords? <==>
        Truthy(point) && point.Obj? && Truthy(Get(point, "lat", Null)) && Truthy(Get(point, "lon", Null)))
    ensures r.Some? && r.value.coords.Coords? ==> var point := Get(item, "point", Obj([]));
      point.Obj? && r.value.coords == Coords(Get(point, "lat", Null), Get(point, "lon", Null))
    ensures r.Some? ==> (r.value.distance.Some? <==> r.value.coords.Coords? && userLat.Some? && userLon.Some?)
    ensures r.Some? && r.value.distance.Some? ==> IsNumber(r.value.coords.lat) && IsNumber(r.value.coords.lon)
    ensures r.Some? && r.value.distance.Some? ==>
      r.value.distance.value == distance(userLat.value, userLon.value, NumValue(r.value.coords.lat), NumValue(r.value.coords.lon))
  {
    var name := Get(item, "name", NotAvailable);
    var address := KeyedAddress(item);
    var point := Get(item, "point", Obj([]));
    if !Truthy(point) then Some(DistanceView(index + 1, name, address, NoCoords, None))
    else if !point.Obj? then None
    else
      var lat := Get(point, "lat", Null);
      var lon := Get(point, "lon", Null);
      if !(Truthy(lat) && Truthy(lon)) then Some(DistanceView(index + 1, name, address, NoCoords, None))
      else if userLat.None? || userLon.None? then Some(DistanceView(index + 1, name, address, Coords(lat, lon), None))
      else if !IsNumber(lat) || !IsNumber(lon) then None
      else
        Some(DistanceView(index + 1, name, address, Coords(lat, lon),
                          Some(distance(userLat.value, userLon.value, NumValue(lat), NumValue(lon)))))
  }

  // ---------------------------------------------------------------------------------------
  // Contacts
  // ---------------------------------------------------------------------------------------

  /** The contacts of every group, groups in order, as the nested `for` loops visit them;
      `None` when a group or a contact is not a dict, or a group's "contacts" is not
      iterable. An empty dict or text iterates nothing; a non-empty one yields keys or
      characters, whose `.get` raises. */
  function AllContacts(groups: seq<Json>): (r: Option<seq<Json>>)
    ensures r.Some? ==> forall i :: 0 <= i < |r.value| ==> r.value[i].Obj?
    ensures r.Some? ==> forall i :: 0 <= i < |groups| ==> groups[i].Obj?
    decreases |groups|
  {
    if |groups| == 0 then Some([])
    else if !groups[0].Obj? then None
    else
      match Iterate(Get(groups[0], "contacts", Arr([])))
        case Some(cs) =>
          var rest := AllContacts(groups[1..]);
          if rest.None? || exists i :: 0 <= i < |cs| && !cs[i].Obj? then None
          else
            assert forall i :: 1 <= i < |groups| ==> groups[1..][i - 1] == groups[i];
            Some(cs + rest.value)
        case None => None
  }

  /** The loop's update for one kind ("website" or "phone"): the value of a contact of that
      kind is taken while the kept value is still the text "N/A". */
  function Pick(contacts: seq<Json>, kind: string, kept: Json): (r: Json)
    requires forall i :: 0 <= i < |contacts| ==> contacts[i].Obj?
    decreases |contacts|
  {
    if |contacts| == 0 then kept
    else
      var c := contacts[0];
      var next := if Get(c, "type", Str("")) == Str(kind) && kept == NotAvailable then Get(c, "value", NotAvailable) else kept;
      Pick(contacts[1..], kind, next)
  }

  /** The contact a reader would call "the first of that kind": the first one of the kind whose
      value is not the text "N/A", or "N/A" when there is none. */
  function FirstOfKind(contacts: seq<Json>, kind: string): (r: Json)
    requires forall i :: 0 <= i < |contacts| ==> contacts[i].Obj?
    ensures r == NotAvailable || exists i :: (0 <= i < |contacts| && Get(contacts[i], "type", Str("")) == Str(kind)
      && Get(contacts[i], "value", NotAvailable) == r)
    decreases |contacts|
  {
    if |contacts| == 0 then NotAvailable
    else
      var c := contacts[0];
      if Get(c, "type", Str("")) == Str(kind) && Get(c, "value", NotAvailable) != NotAvailable then Get(c, "value", NotAvailable)
      else
        var r := FirstOfKind(contacts[1..], kind);
        assert forall i :: 1 <= i < |contacts| ==> contacts[1..][i - 1] == contacts[i];
        r
  }

  /** The loop keeps the first value of the kind that is not "N/A": a contact of the kind
      without a value does not stop a later one from being taken. */
  lemma {:induction false} PickIsFirstOfKind(contacts: seq<Json>, kind: string, kept: Json)
    requires forall i :: 0 <= i < |contacts| ==> contacts[i].Obj?
    ensures kept == NotAvailable ==> Pick(contacts, kind, kept) == FirstOfKind(contacts, kind)
    ensures kept != NotAvailable ==> Pick(contacts, kind, kept) == kept
    decreases |contacts|
  {
    if |contacts| > 0 {
      var c := contacts[0];
      var next := if Get(c, "type", Str("")) == Str(kind) && kept == NotAvailable then Get(c, "value", NotAvailable) else kept;
      PickIsFirstOfKind(contacts[1..], kind, next);
    }
  }

  // ---------------------------------------------------------------------------------------
  // Schedule
  // ---------------------------------------------------------------------------------------

  const DayOrder: seq<string> := ["Mon", "Tue", "Wed", "Thu", "Fri", "Sat", "Sun"]
  const DayNames: seq<string> := ["Monday", "Tuesday", "Wednesday", "Thursday", "Friday", "Saturday", "Sunday"]

  /** A day with a schedule entry whose working hours are truthy. */
  predicate Scheduled(schedule: Json, d: nat)
    requires schedule.Obj? && d < 7
  {
    Has(schedule, DayOrder[d]) && Get(schedule, DayOrder[d], Null).Obj?
    && Truthy(Get(Get(schedule, DayOrder[d], Null), "working_hours", Arr([])))
  }

  /** The scheduled days from day `d` on, in week order. */
  function ScheduledDays(schedule: Json, d: nat): (r: seq<nat>)
    requires schedule.Obj? && d <= 7
    ensures forall k :: 0 <= k < |r| ==> d <= r[k] < 7 && Scheduled(schedule, r[k])
    ensures forall k, l :: 0 <= k < l < |r| ==> r[k] < r[l]
    ensures forall e :: d <= e < 7 && Scheduled(schedule, e) ==> e in r
    decreases 7 - d
  {
    if d == 7 then []
    else if Scheduled(schedule, d) then [d] + ScheduledDays(schedule, d + 1)
    else ScheduledDays(schedule, d + 1)
  }

  /** One "from - to" range; a missing end shows as "??". */
  function RangeText(hours: Json, show: Json -> string): string
    requires hours.Obj?
  {
    Display(Get(hours, "from", Str("??")), show) + " - " + Display(Get(hours, "to", Str("??")), show)
  }

  /** The ranges of one day, in order. */
  function RangeTexts(hs: seq<Json>, show: Json -> string): (r: seq<string>)
    requires forall i :: 0 <= i < |hs| ==> hs[i].Obj?
    ensures |r| == |hs| && forall i :: 0 <= i < |hs| ==> r[i] == RangeText(hs[i], show)
    decreases |hs|
  {
    if |hs| == 0 then [] else [RangeText(hs[0], show)] + RangeTexts(hs[1..], show)
  }

  /** A scheduled day's line: its full name, then its ranges joined by ", "; `None` when a
      range is not a dict or the working hours are not a list. */
  function DayLine(schedule: Json, d: nat, show: Json -> string): (r: Option<string>)
    requires schedule.Obj? && d < 7 && Scheduled(schedule, d)
    ensures r.Some? ==> StartsWith(r.value, DayNames[d] + ": ")
  {
    match Get(Get(schedule, DayOrder[d], Null), "working_hours", Arr([]))
      case Arr(hs) =>
        if exists i :: 0 <= i < |hs| && !hs[i].Obj? then None
        else
          var line := DayNames[d] + ": " + Join(RangeTexts(hs, show), ", ");
          assert line[..|DayNames[d] + ": "|] == DayNames[d] + ": ";
          Some(line)
      case _ => None
  }

  /** The lines of the given scheduled days, in order. */
  function DayLines(schedule: Json, days: seq<nat>, show: Json -> string): (r: Option<seq<string>>)
    requires schedule.Obj?
    requires forall k :: 0 <= k < |days| ==> days[k] < 7 && Scheduled(schedule, days[k])
    ensures r.Some? ==> |r.value| == |days|
    ensures r.Some? ==> forall k :: 0 <= k < |days| ==> StartsWith(r.value[k], DayNames[days[k]] + ": ")
    decreases |days|
  {
    if |days| == 0 then Some([])
    else
      match DayLine(schedule, days[0], show)
        case None => None
        case Some(line) =>
          match DayLines(schedule, days[1..], show)
            case None => None
            case Some(rest) => Some([line] + rest)
  }

  /** The schedule lines: one per day with truthy working hours, Monday to Sunday; none for a
      falsy schedule. `None` where Python raises on a malformed schedule. A truthy schedule
      that is a list or a text is searched with `in`: it gives no line when no day name is
      in it, and raises on `schedule[day]` when one is. */
  function ScheduleLines(item: Json, show: Json -> string): (r: Option<seq<string>>)
    requires item.Obj?
    ensures !Truthy(Get(item, "schedule", Obj([]))) ==> r == Some([])
    ensures r.Some? && r.value != [] ==> Get(item, "schedule", Obj([])).Obj?
    ensures Truthy(Get(item, "schedule", Obj([]))) && !Get(item, "schedule", Obj([])).Obj? ==>
      (r.Some? <==> forall d :: 0 <= d < 7 ==> PyIn(DayOrder[d], Get(item, "schedule", Obj([]))) == Some(false))
    ensures Truthy(Get(item, "schedule", Obj([]))) && !Get(item, "schedule", Obj([])).Obj? && r.Some? ==> r.value == []
    ensures r.Some? && Truthy(Get(item, "schedule", Obj([]))) && Get(item, "schedule", Obj([])).Obj? ==>
      var days := ScheduledDays(Get(item, "schedule", Obj([])), 0);
      |r.value| == |days| && forall k :: 0 <= k < |days| ==> StartsWith(r.value[k], DayNames[days[k]] + ": ")
  {
    var schedule := Get(item, "schedule", Obj([]));
    if !Truthy(schedule) then Some([])
    else if !schedule.Obj? then
      if forall d :: 0 <= d < 7 ==> PyIn(DayOrder[d], schedule) == Some(false) then Some([]) else None
    else if exists d :: 0 <= d < 7 && Has(schedule, DayOrder[d]) && !Get(schedule, DayOrder[d], Null).Obj? then None
    else DayLines(schedule, ScheduledDays(schedule, 0), show)
  }

  /** `format_item_detailed`: the first website and phone (see `PickIsFirstOfKind`), the
      status "See schedule below" exactly when some day has a schedule line, and the first
      five of those lines. */
  function FormatDetailed(item: Json, index: int, show: Json -> string): (r: Option<DetailedView>)
    requires item.Obj?
    ensures r.Some? ==> r.value.number == index + 1 && r.value.address == KeyedAddress(item)
    ensures r.Some? ==> ScheduleLines(item, show).Some?
    ensures r.Some? ==> (r.value.status == "See schedule below" <==> ScheduleLines(item, show).value != [])
    ensures r.Some? ==> (r.value.status == "Unknown" <==> ScheduleLines(item, show).value == [])
    ensures r.Some? ==> |r.value.schedule| <= 5 && r.value.schedule == Take(ScheduleLines(item, show).value, 5)
    ensures r.Some? ==> (Iterate(Get(item, "contact_groups", Arr([]))).Some?
      && AllContacts(Iterate(Get(item, "contact_groups", Arr([]))).value).Some?)
    ensures r.Some? ==> var contacts := AllContacts(Iterate(Get(item, "contact_groups", Arr([]))).value).value;
      r.value.website == FirstOfKind(contacts, "website") && r.value.phone == FirstOfKind(contacts, "phone")
    ensures (Iterate(Get(item, "contact_groups", Arr([]))).Some?
      && AllContacts(Iterate(Get(item, "contact_groups", Arr([]))).value).Some?
      && ScheduleLines(item, show).Some? && PointCoords(item).Some?) ==> r.Some?
  {
    var groups := Get(item, "contact_groups", Arr([]));
    match Iterate(groups)
      case None => None
      case Some(gs) =>
        match AllContacts(gs)
          case None => None
          case Some(contacts) =>
            PickIsFirstOfKind(contacts, "website", NotAvailable);
            PickIsFirstOfKind(contacts, "phone", NotAvailable);
            var website := Pick(contacts, "website", NotAvailable);
            var phone := Pick(contacts, "phone", NotAvailable);
            match ScheduleLines(item, show)
              case None => None
              case Some(lines) =>
                match PointCoords(item)
                  case None => None
                  case Some(coords) =>
                    Some(DetailedView(index + 1, Get(item, "name", NotAvailable), KeyedAddress(item), coords, phone,
                                      website, if lines != [] then "See schedule below" else "Unknown", Take(lines, 5)))
  }

  /** An empty dict of contact groups iterates nothing, so both contacts stay "N/A"; a
      schedule that is a list without day names gives no line and the status "Unknown". */
  lemma NonListContainers(show: Json -> string)
    ensures var item := Obj([("contact_groups", Obj([]))]);
      FormatDetailed(item, 0, show).Some?
      && FormatDetailed(item, 0, show).value.website == NotAvailable
      && FormatDetailed(item, 0, show).value.phone == NotAvailable
    ensures var item := Obj([("schedule", Arr([Str("x")]))]);
      FormatDetailed(item, 0, show).Some? && FormatDetailed(item, 0, show).value.status == "Unknown"
  {
    var item := Obj([("contact_groups", Obj([]))]);
    LookupAt(item.fields, 0, "contact_groups");
    assert Keys([]) == [];
    assert |Iterate(Obj([])).value| == 0;
    var listed := Obj([("schedule", Arr([Str("x")]))]);
    LookupAt(listed.fields, 0, "schedule");
    assert forall d :: 0 <= d < 7 ==> PyIn(DayOrder[d], Arr([Str("x")])) == Some(false);
  }

  // ---------------------------------------------------------------------------------------
  // Summary
  // ---------------------------------------------------------------------------------------

  /** What `print_results_summary` prints: nothing for falsy data; otherwise the reported
      total, the "Showing" count `min(len(items), max_results)`, and the items it formats,
      `items[:max_results]`. */
  datatype Summary = NoData | Summary(total: Json, showing: int, shown: seq<Json>)

  /** `items[:n]` with Python's slice semantics, negative `n` counting from the end. */
  function Head(items: seq<Json>, n: int): (r: seq<Json>)
    ensures r == items[..SliceBound(|items|, n)]
  {
    items[..SliceBound(|items|, n)]
  }

  function SummaryOf(data: Json, maxResults: int): (r: Option<Summary>)
    ensures !Truthy(data) <==> r == Some(NoData)
    ensures r.Some? && r.value.Summary? ==> (data.Obj? && Get(data, "result", Obj([])).Obj?
      && Iterate(Get(Get(data, "result", Obj([])), "items", Arr([]))).Some?)
    ensures r.Some? && r.value.Summary? ==>
      var items := Get(Get(data, "result", Obj([])), "items", Arr([]));
      r.value.total == Get(Get(data, "result", Obj([])), "total", Int(0))
      && r.value.showing <= Len(items) && r.value.showing <= maxResults
      && (r.value.showing == Len(items) || r.value.showing == maxResults)
      && (!Truthy(items) ==> r.value.shown == [])
      && (Truthy(items) ==> items.Arr? || items.Str?)
      && (Truthy(items) ==> |r.value.shown| <= Len(items) && r.value.shown == Iterate(items).value[..|r.value.shown|])
      && (Truthy(items) && 0 <= maxResults ==> |r.value.shown| == r.value.showing)
    ensures (Truthy(data) && data.Obj? && Get(data, "result", Obj([])).Obj?
      && Get(Get(data, "result", Obj([])), "items", Arr([])).Arr?) ==> r.Some? && r.value.Summary?
  {
    if !Truthy(data) then Some(NoData)
    else if !data.Obj? then None
    else
      var result := Get(data, "result", Obj([]));
      if !result.Obj? then None
      else
        var items := Get(result, "items", Arr([]));
        if !(items.Arr? || items.Str? || items.Obj?) then None
        else
          var showing := if Len(items) < maxResults then Len(items) else maxResults;
          var total := Get(result, "total", Int(0));
          if !Truthy(items) then Some(Summary(total, showing, []))
          else if items.Obj? then None
          else Some(Summary(total, showing, Head(Iterate(items).value, maxResults)))
  }
}

=== FILE: seqs.dfy ===
/** Small facts about sequence concatenation and membership, stated once so that proofs over
    large states can cite them instead of asking the solver for extensionality. */
module Seqs {

  lemma EmptyAppend<T>(x: seq<T>, p: T)
    requires x == []
    ensures x + [p] == [p]
  {
  }

  lemma SingleAppend<T>(x: seq<T>, p: T, q: T)
    requires x == [p]
    ensures x + [q] == [p, q]
  {
  }

  lemma AppendPair<T>(x: seq<T>, p: T, q: T)
    ensures (x + [p]) + [q] == x + [p, q]
  {
  }

  lemma AppendInit<T>(x: seq<T>, p: T)
    ensures |x + [p]| == |x| + 1 && (x + [p])[..|x|] == x && (x + [p])[|x|] == p
  {
  }

  lemma HeadTail<T>(s: seq<T>)
    requires |s| > 0
    ensures [s[0]] + s[1..] == s
  {
  }

  /** A property of every element of `[x] + xs` holds of `x` and of every element of `xs`. */
  lemma AllOfCons<T>(all: seq<T>, x: T, xs: seq<T>, p: T -> bool)
    requires all == [x] + xs
    requires forall i :: 0 <= i < |all| ==> p(all[i])
    ensures p(x)
    ensures forall i :: 0 <= i < |xs| ==> p(xs[i])
  {
    assert all[0] == x;
    forall i | 0 <= i < |xs|
      ensures p(xs[i])
    {
      assert all[i + 1] == xs[i];
    }
  }

  lemma ConcatAssoc<T>(a: seq<T>, b: seq<T>, c: seq<T>)
    ensures a + (b + c) == (a + b) + c
  {
  }

  lemma InRight<T>(a: seq<T>, b: seq<T>, x: T)
    requires x in b
    ensures x in a + b
  {
    var p :| 0 <= p < |b| && b[p] == x;
    assert (a + b)[|a| + p] == x;
  }

  lemma InLeft<T>(a: seq<T>, b: seq<T>, x: T)
    requires x in a
    ensures x in a + b
  {
    var p :| 0 <= p < |a| && a[p] == x;
    assert (a + b)[p] == x;
  }

  /** `[f(x) for x in s]`. */
  function Map<A, B>(f: A -> B, s: seq<A>): (r: seq<B>)
    ensures |r| == |s| && forall i :: 0 <= i < |s| ==> r[i] == f(s[i])
  {
    seq(|s|, i requires 0 <= i < |s| => f(s[i]))
  }

  lemma MapConcat<A, B>(f: A -> B, a: seq<A>, b: seq<A>)
    ensures Map(f, a + b) == Map(f, a) + Map(f, b)
  {
    var l, r := Map(f, a + b), Map(f, a) + Map(f, b);
    forall i | 0 <= i < |l| ensures l[i] == r[i] {
      if i < |a| {
        assert (a + b)[i] == a[i];
      } else {
        assert (a + b)[i] == b[i - |a|];
      }
    }
  }
}

=== FILE: sorting.dfy ===
/** Python's stable `sorted(xs, key=...)` on sequences, for numeric keys (ints are reals here)
    and for text keys, which are mapped into the reals in Python's string order. */
module Sorting {
  import opened Seqs

  predicate SortedBy<T>(s: seq<T>, key: T -> real) {
    forall i, j :: 0 <= i < j < |s| ==> key(s[i]) <= key(s[j])
  }

  /** Inserts `x` after every element whose key is at most `key(x)`. */
  function Insert<T>(x: T, s: seq<T>, key: T -> real): (r: seq<T>)
    requires SortedBy(s, key)
    ensures SortedBy(r, key)
    ensures multiset(r) == multiset(s) + multiset{x}
    ensures |r| == |s| + 1
    decreases |s|
  {
    if |s| == 0 then [x]
    else if key(x) < key(s[0]) then [x] + s
    else
      var rest := Insert(x, s[1..], key);
      InsertBehindHead(x, s, rest, key);
      [s[0]] + rest
  }

  /** The head of a sorted `s` with key at most `key(x)` stays in front of `x` inserted into
      the tail. */
  lemma InsertBehindHead<T>(x: T, s: seq<T>, rest: seq<T>, key: T -> real)
    requires SortedBy(s, key) && |s| > 0 && key(s[0]) <= key(x)
    requires SortedBy(rest, key) && multiset(rest) == multiset(s[1..]) + multiset{x}
    ensures SortedBy([s[0]] + rest, key)
    ensures multiset([s[0]] + rest) == multiset(s) + multiset{x}
  {
    assert s == [s[0]] + s[1..];
    HeadBelow(s, key);
    forall i | 0 <= i < |rest|
      ensures key(s[0]) <= key(rest[i])
    {
      assert rest[i] in multiset(rest);
    }
    var r := [s[0]] + rest;
    forall i, j | 0 <= i < j < |r|
      ensures key(r[i]) <= key(r[j])
    {
      assert r[j] == rest[j - 1];
      if i > 0 { assert r[i] == rest[i - 1]; }
    }
  }

  /** In a sorted sequence no later element has a smaller key than the head. */
  lemma HeadBelow<T>(s: seq<T>, key: T -> real)
    requires SortedBy(s, key) && |s| > 0
    ensures forall y :: y in multiset(s[1..]) ==> key(s[0]) <= key(y)
  {
    forall y | y in multiset(s[1..]) ensures key(s[0]) <= key(y) {
      var j :| 0 <= j < |s[1..]| && s[1..][j] == y;
      assert s[j + 1] == y;
    }
  }

  /** `sorted(s, key=key)`: insertion sort, each later element placed after equal keys. */
  function SortBy<T>(s: seq<T>, key: T -> real): (r: seq<T>)
    ensures SortedBy(r, key)
    ensures multiset(r) == multiset(s)
    ensures |r| == |s|
    decreases |s|
  {
    if |s| == 0 then []
    else
      assert s == s[..|s| - 1] + [s[|s| - 1]];
      Insert(s[|s| - 1], SortBy(s[..|s| - 1], key), key)
  }

  /** The elements of `s` whose key is `k`, in their order in `s`. */
  function WithKey<T>(s: seq<T>, key: T -> real, k: real): seq<T>
    decreases |s|
  {
    if |s| == 0 then []
    else WithKey(s[..|s| - 1], key, k) + (if key(s[|s| - 1]) == k then [s[|s| - 1]] else [])
  }

  lemma {:induction false} WithKeyConcat<T>(a: seq<T>, b: seq<T>, key: T -> real, k: real)
    ensures WithKey(a + b, key, k) == WithKey(a, key, k) + WithKey(b, key, k)
    decreases |b|
  {
    if |b| == 0 {
      assert a + b == a;
    } else {
      assert (a + b)[..|a + b| - 1] == a + b[..|b| - 1];
      WithKeyConcat(a, b[..|b| - 1], key, k);
    }
  }

  lemma WithKeySingle<T>(x: T, key: T -> real, k: real)
    ensures WithKey([x], key, k) == (if key(x) == k then [x] else [])
  {
    assert [x][..0] == [];
  }

  lemma {:induction false} WithKeyNone<T>(s: seq<T>, key: T -> real, k: real)
    requires forall i :: 0 <= i < |s| ==> key(s[i]) != k
    ensures WithKey(s, key, k) == []
    decreases |s|
  {
    if |s| > 0 {
      WithKeyNone(s[..|s| - 1], key, k);
    }
  }

  /** Inserting `x` appends it to the run of its own key and leaves every other run alone. */
  lemma {:induction false} InsertWithKey<T>(x: T, s: seq<T>, key: T -> real, k: real)
    requires SortedBy(s, key)
    ensures WithKey(Insert(x, s, key), key, k)
         == WithKey(s, key, k) + (if key(x) == k then [x] else [])
    decreases |s|, 1
  {
    if |s| == 0 {
      WithKeySingle(x, key, k);
    } else if key(x) < key(s[0]) {
      InsertBefore(x, s, key, k);
    } else {
      InsertAfterHead(x, s, key, k);
    }
  }

  lemma InsertBefore<T>(x: T, s: seq<T>, key: T -> real, k: real)
    requires SortedBy(s, key) && |s| > 0 && key(x) < key(s[0])
    ensures WithKey(Insert(x, s, key), key, k)
         == WithKey(s, key, k) + (if key(x) == k then [x] else [])
  {
    assert Insert(x, s, key) == [x] + s;
    WithKeyConcat([x], s, key, k);
    WithKeySingle(x, key, k);
    if key(x) == k {
      WithKeyNone(s, key, k);
    }
  }

  lemma {:induction false} InsertAfterHead<T>(x: T, s: seq<T>, key: T -> real, k: real)
    requires SortedBy(s, key) && |s| > 0 && key(s[0]) <= key(x)
    ensures WithKey(Insert(x, s, key), key, k)
         == WithKey(s, key, k) + (if key(x) == k then [x] else [])
    decreases |s|, 0
  {
    var tail := Insert(x, s[1..], key);
    var e := if key(x) == k then [x] else [];
    assert Insert(x, s, key) == [s[0]] + tail;
    TailSorted(s, key);
    InsertWithKey(x, s[1..], key, k);
    WithKeyConcat([s[0]], tail, key, k);
    assert s == [s[0]] + s[1..];
    WithKeyConcat([s[0]], s[1..], key, k);
    ConcatAssoc(WithKey([s[0]], key, k), WithKey(s[1..], key, k), e);
  }

  lemma TailSorted<T>(s: seq<T>, key: T -> real)
    requires SortedBy(s, key) && |s| > 0
    ensures SortedBy(s[1..], key)
  {
    forall i, j | 0 <= i < j < |s[1..]| ensures key(s[1..][i]) <= key(s[1..][j]) {
      assert s[1..][i] == s[i + 1] && s[1..][j] == s[j + 1];
    }
  }


  /** Stability: for every key, the elements carrying it keep their relative order. */
  lemma {:induction false} SortByStable<T>(s: seq<T>, key: T -> real, k: real)
    ensures WithKey(SortBy(s, key), key, k) == WithKey(s, key, k)
    decreases |s|
  {
    if |s| > 0 {
      SortByStable(s[..|s| - 1], key, k);
      InsertWithKey(s[|s| - 1], SortBy(s[..|s| - 1], key), key, k);
    }
  }

  /** The head of a sorted permutation has the least key of the input. */
  lemma SortByHeadIsMin<T>(s: seq<T>, key: T -> real)
    requires |s| > 0
    ensures forall i :: 0 <= i < |s| ==> key(SortBy(s, key)[0]) <= key(s[i])
  {
    var r := SortBy(s, key);
    forall i | 0 <= i < |s|
      ensures key(r[0]) <= key(s[i])
    {
      assert s[i] in multiset(s);
      assert s[i] in multiset(r);
      var j :| 0 <= j < |r| && r[j] == s[i];
    }
  }

  /** Sorting keeps exactly the elements it was given. */
  lemma SortByMembers<T>(s: seq<T>, key: T -> real)
    ensures forall i :: 0 <= i < |SortBy(s, key)| ==> SortBy(s, key)[i] in s
  {
    var r := SortBy(s, key);
    forall i | 0 <= i < |r|
      ensures r[i] in s
    {
      assert r[i] in multiset(r);
    }
  }

  /** An element whose key is at least every key of a sorted sequence goes at its end. */
  /** A property every element has survives sorting. */
  lemma SortByKeeps<T>(s: seq<T>, key: T -> real, p: T -> bool)
    requires forall i :: 0 <= i < |s| ==> p(s[i])
    ensures forall i :: 0 <= i < |SortBy(s, key)| ==> p(SortBy(s, key)[i])
  {
    SortByMembers(s, key);
    var r := SortBy(s, key);
    forall i | 0 <= i < |r|
      ensures p(r[i])
    {
      var j :| 0 <= j < |s| && s[j] == r[i];
    }
  }

  lemma {:induction false} InsertLast<T>(x: T, s: seq<T>, key: T -> real)
    requires SortedBy(s, key)
    requires forall i :: 0 <= i < |s| ==> key(s[i]) <= key(x)
    ensures Insert(x, s, key) == s + [x]
    decreases |s|
  {
    if |s| > 0 {
      InsertLast(x, s[1..], key);
      assert s == [s[0]] + s[1..];
    }
  }

  /** A sequence already in key order is returned as it is. */
  lemma {:induction false} SortBySorted<T>(s: seq<T>, key: T -> real)
    requires SortedBy(s, key)
    ensures SortBy(s, key) == s
    decreases |s|
  {
    if |s| > 0 {
      var front := s[..|s| - 1];
      SortBySorted(front, key);
      InsertLast(s[|s| - 1], front, key);
      assert front + [s[|s| - 1]] == s;
    }
  }
  // ---------------------------------------------------------------------------------------
  // Text keys
  // ---------------------------------------------------------------------------------------

  /** Python's `a < b` on strings: the first differing character decides, and a proper prefix
      comes first. */
  predicate TextLess(a: string, b: string)
    decreases |a|
  {
    |b| > 0 && (|a| == 0 || a[0] < b[0] || (a[0] == b[0] && TextLess(a[1..], b[1..])))
  }

  /** One more than the largest character code, plus one. */
  const TextBase: real := 1114113.0

  /** A number in [0, 1) for a string: its characters as digits in base `TextBase`, each one
      more than its code, so that a prefix ranks below its extensions. */
  function TextRank(s: string): (r: real)
    ensures 0.0 <= r < 1.0
    decreases |s|
  {
    if |s| == 0 then 0.0
    else
      assert s[0] as int <= 0x10FFFF;
      ((s[0] as int + 1) as real + TextRank(s[1..])) / TextBase
  }

  /** The rank orders strings as Python's `<` does. */
  lemma {:induction false} TextRankOrders(a: string, b: string)
    requires TextLess(a, b)
    ensures TextRank(a) < TextRank(b)
    decreases |a|
  {
    if |a| > 0 && a[0] == b[0] {
      TextRankOrders(a[1..], b[1..]);
    }
  }

  /** Any two different strings are ordered one way or the other. */
  lemma {:induction false} TextLessTotal(a: string, b: string)
    requires a != b
    ensures TextLess(a, b) || TextLess(b, a)
    decreases |a|
  {
    if |a| > 0 && |b| > 0 && a[0] == b[0] {
      assert a == [a[0]] + a[1..] && b == [b[0]] + b[1..];
      TextLessTotal(a[1..], b[1..]);
    }
  }

  /** Different strings have different ranks, so equal ranks mean equal text. */
  lemma TextRankInjective(a: string, b: string)
    requires TextRank(a) == TextRank(b)
    ensures a == b
  {
    if a != b {
      TextLessTotal(a, b);
      if TextLess(a, b) { TextRankOrders(a, b); } else { TextRankOrders(b, a); }
    }
  }
}

=== FILE: supabase_mock.dfy ===
/** The in-memory stand-in for the Supabase client: one users dictionary shared by every
    table handle, and query builders that record an insert, a select and one equality
    filter until `execute`. */
module SupabaseMock {
  import opened Wrappers
  import opened Json

  /** An entry of `users_store`: the row under the decimal text of its id. */
  datatype Entry = Entry(id: int, row: Json)

  /** `users_store`, in insertion order. */
  type Store = seq<Entry>

  /** What `_data` holds: nothing yet, the inserted row, or the selected rows. */
  datatype Data = NoData | Inserted(row: Json) | Selected(rows: seq<Json>)

  /** A `MockTable` builder. */
  datatype Table = Table(name: string, data: Data, filter: Option<(string, Json)>, isInsert: bool)

  /** `client.table(name)`. */
  function OpenTable(name: string): (t: Table)
    ensures t.name == name && t.data.NoData? && t.filter.None? && !t.isInsert
  {
    Table(name, NoData, None, false)
  }

  /** `max([int(k) for k in users_store.keys()] + [0])`. */
  function MaxId(store: Store): (r: int)
    ensures r >= 0
    ensures forall i :: 0 <= i < |store| ==> store[i].id <= r
    ensures r == 0 || exists i :: 0 <= i < |store| && store[i].id == r
    decreases |store|
  {
    if |store| == 0 then 0
    else
      var m := MaxId(store[..|store| - 1]);
      assert forall i :: 0 <= i < |store| - 1 ==> store[..|store| - 1][i] == store[i];
      if store[|store| - 1].id > m then store[|store| - 1].id else m
  }

  /** `users_store.values()`. */
  function Values(store: Store): (r: seq<Json>)
    ensures |r| == |store| && forall i :: 0 <= i < |store| ==> r[i] == store[i].row
  {
    seq(|store|, i requires 0 <= i < |store| => store[i].row)
  }

  /** `insert(data)`: only the "users" table stores anything; the row gets the next id. */
  function Insert(store: Store, t: Table, data: Json): (r: (Store, Table))
    requires data.Obj?
    ensures t.name != "users" ==> r == (store, t)
    ensures t.name == "users" ==>
      var id := MaxId(store) + 1;
      r.0 == store + [Entry(id, Put(data, "id", Int(id)))]
      && r.1 == t.(data := Inserted(Put(data, "id", Int(id))), isInsert := true)
  {
    if t.name != "users" then (store, t)
    else
      var id := MaxId(store) + 1;
      var row := Put(data, "id", Int(id));
      (store + [Entry(id, row)], t.(data := Inserted(row), isInsert := true))
  }

  /** `select(*args)`: every stored row, whatever the arguments. */
  function Select(store: Store, t: Table): (r: Table)
    ensures r == t.(data := Selected(Values(store)))
  {
    t.(data := Selected(Values(store)))
  }

  /** `eq(field, value)`: the filter replaces any earlier one. */
  function Eq(t: Table, field: string, value: Json): (r: Table)
    ensures r.filter == Some((field, value)) && r.name == t.name && r.data == t.data && r.isInsert == t.isInsert
  {
    t.(filter := Some((field, value)))
  }

  /** `u.get(field) == value`. */
  predicate FieldIs(u: Json, field: string, value: Json)
  {
    u.Obj? && Get(u, field, Null) == value
  }

  /** `[u for u in users_store.values() if u.get(field) == value]`. */
  function Matching(rows: seq<Json>, field: string, value: Json): (r: seq<Json>)
    ensures |r| <= |rows|
    ensures forall u :: u in r <==> u in rows && FieldIs(u, field, value)
    decreases |rows|
  {
    if |rows| == 0 then []
    else
      var before := Matching(rows[..|rows| - 1], field, value);
      var last := rows[|rows| - 1];
      assert rows == rows[..|rows| - 1] + [last];
      if FieldIs(last, field, value) then before + [last] else before
  }

  /** Python truthiness of `_data`. */
  predicate DataTruthy(d: Data)
  {
    (d.Inserted? && Truthy(d.row)) || (d.Selected? && d.rows != [])
  }

  /** `_data` as a value. */
  function DataValue(d: Data): Json
  {
    match d
      case NoData => Null
      case Inserted(row) => row
      case Selected(rows) => Arr(rows)
  }

  /** `execute().data`. */
  function Execute(store: Store, t: Table): (r: seq<Json>)
    ensures t.filter.Some? ==> r == Matching(Values(store), t.filter.value.0, t.filter.value.1)
    ensures t.filter.None? && t.isInsert && DataTruthy(t.data) ==> r == [DataValue(t.data)]
    ensures t.filter.None? && !(t.isInsert && DataTruthy(t.data)) ==> r == (if t.data.Selected? then t.data.rows else [])
  {
    if t.filter.Some? then Matching(Values(store), t.filter.value.0, t.filter.value.1)
    else if t.isInsert && DataTruthy(t.data) then [DataValue(t.data)]
    else if t.data.Selected? then t.data.rows
    else []
  }

  // ---------------------------------------------------------------------------------------
  // Properties
  // ---------------------------------------------------------------------------------------

  /** Ids are positive and strictly increasing in insertion order, and every row carries its
      own id under "id". */
  predicate WellFormed(store: Store)
  {
    (forall i :: 0 <= i < |store| ==> store[i].id >= 1 && FieldIs(store[i].row, "id", Int(store[i].id)))
    && (forall i, j :: 0 <= i < j < |store| ==> store[i].id < store[j].id)
  }

  /** An insert into "users" takes 1 + the largest id (1 when empty), keeps the store well
      formed, and the new id is larger than every earlier one. */
  lemma InsertAssignsNextId(store: Store, data: Json)
    requires data.Obj? && WellFormed(store)
    ensures var r := Insert(store, OpenTable("users"), data);
      |r.0| == |store| + 1 && WellFormed(r.0)
      && r.0[|store|].id == (if |store| == 0 then 1 else store[|store| - 1].id + 1)
      && forall i :: 0 <= i < |store| ==> store[i].id < r.0[|store|].id
  {
    var r := Insert(store, OpenTable("users"), data);
    var id := MaxId(store) + 1;
    assert r.0[|store|] == Entry(id, Put(data, "id", Int(id)));
    if |store| > 0 {
      assert MaxId(store) == store[|store| - 1].id;
    }
  }

  /** An insert into another table stores nothing, and its `execute` returns nothing. */
  lemma InsertElsewhereStoresNothing(store: Store, name: string, data: Json)
    requires data.Obj? && name != "users"
    ensures Insert(store, OpenTable(name), data).0 == store
    ensures Execute(store, Insert(store, OpenTable(name), data).1) == []
  {
  }

  /** `insert(data).execute()` returns exactly the stored row. */
  lemma InsertThenExecute(store: Store, data: Json)
    requires data.Obj?
    ensures var r := Insert(store, OpenTable("users"), data);
      Execute(r.0, r.1) == [r.0[|store|].row]
  {
    var r := Insert(store, OpenTable("users"), data);
    var row := Put(data, "id", Int(MaxId(store) + 1));
    assert row.fields != [];
  }

  /** On a builder that has inserted, a later `select` without a filter makes `execute`
      wrap the whole row list as one element. */
  lemma InsertThenSelectNests(store: Store, data: Json)
    requires data.Obj?
    ensures var r := Insert(store, OpenTable("users"), data);
      Execute(r.0, Select(r.0, r.1)) == [Arr(Values(r.0))]
  {
    var r := Insert(store, OpenTable("users"), data);
    assert Values(r.0) != [];
  }

  /** Only the last `eq` counts. */
  lemma LastFilterWins(store: Store, t: Table, f1: string, v1: Json, f2: string, v2: Json)
    ensures Execute(store, Eq(Eq(t, f1, v1), f2, v2)) == Execute(store, Eq(t, f2, v2))
    ensures Execute(store, Eq(t, f2, v2)) == Matching(Values(store), f2, v2)
  {
  }

  /** A row just inserted is the one row found under its id. */
  lemma InsertedRowFoundById(store: Store, data: Json)
    requires data.Obj? && WellFormed(store)
    ensures var r := Insert(store, OpenTable("users"), data);
      var id := r.0[|store|].id;
      Execute(r.0, Eq(Select(r.0, OpenTable("users")), "id", Int(id))) == [r.0[|store|].row]
  {
    InsertAssignsNextId(store, data);
    var r := Insert(store, OpenTable("users"), data);
    var id := r.0[|store|].id;
    var rows := Values(r.0);
    assert rows == Values(store) + [r.0[|store|].row];
    assert rows[..|rows| - 1] == Values(store);
    OnlyNewHasId(store, id);
  }

  /** No earlier row carries an id at least as large as a fresh one. */
  lemma {:induction false} OnlyNewHasId(store: Store, id: int)
    requires WellFormed(store) && forall i :: 0 <= i < |store| ==> store[i].id < id
    ensures Matching(Values(store), "id", Int(id)) == []
    decreases |store|
  {
    if |store| > 0 {
      var init := store[..|store| - 1];
      assert Values(store)[..|store| - 1] == Values(init);
      assert WellFormed(init);
      OnlyNewHasId(init, id);
      assert FieldIs(store[|store| - 1].row, "id", Int(store[|store| - 1].id));
    }
  }

  // ---------------------------------------------------------------------------------------
  // `get_supabase`
  // ---------------------------------------------------------------------------------------

  datatype Client = Real(url: string, key: string) | Mock

  /** `get_supabase()` with the library's availability and the two settings as inputs;
      `slot` is `_mock_client`, `None` until the first fallback, holding the mock's users. */
  function GetSupabase(available: bool, url: string, key: string, slot: Option<Store>): (r: (Client, Option<Store>))
    ensures available && url != "" && key != "" ==> r == (Real(url, key), slot)
    ensures !(available && url != "" && key != "") ==> r.0 == Mock && r.1.Some?
    ensures slot.Some? ==> r.1 == slot
  {
    if available && url != "" && key != "" then (Real(url, key), slot)
    else if slot.None? then (Mock, Some([]))
    else (Mock, slot)
  }

  /** Every fallback after the first returns the same mock, with whatever users it holds. */
  lemma MockIsShared(available: bool, url: string, key: string, users: Store)
    requires !(available && url != "" && key != "")
    ensures GetSupabase(available, url, key, None) == (Mock, Some([]))
    ensures GetSupabase(available, url, key, Some(users)) == (Mock, Some(users))
  {
  }
}

=== FILE: text.dfy ===
/** Python's string operations, on `seq<char>`, as the modelled programs use them. */
module Text {

  /** Python's `str.isspace` on one character (the ASCII and Latin-1 white space it recognises). */
  predicate IsSpace(c: char) {
    c == ' ' || c == '\t' || c == '\n' || c == '\r' || c == '\U{000B}' || c == '\U{000C}'
    || ('\U{001C}' <= c <= '\U{001F}') || c == '\U{0085}' || c == '\U{00A0}'
  }

  predicate NoSpace(s: string) {
    forall i :: 0 <= i < |s| ==> !IsSpace(s[i])
  }

  predicate AllSpace(s: string) {
    forall i :: 0 <= i < |s| ==> IsSpace(s[i])
  }

  /** `s.lstrip()`: drops the leading white space, keeps the rest. */
  function LStrip(s: string): (r: string)
    ensures |r| <= |s| && r == s[|s| - |r|..]
    ensures |r| > 0 ==> !IsSpace(r[0])
    ensures forall i :: 0 <= i < |s| - |r| ==> IsSpace(s[i])
    decreases |s|
  {
    if |s| > 0 && IsSpace(s[0]) then
      var r := LStrip(s[1..]);
      assert forall i :: 1 <= i < |s| ==> s[i] == s[1..][i - 1];
      r
    else s
  }

  /** `s.rstrip()`: drops the trailing white space, keeps the rest. */
  function RStrip(s: string): (r: string)
    ensures |r| <= |s| && r == s[..|r|]
    ensures |r| > 0 ==> !IsSpace(r[|r| - 1])
    ensures forall i :: |r| <= i < |s| ==> IsSpace(s[i])
    decreases |s|
  {
    if |s| > 0 && IsSpace(s[|s| - 1]) then RStrip(s[..|s| - 1]) else s
  }

  /** `s.strip()`. */
  function Strip(s: string): string {
    RStrip(LStrip(s))
  }

  /** The stripped text has no white space at either end, is empty exactly when the input is
      all white space, and leaves text without surrounding white space unchanged. */
  lemma StripShape(s: string)
    ensures var r := Strip(s);
      |r| <= |s|
      && (|r| > 0 ==> !IsSpace(r[0]) && !IsSpace(r[|r| - 1]))
      && (r == [] <==> AllSpace(s))
      && ((|s| == 0 || (!IsSpace(s[0]) && !IsSpace(s[|s| - 1]))) ==> r == s)
  {
    var l := LStrip(s);
    var r := RStrip(l);
    if |r| > 0 {
      assert r[0] == l[0];
    }
    if |l| > 0 {
      assert l[0] == s[|s| - |l|];
    }
  }

  /** Stripping twice is stripping once. */
  lemma StripIdempotent(s: string)
    ensures Strip(Strip(s)) == Strip(s)
  {
    StripShape(s);
    StripShape(Strip(s));
  }

  // ---------------------------------------------------------------------------------------
  // Case mapping (ASCII and the basic Cyrillic block, the alphabets the programs handle)
  // ---------------------------------------------------------------------------------------

  predicate IsUpperChar(c: char) {
    ('A' <= c <= 'Z') || ('\U{0400}' <= c <= '\U{042F}')
  }

  predicate IsLowerChar(c: char) {
    ('a' <= c <= 'z') || ('\U{0430}' <= c <= '\U{045F}')
  }

  /** `c.lower()` for one character. */
  function LowerChar(c: char): (r: char)
    ensures IsUpperChar(c) ==> IsLowerChar(r)
    ensures !IsUpperChar(c) ==> r == c
  {
    if 'A' <= c <= 'Z' then (c as int + 32) as char
    else if '\U{0410}' <= c <= '\U{042F}' then (c as int + 32) as char
    else if '\U{0400}' <= c <= '\U{040F}' then (c as int + 80) as char
    else c
  }

  /** `c.upper()` for one character. */
  function UpperChar(c: char): (r: char)
    ensures IsLowerChar(c) ==> IsUpperChar(r)
    ensures !IsLowerChar(c) ==> r == c
  {
    if 'a' <= c <= 'z' then (c as int - 32) as char
    else if '\U{0430}' <= c <= '\U{044F}' then (c as int - 32) as char
    else if '\U{0450}' <= c <= '\U{045F}' then (c as int - 80) as char
    else c
  }

  predicate IsCased(c: char) {
    IsUpperChar(c) || IsLowerChar(c)
  }

  /** `s.title()`: a cased letter is upper-cased when it starts a run of cased letters and
      lower-cased otherwise; everything else is kept. */
  function Title(s: string): (r: string)
    ensures |r| == |s|
  {
    TitleAfter(s, false)
  }

  function TitleAfter(s: string, prevCased: bool): (r: string)
    ensures |r| == |s|
    ensures |s| > 0 && IsLowerChar(s[0]) && !prevCased ==> IsUpperChar(r[0])
    decreases |s|
  {
    if |s| == 0 then []
    else [if prevCased then LowerChar(s[0]) else UpperChar(s[0])] + TitleAfter(s[1..], IsCased(s[0]))
  }

  /** Lower and upper case are inverse on the letters they move. */
  lemma CaseRoundTrip(c: char)
    ensures IsUpperChar(c) ==> UpperChar(LowerChar(c)) == c
    ensures IsLowerChar(c) ==> LowerChar(UpperChar(c)) == c
    ensures LowerChar(LowerChar(c)) == LowerChar(c)
    ensures UpperChar(UpperChar(c)) == UpperChar(c)
    ensures LowerChar(UpperChar(c)) == LowerChar(c)
    ensures UpperChar(LowerChar(c)) == UpperChar(c)
  {
  }

  /** `s.lower()`. */
  function Lower(s: string): (r: string)
    ensures |r| == |s| && forall i :: 0 <= i < |s| ==> r[i] == LowerChar(s[i])
  {
    seq(|s|, i requires 0 <= i < |s| => LowerChar(s[i]))
  }

  /** Lowering a text lowers its first character and the rest. */
  lemma LowerCons(c: char, t: string)
    ensures Lower([c] + t) == [LowerChar(c)] + Lower(t)
  {
    var a := Lower([c] + t);
    var b := [LowerChar(c)] + Lower(t);
    assert |a| == |b|;
    forall i | 0 <= i < |a| ensures a[i] == b[i] {
      if i > 0 { assert ([c] + t)[i] == t[i - 1]; }
    }
  }

  /** `s.upper()`. */
  function Upper(s: string): (r: string)
    ensures |r| == |s| && forall i :: 0 <= i < |s| ==> r[i] == UpperChar(s[i])
  {
    seq(|s|, i requires 0 <= i < |s| => UpperChar(s[i]))
  }

  /** Case conversions are idempotent, and each absorbs the other. */
  lemma CaseIdempotent(s: string)
    ensures Lower(Lower(s)) == Lower(s) && Upper(Upper(s)) == Upper(s)
    ensures Upper(Lower(s)) == Upper(s) && Lower(Upper(s)) == Lower(s)
  {
    forall i | 0 <= i < |s|
      ensures Lower(Lower(s))[i] == Lower(s)[i] && Upper(Upper(s))[i] == Upper(s)[i]
      ensures Upper(Lower(s))[i] == Upper(s)[i] && Lower(Upper(s))[i] == Lower(s)[i]
    {
      CaseRoundTrip(s[i]);
    }
  }

  /** White space is untouched by case mapping, so stripping and lowering commute. */
  lemma LowerKeepsSpace(c: char)
    ensures IsSpace(LowerChar(c)) <==> IsSpace(c)
  {
  }

  lemma {:induction false} StripLowerCommute(s: string)
    ensures Strip(Lower(s)) == Lower(Strip(s))
  {
    LStripLower(s);
    RStripLower(LStrip(s));
  }

  lemma {:induction false} LStripLower(s: string)
    ensures LStrip(Lower(s)) == Lower(LStrip(s))
    decreases |s|
  {
    if |s| > 0 {
      LowerKeepsSpace(s[0]);
      if IsSpace(s[0]) {
        assert Lower(s)[1..] == Lower(s[1..]);
        LStripLower(s[1..]);
      }
    }
  }

  lemma {:induction false} RStripLower(s: string)
    ensures RStrip(Lower(s)) == Lower(RStrip(s))
    decreases |s|
  {
    if |s| > 0 {
      var t := Lower(s);
      LowerKeepsSpace(s[|s| - 1]);
      if IsSpace(s[|s| - 1]) {
        LowerPrefix(s, |s| - 1);
        RStripStep(t);
        RStripStep(s);
        RStripLower(s[..|s| - 1]);
      } else {
        RStripStop(t);
        RStripStop(s);
      }
    }
  }

  /** A trailing blank is dropped and the rest stripped. */
  lemma RStripStep(s: string)
    requires |s| > 0 && IsSpace(s[|s| - 1])
    ensures RStrip(s) == RStrip(s[..|s| - 1])
  {
  }

  /** A string ending in a non-blank is its own `rstrip`. */
  lemma RStripStop(s: string)
    requires |s| > 0 && !IsSpace(s[|s| - 1])
    ensures RStrip(s) == s
  {
  }

  /** Lowering commutes with taking a prefix. */
  lemma LowerPrefix(s: string, n: nat)
    requires n <= |s|
    ensures Lower(s)[..n] == Lower(s[..n])
  {
  }

  // ---------------------------------------------------------------------------------------
  // Searching
  // ---------------------------------------------------------------------------------------

  /** `pat` occurs in `s` starting at index `i`. */
  predicate OccursAt(s: string, pat: string, i: int) {
    0 <= i && i + |pat| <= |s| && s[i..i + |pat|] == pat
  }

  /** `s.find(pat, i)`: the first index at or after `i` where `pat` occurs, or -1. */
  function FindFrom(s: string, pat: string, i: nat): (r: int)
    ensures r == -1 || (i <= r && OccursAt(s, pat, r))
    ensures r == -1 ==> forall j :: i <= j ==> !OccursAt(s, pat, j)
    ensures r >= 0 ==> forall j :: i <= j < r ==> !OccursAt(s, pat, j)
    decreases |s| - i
  {
    if i + |pat| > |s| then -1
    else if s[i..i + |pat|] == pat then i
    else FindFrom(s, pat, i + 1)
  }

  /** The first occurrence at or after `i` is found. */
  lemma FindFromIs(s: string, pat: string, i: nat, k: nat)
    requires i <= k && OccursAt(s, pat, k)
    requires forall j :: i <= j < k ==> !OccursAt(s, pat, j)
    ensures FindFrom(s, pat, i) == k
  {
  }

  /** `s.find(pat)`. */
  function Find(s: string, pat: string): int {
    FindFrom(s, pat, 0)
  }

  /** `pat in s`. */
  predicate Contains(s: string, pat: string) {
    Find(s, pat) >= 0
  }

  /** A pattern occurs where it is appended. */
  lemma OccursAtEnd(a: string, pat: string)
    ensures OccursAt(a + pat, pat, |a|)
  {
    assert (a + pat)[|a|..|a| + |pat|] == pat;
  }

  /** Containment means an occurrence at some index. */
  lemma ContainsAt(s: string, pat: string, i: int)
    requires OccursAt(s, pat, i)
    ensures Contains(s, pat)
  {
  }

  /** `s.rfind(pat)`: the last index where `pat` occurs, or -1. */
  function RFind(s: string, pat: string): (r: int)
    ensures r == -1 || OccursAt(s, pat, r)
    ensures r == -1 ==> forall j :: !OccursAt(s, pat, j)
    ensures forall j :: r < j ==> !OccursAt(s, pat, j)
  {
    RFindBelow(s, pat, |s|)
  }

  /** The last occurrence starting at or below `i`. */
  function RFindBelow(s: string, pat: string, i: int): (r: int)
    requires i <= |s|
    ensures r == -1 || (r <= i && OccursAt(s, pat, r))
    ensures forall j :: r < j <= i ==> !OccursAt(s, pat, j)
    ensures r == -1 ==> forall j :: j <= i ==> !OccursAt(s, pat, j)
    decreases i + 1
  {
    if i < 0 then -1
    else if i + |pat| <= |s| && s[i..i + |pat|] == pat then i
    else RFindBelow(s, pat, i - 1)
  }

  /** `s.startswith(p)`. */
  predicate StartsWith(s: string, p: string) {
    |p| <= |s| && s[..|p|] == p
  }

  // ---------------------------------------------------------------------------------------
  // Slicing
  // ---------------------------------------------------------------------------------------

  /** Python's normalisation of a slice bound: negative counts from the end, then clamped. */
  function SliceBound(n: nat, x: int): (b: nat)
    ensures b <= n
    ensures 0 <= x <= n ==> b == x
    ensures x < 0 && x + n >= 0 ==> b == x + n
  {
    if x < 0 then (if x + n < 0 then 0 else x + n) else if x > n then n else x
  }

  /** `s[a:b]` with Python's slice semantics. */
  function Slice(s: string, a: int, b: int): (r: string)
    ensures |r| <= |s|
  {
    var lo := SliceBound(|s|, a);
    var hi := SliceBound(|s|, b);
    if lo < hi then s[lo..hi] else []
  }

  /** `s[:n]` for a non-negative `n`. */
  function Take<T>(s: seq<T>, n: nat): (r: seq<T>)
    ensures |r| == (if n < |s| then n else |s|)
    ensures r == s[..|r|]
  {
    if n < |s| then s[..n] else s
  }

  // ---------------------------------------------------------------------------------------
  // Splitting and joining
  // ---------------------------------------------------------------------------------------

  /** `sep.join(parts)`. */
  function Join(parts: seq<string>, sep: string): string
    decreases |parts|
  {
    if |parts| == 0 then []
    else if |parts| == 1 then parts[0]
    else parts[0] + sep + Join(parts[1..], sep)
  }

  /** `s.split(sep)` for a non-empty separator. */
  function SplitOn(s: string, sep: string): (parts: seq<string>)
    requires |sep| > 0
    ensures |parts| >= 1
    ensures Join(parts, sep) == s
    decreases |s|
  {
    var i := Find(s, sep);
    if i < 0 then [s]
    else
      var rest := SplitOn(s[i + |sep|..], sep);
      assert s == s[..i] + sep + s[i + |sep|..] by {
        assert s[i..i + |sep|] == sep;
      }
      [s[..i]] + rest
  }

  /** A text without the separator is one piece. */
  lemma SplitWithoutSeparator(s: string, sep: string)
    requires |sep| > 0 && !Contains(s, sep)
    ensures SplitOn(s, sep) == [s]
  {
  }

  /** `c not in s`. */
  predicate Lacks(s: string, c: char) {
    forall i :: 0 <= i < |s| ==> s[i] != c
  }

  /** Splitting undoes joining when no piece holds the separator's first character. */
  lemma {:induction false} SplitJoin(pieces: seq<string>, sep: string)
    requires |sep| > 0 && |pieces| > 0
    requires forall k :: 0 <= k < |pieces| ==> Lacks(pieces[k], sep[0])
    ensures SplitOn(Join(pieces, sep), sep) == pieces
    decreases |pieces|
  {
    var p := pieces[0];
    assert Lacks(p, sep[0]);
    if |pieces| == 1 {
      assert forall j :: 0 <= j ==> !OccursAt(p, sep, j) by {
        forall j | 0 <= j && j + |sep| <= |p| ensures !OccursAt(p, sep, j) {
          assert p[j] != sep[0];
          assert p[j..j + |sep|][0] == p[j];
        }
      }
      SplitWithoutSeparator(p, sep);
    } else {
      var rest := pieces[1..];
      var s := Join(pieces, sep);
      assert s == p + sep + Join(rest, sep);
      assert OccursAt(s, sep, |p|) by {
        assert s[|p|..|p| + |sep|] == sep;
      }
      forall j | 0 <= j < |p| ensures !OccursAt(s, sep, j) {
        assert s[j] == p[j] != sep[0];
        if j + |sep| <= |s| {
          assert s[j..j + |sep|][0] == s[j];
        }
      }
      var i := Find(s, sep);
      assert i == |p|;
      assert s[..i] == p;
      assert s[i + |sep|..] == Join(rest, sep);
      assert forall k :: 0 <= k < |rest| ==> Lacks(rest[k], sep[0]) by {
        forall k | 0 <= k < |rest| ensures Lacks(rest[k], sep[0]) {
          assert rest[k] == pieces[k + 1];
        }
      }
      SplitJoin(rest, sep);
    }
  }

  /** Stripping removes characters but adds none. */
  lemma StripLacks(s: string, c: char)
    requires Lacks(s, c)
    ensures Lacks(Strip(s), c)
  {
    var l := LStrip(s);
    assert forall k :: 0 <= k < |l| ==> l[k] == s[|s| - |l| + k];
    var r := RStrip(l);
    assert forall k :: 0 <= k < |r| ==> r[k] == l[k];
  }

  /** A stripped non-empty text has no white space at either end. */
  lemma StrippedEnds(s: string)
    requires Strip(s) == s && |s| > 0
    ensures !IsSpace(s[0]) && !IsSpace(s[|s| - 1])
  {
    StripShape(s);
  }

  /** A text that starts and ends with a non-space character is its own strip. */
  lemma StripUnchanged(s: string)
    requires |s| > 0 && !IsSpace(s[0]) && !IsSpace(s[|s| - 1])
    ensures Strip(s) == s
  {
    StripShape(s);
  }

  /** Splitting on one character leaves that character in no piece. */
  lemma {:induction false} SplitOnLacks(s: string, sep: string)
    requires |sep| == 1
    ensures forall k :: 0 <= k < |SplitOn(s, sep)| ==> Lacks(SplitOn(s, sep)[k], sep[0])
    decreases |s|
  {
    var parts := SplitOn(s, sep);
    var i := Find(s, sep);
    if i < 0 {
      forall j | 0 <= j < |s| ensures s[j] != sep[0] {
        assert !OccursAt(s, sep, j);
        assert s[j..j + 1] == [s[j]];
      }
    } else {
      forall j | 0 <= j < i ensures s[j] != sep[0] {
        assert !OccursAt(s, sep, j);
        assert s[j..j + 1] == [s[j]];
      }
      assert Lacks(s[..i], sep[0]);
      SplitOnLacks(s[i + |sep|..], sep);
      assert parts == [s[..i]] + SplitOn(s[i + |sep|..], sep);
    }
  }

  /** A joined text starts with its first piece and ends with its last. */
  lemma {:induction false} JoinEnds(parts: seq<string>, sep: string)
    requires |parts| > 0
    ensures var j := Join(parts, sep);
      |parts[0]| <= |j| && j[..|parts[0]|] == parts[0]
      && |parts[|parts| - 1]| <= |j| && j[|j| - |parts[|parts| - 1]|..] == parts[|parts| - 1]
    decreases |parts|
  {
    if |parts| > 1 {
      JoinEnds(parts[1..], sep);
      var rest := Join(parts[1..], sep);
      assert Join(parts, sep) == parts[0] + sep + rest;
      assert parts[1..][|parts[1..]| - 1] == parts[|parts| - 1];
    }
  }

  /** `s.replace(pat, rep)` for a non-empty `pat`: every occurrence, left to right. */
  function ReplaceAll(s: string, pat: string, rep: string): string
    requires |pat| > 0
  {
    Join(SplitOn(s, pat), rep)
  }

  /** Replacing something absent changes nothing; replacing a text by itself changes nothing. */
  lemma ReplaceIdentity(s: string, pat: string, rep: string)
    requires |pat| > 0
    ensures !Contains(s, pat) ==> ReplaceAll(s, pat, rep) == s
    ensures ReplaceAll(s, pat, pat) == s
  {
    if !Contains(s, pat) {
      SplitWithoutSeparator(s, pat);
    }
  }

  /** The longest prefix of `s` without white space. */
  function Word(s: string): (w: string)
    ensures |w| <= |s| && w == s[..|w|] && NoSpace(w)
    ensures |w| < |s| ==> IsSpace(s[|w|])
    decreases |s|
  {
    if |s| == 0 || IsSpace(s[0]) then [] else [s[0]] + Word(s[1..])
  }

  /** A text that starts with a non-space character starts with a word. */
  lemma WordNonEmpty(t: string)
    requires |t| > 0 && !IsSpace(t[0])
    ensures |Word(t)| > 0
  {
  }

  /** `s.split()`: the maximal runs of non-white-space characters. */
  function SplitWs(s: string): (words: seq<string>)
    decreases |s|
  {
    var t := LStrip(s);
    if |t| == 0 then []
    else
      var w := Word(t);
      WordNonEmpty(t);
      [w] + SplitWs(t[|w|..])
  }

  /** Every word of a split is non-empty and free of white space. */
  lemma {:induction false} SplitWsWords(s: string)
    ensures forall k :: 0 <= k < |SplitWs(s)| ==> |SplitWs(s)[k]| > 0 && NoSpace(SplitWs(s)[k])
    decreases |s|
  {
    var t := LStrip(s);
    if |t| > 0 {
      var w := Word(t);
      WordNonEmpty(t);
      var rest := SplitWs(t[|w|..]);
      SplitWsWords(t[|w|..]);
      var words := SplitWs(s);
      assert words == [w] + rest;
      forall k | 0 <= k < |words| ensures |words[k]| > 0 && NoSpace(words[k]) {
        if k > 0 { assert words[k] == rest[k - 1]; }
      }
    }
  }

  /** The first word of a text that starts with a word `a` is `a`. */
  lemma {:induction false} WordPrefix(a: string, rest: string)
    requires NoSpace(a) && (rest == [] || IsSpace(rest[0]))
    ensures Word(a + rest) == a
    decreases |a|
  {
    if |a| > 0 {
      assert (a + rest)[1..] == a[1..] + rest;
      WordPrefix(a[1..], rest);
    } else {
      assert a + rest == rest;
    }
  }

  /** A leading word is split off whole. */
  lemma SplitWsWord(a: string, rest: string)
    requires |a| > 0 && NoSpace(a) && (rest == [] || IsSpace(rest[0]))
    ensures SplitWs(a + rest) == [a] + SplitWs(rest)
  {
    var t := a + rest;
    assert LStrip(t) == t;
    WordPrefix(a, rest);
    assert t[|a|..] == rest;
  }

  /** Two words separated by one space split into those two words. */
  lemma SplitWsPair(a: string, b: string)
    requires |a| > 0 && |b| > 0 && NoSpace(a) && NoSpace(b)
    ensures SplitWs(a + " " + b) == [a, b]
  {
    SplitWsPairHead(a, b);
    SplitWsSpace(b);
    SplitWsAlone(b);
  }

  lemma SplitWsPairHead(a: string, b: string)
    requires |a| > 0 && NoSpace(a)
    ensures SplitWs(a + " " + b) == [a] + SplitWs(" " + b)
  {
    var rest := " " + b;
    assert a + " " + b == a + rest;
    SplitWsWord(a, rest);
  }

  /** One word splits into itself. */
  lemma SplitWsAlone(b: string)
    requires |b| > 0 && NoSpace(b)
    ensures SplitWs(b) == [b]
  {
    assert b + [] == b;
    WordPrefix(b, []);
    assert Word(b) == b;
    assert LStrip(b) == b;
    assert b[|b|..] == [];
  }

  /** A space in front of a word does not change the split. */
  lemma SplitWsSpace(b: string)
    requires |b| > 0 && !IsSpace(b[0])
    ensures SplitWs(" " + b) == SplitWs(b)
  {
    assert (" " + b)[1..] == b;
    assert LStrip(" " + b) == LStrip(b) == b;
  }

  /** A text of white space alone has no words. */
  lemma SplitWsAllSpace(s: string)
    requires AllSpace(s)
    ensures SplitWs(s) == []
  {
  }

  /** Splitting on white space never yields more words than characters. */
  lemma {:induction false} SplitWsCount(s: string)
    ensures |SplitWs(s)| <= |s|
    decreases |s|
  {
    var t := LStrip(s);
    if |t| > 0 {
      var w := Word(t);
      SplitWsCount(t[|w|..]);
    }
  }

  // ---------------------------------------------------------------------------------------
  // Character classes
  // ---------------------------------------------------------------------------------------

  predicate IsDigit(c: char) {
    '0' <= c <= '9'
  }

  predicate IsAsciiLetter(c: char) {
    ('a' <= c <= 'z') || ('A' <= c <= 'Z')
  }

  /** Letters and digits as `str.isalnum` sees them in the alphabets modelled here. */
  predicate IsAlnumChar(c: char) {
    IsDigit(c) || IsAsciiLetter(c) || ('\U{0400}' <= c <= '\U{0481}') || ('\U{048A}' <= c <= '\U{04FF}')
  }

  /** `s.isalnum()`: non-empty and every character a letter or digit. */
  predicate IsAlnum(s: string) {
    |s| > 0 && forall i :: 0 <= i < |s| ==> IsAlnumChar(s[i])
  }

  /** `s.replace(c, "")` for a single character `c`. */
  function RemoveChar(s: string, c: char): (r: string)
    ensures |r| <= |s|
    ensures forall i :: 0 <= i < |r| ==> r[i] != c
    ensures forall i :: 0 <= i < |s| && s[i] != c ==> s[i] in r
    ensures forall i :: 0 <= i < |r| ==> r[i] in s
    decreases |s|
  {
    if |s| == 0 then []
    else if s[0] == c then RemoveChar(s[1..], c)
    else [s[0]] + RemoveChar(s[1..], c)
  }

  /** Removing a character from a text removes it from the first character and the rest. */
  lemma RemoveCharCons(c: char, t: string, x: char)
    ensures RemoveChar([c] + t, x) == (if c == x then RemoveChar(t, x) else [c] + RemoveChar(t, x))
  {
    assert ([c] + t)[0] == c && ([c] + t)[1..] == t;
  }

}

=== FILE: wkt.dfy ===
/** Reading coordinates out of WKT geometry text, as the 2GIS clients do it. Number parsing
    (`float(...)`) is a parameter: a partial function from a token to a real. */
module Wkt {
  import opened Wrappers
  import opened Text
  import opened Seqs

  /** A `[lon, lat]` pair. */
  datatype Point = Point(lon: real, lat: real)

  /** `float(text)`, or `None` where Python raises `ValueError`. */
  type FloatParser = string -> Option<real>

  // ---------------------------------------------------------------------------------------
  // Pairs
  // ---------------------------------------------------------------------------------------

  /** One `"lon lat"` piece: the first two white-space separated tokens, when there are at
      least two and both read as numbers. */
  function PairOf(piece: string, parse: FloatParser): Option<Point>
  {
    var parts := SplitWs(Strip(piece));
    if |parts| >= 2 && parse(parts[0]).Some? && parse(parts[1]).Some? then
      Some(Point(parse(parts[0]).value, parse(parts[1]).value))
    else None
  }

  /** The pairs of the pieces that read as pairs, in order; the others are dropped. */
  function PairsOf(pieces: seq<string>, parse: FloatParser): (r: seq<Point>)
    ensures |r| <= |pieces|
    decreases |pieces|
  {
    if |pieces| == 0 then []
    else
      var last := pieces[|pieces| - 1];
      PairsOf(pieces[..|pieces| - 1], parse)
        + (match PairOf(last, parse) case Some(p) => [p] case None => [])
  }

  /** The pairs of a comma-separated coordinate list. */
  function Pairs(text: string, parse: FloatParser): seq<Point>
  {
    PairsOf(SplitOn(text, ","), parse)
  }

  // ---------------------------------------------------------------------------------------
  // The three regular expressions of `parse_wkt`
  // ---------------------------------------------------------------------------------------

  /** `word` (upper-case letters) occurs at `i`, compared case-insensitively. */
  predicate WordAt(s: string, i: nat, word: string)
  {
    i + |word| <= |s| && forall k :: 0 <= k < |word| ==> UpperChar(s[i + k]) == word[k]
  }

  /** The first index at or after `j` that is not white space (`\s*`). */
  function SkipSpace(s: string, j: nat): (r: nat)
    ensures j <= r && (r < |s| ==> !IsSpace(s[r]))
    ensures forall k :: j <= k < r && k < |s| ==> IsSpace(s[k])
    decreases |s| - j
  {
    if j < |s| && IsSpace(s[j]) then SkipSpace(s, j + 1) else j
  }

  /** `WORD\s*\(([^)]+)\)` tried at index `i`: the text between the parenthesis and the first
      closing one, when it is not empty. For `POINT\s*\(\s*([^\)]+)\s*\)` the group may lack
      some leading white space of this text; it is stripped before use, so the difference
      never shows. */
  function GroupAt(s: string, i: nat, word: string): (r: Option<string>)
    ensures r.Some? ==> |r.value| > 0 && Lacks(r.value, ')')
  {
    if !WordAt(s, i, word) then None
    else
      var j := SkipSpace(s, i + |word|);
      if j < |s| && s[j] == '(' then
        var k := FindFrom(s, ")", j + 1);
        if k > j + 1 then
          assert forall m :: j + 1 <= m < k ==> s[m] != ')' by {
            forall m | j + 1 <= m < k ensures s[m] != ')' {
              assert !OccursAt(s, ")", m);
              assert s[m..m + 1] == [s[m]];
            }
          }
          Some(s[j + 1..k])
        else None
      else None
  }

  /** `re.search(WORD...)`: the group of the leftmost match at or after `i`. */
  function Search(s: string, i: nat, word: string): (r: Option<string>)
    ensures r.None? ==> forall k :: i <= k <= |s| ==> GroupAt(s, k, word).None?
    decreases |s| + 1 - i
  {
    if i > |s| then None
    else match GroupAt(s, i, word)
      case Some(g) => Some(g)
      case None => Search(s, i + 1, word)
  }

  /** The first index at or after `j` holding a parenthesis, or `|s|`. */
  function NextParen(s: string, j: nat): (r: nat)
    ensures j <= r && (j <= |s| ==> r <= |s|)
    ensures r < |s| ==> s[r] == '(' || s[r] == ')'
    ensures forall k :: j <= k < r && k < |s| ==> s[k] != '(' && s[k] != ')'
    decreases |s| - j
  {
    if j >= |s| || s[j] == '(' || s[j] == ')' then j else NextParen(s, j + 1)
  }

  /** `re.findall(r'\(([^()]+)\)', s[i:])`: the non-empty innermost parenthesised texts, left
      to right. */
  function Groups(s: string, i: nat): (r: seq<string>)
    decreases |s| - i
  {
    if i >= |s| then []
    else if s[i] == '(' then
      var k := NextParen(s, i + 1);
      if k < |s| && s[k] == ')' && k > i + 1 then [s[i + 1..k]] + Groups(s, k + 1)
      else Groups(s, i + 1)
    else Groups(s, i + 1)
  }

  function PairsOfGroups(groups: seq<string>, parse: FloatParser): seq<Point>
    decreases |groups|
  {
    if |groups| == 0 then [] else Pairs(groups[0], parse) + PairsOfGroups(groups[1..], parse)
  }

  /** `parse_wkt(wkt)`: a readable `POINT(...)` gives its one pair; otherwise the first
      `LINESTRING(...)` gives its readable pairs; otherwise every innermost parenthesised list
      does. */
  function ParseWkt(wkt: string, parse: FloatParser): (r: seq<Point>)
    ensures wkt == [] ==> r == []
  {
    if wkt == [] then []
    else
      var pm := Search(wkt, 0, "POINT");
      var parts := if pm.Some? then SplitWs(Strip(pm.value)) else [];
      if |parts| >= 2 && parse(parts[0]).Some? && parse(parts[1]).Some? then
        [Point(parse(parts[0]).value, parse(parts[1]).value)]
      else match Search(wkt, 0, "LINESTRING")
        case Some(g) => Pairs(g, parse)
        case None => PairsOfGroups(Groups(wkt, 0), parse)
  }

  // ---------------------------------------------------------------------------------------
  // Round trips
  // ---------------------------------------------------------------------------------------

  /** A number as the API writes it: a non-empty token with no white space, comma or
      parenthesis. */
  predicate Token(t: string)
  {
    |t| > 0 && NoSpace(t) && Lacks(t, ',') && Lacks(t, '(') && Lacks(t, ')')
  }

  /** The text of one coordinate pair. */
  function PairText(lon: string, lat: string): string
  {
    lon + " " + lat
  }

  /** Coordinate tokens that read back as the given points. */
  predicate Writes(lons: seq<string>, lats: seq<string>, pts: seq<Point>, parse: FloatParser)
  {
    |lons| == |lats| == |pts|
    && forall k :: 0 <= k < |pts| ==>
         Token(lons[k]) && Token(lats[k])
         && parse(lons[k]) == Some(pts[k].lon) && parse(lats[k]) == Some(pts[k].lat)
  }

  function PairTexts(lons: seq<string>, lats: seq<string>): (r: seq<string>)
    requires |lons| == |lats|
    ensures |r| == |lons|
    ensures forall k :: 0 <= k < |r| ==> r[k] == PairText(lons[k], lats[k])
    decreases |lons|
  {
    if |lons| == 0 then [] else PairTexts(lons[..|lons| - 1], lats[..|lats| - 1]) + [PairText(lons[|lons| - 1], lats[|lats| - 1])]
  }

  lemma PairTextReads(lon: string, lat: string, p: Point, parse: FloatParser)
    requires Token(lon) && Token(lat) && parse(lon) == Some(p.lon) && parse(lat) == Some(p.lat)
    ensures PairOf(PairText(lon, lat), parse) == Some(p)
  {
    var t := PairText(lon, lat);
    StripPair(lon, lat);
    SplitWsPair(lon, lat);
    assert SplitWs(Strip(t)) == [lon, lat];
  }

  /** The text of a pair has nothing to strip. */
  lemma StripPair(lon: string, lat: string)
    requires Token(lon) && Token(lat)
    ensures Strip(PairText(lon, lat)) == PairText(lon, lat)
  {
    var t := PairText(lon, lat);
    assert t[0] == lon[0] && t[|t| - 1] == lat[|lat| - 1];
    StripShape(t);
  }

  /** Written pairs read back as the points they were written from. */
  lemma {:induction false} PairsOfTexts(lons: seq<string>, lats: seq<string>, pts: seq<Point>, parse: FloatParser)
    requires Writes(lons, lats, pts, parse)
    ensures PairsOf(PairTexts(lons, lats), parse) == pts
    decreases |pts|
  {
    if |pts| > 0 {
      var n := |pts| - 1;
      var head, last := pts[..n], pts[n];
      assert pts == head + [last];
      WritesPrefix(lons, lats, pts, parse);
      PairsOfTexts(lons[..n], lats[..n], pts[..n], parse);
      PairTextsSnoc(lons, lats);
      PairTextReads(lons[n], lats[n], pts[n], parse);
      PairsOfSnoc(PairTexts(lons[..n], lats[..n]), PairText(lons[n], lats[n]), parse);
    }
  }

  lemma PairTextsSnoc(lons: seq<string>, lats: seq<string>)
    requires |lons| == |lats| > 0
    ensures var n := |lons| - 1;
      PairTexts(lons, lats) == PairTexts(lons[..n], lats[..n]) + [PairText(lons[n], lats[n])]
  {
  }

  lemma WritesPrefix(lons: seq<string>, lats: seq<string>, pts: seq<Point>, parse: FloatParser)
    requires Writes(lons, lats, pts, parse) && |pts| > 0
    ensures var n := |pts| - 1;
      Writes(lons[..n], lats[..n], pts[..n], parse)
      && Token(lons[n]) && Token(lats[n]) && parse(lons[n]) == Some(pts[n].lon) && parse(lats[n]) == Some(pts[n].lat)
  {
  }

  /** Adding a piece adds its pair, if it reads as one. */
  lemma PairsOfSnoc(pieces: seq<string>, p: string, parse: FloatParser)
    ensures PairsOf(pieces + [p], parse)
         == PairsOf(pieces, parse) + (match PairOf(p, parse) case Some(q) => [q] case None => [])
  {
    assert (pieces + [p])[..|pieces|] == pieces;
  }

  /** The text of a pair has no comma, and no parenthesis. */
  lemma PairTextLacks(lon: string, lat: string, c: char)
    requires Token(lon) && Token(lat) && (c == ',' || c == '(' || c == ')')
    ensures Lacks(PairText(lon, lat), c)
  {
    var t := PairText(lon, lat);
    forall i | 0 <= i < |t| ensures t[i] != c {
      if i < |lon| { assert t[i] == lon[i]; }
      else if i > |lon| { assert t[i] == lat[i - |lon| - 1]; }
    }
  }

  /** Joining with a separator free of `c` keeps a text free of `c`. */
  lemma {:induction false} JoinLacks(pieces: seq<string>, sep: string, c: char)
    requires Lacks(sep, c) && forall k :: 0 <= k < |pieces| ==> Lacks(pieces[k], c)
    ensures Lacks(Join(pieces, sep), c)
    decreases |pieces|
  {
    if |pieces| > 1 {
      JoinLacks(pieces[1..], sep, c);
      var rest := Join(pieces[1..], sep);
      var s := pieces[0] + sep + rest;
      assert Lacks(pieces[0], c);
      forall i | 0 <= i < |s| ensures s[i] != c {
        if i < |pieces[0]| { assert s[i] == pieces[0][i]; }
        else if i < |pieces[0]| + |sep| { assert s[i] == sep[i - |pieces[0]|]; }
        else { assert s[i] == rest[i - |pieces[0]| - |sep|]; }
      }
    } else if |pieces| == 1 {
      assert Lacks(pieces[0], c);
    }
  }

  /** The coordinate list of the written pairs, comma-separated. */
  function CoordList(lons: seq<string>, lats: seq<string>, sep: string): string
    requires |lons| == |lats|
  {
    Join(PairTexts(lons, lats), sep)
  }

  lemma CoordListFacts(lons: seq<string>, lats: seq<string>, pts: seq<Point>, parse: FloatParser, sep: string)
    requires Writes(lons, lats, pts, parse) && |pts| > 0 && |sep| > 0 && sep[0] == ','
    requires Lacks(sep, '(') && Lacks(sep, ')')
    ensures var c := CoordList(lons, lats, sep);
      |c| > 0 && Lacks(c, '(') && Lacks(c, ')')
      && SplitOn(c, sep) == PairTexts(lons, lats)
  {
    var texts := PairTexts(lons, lats);
    forall k | 0 <= k < |texts|
      ensures Lacks(texts[k], ',') && Lacks(texts[k], '(') && Lacks(texts[k], ')')
    {
      assert Writes(lons, lats, pts, parse);
      assert Token(lons[k]) && Token(lats[k]);
      PairTextLacks(lons[k], lats[k], ',');
      PairTextLacks(lons[k], lats[k], '(');
      PairTextLacks(lons[k], lats[k], ')');
    }
    JoinLacks(texts, sep, '(');
    JoinLacks(texts, sep, ')');
    SplitJoin(texts, sep);
    JoinNonEmpty(texts, sep);
  }

  lemma JoinNonEmpty(pieces: seq<string>, sep: string)
    requires |pieces| > 0 && |pieces[0]| > 0
    ensures |Join(pieces, sep)| > 0
  {
  }

  /** The 2GIS form of a line: `LINESTRING(lon lat,lon lat,...)`. */
  function LineText(lons: seq<string>, lats: seq<string>): string
    requires |lons| == |lats|
  {
    "LINESTRING(" + CoordList(lons, lats, ",") + ")"
  }

  /** The 2GIS form of a point: `POINT(lon lat)`. */
  function PointText(lon: string, lat: string): string
  {
    "POINT(" + PairText(lon, lat) + ")"
  }

  /** Where the group of a `WORD(...)` prefix is found. */
  lemma GroupOfPrefix(word: string, body: string, s: string)
    requires s == word + "(" + body + ")" && |body| > 0 && Lacks(body, ')')
    requires forall k :: 0 <= k < |word| ==> 'A' <= word[k] <= 'Z'
    ensures GroupAt(s, 0, word) == Some(body)
  {
    assert WordAt(s, 0, word) by {
      forall k | 0 <= k < |word| ensures UpperChar(s[k]) == word[k] {
        assert s[k] == word[k];
      }
    }
    var j := |word|;
    assert s[j] == '(' && !IsSpace(s[j]);
    assert SkipSpace(s, j) == j;
    var close := |s| - 1;
    assert OccursAt(s, ")", close);
    forall m | j + 1 <= m < close ensures !OccursAt(s, ")", m) {
      assert s[m] == body[m - j - 1];
      assert s[m..m + 1] == [s[m]];
    }
    assert FindFrom(s, ")", j + 1) == close;
    assert s[j + 1..close] == body;
  }

  /** Reading a written point gives that point back. */
  lemma ParsePointRoundTrip(lon: string, lat: string, p: Point, parse: FloatParser)
    requires Token(lon) && Token(lat) && parse(lon) == Some(p.lon) && parse(lat) == Some(p.lat)
    ensures ParseWkt(PointText(lon, lat), parse) == [p]
  {
    var body := PairText(lon, lat);
    var s := PointText(lon, lat);
    PairTextLacks(lon, lat, ')');
    GroupOfPrefix("POINT", body, s);
    assert Search(s, 0, "POINT") == Some(body);
    StripPair(lon, lat);
    SplitWsPair(lon, lat);
  }

  /** In a written line there is no `POINT(` for the first expression to find. */
  lemma NoPointInLine(lons: seq<string>, lats: seq<string>, body: string)
    requires |lons| == |lats| && body == CoordList(lons, lats, ",") && Lacks(body, '(')
    ensures Search(LineText(lons, lats), 0, "POINT").None?
  {
    var s := LineText(lons, lats);
    assert forall k :: 11 <= k < |s| ==> s[k] != '(' by {
      forall k | 11 <= k < |s| ensures s[k] != '(' {
        if k < |s| - 1 { assert s[k] == body[k - 11]; }
      }
    }
    forall i | 0 <= i <= |s| ensures GroupAt(s, i, "POINT").None? {
      if i <= 5 {
        var w := "LINESTRING";
        assert s[i + 1] == w[i + 1];
        assert 'A' <= s[i + 1] <= 'Z' && s[i + 1] != 'O';
        assert UpperChar(s[i + 1]) != "POINT"[1];
        assert !WordAt(s, i, "POINT");
      } else {
        var j := SkipSpace(s, i + 5);
        assert j >= 11;
      }
    }
    SearchNone(s, 0, "POINT");
  }

  lemma {:induction false} SearchNone(s: string, i: nat, word: string)
    requires forall k :: i <= k <= |s| ==> GroupAt(s, k, word).None?
    ensures Search(s, i, word).None?
    decreases |s| + 1 - i
  {
    if i <= |s| {
      SearchNone(s, i + 1, word);
    }
  }

  /** Reading a written line gives its points back, in order. */
  lemma ParseLineRoundTrip(lons: seq<string>, lats: seq<string>, pts: seq<Point>, parse: FloatParser)
    requires Writes(lons, lats, pts, parse) && |pts| > 0
    ensures ParseWkt(LineText(lons, lats), parse) == pts
  {
    LineBodyFound(lons, lats, pts, parse);
    CoordListFacts(lons, lats, pts, parse, ",");
    PairsOfTexts(lons, lats, pts, parse);
  }

  /** The `LINESTRING` search finds the written coordinate list. */
  lemma LineBodyFound(lons: seq<string>, lats: seq<string>, pts: seq<Point>, parse: FloatParser)
    requires Writes(lons, lats, pts, parse) && |pts| > 0
    ensures Search(LineText(lons, lats), 0, "POINT").None?
    ensures Search(LineText(lons, lats), 0, "LINESTRING") == Some(CoordList(lons, lats, ","))
  {
    var body := CoordList(lons, lats, ",");
    var s := LineText(lons, lats);
    CoordListFacts(lons, lats, pts, parse, ",");
    NoPointInLine(lons, lats, body);
    GroupOfPrefix("LINESTRING", body, s);
  }

  /** Reading a list is reading its parts. */
  lemma {:induction false} PairsOfConcat(a: seq<string>, b: seq<string>, parse: FloatParser)
    ensures PairsOf(a + b, parse) == PairsOf(a, parse) + PairsOf(b, parse)
    decreases |b|
  {
    if |b| == 0 {
      assert a + b == a;
    } else {
      var n := |b| - 1;
      var b0, x := b[..n], b[n];
      assert b == b0 + [x];
      assert a + b == (a + b0) + [x];
      PairsOfConcat(a, b0, parse);
      PairsOfSnoc(a + b0, x, parse);
      PairsOfSnoc(b0, x, parse);
    }
  }

  /** Pairs that fail to read are skipped, not fatal: the pairs after them still count. */
  lemma PairsOfSkips(good: seq<string>, bad: string, rest: seq<string>, parse: FloatParser)
    requires PairOf(bad, parse).None?
    ensures PairsOf(good + [bad] + rest, parse) == PairsOf(good, parse) + PairsOf(rest, parse)
  {
    PairsOfConcat(good + [bad], rest, parse);
    PairsOfSnoc(good, bad, parse);
  }

  // ---------------------------------------------------------------------------------------
  // `_parse_linestring` of the public transport client
  // ---------------------------------------------------------------------------------------

  /** `_parse_linestring(text)`: nothing unless the text mentions `LINESTRING`; a text that
      starts with it is cut to what lies between the first `(` and the last `)`. */
  function Polyline(line: string, parse: FloatParser): (r: seq<Point>)
    ensures !Contains(line, "LINESTRING") ==> r == []
  {
    if !Contains(line, "LINESTRING") then []
    else
      var text := Strip(line);
      var inner := if StartsWith(text, "LINESTRING") then Slice(text, Find(text, "(") + 1, RFind(text, ")")) else text;
      Pairs(inner, parse)
  }

  /** The first `(` and the last `)` of a written line are the outer ones. */
  lemma LineTextBrackets(lons: seq<string>, lats: seq<string>, body: string)
    requires |lons| == |lats| && body == CoordList(lons, lats, ",")
    requires Lacks(body, '(') && Lacks(body, ')')
    ensures var s := LineText(lons, lats);
      Find(s, "(") == 10 && RFind(s, ")") == |s| - 1 && s[11..|s| - 1] == body
  {
    var s := LineText(lons, lats);
    assert OccursAt(s, "(", 10) by { assert s[10..11] == "("; }
    forall j | 0 <= j < 10 ensures !OccursAt(s, "(", j) {
      assert s[j..j + 1] == [s[j]];
    }
    assert OccursAt(s, ")", |s| - 1) by { assert s[|s| - 1..|s|] == ")"; }
  }

  /** How `_parse_linestring` cuts a written line down to its coordinate list. */
  lemma PolylineInner(lons: seq<string>, lats: seq<string>, body: string)
    requires |lons| == |lats| && body == CoordList(lons, lats, ",")
    requires Lacks(body, '(') && Lacks(body, ')')
    ensures var s := LineText(lons, lats);
      Contains(s, "LINESTRING") && Strip(s) == s && StartsWith(s, "LINESTRING")
      && Slice(s, Find(s, "(") + 1, RFind(s, ")")) == body
  {
    var s := LineText(lons, lats);
    assert OccursAt(s, "LINESTRING", 0) by { assert s[..10] == "LINESTRING"; }
    ContainsAt(s, "LINESTRING", 0);
    assert s[0] == 'L' && s[|s| - 1] == ')';
    StripShape(s);
    LineTextBrackets(lons, lats, body);
  }

  /** The public transport client reads a written line back as its points. */
  lemma PolylineRoundTrip(lons: seq<string>, lats: seq<string>, pts: seq<Point>, parse: FloatParser)
    requires Writes(lons, lats, pts, parse) && |pts| > 0
    ensures Polyline(LineText(lons, lats), parse) == pts
  {
    var body := CoordList(lons, lats, ",");
    CoordListFacts(lons, lats, pts, parse, ",");
    PolylineInner(lons, lats, body);
    PairsOfTexts(lons, lats, pts, parse);
  }

  // ---------------------------------------------------------------------------------------
  // `parse_linestring` inside the routing client's `get_route`
  // ---------------------------------------------------------------------------------------

  /** The pair loop of the routing client: a piece with fewer than two space-separated parts
      is skipped, but the first unreadable number ends the whole parse (the `try` encloses the
      loop). */
  function RoutePairs(pieces: seq<string>, parse: FloatParser): (r: seq<Point>)
    ensures |r| <= |pieces|
    decreases |pieces|
  {
    if |pieces| == 0 then []
    else match RoutePiece(pieces[0], parse)
      case Skip => RoutePairs(pieces[1..], parse)
      case Keep(p) => [p] + RoutePairs(pieces[1..], parse)
      case Fail => []
  }

  /** What the routing client's loop does with one piece. */
  datatype PieceStep = Skip | Keep(p: Point) | Fail

  function RoutePiece(piece: string, parse: FloatParser): PieceStep
  {
    var parts := SplitOn(Strip(piece), " ");
    if |parts| < 2 then Skip
    else if parse(parts[0]).Some? && parse(parts[1]).Some? then
      Keep(Point(parse(parts[0]).value, parse(parts[1]).value))
    else Fail
  }

  /** `parse_linestring(wkt)` of the routing client: only text starting with `LINESTRING(` is
      read; its body is everything up to the last character, split on `", "`. */
  function RouteLine(line: string, parse: FloatParser): (r: seq<Point>)
    ensures !StartsWith(line, "LINESTRING(") ==> r == []
  {
    if StartsWith(line, "LINESTRING(") then RoutePairs(SplitOn(Slice(line, 11, -1), ", "), parse)
    else []
  }

  /** The routing client keeps only the pairs read before the first unreadable number. */
  lemma {:induction false} RoutePairsStop(good: seq<string>, bad: string, rest: seq<string>, parse: FloatParser)
    requires var parts := SplitOn(Strip(bad), " ");
      |parts| >= 2 && (parse(parts[0]).None? || parse(parts[1]).None?)
    ensures RoutePairs(good + ([bad] + rest), parse) == RoutePairs(good, parse)
    decreases |good|
  {
    assert RoutePiece(bad, parse) == Fail;
    var all := good + ([bad] + rest);
    if |good| == 0 {
      assert all == [bad] + rest;
      assert all[0] == bad;
    } else {
      var tail := good[1..] + ([bad] + rest);
      assert all[0] == good[0] && all[1..] == tail;
      RoutePairsStop(good[1..], bad, rest, parse);
      match RoutePiece(good[0], parse)
      case Skip =>
        assert RoutePairs(all, parse) == RoutePairs(tail, parse);
        assert RoutePairs(good, parse) == RoutePairs(good[1..], parse);
      case Keep(p) =>
        assert RoutePairs(all, parse) == [p] + RoutePairs(tail, parse);
        assert RoutePairs(good, parse) == [p] + RoutePairs(good[1..], parse);
      case Fail =>
    }
  }

  /** The routing client's form of a line: `LINESTRING(lon lat, lon lat, ...)`. */
  function RouteLineText(lons: seq<string>, lats: seq<string>): string
    requires |lons| == |lats|
  {
    "LINESTRING(" + CoordList(lons, lats, ", ") + ")"
  }

  lemma {:induction false} RoutePairsOfTexts(lons: seq<string>, lats: seq<string>, pts: seq<Point>, parse: FloatParser)
    requires Writes(lons, lats, pts, parse)
    ensures RoutePairs(PairTexts(lons, lats), parse) == pts
    decreases |pts|
  {
    if |pts| > 0 {
      FirstPairParses(lons, lats, pts, parse);
      WritesTail(lons, lats, pts, parse);
      PairTextsTail(lons, lats);
      RoutePairsOfTexts(lons[1..], lats[1..], pts[1..], parse);
      var texts := PairTexts(lons, lats);
      assert RoutePairs(texts, parse) == [pts[0]] + RoutePairs(texts[1..], parse);
      HeadTail(pts);
    }
  }

  /** The first written pair reads back as the first point. */
  lemma FirstPairParses(lons: seq<string>, lats: seq<string>, pts: seq<Point>, parse: FloatParser)
    requires Writes(lons, lats, pts, parse) && |pts| > 0
    ensures RoutePiece(PairTexts(lons, lats)[0], parse) == Keep(pts[0])
  {
    var t := PairTexts(lons, lats)[0];
    assert Token(lons[0]) && Token(lats[0]);
    assert t == PairText(lons[0], lats[0]);
    StripPair(lons[0], lats[0]);
    assert Lacks(lons[0], ' ') && Lacks(lats[0], ' ');
    SplitJoin([lons[0], lats[0]], " ");
    assert Join([lons[0], lats[0]], " ") == t;
  }

  /** The texts after the first write the points after the first. */
  lemma WritesTail(lons: seq<string>, lats: seq<string>, pts: seq<Point>, parse: FloatParser)
    requires Writes(lons, lats, pts, parse) && |pts| > 0
    ensures Writes(lons[1..], lats[1..], pts[1..], parse)
  {
    forall k | 0 <= k < |pts| - 1
      ensures Token(lons[1..][k]) && Token(lats[1..][k])
        && parse(lons[1..][k]) == Some(pts[1..][k].lon) && parse(lats[1..][k]) == Some(pts[1..][k].lat)
    {
      assert lons[1..][k] == lons[k + 1] && lats[1..][k] == lats[k + 1] && pts[1..][k] == pts[k + 1];
    }
  }

  lemma {:induction false} PairTextsTail(lons: seq<string>, lats: seq<string>)
    requires |lons| == |lats| > 0
    ensures PairTexts(lons, lats)[1..] == PairTexts(lons[1..], lats[1..])
  {
    var a := PairTexts(lons, lats)[1..];
    var b := PairTexts(lons[1..], lats[1..]);
    assert |a| == |b|;
    forall k | 0 <= k < |a| ensures a[k] == b[k] {
      assert a[k] == PairText(lons[k + 1], lats[k + 1]);
    }
  }

  /** The routing client reads its own line format back as the points. */
  lemma RouteLineRoundTrip(lons: seq<string>, lats: seq<string>, pts: seq<Point>, parse: FloatParser)
    requires Writes(lons, lats, pts, parse) && |pts| > 0
    ensures RouteLine(RouteLineText(lons, lats), parse) == pts
  {
    var body := CoordList(lons, lats, ", ");
    var s := RouteLineText(lons, lats);
    CoordListFacts(lons, lats, pts, parse, ", ");
    assert StartsWith(s, "LINESTRING(") by { assert s[..11] == "LINESTRING("; }
    assert Slice(s, 11, -1) == body;
    RoutePairsOfTexts(lons, lats, pts, parse);
  }
}

=== FILE: wrappers.dfy ===
/** Failure-carrying wrappers shared by every module of the model. */
module Wrappers {

  /** A value that may be absent: Python's `None` versus a present value. */
  datatype Option<+T> = None | Some(value: T) {
    /** The present value, or `d` when absent (Python's `x if x is not None else d`). */
    function GetOr(d: T): T {
      match this
      case Some(v) => v
      case None => d
    }
  }

  /** An HTTP-style outcome: a value, or a status code with a detail message. */
  datatype Result<+T> = Ok(value: T) | Err(status: int, detail: string)

  /** Apply `f` to every element and concatenate the pieces, in order; absent as soon as one
      piece is absent (a Python loop that raises on a bad element). */
  function FlatMapAll<A, T>(xs: seq<A>, f: A -> Option<seq<T>>): (r: Option<seq<T>>)
    ensures r.Some? <==> forall i :: 0 <= i < |xs| ==> f(xs[i]).Some?
    decreases |xs|
  {
    if |xs| == 0 then Some([])
    else
      var here := f(xs[0]);
      var rest := FlatMapAll(xs[1..], f);
      if here.None? || rest.None? then None else Some(here.value + rest.value)
  }

  /** Apply `f` to every element with its 1-based position, in order; absent as soon as one
      result is absent. */
  function MapNumbered<A, T>(xs: seq<A>, f: (A, nat) -> Option<T>): (r: Option<seq<T>>)
    ensures r.Some? <==> forall i :: 0 <= i < |xs| ==> f(xs[i], i + 1).Some?
    ensures r.Some? ==> |r.value| == |xs| && forall i :: 0 <= i < |xs| ==> f(xs[i], i + 1) == Some(r.value[i])
    decreases |xs|
  {
    if |xs| == 0 then Some([])
    else
      var init := xs[..|xs| - 1];
      var front := MapNumbered(init, f);
      var last := f(xs[|xs| - 1], |xs|);
      assert forall i :: 0 <= i < |init| ==> init[i] == xs[i];
      if front.None? || last.None? then None
      else
        var r := front.value + [last.value];
        assert forall i :: 0 <= i < |init| ==> r[i] == front.value[i];
        Some(r)
  }

  /** The pieces of consecutive runs are those of each run, in order. */
  lemma {:induction false} FlatMapAllConcat<A, T>(a: seq<A>, b: seq<A>, f: A -> Option<seq<T>>)
    requires FlatMapAll(a, f).Some? && FlatMapAll(b, f).Some?
    ensures FlatMapAll(a + b, f) == Some(FlatMapAll(a, f).value + FlatMapAll(b, f).value)
    decreases |a|
  {
    if |a| == 0 {
      assert a + b == b;
      assert [] + FlatMapAll(b, f).value == FlatMapAll(b, f).value;
    } else {
      assert (a + b)[0] == a[0];
      assert (a + b)[1..] == a[1..] + b;
      FlatMapAllConcat(a[1..], b, f);
      var h, tail, pb := f(a[0]).value, FlatMapAll(a[1..], f).value, FlatMapAll(b, f).value;
      assert h + (tail + pb) == (h + tail) + pb;
    }
  }

  /** When no piece has more than one element, the result is no longer than the input. */
  lemma {:induction false} FlatMapAllShort<A, T>(xs: seq<A>, f: A -> Option<seq<T>>)
    requires forall i :: 0 <= i < |xs| && f(xs[i]).Some? ==> |f(xs[i]).value| <= 1
    ensures FlatMapAll(xs, f).Some? ==> |FlatMapAll(xs, f).value| <= |xs|
    decreases |xs|
  {
    if |xs| > 0 {
      FlatMapAllShort(xs[1..], f);
    }
  }

  /** Every element of the result comes from some piece: a property of every piece's
      elements holds of the result's. */
  lemma {:induction false} FlatMapAllEvery<A, T>(xs: seq<A>, f: A -> Option<seq<T>>, p: T -> bool)
    requires forall i, j :: 0 <= i < |xs| && f(xs[i]).Some? && 0 <= j < |f(xs[i]).value| ==> p(f(xs[i]).value[j])
    ensures FlatMapAll(xs, f).Some? ==> forall j :: 0 <= j < |FlatMapAll(xs, f).value| ==> p(FlatMapAll(xs, f).value[j])
    decreases |xs|
  {
    if |xs| > 0 {
      FlatMapAllEvery(xs[1..], f, p);
      if FlatMapAll(xs, f).Some? {
        var h, rest := f(xs[0]).value, FlatMapAll(xs[1..], f).value;
        assert FlatMapAll(xs, f).value == h + rest;
        forall j | 0 <= j < |h + rest|
          ensures p((h + rest)[j])
        {
          if j < |h| {
            assert p(f(xs[0]).value[j]);
          } else {
            assert (h + rest)[j] == rest[j - |h|];
          }
        }
      }
    }
  }
}
